=== FILE: README.md ===
# ankor-training-be, modelled in Dafny

This project models the deterministic core of the ANKOR training backend:
a set of Deno/Supabase edge functions that serve a sports-training API
(organizations, athletes, coaches, parents, drills, skills, practice plans,
scorecard templates and evaluations). Every database, auth or storage
call is an input to the model: a value the handler receives, or an
abstract function of the ids the query filters on. What remains is modelled
and proved:

- **Routing.** The two segment routers (`functions/api/routes/router.ts`
  with its middleware chain, `supabase/functions/api/routes/router.ts`
  without) are classes over a sequence of routes. The older exact-key
  router (`functions/api/router.ts`) is a class over a map.
- **Access decisions.** The RFC 4122 UUID pattern, Bearer-token
  extraction (section 2.1 of RFC 6750), the org-role rule and every guard
  of `utils/guards.ts`. Each guard is a decision function plus a method
  that writes the request context.
- **Evaluations.** The matrix update runs over a map keyed by (evaluation,
  athlete, subskill). Also modelled: the idempotent submit, the
  workout-progress counter, the listing functions (de-duplicate, sort,
  page, join), the bulk-create validators and the detail DTO.
- **Media storage.** File-name sanitising, extension inference,
  storage-URL parsing, storage-reference resolution and sort-order
  defaults.
- **Payload normalisation and validation.** The Zod schemas are values of
  a small schema interpreter, `Zod.Parse`. The DTO normalisers, the plan
  item rows and invitations, the people patches and full names, the
  scorecard-template normalisation and its three controllers, and the
  sign-up and login handlers.

Numbers that the source coerces with `Number(…)` are rationals with a
distinct NaN/±Infinity case. `localeCompare` is an abstract total
preorder. `crypto.randomUUID()`, `decodeURIComponent`, `Date.parse`,
`parseInt`, `.email()` and `.url()` are parameters.

## Model

| member | source | states |
|---|---|---|
| Uuid.IsUuid | supabase/functions/api/utils/uuid.ts:4-6 | null, undefined and "" are rejected; an accepted string has 36 characters |
| Uuid.MatchesUuidIffSlots | supabase/functions/api/utils/uuid.ts:1-2 | the pattern accepts exactly the 36-character strings with '-' at 8, 13, 18, 23, a version digit 1–5 at 14, a variant digit 8/9/a/b at 19 and hex digits elsewhere |
| Uuid.SlotOkLower | supabase/functions/api/utils/uuid.ts:2 | lower-casing a character never changes whether it fits a slot of the pattern |
| Uuid.MatchesUuidCaseInsensitive | supabase/functions/api/utils/uuid.ts:2 | the `i` flag: a string is accepted iff its lower-cased form is |
| Uuid.NilUuidRejected | supabase/functions/api/utils/uuid.ts:2 | the all-zero UUID is rejected (version digit 0) |
| Uuid.SampleAccepted | supabase/functions/api/utils/uuid.ts:4-6 | an illustration: an upper-case version-4 UUID is accepted, so the pattern is case-insensitive |
| Auth.BearerToken | supabase/functions/api/utils/auth.ts:13-18 | a token is never blank and has no surrounding white space |
| Auth.AfterScheme | supabase/functions/api/utils/auth.ts:15-17 | what follows the scheme yields a trimmed, non-blank token or none |
| Auth.OneLineSuffix | supabase/functions/api/utils/auth.ts:15 | a suffix of a text without line terminators has none (the `.` of the pattern) |
| Auth.AfterSchemeOfSplit | supabase/functions/api/utils/auth.ts:15-17 | white space then a one-line rest gives the trimmed rest, or null when it is blank |
| Auth.BearerTokenOfMatch | supabase/functions/api/utils/auth.ts:15-17 | wherever `/^Bearer\s+(.+)$/i` matches, the token is the trimmed capture, or null when blank |
| Auth.BearerTokenMatched | supabase/functions/api/utils/auth.ts:15-17 | every token comes from a match of the pattern, as its trimmed capture |
| Auth.BearerTokenNeedsScheme | supabase/functions/api/utils/auth.ts:14-16 | an absent header, or one not starting with "bearer" in any case, gives no token |
| Auth.ParseRole | supabase/functions/api/utils/auth.ts:5 | a recognised role is named by exactly the text given (also line 79) |
| Auth.ParseRoleName | supabase/functions/api/utils/auth.ts:5 | each of the five roles is recognised from its own name (also line 79) |
| Auth.RoleAccessRule | supabase/functions/api/utils/auth.ts:20-22 | owner and admin always pass; any other role passes iff it is in the allowed list (also lines 83-86) |
| Auth.RoleAccessMonotone | supabase/functions/api/utils/auth.ts:83-86 | enlarging the allowed list never removes access |
| Auth.GetOrgRole | supabase/functions/api/utils/auth.ts:63-81 | a role is found only for an active membership with a role, and it is the role the row names |
| Auth.RequireOrgRole | supabase/functions/api/utils/auth.ts:88-101 | granted iff the membership role has access; no role is 403 "No access to this organization", a role without access is 403 "Insufficient role for this action" |
| Auth.RequireAuthUser | supabase/functions/api/utils/auth.ts:24-42 | authenticated iff there is a token, the auth client exists and the token's user is found; that user is returned; every failure is a 401, a missing token "Missing bearer token" |
| Auth.EnsureUser | supabase/functions/api/utils/auth.ts:44-53 | a user already in the context is returned and kept; otherwise the result is that of authentication, and `ctx.user` is set only on success; org fields unchanged |
| Auth.AuthMiddleware | supabase/functions/api/utils/auth.ts:55-61 | passes iff the context ends with a user; a failure is a 401 and leaves no user; org fields unchanged |
| Context.RequestContext.constructor | functions/api/routes/router.ts:7-11 | a new context is `{}`: no user, org id or org role (also line 132) |
| Guards.ResponseOf | supabase/functions/api/utils/guards.ts:16-30 | a guard returns a response exactly when it rejects |
| Guards.AfterGuard | supabase/functions/api/utils/guards.ts:28-29 | only a grant writes the context, and only `org_id` and `org_role`; the user is never changed (also lines 60-61, 102-103, 160-161, 222-223) |
| Guards.Check | supabase/functions/api/utils/guards.ts:25-29 | grants exactly when `requireOrgRole` grants, with that role; otherwise a 403 |
| Guards.FromQuery | supabase/functions/api/utils/guards.ts:12-31 | a non-UUID trimmed parameter is 400 before any user check; no user is 401; a grant needs the role and carries the trimmed org id; the guard never passes without a grant |
| Guards.OrgRoleGuardFromQuery | supabase/functions/api/utils/guards.ts:12-31 | returns the decision's response and writes the context exactly as the decision says |
| Guards.FromBody | supabase/functions/api/utils/guards.ts:34-63 | a non-object body is 400; an absent or null key passes only with `allowNull` or `optional`; a non-string or non-UUID value is 400; a UUID string without a user is 401; the guard grants exactly when the value is a UUID string, there is a user and that user's role is allowed there, carrying the body's org id |
| Guards.OrgRoleGuardFromBody | supabase/functions/api/utils/guards.ts:34-63 | returns the decision's response and writes the context exactly as the decision says |
| Guards.OrgIds | supabase/functions/api/utils/guards.ts:79-86 | the trimmed, non-blank string org ids of the evaluations, in order |
| Guards.OneDistinctIffSingletonSet | supabase/functions/api/utils/guards.ts:87 | `new Set(ids).size === 1` holds exactly when the ids are non-empty and all equal |
| Guards.SubsetCard | supabase/functions/api/utils/guards.ts:87 | a subset is no larger than its superset (used for the set-size rule) |
| Guards.BulkOrg | supabase/functions/api/utils/guards.ts:66-105 | the three 400s in order: no non-empty `evaluations` array, more than one distinct org id, an org id that is not a UUID; then 401 without a user; the guard grants exactly when all of these pass and the user's role is allowed in that org, and never passes without a grant |
| Guards.EvaluationBulkOrgGuard | supabase/functions/api/utils/guards.ts:66-105 | returns the decision's response and writes the context exactly as the decision says |
| Guards.UserQuery | supabase/functions/api/utils/guards.ts:108-129 | passes iff the parameter is blank and `allowMissing`, or is a UUID equal to the authenticated user's id; never grants |
| Guards.UserQueryGuard | supabase/functions/api/utils/guards.ts:108-129 | returns the decision's response; the context is not written |
| Guards.PlanPreamble | supabase/functions/api/utils/guards.ts:134-149 | getting past it needs a UUID plan id, a user and a plan that exists |
| Guards.PlanRead | supabase/functions/api/utils/guards.ts:132-166 | preamble failures answer first; then the owner passes, a member (lookup `true`) passes, a failed member lookup is 500 with its message, a non-member of a plan with an org gets the coach role check of that org, and anyone else is 403 |
| Guards.PlanWrite | supabase/functions/api/utils/guards.ts:169-199 | the same order without the member branch: preamble failures first, then the owner passes, anyone else gets the coach role check of the plan's org, or 403 when the plan has no org |
| Guards.MembersReadButDoNotWrite | supabase/functions/api/utils/guards.ts:151-155 | a plain plan member may read the plan but is refused writing (also lines 188-198) |
| Guards.WriteImpliesRead | supabase/functions/api/utils/guards.ts:132-199 | whoever may write a plan may read it, with the same outcome |
| Guards.PlanReadGuard | supabase/functions/api/utils/guards.ts:132-166 | returns the decision's response and writes the context exactly as the decision says |
| Guards.PlanWriteGuard | supabase/functions/api/utils/guards.ts:169-199 | returns the decision's response and writes the context exactly as the decision says |
| Guards.PlanCreate | supabase/functions/api/utils/guards.ts:202-226 | a non-object body is 400; it passes without a role check iff org_id is absent, null or ""; any other non-UUID org_id is 400 "org_id (UUID) is required"; a UUID org_id without a user is 401; with a user it is the coach check of that org; the guard grants exactly when org_id is a UUID string, there is a user and the coach check grants |
| Guards.PlanCreateGuard | supabase/functions/api/utils/guards.ts:202-226 | returns the decision's response and writes the context exactly as the decision says |
| Paths.StripLeadingSlashes | functions/api/routes/router.ts:35 | `^\/+`: only leading slashes are removed, and the rest no longer starts with one |
| Paths.StripTrailingSlashes | functions/api/routes/router.ts:35 | `\/+$`: only trailing slashes are removed, and the rest no longer ends with one |
| Paths.NormalizePath | functions/api/routes/router.ts:34-36 | the result neither starts nor ends with '/' |
| Paths.NormalizePathSlice | functions/api/routes/router.ts:34-36 | the result is a contiguous slice of the path with only slashes cut off at the two ends |
| Paths.StripLeadingIdle | functions/api/routes/router.ts:35 | a path that does not start with '/' loses nothing at its front |
| Paths.NormalizePathIdempotent | functions/api/routes/router.ts:34-36 | normalising twice is normalising once |
| Paths.NormalizePathKeepsInner | functions/api/routes/router.ts:34-36 | a path with no slash at either end is already normal; inner slashes are kept |
| Paths.StripLeadingSegments | functions/api/routes/router.ts:43-44 | dropping leading slashes does not change the non-empty segments |
| Paths.StripTrailingSegments | functions/api/routes/router.ts:43-44 | dropping trailing slashes does not change the non-empty segments |
| Paths.SegmentsIgnoreNormalize | functions/api/routes/router.ts:43-44 | `split("/").filter(Boolean)` after normalising gives the same segments as before |
| Paths.CollapseSlashes | functions/api/routes/router.ts:88 | `replace(/\/+/g, "/")`: no two slashes in a row remain, and the characters other than '/' are kept |
| Paths.CollapseSplit | functions/api/routes/router.ts:88 | collapsing a text followed by slashes then more text splits where the slashes were |
| Paths.CollapseSegments | functions/api/routes/router.ts:88 | collapsing runs of slashes never changes the non-empty segments |
| Paths.JoinedSegments | functions/api/routes/router.ts:87-89 | `${base}/${path}` collapsed has the segments of base followed by those of path |
| Paths.MountPathSegments | functions/api/routes/router.ts:77-99 | a mounted path's segments are the prefix's then the child's ("scorecard" + "list" is "scorecard/list") |
| Paths.BindPrefixParam | functions/api/routes/router.ts:53-55 | a `:name` segment that no later segment rebinds ends holding its decoded request segment |
| Paths.BindPrefixOther | functions/api/routes/router.ts:53-55 | keys that no `:name` segment names are neither added nor changed |
| Paths.MatchPath | functions/api/routes/router.ts:38-62 | the outcome is `MatchOf` of the two segment lists: true, false, or the URIError `decodeURIComponent` throws; `params` holds the bindings made up to where the loop stopped, all of them on success |
| Paths.StopAt | functions/api/routes/router.ts:49-59 | the loop stops at the first segment that is an unequal literal or an undecodable parameter, every segment before it passing; at the end when there is none |
| Paths.MatchOf | functions/api/routes/router.ts:38-62 | true iff the segment lists match and every parameter decodes; a throw iff, with equal counts, some parameter fails to decode with every segment before it passing; false iff the counts differ or an unequal literal comes first |
| Paths.StopAtUnique | functions/api/routes/router.ts:49-59 | a failing segment with every segment before it passing is where the loop stops; it runs to the end iff the lists match and every parameter decodes |
| Paths.PassAllDecodes | functions/api/routes/router.ts:53-55 | segments that all pass have all their parameters decoded |
| Paths.DecodableNeverThrows | functions/api/routes/router.ts:53-55 | when every request segment decodes, nothing is thrown and the route matches iff the segments match |
| Paths.MismatchBeforeMalformed | functions/api/routes/router.ts:56-57 | an unequal literal before an undecodable parameter returns false instead of throwing |
| Paths.SegmentCountMismatch | functions/api/routes/router.ts:46-47 | different numbers of non-empty segments never match |
| PathRouter.MountedStep | functions/api/routes/router.ts:86-98 | one more child route mounts one more route at the end |
| PathRouter.MountedAt | functions/api/routes/router.ts:86-98 | the k-th mounted route is the k-th child route mounted, and there are as many as child routes |
| PathRouter.MountedLength | functions/api/routes/router.ts:86-98 | one route is mounted per child route |
| PathRouter.Router.constructor | functions/api/routes/router.ts:65 | a new router has no routes |
| PathRouter.Router.Add | functions/api/routes/router.ts:67-75 | one route appended with the method upper-cased and the path normalised; earlier routes untouched |
| PathRouter.Router.Use | functions/api/routes/router.ts:83-99 | one route per child route, in order, under the normalised prefix (an empty child path becomes the prefix), parent middlewares ahead of the child's; the child is unchanged |
| PathRouter.Router.GetRoutes | functions/api/routes/router.ts:101-103 | a copy of the route list; nothing changes |
| PathRouter.Router.Handle | functions/api/routes/router.ts:105-164 | OPTIONS answers 200 for any path; otherwise the first route in registration order that does not mismatch decides: a match answers through its middleware chain, an undecodable parameter throws the URIError; null when none matches |
| PathRouter.RunRoute | functions/api/routes/router.ts:132-148 | the middlewares in order, then the handler, answer as the chain specification says |
| PathRouter.DispatchFirstMalformed | functions/api/routes/router.ts:126-130 | an undecodable parameter in the first route that does not mismatch throws, whatever routes follow it |
| PathRouter.MountedSegments | functions/api/routes/router.ts:83-99 | every mounted route's segments are the prefix's followed by the child route's |
| PathRouter.DispatchFirstMatch | functions/api/routes/router.ts:126-130 | the first matching route answers, whatever routes follow it |
| PathRouter.DispatchNone | functions/api/routes/router.ts:126-163 | dispatch answers null, without throwing, exactly when every route mismatches method or path |
| PathRouter.ChainStopsAtFirstResponse | functions/api/routes/router.ts:132-145 | the chain stops at the first middleware that answers, and the handler is not called |
| PathRouter.ChainReachesHandler | functions/api/routes/router.ts:132-148 | when no middleware answers, the handler gets the same params and the context the middlewares left |
| LegacyRouter.MountedStep | supabase/functions/api/routes/router.ts:70-80 | one more child route mounts one more route at the end |
| LegacyRouter.AsPathRoutes | supabase/functions/api/routes/router.ts:13-17 | each route, in order, is the same route of the newer router with no middlewares |
| LegacyRouter.DispatchAsPathRouter | supabase/functions/api/routes/router.ts:108-130 | dispatching here is dispatching in the newer router with empty middleware lists |
| LegacyRouter.DispatchFirstMatch | supabase/functions/api/routes/router.ts:108-115 | the first matching route answers, whatever routes follow it |
| LegacyRouter.DispatchNone | supabase/functions/api/routes/router.ts:108-130 | dispatch answers null, without throwing, exactly when every route mismatches |
| LegacyRouter.Router.constructor | supabase/functions/api/routes/router.ts:50 | a new router has no routes |
| LegacyRouter.Router.Add | supabase/functions/api/routes/router.ts:52-59 | one route appended with the method upper-cased and the path normalised; earlier routes untouched |
| LegacyRouter.Router.Use | supabase/functions/api/routes/router.ts:67-81 | each child route, in order, under the normalised prefix; an empty child path becomes the prefix |
| LegacyRouter.Router.GetRoutes | supabase/functions/api/routes/router.ts:83-85 | a copy of the route list; nothing changes |
| LegacyRouter.Router.Handle | supabase/functions/api/routes/router.ts:87-131 | OPTIONS answers 200 for any path; otherwise the first route that does not mismatch decides: a match answers with fresh params, an undecodable parameter throws the URIError (line 40); null when none matches |
| KeyRouter.KeyIgnoresMethodCase | functions/api/router.ts:19-21 | methods with the same upper-case form give the same key |
| KeyRouter.KeyLayout | functions/api/router.ts:19-21 | the key is the upper-cased method, one space and the path, when neither has white space at its outer end |
| KeyRouter.KeyExact | functions/api/router.ts:6-16 | two such paths share a key only when they are the same string, so "/drills" and "drills" differ |
| KeyRouter.Router.constructor | functions/api/router.ts:4 | a new router has an empty map |
| KeyRouter.Router.Add | functions/api/router.ts:6-9 | `Map.set` under the key: that key gets the new handler, other keys are untouched |
| KeyRouter.Router.Handle | functions/api/router.ts:11-17 | the handler stored under the exact key answers; undefined when there is none |
| EvaluationParsing.OptionalText | supabase/functions/api/controllers/evaluations.controller.ts:135-138 | `null` exactly for `undefined` or `null`; a string is kept as it is |
| EvaluationParsing.ParseItem | supabase/functions/api/controllers/evaluations.controller.ts:93-140 | an item is accepted iff it is an object with a non-empty string athlete_id (current handler only), a non-empty string skill_id and a finite rating in [1, 5]; the accepted item carries those values; a non-object fails with "... must be an object" |
| EvaluationParsing.ParseItems | supabase/functions/api/controllers/evaluations.controller.ts:185-188 | every item parsed, in order, or the failure of one of them |
| EvaluationParsing.FirstMissing | supabase/functions/api/controllers/evaluations.controller.ts:157-168 | none iff every required field is present and not null; otherwise a required field that is missing |
| EvaluationParsing.TeamIdOf | supabase/functions/api/controllers/evaluations.controller.ts:190-193 | `team_id` is null exactly for undefined, null or ""; a non-empty string is kept |
| EvaluationParsing.StringOf | supabase/functions/api/controllers/evaluations.controller.ts:196-198 | `String(v)` of a string is that string |
| EvaluationParsing.ItemsArray | supabase/functions/api/controllers/evaluations.controller.ts:170-183 | the items only when `evaluation_items` is a non-empty array |
| EvaluationParsing.CheckEvaluation | supabase/functions/api/controllers/evaluations.controller.ts:150-183 | passes iff an object with every required field and a non-empty items array, checked in that order with the matching messages |
| EvaluationParsing.ParseEvaluation | supabase/functions/api/controllers/evaluations.controller.ts:150-199 | an accepted evaluation passed the checks and parsed every item; a failed check is the result |
| EvaluationParsing.ParsedFields | functions/api/controllers/evaluations.controller.ts:63-104 | a parsed evaluation carries the fields' string forms; the current handler takes an optional team and no athlete, the older one the athlete and no team |
| EvaluationParsing.ParseEvaluations | supabase/functions/api/controllers/evaluations.controller.ts:223-226 | a successful payload yields one evaluation per input evaluation |
| EvaluationParsing.ParseEvaluationsAt | supabase/functions/api/controllers/evaluations.controller.ts:223-226 | a successful payload holds, in order, each evaluation as it parses on its own |
| EvaluationParsing.ParseEvaluationsFailure | supabase/functions/api/controllers/evaluations.controller.ts:223-226 | a failed payload reports the failure of one of its evaluations |
| EvaluationParsing.BulkCreate | supabase/functions/api/controllers/evaluations.controller.ts:203-244 | a method other than POST is a 405 naming POST; a body without an `evaluations` array is a 400; a validation failure is a 500 carrying its message, never a 400; a failed create is a 500 carrying its message; the reply is 201 exactly when the array is present and both parsing and the create succeed, and then it counts the created rows |
| EvaluationParsing.CurrentItemsStricter | functions/api/controllers/evaluations.controller.ts:18-60 | the two handlers agree on items except that the current one also demands the athlete |
| EvaluationParsing.MapCreatedRow | supabase/functions/api/services/evaluations.service.ts:159-189 | `template_id` becomes `scorecard_template_id`, `teams_id` becomes `team_id`, other columns are kept, and the items are mapped |
| EvaluationParsing.RenameRoundTrip | supabase/functions/api/services/evaluations.service.ts:161-186 | renaming back restores a row that had no column of the new name |
| EvaluationParsing.CreatedItemsOneToOne | supabase/functions/api/services/evaluations.service.ts:169-178 | the created items keep their number and order, each with `subskill_id` as `skill_id` and `comment` as `comments` |
| EvaluationParsing.Qp | supabase/functions/api/controllers/evaluations.controller.ts:66-70 | the trimmed value, absent exactly when missing or blank |
| EvaluationParsing.ClampLimit | supabase/functions/api/controllers/evaluations.controller.ts:343-348 | a parsed limit is clamped into [1, 200] and kept when already there; an unparsable one is the default |
| EvaluationParsing.ClampOffset | supabase/functions/api/controllers/evaluations.controller.ts:344-349 | a parsed offset of at least 0 is kept; a negative or unparsable one is 0 |
| EvaluationParsing.LimitsInRange | supabase/functions/api/controllers/evaluations.controller.ts:345-348 | every limit the endpoints use, defaulted or clamped, lies in [1, 200] (also lines 416-419, 487-490) |
| EvaluationParsing.OrgParam | supabase/functions/api/controllers/evaluations.controller.ts:582 | the context's org id wins over the query's; neither gives "" |
| EvaluationParsing.CategoryRows | supabase/functions/api/controllers/evaluations.controller.ts:622-623 | only rows that name a category are grouped |
| EvaluationParsing.GroupRatings | supabase/functions/api/controllers/evaluations.controller.ts:617-647 | one category per distinct category id |
| EvaluationParsing.NoSubskillsWithoutRows | supabase/functions/api/controllers/evaluations.controller.ts:622-644 | a category no row names gets no subskill |
| EvaluationParsing.KeysStep | supabase/functions/api/controllers/evaluations.controller.ts:624-633 | one more row adds its category, if it names one, to the known categories |
| EvaluationParsing.SubskillsStep | supabase/functions/api/controllers/evaluations.controller.ts:635-644 | one more row adds at most one subskill, to its own category |
| EvaluationParsing.HeadIds | supabase/functions/api/controllers/evaluations.controller.ts:626-633 | the categories carry known, non-empty category ids |
| EvaluationParsing.GroupStepSkip | supabase/functions/api/controllers/evaluations.controller.ts:623 | a row without a category changes nothing |
| EvaluationParsing.GroupStepExisting | supabase/functions/api/controllers/evaluations.controller.ts:625-644 | a row of a known category adds its subskill to that category only |
| EvaluationParsing.GroupStepNew | supabase/functions/api/controllers/evaluations.controller.ts:626-633 | a row of a new category appends that category, named by the row |
| EvaluationParsing.GroupSubskillRatings | supabase/functions/api/controllers/evaluations.controller.ts:617-653 | the loop's map equals the grouping specification, and the count is its length |
| EvaluationParsing.GroupRatingsCategories | supabase/functions/api/controllers/evaluations.controller.ts:617-647 | each category appears once, and every row naming a category brings it, even when its rating is not a number |
| EvaluationParsing.CategoryRowsHas | supabase/functions/api/controllers/evaluations.controller.ts:622-633 | every row naming a category makes that category known |
| EvaluationParsing.MatrixRequestOf | supabase/functions/api/controllers/evaluations.controller.ts:884-923 | the checks run in order, each a 400 with its own message: an evaluation id before the last segment, an `operations` array, a UUID org_id string, a non-empty `operations`; once all pass, the path's id (overriding the body's) and the org id are accepted |
| EvaluationParsing.MatrixChecksInOrder | supabase/functions/api/controllers/evaluations.controller.ts:906-918 | the org id is checked before emptiness: empty operations with any org id that is not a UUID string (missing, a number, other text) report the org id |
| EvaluationParsing.SubmitId | supabase/functions/api/controllers/evaluations.controller.ts:950-961 | a non-empty route parameter wins; any id found is non-empty |
| EvaluationParsing.SubmitIdFromPath | supabase/functions/api/controllers/evaluations.controller.ts:954-961 | without a parameter, paths ending in ID/submit and in ID both name ID |
| EvaluationDto.ItemDtos | functions/api/dtos/evaluations.dto.ts:53-77 | one response item per raw item, in order |
| EvaluationDto.ItemDtosSnoc | functions/api/dtos/evaluations.dto.ts:53-77 | one more raw item adds one response item at the end |
| EvaluationDto.AthleteEntry | functions/api/dtos/evaluations.dto.ts:55-63 | an item contributes an athlete when its embedded athlete is truthy and has a non-empty string id |
| EvaluationDto.TemplateOf | functions/api/dtos/evaluations.dto.ts:47-48 | `scorecard_templates ?? template ?? templates ?? null` |
| EvaluationDto.AthleteListFirstByKey | functions/api/dtos/evaluations.dto.ts:51 | the athlete map keeps the first athlete of each id (also lines 57-63, 100) |
| EvaluationDto.MapItems | functions/api/dtos/evaluations.dto.ts:53-77 | the loop's items and athlete map equal their specifications |
| EvaluationDto.ToEvaluationDetail | functions/api/dtos/evaluations.dto.ts:45-103 | equals the detail specification (items, athletes, template and team fallbacks) that the lemmas below characterise |
| EvaluationDto.ItemsOneToOne | functions/api/dtos/evaluations.dto.ts:53-77 | the items correspond one to one with the raw items, in order |
| EvaluationDto.ItemFields | functions/api/dtos/evaluations.dto.ts:65-75 | each response item carries its row's id, athlete, subskill and rating |
| EvaluationDto.AthleteEntriesSound | functions/api/dtos/evaluations.dto.ts:57-63 | every listed athlete is the athlete of some item |
| EvaluationDto.AthletesDistinct | functions/api/dtos/evaluations.dto.ts:57 | the athlete list holds each athlete id once |
| EvaluationDto.AthletesComplete | functions/api/dtos/evaluations.dto.ts:57-63 | every athlete of an item is listed |
| EvaluationDto.AthletesFirstWins | functions/api/dtos/evaluations.dto.ts:57-63 | each listed athlete is that of the first item with its id, so the first occurrence supplies the names |
| EvaluationDto.TemplateFallback | functions/api/dtos/evaluations.dto.ts:47-48 | the template falls back from `scorecard_templates` to `template` to `templates` (also line 93) |
| EvaluationDto.ItemNullDefaults | functions/api/dtos/evaluations.dto.ts:69-73 | an item without a comment has a null comment, one without an athlete null names |
| EvaluationDto.NullDefaults | functions/api/dtos/evaluations.dto.ts:85-97 | missing optional fields become null |
| EvaluationJoins.RawOfItems | supabase/functions/api/services/evaluations.service.ts:497-506 | items without a subskill are skipped; every raw item has a subskill and the row's creation time |
| EvaluationJoins.RawItems | supabase/functions/api/services/evaluations.service.ts:488-507 | every raw item of every row has a subskill |
| EvaluationJoins.CollectRawItems | supabase/functions/api/services/evaluations.service.ts:481-507 | the nested loop collects exactly the raw items of the rows, in order |
| EvaluationJoins.IdSet | supabase/functions/api/services/evaluations.service.ts:530-536 | the set holds exactly the ids that are non-empty strings |
| EvaluationJoins.CollectNames | supabase/functions/api/services/evaluations.service.ts:551-556 | the loop's map equals the name specification |
| EvaluationJoins.NamesByIdLastWins | supabase/functions/api/services/evaluations.service.ts:551-556 | a skill id is known iff some row carries it, and its name is that of the last such row (`Map.set` overwrites) |
| EvaluationJoins.Joined | supabase/functions/api/services/evaluations.service.ts:558-567 | only items whose subskill is a scorecard subskill with a known skill are joined, with that skill's name |
| EvaluationJoins.ListImprovementSkills | supabase/functions/api/services/evaluations.service.ts:444-582 | no raw item or no subskill id gives an empty answer; otherwise one page of the joined items sorted newest first, each replied without `created_at`, with the number joined |
| EvaluationJoins.ImprovementReply | supabase/functions/api/services/evaluations.service.ts:577-578 | one reply row per row, in order, with every field but the sort key `created_at` |
| EvaluationJoins.JoinedMembers | supabase/functions/api/services/evaluations.service.ts:558-567 | an item is joined iff its subskill is known and named; when all are, none is dropped |
| EvaluationJoins.VideosBySkillFilter | supabase/functions/api/services/evaluations.service.ts:710-718 | a skill has a video list iff some row names it, with one entry per such row |
| EvaluationJoins.ExpandVideos | supabase/functions/api/services/evaluations.service.ts:726-738 | one result per video of the item's skill, in order, carrying the item's fields |
| EvaluationJoins.CollectVideos | supabase/functions/api/services/evaluations.service.ts:710-718 | the loop's map equals the video-list specification |
| EvaluationJoins.ListSkillVideos | supabase/functions/api/services/evaluations.service.ts:584-752 | no raw item, no subskill id or no titled skill gives an empty answer; otherwise every (item, video) result sorted newest first, each replied without `created_at`, with their number |
| EvaluationJoins.VideoReply | supabase/functions/api/services/evaluations.service.ts:747-748 | one reply row per result, in order, with every field but the sort key `created_at` |
| EvaluationJoins.VideoResultsSound | supabase/functions/api/services/evaluations.service.ts:720-739 | each result pairs a rated, known, titled skill with one of that skill's videos |
| EvaluationJoins.CategoriesDistinct | supabase/functions/api/services/evaluations.service.ts:838-850 | the categories recorded for a skill are distinct (a `Set`) |
| EvaluationJoins.CategoriesMembers | supabase/functions/api/services/evaluations.service.ts:838-850 | a category is listed for a skill iff some row pairs them, both ids non-empty strings |
| EvaluationJoins.CategoryResults | supabase/functions/api/services/evaluations.service.ts:894-905 | one result per category of the skill that has a name, carrying the item's skill, title and rating |
| EvaluationJoins.CollectCategories | supabase/functions/api/services/evaluations.service.ts:838-850 | the loop's map equals the category specification |
| EvaluationJoins.ListSubskillRatings | supabase/functions/api/services/evaluations.service.ts:754-919 | no raw item or no skill with a category gives an empty answer; otherwise every (item, category) result sorted newest first, each replied without `created_at`, with their number |
| EvaluationJoins.RatingReply | supabase/functions/api/services/evaluations.service.ts:914-915 | one reply row per result, in order, with every field but the sort key `created_at` |
| EvaluationJoins.RatingResultsSound | supabase/functions/api/services/evaluations.service.ts:888-906 | each result pairs a rated item with a named category of its skill, and the skill has a title |
| EvaluationJoins.RatingsNewestFirst | supabase/functions/api/services/evaluations.service.ts:908-912 | the ratings are ordered newest first and none is lost by the sort |
| EvaluationLists.Candidate | supabase/functions/api/services/evaluations.service.ts:325-345 | a row counts only with an evaluation of the organization (or of none stated) and both ids, the athlete defaulting to the requested one |
| EvaluationLists.Candidates | supabase/functions/api/services/evaluations.service.ts:325-346 | at most one candidate per row |
| EvaluationLists.ListLatestByAthlete | supabase/functions/api/services/evaluations.service.ts:256-358 | the count is the number of groups; the data is one page of the groups sorted newest first |
| EvaluationLists.CandidatesFromRows | supabase/functions/api/services/evaluations.service.ts:325-346 | every candidate comes from a row, and every usable row gives one |
| EvaluationLists.GroupedIsFirstPerKey | supabase/functions/api/services/evaluations.service.ts:335-345 | one group per (evaluation, athlete) key, each key once, each group the first usable row with its key |
| EvaluationLists.GroupKeyInjective | supabase/functions/api/services/evaluations.service.ts:335 | for ids without ':' the key `${evaluationId}:${athleteId}` determines the pair, so distinct pairs are never merged |
| EvaluationLists.LatestPageOrdered | supabase/functions/api/services/evaluations.service.ts:348-357 | the page is sorted newest first, holds at most `limit` groups and only groups |
| EvaluationLists.AthletesOf | supabase/functions/api/services/evaluations.service.ts:409-426 | only athletes with a non-empty id are collected |
| EvaluationLists.FirstScoped | supabase/functions/api/services/evaluations.service.ts:409-428 | a header exists iff some row belongs to the organization, and it is of that organization |
| EvaluationLists.ListAthletesById | supabase/functions/api/services/evaluations.service.ts:360-442 | no row of the organization gives an empty answer; otherwise one page of the distinct athletes (first row wins), each with the first scoped row's header |
| EvaluationLists.AthletesDistinct | supabase/functions/api/services/evaluations.service.ts:416-426 | the athletes are distinct and exactly those of the organization's rows |
| EvaluationMatrix.CommentOf | supabase/functions/api/services/evaluations.service.ts:1381-1399 | the stored comment is the operation's, or null when it has none |
| EvaluationMatrix.HeaderPatch | supabase/functions/api/services/evaluations.service.ts:1289-1295 | the patch holds only the defined fields, with `team_id` stored as `teams_id` |
| EvaluationMatrix.MatrixRejection | supabase/functions/api/services/evaluations.service.ts:1268-1287 | no rejection iff the org id is given and the evaluation belongs to that organization; a missing org id is "org_id (UUID) is required" |
| EvaluationMatrix.EvaluationStore.constructor | supabase/functions/api/services/evaluations.service.ts:1274-1279 | the store starts with the given evaluations and items |
| EvaluationMatrix.EvaluationStore.ApplyMatrixUpdate | supabase/functions/api/services/evaluations.service.ts:1261-1411 | a rejected update changes nothing and fails; a failed header update fails and writes nothing; otherwise the header is patched and the operations are applied in order up to the one whose query fails, which ends the call with its error and keeps the writes before it; with no failure every operation is applied and the stored evaluation row is returned |
| EvaluationMatrix.EvaluationStore.ApplyOperations | supabase/functions/api/services/evaluations.service.ts:1313-1412 | the items become the operations applied to the old items, in array order |
| EvaluationMatrix.EvaluationStore.Submit | supabase/functions/api/services/evaluations.service.ts:1423-1455 | an open evaluation of the organization becomes completed, any other is answered unchanged; the answer is its `id` and `status`; one outside the organization is "Evaluation not found"; items are unchanged |
| EvaluationMatrix.UpsertStores | supabase/functions/api/services/evaluations.service.ts:1356-1410 | a numeric upsert leaves exactly that item, with the new rating and comment, keeping its recommended skill (null when inserted) |
| EvaluationMatrix.ClearDeletes | supabase/functions/api/services/evaluations.service.ts:1333-1354 | a null, missing or NaN rating deletes that one item and nothing else |
| EvaluationMatrix.RemoveAthleteDeletes | supabase/functions/api/services/evaluations.service.ts:1315-1330 | `remove_athlete` deletes every item of that athlete in the evaluation and no other item |
| EvaluationMatrix.ApplyOpIdempotent | supabase/functions/api/services/evaluations.service.ts:1314-1412 | applying the same operation twice gives the same table as once |
| EvaluationMatrix.OtherEvaluationsUntouched | supabase/functions/api/services/evaluations.service.ts:1319 | operations never touch the items of another evaluation (also lines 1342, 1362) |
| EvaluationMatrix.ApplyOpsConcat | supabase/functions/api/services/evaluations.service.ts:1314 | applying `a` then `b` is applying `a + b` |
| EvaluationMatrix.UpsertsCommute | supabase/functions/api/services/evaluations.service.ts:1332-1411 | upserts of different (athlete, subskill) cells commute |
| EvaluationMatrix.HeaderPatchNeverEmpty | supabase/functions/api/services/evaluations.service.ts:1270-1272 | since the org id is required, the patch is never empty and the header update always runs (also lines 1291, 1297) |
| EvaluationMatrix.SubmitIdempotent | supabase/functions/api/services/evaluations.service.ts:1427-1433 | submitting twice is submitting once, and a submitted evaluation is no longer open |
| EvaluationMatrix.SubmitTransitions | supabase/functions/api/services/evaluations.service.ts:1430-1433 | submit only moves an open (not_started or in_progress) evaluation to completed |
| EvaluationWorkout.MaxRepsField | supabase/functions/api/services/evaluations.service.ts:1023-1026 | `maxWorkoutReps` of the organization object, the first element when the join is an array |
| EvaluationWorkout.CountOf | supabase/functions/api/services/evaluations.service.ts:1036-1041 | a finite number is kept; anything else counts as 0 |
| EvaluationWorkout.IncrementWorkoutProgress | supabase/functions/api/services/evaluations.service.ts:985-1078 | a missing row is "Workout progress not found"; a limit that is not a positive finite number is rejected; otherwise the next (progress, level) |
| EvaluationWorkout.AdvanceBounds | supabase/functions/api/services/evaluations.service.ts:1043-1049 | the new progress is below the limit; the level rises by one exactly when progress + 1 reaches the limit, else stays |
| EvaluationWorkout.AdvanceCountsOne | supabase/functions/api/services/evaluations.service.ts:1043-1049 | with a whole limit and progress in range, each repetition adds one to `level * max + progress` |
| EvaluationWorkout.AdvanceStaysInRange | supabase/functions/api/services/evaluations.service.ts:1043-1049 | starting in range, progress stays in [0, max) |
| EvaluationWorkout.FirstMediaIsFirst | supabase/functions/api/services/evaluations.service.ts:1136-1156 | a drill has media iff some media row names it, and it is the first such row's (rows in sort order) |
| EvaluationWorkout.DrillIds | supabase/functions/api/services/evaluations.service.ts:1163-1177 | the drill ids are non-empty strings from the rows |
| EvaluationWorkout.WorkoutDrills | supabase/functions/api/services/evaluations.service.ts:1080-1191 | no numeric level or no drill rows gives an empty answer; otherwise one level titled "Level n" whose drills follow the rows, with the first media of each |
| EvaluationWorkout.DrillIdsMembers | supabase/functions/api/services/evaluations.service.ts:1163-1177 | the listed ids are exactly the rows' non-empty string drill ids |
| MediaPaths.LastSegment | functions/api/services/drills.service.ts:31 | the text after the last '/' or '\\', containing neither |
| MediaPaths.ReplaceUnsafe | functions/api/services/drills.service.ts:32 | the result is all safe characters and has the input's UTF-16 length: the pattern has no `u` flag, so each code unit is matched on its own |
| MediaPaths.Replacement | functions/api/services/drills.service.ts:32 | a safe character is kept; any other becomes one '_' per UTF-16 code unit |
| MediaPaths.ReplaceUnsafeSafe | functions/api/services/drills.service.ts:32 | a text of safe characters is left alone |
| MediaPaths.ReplaceUnsafeBmp | functions/api/services/drills.service.ts:32 | on text inside the Basic Multilingual Plane the replacement is character for character |
| MediaPaths.ReplaceUnsafeConcat | functions/api/services/drills.service.ts:32 | replacing a concatenation replaces each part |
| MediaPaths.SanitizeFileName | functions/api/services/drills.service.ts:30-34 | the trimmed name's last segment with unsafe code units replaced, or "upload" when that is empty; the result is non-empty and all safe |
| MediaPaths.PlainNameSanitized | functions/api/services/drills.service.ts:30-34 | a name with no white space at its ends and no separator is sanitised as a whole |
| MediaPaths.SanitizeKeepsSegment | functions/api/services/drills.service.ts:30-34 | the result has the last segment's UTF-16 length; inside the Basic Multilingual Plane each safe character stays in place and each other one becomes '_'; only an empty segment gives "upload" |
| MediaPaths.SanitizeAstralName | functions/api/services/drills.service.ts:32 | a character outside the Basic Multilingual Plane (an emoji) before a safe suffix becomes two underscores, so "😀.png" is stored as "__.png" |
| MediaPaths.SanitizeFixpoints | functions/api/services/drills.service.ts:30-34 | the names left alone are exactly the non-empty names of safe characters |
| MediaPaths.SanitizeIdempotent | functions/api/services/drills.service.ts:30-34 | sanitising twice is sanitising once |
| MediaPaths.AlnumSuffix | functions/api/services/drills.service.ts:37 | the longest suffix of letters and digits |
| MediaPaths.OwnExtension | functions/api/services/drills.service.ts:37-40 | the group of `/\.([a-z0-9]{1,10})$/i`: the whole alphanumeric suffix, of 1 to 10 characters, preceded by '.' |
| MediaPaths.OwnExtensionOf | functions/api/services/drills.service.ts:37-40 | a name ending in '.' and 1 to 10 letters or digits has exactly those as its extension |
| MediaPaths.AlnumSuffixLength | functions/api/services/drills.service.ts:37 | the alphanumeric suffix is the run a non-alphanumeric character (or the start) bounds |
| MediaPaths.TableExtensions | functions/api/services/drills.service.ts:19-28 | every registered extension is '.' followed by 1 to 10 lower-case letters or digits |
| MediaPaths.InferExtension | functions/api/services/drills.service.ts:36-44 | the own extension lower-cased, else the content type's registered one (looked up lower-cased), else ".bin"; always a valid extension |
| MediaPaths.InferExtensionStable | functions/api/services/drills.service.ts:36-44 | a name that already ends in an inferred extension keeps it, whatever the content type |
| MediaPaths.MediaPathSegments | functions/api/services/drills.service.ts:46-56 | the path's segments are "orgs", the org, "drills" or "skills", the owner and the file id with its extension |
| MediaPaths.SplitFive | functions/api/services/drills.service.ts:55 | five slash-free pieces joined by '/' split back into themselves |
| MediaPaths.MediaPathExtension | functions/api/services/drills.service.ts:46-56 | inferring the extension of a built path gives back the extension it was built with |
| MediaPaths.SplitFree | functions/api/services/drills.service.ts:70 | a string without the separator splits into itself |
| MediaPaths.ParseStoragePath | functions/api/services/drills.service.ts:58-81 | a reference needs a pathname under "/storage/v1/object/"; its bucket is one segment and its path non-empty and clean |
| MediaPaths.NonEmptyFree | functions/api/services/drills.service.ts:70 | the pieces kept by `filter(Boolean)` contain no separator |
| MediaPaths.SplitJoin | functions/api/services/drills.service.ts:70-77 | non-empty slash-free pieces joined with '/' split back into themselves |
| MediaPaths.JoinClean | functions/api/services/drills.service.ts:77 | joining non-empty slash-free pieces gives a clean, non-empty path |
| MediaPaths.BucketPathParts | functions/api/services/drills.service.ts:70-77 | the segments of "{bucket}/{path}" are the bucket then the path's |
| MediaPaths.NonEmptyIdle | functions/api/services/drills.service.ts:70 | filtering pieces that are all non-empty keeps them |
| MediaPaths.PublicUrlRoundTrip | functions/api/services/drills.service.ts:58-81 | a public object URL parses back into its bucket and path (also line 129) |
| MediaPaths.PlainUrlRoundTrip | functions/api/services/drills.service.ts:73-78 | without a "public" or "sign" marker the first segment is the bucket |
| MediaPaths.ParseCanonical | functions/api/services/drills.service.ts:58-81 | whatever parses parses again, from its canonical public URL, to the same reference |
| MediaPaths.UploadUrlRoundTrip | functions/api/services/drills.service.ts:46-56 | the public URL of a freshly built upload path parses back into the bucket and that path (also lines 58-81) |
| MediaPaths.StripLeadingSlashes | functions/api/services/skills.service.ts:90 | only leading '/' characters are removed |
| MediaPaths.Trimmed | functions/api/services/skills.service.ts:85-101 | the trimmed text, "" when missing |
| MediaPaths.ResolveStorageRef | functions/api/services/skills.service.ts:81-108 | a non-blank storage path is a storage URL or an object in the skills bucket (leading '/' and a "{bucket}/" prefix dropped); otherwise only a storage URL in `url` resolves |
| MediaPaths.ResolveObjectPath | functions/api/services/skills.service.ts:85-98 | a plain object path resolves into the bucket unchanged, and the url is ignored |
| MediaPaths.ResolveBucketPrefixed | functions/api/services/skills.service.ts:90-96 | writing the object path with the "{bucket}/" prefix resolves to the same object |
| MediaPaths.ResolveLeadingSlash | functions/api/services/skills.service.ts:90 | leading '/' characters do not change what a plain object path resolves to |
| Text.TrimIdle | functions/api/services/skills.service.ts:85 | a text with no outer white space trims to itself |
| MediaPaths.NextPosition | functions/api/services/drills.service.ts:240-243 | one past a numeric last sort order, else 1 |
| MediaPaths.AllocatePosition | functions/api/services/drills.service.ts:220-244 | a given position is kept; a missing or null one is the next position |
| MediaPaths.NextPositionAfterAll | functions/api/services/drills.service.ts:227-244 | when the row read back has the largest sort order, the new position comes after every existing one, and is at least 1 |
| MediaControllers.Kept | functions/api/controllers/drills.controller.ts:33-43 | each kept element is trimmed, non-empty and valid; no more elements than pieces |
| MediaControllers.KeptMembers | functions/api/controllers/drills.controller.ts:38-42 | an element is kept iff it is the non-empty, valid trim of some piece |
| MediaControllers.KeptConcat | functions/api/controllers/drills.controller.ts:38-42 | keeping distributes over concatenation |
| MediaControllers.CommaListElements | functions/api/controllers/drills.controller.ts:33-43 | every element of a comma list is trimmed, non-empty and valid |
| MediaControllers.CommaListConcat | functions/api/controllers/drills.controller.ts:33-43 | the list of `a + "," + b` is the list of a followed by that of b |
| MediaControllers.UploadContentTypeValid | functions/api/controllers/drills.controller.ts:44-51 | the lower-cased content type must start with the media type's prefix: "video/" for a video, "image/" for an image, "application/" for a document; any other media type passes |
| MediaControllers.UploadContentTypeCaseInsensitive | functions/api/controllers/drills.controller.ts:44-51 | the check ignores the content type's case |
| MediaControllers.UploadCheck | functions/api/controllers/drills.controller.ts:225-234 | type "link" is refused before the content type is looked at, then the content type must fit |
| MediaControllers.MediaTypeOf | functions/api/controllers/skills.controller.ts:282 | `type ?? media_type ?? "video"` |
| MediaControllers.SkillUploadLink | functions/api/controllers/skills.controller.ts:282-290 | a skill upload is refused as a link exactly when the chosen type is "link" |
| MediaControllers.Clamp | functions/api/controllers/drills.controller.ts:163 | `Math.min(Math.max(x, lo), hi)` lies in [lo, hi] and is x when x does |
| MediaControllers.DrillTagQuery | functions/api/controllers/drills.controller.ts:143-181 | the organization and a given sport must be UUIDs; limit clamped to [1, 200], offset at least 0 |
| MediaControllers.ExpiresIn | functions/api/controllers/skills.controller.ts:381-386 | a missing, empty or non-numeric value gives 3600; a number is clamped into [60, 86400] |
| MediaControllers.ExpiresInWindow | functions/api/controllers/skills.controller.ts:383-384 | a requested expiry inside the window is used as is |
| MediaControllers.CreatedDrill | functions/api/controllers/drills.controller.ts:78-79 | a one-row array gives that row, anything else itself, null for none |
| MediaControllers.HasUpdates | functions/api/controllers/skills.controller.ts:236-238 | some parsed field is defined iff the parsed object is not empty |
| MediaControllers.SkillUpdateCheck | functions/api/controllers/skills.controller.ts:230-245 | an update with no defined field is refused before anything else |
| MediaControllers.NotFoundStatus | functions/api/controllers/skills.controller.ts:250-255 | a service error whose message mentions "not found" in any case answers 404, otherwise 500 |
| Drills.Ceil | functions/api/services/drills.service.ts:337 | `Math.ceil`: the least integer not below r |
| Drills.DurationMinutes | functions/api/services/drills.service.ts:334-337 | null stays null; seconds become whole minutes, rounded up, covering the seconds |
| Drills.DrillColumnsDistinct | functions/api/services/drills.service.ts:320-330 | the column names of the patch table are distinct and none is `duration_min` or `instructions` |
| Drills.DrillPatchSpec | functions/api/services/drills.service.ts:319-338 | the patch holds only supplied fields under their column names (`instructions` as `coaching_points`); `duration_min` is present iff either duration is, `duration_min` winning |
| Drills.BuildDrillPatch | functions/api/services/drills.service.ts:319-338 | the field-by-field construction equals the patch specification |
| Drills.Without | functions/api/services/drills.service.ts:373 | `ids.filter((id) => !exclude.includes(id))`: exactly the ids not excluded, in order |
| Drills.WithoutDistinct | functions/api/services/drills.service.ts:373 | filtering distinct ids keeps them distinct |
| Drills.PlanTagsSpec | functions/api/services/drills.service.ts:371-373 | each id to add appears once; each id to remove appears once, was asked to be removed and is not being added |
| Drills.TagsAfterSpec | functions/api/services/drills.service.ts:371-396 | afterwards a drill is linked to a tag iff it was to be added, or was linked and not to be removed; an id in both lists stays linked |
| Drills.TagOf | functions/api/services/drills.service.ts:569-576 | an entry's tag is kept exactly when its id is truthy, its name "" unless a string |
| Drills.TagsOf | functions/api/services/drills.service.ts:568-579 | no more tags than entries |
| Drills.TagsOfConcat | functions/api/services/drills.service.ts:568-579 | the tag list is a filter: it distributes over concatenation and keeps one entry exactly when its tag id is truthy |
| Drills.TagsOfSingle | functions/api/services/drills.service.ts:570-575 | a single entry yields its tag, named "" unless the name is a string |
| Drills.DrillMediaDefaults | functions/api/services/drills.service.ts:559-566 | one media entry per media row, in order, type "video" when none is stored, no description, a null position when no sort order |
| Drills.SegmentDtoOf | functions/api/services/drills.service.ts:597-599 | the segment has a null-defaulted name, and an id exactly when the row's segment has one |
| Drills.DrillFieldDefaults | functions/api/services/drills.service.ts:581-602 | `is_archived` defaults to false, missing nullable columns become null, a missing or falsy segment becomes null |
| Drills.DrillTables.constructor | functions/api/services/drills.service.ts:309-404 | the tables start as given |
| Drills.DrillTables.Relink | functions/api/services/drills.service.ts:375-396 | the links lose `remove` and then gain `add` for that drill, each only when not empty; a failed delete writes nothing and a failed upsert keeps the deletion, each answering its error; drills and media are untouched |
| Drills.DrillTables.UpdateDrill | functions/api/services/drills.service.ts:309-396 | a failed patch is its error and a drill outside the organization is "Drill not found", and nothing changes; otherwise its columns get the patch and its tag links are re-planned; a failed tag delete or upsert answers its error and keeps the patch (and the deletion) already written; the stored drill row is returned |
| Drills.DrillTables.CreateDrillMedia | functions/api/services/drills.service.ts:211-265 | a drill outside the organization is "Drill not found" with media unchanged; otherwise exactly one media row is appended at the allocated position and reported |
| Drills.UpdateDrillTags | functions/api/services/drills.service.ts:371-396 | the tags a drill has after an update are those the tag specification describes |
| Skills.PublicUrl | functions/api/services/skills.service.ts:110-118 | no URL for an empty bucket or path; otherwise the storage client's public URL |
| Skills.FiniteNumber | functions/api/services/skills.service.ts:149 | only numbers count as a position |
| Skills.MediaOfRow | functions/api/services/skills.service.ts:120-151 | a stored url wins over the public URL of the row's storage reference; type defaults to "video", skill id to the owning skill, id to "" |
| Skills.MappedMedia | functions/api/services/skills.service.ts:161-162 | one mapped medium per embedded row, in order |
| Skills.SkillOfRow | functions/api/services/skills.service.ts:153-183 | the skill's media are its rows' media sorted by position; text fields default to "" or null |
| Skills.PositionSorted | functions/api/services/skills.service.ts:163-167 | sorting by position keeps every medium and orders the positions, a missing one counted as `MAX_SAFE_INTEGER` |
| Skills.SkillMediaOrdered | functions/api/services/skills.service.ts:157-167 | a skill's media are its media rows reordered by ascending position |
| Skills.MissingPositionLast | functions/api/services/skills.service.ts:164-166 | media without a position come after every medium whose position is below `Number.MAX_SAFE_INTEGER` |
| Skills.SkillMediaMissingLast | functions/api/services/skills.service.ts:157-167 | the same for the media of a skill row |
| Skills.SkillUpdatedDefault | functions/api/services/skills.service.ts:180 | a row without `updated_at` (or a null one) reports its creation time as update time |
| Skills.MissingReferenceIff | functions/api/services/skills.service.ts:254-277 | the reference is missing exactly when the url is blank and the storage path is blank or only "{bucket}/", unless that is itself a storage URL |
| Skills.StoredUrl | functions/api/services/skills.service.ts:310-314 | the given trimmed url when there is one, else the public URL of the storage reference |
| Skills.OptText | functions/api/services/skills.service.ts:321-324 | `v ?? null`: present exactly for a string |
| Skills.MediaRowReported | functions/api/services/skills.service.ts:120-151 | a row read back reports its id, skill, type and storage path |
| Skills.MediaRowUrl | functions/api/services/skills.service.ts:128-133 | a row with no url reports the public URL of its storage path; with one, that url |
| Skills.NewMediaReported | functions/api/services/skills.service.ts:316-334 | the new media reports the chosen type, the kept storage path and the stored url |
| Skills.NewMediaPosition | functions/api/services/skills.service.ts:287-306 | without a given position the new media is placed one past the last sort order, or at 1 (also line 325) |
| Skills.SkillTables.constructor | functions/api/services/skills.service.ts:246-335 | the tables start as given |
| Skills.SkillTables.CreateSkillMedia | functions/api/services/skills.service.ts:246-335 | a missing reference fails with "storage_path or url is required" before the database is read; a skill outside the organization fails; otherwise one row appended and reported; skills unchanged |
| Skills.NamedTags | functions/api/services/skills.service.ts:580-587 | the tags of the rows with a non-empty id and name, in row order |
| Skills.CollectTags | functions/api/services/skills.service.ts:578-587 | the loop keeps the first named tag of each id, in row order |
| Skills.ByNamePreorder | functions/api/services/skills.service.ts:589 | ordering tags by name is a total preorder when the string order is |
| Skills.ListSkillTags | functions/api/services/skills.service.ts:548-592 | the collected tags sorted by name; the count is their number |
| Skills.ReportedTagsOrdered | functions/api/services/skills.service.ts:578-591 | the tags are ordered by name and carry each id once |
| Skills.ReportedTagsFirstWins | functions/api/services/skills.service.ts:580-587 | each reported tag is the first named tag with its id |
| Skills.ReportedTagsComplete | functions/api/services/skills.service.ts:580-587 | every named tag's id is reported |
| DrillDtos.SkillTagInputYieldsId | functions/api/dtos/drills.dto.ts:8-10 | a skill-tag input is accepted iff it is a UUID string or an object whose `skill_id` is one, and it yields that id |
| DrillDtos.CreateDrillName | functions/api/dtos/drills.dto.ts:49 | a drill needs a name of 1 to 200 characters once trimmed; the trimmed name is kept |
| DrillDtos.CreateDrillSegment | functions/api/dtos/drills.dto.ts:6 | a drill needs a UUID `segment_id` (also line 47) |
| DrillDtos.OptionalIntField | functions/api/dtos/drills.dto.ts:53-55 | an optional nullable coerced integer field accepts absence, null, or an integer at least its minimum |
| DrillDtos.CreateDrillNumbers | functions/api/dtos/drills.dto.ts:53-55 | ages are integers of at least 0, `duration_seconds` a positive integer |
| DrillDtos.DrillListPaging | functions/api/dtos/drills.dto.ts:70-71 | an accepted list filter has a limit in [1, 200], 50 when absent, and an offset of at least 0, 0 when absent |
| DrillDtos.LevelDrillListPaging | supabase/functions/api/dtos/drills.dto.ts:80-91 | the same paging rules in the filter that also takes levels |
| DrillDtos.UuidListParse | functions/api/dtos/drills.dto.ts:64-69 | a missing UUID list becomes []; a given one must hold only UUIDs |
| DrillDtos.UpdateDrillTagLists | supabase/functions/api/dtos/drills.dto.ts:76-77 | `add_tag_ids` and `remove_tag_ids` of an accepted update are lists of UUIDs, [] when absent |
| DrillDtos.CreateDrillMediaRules | functions/api/dtos/drills.dto.ts:40-43 | media creation needs a UUID `drill_id`; the type defaults to "video" (plain media default to "image") |
| DrillDtos.TagIds | functions/api/dtos/drills.dto.ts:111 | the texts of the tag ids, one per tag, in order |
| DrillDtos.NormalizeCreateDrillCopies | functions/api/dtos/drills.dto.ts:118-122 | every field other than `media` and `skill_tags` is copied unchanged, and none is added |
| DrillDtos.NormalizeCreateDrillMedia | functions/api/dtos/drills.dto.ts:113-116 | media keep length, order and other fields; a missing or null position becomes the 1-based index |
| DrillDtos.NormalizeCreateDrillTags | functions/api/dtos/drills.dto.ts:111-121 | the skill tags are the distinct ids, each once, wrapped as `{ skill_id }` |
| DrillDtos.NormalizeCreateDrillTagOrder | functions/api/dtos/drills.dto.ts:111-121 | the i-th tag wraps the i-th distinct id, and the tags follow the order in which their ids first occur in the input |
| SkillDtos.CreateSkillMediaNeedsReference | functions/api/dtos/skills.dto.ts:41-43 | new skill media without a storage path and without a url is refused |
| SkillDtos.CreateSkillMediaReference | functions/api/dtos/skills.dto.ts:25-43 | accepted skill media carry a non-blank trimmed storage path or a url the URL check accepts |
| SkillDtos.CreateSkillCategory | functions/api/dtos/skills.dto.ts:48 | a category is 1 to 120 characters once trimmed, and the trimmed text is kept |
| SkillDtos.CreateSkillTitle | functions/api/dtos/skills.dto.ts:49 | a title is 1 to 200 characters once trimmed, and the trimmed text is kept |
| SkillDtos.UpdateSkillTitle | functions/api/dtos/skills.dto.ts:59 | an update may leave the title out, but a given one is 1 to 200 UTF-16 code units once trimmed |
| SkillDtos.SkillDrillInputText | functions/api/dtos/skills.dto.ts:66-74 | a drill link that is not an object is accepted exactly when it is a UUID string |
| SkillDtos.SkillDrillInputObject | functions/api/dtos/skills.dto.ts:69-72 | an object drill link is accepted exactly when its `drill_id` is a UUID and its level is absent, null or an integer at least 0 |
| SkillDtos.DrillLinkUnion | functions/api/dtos/skills.dto.ts:66-73 | for an object, the union accepts exactly what its object branch accepts |
| SkillDtos.DrillLinkFields | functions/api/dtos/skills.dto.ts:69-72 | the object branch accepts exactly a UUID `drill_id` with an acceptable level |
| SkillDtos.SkillDrillInputYieldsObject | functions/api/dtos/skills.dto.ts:74 | an accepted drill link always yields an object whose `drill_id` is the given UUID |
| SkillDtos.AddSkillDrillsNonEmpty | functions/api/dtos/skills.dto.ts:76-79 | adding drills needs at least one drill |
| SkillDtos.AddSkillDrillsEmptyRefused | functions/api/dtos/skills.dto.ts:78 | an empty drill list is refused |
| SkillDtos.SkillDrillListPaging | functions/api/dtos/skills.dto.ts:81-85 | limit in [1, 200], 50 when absent; offset at least 0, 0 when absent |
| SkillDtos.SkillListPaging | functions/api/dtos/skills.dto.ts:87-95 | the same paging rules in the skill and skill-tag list filters |
| SkillDtos.SkillMediaUploadNames | functions/api/dtos/skills.dto.ts:12-13 | an upload names a file of 1 to 255 and a content type of 1 to 120 UTF-16 code units once trimmed |
| PlanDtos.ListTypeParsed | functions/api/dtos/plans.dto.ts:10-14 | an accepted type is "prebuild" or "custom" |
| PlanDtos.PlanListRefinementIdle | functions/api/dtos/plans.dto.ts:12-27 | the refinement comparing with "custom-plans" never fires: the schema accepts exactly what its fields accept |
| PlanDtos.CustomListingWithoutUserAccepted | functions/api/dtos/plans.dto.ts:12-27 | the schema as written accepts a custom listing that names no user |
| PlanDtos.IntendedListingRule | functions/api/dtos/plans.dto.ts:19-26 | with the intended refinement a filter is accepted iff its fields are and it is not a custom listing without a user |
| PlanDtos.IntendedListingNeedsUser | functions/api/dtos/plans.dto.ts:20-25 | with the intended refinement a custom listing without a user id is refused |
| PlanDtos.PlanListPaging | functions/api/dtos/plans.dto.ts:16-17 | limit in [1, 200], 50 when absent; offset at least 0, 0 when absent |
| PlanDtos.InvitedPlanListRules | functions/api/dtos/plans.dto.ts:29-33 | the invited-plan filter needs a UUID user id, with the same paging rules |
| PlanDtos.InviteUserIds | functions/api/dtos/plans.dto.ts:40 | an invitation lists at least one user, each a UUID |
| PlanDtos.InviteRoleDefault | functions/api/dtos/plans.dto.ts:41 | a missing role is "viewer" |
| PlanDtos.ViewerTrimmed | functions/api/dtos/plans.dto.ts:41 | the default role is already trimmed |
| PlanDtos.InviteRoleGiven | functions/api/dtos/plans.dto.ts:41 | a given role is non-blank and kept trimmed |
| PlanDtos.ItemTypeDefault | functions/api/dtos/plans.dto.ts:50 | a missing item type is "drill" |
| PlanDtos.ItemTypeGiven | functions/api/dtos/plans.dto.ts:8 | a given item type is kept (also line 50) |
| PlanDtos.ItemDrillId | functions/api/dtos/plans.dto.ts:51 | the drill id is kept as given: missing, null or a UUID |
| PlanDtos.DrillItemNeedsDrill | functions/api/dtos/plans.dto.ts:60-68 | an item whose type is "drill", given or by default, is refused unless it names a drill |
| PlanDtos.DrillItemHasUuid | functions/api/dtos/plans.dto.ts:51-68 | an accepted drill item names its drill by a UUID |
| PlanDtos.CreatePlanName | functions/api/dtos/plans.dto.ts:73 | a plan name is 1 to 200 UTF-16 code units once trimmed, and the trimmed text is kept |
| PlanDtos.CreatePlanItems | functions/api/dtos/plans.dto.ts:79 | a new plan has at least one item, each accepted by the item schema |
| PlanDtos.CreatePlanTyped | functions/api/dtos/plans.dto.ts:70-80 | an accepted creation request has a UUID owner and a string name |
| PlanDtos.UpdateFieldMissing | functions/api/dtos/plans.dto.ts:84-90 | a plan field missing from an accepted update stays missing |
| PlanDtos.UpdateFieldMissingFirst | functions/api/dtos/plans.dto.ts:84-86 | the same for name, description and visibility |
| PlanDtos.UpdateFieldMissingLast | functions/api/dtos/plans.dto.ts:87-90 | the same for status, tags, estimated_minutes and org_id |
| PlanDtos.UpdateListEmpty | functions/api/dtos/plans.dto.ts:91-92 | a missing or empty item list is read as [] |
| PlanDtos.UpdatePlanNeedsChange | functions/api/dtos/plans.dto.ts:94-111 | an update with no plan field and no item to add or remove is refused ("No updates provided") |
| PlanDtos.UpdatePlanWithChange | functions/api/dtos/plans.dto.ts:94-111 | an update that sets a plan field, or adds or removes an item, passes the refinement |
| PlanDtos.UpdateFieldsTyped | functions/api/dtos/plans.dto.ts:84 | the update yields a name only as a string, trimmed from a given one |
| PlanDtos.UpdatePlanTyped | functions/api/dtos/plans.dto.ts:82-111 | an accepted update's name, when given, is a string |
| Plans.PlanOfRow | supabase/functions/api/services/plans.service.ts:21-35 | a plan read from its row: visibility defaults to "private", status to "draft", tags to [] unless the column holds an array, and a missing organization, description or estimate to null |
| Plans.PlanItemOfRow | supabase/functions/api/services/plans.service.ts:37-57 | a plan item read from its row: the type defaults to "drill", the configuration to {}, the drill name comes from the joined drill, and missing columns are null |
| Plans.PlanDetailOf | supabase/functions/api/services/plans.service.ts:328-357 | no row is no plan; otherwise the plan is the mapped row and its items are the joined item rows, each mapped, in order |
| Plans.RangeIsPage | supabase/functions/api/services/plans.service.ts:90-97 | the inclusive range from `offset` to `offset + limit - 1` is exactly one page of at most `limit` rows |
| Plans.ListedRows | supabase/functions/api/services/plans.service.ts:98-103 | a row is listed exactly when it has the requested type and, unless the type is "prebuild", belongs to the requesting user |
| Plans.ListPlansByType | supabase/functions/api/services/plans.service.ts:81-109 | the count is the number of all matching plans and the page holds at most `limit` of them |
| Plans.ListedPlansOwned | supabase/functions/api/services/plans.service.ts:81-109 | every listed plan comes from the table, has the requested type and, unless the type is "prebuild", is owned by the requesting user; the page is the requested slice of the matches |
| Plans.PrebuildIgnoresUser | supabase/functions/api/services/plans.service.ts:100-103 | the "prebuild" listing is the same whoever asks |
| Plans.InvitedPlanOf | supabase/functions/api/services/plans.service.ts:111-150 | a shared plan carries the plan itself and its membership: the role defaults to "viewer" and, without a membership row, the date is the plan's creation date and the inviter null |
| Plans.BuildPlanItemRows | supabase/functions/api/services/plans.service.ts:59-79 | one item row per item, in order |
| Plans.BuildPlanItemRowsSpec | supabase/functions/api/services/plans.service.ts:59-79 | each row belongs to the plan and keeps its item's fields; an item without a position gets `startIndex` plus its index, the type defaults to "drill" and the configuration to {} |
| Plans.AutoPositionsIncrease | supabase/functions/api/services/plans.service.ts:59-79 | items without a position are numbered from `startIndex` upwards in list order, strictly increasing |
| Plans.BuildPlanItemRowsConcat | supabase/functions/api/services/plans.service.ts:59-79 | building the rows of two lists joined is building them for each, the second numbered after the first |
| Plans.Outside | supabase/functions/api/services/plans.service.ts:213-232 | the ids kept are exactly those not in the set, in order |
| Plans.Inside | supabase/functions/api/services/plans.service.ts:233 | the ids kept are exactly those in the set, in order |
| Plans.OutsideDistinct | supabase/functions/api/services/plans.service.ts:165 | filtering a list without repeats leaves none (also line 232) |
| Plans.InsideDistinct | supabase/functions/api/services/plans.service.ts:165 | filtering a list without repeats leaves none (also line 233) |
| Plans.FilterCovered | supabase/functions/api/services/plans.service.ts:232-237 | when the set holds every id, nothing is left to invite and everything is skipped |
| Plans.AuthResults | supabase/functions/api/services/plans.service.ts:244-252 | one auth answer per user to invite, in order |
| Plans.BuildEmailMap | supabase/functions/api/services/plans.service.ts:254-260 | the loop over the auth answers builds the specified address map |
| Plans.EmailMapSpec | supabase/functions/api/services/plans.service.ts:254-260 | the map holds exactly the users with a non-empty address, each with that address |
| Plans.InviteRows | supabase/functions/api/services/plans.service.ts:287-299 | at most one invitation row per user |
| Plans.InviteRowsSpec | supabase/functions/api/services/plans.service.ts:274-299 | every invitation row is for a listed user at their known, non-empty address with no pending invitation, and every such user gets one |
| Plans.MemberRows | supabase/functions/api/services/plans.service.ts:309-320 | one member row per invited user |
| Plans.Invite | supabase/functions/api/services/plans.service.ts:152-326 | a missing plan is "Plan not found", a plan without an organization and a plan of another organization are refused with their messages |
| Plans.InviteNew | supabase/functions/api/services/plans.service.ts:239-320 | once someone is left to invite, the request is refused with "invited_by is required" exactly when there is no inviter; a success invites exactly those users and skips the rest |
| Plans.InviteNeedsInviter | supabase/functions/api/services/plans.service.ts:239-242 | for a plan of the organization with a user to invite, no `added_by` and no owner means "invited_by is required" |
| Plans.InviteMissingEmails | supabase/functions/api/services/plans.service.ts:244-268 | with an inviter, a user to invite without a non-empty address makes the request fail with a "Missing emails for users: " message naming that user |
| Plans.InviteOutsiders | supabase/functions/api/services/plans.service.ts:208-219 | for a plan of the organization, a requested user who is neither an athlete nor a coach there makes the request fail with a message naming that user |
| Plans.InvitePartition | supabase/functions/api/services/plans.service.ts:208-237 | a successful invitation means the plan is in the organization and every user belongs to it; the de-duplicated ids split into the invited (not yet members) and the skipped (already members), each listed once (also line 165) |
| Plans.InviteNewWrites | supabase/functions/api/services/plans.service.ts:270-320 | once someone is left to invite, a success writes one member row per invited user with the role and a non-empty inviter, and one invitation row per invited user whose known address has no pending invitation |
| Plans.InviteWrites | supabase/functions/api/services/plans.service.ts:239-320 | a successful invitation writes one member row per invited user with the role (default "viewer") and a non-empty inviter, and one invitation row per invited user whose known address has no pending invitation |
| Plans.InviteAgain | supabase/functions/api/services/plans.service.ts:221-237 | repeating a successful invitation invites nobody, skips every requested user and writes nothing |
| Plans.CopyField | supabase/functions/api/services/plans.service.ts:370-379 | a supplied field is copied into the patch, an absent one leaves it unchanged |
| Plans.PlanPatchKeys | supabase/functions/api/services/plans.service.ts:368-379 | the patch holds exactly the supplied plan columns |
| Plans.PlanPatchValues | supabase/functions/api/services/plans.service.ts:368-379 | in the patch the name is trimmed, null tags become [], and every other supplied field is kept as given |
| Plans.BuildPlanPatch | supabase/functions/api/services/plans.service.ts:368-379 | the field-by-field patch is the specified one |
| Plans.Remaining | supabase/functions/api/services/plans.service.ts:406-413 | an item stays exactly when it is not one of the plan's items whose id is listed for removal |
| Plans.RemainingNone | supabase/functions/api/services/plans.service.ts:406-413 | removing no ids leaves the items unchanged |
| Plans.NewPositionsAfterExisting | supabase/functions/api/services/plans.service.ts:415-435 | a new item without a position is placed after every remaining item of the plan; in a plan without items numbering starts at 0 |
| Plans.GivenPositionsKept | supabase/functions/api/services/plans.service.ts:415-435 | when every new item has a position, numbering starts at 0 and no given position is changed |
| Plans.BuildPayload | supabase/functions/api/services/plans.service.ts:455-465 | the insert payload built step by step is the specified one |
| Plans.PlanTables.InvitePlanMembers | supabase/functions/api/services/plans.service.ts:152-326 | a refusal of `Invite` against the stored plan and members, or nobody left to invite, is that answer and writes nothing; a failed invitation insert answers its error and writes nothing; a failed member insert answers its error and keeps the invitation rows; a success appends exactly its invitation and member rows; the plans and items are untouched |
| Plans.PlanTables.WriteInvitation | supabase/functions/api/services/plans.service.ts:301-322 | the invitation rows (when there are any) and then the member rows are appended; the first failing insert ends the call with its error, keeping what was written before it; nothing else changes |
| Plans.PlanTables.ReplaceItems | supabase/functions/api/services/plans.service.ts:406-441 | the listed items of the plan are deleted, then the new rows appended; a failed delete writes nothing, a failed read of the last position or a failed insert keeps the deletion, each answering its error; the other tables are untouched |
| Plans.PlanTables.UpdatePlan | supabase/functions/api/services/plans.service.ts:359-445 | a failed patch is its error and an unknown plan is "Plan not found", and nothing changes; otherwise the patch is merged into the plan row and the items replaced; a later delete, position-read or insert error answers that error and keeps the writes made before it; success holds exactly when no query fails |
| Plans.PlanTables.Rollback | supabase/functions/api/services/plans.service.ts:483-495 | deleting the plan just inserted restores the plans table |
| Plans.PlanTables.CreatePlan | supabase/functions/api/services/plans.service.ts:447-498 | an empty item list fails with "items is required" and an item-insert error with that error, and then the new plan is deleted again, leaving the plans as they were; otherwise the plan row and its items (numbered from 0) are stored |
| Plans.MembersAfterInvite | supabase/functions/api/services/plans.service.ts:309-320 | after an invitation the plan's members are the earlier ones plus the invited users |
| Plans.CreatedRowNamed | supabase/functions/api/services/plans.service.ts:455-465 | the created row holds the new id, the trimmed name and the owner given |
| Plans.CreatedRowVisibility | supabase/functions/api/services/plans.service.ts:464 | the created row holds a visibility exactly when one was given |
| Plans.CreatedRowStatus | supabase/functions/api/services/plans.service.ts:465 | the created row holds a status exactly when one was given |
| Plans.CreatedRowTags | supabase/functions/api/services/plans.service.ts:460 | the created row holds the given tags, or [] |
| Plans.CreatedPlanRead | supabase/functions/api/services/plans.service.ts:21-35 | reading back a created plan gives the trimmed name, the given or default ("private", "draft") visibility and status, and the given tags or [] (also lines 447-498) |
| People.BuildFullName | supabase/functions/api/services/athletes.service.ts:10-14 | there is no full name exactly when both parts are missing or blank |
| People.FullNameCases | supabase/functions/api/services/athletes.service.ts:10-14 | the full name is both trimmed parts with one space between them, or the one non-blank part |
| People.FullNameTrimmed | supabase/functions/api/services/athletes.service.ts:10-14 | a full name is never empty and has no white space at either end |
| People.CreateFullName | supabase/functions/api/services/athletes.service.ts:156 | a supplied full name is used as it is |
| People.CreateFullNameBuilt | supabase/functions/api/services/coaches.service.ts:121 | a missing full name is built from the parts, and is null when both are blank |
| People.EmbeddedRows | supabase/functions/api/services/athletes.service.ts:18-22 | an embedded relation is its array, a single truthy value as a one-row list, or no rows |
| People.TeamOf | supabase/functions/api/services/athletes.service.ts:25-30 | a membership contributes a team only when it is active (or has no status) and names a non-empty team id, taken from the row or else from its team |
| People.TeamEntriesMembers | supabase/functions/api/services/athletes.service.ts:24-39 | a team is an entry exactly when some membership contributes it |
| People.TeamsSpec | supabase/functions/api/services/athletes.service.ts:24-39 | an athlete's teams list no id twice, each comes from an active membership, and every such membership's team id is listed (also line 50) |
| People.CollectTeams | supabase/functions/api/services/athletes.service.ts:24-39 | the `teamsById` loop yields the specified teams, the first entry per id winning |
| People.EmailOf | supabase/functions/api/services/athletes.service.ts:46 | the profile's e-mail wins when present |
| People.PersonOfRow | supabase/functions/api/services/coaches.service.ts:15-28 | the coach (or shared athlete) DTO keeps the row's id |
| People.EmailPrecedence | supabase/functions/api/services/coaches.service.ts:22 | the e-mail is the profile's, else the row's own, else null |
| People.PersonFieldsDefaultNull | supabase/functions/api/services/coaches.service.ts:15-28 | every column missing from the row is null in the DTO |
| People.AthleteOfRow | supabase/functions/api/services/athletes.service.ts:16-52 | an athlete is the shared person fields plus the collected teams of the embedded memberships |
| People.ParentOf | functions/api/services/athletes.service.ts:23-31 | there is a parent exactly when the first guardian row has a truthy guardian (also lines 60-67) |
| People.AthleteDetailOfRow | functions/api/services/athletes.service.ts:16-69 | the detailed athlete extends the plain athlete mapping |
| People.ParentFromFirstGuardian | functions/api/services/athletes.service.ts:23-31 | only the first guardian row counts: its guardian's name, e-mail and phone and the row's relationship make the parent (also lines 60-67) |
| People.GuardianLinkOf | functions/api/services/athletes.service.ts:177-180 | a found guardian contact is reused; otherwise a parent e-mail equal to the athlete's (case-insensitively, after trimming) makes the athlete the guardian user (also lines 203-218) |
| People.GuardianUserId | functions/api/services/athletes.service.ts:215-245 | the guardian user is none for an existing contact, the athlete's user for a matching e-mail, or the account just created, whose absence is "Guardian user was not returned by Supabase" |
| People.RollbackSparesExistingGuardian | functions/api/services/athletes.service.ts:266-303 | a rollback deletes the athlete's account and at most the guardian account this request created, never the one behind an existing contact |
| People.CreatedId | supabase/functions/api/services/athletes.service.ts:195-206 | the create succeeds exactly when the returned id is truthy, and otherwise fails with "Failed to create athlete" (or coach) |
| People.CreatedIdShapes | supabase/functions/api/services/athletes.service.ts:195-200 | a bare id, an object with the id and an array whose first row holds it all yield the same id |
| People.CreatedIdMissing | supabase/functions/api/services/athletes.service.ts:202-206 | no result, null, an empty string, an empty array and an object without the id are all failures |
| People.ColumnsDistinct | supabase/functions/api/services/athletes.service.ts:223-229 | the athlete and coach update columns are distinct and each is written under its own name |
| People.UpdatePatchSpec | supabase/functions/api/services/athletes.service.ts:222-247 | the patch holds exactly the supplied fields with their values, plus a recomputed full name when a name part but no full name is supplied |
| People.MergedFullNameParts | supabase/functions/api/services/athletes.service.ts:244-246 | the recomputed full name uses the supplied part and falls back on the stored one |
| People.BuildUpdatePatch | supabase/functions/api/services/athletes.service.ts:222-247 | the step-by-step patch is the specified one |
| People.MergedPartKept | supabase/functions/api/services/athletes.service.ts:244-246 | a name part reads the same before and after the update |
| People.UpdateIdempotent | supabase/functions/api/services/athletes.service.ts:211-275 | applying the same update to its own result changes nothing |
| People.PersonTable.Update | supabase/functions/api/services/athletes.service.ts:211-275 | a row of another organization, or no row, gives the not-found error and changes nothing; otherwise the patch is merged into that row alone and the row is returned |
| PeopleDtos.UuidFieldParsed | supabase/functions/api/dtos/athletes.dto.ts:4-7 | a required UUID field accepts exactly the strings matching the UUID pattern, kept as given |
| PeopleDtos.OptionalUuidParsed | supabase/functions/api/dtos/athletes.dto.ts:10 | an optional UUID field, when given and not null, holds a UUID string, kept as given (also line 42) |
| PeopleDtos.PasswordParsed | supabase/functions/api/dtos/athletes.dto.ts:26 | a password is a string of at least 8 UTF-16 code units and is not trimmed |
| PeopleDtos.EmailParsed | supabase/functions/api/dtos/athletes.dto.ts:25 | an e-mail is a string whose trimmed text passes the e-mail check, and the trimmed text is kept |
| PeopleDtos.GraduationYearParsed | supabase/functions/api/dtos/athletes.dto.ts:37 | a graduation year, when given and not null, is an integer in [1900, 2100]; a missing one stays missing |
| PeopleDtos.OptionalNameParsed | supabase/functions/api/dtos/athletes.dto.ts:43-44 | an optional name, when given, is non-blank and trimmed |
| PeopleDtos.OptionalNonBlankParsed | supabase/functions/api/dtos/athletes.dto.ts:24 | a nullable optional full name parses to nothing, null, or a non-blank trimmed string (also line 45) |
| PeopleDtos.NamesTypedParsed | supabase/functions/api/dtos/athletes.dto.ts:43-44 | a parsed name part is a string |
| PeopleDtos.AthleteListPaging | supabase/functions/api/dtos/athletes.dto.ts:11-12 | an accepted athlete list filter has a limit in [1, 200] (50 when absent) and an offset of at least 0 (0 when absent) |
| PeopleDtos.AthleteListIds | supabase/functions/api/dtos/athletes.dto.ts:7-10 | the athlete list needs a UUID org id, and a given team id is a UUID too |
| PeopleDtos.GetAthleteById | supabase/functions/api/dtos/athletes.dto.ts:15-17 | a lookup by id needs a UUID athlete id |
| PeopleDtos.CreateAthleteNonBlank | supabase/functions/api/dtos/athletes.dto.ts:22-32 | the names, gender and guardian details of a created athlete are non-blank once trimmed, and kept trimmed |
| PeopleDtos.CreateAthleteEmails | supabase/functions/api/dtos/athletes.dto.ts:25-30 | the athlete's and the guardian's e-mails pass the e-mail check once trimmed, and are kept trimmed |
| PeopleDtos.CreateAthletePassword | supabase/functions/api/dtos/athletes.dto.ts:26 | the password of a created athlete has at least 8 characters and is not trimmed |
| PeopleDtos.CreateAthleteRelationship | supabase/functions/api/dtos/athletes.dto.ts:33-36 | the relationship is one of the seven listed values |
| PeopleDtos.CreateAthleteGraduationYear | supabase/functions/api/dtos/athletes.dto.ts:37 | a given, non-null graduation year is an integer in [1900, 2100] |
| PeopleDtos.CreateAthleteFullName | supabase/functions/api/dtos/athletes.dto.ts:24 | a parsed full name is missing, null or a non-blank trimmed string |
| PeopleDtos.UpdateAthleteNeedsChange | supabase/functions/api/dtos/athletes.dto.ts:40-58 | an athlete update is accepted exactly when its fields are and some field is defined (null counts); otherwise "No updates provided" |
| PeopleDtos.UpdateAthleteNamesTyped | supabase/functions/api/dtos/athletes.dto.ts:43-44 | the parsed name parts of an athlete update are strings |
| PeopleDtos.UpdateAthleteGraduationYear | supabase/functions/api/dtos/athletes.dto.ts:48 | a given, non-null graduation year in an update is an integer in [1900, 2100] |
| PeopleDtos.EmptyAthleteUpdateRefused | supabase/functions/api/dtos/athletes.dto.ts:50-57 | the update {} is refused |
| PeopleDtos.CoachListPaging | functions/api/dtos/coaches.dto.ts:10-11 | an accepted coach list filter has a limit in [1, 200] (50 when absent) and an offset of at least 0 (0 when absent) |
| PeopleDtos.CoachIds | functions/api/dtos/coaches.dto.ts:7 | the org id of a coach listing, the id of a coach lookup and a given user id of an update are UUIDs (also lines 15, 31) |
| PeopleDtos.CreateCoachNames | functions/api/dtos/coaches.dto.ts:20-21 | the names of a created coach are non-blank once trimmed, and kept trimmed |
| PeopleDtos.CreateCoachCredentials | functions/api/dtos/coaches.dto.ts:23-24 | a created coach has an e-mail passing the e-mail check once trimmed and a password of at least 8 characters |
| PeopleDtos.UpdateCoachNeedsChange | functions/api/dtos/coaches.dto.ts:29-46 | a coach update is accepted exactly when its fields are and some field is defined (null counts); otherwise "No updates provided" |
| PeopleDtos.UpdateCoachNamesTyped | functions/api/dtos/coaches.dto.ts:32-33 | the parsed name parts of a coach update are strings |
| OrgUsers.PhoneOf | supabase/functions/api/services/users.service.ts:11-13 | a non-null cell number is the phone |
| OrgUsers.PhonePrecedence | supabase/functions/api/services/users.service.ts:11-13 | the phone is null exactly when neither number is given; otherwise it is one of the two, and the phone only when no cell number is given |
| OrgUsers.WithUser | supabase/functions/api/services/users.service.ts:42-52 | the rows kept all have a truthy user id and come from the input |
| OrgUsers.WithUserKeeps | supabase/functions/api/services/users.service.ts:42-52 | no row with a user id is dropped |
| OrgUsers.AthleteUsers | supabase/functions/api/services/users.service.ts:41-49 | one athlete per row with a user id |
| OrgUsers.CoachUsers | supabase/functions/api/services/users.service.ts:51-59 | one coach per row with a user id |
| OrgUsers.ByNameThenIdPreorder | supabase/functions/api/services/users.service.ts:61-65 | comparing by full name and then by user id is a total preorder when the string comparison is |
| OrgUsers.ListOrgUsers | supabase/functions/api/services/users.service.ts:15-68 | the count is the number of users listed, and a failure lists none |
| OrgUsers.ListOrgUsersErrors | supabase/functions/api/services/users.service.ts:18-39 | the listing fails exactly without the client or when a query fails, with the athletes' error before the coaches' |
| OrgUsers.ListOrgUsersSorted | supabase/functions/api/services/users.service.ts:41-67 | a successful listing is the athletes and coaches with a user id, as a sorted permutation by full name and then user id, and counts them |
| OrgUsers.AthleteUsersFromRows | supabase/functions/api/services/users.service.ts:41-49 | an athlete is listed exactly for each athlete row with a user id |
| OrgUsers.CoachUsersFromRows | supabase/functions/api/services/users.service.ts:51-59 | a coach is listed exactly for each coach row with a user id |
| OrgUsers.ListOrgUsersMembers | supabase/functions/api/services/users.service.ts:41-67 | every listed user comes from a row with a truthy user id (coaches without a graduation year), and every such row is listed |
| Patches.PatchOfSpec | supabase/functions/api/services/athletes.service.ts:221-228 | the patch holds exactly the columns whose field is supplied, each with that field's value |
| Patches.BuildPatch | supabase/functions/api/services/athletes.service.ts:221-228 | the column-by-column copy builds the specified patch |
| Dedup.FirstByKeyKeys | supabase/functions/api/services/athletes.service.ts:24-39 | de-duplicating keeps the same keys, each exactly once |
| Dedup.FirstByKeyFirst | supabase/functions/api/services/athletes.service.ts:31 | every kept element is the first element with its key |
| Dedup.FirstByKeyOrder | supabase/functions/api/services/athletes.service.ts:50 | the kept elements appear in the order of their first occurrences |
| Dedup.FirstByKeyMember | supabase/functions/api/services/athletes.service.ts:31-36 | every element's key survives de-duplication, and an element with no earlier element of its key is itself kept |
| Dedup.UniqueSpec | supabase/functions/api/services/plans.service.ts:165 | the unique list has the same members, each once, in order of first occurrence |
| Dedup.UniqueOrder | supabase/functions/api/services/plans.service.ts:165 | wherever a string occurs in the input, every string before it in the unique list has already occurred |
| Sorting.SortBySorted | supabase/functions/api/services/users.service.ts:61-65 | sorting by a total preorder yields a sorted permutation of the input |
| Sorting.SortByStable | supabase/functions/api/services/users.service.ts:61-65 | elements the comparator ties keep their input order (the sort is stable) |
| Sorting.SortDescending | supabase/functions/api/services/evaluations.service.ts:349-353 | sorting newest first puts larger keys first and keeps every element |
| Sorting.Page | supabase/functions/api/services/evaluations.service.ts:355 | a page holds at most `limit` elements, those of the list from `offset` on, and is empty past the end |
| Sorting.PagesTile | supabase/functions/api/services/evaluations.service.ts:355 | consecutive pages tile the list |
| Text.Trim | supabase/functions/api/controllers/auth.controller.ts:139 | a trimmed string has no white space at either end and is no longer than the original |
| Text.TrimIdempotent | supabase/functions/api/controllers/auth.controller.ts:10 | trimming twice is trimming once |
| Text.BlankIffAllSpace | supabase/functions/api/utils/guards.ts:83 | a string is blank after trimming exactly when every character is white space |
| Text.Lower | supabase/functions/api/controllers/auth.controller.ts:196-197 | lower-casing keeps the length and lower-cases each character |
| Text.Utf16Length | supabase/functions/api/dtos/athletes.dto.ts:26 | `.length` counts UTF-16 code units: at least one and at most two per character |
| Text.Utf16LengthBmp | supabase/functions/api/dtos/athletes.dto.ts:26 | the UTF-16 length is the character count exactly when every character lies in the Basic Multilingual Plane |
| Text.Utf16LengthConcat | supabase/functions/api/dtos/athletes.dto.ts:26 | the UTF-16 length of a concatenation is the sum of the lengths |
| Text.Split | functions/api/routes/router.ts:43-44 | a split always yields at least one piece |
| Text.SplitPiecesFree | functions/api/routes/router.ts:43-44 | no piece of a split contains the separator |
| Text.JoinSplit | functions/api/routes/router.ts:43-44 | joining the pieces of a split with the same separator gives the string back |
| Text.NonEmptyMembers | functions/api/routes/router.ts:43-44 | `filter(Boolean)` keeps exactly the non-empty pieces |
| Text.ContainsAt | supabase/functions/api/controllers/auth.controller.ts:41 | `includes` finds exactly the substrings that occur at some index (also lines 102-109) |
| Json.Get | supabase/functions/api/services/users.service.ts:12 | a property is found only on an object that has the key, and then is its value |
| Json.OrElse | supabase/functions/api/services/users.service.ts:12 | `a ?? b` is `a` unless it is missing or null, and then `b` |
| Json.ElementsOf | supabase/functions/api/services/users.service.ts:41-51 | `(v ?? [])` as a list is the array's elements |
| Json.AsString | supabase/functions/api/controllers/auth.controller.ts:167 | a value yields a string exactly when it is one |
| Json.ToNumber | supabase/functions/api/services/evaluations.service.ts:1036-1041 | `Number(v)`: a number is itself, `undefined` is NaN, `null` is 0, a string is read as a number literal, a plain object is NaN, and an array is read through its text (also line 1356) |
| Json.ArrayToNumber | supabase/functions/api/services/evaluations.service.ts:1036-1041 | `Number(array)`: `[]` reads "", a single number is itself, a single string is read as a literal, two or more elements are NaN |
| Json.ArrayNumberIsTextNumber | supabase/functions/api/services/evaluations.service.ts:1036-1041 | for a number reader that reads back number text and finds no number in a text with a comma, `Number(array)` is the number `String(array)` reads as |
| Json.Stringify | supabase/functions/api/controllers/evaluations.controller.ts:138 | `String(v)` of a string is the string itself (also line 187) |
| Zod.StrParse | supabase/functions/api/dtos/athletes.dto.ts:22-32 | a string schema accepts exactly the strings whose (trimmed) text meets its bounds, counted in UTF-16 code units as `.length` counts, and its format, and yields that text |
| Zod.IntParse | supabase/functions/api/dtos/athletes.dto.ts:37 | an integer schema accepts exactly the integral numbers within its bounds, and yields that number |
| Zod.PagingFieldParse | supabase/functions/api/dtos/athletes.dto.ts:11-12 | a coerced paging field that is missing gives the default; otherwise `Number(v)` must be an integer within the bounds, and is the value |
| Zod.OptionalNullableParse | supabase/functions/api/dtos/athletes.dto.ts:24-28 | a missing field always passes `.optional()`, and null always passes `.nullable()` |
| Zod.ArrParse | functions/api/dtos/plans.dto.ts:40 | every element of an accepted array passes the element schema, and the output keeps length and order |
| Zod.ObjParse | supabase/functions/api/dtos/athletes.dto.ts:19-38 | an object schema accepts an object exactly when every field passes, and the output holds a field's key exactly when its parsed value is defined |
| Zod.FieldParsed | supabase/functions/api/dtos/athletes.dto.ts:19-38 | one field of an accepted object passed its schema, and the output holds what that schema yielded |
| Zod.TrimmedField | supabase/functions/api/dtos/athletes.dto.ts:8-23 | a given value of a trimmed-string field is trimmed, checked and kept |
| Zod.TrimmedDefault | functions/api/dtos/plans.dto.ts:41 | a missing value of a trimmed-string field with a default is that default |
| Zod.EnumFieldDefault | functions/api/dtos/plans.dto.ts:50 | a missing value of an enum field with a default is the default, and a given one is kept |
| Zod.EmptyListDefault | functions/api/dtos/plans.dto.ts:91-92 | a missing or empty list field with the default [] is read as [] |
| Zod.GivenField | supabase/functions/api/dtos/athletes.dto.ts:24 | a given, non-null value of an optional field passed the wrapped schema, which yielded the output (also lines 42-48) |
| Zod.ObjOutputKeys | supabase/functions/api/dtos/athletes.dto.ts:19-38 | an accepted object holds no key outside its schema |
| Zod.SomeFieldDefined | supabase/functions/api/dtos/athletes.dto.ts:51 | some value of an object of optional fields is defined exactly when some field is given |
| Zod.RefineParse | supabase/functions/api/dtos/athletes.dto.ts:50-58 | a refinement accepts what its inner schema accepts and the predicate holds of, and then yields the inner result unchanged |
| Schemas.DeclaredRole | supabase/functions/api/schemas/schemas.ts:46 | a body declares a role exactly when its `role` is a string |
| Schemas.LiteralGate | supabase/functions/api/schemas/schemas.ts:12 | an object schema with a literal field accepts only bodies holding exactly that literal, and passes it on (also lines 25, 36) |
| Schemas.RoleDispatch | supabase/functions/api/schemas/schemas.ts:46 | a union of three shapes told apart by their `role` literal is decided by `role` alone |
| Schemas.SignUpDispatch | supabase/functions/api/schemas/schemas.ts:11-46 | a signup is parsed by the athlete, coach or parent shape as its role says; any other role, or none, is refused |
| Schemas.UnionTerms | supabase/functions/api/schemas/schemas.ts:21 | any accepted signup declares one of the three roles and carries `termsAccepted: true` (also lines 32, 43) |
| Schemas.SignUpTerms | supabase/functions/api/schemas/schemas.ts:11-46 | in an accepted signup the role is one of the three and `termsAccepted` is exactly true |
| Schemas.UnionPassword | supabase/functions/api/schemas/schemas.ts:8 | each shape passes the password on untrimmed, and only with at least 8 UTF-16 code units (also lines 15, 28, 39) |
| Schemas.SignUpPassword | supabase/functions/api/schemas/schemas.ts:8 | the password of every accepted signup has at least 8 UTF-16 code units (so four emoji pass) and is passed on untrimmed (also line 46) |
| Schemas.GraduationYearField | supabase/functions/api/schemas/schemas.ts:19 | a graduation year field is `Number(x)`, an integer in [1900, 2100] |
| Schemas.AthleteGraduationYear | supabase/functions/api/schemas/schemas.ts:19 | an accepted athlete's graduation year is `Number(graduationYear)`, an integer in [1900, 2100] |
| Schemas.StringListField | supabase/functions/api/schemas/schemas.ts:20 | a non-empty list of strings, kept as given |
| Schemas.AthletePositions | supabase/functions/api/schemas/schemas.ts:20 | an accepted athlete lists at least one position, each a string, kept as given |
| Schemas.MemberHasNoAthleteFields | supabase/functions/api/schemas/schemas.ts:24-45 | coaches and parents carry neither a graduation year nor positions into the output |
| Schemas.TrimmedNameIsNamed | supabase/functions/api/schemas/schemas.ts:51-66 | a non-blank trimmed name passes the edge function's name check with the same text |
| Schemas.UuidStringGiven | supabase/functions/api/schemas/schemas.ts:3-6 | a string matching the UUID pattern passes the edge function's UUID check |
| Schemas.NamedField | supabase/functions/api/schemas/schemas.ts:51-66 | a `trim().min(1)` field's given text and its trimmed output both pass the edge function's name check |
| Schemas.UuidGivenField | supabase/functions/api/schemas/schemas.ts:54-64 | a required UUID field holds a UUID string, kept as given |
| Schemas.OptionalUuidField | supabase/functions/api/schemas/schemas.ts:63-65 | an optional UUID field is kept as given, and is a UUID string when given and not null |
| Schemas.ListField | supabase/functions/api/schemas/schemas.ts:60-69 | a non-empty array field has at least one element, each accepted, parsed element by element in order |
| Schemas.PositionField | supabase/functions/api/schemas/schemas.ts:53-59 | a position, when given, is an integer of at least 1, kept as given; otherwise it stays missing |
| Schemas.SubskillAccepted | supabase/functions/api/schemas/schemas.ts:50-55 | an accepted subskill, and what it parses to, both pass the edge function's subskill checks |
| Schemas.SubskillPosition | supabase/functions/api/schemas/schemas.ts:53 | a subskill's position is kept as given, and when given is a positive integer |
| Schemas.CategoryParsed | supabase/functions/api/schemas/schemas.ts:56-61 | an accepted category has a name and at least one subskill, each accepted; the output lists their parses in order |
| Schemas.CategoryPosition | supabase/functions/api/schemas/schemas.ts:59 | a category's position is kept as given, and when given is a positive integer |
| Schemas.CategoryAccepted | supabase/functions/api/schemas/schemas.ts:56-61 | an accepted category, and what it parses to, both pass the edge function's category checks |
| Schemas.TemplateOrg | supabase/functions/api/schemas/schemas.ts:64 | the template's organisation is a UUID, and is kept |
| Schemas.TemplateCreator | supabase/functions/api/schemas/schemas.ts:63 | the template's creator is kept, and is a UUID string when given |
| Schemas.TemplateSport | supabase/functions/api/schemas/schemas.ts:65 | the template's sport is kept, and is a UUID when given and not null |
| Schemas.TemplateCategories | supabase/functions/api/schemas/schemas.ts:66-69 | an accepted template has a name and at least one category, each accepted; the output lists their parses in order |
| Schemas.TemplateSchemaStricterThanEdge | supabase/functions/api/schemas/schemas.ts:62-70 | the schema is at least as strict as the edge function's checks: an accepted body, and its parse, pass them with a Bearer token, and without one when `createdBy` is given |
| ScorecardTemplates.NameOf | functions/scorecards-create-template/index.ts:102 | a value is a name exactly when it is a non-blank string, whose trimmed text is kept; a truthy non-string is told apart (also lines 113, 125) |
| ScorecardTemplates.PositionOf | functions/scorecards-create-template/index.ts:120-135 | a finite given position is kept, and a missing one is the 1-based index |
| ScorecardTemplates.NormalizeSubskills | functions/scorecards-create-template/index.ts:123-142 | one normalised subskill per subskill |
| ScorecardTemplates.NormalizeCategories | functions/scorecards-create-template/index.ts:111-150 | one normalised category per category |
| ScorecardTemplates.FirstFaultAt | functions/scorecards-create-template/index.ts:111-134 | the first failing check is the one reported |
| ScorecardTemplates.FirstFaultStep | functions/scorecards-create-template/index.ts:111-134 | one more check either passes too or is the first fault |
| ScorecardTemplates.FirstFaultPass | functions/scorecards-create-template/index.ts:111-134 | there is no fault exactly when every check passes |
| ScorecardTemplates.SubskillCheck | functions/scorecards-create-template/index.ts:125-134 | a subskill passes exactly when it has a non-blank name and a UUID `skill_id` |
| ScorecardTemplates.SubskillChecks | functions/scorecards-create-template/index.ts:123-134 | one check per subskill |
| ScorecardTemplates.CategoryChecks | functions/scorecards-create-template/index.ts:111-118 | one check per category |
| ScorecardTemplates.NormalizeSubskillsSnoc | functions/scorecards-create-template/index.ts:136-141 | normalising one more subskill appends its normalised form |
| ScorecardTemplates.CheckSubskills | functions/scorecards-create-template/index.ts:121-142 | the inner loop reports the first failing subskill and otherwise yields the normalised subskills |
| ScorecardTemplates.CheckCategory | functions/scorecards-create-template/index.ts:112-149 | one pass of the outer loop reports the category's first fault and otherwise yields the normalised category |
| ScorecardTemplates.ValidateTemplate | functions/scorecards-create-template/index.ts:85-159 | the step-by-step validation reaches the specified verdict |
| ScorecardTemplates.NormalizeCategoriesSnoc | functions/scorecards-create-template/index.ts:144-149 | normalising one more category appends its normalised form |
| ScorecardTemplates.CheckCategories | functions/scorecards-create-template/index.ts:110-150 | the outer loop reports the first failing category and otherwise yields the normalised categories |
| ScorecardTemplates.HeaderCheckPass | functions/scorecards-create-template/index.ts:85-107 | the body's own checks pass exactly when its creator (without a Bearer header), organisation, sport, name and categories are well formed |
| ScorecardTemplates.SubskillsPass | functions/scorecards-create-template/index.ts:123-134 | all subskill checks pass exactly when every subskill is well formed |
| ScorecardTemplates.CategoryCheckPass | functions/scorecards-create-template/index.ts:112-134 | a category's checks pass exactly when it and all its subskills are well formed |
| ScorecardTemplates.CategoriesPass | functions/scorecards-create-template/index.ts:111-134 | all category checks pass exactly when every category is well formed |
| ScorecardTemplates.AcceptedIffBodyOk | functions/scorecards-create-template/index.ts:85-159 | a body is accepted exactly when it meets every condition |
| ScorecardTemplates.FirstFailingCategoryReported | functions/scorecards-create-template/index.ts:111-134 | when the body's own fields pass, the request is refused for the first failing category, with its message |
| ScorecardTemplates.FirstFaultIsOne | functions/scorecards-create-template/index.ts:111-134 | a reported fault is one of the checks |
| ScorecardTemplates.CategoryRefusalLabelled | functions/scorecards-create-template/index.ts:114-130 | a refused category's message names its index, and a refused subskill's names both indexes |
| ScorecardTemplates.AcceptedCategoryShape | functions/scorecards-create-template/index.ts:120 | in an accepted template each category is sent with its trimmed name, its given position or the 1-based index, and one entry per subskill (also lines 144-149) |
| ScorecardTemplates.AcceptedSubskillShape | functions/scorecards-create-template/index.ts:135-141 | in an accepted template each subskill is sent with its trimmed name, its description or null, its position or the 1-based index, and its `skill_id` as given |
| ScorecardTemplates.FirstMatchAt | functions/scorecards-create-template/index.ts:182-190 | the message of the first code the text contains is chosen |
| ScorecardTemplates.FirstMatchNone | functions/scorecards-create-template/index.ts:182-190 | no message is chosen exactly when the text contains none of the codes |
| ScorecardTemplates.FailureTextKnown | functions/scorecards-create-template/index.ts:180-192 | a failure whose text contains a known code is reported with the message of the first code it contains |
| ScorecardTemplates.FailureTextFallback | functions/scorecards-create-template/index.ts:181-192 | a failure that contains none of the codes is reported as "Failed to create template: " and its text ("RPC returned no data" when there is none) |
| ScorecardTemplates.FirstRow | functions/scorecards-create-template/index.ts:195 | `rpcData[0]`: an array's first element, a string's first character, an object's key "0", undefined otherwise |
| ScorecardTemplates.RpcReply | functions/scorecards-create-template/index.ts:180-196 | 500 with the failure text exactly when the call failed or its data has no truthy `length` (a non-empty array or string, or an object with a truthy `length`); otherwise a throw exactly when the first row is null or undefined, and 201 with that row's `template_id` when it is not |
| ScorecardTemplates.EdgeCall | functions/scorecards-create-template/index.ts:162-173 | the call carries the template, and `p_created_by` exactly unless there is a Bearer header and an anon key |
| ScorecardTemplates.EdgeCreate | functions/scorecards-create-template/index.ts:59-197 | OPTIONS is the preflight, any method but POST is 405; a POST is 500 when the URL or service key is missing, then 400 "Invalid JSON body" without a JSON body, then 400 with the refusal text for a refused body (a crash where the checks throw); the RPC is called exactly for a POST on a configured function with a JSON body that passes the checks, and then the reply is the RPC's |
| ScorecardTemplates.EdgeCreatedByIsUuid | functions/scorecards-create-template/index.ts:87-93 | without a Bearer header, a `p_created_by` that is sent is the body's `createdBy` and a UUID (also line 173) |
| ScorecardControllers.SupabaseCreate | supabase/functions/api/controllers/scorecard.controller.ts:16-79 | a method other than POST is refused, an invalid body gets its Zod issues; the RPC is called exactly for a valid body and an authenticated caller, in the caller's name, and the reply is the RPC's |
| ScorecardControllers.FunctionsCreate | functions/api/controllers/scorecard.controller.ts:8-70 | the RPC is called exactly for a valid body that has `createdBy` or comes with a Bearer token; `p_created_by` is sent exactly without a Bearer token; the reply is the RPC's |
| ScorecardControllers.ControllerCreate | functions/api/controllers/scorecardsController.ts:6-66 | as the `functions/api` handler, except that `p_created_by` is left out only when there is a Bearer token and an anon key |
| ScorecardControllers.FunctionsCreatedBy | functions/api/controllers/scorecard.controller.ts:19-24 | without a Bearer token the handler needs `createdBy` and sends it, a UUID string (also line 50) |
| ScorecardControllers.ControllerCreatedByMayBeMissing | functions/api/controllers/scorecardsController.ts:17-21 | with a Bearer token but no anon key and no `createdBy`, the call still passes `p_created_by`, without a value (also line 46) |
| ScorecardControllers.CreatePayloadAsEdge | supabase/functions/api/controllers/scorecard.controller.ts:35-54 | each handler sends the payload the edge function would build from the parsed body, and the edge function would accept that body |
| ScorecardControllers.SubskillPositionPositive | supabase/functions/api/controllers/scorecard.controller.ts:42 | a parsed subskill is sent with a positive integral position |
| ScorecardControllers.CategoryPositionPositive | supabase/functions/api/controllers/scorecard.controller.ts:38 | a parsed category is sent with a positive integral position |
| ScorecardControllers.CategorySubskillPositions | supabase/functions/api/controllers/scorecard.controller.ts:39-44 | the subskills of a parsed category are all sent with positive integral positions |
| ScorecardControllers.CreatePositionsPositive | supabase/functions/api/controllers/scorecard.controller.ts:35-45 | every position a create handler sends is a positive integer, the given one or the 1-based index |
| ScorecardControllers.Param | supabase/functions/api/controllers/scorecard.controller.ts:91-96 | a query parameter is present exactly when the query has the key |
| ScorecardControllers.IntParam | supabase/functions/api/controllers/scorecard.controller.ts:97-98 | `parseInt(raw ?? fallback, 10) \|\| d` is the parsed number unless it is NaN or 0, and then `d` |
| ScorecardControllers.LimitOf | supabase/functions/api/controllers/scorecard.controller.ts:97 | a limit always lies in [1, hi], and an in-range parsed value is kept (also lines 132-135) |
| ScorecardControllers.OffsetOf | supabase/functions/api/controllers/scorecard.controller.ts:98 | an offset is never negative, and a non-negative parsed value is kept |
| ScorecardControllers.TemplatePaging | supabase/functions/api/controllers/scorecard.controller.ts:95-98 | the template listing's limit lies in [1, 200] and is 10 when missing, not a number or 0, clamped at the bounds; the offset is 0 when not a number |
| ScorecardControllers.ChildPaging | supabase/functions/api/controllers/scorecard.controller.ts:130-136 | the category and subskill listings' limit lies in [1, 500] and is 100 when missing, not a number or 0, clamped at 500 |
| ScorecardControllers.ListReplyOf | supabase/functions/api/controllers/scorecard.controller.ts:110-111 | a query error is a 500 with its message; otherwise 200 with the count and the items, [] for none |
| ScorecardControllers.ListTemplates | supabase/functions/api/controllers/scorecard.controller.ts:82-112 | a method other than GET is refused; the listing is queried exactly when an organisation is found (context first, then the query), else "org_id (UUID) is required" |
| ScorecardControllers.ListTemplatesContextFirst | supabase/functions/api/controllers/scorecard.controller.ts:91 | the context's organisation wins over the query's |
| ScorecardControllers.ListChildren | supabase/functions/api/controllers/scorecard.controller.ts:117-196 | a method other than GET is refused; the listing is queried exactly for a UUID organisation (where checked) and a non-blank parent id |
| ScorecardControllers.ListChildrenNeedsParent | supabase/functions/api/controllers/scorecard.controller.ts:142-144 | a valid organisation but a missing or blank parent id is refused with a message naming the parent parameter (also lines 182-184) |
| AuthController.RemoveSpaces | supabase/functions/api/controllers/auth.controller.ts:10 | removing white space leaves no white space, never lengthens the text and leaves a text without white space unchanged |
| AuthController.NormalizeShape | supabase/functions/api/controllers/auth.controller.ts:10 | a normalized position has no white space and no upper-case letter |
| AuthController.RemoveSpacesKeepsLower | supabase/functions/api/controllers/auth.controller.ts:10 | removing white space adds no upper-case letter |
| AuthController.NormalizeFixed | supabase/functions/api/controllers/auth.controller.ts:10 | a text already in normal form is its own normal form |
| AuthController.NormalizeIdempotent | supabase/functions/api/controllers/auth.controller.ts:10 | normalizing twice is normalizing once |
| AuthController.NormalizedPositions | supabase/functions/api/controllers/auth.controller.ts:51 | one normalized position per given position |
| AuthController.PositionsAllowedEach | supabase/functions/api/controllers/auth.controller.ts:8 | the positions pass exactly when every normalized one is among the five allowed (also lines 52-53) |
| AuthController.NewUserOf | supabase/functions/api/controllers/auth.controller.ts:24-37 | the new auth user gets the body's e-mail, password and role, and athlete metadata exactly for an athlete |
| AuthController.CreateFailureReply | supabase/functions/api/controllers/auth.controller.ts:39-43 | a failed user creation is a 409 exactly when the lower-cased message says the user is already registered, and otherwise a 500 |
| AuthController.RegisterFailureReply | supabase/functions/api/controllers/auth.controller.ts:101-110 | a failed registration is a 400 or a 500 |
| AuthController.RegisterCall | supabase/functions/api/controllers/auth.controller.ts:47-91 | the registration RPC gets the new user's id and accepted terms, and positions (and a graduation year) only for an athlete |
| AuthController.FirstRow | supabase/functions/api/controllers/auth.controller.ts:96 | the spread row is the RPC's first row when there is one, else {} |
| AuthController.WelcomeBody | supabase/functions/api/controllers/auth.controller.ts:97 | the 201 body holds `ok`, `user_id`, `role`, the spread row's keys and the welcome message, which no row can override |
| AuthController.Register | supabase/functions/api/controllers/auth.controller.ts:47-111 | the registration RPC is called for the new user, and the user is deleted exactly when that RPC fails |
| AuthController.Signup | supabase/functions/api/controllers/auth.controller.ts:12-112 | a user is created exactly for a POST whose body passes the signup schema |
| AuthController.SignupAfterParse | supabase/functions/api/controllers/auth.controller.ts:13-53 | a user is created exactly for a POST with a valid body; a reported user id is the non-empty id the auth service returned |
| AuthController.IntendedSignup | supabase/functions/api/controllers/auth.controller.ts:12-112 | with the position check moved before user creation, a user is created only for a POST with a valid body |
| AuthController.IntendedSignupAfterParse | supabase/functions/api/controllers/auth.controller.ts:24-53 | with the position check first, no failed sign-up leaves a created auth user behind |
| AuthController.SignupInvalidPositionsKeepUser | supabase/functions/api/controllers/auth.controller.ts:44-53 | as written, an athlete with a position outside the allowed five gets a 400 after the auth user was created, and that user is not deleted |
| AuthController.IntendedSignupAgrees | supabase/functions/api/controllers/auth.controller.ts:12-112 | the intended sign-up replies as the handler does except for rejected positions, which it refuses with the same message before creating anyone |
| AuthController.SignupCreateFailure | supabase/functions/api/controllers/auth.controller.ts:39-43 | a failed user creation ends the sign-up with 409 "Email already registered" or 500 "Failed to create user: …", registering nothing |
| AuthController.SignupRollback | supabase/functions/api/controllers/auth.controller.ts:47-111 | the registration RPC runs exactly for a created user whose athlete positions are all allowed; the auth user is deleted exactly when the RPC fails, and the reply is then the mapped error |
| AuthController.RegisterFailureKnown | supabase/functions/api/controllers/auth.controller.ts:102-109 | an error containing a known code is a 400 with the message of the first code it contains |
| AuthController.RegisterFailureUnknown | supabase/functions/api/controllers/auth.controller.ts:110 | an error with none of the codes is a 500 "Signup failed: " plus its text |
| AuthController.SignupWelcome | supabase/functions/api/controllers/auth.controller.ts:94-97 | a successful sign-up is a 201 with the welcome message, the new user id and `ok: true` unless the RPC's row overrides them, and every other key of that row |
| AuthController.SignupAthleteArgs | supabase/functions/api/controllers/auth.controller.ts:50-91 | an athlete is registered with the normalized, all-allowed positions; coaches and parents with their own RPC and no positions; always with the user id and accepted terms |
| AuthController.UserIdOf | supabase/functions/api/controllers/auth.controller.ts:123-127 | the id is "" or the string under `user_id`, `userId` or `userid`; a string `user_id` wins; `userId` decides only when `user_id` is not a string, `userid` only when neither is; "" when no key holds a string |
| AuthController.FirstString | supabase/functions/api/controllers/auth.controller.ts:123-127 | the string of the first value in a list that holds one, "" when none does (the reference for the chain of `typeof … === "string"` tests) |
| AuthController.UserIdPrecedence | supabase/functions/api/controllers/auth.controller.ts:123-127 | the user id is the first string in the list `user_id`, `userId`, `userid` |
| AuthController.ParentByEmail | supabase/functions/api/controllers/auth.controller.ts:173-201 | a user is taken for a parent only when both the user id and the organization are known |
| AuthController.RoleIds | supabase/functions/api/controllers/auth.controller.ts:203-230 | a coach id is reported only to a coach and an athlete id only to an athlete |
| AuthController.Login | supabase/functions/api/controllers/auth.controller.ts:114-244 | the step-by-step login reaches the specified reply |
| AuthController.LoginNeedsOwnToken | supabase/functions/api/controllers/auth.controller.ts:114-165 | a login succeeds only for a POSTed object with an accepted user id, a Bearer token of exactly that user, configured clients, and a stored profile |
| AuthController.LoginTokenFailures | supabase/functions/api/controllers/auth.controller.ts:134-152 | no usable token, a token of nobody and a token of someone else are each a 401 with its own message |
| AuthController.LoginRole | supabase/functions/api/controllers/auth.controller.ts:167-217 | the role is "parent" when the default organization's athlete and guardian contact rows of the user carry the same e-mail, and otherwise the profile's role or null |
| AuthController.LoginProfileFields | supabase/functions/api/controllers/auth.controller.ts:232-243 | the reported user carries the profile's id, e-mail, full name and default organization |
| AuthController.LoginRoleIds | supabase/functions/api/controllers/auth.controller.ts:203-230 | the coach id is the user's coach row id for a coach, the athlete id the user's athlete row id for an athlete, and null otherwise |
| AuthController.LoginParentHasNoIds | supabase/functions/api/controllers/auth.controller.ts:173-230 | a parent gets neither a coach id nor an athlete id |

## Left out

- Supabase client calls (`.from`, `.rpc`, `.storage`, `.auth`): their results are inputs to the handlers, or abstract functions of the ids they filter on. The database is external.
- PostgREST filter semantics (`.eq`, `.ilike`, `.range`, `!inner` embeds, `NULLS FIRST` ordering): a query's returned rows, their order and its `count` are inputs. Only the work the code does on them is modelled.
- Database error shapes: where a query's failure is modelled, it is an error message; codes, hints and details are not modelled.
- Failed reads: in Plans.PlanTables.InvitePlanMembers (the plan, athlete, coach, member, auth and pending-invitation reads) and in EvaluationMatrix.EvaluationStore.ApplyMatrixUpdate (the read of the evaluation) a read is taken to succeed. A failed read returns before any write in the source, so only which error is answered is not modelled. Every write of these methods, and of Plans.PlanTables.UpdatePlan and Drills.DrillTables.UpdateDrill, takes its error as an input, with the earlier writes kept.
- The auth-user creation and rollback chains of `createAthlete`/`createCoach`, `functions/auth-signup/index.ts`, `functions/org-signup/index.ts` and the org controller: these are sequences of external calls with best-effort cleanup. Only the sign-up ordering in `auth.controller.ts` is modelled.
- `Promise.all` in `invitePlanMembers` and `listOrgUsers`: the reads are independent, so they are modelled as sequential reads.
- HTTP and CORS plumbing (request and response objects, header merging, `corsHeaders`, `OPTIONS` answers): outcomes are a status code and a body value.
- `console` logging: it has no effect on results.
- The server entry points (`supabase/functions/api/index.ts`, `functions/api/index.ts`) and their sub-path stripping, and the `*.router.ts` files that only register routes.
- The controllers that only validate and forward (athletes, coaches, plans, teams, users, and the supabase skills controller), `functions/api/services/teams.service.ts`, the scorecards services and `getAthleteById`/`getCoachById`/`getEvaluationById`/`getDrillById`: they add no logic beyond the external reads.
- EvaluationMatrix.EvaluationStore.ApplyMatrixUpdate: answers the stored evaluation row, not the re-read detail of `getEvaluationById` with items, athletes and template, and its "Evaluation not found after matrix update" throw when the re-read is empty is not modelled.
- Drills.DrillTables.UpdateDrill: answers the stored drill row, not the mapped drill of `getDrillById`, and that read's error is not modelled.
- `supabase/functions/api/utils/http.ts` is not part of this model: its helpers are taken to answer as `functions/api/utils/http.ts` does. So `methodNotAllowed(["POST"])` is a 405 with "Method not allowed. Allowed: POST", and `internalError` is a 500 carrying the error's message.
- `config/env.ts` is not part of this model: `SKILLS_MEDIA_BUCKET` and the anon key are parameters.
- `AuthLoginSchema` is not part of this model: the login's user-id check is an abstract predicate `acceptsUserId`.
- `getPlanAccess` and `isPlanMember`, imported by `guards.ts`, are not part of this model: plan access and membership are abstract oracles.
- Dates and clocks: `Intl.DateTimeFormat`, the `Date`-based date normalisation and `dateNotInFuture` read locale or wall-clock state. `Date.parse` timestamps are integers given as inputs.
- `crypto.randomUUID()` is a parameter of the media-path builders; `decodeURIComponent` and `Number.parseInt` are parameters too. `decodeURIComponent` is partial: None stands for the URIError it throws, which both routers' `handle` lets escape as an error result. The 500 that the entry point's catch turns it into is not modelled, because the entry points are not.
- MediaPaths.ParseStorageObjectUrl: `new URL(...)` is not modelled; the parsed pathname (or its absence for an invalid URL) is the input.
- Zod's library validators (`.email()`, `.url()`) are abstract predicates. Zod issue messages are an abstract `issues` text, not Zod's wording.
- Schemas.SignUpDispatch: the discriminated union is modelled as a choice by the `role` value. Zod's own message for an unknown discriminator is not modelled.
- `localeCompare` is an abstract total preorder on strings, not the ICU collation.
- `trim` and `toLowerCase` are ASCII only: Unicode white space and case mapping are not modelled.
- Floating point: `Number(...)` coercions give rationals with a distinct NaN/±Infinity case. Rounding, `MAX_SAFE_INTEGER` and precision loss are not modelled.
- EvaluationMatrix: the items table is a map keyed by (evaluation, athlete, subskill), so duplicate rows with the same key are not modelled.
- The evaluation matrix `operations` are taken already decoded.
- People: a membership whose team id is truthy but not a string is dropped, where the source would key its map by that value; team ids are UUID strings in the database. Name parts are optional strings, so a non-string first or last name is not modelled.
- AuthController: a contact row's e-mail that is not text is treated as the empty string, where `.trim()` would throw.
- Plans.PlanTables.CreatePlan: the plan insert itself is taken to succeed, so its database error and the "Failed to create plan" case of an insert that returns no row are not modelled; the item insert and its rollback are.
- AuthController: the `...out` spread is modelled for object rows; a row that is a string or an array would spread its indices, which is not modelled (it spreads nothing).
- The response headers and the header-driven response flow of the plan update handler are not modelled; its result value is.

## Findings

| source | as written | input that shows it | evidently intended | confidence | as-written member | corrected member |
|---|---|---|---|---|---|---|
| functions/api/dtos/plans.dto.ts:19-26 | the refinement requires `user_id` when `type` is "custom-plans", a value the `type` enum ("prebuild", "custom") never admits, so it never fires | `{ type: "custom" }` with no `user_id` is accepted | a custom listing must name the user whose plans it lists | not executed | PlanDtos.CustomListingWithoutUserAccepted | PlanDtos.IntendedListingNeedsUser |
| supabase/functions/api/controllers/auth.controller.ts:44-53 | the athlete position check runs after the auth user is created and returns its 400 from inside the `try`, which does not enter the `catch` holding the rollback, so the created user is never deleted | an athlete sign-up with positions `["striker"]` | reject invalid positions before creating the auth user, leaving no orphaned user behind | not executed | AuthController.SignupInvalidPositionsKeepUser | AuthController.IntendedSignupAfterParse |

=== FILE: auth.dfy ===
/**
 * The access helpers of `utils/auth.ts`: the bearer token of the
 * `Authorization` header (the `Bearer` form of section 2.1 of RFC 6750), the
 * org roles and the rule that owners and admins pass every role check, the
 * membership lookup, and `ensureUser`, which writes the authenticated user
 * into the request context.
 *
 * The auth service and the `org_memberships` table are inputs: `getUser`
 * answers a token with its user (or nothing, for an error or an unknown
 * token), `memberships` answers (user id, org id) with the active membership
 * row, if any.
 */
module Auth {
  import opened Wrappers
  import opened Text
  import opened Context

  /** The characters `.` does not match. */
  predicate IsLineTerminator(c: char) {
    c == '\n' || c == '\r' || c == '\U{2028}' || c == '\U{2029}'
  }

  /**
   * `/^Bearer\s+(.+)$/i` matches `h` with the captured group starting at `k`:
   * "bearer" in any case, at least one white-space character up to `k`, and a
   * non-empty rest free of line terminators.
   */
  predicate BearerMatchesAt(h: string, k: nat) {
    6 < k < |h|
    && Lower(h[..6]) == "bearer"
    && (forall i :: 6 <= i < k ==> IsSpace(h[i]))
    && (forall i :: k <= i < |h| ==> !IsLineTerminator(h[i]))
  }

  /** No line terminator anywhere in `s`: what `(.+)$` needs of the capture. */
  predicate OneLine(s: string) {
    forall i :: 0 <= i < |s| ==> !IsLineTerminator(s[i])
  }

  /**
   * `getBearerToken`: the trimmed text after the scheme, or null when the
   * header is absent, does not match, or leaves only white space.
   */
  function BearerToken(header: Option<string>): (r: Option<string>)
    ensures r.Some? ==> r.value != [] && !IsSpace(r.value[0]) && !IsSpace(r.value[|r.value| - 1])
  {
    var h := header.GetOr("");
    if |h| < 6 || Lower(h[..6]) != "bearer" then None else AfterScheme(h[6..])
  }

  /** What follows the scheme: white space, then a one-line token. */
  function AfterScheme(rest: string): (r: Option<string>)
    ensures r.Some? ==> r.value != [] && !IsSpace(r.value[0]) && !IsSpace(r.value[|r.value| - 1])
  {
    var t := TrimStart(rest);
    if |t| == |rest| || t == [] || !OneLine(t) then None else Some(TrimEnd(t))
  }

  /** The suffix of a one-line string is one line. */
  lemma OneLineSuffix(s: string, n: nat)
    requires n <= |s| && OneLine(s)
    ensures OneLine(s[n..])
  {
    forall i | 0 <= i < |s| - n
      ensures !IsLineTerminator(s[n..][i])
    {
      assert s[n..][i] == s[n + i];
    }
  }

  /** Leading white space of length `n` then a one-line tail: the token is the trimmed tail. */
  lemma AfterSchemeOfSplit(rest: string, n: nat)
    requires 0 < n < |rest|
    requires forall i :: 0 <= i < n ==> IsSpace(rest[i])
    requires OneLine(rest[n..])
    ensures AfterScheme(rest) == if IsBlank(rest[n..]) then None else Some(Trim(rest[n..]))
  {
    var tail := rest[n..];
    TrimStartSkip(rest, n);
    var t := TrimStart(tail);
    assert TrimStart(rest) == t;
    BlankIffTrimStartEmpty(tail);
    OneLineSuffix(tail, |tail| - |t|);
  }

  /** Wherever the expression matches, the token is the trimmed capture, or null when that is blank. */
  lemma BearerTokenOfMatch(h: string, k: nat)
    requires BearerMatchesAt(h, k)
    ensures BearerToken(Some(h)) == if IsBlank(h[k..]) then None else Some(Trim(h[k..]))
  {
    var rest := h[6..];
    assert rest[k - 6..] == h[k..];
    forall i | 0 <= i < k - 6
      ensures IsSpace(rest[i])
    {
      assert rest[i] == h[6 + i];
    }
    forall i | 0 <= i < |h| - k
      ensures !IsLineTerminator(h[k..][i])
    {
      assert h[k..][i] == h[k + i];
    }
    AfterSchemeOfSplit(rest, k - 6);
  }

  /** Every token comes from a match of the expression. */
  lemma BearerTokenMatched(h: string) returns (k: nat)
    requires BearerToken(Some(h)).Some?
    ensures BearerMatchesAt(h, k)
    ensures BearerToken(Some(h)) == Some(Trim(h[k..]))
  {
    assert |h| >= 6 && Lower(h[..6]) == "bearer";
    assert BearerToken(Some(h)) == AfterScheme(h[6..]);
    var t := TokenAfterScheme(h);
    k := |h| - |t|;
  }

  /** The text after the scheme, seen in the whole header: white space up to the token's line. */
  lemma TokenAfterScheme(h: string) returns (t: string)
    requires |h| >= 6 && AfterScheme(h[6..]).Some?
    ensures 0 < |t| < |h| - 6 && t == h[|h| - |t|..]
    ensures forall i :: 6 <= i < |h| - |t| ==> IsSpace(h[i])
    ensures forall i :: |h| - |t| <= i < |h| ==> !IsLineTerminator(h[i])
    ensures AfterScheme(h[6..]) == Some(Trim(t))
  {
    var rest := h[6..];
    t := AfterSchemeSome(rest);
    SuffixOfTail(h, 6, rest, t);
    SchemeOffsets(h, t);
  }

  /** A suffix of a tail is a suffix of the whole. */
  lemma SuffixOfTail(h: string, n: nat, rest: string, t: string)
    requires n <= |h| && rest == h[n..] && |t| <= |rest| && t == rest[|rest| - |t|..]
    ensures t == h[|h| - |t|..]
  {
    forall i | 0 <= i < |t|
      ensures t[i] == h[|h| - |t| + i]
    {
      assert t[i] == rest[|rest| - |t| + i];
    }
  }

  /** Positions in the text after the scheme, shifted back into the whole header. */
  lemma SchemeOffsets(h: string, t: string)
    requires |h| >= 6 && |t| < |h| - 6 && t == h[|h| - |t|..] && OneLine(t)
    requires forall i :: 0 <= i < |h| - 6 - |t| ==> IsSpace(h[6..][i])
    ensures forall i :: 6 <= i < |h| - |t| ==> IsSpace(h[i])
    ensures forall i :: |h| - |t| <= i < |h| ==> !IsLineTerminator(h[i])
  {
    var k := |h| - |t|;
    forall i | 6 <= i < k
      ensures IsSpace(h[i])
    {
      assert h[i] == h[6..][i - 6];
    }
    forall i | k <= i < |h|
      ensures !IsLineTerminator(h[i])
    {
      assert h[i] == t[i - k];
    }
  }

  /** A token after the scheme is the trimmed, one-line rest once leading white space is skipped. */
  lemma AfterSchemeSome(rest: string) returns (t: string)
    requires AfterScheme(rest).Some?
    ensures 0 < |t| < |rest| && t == rest[|rest| - |t|..] && OneLine(t)
    ensures forall i :: 0 <= i < |rest| - |t| ==> IsSpace(rest[i])
    ensures AfterScheme(rest) == Some(Trim(t))
  {
    t := TrimStart(rest);
    TrimStartIdle(t);
  }

  /** A header without the scheme, or an absent one, yields no token. */
  lemma BearerTokenNeedsScheme(header: Option<string>)
    requires header.None? || |header.value| < 6 || Lower(header.value[..6]) != "bearer"
    ensures BearerToken(header).None?
  {
  }

  /** The role names `ORG_ROLES` lists. */
  function RoleName(r: OrgRole): string {
    match r
    case Owner => "owner"
    case Admin => "admin"
    case Coach => "coach"
    case Athlete => "athlete"
    case Parent => "parent"
  }

  /** `ORG_ROLES.includes(role)`, returning the role it names. */
  function ParseRole(s: string): (r: Option<OrgRole>)
    ensures r.Some? ==> RoleName(r.value) == s
  {
    if s == "owner" then Some(Owner)
    else if s == "admin" then Some(Admin)
    else if s == "coach" then Some(Coach)
    else if s == "athlete" then Some(Athlete)
    else if s == "parent" then Some(Parent)
    else None
  }

  /** Every role name is recognised as its own role. */
  lemma ParseRoleName(r: OrgRole)
    ensures ParseRole(RoleName(r)) == Some(r)
  {
  }

  /** `isAdminRole`. */
  predicate IsAdminRole(role: OrgRole) {
    role == Owner || role == Admin
  }

  /** `hasRoleAccess`: admin roles always pass; any other role must be listed. */
  predicate HasRoleAccess(role: OrgRole, allowed: seq<OrgRole>) {
    IsAdminRole(role) || role in allowed
  }

  /** Owners and admins pass whatever the list; others pass exactly when listed. */
  lemma RoleAccessRule(role: OrgRole, allowed: seq<OrgRole>)
    ensures role == Owner || role == Admin ==> HasRoleAccess(role, allowed)
    ensures role != Owner && role != Admin ==> (HasRoleAccess(role, allowed) <==> role in allowed)
  {
  }

  /** Enlarging the allowed list never removes access. */
  lemma RoleAccessMonotone(role: OrgRole, allowed: seq<OrgRole>, larger: seq<OrgRole>)
    requires forall x :: x in allowed ==> x in larger
    ensures HasRoleAccess(role, allowed) ==> HasRoleAccess(role, larger)
  {
  }

  /** The `role, is_active` columns of an `org_memberships` row. */
  datatype MembershipRow = MembershipRow(role: Option<string>, isActive: bool)

  /** The membership lookup: the row for (user id, org id), or nothing (no row, an error, or no client). */
  type Memberships = (string, string) -> Option<MembershipRow>

  /** `getOrgRole`: the role of an active membership, when it names one of the five roles. */
  function GetOrgRole(row: Option<MembershipRow>): (r: Option<OrgRole>)
    ensures r.Some? <==> row.Some? && row.value.isActive && row.value.role.Some?
                          && row.value.role.value in {"owner", "admin", "coach", "athlete", "parent"}
    ensures r.Some? ==> RoleName(r.value) == row.value.role.value
  {
    if row.None? || row.value.role.None? || row.value.role.value == "" || !row.value.isActive then None
    else ParseRole(row.value.role.value)
  }

  /** The outcome of `requireOrgRole`: the role, or the 403 to answer with. */
  datatype Access = Granted(role: OrgRole) | Denied(response: Response)

  /** `requireOrgRole`: no role is 403 "No access…", a role without access is 403 "Insufficient role…". */
  function RequireOrgRole(memberships: Memberships, userId: string, orgId: string, allowed: seq<OrgRole>): (a: Access)
    ensures a.Granted? ==> GetOrgRole(memberships(userId, orgId)) == Some(a.role) && HasRoleAccess(a.role, allowed)
    ensures var role := GetOrgRole(memberships(userId, orgId)); role.Some? && HasRoleAccess(role.value, allowed) ==> a.Granted?
    ensures a.Denied? && GetOrgRole(memberships(userId, orgId)).None? ==> a.response == Response(403, "No access to this organization")
    ensures a.Denied? && GetOrgRole(memberships(userId, orgId)).Some? ==> a.response == Response(403, "Insufficient role for this action")
  {
    var role := GetOrgRole(memberships(userId, orgId));
    if role.None? then Denied(Response(403, "No access to this organization"))
    else if !HasRoleAccess(role.value, allowed) then Denied(Response(403, "Insufficient role for this action"))
    else Granted(role.value)
  }

  /** The outcome of `requireAuthUser` / `ensureUser`. */
  datatype AuthResult = Authed(user: User) | Rejected(response: Response)

  /**
   * `requireAuthUser`: a missing token, a missing auth client and a token the
   * auth service does not accept each answer 401; otherwise the user.
   */
  function RequireAuthUser(header: Option<string>, configured: bool, getUser: string -> Option<User>): (r: AuthResult)
    ensures r.Authed? <==> BearerToken(header).Some? && configured && getUser(BearerToken(header).value).Some?
    ensures r.Authed? ==> r.user == getUser(BearerToken(header).value).value
    ensures r.Rejected? ==> r.response.status == 401
    ensures BearerToken(header).None? ==> r == Rejected(Response(401, "Missing bearer token"))
  {
    var token := BearerToken(header);
    if token.None? then Rejected(Response(401, "Missing bearer token"))
    else if !configured then Rejected(Response(401, "Auth client not configured"))
    else
      var u := getUser(token.value);
      if u.None? then Rejected(Response(401, "Invalid or expired token")) else Authed(u.value)
  }

  /**
   * `ensureUser`: a user already in the context is returned as is and nothing
   * changes; otherwise the request is authenticated and, only on success,
   * `ctx.user` is set. The org fields are never touched.
   */
  method EnsureUser(ctx: RequestContext, header: Option<string>, configured: bool, getUser: string -> Option<User>)
    returns (res: AuthResult)
    modifies ctx
    ensures old(ctx.user).Some? ==> res == Authed(old(ctx.user).value) && ctx.user == old(ctx.user)
    ensures old(ctx.user).None? ==> res == RequireAuthUser(header, configured, getUser)
    ensures old(ctx.user).None? ==> ctx.user == (if res.Authed? then Some(res.user) else None)
    ensures ctx.orgId == old(ctx.orgId) && ctx.orgRole == old(ctx.orgRole)
  {
    if ctx.user.Some? {
      return Authed(ctx.user.value);
    }
    var auth := RequireAuthUser(header, configured, getUser);
    if auth.Rejected? {
      return auth;
    }
    ctx.user := Some(auth.user);
    res := auth;
  }

  /** `authMiddleware`: answers the 401 of a failed authentication, or passes with the user in the context. */
  method AuthMiddleware(ctx: RequestContext, header: Option<string>, configured: bool, getUser: string -> Option<User>)
    returns (response: Option<Response>)
    modifies ctx
    ensures response.None? <==> ctx.user.Some?
    ensures response.Some? ==> response.value.status == 401 && ctx.user.None?
    ensures old(ctx.user).Some? ==> response.None? && ctx.user == old(ctx.user)
    ensures ctx.orgId == old(ctx.orgId) && ctx.orgRole == old(ctx.orgRole)
  {
    var auth := EnsureUser(ctx, header, configured, getUser);
    if auth.Rejected? {
      return Some(auth.response);
    }
    response := None;
  }
}

=== FILE: auth_controller.dfy ===
/**
 * The sign-up and login handlers of the Supabase API.
 *
 * Sign-up validates the body with `SignUpSchema`, creates the auth user,
 * checks an athlete's positions against the five allowed ones, and then
 * registers the person with the role's `*_with_code_tx` RPC; when that RPC
 * fails the auth user is deleted again and the error is mapped to a
 * friendly message. The auth service and the RPC are inputs: what
 * `createUser` answered and what the RPC answered.
 *
 * Login checks that the Bearer token belongs to the user id in the body,
 * loads the profile, and reports the user's effective role: "parent" when
 * the athlete and guardian contact rows of the user's default organization
 * carry the same e-mail, the profile's role otherwise, with the coach or
 * athlete id for those two roles. Each table lookup is a function of the
 * ids it is keyed by; `AuthLoginSchema` is the predicate `acceptsUserId`.
 */
module AuthController {
  import opened Wrappers
  import opened Text
  import opened Json
  import opened Zod
  import Auth
  import Schemas
  import ScorecardTemplates
  import ScorecardControllers

  // ---------------------------------------------------------------------------
  // Positions

  /** `ALLOWED_POS`. */
  const AllowedPositions: seq<string> := ["attack", "midfield", "defense", "faceoff", "goalie"]

  /** `.replace(/\s+/g, "")`: the string without its white space. */
  function RemoveSpaces(s: string): (r: string)
    ensures |r| <= |s|
    ensures forall i :: 0 <= i < |r| ==> !IsSpace(r[i])
    ensures (forall i :: 0 <= i < |s| ==> !IsSpace(s[i])) ==> r == s
    decreases |s|
  {
    if |s| == 0 then ""
    else if IsSpace(s[0]) then RemoveSpaces(s[1..])
    else [s[0]] + RemoveSpaces(s[1..])
  }

  /** `normalize`: trimmed, lower-cased, with no white space left anywhere. */
  function Normalize(s: string): (r: string) {
    RemoveSpaces(Lower(Trim(s)))
  }

  /** A text with no white space and no upper-case letter. */
  predicate NormalForm(t: string) {
    forall i :: 0 <= i < |t| ==> !IsSpace(t[i]) && !('A' <= t[i] <= 'Z')
  }

  /** A normalized position has no white space and no upper-case letter. */
  lemma NormalizeShape(s: string)
    ensures NormalForm(Normalize(s))
  {
    var l := Lower(Trim(s));
    forall i | 0 <= i < |l|
      ensures !('A' <= l[i] <= 'Z')
    {
      assert l[i] == LowerChar(Trim(s)[i]);
    }
    RemoveSpacesKeepsLower(l);
  }

  /** Removing white space adds no upper-case letter. */
  lemma {:induction false} RemoveSpacesKeepsLower(s: string)
    requires forall i :: 0 <= i < |s| ==> !('A' <= s[i] <= 'Z')
    ensures forall i :: 0 <= i < |RemoveSpaces(s)| ==> !('A' <= RemoveSpaces(s)[i] <= 'Z')
    decreases |s|
  {
    if |s| > 0 {
      assert forall i :: 0 <= i < |s| - 1 ==> s[1..][i] == s[i + 1];
      RemoveSpacesKeepsLower(s[1..]);
      var rest := RemoveSpaces(s[1..]);
      if !IsSpace(s[0]) {
        assert RemoveSpaces(s) == [s[0]] + rest;
        assert forall i :: 1 <= i < |RemoveSpaces(s)| ==> RemoveSpaces(s)[i] == rest[i - 1];
      }
    }
  }

  /** A string that is already normalized is its own normal form. */
  lemma NormalizeFixed(s: string)
    requires NormalForm(s)
    ensures Normalize(s) == s
  {
    assert Trim(s) == s by {
      assert TrimStart(s) == s;
      assert TrimEnd(s) == s;
    }
    assert Lower(s) == s;
  }

  /** Normalizing twice is normalizing once. */
  lemma NormalizeIdempotent(s: string)
    ensures Normalize(Normalize(s)) == Normalize(s)
  {
    NormalizeShape(s);
    NormalizeFixed(Normalize(s));
  }

  /** The text of a position entry; the schema only lets strings through. */
  function PositionText(v: Json): string {
    if v.JStr? then v.s else ""
  }

  /** `base.positions.map(normalize)`. */
  function NormalizedPositions(base: Json): (ps: seq<string>)
    ensures |ps| == |ElementsOf(Get(base, "positions"))|
  {
    var items := ElementsOf(Get(base, "positions"));
    seq(|items|, i requires 0 <= i < |items| => Normalize(PositionText(items[i])))
  }

  /** `invalid.length === 0`: no normalized position is outside `ALLOWED_POS`. */
  predicate PositionsAllowed(ps: seq<string>)
    decreases |ps|
  {
    |ps| == 0 || (ps[0] in AllowedPositions && PositionsAllowed(ps[1..]))
  }

  /** The positions pass exactly when every one of them is allowed. */
  lemma {:induction false} PositionsAllowedEach(ps: seq<string>)
    ensures PositionsAllowed(ps) <==> forall i :: 0 <= i < |ps| ==> ps[i] in AllowedPositions
    decreases |ps|
  {
    if |ps| > 0 {
      PositionsAllowedEach(ps[1..]);
      assert forall i :: 1 <= i < |ps| ==> ps[i] == ps[1..][i - 1];
    }
  }

  /** An athlete body with a position that does not normalize to an allowed one. */
  predicate RejectedPositions(base: Json) {
    HasRole(base, "athlete") && !PositionsAllowed(NormalizedPositions(base))
  }

  // ---------------------------------------------------------------------------
  // Sign-up

  /** A sign-up request: its method and its body (`null` when it is not JSON). */
  datatype SignupRequest = SignupRequest(httpMethod: string, raw: Json)

  /** What `auth.admin.createUser` answered: an error message, or the new user's id if it came back. */
  datatype CreateUserOutcome = CreateFailed(message: string) | CreatedUser(id: Option<string>)

  /** The `user_metadata` of the new user; `athlete` holds the graduation year and positions of an athlete. */
  datatype UserMetadata = UserMetadata(
    firstName: Option<Json>, lastName: Option<Json>, username: Json, cellNumber: Json, joinCode: Option<Json>,
    athlete: Option<(Option<Json>, Option<Json>)>)

  /** The `createUser` call: e-mail, password, metadata and the `app_metadata` role. */
  datatype NewUser = NewUser(email: Option<Json>, password: Option<Json>, metadata: UserMetadata, role: Option<Json>)

  /** The arguments of a registration RPC; `graduationYear` and `positions` are sent for athletes only. */
  datatype RegisterArgs = RegisterArgs(
    userId: string, code: Option<Json>, firstName: Option<Json>, lastName: Option<Json>, email: Option<Json>,
    graduationYear: Option<Json>, cellNumber: Json, positions: Option<seq<string>>, termsAccepted: bool)

  datatype SignupRpc = SignupRpc(name: string, args: RegisterArgs)

  /** The reply: an error with its status, or the 201 body. */
  datatype SignupReply = SignupFailure(status: int, error: string) | Registered(body: map<string, Json>)

  /**
   * Everything a sign-up does: the reply, the `createUser` call, the id of
   * the auth user it created, the RPC call and whether the auth user was
   * deleted again.
   */
  datatype SignupOutcome = SignupOutcome(
    reply: SignupReply, newUser: Option<NewUser>, userId: Option<string>, rpc: Option<SignupRpc>, deleted: bool)

  const InvalidPositionsText := "Invalid position value(s)."

  /** `SignUpSchema.safeParse(payload)`. */
  function ParsedSignup(req: SignupRequest, o: Oracles): Field {
    Parse(Schemas.SignUpSchema(), Some(req.raw), o)
  }

  predicate HasRole(base: Json, role: string) {
    Get(base, "role") == Some(JStr(role))
  }

  /** The `createUser` call made for a parsed body. */
  function NewUserOf(base: Json): (u: NewUser)
    ensures u.metadata.athlete.Some? <==> HasRole(base, "athlete")
    ensures u.email == Get(base, "email") && u.password == Get(base, "password") && u.role == Get(base, "role")
  {
    var athlete := if HasRole(base, "athlete") then Some((Get(base, "graduationYear"), Get(base, "positions"))) else None;
    NewUser(Get(base, "email"), Get(base, "password"),
      UserMetadata(Get(base, "firstName"), Get(base, "lastName"), OrDefault(Get(base, "username"), JNull),
        OrDefault(Get(base, "cellNumber"), JNull), Get(base, "joinCode"), athlete),
      Get(base, "role"))
  }

  /** A failed `createUser`: 409 when the lower-cased message says the user exists, 500 otherwise. */
  function CreateFailureReply(message: string): (r: SignupReply)
    ensures r.SignupFailure? && (r.status == 409 <==> Contains(Lower(message), "user already registered"))
  {
    if Contains(Lower(message), "user already registered") then SignupFailure(409, "Email already registered")
    else SignupFailure(500, "Failed to create user: " + message)
  }

  /** The codes the registration RPCs raise, with the message each is reported by, in the order they are tested. */
  const SignupErrorCodes: seq<(string, string)> := [
    ("INVALID_JOIN_CODE", "Invalid or expired join code."),
    ("EXPIRED_OR_USED_JOIN_CODE", "Invalid or expired join code."),
    ("TERMS_REQUIRED", "You must accept the terms & conditions."),
    ("GRADUATION_YEAR_REQUIRED", "Graduation year is required."),
    ("POSITION_REQUIRED", "At least one position is required."),
    ("FIRST_NAME_REQUIRED", "First name is required."),
    ("LAST_NAME_REQUIRED", "Last name is required."),
    ("EMAIL_REQUIRED", "Valid email is required.")
  ]

  /** A failed registration: the message of the first known code, as a 400, or "Signup failed: …" as a 500. */
  function RegisterFailureReply(m: string): (r: SignupReply)
    ensures r.SignupFailure? && (r.status == 400 || r.status == 500)
  {
    match ScorecardTemplates.FirstMatch(m, SignupErrorCodes)
    case Some(friendly) => SignupFailure(400, friendly)
    case None => SignupFailure(500, "Signup failed: " + m)
  }

  /** The registration RPC for the body's role, with its arguments. */
  function RegisterCall(base: Json, userId: string): (c: SignupRpc)
    ensures c.args.userId == userId && c.args.termsAccepted
    ensures c.args.positions.Some? <==> HasRole(base, "athlete")
    ensures c.args.graduationYear.Some? ==> HasRole(base, "athlete")
  {
    var cell := OrDefault(Get(base, "cellNumber"), JNull);
    var code, first, last, email := Get(base, "joinCode"), Get(base, "firstName"), Get(base, "lastName"), Get(base, "email");
    if HasRole(base, "athlete") then
      SignupRpc("signup_register_athlete_with_code_tx",
        RegisterArgs(userId, code, first, last, email, Get(base, "graduationYear"), cell, Some(NormalizedPositions(base)), true))
    else if HasRole(base, "coach") then
      SignupRpc("signup_register_coach_with_code_tx", RegisterArgs(userId, code, first, last, email, None, cell, None, true))
    else
      SignupRpc("signup_register_parent_with_code_tx", RegisterArgs(userId, code, first, last, email, None, cell, None, true))
  }

  /** `(Array.isArray(txData) && txData[0]) ? txData[0] : {}`. */
  function FirstRow(data: Option<Json>): (row: Json)
    ensures row == JObj(map[]) || (data.Some? && data.value.JArr? && |data.value.items| > 0 && row == data.value.items[0])
  {
    if data.Some? && data.value.JArr? && |data.value.items| > 0 && Truthy(data.value.items[0]) then data.value.items[0]
    else JObj(map[])
  }

  /** The keys `...out` spreads: an object row's own fields. */
  function Spread(out: Json): map<string, Json> {
    if out.JObj? then out.fields else map[]
  }

  /** `{ ok: true, user_id, role, ...out, message: "Welcome to ANKOR!" }`. */
  function WelcomeBody(userId: string, role: Json, out: Json): (body: map<string, Json>)
    ensures "message" in body && body["message"] == JStr("Welcome to ANKOR!")
    ensures forall k :: k in body <==> (k in {"ok", "user_id", "role", "message"} || k in Spread(out))
  {
    (map["ok" := JBool(true), "user_id" := JStr(userId), "role" := role] + Spread(out))["message" := JStr("Welcome to ANKOR!")]
  }

  /** From the registration RPC on: its answer decides the reply, and a failure deletes the auth user. */
  function Register(base: Json, user: NewUser, userId: string, tx: ScorecardTemplates.RpcOutcome): (r: SignupOutcome)
    ensures r.newUser == Some(user) && r.userId == Some(userId) && r.rpc == Some(RegisterCall(base, userId))
    ensures r.deleted <==> tx.error.Some?
  {
    var call := RegisterCall(base, userId);
    match tx.error
    case Some(m) => SignupOutcome(RegisterFailureReply(m), Some(user), Some(userId), Some(call), true)
    case None =>
      var body := WelcomeBody(userId, OrNull(Get(base, "role")), FirstRow(tx.data));
      SignupOutcome(Registered(body), Some(user), Some(userId), Some(call), false)
  }

  /** `handleAuthSignup`; `issues` is the text of Zod's issues. */
  function Signup(req: SignupRequest, o: Oracles, issues: string, created: CreateUserOutcome, tx: ScorecardTemplates.RpcOutcome)
    : (r: SignupOutcome)
    ensures r.newUser.Some? <==> req.httpMethod == "POST" && ParsedSignup(req, o).Valid?
  {
    SignupAfterParse(req.httpMethod, ParsedSignup(req, o), issues, created, tx)
  }

  /** `handleAuthSignup` once the body has been through `SignUpSchema`, with outcome `parsed`. */
  function SignupAfterParse(httpMethod: string, parsed: Field, issues: string, created: CreateUserOutcome, tx: ScorecardTemplates.RpcOutcome)
    : (r: SignupOutcome)
    ensures r.newUser.Some? <==> httpMethod == "POST" && parsed.Valid?
    ensures r.userId.Some? ==> created.CreatedUser? && created.id == r.userId && r.userId.value != ""
  {
    if httpMethod != "POST" then SignupOutcome(SignupFailure(400, "Use POST"), None, None, None, false)
    else
      if !parsed.Valid? then SignupOutcome(SignupFailure(400, issues), None, None, None, false)
      else
        var base := ScorecardControllers.BodyOf(parsed);
        var user := NewUserOf(base);
        match created
        case CreateFailed(m) => SignupOutcome(CreateFailureReply(m), Some(user), None, None, false)
        case CreatedUser(id) =>
          if id.None? || id.value == "" then
            SignupOutcome(SignupFailure(500, "User was not returned by Supabase"), Some(user), None, None, false)
          else if RejectedPositions(base) then
            SignupOutcome(SignupFailure(400, InvalidPositionsText), Some(user), id, None, false)
          else Register(base, user, id.value, tx)
  }

  /**
   * Sign-up with the position check before the auth user is created, so
   * that no rejected sign-up leaves an auth user behind.
   */
  function IntendedSignup(req: SignupRequest, o: Oracles, issues: string, created: CreateUserOutcome, tx: ScorecardTemplates.RpcOutcome)
    : (r: SignupOutcome)
    ensures r.newUser.Some? ==> req.httpMethod == "POST" && ParsedSignup(req, o).Valid?
  {
    IntendedSignupAfterParse(req.httpMethod, ParsedSignup(req, o), issues, created, tx)
  }

  /** The intended sign-up once the body has been through `SignUpSchema`. */
  function IntendedSignupAfterParse(httpMethod: string, parsed: Field, issues: string, created: CreateUserOutcome,
    tx: ScorecardTemplates.RpcOutcome): (r: SignupOutcome)
    ensures r.userId.Some? && r.reply.SignupFailure? ==> r.deleted
  {
    if httpMethod != "POST" then SignupOutcome(SignupFailure(400, "Use POST"), None, None, None, false)
    else
      if !parsed.Valid? then SignupOutcome(SignupFailure(400, issues), None, None, None, false)
      else
        var base := ScorecardControllers.BodyOf(parsed);
        if RejectedPositions(base) then
          SignupOutcome(SignupFailure(400, InvalidPositionsText), None, None, None, false)
        else
          var user := NewUserOf(base);
          match created
          case CreateFailed(m) => SignupOutcome(CreateFailureReply(m), Some(user), None, None, false)
          case CreatedUser(id) =>
            if id.None? || id.value == "" then
              SignupOutcome(SignupFailure(500, "User was not returned by Supabase"), Some(user), None, None, false)
            else Register(base, user, id.value, tx)
  }

  /**
   * As written, an athlete whose positions are not all allowed gets a 400
   * after the auth user was created, and that user is not deleted.
   */
  lemma SignupInvalidPositionsKeepUser(httpMethod: string, parsed: Field, issues: string, id: string, tx: ScorecardTemplates.RpcOutcome)
    requires httpMethod == "POST" && parsed.Valid? && id != ""
    requires var base := ScorecardControllers.BodyOf(parsed);
      RejectedPositions(base)
    ensures var r := SignupAfterParse(httpMethod, parsed, issues, CreatedUser(Some(id)), tx);
      r.reply == SignupFailure(400, InvalidPositionsText) && r.newUser.Some? && r.userId == Some(id) && !r.deleted
  {
    var base := ScorecardControllers.BodyOf(parsed);
    assert SignupAfterParse(httpMethod, parsed, issues, CreatedUser(Some(id)), tx)
      == SignupOutcome(SignupFailure(400, InvalidPositionsText), Some(NewUserOf(base)), Some(id), None, false);
  }

  /** The intended sign-up rejects such positions without creating anyone, and otherwise does what the handler does. */
  lemma IntendedSignupAgrees(httpMethod: string, parsed: Field, issues: string, created: CreateUserOutcome, tx: ScorecardTemplates.RpcOutcome)
    ensures var r := SignupAfterParse(httpMethod, parsed, issues, created, tx);
      var i := IntendedSignupAfterParse(httpMethod, parsed, issues, created, tx);
      i.reply == r.reply || (r.reply.SignupFailure? && i.reply == SignupFailure(400, InvalidPositionsText))
    ensures var base := ScorecardControllers.BodyOf(parsed);
      !RejectedPositions(base) ==>
        IntendedSignupAfterParse(httpMethod, parsed, issues, created, tx) == SignupAfterParse(httpMethod, parsed, issues, created, tx)
    ensures var base := ScorecardControllers.BodyOf(parsed);
      httpMethod == "POST" && parsed.Valid? && RejectedPositions(base) ==>
        IntendedSignupAfterParse(httpMethod, parsed, issues, created, tx) == SignupOutcome(SignupFailure(400, InvalidPositionsText), None, None, None, false)
  {
  }

  /** A failed `createUser` ends the sign-up: 409 for a registered e-mail, 500 otherwise, with nothing registered. */
  lemma SignupCreateFailure(httpMethod: string, parsed: Field, issues: string, m: string, tx: ScorecardTemplates.RpcOutcome)
    requires httpMethod == "POST" && parsed.Valid?
    ensures var r := SignupAfterParse(httpMethod, parsed, issues, CreateFailed(m), tx);
      r.userId.None? && r.rpc.None? && !r.deleted
      && r.reply == (if Contains(Lower(m), "user already registered") then SignupFailure(409, "Email already registered")
        else SignupFailure(500, "Failed to create user: " + m))
  {
  }

  /**
   * The registration RPC runs only for a created user whose athlete
   * positions are all allowed; the auth user is deleted exactly when that
   * RPC fails, and the reply is then the message of the first code the
   * error contains.
   */
  lemma SignupRollback(httpMethod: string, parsed: Field, issues: string, created: CreateUserOutcome, tx: ScorecardTemplates.RpcOutcome)
    ensures var r := SignupAfterParse(httpMethod, parsed, issues, created, tx);
      var base := ScorecardControllers.BodyOf(parsed);
      r.rpc.Some? <==> (httpMethod == "POST" && parsed.Valid? && created.CreatedUser?
        && created.id.Some? && created.id.value != ""
        && (HasRole(base, "athlete") ==> PositionsAllowed(NormalizedPositions(base))))
    ensures var r := SignupAfterParse(httpMethod, parsed, issues, created, tx);
      r.deleted <==> r.rpc.Some? && tx.error.Some?
    ensures var r := SignupAfterParse(httpMethod, parsed, issues, created, tx);
      r.deleted ==> r.reply == RegisterFailureReply(tx.error.value)
  {
  }

  /** An error with a known code is reported by the message of the first code it contains. */
  lemma RegisterFailureKnown(m: string, k: nat)
    requires k < |SignupErrorCodes| && Contains(m, SignupErrorCodes[k].0)
    requires forall n :: 0 <= n < k ==> !Contains(m, SignupErrorCodes[n].0)
    ensures RegisterFailureReply(m) == SignupFailure(400, SignupErrorCodes[k].1)
  {
    ScorecardTemplates.FirstMatchAt(m, SignupErrorCodes, k);
  }

  /** An error with none of the codes is a 500 carrying its own text. */
  lemma RegisterFailureUnknown(m: string)
    requires forall n :: 0 <= n < |SignupErrorCodes| ==> !Contains(m, SignupErrorCodes[n].0)
    ensures RegisterFailureReply(m) == SignupFailure(500, "Signup failed: " + m)
  {
    ScorecardTemplates.FirstMatchNone(m, SignupErrorCodes);
  }

  /**
   * A successful sign-up answers 201 with the welcome message; `ok`,
   * `user_id` and `role` are the handler's own unless the RPC's first row
   * carries those keys.
   */
  lemma SignupWelcome(httpMethod: string, parsed: Field, issues: string, created: CreateUserOutcome, tx: ScorecardTemplates.RpcOutcome)
    requires SignupAfterParse(httpMethod, parsed, issues, created, tx).reply.Registered?
    ensures var r := SignupAfterParse(httpMethod, parsed, issues, created, tx);
      var out := FirstRow(tx.data);
      r.userId.Some? && r.rpc.Some? && !r.deleted && tx.error.None?
      && r.reply.body["message"] == JStr("Welcome to ANKOR!")
      && ("user_id" !in Spread(out) ==> r.reply.body["user_id"] == JStr(r.userId.value))
      && ("ok" !in Spread(out) ==> r.reply.body["ok"] == JBool(true))
      && (forall k :: k in Spread(out) && k != "message" ==> r.reply.body[k] == Spread(out)[k])
  {
  }

  /** An athlete is registered with the normalized positions, every one of them allowed, and the terms accepted. */
  lemma SignupAthleteArgs(httpMethod: string, parsed: Field, issues: string, created: CreateUserOutcome, tx: ScorecardTemplates.RpcOutcome)
    requires SignupAfterParse(httpMethod, parsed, issues, created, tx).rpc.Some?
    ensures var r := SignupAfterParse(httpMethod, parsed, issues, created, tx);
      var base := ScorecardControllers.BodyOf(parsed);
      var args := r.rpc.value.args;
      args.userId == r.userId.value && args.termsAccepted
      && (HasRole(base, "athlete") ==> (r.rpc.value.name == "signup_register_athlete_with_code_tx"
        && args.positions == Some(NormalizedPositions(base)) && PositionsAllowed(args.positions.value)))
      && (HasRole(base, "coach") ==> r.rpc.value.name == "signup_register_coach_with_code_tx" && args.positions.None?)
      && (HasRole(base, "parent") ==> r.rpc.value.name == "signup_register_parent_with_code_tx" && args.positions.None?)
  {
  }

  // ---------------------------------------------------------------------------
  // Login

  /** A login request: method, body (`null` when it is not JSON) and `Authorization` header. */
  datatype LoginRequest = LoginRequest(httpMethod: string, payload: Json, authHeader: Option<string>)

  /** A `maybeSingle()` lookup: an error message, or the row (`None`: no row). */
  datatype Lookup = LookupError(message: string) | Found(row: Option<Json>)

  /**
   * The services login talks to: whether the anon and admin clients exist,
   * the user a token belongs to (`None`: an error or no user), and the
   * table lookups, each a function of the ids it filters on.
   */
  datatype LoginBackend = LoginBackend(
    anonReady: bool, tokenUser: string -> Option<string>, adminReady: bool,
    profile: string -> Lookup,
    athleteEmail: (string, string) -> Lookup, guardianEmail: (string, string) -> Lookup,
    coachOf: string -> Lookup, athleteOf: string -> Lookup)

  /** The `user` of a successful login; `id` and `email` are `None` when the profile lacks them. */
  datatype LoginUser = LoginUser(
    id: Option<Json>, fullName: Json, email: Option<Json>, role: Json, defaultOrgId: Json, coachId: Json, athleteId: Json)

  datatype LoginReply = LoginFailure(status: int, error: string) | LoggedIn(user: LoginUser)

  /** The key holds a string. */
  predicate StringAt(body: Json, key: string) {
    AsString(Get(body, key)).Some?
  }

  /**
   * `typeof x === "string" ? x : …` over `user_id`, `userId` and `userid`, in
   * that order; "" when none is a string.
   */
  function UserIdOf(body: Json): (id: string)
    ensures StringAt(body, "user_id") ==> Some(id) == AsString(Get(body, "user_id"))
    ensures !StringAt(body, "user_id") && StringAt(body, "userId") ==> Some(id) == AsString(Get(body, "userId"))
    ensures !StringAt(body, "user_id") && !StringAt(body, "userId") && StringAt(body, "userid")
      ==> Some(id) == AsString(Get(body, "userid"))
    ensures !StringAt(body, "user_id") && !StringAt(body, "userId") && !StringAt(body, "userid") ==> id == ""
  {
    match AsString(Get(body, "user_id"))
    case Some(s) => s
    case None =>
      match AsString(Get(body, "userId"))
      case Some(s) => s
      case None => AsString(Get(body, "userid")).GetOr("")
  }

  /** The string held by the first value in the list that holds one; "" when none does. */
  function FirstString(vs: seq<Option<Json>>): (r: string)
    ensures r == "" || exists i :: 0 <= i < |vs| && AsString(vs[i]) == Some(r)
    ensures forall i :: (0 <= i < |vs| && AsString(vs[i]).Some? && (forall j :: 0 <= j < i ==> AsString(vs[j]).None?)
      ==> r == AsString(vs[i]).value)
    ensures (forall i :: 0 <= i < |vs| ==> AsString(vs[i]).None?) ==> r == ""
  {
    if |vs| == 0 then ""
    else if AsString(vs[0]).Some? then AsString(vs[0]).value
    else FirstString(vs[1..])
  }

  /** The user id is the first string among `user_id`, `userId` and `userid`, in that order. */
  lemma UserIdPrecedence(body: Json)
    ensures UserIdOf(body) == FirstString([Get(body, "user_id"), Get(body, "userId"), Get(body, "userid")])
  {
    var vs := [Get(body, "user_id"), Get(body, "userId"), Get(body, "userid")];
    assert vs[1..] == [Get(body, "userId"), Get(body, "userid")];
    assert vs[1..][1..] == [Get(body, "userid")];
    assert vs[1..][1..][1..] == [];
    assert FirstString(vs[1..][1..]) == AsString(Get(body, "userid")).GetOr("");
  }

  /** `typeof x === "string" ? x.trim() : ""`. */
  function TrimmedText(v: Option<Json>): string {
    if v.Some? && v.value.JStr? then Trim(v.value.s) else ""
  }

  /** `row?.email?.trim().toLowerCase() ?? ""`; a row's e-mail is text or missing. */
  function EmailKey(row: Option<Json>): string {
    if row.Some? then
      var e := Get(row.value, "email");
      if e.Some? && e.value.JStr? then Lower(Trim(e.value.s)) else ""
    else ""
  }

  /** The athlete and guardian contact rows carry the same non-empty e-mail, up to case and surrounding space. */
  predicate SameEmail(athleteRow: Option<Json>, guardianRow: Option<Json>) {
    EmailKey(athleteRow) != "" && EmailKey(guardianRow) != "" && EmailKey(athleteRow) == EmailKey(guardianRow)
  }

  /** `row?.id ?? null`. */
  function IdOf(row: Option<Json>): Json {
    OrDefault(GetIn(row, "id"), JNull)
  }

  /**
   * Whether the user counts as a parent: only a profile with both a user id
   * and a default organization is looked up, in the athlete rows and then
   * in the guardian contacts of that organization.
   */
  function ParentByEmail(userId: string, orgId: string, b: LoginBackend): (r: Result<bool>)
    ensures r.Ok? && r.value ==> orgId != "" && userId != ""
  {
    if orgId != "" && userId != "" then
      match b.athleteEmail(orgId, userId)
      case LookupError(m) => Err("Failed to load athlete: " + m)
      case Found(athleteRow) =>
        match b.guardianEmail(orgId, userId)
        case LookupError(m) => Err("Failed to load guardian: " + m)
        case Found(guardianRow) => Ok(SameEmail(athleteRow, guardianRow))
    else Ok(false)
  }

  /** The coach id and athlete id reported for a role: a lookup for a coach or an athlete, `null` for anyone else. */
  function RoleIds(role: Json, userId: string, b: LoginBackend): (r: Result<(Json, Json)>)
    ensures r.Ok? && r.value.0 != JNull ==> role == JStr("coach")
    ensures r.Ok? && r.value.1 != JNull ==> role == JStr("athlete")
  {
    if role == JStr("coach") && userId != "" then
      match b.coachOf(userId)
      case LookupError(m) => Err("Failed to load coach: " + m)
      case Found(row) => Ok((IdOf(row), JNull))
    else if role == JStr("athlete") && userId != "" then
      match b.athleteOf(userId)
      case LookupError(m) => Err("Failed to load athlete: " + m)
      case Found(row) => Ok((JNull, IdOf(row)))
    else Ok((JNull, JNull))
  }

  /** The reply to a profile that was found, from the role resolution on. */
  function ProfileReply(profile: Json, b: LoginBackend): (r: LoginReply)
  {
    var userId := TrimmedText(Get(profile, "id"));
    var orgId := TrimmedText(Get(profile, "default_org_id"));
    match ParentByEmail(userId, orgId, b)
    case Err(e) => LoginFailure(500, e)
    case Ok(parent) =>
      var role := if parent then JStr("parent") else OrDefault(Get(profile, "role"), JNull);
      match RoleIds(role, userId, b)
      case Err(e) => LoginFailure(500, e)
      case Ok(ids) =>
        LoggedIn(LoginUser(Get(profile, "id"), OrDefault(Get(profile, "full_name"), JNull), Get(profile, "email"),
          role, OrDefault(Get(profile, "default_org_id"), JNull), ids.0, ids.1))
  }

  /** `handleAuthLogin`; `issues` is the text of `AuthLoginSchema`'s issues. */
  function LoginOutcome(req: LoginRequest, acceptsUserId: string -> bool, issues: string, b: LoginBackend): (r: LoginReply)
  {
    if req.httpMethod != "POST" then LoginFailure(400, "Use POST")
    else if !IsObject(req.payload) then LoginFailure(400, "Invalid JSON body")
    else
      var userId := Trim(UserIdOf(req.payload));
      if !acceptsUserId(userId) then LoginFailure(400, issues)
      else TokenOutcome(userId, req.authHeader, b)
  }

  /** `handleAuthLogin` from the token check on, for the accepted user id. */
  function TokenOutcome(userId: string, authHeader: Option<string>, b: LoginBackend): (r: LoginReply)
  {
    match Auth.BearerToken(Some(authHeader.GetOr("")))
    case None => LoginFailure(401, "Missing bearer token")
    case Some(token) =>
      if !b.anonReady then LoginFailure(500, "Auth client not configured")
      else match b.tokenUser(token)
      case None => LoginFailure(401, "Invalid or expired token")
      case Some(owner) =>
        if owner != userId then LoginFailure(401, "Token does not match user")
        else if !b.adminReady then LoginFailure(500, "Database client not configured")
        else match b.profile(userId)
        case LookupError(m) => LoginFailure(500, "Failed to load profile: " + m)
        case Found(profile) =>
          if profile.None? || !Truthy(profile.value) then LoginFailure(404, "Profile not found")
          else ProfileReply(profile.value, b)
  }

  /**
   * The handler step by step: the effective role starts as the profile's
   * role and may become "parent"; the coach and athlete ids start as
   * `null` and are filled in for those roles.
   */
  method Login(req: LoginRequest, acceptsUserId: string -> bool, issues: string, b: LoginBackend) returns (r: LoginReply)
    ensures r == LoginOutcome(req, acceptsUserId, issues, b)
  {
    if req.httpMethod != "POST" {
      return LoginFailure(400, "Use POST");
    }
    if !IsObject(req.payload) {
      return LoginFailure(400, "Invalid JSON body");
    }
    var userId := Trim(UserIdOf(req.payload));
    if !acceptsUserId(userId) {
      return LoginFailure(400, issues);
    }
    assert LoginOutcome(req, acceptsUserId, issues, b) == TokenOutcome(userId, req.authHeader, b);
    var token := Auth.BearerToken(Some(req.authHeader.GetOr("")));
    if token.None? {
      return LoginFailure(401, "Missing bearer token");
    }
    if !b.anonReady {
      return LoginFailure(500, "Auth client not configured");
    }
    var owner := b.tokenUser(token.value);
    if owner.None? {
      return LoginFailure(401, "Invalid or expired token");
    }
    if owner.value != userId {
      return LoginFailure(401, "Token does not match user");
    }
    if !b.adminReady {
      return LoginFailure(500, "Database client not configured");
    }
    var found := b.profile(userId);
    if found.LookupError? {
      return LoginFailure(500, "Failed to load profile: " + found.message);
    }
    if found.row.None? || !Truthy(found.row.value) {
      return LoginFailure(404, "Profile not found");
    }
    var profile := found.row.value;
    var profileUserId := TrimmedText(Get(profile, "id"));
    var profileOrgId := TrimmedText(Get(profile, "default_org_id"));
    var effectiveRole := OrDefault(Get(profile, "role"), JNull);
    if profileOrgId != "" && profileUserId != "" {
      var athleteRow := b.athleteEmail(profileOrgId, profileUserId);
      if athleteRow.LookupError? {
        return LoginFailure(500, "Failed to load athlete: " + athleteRow.message);
      }
      var guardianRow := b.guardianEmail(profileOrgId, profileUserId);
      if guardianRow.LookupError? {
        return LoginFailure(500, "Failed to load guardian: " + guardianRow.message);
      }
      var athleteEmail := EmailKey(athleteRow.row);
      var guardianEmail := EmailKey(guardianRow.row);
      if athleteEmail != "" && guardianEmail != "" && athleteEmail == guardianEmail {
        effectiveRole := JStr("parent");
      }
    }
    var coachId := JNull;
    var athleteId := JNull;
    if effectiveRole == JStr("coach") && profileUserId != "" {
      var coachRow := b.coachOf(profileUserId);
      if coachRow.LookupError? {
        return LoginFailure(500, "Failed to load coach: " + coachRow.message);
      }
      coachId := IdOf(coachRow.row);
    } else if effectiveRole == JStr("athlete") && profileUserId != "" {
      var athleteRow := b.athleteOf(profileUserId);
      if athleteRow.LookupError? {
        return LoginFailure(500, "Failed to load athlete: " + athleteRow.message);
      }
      athleteId := IdOf(athleteRow.row);
    }
    r := LoggedIn(LoginUser(Get(profile, "id"), OrDefault(Get(profile, "full_name"), JNull), Get(profile, "email"),
      effectiveRole, OrDefault(Get(profile, "default_org_id"), JNull), coachId, athleteId));
  }

  /**
   * A login succeeds only for a POSTed object whose user id the schema
   * accepts, with a Bearer token that belongs to exactly that user, and a
   * profile stored under that id.
   */
  lemma LoginNeedsOwnToken(req: LoginRequest, acceptsUserId: string -> bool, issues: string, b: LoginBackend)
    requires LoginOutcome(req, acceptsUserId, issues, b).LoggedIn?
    ensures var userId := Trim(UserIdOf(req.payload));
      var token := Auth.BearerToken(Some(req.authHeader.GetOr("")));
      req.httpMethod == "POST" && IsObject(req.payload) && acceptsUserId(userId)
      && token.Some? && b.tokenUser(token.value) == Some(userId)
      && b.anonReady && b.adminReady
      && b.profile(userId).Found? && b.profile(userId).row.Some? && Truthy(b.profile(userId).row.value)
  {
    assert LoginOutcome(req, acceptsUserId, issues, b) == TokenOutcome(Trim(UserIdOf(req.payload)), req.authHeader, b);
  }

  /** The token checks in order: no usable token, a token of nobody, a token of someone else are all 401s. */
  lemma LoginTokenFailures(req: LoginRequest, acceptsUserId: string -> bool, issues: string, b: LoginBackend)
    requires req.httpMethod == "POST" && IsObject(req.payload) && acceptsUserId(Trim(UserIdOf(req.payload)))
    ensures var token := Auth.BearerToken(Some(req.authHeader.GetOr("")));
      var r := LoginOutcome(req, acceptsUserId, issues, b);
      (token.None? ==> r == LoginFailure(401, "Missing bearer token"))
      && (token.Some? && b.anonReady && b.tokenUser(token.value).None? ==> r == LoginFailure(401, "Invalid or expired token"))
      && (token.Some? && b.anonReady && b.tokenUser(token.value).Some? && b.tokenUser(token.value).value != Trim(UserIdOf(req.payload))
        ==> r == LoginFailure(401, "Token does not match user"))
  {
    assert LoginOutcome(req, acceptsUserId, issues, b) == TokenOutcome(Trim(UserIdOf(req.payload)), req.authHeader, b);
  }

  /**
   * The effective role: "parent" when the profile names both a user and a
   * default organization and that organization's athlete and guardian
   * contact rows for the user carry the same e-mail; the profile's role
   * (or `null`) otherwise.
   */
  lemma LoginRole(profile: Json, b: LoginBackend)
    requires ProfileReply(profile, b).LoggedIn?
    ensures var userId := TrimmedText(Get(profile, "id"));
      var orgId := TrimmedText(Get(profile, "default_org_id"));
      var parent := orgId != "" && userId != ""
        && SameEmail(b.athleteEmail(orgId, userId).row, b.guardianEmail(orgId, userId).row);
      ProfileReply(profile, b).user.role == (if parent then JStr("parent") else OrDefault(Get(profile, "role"), JNull))
  {
    var userId := TrimmedText(Get(profile, "id"));
    var orgId := TrimmedText(Get(profile, "default_org_id"));
    var p := ParentByEmail(userId, orgId, b);
    assert p.Ok?;
    if orgId != "" && userId != "" {
      assert p.value == SameEmail(b.athleteEmail(orgId, userId).row, b.guardianEmail(orgId, userId).row);
    }
  }

  /** The reported user carries the profile's id, e-mail, full name and default organization as stored. */
  lemma LoginProfileFields(profile: Json, b: LoginBackend)
    requires ProfileReply(profile, b).LoggedIn?
    ensures var u := ProfileReply(profile, b).user;
      u.id == Get(profile, "id") && u.email == Get(profile, "email")
      && u.fullName == OrDefault(Get(profile, "full_name"), JNull)
      && u.defaultOrgId == OrDefault(Get(profile, "default_org_id"), JNull)
  {
  }

  /**
   * A coach id is reported only to a coach and an athlete id only to an
   * athlete, each being the id of the user's row in that table.
   */
  lemma LoginRoleIds(profile: Json, b: LoginBackend)
    requires ProfileReply(profile, b).LoggedIn?
    ensures var u := ProfileReply(profile, b).user;
      var userId := TrimmedText(Get(profile, "id"));
      (u.coachId == (if u.role == JStr("coach") && userId != "" then IdOf(b.coachOf(userId).row) else JNull))
      && (u.athleteId == (if u.role == JStr("athlete") && userId != "" then IdOf(b.athleteOf(userId).row) else JNull))
  {
  }

  /** A guardian whose e-mail matches logs in as a parent, and so gets neither a coach id nor an athlete id. */
  lemma LoginParentHasNoIds(profile: Json, b: LoginBackend)
    requires ProfileReply(profile, b).LoggedIn?
    requires ProfileReply(profile, b).user.role == JStr("parent")
    ensures ProfileReply(profile, b).user.coachId == JNull && ProfileReply(profile, b).user.athleteId == JNull
  {
    LoginRoleIds(profile, b);
  }
}

=== FILE: context.dfy ===
/**
 * The per-request context the routers hand to middlewares and handlers
 * (`RequestContext` in `routes/router.ts`), and the HTTP responses they return.
 */
module Context {
  import opened Wrappers

  /** `ORG_ROLES` of `utils/auth.ts`. */
  datatype OrgRole = Owner | Admin | Coach | Athlete | Parent

  /** The authenticated user: `{ id, email }` with email nullable. */
  datatype User = User(id: string, email: Option<string>)

  /** The value of a `RequestContext`: every field optional. */
  datatype Ctx = Ctx(user: Option<User>, orgId: Option<string>, orgRole: Option<OrgRole>)

  /** `{}`: the context a route starts with. */
  const EmptyCtx := Ctx(None, None, None)

  /** A response: its status and the text of its body (or of its `error` field). */
  datatype Response = Response(status: int, body: string)

  /** The mutable `ctx` object that middlewares update in place. */
  class RequestContext {
    var user: Option<User>
    var orgId: Option<string>
    var orgRole: Option<OrgRole>

    constructor ()
      ensures State() == EmptyCtx
    {
      user, orgId, orgRole := None, None, None;
    }

    function State(): Ctx
      reads this
    {
      Ctx(user, orgId, orgRole)
    }
  }
}

=== FILE: dedup.dfy ===
/**
 * "First occurrence wins" de-duplication, the pattern behind every `Map` or
 * `Set` the handlers fill while skipping keys they have already seen: the
 * elements whose key has not occurred earlier, in their original order.
 */
module Dedup {

  /** The keys of the elements. */
  function KeysOf<T(==)>(xs: seq<T>, key: T -> string): set<string> {
    set x | x in xs :: key(x)
  }

  /** The first element of each key, in order of first appearance. */
  function FirstByKey<T(==)>(xs: seq<T>, key: T -> string): (r: seq<T>)
    ensures |r| <= |xs|
    decreases |xs|
  {
    if |xs| == 0 then []
    else
      var r := FirstByKey(xs[..|xs| - 1], key);
      var x := xs[|xs| - 1];
      if key(x) in KeysOf(r, key) then r else r + [x]
  }

  /** The index of the first element with key `k`. */
  function FirstIndex<T(==)>(xs: seq<T>, key: T -> string, k: string): (i: nat)
    requires k in KeysOf(xs, key)
    ensures i < |xs| && key(xs[i]) == k
    ensures forall j :: 0 <= j < i ==> key(xs[j]) != k
  {
    if key(xs[0]) == k then 0
    else
      assert xs[1..] + [] == xs[1..];
      assert forall x :: x in xs && x != xs[0] ==> x in xs[1..];
      1 + FirstIndex(xs[1..], key, k)
  }

  lemma KeysOfSnoc<T>(xs: seq<T>, x: T, key: T -> string)
    ensures KeysOf(xs + [x], key) == KeysOf(xs, key) + {key(x)}
  {
    assert forall y :: y in xs + [x] <==> y in xs || y == x;
  }

  /** One more element is kept exactly when its key is new. */
  lemma FirstByKeySnoc<T>(xs: seq<T>, x: T, key: T -> string)
    ensures FirstByKey(xs + [x], key)
      == if key(x) in KeysOf(FirstByKey(xs, key), key) then FirstByKey(xs, key) else FirstByKey(xs, key) + [x]
  {
    assert (xs + [x])[..|xs|] == xs;
  }

  /** Extending the list does not move the first index of a key already present. */
  lemma FirstIndexPrefix<T>(xs: seq<T>, key: T -> string, k: string, n: nat)
    requires n <= |xs| && k in KeysOf(xs[..n], key)
    ensures k in KeysOf(xs, key)
    ensures FirstIndex(xs, key, k) == FirstIndex(xs[..n], key, k)
  {
    var i := FirstIndex(xs[..n], key, k);
    assert xs[i] == xs[..n][i];
    assert forall m :: 0 <= m < n ==> xs[..n][m] == xs[m];
  }

  /** The de-duplicated list has the same keys, each exactly once. */
  lemma {:induction false} FirstByKeyKeys<T>(xs: seq<T>, key: T -> string)
    ensures KeysOf(FirstByKey(xs, key), key) == KeysOf(xs, key)
    ensures forall i, j :: 0 <= i < j < |FirstByKey(xs, key)| ==> key(FirstByKey(xs, key)[i]) != key(FirstByKey(xs, key)[j])
    decreases |xs|
  {
    if |xs| > 0 {
      var p := xs[..|xs| - 1];
      var x := xs[|xs| - 1];
      FirstByKeyKeys(p, key);
      KeysOfSnoc(p, x, key);
      assert xs == p + [x];
      var r := FirstByKey(p, key);
      if key(x) !in KeysOf(r, key) {
        KeysOfSnoc(r, x, key);
        assert forall i :: 0 <= i < |r| ==> r[i] in r;
      }
    }
  }

  /** Every kept element is the first element of `xs` with its key. */
  lemma {:induction false} FirstByKeyFirst<T>(xs: seq<T>, key: T -> string)
    ensures forall i :: 0 <= i < |FirstByKey(xs, key)| ==>
      key(FirstByKey(xs, key)[i]) in KeysOf(xs, key)
      && FirstByKey(xs, key)[i] == xs[FirstIndex(xs, key, key(FirstByKey(xs, key)[i]))]
    decreases |xs|
  {
    if |xs| > 0 {
      var n := |xs| - 1;
      var p := xs[..n];
      var x := xs[n];
      var r := FirstByKey(p, key);
      FirstByKeyFirst(p, key);
      forall i | 0 <= i < |r|
        ensures key(r[i]) in KeysOf(xs, key) && r[i] == xs[FirstIndex(xs, key, key(r[i]))]
      {
        FirstIndexPrefix(xs, key, key(r[i]), n);
        assert p[FirstIndex(p, key, key(r[i]))] == xs[FirstIndex(p, key, key(r[i]))];
      }
      if key(x) !in KeysOf(r, key) {
        FirstByKeyKeys(p, key);
        NewKeyIndex(xs, key);
      }
    }
  }

  /** The last element, when its key is new, is its own first occurrence. */
  lemma NewKeyIndex<T>(xs: seq<T>, key: T -> string)
    requires |xs| > 0 && key(xs[|xs| - 1]) !in KeysOf(xs[..|xs| - 1], key)
    ensures key(xs[|xs| - 1]) in KeysOf(xs, key) && FirstIndex(xs, key, key(xs[|xs| - 1])) == |xs| - 1
  {
    var n := |xs| - 1;
    var k := key(xs[n]);
    assert xs[n] in xs;
    forall m | 0 <= m < n
      ensures key(xs[m]) != k
    {
      assert xs[..n][m] == xs[m];
      assert xs[m] in xs[..n];
    }
  }

  /** The kept elements appear in the order of their first occurrences. */
  lemma {:induction false} FirstByKeyOrder<T>(xs: seq<T>, key: T -> string)
    ensures forall i, j :: 0 <= i < j < |FirstByKey(xs, key)| ==>
      key(FirstByKey(xs, key)[i]) in KeysOf(xs, key) && key(FirstByKey(xs, key)[j]) in KeysOf(xs, key)
      && FirstIndex(xs, key, key(FirstByKey(xs, key)[i])) < FirstIndex(xs, key, key(FirstByKey(xs, key)[j]))
    decreases |xs|
  {
    if |xs| > 0 {
      var n := |xs| - 1;
      var p := xs[..n];
      var x := xs[n];
      var r := FirstByKey(p, key);
      FirstByKeyOrder(p, key);
      FirstByKeyFirst(p, key);
      forall i | 0 <= i < |r|
        ensures key(r[i]) in KeysOf(xs, key) && FirstIndex(xs, key, key(r[i])) == FirstIndex(p, key, key(r[i])) < n
      {
        FirstIndexPrefix(xs, key, key(r[i]), n);
      }
      var out := FirstByKey(xs, key);
      if key(x) !in KeysOf(r, key) {
        FirstByKeyKeys(p, key);
        NewKeyIndex(xs, key);
        assert out == r + [x];
        forall i, j | 0 <= i < j < |out|
          ensures key(out[i]) in KeysOf(xs, key) && key(out[j]) in KeysOf(xs, key)
            && FirstIndex(xs, key, key(out[i])) < FirstIndex(xs, key, key(out[j]))
        {
          assert out[i] == r[i];
          if j == |r| {
            assert out[j] == x;
          } else {
            assert out[j] == r[j];
          }
        }
      } else {
        assert out == r;
        forall i, j | 0 <= i < j < |out|
          ensures key(out[i]) in KeysOf(xs, key) && key(out[j]) in KeysOf(xs, key)
            && FirstIndex(xs, key, key(out[i])) < FirstIndex(xs, key, key(out[j]))
        {
          assert FirstIndex(p, key, key(r[i])) < FirstIndex(p, key, key(r[j]));
        }
      }
    } else {
      assert |FirstByKey(xs, key)| == 0;
    }
  }

  /** An element is kept iff no earlier element has its key. */
  lemma FirstByKeyMember<T>(xs: seq<T>, key: T -> string, i: nat)
    requires i < |xs|
    ensures key(xs[i]) in KeysOf(FirstByKey(xs, key), key)
    ensures (forall j :: 0 <= j < i ==> key(xs[j]) != key(xs[i])) ==> xs[i] in FirstByKey(xs, key)
  {
    var k := key(xs[i]);
    var r := FirstByKey(xs, key);
    assert xs[i] in xs;
    FirstByKeyKeys(xs, key);
    assert k in KeysOf(r, key);
    if forall j :: 0 <= j < i ==> key(xs[j]) != k {
      var y :| y in r && key(y) == k;
      var m :| 0 <= m < |r| && r[m] == y;
      FirstByKeyFirst(xs, key);
      var f := FirstIndex(xs, key, k);
      assert f == i by {
        assert !(f < i) && !(i < f);
      }
      assert r[m] == xs[i];
    }
  }

  /** A string as its own key. */
  function Itself(s: string): string {
    s
  }

  /** `Array.from(new Set(xs))`: each string once, in order of first occurrence. */
  function Unique(xs: seq<string>): seq<string> {
    FirstByKey(xs, Itself)
  }

  /** Wherever a string of `ids` occurs in `xs`, every string before it in `ids` has already occurred. */
  ghost predicate FirstOccurrenceOrder(ids: seq<string>, xs: seq<string>) {
    forall i, j, q :: 0 <= i < j < |ids| && 0 <= q < |xs| && xs[q] == ids[j] ==> ids[i] in xs[..q]
  }

  /** The unique list has the same members, each once, in order of first occurrence. */
  lemma UniqueSpec(xs: seq<string>)
    ensures forall x :: x in Unique(xs) <==> x in xs
    ensures forall i, j :: 0 <= i < j < |Unique(xs)| ==> Unique(xs)[i] != Unique(xs)[j]
    ensures forall i, j :: 0 <= i < j < |Unique(xs)| ==>
      Unique(xs)[i] in KeysOf(xs, Itself) && Unique(xs)[j] in KeysOf(xs, Itself)
      && FirstIndex(xs, Itself, Unique(xs)[i]) < FirstIndex(xs, Itself, Unique(xs)[j])
  {
    var r := FirstByKey(xs, Itself);
    assert Unique(xs) == r;
    FirstByKeyKeys(xs, Itself);
    FirstByKeyOrder(xs, Itself);
    assert forall i :: 0 <= i < |r| ==> Itself(r[i]) == r[i];
    forall x
      ensures x in r <==> x in xs
    {
      assert x in r <==> Itself(x) in KeysOf(r, Itself);
      assert x in xs <==> Itself(x) in KeysOf(xs, Itself);
    }
  }

  /** The unique list is in order of first occurrence. */
  lemma UniqueOrder(xs: seq<string>)
    ensures FirstOccurrenceOrder(Unique(xs), xs)
  {
    UniqueSpec(xs);
    var ids := Unique(xs);
    forall i, j, q | 0 <= i < j < |ids| && 0 <= q < |xs| && xs[q] == ids[j]
      ensures ids[i] in xs[..q]
    {
      assert Unique(xs)[i] == ids[i] && Unique(xs)[j] == ids[j];
      var p := FirstIndex(xs, Itself, ids[i]);
      assert p < FirstIndex(xs, Itself, ids[j]) <= q;
      assert xs[..q][p] == ids[i];
    }
  }

  /** An element found only at index `a` occurs once. */
  lemma OccursOnce<T>(s: seq<T>, a: nat)
    requires a < |s| && forall k :: 0 <= k < |s| && k != a ==> s[k] != s[a]
    ensures multiset(s)[s[a]] == 1
  {
    assert s == s[..a] + [s[a]] + s[a + 1..];
    assert s[a] !in s[..a];
    var rest := s[a + 1..];
    forall k | 0 <= k < |rest|
      ensures rest[k] != s[a]
    {
      assert rest[k] == s[a + 1 + k];
    }
  }

  /** An element found at two indices occurs at least twice. */
  lemma OccursTwice<T>(t: seq<T>, i: nat, j: nat)
    requires i < j < |t| && t[i] == t[j]
    ensures multiset(t)[t[i]] >= 2
  {
    assert t == t[..i] + [t[i]] + t[i + 1..j] + [t[j]] + t[j + 1..];
  }

  /** Reordering a list whose keys are distinct keeps them distinct. */
  lemma DistinctKeysPermuted<T>(s: seq<T>, t: seq<T>, key: T -> string)
    requires multiset(s) == multiset(t)
    requires forall i, j :: 0 <= i < j < |s| ==> key(s[i]) != key(s[j])
    ensures forall i, j :: 0 <= i < j < |t| ==> key(t[i]) != key(t[j])
  {
    forall i, j | 0 <= i < j < |t|
      ensures key(t[i]) != key(t[j])
    {
      if key(t[i]) == key(t[j]) {
        assert t[i] in multiset(s) && t[j] in multiset(s);
        var a :| 0 <= a < |s| && s[a] == t[i];
        var b :| 0 <= b < |s| && s[b] == t[j];
        assert a == b;
        OccursTwice(t, i, j);
        OccursOnce(s, a);
        assert false;
      }
    }
  }
}

=== FILE: drill_dtos.dfy ===
/**
 * The drill request schemas of both API versions and `normalizeCreateDrillDto`,
 * which is the same function in both.
 */
module DrillDtos {
  import opened Wrappers
  import opened Text
  import opened Json
  import opened Dedup
  import opened Zod

  // ---------------------------------------------------------------------------
  // Schemas

  /** `typeof value === "string" ? value : value.skill_id`. */
  function SkillIdOf(v: Json): Json {
    if v.JStr? then v else OrNull(Get(v, "skill_id"))
  }

  /** `SkillTagInputSchema`: a UUID, or `{ skill_id: UUID }`, read as the id. */
  function SkillTagInputSchema(): Schema {
    Transform(Union(UuidSchema(), Obj([("skill_id", UuidSchema())])), SkillIdOf)
  }

  function DrillMediaTypeSchema(): Schema {
    Enum(["image", "video", "document", "link"])
  }

  function MediaTitle(): Schema {
    OptionalNullable(TrimmedText(0, Some(200)))
  }

  function MediaDescription(): Schema {
    OptionalNullable(TrimmedText(0, Some(4000)))
  }

  function UrlSchema(): Schema {
    Str(false, 0, None, UrlText)
  }

  /** An optional, nullable non-negative integer (ages and player counts). */
  function OptionalCount(): Schema {
    OptionalNullable(CoercedInt(0, None))
  }

  /** An optional, nullable positive integer; on integers `.positive()` is `.min(1)`. */
  function OptionalPositive(): Schema {
    OptionalNullable(CoercedInt(1, None))
  }

  /** `DrillMediaSchema`. */
  function DrillMediaSchema(): Schema {
    Obj([
      ("type", Default(DrillMediaTypeSchema(), JStr("image"))),
      ("url", UrlSchema()),
      ("title", MediaTitle()),
      ("description", MediaDescription()),
      ("thumbnail_url", OptionalNullable(UrlSchema()))])
  }

  /** `CreateDrillMediaSchema` of the functions API: the media fields, `drill_id`, and type "video" by default. */
  function CreateDrillMediaSchema(): Schema {
    Obj([
      ("type", Default(DrillMediaTypeSchema(), JStr("video"))),
      ("url", UrlSchema()),
      ("title", MediaTitle()),
      ("description", MediaDescription()),
      ("thumbnail_url", OptionalNullable(UrlSchema())),
      ("drill_id", UuidSchema())])
  }

  /** `CreateDrillSchema` (the same in both APIs). */
  function CreateDrillSchema(): Schema {
    Obj([
      ("org_id", UuidSchema()),
      ("segment_id", UuidSchema()),
      ("sport_id", OptionalNullable(UuidSchema())),
      ("name", TrimmedText(1, Some(200))),
      ("description", MediaDescription()),
      ("instructions", MediaDescription()),
      ("level", OptionalNullable(TrimmedText(0, Some(50)))),
      ("min_age", OptionalCount()),
      ("max_age", OptionalCount()),
      ("duration_seconds", OptionalPositive()),
      ("created_by", Optional(UuidSchema())),
      ("media", Default(Arr(DrillMediaSchema(), 0), JArr([]))),
      ("skill_tags", Default(Optional(Arr(SkillTagInputSchema(), 0)), JArr([])))])
  }

  /** `.optional().default([])` around a list of UUIDs. */
  function UuidList(): Schema {
    Default(Optional(Arr(UuidSchema(), 0)), JArr([]))
  }

  /** `DrillListFilterSchema` of the functions API. */
  function DrillListFilterSchema(): Schema {
    Obj([
      ("org_id", UuidSchema()),
      ("name", Optional(TrimmedText(1, None))),
      ("segment_ids", UuidList()),
      ("min_age", OptionalCount()),
      ("max_age", OptionalCount()),
      ("min_players", OptionalCount()),
      ("max_players", OptionalCount()),
      ("skill_tag_ids", UuidList()),
      ("limit", PagingField(1, Some(200), 50)),
      ("offset", PagingField(0, None, 0))])
  }

  /** `DrillListFilterSchema` of the Supabase API, which also filters by level. */
  function LevelDrillListFilterSchema(): Schema {
    Obj([
      ("org_id", UuidSchema()),
      ("name", Optional(TrimmedText(1, None))),
      ("levels", Default(Optional(Arr(TrimmedText(1, Some(50)), 0)), JArr([]))),
      ("segment_ids", UuidList()),
      ("min_age", OptionalCount()),
      ("max_age", OptionalCount()),
      ("min_players", OptionalCount()),
      ("max_players", OptionalCount()),
      ("skill_tag_ids", UuidList()),
      ("limit", PagingField(1, Some(200), 50)),
      ("offset", PagingField(0, None, 0))])
  }

  /** `UpdateDrillSchema` (Supabase API). */
  function UpdateDrillSchema(): Schema {
    Obj([
      ("name", Optional(TrimmedText(1, Some(200)))),
      ("description", MediaDescription()),
      ("instructions", MediaDescription()),
      ("level", OptionalNullable(TrimmedText(0, Some(50)))),
      ("segment_id", OptionalNullable(UuidSchema())),
      ("min_age", OptionalCount()),
      ("max_age", OptionalCount()),
      ("min_players", OptionalCount()),
      ("max_players", OptionalCount()),
      ("duration_seconds", OptionalPositive()),
      ("duration_min", OptionalPositive()),
      ("visibility", OptionalNullable(TrimmedText(1, Some(50)))),
      ("is_archived", Optional(Bool)),
      ("add_tag_ids", UuidList()),
      ("remove_tag_ids", UuidList())])
  }

  // ---------------------------------------------------------------------------
  // What the schemas guarantee

  /** A skill-tag input is accepted iff it is a UUID string or an object whose `skill_id` is one, and it yields that id. */
  lemma SkillTagInputYieldsId(v: Option<Json>, o: Oracles)
    ensures Parse(SkillTagInputSchema(), v, o).Valid? <==>
      (v.Some? && v.value.JStr? && Uuid.MatchesUuid(v.value.s))
      || (v.Some? && v.value.JObj? && AsString(Get(v.value, "skill_id")).Some? && Uuid.MatchesUuid(AsString(Get(v.value, "skill_id")).value))
    ensures var r := Parse(SkillTagInputSchema(), v, o);
      r.Valid? ==> (r.value.Some? && r.value.value.JStr? && Uuid.MatchesUuid(r.value.value.s)
        && (v.value.JStr? ==> r.value.value == v.value)
        && (v.value.JObj? ==> r.value.value == v.value.fields["skill_id"]))
  {
    StrParse(false, 0, None, UuidText, v, o);
    TransformUnionValid(UuidSchema(), Obj([("skill_id", UuidSchema())]), SkillIdOf, v, o);
    SkillTagObject(v, o);
  }

  /** The object form of a skill tag: accepted iff its `skill_id` is a UUID string, which it keeps. */
  lemma SkillTagObject(v: Option<Json>, o: Oracles)
    ensures var b := Parse(Obj([("skill_id", UuidSchema())]), v, o);
      (b.Valid? <==> (v.Some? && v.value.JObj? && AsString(Get(v.value, "skill_id")).Some?
        && Uuid.MatchesUuid(AsString(Get(v.value, "skill_id")).value)))
      && (b.Valid? ==> b.value.Some? && b.value.value.JObj? && Get(b.value.value, "skill_id") == Get(v.value, "skill_id"))
  {
    ObjParse([("skill_id", UuidSchema())], v, o, 0);
    if v.Some? && v.value.JObj? {
      StrParse(false, 0, None, UuidText, Get(v.value, "skill_id"), o);
    }
  }

  /** A drill must have a name that is 1 to 200 characters long once trimmed; the trimmed name is kept. */
  lemma CreateDrillName(v: Option<Json>, o: Oracles)
    ensures var r := Parse(CreateDrillSchema(), v, o);
      r.Valid? ==> (v.Some? && AsString(Get(v.value, "name")).Some?
        && var t := Trim(AsString(Get(v.value, "name")).value);
          1 <= Utf16Length(t) <= 200 && FieldOf(r, "name") == Some(JStr(t)))
  {
    ObjParse(CreateDrillSchema().fields, v, o, 3);
    if Parse(CreateDrillSchema(), v, o).Valid? {
      StrParse(true, 1, Some(200), AnyText, Get(v.value, "name"), o);
    }
  }

  /** A drill must have a UUID `segment_id`. */
  lemma CreateDrillSegment(v: Option<Json>, o: Oracles)
    ensures var r := Parse(CreateDrillSchema(), v, o);
      r.Valid? ==> (AsString(Get(v.value, "segment_id")).Some? && Uuid.MatchesUuid(AsString(Get(v.value, "segment_id")).value)
        && FieldOf(r, "segment_id") == Get(v.value, "segment_id"))
  {
    ObjParse(CreateDrillSchema().fields, v, o, 1);
    if Parse(CreateDrillSchema(), v, o).Valid? {
      StrParse(false, 0, None, UuidText, Get(v.value, "segment_id"), o);
    }
  }

  /** What an accepted optional integer field holds: nothing, null, or an integer at least `lo`. */
  predicate OptionalIntAtLeast(f: Option<Json>, lo: int) {
    f.None? || f == Some(JNull) || (f.value.JNum? && IsInteger(f.value.n) && f.value.n >= lo as real)
  }

  lemma OptionalIntField(lo: int, v: Option<Json>, o: Oracles)
    ensures var r := Parse(OptionalNullable(CoercedInt(lo, None)), v, o);
      r.Valid? ==> OptionalIntAtLeast(r.value, lo)
  {
    OptionalNullableParse(CoercedInt(lo, None), v, o);
    IntParse(true, Some(lo), None, v, o);
  }

  /** Ages are integers of at least 0 and `duration_seconds` a positive integer. */
  lemma CreateDrillNumbers(v: Option<Json>, o: Oracles)
    ensures var r := Parse(CreateDrillSchema(), v, o);
      r.Valid? ==> (OptionalIntAtLeast(FieldOf(r, "min_age"), 0) && OptionalIntAtLeast(FieldOf(r, "max_age"), 0)
        && OptionalIntAtLeast(FieldOf(r, "duration_seconds"), 1))
  {
    var fields := CreateDrillSchema().fields;
    assert KeyOnce(fields, 7) && KeyOnce(fields, 8) && KeyOnce(fields, 9);
    IntFieldAtLeast(fields, 7, 0, v, o);
    IntFieldAtLeast(fields, 8, 0, v, o);
    IntFieldAtLeast(fields, 9, 1, v, o);
  }

  /** Such a field of an accepted object holds nothing, null, or an integer of at least `lo`. */
  lemma IntFieldAtLeast(fields: seq<(string, Schema)>, i: nat, lo: int, v: Option<Json>, o: Oracles)
    requires KeyOnce(fields, i) && fields[i].1 == OptionalNullable(CoercedInt(lo, None))
    ensures var r := Parse(Obj(fields), v, o);
      r.Valid? ==> OptionalIntAtLeast(FieldOf(r, fields[i].0), lo)
  {
    FieldParsed(fields, v, o, i);
    if v.Some? {
      OptionalIntField(lo, Get(v.value, fields[i].0), o);
    }
  }

  /** What an accepted paging field holds: an integer within its bounds. */
  predicate PageValue(f: Option<Json>, lo: int, hi: Option<int>) {
    f.Some? && f.value.JNum? && IsInteger(f.value.n) && lo as real <= f.value.n && (hi.None? || f.value.n <= hi.value as real)
  }

  /** An accepted list filter has a limit in [1, 200], 50 when absent, and an offset of at least 0, 0 when absent. */
  lemma DrillListPaging(v: Option<Json>, o: Oracles)
    ensures var r := Parse(DrillListFilterSchema(), v, o);
      r.Valid? ==> (PageValue(FieldOf(r, "limit"), 1, Some(200)) && PageValue(FieldOf(r, "offset"), 0, None)
        && (Get(v.value, "limit").None? ==> FieldOf(r, "limit") == Some(JNum(50.0)))
        && (Get(v.value, "offset").None? ==> FieldOf(r, "offset") == Some(JNum(0.0))))
  {
    var fields := DrillListFilterSchema().fields;
    ObjParse(fields, v, o, 8);
    ObjParse(fields, v, o, 9);
    if Parse(DrillListFilterSchema(), v, o).Valid? {
      PagingFieldParse(1, Some(200), 50, Get(v.value, "limit"), o);
      PagingFieldParse(0, None, 0, Get(v.value, "offset"), o);
    }
  }

  /** The same paging rules in the Supabase filter. */
  lemma LevelDrillListPaging(v: Option<Json>, o: Oracles)
    ensures var r := Parse(LevelDrillListFilterSchema(), v, o);
      r.Valid? ==> (PageValue(FieldOf(r, "limit"), 1, Some(200)) && PageValue(FieldOf(r, "offset"), 0, None)
        && (Get(v.value, "limit").None? ==> FieldOf(r, "limit") == Some(JNum(50.0)))
        && (Get(v.value, "offset").None? ==> FieldOf(r, "offset") == Some(JNum(0.0))))
  {
    var fields := LevelDrillListFilterSchema().fields;
    ObjParse(fields, v, o, 9);
    ObjParse(fields, v, o, 10);
    if Parse(LevelDrillListFilterSchema(), v, o).Valid? {
      PagingFieldParse(1, Some(200), 50, Get(v.value, "limit"), o);
      PagingFieldParse(0, None, 0, Get(v.value, "offset"), o);
    }
  }

  /** A missing UUID list becomes `[]`; a given one must hold only UUIDs. */
  lemma UuidListParse(v: Option<Json>, o: Oracles)
    ensures v.None? ==> Parse(UuidList(), v, o) == Valid(Some(JArr([])))
    ensures var r := Parse(UuidList(), v, o);
      v.Some? && r.Valid? ==> (v.value.JArr? && r.value == v
        && forall i :: 0 <= i < |v.value.items| ==> v.value.items[i].JStr? && Uuid.MatchesUuid(v.value.items[i].s))
  {
    var element := UuidSchema();
    if v.None? {
      ArrParse(element, 0, Some(JArr([])), o);
    } else {
      ArrParse(element, 0, v, o);
      if Parse(UuidList(), v, o).Valid? {
        var items := v.value.items;
        forall i | 0 <= i < |items|
          ensures items[i].JStr? && Uuid.MatchesUuid(items[i].s)
          ensures OrNull(Parse(element, Some(items[i]), o).value) == items[i]
        {
          StrParse(false, 0, None, UuidText, Some(items[i]), o);
        }
        var out := Parse(UuidList(), v, o).value.value.items;
        assert out == items;
      }
    }
  }

  /** `add_tag_ids` and `remove_tag_ids` of an accepted update are lists of UUIDs, `[]` when absent. */
  lemma UpdateDrillTagLists(v: Option<Json>, o: Oracles)
    ensures var r := Parse(UpdateDrillSchema(), v, o);
      r.Valid? ==> ((Get(v.value, "add_tag_ids").None? ==> FieldOf(r, "add_tag_ids") == Some(JArr([])))
        && (Get(v.value, "remove_tag_ids").None? ==> FieldOf(r, "remove_tag_ids") == Some(JArr([])))
        && (Get(v.value, "add_tag_ids").Some? ==> FieldOf(r, "add_tag_ids") == Get(v.value, "add_tag_ids")))
  {
    var fields := UpdateDrillSchema().fields;
    ObjParse(fields, v, o, 13);
    ObjParse(fields, v, o, 14);
    if Parse(UpdateDrillSchema(), v, o).Valid? {
      UuidListParse(Get(v.value, "add_tag_ids"), o);
      UuidListParse(Get(v.value, "remove_tag_ids"), o);
    }
  }

  /** Media creation needs a UUID `drill_id`; the type defaults to "video". */
  lemma CreateDrillMediaRules(v: Option<Json>, o: Oracles)
    ensures var r := Parse(CreateDrillMediaSchema(), v, o);
      r.Valid? ==> (AsString(Get(v.value, "drill_id")).Some? && Uuid.MatchesUuid(AsString(Get(v.value, "drill_id")).value)
        && (Get(v.value, "type").None? ==> FieldOf(r, "type") == Some(JStr("video"))))
  {
    var fields := CreateDrillMediaSchema().fields;
    ObjParse(fields, v, o, 5);
    ObjParse(fields, v, o, 0);
    EnumDefault(DrillMediaTypeSchema().values, "video", o);
    if Parse(CreateDrillMediaSchema(), v, o).Valid? {
      StrParse(false, 0, None, UuidText, Get(v.value, "drill_id"), o);
    }
  }

  // ---------------------------------------------------------------------------
  // normalizeCreateDrillDto

  /** The shape `normalizeCreateDrillDto` receives: media objects and skill-tag ids. */
  predicate CreateDrillShaped(input: map<string, Json>) {
    && "media" in input && input["media"].JArr?
    && (forall i :: 0 <= i < |input["media"].items| ==> input["media"].items[i].JObj?)
    && "skill_tags" in input && input["skill_tags"].JArr?
    && (forall i :: 0 <= i < |input["skill_tags"].items| ==> input["skill_tags"].items[i].JStr?)
  }

  /** `{ ...item, position: item.position ?? index + 1 }`. */
  function PositionedMedia(item: Json, index: nat): Json
    requires item.JObj?
  {
    JObj(item.fields["position" := OrElse(Get(item, "position"), Some(JNum((index + 1) as real))).value])
  }

  function TagIds(tags: seq<Json>): (ids: seq<string>)
    requires forall i :: 0 <= i < |tags| ==> tags[i].JStr?
    ensures |ids| == |tags| && forall i :: 0 <= i < |tags| ==> ids[i] == tags[i].s
  {
    seq(|tags|, i requires 0 <= i < |tags| => tags[i].s)
  }

  /** `normalizeCreateDrillDto`. */
  function NormalizeCreateDrill(input: map<string, Json>): map<string, Json>
    requires CreateDrillShaped(input)
  {
    var media := input["media"].items;
    var ids := Unique(TagIds(input["skill_tags"].items));
    input["media" := JArr(seq(|media|, i requires 0 <= i < |media| => PositionedMedia(media[i], i)))]
      ["skill_tags" := JArr(seq(|ids|, i requires 0 <= i < |ids| => JObj(map["skill_id" := JStr(ids[i])])))]
  }

  /** Every field other than `media` and `skill_tags` is copied unchanged, and no field is added. */
  lemma NormalizeCreateDrillCopies(input: map<string, Json>)
    requires CreateDrillShaped(input)
    ensures var r := NormalizeCreateDrill(input);
      (forall k :: k in input && k != "media" && k != "skill_tags" ==> k in r && r[k] == input[k])
      && r.Keys == input.Keys
  {
  }

  /**
   * Media keep their length and order and their other fields; a missing or
   * null position becomes the 1-based index.
   */
  lemma NormalizeCreateDrillMedia(input: map<string, Json>, i: nat)
    requires CreateDrillShaped(input) && i < |input["media"].items|
    ensures var r := NormalizeCreateDrill(input); var item := input["media"].items[i];
      r["media"].JArr? && |r["media"].items| == |input["media"].items|
      && (forall k :: k in item.fields && k != "position" ==> Get(r["media"].items[i], k) == Get(item, k))
      && Get(r["media"].items[i], "position") == Some(
        if Get(item, "position").Some? && Get(item, "position").value != JNull
        then Get(item, "position").value else JNum((i + 1) as real))
  {
  }

  /** The skill tags are the distinct ids, each once and wrapped as `{ skill_id }`. */
  lemma NormalizeCreateDrillTags(input: map<string, Json>)
    requires CreateDrillShaped(input)
    ensures var r := NormalizeCreateDrill(input); var tags := TagIds(input["skill_tags"].items);
      r["skill_tags"].JArr?
      && (forall t :: t in tags <==> exists i :: 0 <= i < |r["skill_tags"].items| && r["skill_tags"].items[i] == JObj(map["skill_id" := JStr(t)]))
      && forall i, j :: 0 <= i < j < |r["skill_tags"].items| ==> r["skill_tags"].items[i] != r["skill_tags"].items[j]
  {
    var tags := TagIds(input["skill_tags"].items);
    var ids := Unique(tags);
    UniqueSpec(tags);
    var r := NormalizeCreateDrill(input);
    var out := r["skill_tags"].items;
    assert forall i :: 0 <= i < |ids| ==> out[i] == JObj(map["skill_id" := JStr(ids[i])]);
    forall t
      ensures t in tags <==> exists i :: 0 <= i < |out| && out[i] == JObj(map["skill_id" := JStr(t)])
    {
      if t in tags {
        assert t in ids;
        var i :| 0 <= i < |ids| && ids[i] == t;
        assert out[i] == JObj(map["skill_id" := JStr(t)]);
      }
      if exists i :: 0 <= i < |out| && out[i] == JObj(map["skill_id" := JStr(t)]) {
        var i :| 0 <= i < |out| && out[i] == JObj(map["skill_id" := JStr(t)]);
        assert JObj(map["skill_id" := JStr(ids[i])]).fields["skill_id"] == JStr(ids[i]);
        assert ids[i] == t;
      }
    }
    forall i, j | 0 <= i < j < |out|
      ensures out[i] != out[j]
    {
      assert out[i].fields["skill_id"] == JStr(ids[i]);
      assert out[j].fields["skill_id"] == JStr(ids[j]);
    }
  }

  /**
   * The tags come in the order their ids first occur in the input: the
   * i-th tag wraps the i-th distinct id, and earlier tags wrap ids that
   * first occur earlier.
   */
  lemma NormalizeCreateDrillTagOrder(input: map<string, Json>)
    requires CreateDrillShaped(input)
    ensures var r := NormalizeCreateDrill(input); var ids := Unique(TagIds(input["skill_tags"].items));
      r["skill_tags"].JArr? && |r["skill_tags"].items| == |ids|
      && forall i :: 0 <= i < |ids| ==> r["skill_tags"].items[i] == JObj(map["skill_id" := JStr(ids[i])])
    ensures FirstOccurrenceOrder(Unique(TagIds(input["skill_tags"].items)), TagIds(input["skill_tags"].items))
  {
    UniqueOrder(TagIds(input["skill_tags"].items));
  }
}

=== FILE: drills.dfy ===
/**
 * The drill service: the update of a drill (its patch and its tag links),
 * media creation with a default position, and the row-to-DTO mappers. The
 * `drills`, `drill_tag_map` and `drill_media` tables are fields of
 * `DrillTables`; the one read whose order the database decides (the last
 * sort order) is an input.
 */
module Drills {
  import opened Wrappers
  import opened Json
  import opened Dedup
  import opened Patches
  import MediaPaths

  // ---------------------------------------------------------------------------
  // updateDrill: the patch

  /** The plainly copied update fields; `instructions` is stored as `coaching_points`. */
  const DrillColumns: seq<Column> := [
    Column("name", "name"),
    Column("description", "description"),
    Column("instructions", "coaching_points"),
    Column("level", "level"),
    Column("segment_id", "segment_id"),
    Column("min_age", "min_age"),
    Column("max_age", "max_age"),
    Column("min_players", "min_players"),
    Column("max_players", "max_players"),
    Column("visibility", "visibility"),
    Column("is_archived", "is_archived")
  ]

  /** `Math.ceil(r)`. */
  function Ceil(r: real): (n: int)
    ensures r <= n as real < r + 1.0
  {
    -((-r).Floor)
  }

  /** The declared type of the duration fields: a number or `null` when present. */
  predicate DurationsTyped(input: map<string, Json>) {
    ("duration_seconds" in input ==> input["duration_seconds"].JNum? || input["duration_seconds"].JNull?)
  }

  /** `duration_seconds === null ? null : Math.ceil(duration_seconds / 60)`. */
  function DurationMinutes(seconds: Json): (minutes: Json)
    requires seconds.JNum? || seconds.JNull?
    ensures seconds.JNull? ==> minutes == JNull
    ensures seconds.JNum? ==> minutes.JNum? && (minutes.n - 1.0) * 60.0 < seconds.n <= minutes.n * 60.0
  {
    if seconds.JNull? then JNull else JNum(Ceil(seconds.n / 60.0) as real)
  }

  /** The patch of `updateDrill`: the copied columns, then `duration_min`. */
  function DrillPatch(input: map<string, Json>): map<string, Json>
    requires DurationsTyped(input)
  {
    var patch := PatchOf(input, DrillColumns);
    if "duration_min" in input then patch["duration_min" := input["duration_min"]]
    else if "duration_seconds" in input then patch["duration_min" := DurationMinutes(input["duration_seconds"])]
    else patch
  }

  lemma DrillColumnsDistinct()
    ensures DistinctColumns(DrillColumns)
    ensures forall i :: 0 <= i < |DrillColumns| ==> DrillColumns[i].column != "duration_min" && DrillColumns[i].column != "instructions"
  {
  }

  /**
   * The patch holds only supplied fields, under their column names
   * (`instructions` as `coaching_points`); `duration_min` is present iff
   * either duration is supplied, and `duration_min` wins over the rounded-up
   * `duration_seconds`.
   */
  lemma DrillPatchSpec(input: map<string, Json>)
    requires DurationsTyped(input)
    ensures forall c :: c in DrillPatch(input) <==>
      Supplied(input, DrillColumns, c) || (c == "duration_min" && ("duration_min" in input || "duration_seconds" in input))
    ensures forall i :: 0 <= i < |DrillColumns| && DrillColumns[i].field in input ==>
      DrillColumns[i].column in DrillPatch(input) && DrillPatch(input)[DrillColumns[i].column] == input[DrillColumns[i].field]
    ensures "coaching_points" in DrillPatch(input) <==> "instructions" in input
    ensures "instructions" !in DrillPatch(input)
    ensures "duration_min" in input ==> DrillPatch(input)["duration_min"] == input["duration_min"]
    ensures "duration_min" !in input && "duration_seconds" in input ==>
      DrillPatch(input)["duration_min"] == DurationMinutes(input["duration_seconds"])
  {
    DrillColumnsDistinct();
    PatchOfSpec(input, DrillColumns);
    assert DrillColumns[2] == Column("instructions", "coaching_points");
    if "instructions" in input {
      assert Supplied(input, DrillColumns, "coaching_points");
    }
  }

  /** Builds the patch field by field, as `updateDrill` does. */
  method BuildDrillPatch(input: map<string, Json>) returns (patch: map<string, Json>)
    requires DurationsTyped(input)
    ensures patch == DrillPatch(input)
  {
    patch := BuildPatch(input, DrillColumns);
    if "duration_min" in input {
      patch := patch["duration_min" := input["duration_min"]];
    } else if "duration_seconds" in input {
      patch := patch["duration_min" := DurationMinutes(input["duration_seconds"])];
    }
  }

  // ---------------------------------------------------------------------------
  // updateDrill: the tag links

  /** The tag ids to link and to unlink. */
  datatype TagPlan = TagPlan(add: seq<string>, remove: seq<string>)

  /** `ids.filter((id) => !exclude.includes(id))`. */
  function Without(ids: seq<string>, exclude: seq<string>): (r: seq<string>)
    ensures forall x :: x in r <==> x in ids && x !in exclude
    ensures |r| <= |ids|
  {
    if |ids| == 0 then []
    else (if ids[0] in exclude then [] else [ids[0]]) + Without(ids[1..], exclude)
  }

  lemma {:induction false} WithoutDistinct(ids: seq<string>, exclude: seq<string>)
    requires forall i, j :: 0 <= i < j < |ids| ==> ids[i] != ids[j]
    ensures forall i, j :: 0 <= i < j < |Without(ids, exclude)| ==> Without(ids, exclude)[i] != Without(ids, exclude)[j]
    decreases |ids|
  {
    if |ids| > 0 {
      WithoutDistinct(ids[1..], exclude);
      assert forall x :: x in Without(ids[1..], exclude) ==> x in ids[1..];
      assert ids[0] !in ids[1..];
    }
  }

  /** `addTagIds` and `removeSet` of `updateDrill`. */
  function PlanTags(addIds: Option<seq<string>>, removeIds: Option<seq<string>>): TagPlan {
    var add := Unique(addIds.GetOr([]));
    TagPlan(add, Without(Unique(removeIds.GetOr([])), add))
  }

  /**
   * The database errors `updateDrill` can meet, each `None` when that query
   * succeeds: the patch (or the read of the drill when there is no patch),
   * the delete of the unlinked tags and the upsert of the linked ones.
   */
  datatype DrillUpdateErrors = DrillUpdateErrors(patchError: Option<string>, removeError: Option<string>,
                                                 upsertError: Option<string>)

  /** The error of the tag writes, if any: the delete runs only with tags to unlink, the upsert only with tags to link. */
  function RelinkFailure(plan: TagPlan, errs: DrillUpdateErrors): Option<string> {
    if |plan.remove| > 0 && errs.removeError.Some? then errs.removeError
    else if |plan.add| > 0 && errs.upsertError.Some? then errs.upsertError
    else None
  }

  /**
   * Each id to add appears once; each id to remove appears once, was asked
   * to be removed and is not being added.
   */
  lemma PlanTagsSpec(addIds: Option<seq<string>>, removeIds: Option<seq<string>>)
    ensures var p := PlanTags(addIds, removeIds);
      (forall t :: t in p.add <==> t in addIds.GetOr([]))
      && (forall t :: t in p.remove <==> t in removeIds.GetOr([]) && t !in addIds.GetOr([]))
      && (forall i, j :: 0 <= i < j < |p.add| ==> p.add[i] != p.add[j])
      && (forall i, j :: 0 <= i < j < |p.remove| ==> p.remove[i] != p.remove[j])
  {
    UniqueSpec(addIds.GetOr([]));
    UniqueSpec(removeIds.GetOr([]));
    WithoutDistinct(Unique(removeIds.GetOr([])), Unique(addIds.GetOr([])));
  }

  /** The tags of a drill after the delete and then the upsert. */
  function TagsAfter(current: set<string>, p: TagPlan): set<string> {
    (current - set t | t in p.remove) + set t | t in p.add
  }

  /**
   * After an update a drill is linked to a tag iff the tag was to be added,
   * or it was linked and not to be removed: an id in both lists stays linked.
   */
  lemma TagsAfterSpec(current: set<string>, addIds: Option<seq<string>>, removeIds: Option<seq<string>>, t: string)
    ensures t in TagsAfter(current, PlanTags(addIds, removeIds)) <==>
      t in addIds.GetOr([]) || (t in current && t !in removeIds.GetOr([]))
  {
    PlanTagsSpec(addIds, removeIds);
  }

  // ---------------------------------------------------------------------------
  // Rows and DTOs

  /** A stored drill: its organization and its other columns. */
  datatype DrillRecord = DrillRecord(orgId: string, columns: map<string, Json>)

  /** An entry of `media` in a drill DTO. */
  datatype MediaDto = MediaDto(mediaType: Json, url: Option<Json>, title: Json, description: Json, thumbnailUrl: Json, position: Json)

  /** An entry of `skill_tags` in a drill DTO. */
  datatype TagDto = TagDto(id: Json, name: string)

  /** A drill DTO; `None` is a field left `undefined`. */
  datatype DrillDto = DrillDto(
    id: Option<Json>, orgId: Json, segmentId: Json, name: Option<Json>, description: Json, level: Json,
    minPlayers: Json, maxPlayers: Json, minAge: Json, maxAge: Json, durationMin: Json, visibility: Json,
    isArchived: Json, createdAt: Option<Json>, updatedAt: Option<Json>,
    segment: Json, skillTags: seq<TagDto>, media: seq<MediaDto>)

  /** A stored media row as returned by `createDrillMedia`. */
  datatype MediaRecord = MediaRecord(id: Option<Json>, drillId: Option<Json>, mediaType: Json, url: Option<Json>, title: Json, thumbnailUrl: Json, position: Json)

  function MediaDtoOf(m: Json): MediaDto {
    MediaDto(
      OrDefault(Get(m, "media_type"), JStr("video")),
      Get(m, "url"),
      OrNull(Get(m, "title")),
      JNull,
      OrNull(Get(m, "thumbnail_url")),
      OrNull(Get(m, "sort_order")))
  }

  /** The tag of a `drill_tag_map` entry, kept when its id is truthy. */
  function TagOf(item: Json): (r: Option<TagDto>)
    ensures r.Some? <==> exists id :: GetIn(Get(item, "drill_tags"), "id") == Some(id) && Truthy(id)
  {
    var tag := Get(item, "drill_tags");
    var id := GetIn(tag, "id");
    if id.Some? && Truthy(id.value) then
      var name := GetIn(tag, "name");
      Some(TagDto(id.value, if name.Some? && name.value.JStr? then name.value.s else ""))
    else None
  }

  function TagsOf(items: seq<Json>): (r: seq<TagDto>)
    ensures |r| <= |items|
  {
    if |items| == 0 then []
    else (if TagOf(items[0]).Some? then [TagOf(items[0]).value] else []) + TagsOf(items[1..])
  }

  /**
   * `{ id: row.segment.id, name: row.segment.name ?? null }`: an undefined
   * id leaves the key out, as `JSON.stringify` does; a missing name is null.
   */
  function SegmentDtoOf(segment: Json): (r: Json)
    ensures r.JObj? && "name" in r.fields && r.fields["name"] == OrNull(Get(segment, "name"))
    ensures ("id" in r.fields) <==> Get(segment, "id").Some?
    ensures Get(segment, "id").Some? ==> r.fields["id"] == Get(segment, "id").value
    ensures r.fields.Keys <= {"id", "name"}
  {
    var named := map["name" := OrNull(Get(segment, "name"))];
    JObj(if Get(segment, "id").Some? then named["id" := Get(segment, "id").value] else named)
  }

  /** `mapDrillRowToDto`. */
  function DrillDtoOf(row: Json): DrillDto {
    var segment := Get(row, "segment");
    var mediaRows := ElementsOf(Get(row, "drill_media"));
    DrillDto(
      Get(row, "id"), OrNull(Get(row, "org_id")), OrNull(Get(row, "segment_id")), Get(row, "name"),
      OrNull(Get(row, "description")), OrNull(Get(row, "level")),
      OrNull(Get(row, "min_players")), OrNull(Get(row, "max_players")),
      OrNull(Get(row, "min_age")), OrNull(Get(row, "max_age")),
      OrNull(Get(row, "duration_min")), OrNull(Get(row, "visibility")),
      OrDefault(Get(row, "is_archived"), JBool(false)), Get(row, "created_at"), Get(row, "updated_at"),
      if segment.Some? && Truthy(segment.value) then SegmentDtoOf(segment.value) else JNull,
      TagsOf(ElementsOf(Get(row, "drill_tag_map"))),
      seq(|mediaRows|, i requires 0 <= i < |mediaRows| => MediaDtoOf(mediaRows[i])))
  }

  /** `mapDrillMediaRow`. */
  function MediaRecordOf(row: Json): MediaRecord {
    MediaRecord(Get(row, "id"), Get(row, "drill_id"), OrDefault(Get(row, "media_type"), JStr("video")),
      Get(row, "url"), OrNull(Get(row, "title")), OrNull(Get(row, "thumbnail_url")), OrNull(Get(row, "sort_order")))
  }

  /**
   * The tag list is the filter of the link rows: it distributes over
   * concatenation and keeps a single row exactly when its tag id is truthy.
   */
  lemma {:induction false} TagsOfConcat(a: seq<Json>, b: seq<Json>)
    ensures TagsOf(a + b) == TagsOf(a) + TagsOf(b)
    decreases |a|
  {
    if |a| > 0 {
      assert (a + b)[0] == a[0];
      assert (a + b)[1..] == a[1..] + b;
      TagsOfConcat(a[1..], b);
    } else {
      assert a + b == b;
    }
  }

  /** A single link row yields its tag, with the name `""` unless it is a string. */
  lemma TagsOfSingle(item: Json)
    ensures var tag := Get(item, "drill_tags");
      var id := GetIn(tag, "id");
      TagsOf([item]) == (if id.Some? && Truthy(id.value) then [TagDto(id.value, AsString(GetIn(tag, "name")).GetOr(""))] else [])
  {
    assert [item][1..] == [];
  }

  /**
   * `mapDrillRowToDto` keeps one media entry per media row, in order, with
   * type "video" when none is stored, no description and a null position
   * when no sort order is stored.
   */
  lemma DrillMediaDefaults(row: Json, i: nat)
    requires i < |ElementsOf(Get(row, "drill_media"))|
    ensures |DrillDtoOf(row).media| == |ElementsOf(Get(row, "drill_media"))|
    ensures var m := ElementsOf(Get(row, "drill_media"))[i];
      var d := DrillDtoOf(row).media[i];
      (Get(m, "media_type").None? ==> d.mediaType == JStr("video"))
      && d.url == Get(m, "url") && d.description == JNull
      && (Get(m, "sort_order").None? ==> d.position == JNull)
  {
  }

  /**
   * `is_archived` defaults to false, a missing nullable column becomes null,
   * and a missing or falsy segment becomes null.
   */
  lemma DrillFieldDefaults(row: Json)
    ensures Get(row, "is_archived").None? ==> DrillDtoOf(row).isArchived == JBool(false)
    ensures Get(row, "description").None? ==> DrillDtoOf(row).description == JNull
    ensures Get(row, "duration_min").None? ==> DrillDtoOf(row).durationMin == JNull
    ensures Get(row, "org_id").None? ==> DrillDtoOf(row).orgId == JNull
    ensures !(Get(row, "segment").Some? && Truthy(Get(row, "segment").value)) ==> DrillDtoOf(row).segment == JNull
  {
  }

  // ---------------------------------------------------------------------------
  // The tables

  class DrillTables {
    var drills: map<string, DrillRecord>
    var tagLinks: set<(string, string)>
    var media: seq<map<string, Json>>

    constructor (drills: map<string, DrillRecord>, tagLinks: set<(string, string)>, media: seq<map<string, Json>>)
      ensures this.drills == drills && this.tagLinks == tagLinks && this.media == media
    {
      this.drills := drills;
      this.tagLinks := tagLinks;
      this.media := media;
    }

    /** `ensureDrillOrg`: the drill exists in that organization. */
    predicate InOrg(drillId: string, orgId: string)
      reads this
    {
      drillId in drills && drills[drillId].orgId == orgId
    }

    /** The tags linked to a drill. */
    function TagsOfDrill(drillId: string): set<string>
      reads this
    {
      set link | link in tagLinks && link.0 == drillId :: link.1
    }

    /** The links of `drillId` to the given tags. */
    static function Links(drillId: string, tags: seq<string>): set<(string, string)> {
      set t | t in tags :: (drillId, t)
    }

    /**
     * Unlinks `plan.remove`, then links `plan.add`, each only when not
     * empty; a failed delete writes nothing, a failed upsert keeps the
     * deletion.
     */
    method Relink(drillId: string, plan: TagPlan, errs: DrillUpdateErrors) returns (err: Option<string>)
      modifies this
      ensures err == RelinkFailure(plan, errs)
      ensures |plan.remove| > 0 && errs.removeError.Some? ==> tagLinks == old(tagLinks)
      ensures !(|plan.remove| > 0 && errs.removeError.Some?) ==>
        tagLinks == (old(tagLinks) - Links(drillId, plan.remove)) + (if err.Some? then {} else Links(drillId, plan.add))
      ensures drills == old(drills) && media == old(media)
    {
      if |plan.remove| > 0 {
        if errs.removeError.Some? {
          return errs.removeError;
        }
        tagLinks := tagLinks - Links(drillId, plan.remove);
      }
      if |plan.add| > 0 {
        if errs.upsertError.Some? {
          return errs.upsertError;
        }
        tagLinks := tagLinks + Links(drillId, plan.add);
      }
      err := None;
    }

    /**
     * `updateDrill`: a failed patch (or read) is its error and a drill
     * outside the organization is "Drill not found", and then nothing
     * changes; otherwise the patch, if not empty, is written, the tags to
     * remove are unlinked and then the tags to add are linked. A failed tag
     * write ends the call with its error and keeps the writes made before it.
     */
    method UpdateDrill(drillId: string, orgId: string, input: map<string, Json>,
                       addTagIds: Option<seq<string>>, removeTagIds: Option<seq<string>>, errs: DrillUpdateErrors)
      returns (r: Result<DrillRecord>)
      requires DurationsTyped(input)
      modifies this
      ensures r.Ok? <==> errs.patchError.None? && old(InOrg(drillId, orgId))
                         && RelinkFailure(PlanTags(addTagIds, removeTagIds), errs).None?
      ensures errs.patchError.Some? ==> r == Err(errs.patchError.value)
      ensures errs.patchError.None? && !old(InOrg(drillId, orgId)) ==> r == Err("Drill not found")
      ensures errs.patchError.Some? || !old(InOrg(drillId, orgId)) ==> drills == old(drills) && tagLinks == old(tagLinks)
      ensures errs.patchError.None? && old(InOrg(drillId, orgId)) ==>
        && drills == old(drills)[drillId := DrillRecord(orgId, old(drills)[drillId].columns + DrillPatch(input))]
        && (RelinkFailure(PlanTags(addTagIds, removeTagIds), errs).Some? ==>
              r == Err(RelinkFailure(PlanTags(addTagIds, removeTagIds), errs).value))
      ensures errs.patchError.None? && old(InOrg(drillId, orgId)) ==>
        var plan := PlanTags(addTagIds, removeTagIds);
        if |plan.remove| > 0 && errs.removeError.Some? then tagLinks == old(tagLinks)
        else tagLinks == (old(tagLinks) - Links(drillId, plan.remove)) + (if r.Err? then {} else Links(drillId, plan.add))
      ensures r.Ok? ==> r.value == drills[drillId]
      ensures media == old(media)
    {
      var patch := BuildDrillPatch(input);
      if errs.patchError.Some? {
        return Err(errs.patchError.value);
      }
      if !InOrg(drillId, orgId) {
        return Err("Drill not found");
      }
      var record := drills[drillId];
      if |patch| > 0 {
        drills := drills[drillId := DrillRecord(orgId, record.columns + patch)];
      } else {
        assert record.columns + patch == record.columns;
        assert record == DrillRecord(orgId, record.columns + patch);
        assert drills == drills[drillId := record];
      }
      var err := Relink(drillId, PlanTags(addTagIds, removeTagIds), errs);
      if err.Some? {
        return Err(err.value);
      }
      r := Ok(drills[drillId]);
    }

    /**
     * `createDrillMedia`: checks the drill's organization, allocates the
     * position when none is given, and inserts one media row.
     */
    method CreateDrillMedia(drillId: string, orgId: string, input: map<string, Json>,
                            lastSortOrder: Option<Json>, mediaId: string) returns (r: Result<MediaRecord>)
      modifies this
      ensures r.Err? <==> !old(InOrg(drillId, orgId))
      ensures r.Err? ==> r.msg == "Drill not found" && media == old(media)
      ensures r.Ok? ==> |media| == |old(media)| + 1 && media[..|old(media)|] == old(media)
      ensures r.Ok? ==> r.value == MediaRecordOf(JObj(media[|old(media)|]))
      ensures r.Ok? ==> var given := Get(JObj(input), "position");
        r.value.position == (if given.Some? && given.value != JNull then given.value
                             else JNum(MediaPaths.NextPosition(lastSortOrder)))
      ensures drills == old(drills) && tagLinks == old(tagLinks)
    {
      if !InOrg(drillId, orgId) {
        return Err("Drill not found");
      }
      var position := MediaPaths.AllocatePosition(Get(JObj(input), "position"), lastSortOrder);
      var row := map[
        "id" := JStr(mediaId),
        "drill_id" := JStr(drillId),
        "media_type" := OrNull(Get(JObj(input), "type")),
        "url" := OrNull(Get(JObj(input), "url")),
        "title" := OrNull(Get(JObj(input), "title")),
        "thumbnail_url" := OrNull(Get(JObj(input), "thumbnail_url")),
        "sort_order" := position];
      media := media + [row];
      r := Ok(MediaRecordOf(JObj(row)));
    }
  }

  /** The tags a drill has after `UpdateDrill` are those `TagsAfter` describes. */
  lemma UpdateDrillTags(links: set<(string, string)>, drillId: string, p: TagPlan)
    ensures var after := (links - DrillTables.Links(drillId, p.remove)) + DrillTables.Links(drillId, p.add);
      (set link | link in after && link.0 == drillId :: link.1)
        == TagsAfter(set link | link in links && link.0 == drillId :: link.1, p)
      && (forall link :: link in after && link.0 != drillId <==> link in links && link.0 != drillId)
  {
    var after := (links - DrillTables.Links(drillId, p.remove)) + DrillTables.Links(drillId, p.add);
    var before := set link | link in links && link.0 == drillId :: link.1;
    forall t
      ensures t in (set link | link in after && link.0 == drillId :: link.1) <==> t in TagsAfter(before, p)
    {
      if t in before {
        assert (drillId, t) in links;
      }
      if t in TagsAfter(before, p) {
        assert (drillId, t) in after;
      }
    }
  }
}

=== FILE: evaluation_dto.dfy ===
/**
 * The evaluation detail response: the items of an evaluation with their
 * athletes' names, the distinct athletes, and the template's categories,
 * with the nullish fields defaulted to `null`.
 */
module EvaluationDto {
  import opened Wrappers
  import opened Json
  import opened Dedup

  datatype ItemDto = ItemDto(
    id: Option<Json>, evaluationId: Option<Json>, athleteId: Option<Json>,
    athleteFirstName: Json, athleteLastName: Json, subskillId: Option<Json>,
    rating: Option<Json>, comment: Json, createdAt: Option<Json>)

  datatype AthleteDto = AthleteDto(id: string, firstName: Json, lastName: Json)

  datatype CategoryDto = CategoryDto(
    id: Option<Json>, templateId: Option<Json>, name: Option<Json>, description: Json, position: Json)

  datatype EvaluationDetail = EvaluationDetail(
    id: Option<Json>, orgId: Option<Json>, templateId: Option<Json>, templateName: Json,
    coachId: Option<Json>, teamsId: Json, teamName: Json, notes: Json, createdAt: Option<Json>,
    items: seq<ItemDto>, athletes: seq<AthleteDto>, categories: seq<CategoryDto>)

  /** `item.athletes ?? null`, with `null` as `None`. */
  function AthleteOf(item: Json): Option<Json> {
    OrElse(Get(item, "athletes"), None)
  }

  /** One response item: the row's own fields, and its athlete's names or `null`. */
  function ItemDtoOf(item: Json): ItemDto {
    var athlete := AthleteOf(item);
    ItemDto(Get(item, "id"), Get(item, "evaluation_id"), Get(item, "athlete_id"),
            OrNull(OrElse(GetIn(athlete, "first_name"), None)), OrNull(OrElse(GetIn(athlete, "last_name"), None)),
            Get(item, "subskill_id"), Get(item, "rating"),
            OrNull(OrElse(Get(item, "comment"), None)), Get(item, "created_at"))
  }

  /** The response items, in order. */
  function ItemDtos(items: seq<Json>): (r: seq<ItemDto>)
    ensures |r| == |items|
    decreases |items|
  {
    if |items| == 0 then [] else ItemDtos(items[..|items| - 1]) + [ItemDtoOf(items[|items| - 1])]
  }

  lemma ItemDtosSnoc(items: seq<Json>, i: nat)
    requires i < |items|
    ensures ItemDtos(items[..i + 1]) == ItemDtos(items[..i]) + [ItemDtoOf(items[i])]
  {
    assert items[..i + 1][..i] == items[..i];
  }

  /**
   * The athlete an item contributes: present when its embedded athlete is
   * truthy and has a non-empty string id.
   */
  function AthleteEntry(item: Json): (a: Option<AthleteDto>)
    ensures a.Some? ==> a.value.id != "" && AthleteOf(item).Some? && GetIn(AthleteOf(item), "id") == Some(JStr(a.value.id))
  {
    var athlete := AthleteOf(item);
    if athlete.Some? && Truthy(athlete.value) && AsString(Get(athlete.value, "id")).Some? && AsString(Get(athlete.value, "id")).value != "" then
      Some(AthleteDto(AsString(Get(athlete.value, "id")).value,
                      OrNull(OrElse(Get(athlete.value, "first_name"), None)),
                      OrNull(OrElse(Get(athlete.value, "last_name"), None))))
    else None
  }

  /** The athletes of the items, in item order, repeats included. */
  function AthleteEntries(items: seq<Json>): seq<AthleteDto>
    decreases |items|
  {
    if |items| == 0 then []
    else
      var e := AthleteEntry(items[|items| - 1]);
      AthleteEntries(items[..|items| - 1]) + (if e.Some? then [e.value] else [])
  }

  function AthleteKey(a: AthleteDto): string {
    a.id
  }

  /** `raw.scorecard_templates ?? raw.template ?? raw.templates ?? null`, with `null` as `None`. */
  function TemplateOf(raw: Json): (t: Option<Json>)
    ensures t.Some? ==> t.value != JNull
  {
    OrElse(OrElse(OrElse(Get(raw, "scorecard_templates"), Get(raw, "template")), Get(raw, "templates")), None)
  }

  /** `template?.scorecard_categories ?? template?.categories ?? []`. */
  function CategoryRows(raw: Json): seq<Json> {
    var t := TemplateOf(raw);
    ElementsOf(OrElse(GetIn(t, "scorecard_categories"), GetIn(t, "categories")))
  }

  function CategoryDtoOf(cat: Json): CategoryDto {
    CategoryDto(Get(cat, "id"), Get(cat, "template_id"), Get(cat, "name"),
                OrNull(OrElse(Get(cat, "description"), None)), OrNull(OrElse(Get(cat, "position"), None)))
  }

  /** The athlete map's values after the items: a new id is appended, a seen one changes nothing. */
  function AthleteList(items: seq<Json>): seq<AthleteDto>
    decreases |items|
  {
    if |items| == 0 then []
    else
      var before := AthleteList(items[..|items| - 1]);
      var e := AthleteEntry(items[|items| - 1]);
      if e.Some? && e.value.id !in IdsOf(before) then before + [e.value] else before
  }

  function IdsOf(athletes: seq<AthleteDto>): set<string> {
    set a | a in athletes :: a.id
  }

  /** The athlete map keeps the first athlete of each id. */
  lemma {:induction false} AthleteListFirstByKey(items: seq<Json>)
    ensures AthleteList(items) == FirstByKey(AthleteEntries(items), AthleteKey)
    decreases |items|
  {
    if |items| > 0 {
      var p := items[..|items| - 1];
      AthleteListFirstByKey(p);
      assert IdsOf(AthleteList(p)) == KeysOf(AthleteList(p), AthleteKey);
      var e := AthleteEntry(items[|items| - 1]);
      if e.Some? {
        assert AthleteEntries(items) == AthleteEntries(p) + [e.value];
      } else {
        assert AthleteEntries(items) == AthleteEntries(p);
      }
    }
  }

  /** The detail response of a raw evaluation row. */
  function DetailOf(raw: Json): EvaluationDetail {
    var items := ElementsOf(Get(raw, "evaluation_items"));
    var cats := CategoryRows(raw);
    EvaluationDetail(
      Get(raw, "id"), Get(raw, "org_id"), Get(raw, "template_id"),
      OrNull(OrElse(GetIn(TemplateOf(raw), "name"), None)),
      Get(raw, "coach_id"),
      OrNull(OrElse(Get(raw, "teams_id"), None)),
      OrNull(OrElse(GetIn(OrElse(Get(raw, "teams"), None), "name"), None)),
      OrNull(OrElse(Get(raw, "notes"), None)),
      Get(raw, "created_at"),
      ItemDtos(items),
      AthleteList(items),
      seq(|cats|, i requires 0 <= i < |cats| => CategoryDtoOf(cats[i])))
  }

  /**
   * Maps the items, filling the athlete map as it goes: an athlete id
   * already in the map keeps its first names.
   */
  method MapItems(items: seq<Json>) returns (itemDtos: seq<ItemDto>, athletes: seq<AthleteDto>)
    ensures itemDtos == ItemDtos(items)
    ensures athletes == AthleteList(items)
  {
    itemDtos := [];
    athletes := [];
    var seen: set<string> := {};
    var i := 0;
    while i < |items|
      invariant 0 <= i <= |items|
      invariant itemDtos == ItemDtos(items[..i])
      invariant athletes == AthleteList(items[..i])
      invariant seen == IdsOf(athletes)
    {
      assert items[..i + 1][..i] == items[..i];
      ItemDtosSnoc(items, i);
      var entry := AthleteEntry(items[i]);
      if entry.Some? && entry.value.id !in seen {
        assert IdsOf(athletes + [entry.value]) == IdsOf(athletes) + {entry.value.id};
        athletes := athletes + [entry.value];
        seen := seen + {entry.value.id};
      }
      itemDtos := itemDtos + [ItemDtoOf(items[i])];
      i := i + 1;
    }
    assert items[..i] == items;
  }

  /** Maps a raw evaluation row to its detail response. */
  method ToEvaluationDetail(raw: Json) returns (d: EvaluationDetail)
    ensures d == DetailOf(raw)
  {
    var items := ElementsOf(Get(raw, "evaluation_items"));
    var itemDtos, athletes := MapItems(items);
    var cats := CategoryRows(raw);
    d := EvaluationDetail(
      Get(raw, "id"), Get(raw, "org_id"), Get(raw, "template_id"),
      OrNull(OrElse(GetIn(TemplateOf(raw), "name"), None)),
      Get(raw, "coach_id"),
      OrNull(OrElse(Get(raw, "teams_id"), None)),
      OrNull(OrElse(GetIn(OrElse(Get(raw, "teams"), None), "name"), None)),
      OrNull(OrElse(Get(raw, "notes"), None)),
      Get(raw, "created_at"),
      itemDtos, athletes,
      seq(|cats|, k requires 0 <= k < |cats| => CategoryDtoOf(cats[k])));
  }

  // ---------------------------------------------------------------------------
  // Properties

  /** The items correspond one to one with the raw items, in order. */
  lemma {:induction false} ItemsOneToOne(items: seq<Json>)
    ensures |ItemDtos(items)| == |items|
    ensures forall i :: 0 <= i < |items| ==> ItemDtos(items)[i] == ItemDtoOf(items[i])
    decreases |items|
  {
    if |items| > 0 {
      var p := items[..|items| - 1];
      ItemsOneToOne(p);
      assert forall i :: 0 <= i < |p| ==> items[i] == p[i];
    }
  }

  /** Each response item carries its row's id, athlete, subskill and rating. */
  lemma ItemFields(raw: Json)
    ensures var items := ElementsOf(Get(raw, "evaluation_items"));
      && |DetailOf(raw).items| == |items|
      && forall i :: 0 <= i < |items| ==>
           DetailOf(raw).items[i].id == Get(items[i], "id")
           && DetailOf(raw).items[i].athleteId == Get(items[i], "athlete_id")
           && DetailOf(raw).items[i].subskillId == Get(items[i], "subskill_id")
           && DetailOf(raw).items[i].rating == Get(items[i], "rating")
  {
    ItemsOneToOne(ElementsOf(Get(raw, "evaluation_items")));
  }

  lemma {:induction false} AthleteEntriesSound(items: seq<Json>, a: AthleteDto)
    requires a in AthleteEntries(items)
    ensures exists i :: 0 <= i < |items| && AthleteEntry(items[i]) == Some(a)
    decreases |items|
  {
    var n := |items| - 1;
    if a in AthleteEntries(items[..n]) {
      AthleteEntriesSound(items[..n], a);
      var i :| 0 <= i < n && AthleteEntry(items[..n][i]) == Some(a);
      assert items[i] == items[..n][i];
    } else {
      assert AthleteEntry(items[n]) == Some(a);
    }
  }

  /** The athlete list holds each athlete id once. */
  lemma AthletesDistinct(items: seq<Json>)
    ensures forall i, j :: 0 <= i < j < |AthleteList(items)| ==> AthleteList(items)[i].id != AthleteList(items)[j].id
  {
    AthleteListFirstByKey(items);
    FirstByKeyKeys(AthleteEntries(items), AthleteKey);
  }

  /** Every athlete of an item is listed. */
  lemma {:induction false} AthletesComplete(items: seq<Json>, i: nat)
    requires i < |items| && AthleteEntry(items[i]).Some?
    ensures AthleteEntry(items[i]).value.id in IdsOf(AthleteList(items))
    decreases |items|
  {
    var n := |items| - 1;
    var before := AthleteList(items[..n]);
    assert IdsOf(before) <= IdsOf(AthleteList(items));
    if i < n {
      assert items[..n][i] == items[i];
      AthletesComplete(items[..n], i);
    }
  }

  /**
   * Each listed athlete is the athlete of the first item with its id, so the
   * first occurrence supplies the names.
   */
  lemma AthletesFirstWins(items: seq<Json>, j: nat)
    requires j < |AthleteList(items)|
    ensures var entries := AthleteEntries(items);
      && AthleteList(items)[j].id in KeysOf(entries, AthleteKey)
      && AthleteList(items)[j] == entries[FirstIndex(entries, AthleteKey, AthleteList(items)[j].id)]
    ensures exists i :: 0 <= i < |items| && AthleteEntry(items[i]) == Some(AthleteList(items)[j])
  {
    var entries := AthleteEntries(items);
    AthleteListFirstByKey(items);
    FirstByKeyFirst(entries, AthleteKey);
    var a := AthleteList(items)[j];
    AthleteEntriesSound(items, entries[FirstIndex(entries, AthleteKey, a.id)]);
  }

  /** The template falls back from `scorecard_templates` to `template` to `templates`. */
  lemma TemplateFallback(raw: Json)
    ensures Nullish(Get(raw, "scorecard_templates")) && !Nullish(Get(raw, "template")) ==> TemplateOf(raw) == Get(raw, "template")
    ensures Nullish(Get(raw, "scorecard_templates")) && Nullish(Get(raw, "template")) && !Nullish(Get(raw, "templates")) ==>
      TemplateOf(raw) == Get(raw, "templates")
    ensures !Nullish(Get(raw, "scorecard_templates")) ==> TemplateOf(raw) == Get(raw, "scorecard_templates")
    ensures Nullish(Get(raw, "scorecard_templates")) && Nullish(Get(raw, "template")) && Nullish(Get(raw, "templates")) ==>
      TemplateOf(raw).None? && CategoryRows(raw) == [] && DetailOf(raw).templateName == JNull
  {
  }

  /** `undefined` or `null`. */
  predicate Nullish(v: Option<Json>) {
    v.None? || v == Some(JNull)
  }

  /** An item without a comment has a `null` comment, and one without an athlete `null` names. */
  lemma ItemNullDefaults(item: Json)
    ensures ItemDtoOf(item).comment == JNull <==> Nullish(Get(item, "comment"))
    ensures AthleteOf(item).None? ==> ItemDtoOf(item).athleteFirstName == JNull && ItemDtoOf(item).athleteLastName == JNull
    ensures !Nullish(Get(item, "comment")) ==> ItemDtoOf(item).comment == Get(item, "comment").value
  {
  }

  /** Missing optional fields become `null`. */
  lemma NullDefaults(raw: Json)
    ensures Nullish(Get(raw, "teams_id")) ==> DetailOf(raw).teamsId == JNull
    ensures Nullish(Get(raw, "notes")) ==> DetailOf(raw).notes == JNull
    ensures Nullish(Get(raw, "teams")) ==> DetailOf(raw).teamName == JNull
    ensures !Nullish(Get(raw, "notes")) ==> DetailOf(raw).notes == Get(raw, "notes").value
    ensures forall k :: 0 <= k < |DetailOf(raw).categories| ==>
      (Nullish(Get(CategoryRows(raw)[k], "description")) <==> DetailOf(raw).categories[k].description == JNull)
  {
  }
}

=== FILE: evaluation_joins.dfy ===
/**
 * The three per-athlete evaluation lists that join the evaluation items with
 * the scorecard subskills, skills, videos and categories: improvement skills,
 * skill videos and subskill ratings. Every table read is an input sequence.
 */
module EvaluationJoins {
  import opened Wrappers
  import opened Json
  import opened Sorting

  /** An embedded `evaluation_items` entry. */
  datatype SourceItem = SourceItem(evaluationId: Option<string>, subskillId: Option<string>, rating: Option<Json>)

  /** `evaluation_items` as embedded: an array, a single object, or nothing. */
  datatype Embedded = Many(items: seq<SourceItem>) | Single(item: SourceItem) | NoItems

  /** An `evaluations` row with its items. */
  datatype EvalRow = EvalRow(id: Option<string>, createdAt: Option<string>, items: Embedded)

  /** One rated subskill of the athlete. */
  datatype RawItem = RawItem(evaluationId: string, skillId: string, rating: Json, createdAt: Option<string>)

  /** A row of a lookup table: an id (None unless a string) and a name. */
  datatype NamedRow = NamedRow(id: Option<string>, name: Option<string>)

  predicate Filled(s: Option<string>) {
    s.Some? && s.value != ""
  }

  function ItemsOf(e: Embedded): seq<SourceItem> {
    match e
    case Many(items) => items
    case Single(item) => [item]
    case NoItems => []
  }

  /** The raw items of one row's entries: entries without a subskill are skipped. */
  function RawOfItems(items: seq<SourceItem>, evaluationId: string, createdAt: Option<string>): (r: seq<RawItem>)
    ensures |r| <= |items|
    ensures forall x :: x in r ==> x.skillId != "" && x.createdAt == createdAt
    decreases |items|
  {
    if |items| == 0 then []
    else
      var r := RawOfItems(items[..|items| - 1], evaluationId, createdAt);
      var item := items[|items| - 1];
      if Filled(item.subskillId) then
        r + [RawItem(item.evaluationId.GetOr(evaluationId), item.subskillId.value,
                     item.rating.GetOr(JNull), createdAt)]
      else r
  }

  /** The raw items of all rows, row by row; a row's id defaults to the requested evaluation. */
  function RawItems(rows: seq<EvalRow>, evaluationId: string): (r: seq<RawItem>)
    ensures forall x :: x in r ==> x.skillId != ""
    decreases |rows|
  {
    if |rows| == 0 then []
    else
      var row := rows[|rows| - 1];
      RawItems(rows[..|rows| - 1], evaluationId) + RawOfItems(ItemsOf(row.items), row.id.GetOr(evaluationId), row.createdAt)
  }

  /** Flattens the rows' items, in order. */
  method CollectRawItems(rows: seq<EvalRow>, evaluationId: string) returns (raw: seq<RawItem>)
    ensures raw == RawItems(rows, evaluationId)
  {
    raw := [];
    var i := 0;
    while i < |rows|
      invariant 0 <= i <= |rows|
      invariant raw == RawItems(rows[..i], evaluationId)
    {
      assert rows[..i + 1][..i] == rows[..i];
      var createdAt := rows[i].createdAt;
      var rowId := rows[i].id.GetOr(evaluationId);
      var items := ItemsOf(rows[i].items);
      var k := 0;
      while k < |items|
        invariant 0 <= k <= |items|
        invariant raw == RawItems(rows[..i], evaluationId) + RawOfItems(items[..k], rowId, createdAt)
      {
        assert items[..k + 1][..k] == items[..k];
        var item := items[k];
        if Filled(item.subskillId) {
          raw := raw + [RawItem(item.evaluationId.GetOr(rowId), item.subskillId.value, item.rating.GetOr(JNull), createdAt)];
        }
        k := k + 1;
      }
      assert items[..k] == items;
      i := i + 1;
    }
    assert rows[..i] == rows;
  }

  /** The ids of the rows that are non-empty strings. */
  function IdSet(ids: seq<Option<string>>): (s: set<string>)
    ensures forall x :: x in s <==> Some(x) in ids && x != ""
  {
    set i | 0 <= i < |ids| && Filled(ids[i]) :: ids[i].value
  }

  /** id -> name, skipping rows without an id; a later row overrides an earlier one. */
  function NamesById(rows: seq<NamedRow>): map<string, Option<string>>
    decreases |rows|
  {
    if |rows| == 0 then map[]
    else
      var m := NamesById(rows[..|rows| - 1]);
      var row := rows[|rows| - 1];
      if Filled(row.id) then m[row.id.value := row.name] else m
  }

  method CollectNames(rows: seq<NamedRow>) returns (names: map<string, Option<string>>)
    ensures names == NamesById(rows)
  {
    names := map[];
    var i := 0;
    while i < |rows|
      invariant 0 <= i <= |rows|
      invariant names == NamesById(rows[..i])
    {
      assert rows[..i + 1][..i] == rows[..i];
      if Filled(rows[i].id) {
        names := names[rows[i].id.value := rows[i].name];
      }
      i := i + 1;
    }
    assert rows[..i] == rows;
  }

  /** A name is known iff some row carries that id, and it is the name of the last such row. */
  lemma {:induction false} NamesByIdLastWins(rows: seq<NamedRow>, id: string)
    requires id != ""
    ensures id in NamesById(rows) <==> exists i :: 0 <= i < |rows| && rows[i].id == Some(id)
    ensures id in NamesById(rows) ==> exists i ::
      && 0 <= i < |rows| && rows[i].id == Some(id) && NamesById(rows)[id] == rows[i].name
      && forall j :: i < j < |rows| ==> rows[j].id != Some(id)
    decreases |rows|
  {
    if |rows| > 0 {
      var p := rows[..|rows| - 1];
      NamesByIdLastWins(p, id);
      assert forall j :: 0 <= j < |p| ==> rows[j] == p[j];
    }
  }

  /** `created_at ? Date.parse(created_at) : 0`. */
  function TimeOf(createdAt: Option<string>, dateParse: string -> int): int {
    if Filled(createdAt) then dateParse(createdAt.value) else 0
  }

  // ---------------------------------------------------------------------------
  // Improvement skills

  datatype ImprovementRow = ImprovementRow(evaluationId: string, skillId: string, skillName: Option<string>, rating: Json, createdAt: Option<string>)

  /** The items whose subskill is a scorecard subskill with a known skill, joined with the skill name. */
  function Joined(raw: seq<RawItem>, known: set<string>, names: map<string, Option<string>>): (r: seq<ImprovementRow>)
    ensures |r| <= |raw|
    ensures forall x :: x in r ==> x.skillId in known && x.skillId in names && x.skillName == names[x.skillId]
    decreases |raw|
  {
    if |raw| == 0 then []
    else
      var r := Joined(raw[..|raw| - 1], known, names);
      var item := raw[|raw| - 1];
      if item.skillId in known && item.skillId in names then
        r + [ImprovementRow(item.evaluationId, item.skillId, names[item.skillId], item.rating, item.createdAt)]
      else r
  }

  function ImprovementTime(dateParse: string -> int): ImprovementRow -> int {
    (r: ImprovementRow) => TimeOf(r.createdAt, dateParse)
  }

  /** A joined row as it is replied: the sort key `created_at` is taken out. */
  datatype ImprovementSkill = ImprovementSkill(evaluationId: string, skillId: string, skillName: Option<string>, rating: Json)

  /** `paged.map(({ created_at, ...rest }) => rest)`. */
  function ImprovementReply(rows: seq<ImprovementRow>): (r: seq<ImprovementSkill>)
    ensures |r| == |rows|
    ensures forall i :: 0 <= i < |rows| ==>
      r[i] == ImprovementSkill(rows[i].evaluationId, rows[i].skillId, rows[i].skillName, rows[i].rating)
  {
    seq(|rows|, i requires 0 <= i < |rows| => ImprovementSkill(rows[i].evaluationId, rows[i].skillId, rows[i].skillName, rows[i].rating))
  }

  /**
   * The improvement skills of an athlete in an evaluation: the joined items,
   * newest first, one page of them, and the number joined.
   */
  method ListImprovementSkills(rows: seq<EvalRow>, evaluationId: string, subskillIds: seq<Option<string>>,
                               skills: seq<NamedRow>, limit: nat, offset: nat, dateParse: string -> int)
    returns (data: seq<ImprovementSkill>, count: nat)
    ensures RawItems(rows, evaluationId) == [] || IdSet(subskillIds) == {} ==> data == [] && count == 0
    ensures RawItems(rows, evaluationId) != [] && IdSet(subskillIds) != {} ==>
      var joined := Joined(RawItems(rows, evaluationId), IdSet(subskillIds), NamesById(skills));
      && count == |joined|
      && data == ImprovementReply(Page(SortBy(joined, Descending(ImprovementTime(dateParse))), offset, limit))
  {
    var raw := CollectRawItems(rows, evaluationId);
    if raw == [] {
      return [], 0;
    }
    var known := IdSet(subskillIds);
    if known == {} {
      return [], 0;
    }
    var names := CollectNames(skills);
    var joined := JoinItems(raw, known, names);
    var sorted := SortBy(joined, Descending(ImprovementTime(dateParse)));
    data := ImprovementReply(Page(sorted, offset, limit));
    count := |joined|;
  }

  /** The join loop: each item whose subskill is known and named, with that name, in order. */
  method JoinItems(raw: seq<RawItem>, known: set<string>, names: map<string, Option<string>>) returns (joined: seq<ImprovementRow>)
    ensures joined == Joined(raw, known, names)
  {
    joined := [];
    var i := 0;
    while i < |raw|
      invariant 0 <= i <= |raw|
      invariant joined == Joined(raw[..i], known, names)
    {
      assert raw[..i + 1][..i] == raw[..i];
      var item := raw[i];
      if item.skillId in known && item.skillId in names {
        joined := joined + [ImprovementRow(item.evaluationId, item.skillId, names[item.skillId], item.rating, item.createdAt)];
      }
      i := i + 1;
    }
    assert raw[..i] == raw;
  }

  /** An item is joined iff its subskill is known and has a skill name; the join keeps the item order. */
  lemma {:induction false} JoinedMembers(raw: seq<RawItem>, known: set<string>, names: map<string, Option<string>>, x: RawItem)
    ensures x in raw && x.skillId in known && x.skillId in names ==>
      ImprovementRow(x.evaluationId, x.skillId, names[x.skillId], x.rating, x.createdAt) in Joined(raw, known, names)
    ensures (forall y :: y in raw ==> y.skillId in known && y.skillId in names) ==> |Joined(raw, known, names)| == |raw|
    decreases |raw|
  {
    if |raw| > 0 {
      var p := raw[..|raw| - 1];
      JoinedMembers(p, known, names, x);
      assert raw == p + [raw[|raw| - 1]];
      assert forall y :: y in p ==> y in raw;
    }
  }

  // ---------------------------------------------------------------------------
  // Skill videos

  /** A `skill_video_map` row. */
  datatype VideoRow = VideoRow(skillId: Option<string>, objectPath: Option<string>)

  datatype VideoResult = VideoResult(evaluationId: string, skillId: string, title: Option<string>, objectPath: Option<string>,
                                     rating: Json, createdAt: Option<string>)

  /** skill id -> the object paths of its videos, in row order. */
  function VideosBySkill(rows: seq<VideoRow>): map<string, seq<Option<string>>>
    decreases |rows|
  {
    if |rows| == 0 then map[]
    else
      var m := VideosBySkill(rows[..|rows| - 1]);
      var row := rows[|rows| - 1];
      if !Filled(row.skillId) then m
      else
        var id := row.skillId.value;
        m[id := (if id in m then m[id] else []) + [row.objectPath]]
  }

  /** A skill's video list is the object paths of exactly its rows, in order. */
  lemma {:induction false} VideosBySkillFilter(rows: seq<VideoRow>, id: string)
    requires id != ""
    ensures id in VideosBySkill(rows) <==> exists i :: 0 <= i < |rows| && rows[i].skillId == Some(id)
    ensures |if id in VideosBySkill(rows) then VideosBySkill(rows)[id] else []| == |set i | 0 <= i < |rows| && rows[i].skillId == Some(id)|
    decreases |rows|
  {
    if |rows| > 0 {
      var n := |rows| - 1;
      var p := rows[..n];
      VideosBySkillFilter(p, id);
      assert forall j :: 0 <= j < n ==> rows[j] == p[j];
      var before := set i | 0 <= i < n && p[i].skillId == Some(id);
      var after := set i | 0 <= i < |rows| && rows[i].skillId == Some(id);
      if rows[n].skillId == Some(id) {
        assert after == before + {n};
      } else {
        assert after == before;
      }
    }
  }

  /** One result per video of the item's skill. */
  function ExpandVideos(item: RawItem, title: Option<string>, paths: seq<Option<string>>): (r: seq<VideoResult>)
    ensures |r| == |paths|
    ensures forall j :: 0 <= j < |r| ==> r[j] == VideoResult(item.evaluationId, item.skillId, title, paths[j], item.rating, item.createdAt)
  {
    seq(|paths|, j requires 0 <= j < |paths| => VideoResult(item.evaluationId, item.skillId, title, paths[j], item.rating, item.createdAt))
  }

  /** The results of the items whose skill is a known subskill with a title; items without videos add nothing. */
  function VideoResults(raw: seq<RawItem>, known: set<string>, titles: map<string, Option<string>>, videos: map<string, seq<Option<string>>>): seq<VideoResult>
    decreases |raw|
  {
    if |raw| == 0 then []
    else
      var r := VideoResults(raw[..|raw| - 1], known, titles, videos);
      var item := raw[|raw| - 1];
      if item.skillId in known && item.skillId in titles && item.skillId in videos then
        r + ExpandVideos(item, titles[item.skillId], videos[item.skillId])
      else r
  }

  function VideoTime(dateParse: string -> int): VideoResult -> int {
    (r: VideoResult) => TimeOf(r.createdAt, dateParse)
  }

  /** A video result as it is replied: the sort key `created_at` is taken out. */
  datatype SkillVideo = SkillVideo(evaluationId: string, skillId: string, title: Option<string>, objectPath: Option<string>, rating: Json)

  /** `results.map(({ created_at, ...rest }) => rest)`. */
  function VideoReply(rows: seq<VideoResult>): (r: seq<SkillVideo>)
    ensures |r| == |rows|
    ensures forall i :: 0 <= i < |rows| ==>
      r[i] == SkillVideo(rows[i].evaluationId, rows[i].skillId, rows[i].title, rows[i].objectPath, rows[i].rating)
  {
    seq(|rows|, i requires 0 <= i < |rows| => SkillVideo(rows[i].evaluationId, rows[i].skillId, rows[i].title, rows[i].objectPath, rows[i].rating))
  }

  method CollectVideos(rows: seq<VideoRow>) returns (videos: map<string, seq<Option<string>>>)
    ensures videos == VideosBySkill(rows)
  {
    videos := map[];
    var i := 0;
    while i < |rows|
      invariant 0 <= i <= |rows|
      invariant videos == VideosBySkill(rows[..i])
    {
      assert rows[..i + 1][..i] == rows[..i];
      if Filled(rows[i].skillId) {
        var id := rows[i].skillId.value;
        if id !in videos {
          videos := videos[id := []];
        }
        videos := videos[id := videos[id] + [rows[i].objectPath]];
      }
      i := i + 1;
    }
    assert rows[..i] == rows;
  }

  /**
   * The videos of the skills the athlete rated, one result per (item,
   * video), newest first; all of them, with their number.
   */
  method ListSkillVideos(rows: seq<EvalRow>, evaluationId: string, subskillIds: seq<Option<string>>,
                         skills: seq<NamedRow>, videoRows: seq<VideoRow>, dateParse: string -> int)
    returns (data: seq<SkillVideo>, count: nat)
    ensures RawItems(rows, evaluationId) == [] || IdSet(subskillIds) == {} || NamesById(skills) == map[] ==> data == [] && count == 0
    ensures RawItems(rows, evaluationId) != [] && IdSet(subskillIds) != {} && NamesById(skills) != map[] ==>
      var results := VideoResults(RawItems(rows, evaluationId), IdSet(subskillIds), NamesById(skills), VideosBySkill(videoRows));
      && count == |results|
      && data == VideoReply(SortBy(results, Descending(VideoTime(dateParse))))
  {
    var raw := CollectRawItems(rows, evaluationId);
    if raw == [] {
      return [], 0;
    }
    var known := IdSet(subskillIds);
    if known == {} {
      return [], 0;
    }
    var titles := CollectNames(skills);
    if titles == map[] {
      return [], 0;
    }
    var videos := CollectVideos(videoRows);
    var results: seq<VideoResult> := [];
    var i := 0;
    while i < |raw|
      invariant 0 <= i <= |raw|
      invariant results == VideoResults(raw[..i], known, titles, videos)
    {
      VideoResultsStep(raw, i, known, titles, videos);
      var item := raw[i];
      if item.skillId in known && item.skillId in titles && item.skillId in videos {
        results := AppendVideos(results, item, titles[item.skillId], videos[item.skillId]);
      }
      i := i + 1;
    }
    assert raw[..i] == raw;
    data := VideoReply(SortBy(results, Descending(VideoTime(dateParse))));
    count := |results|;
  }

  lemma VideoResultsStep(raw: seq<RawItem>, i: nat, known: set<string>, titles: map<string, Option<string>>,
                         videos: map<string, seq<Option<string>>>)
    requires i < |raw|
    ensures VideoResults(raw[..i + 1], known, titles, videos)
      == VideoResults(raw[..i], known, titles, videos)
         + if raw[i].skillId in known && raw[i].skillId in titles && raw[i].skillId in videos
           then ExpandVideos(raw[i], titles[raw[i].skillId], videos[raw[i].skillId])
           else []
  {
    assert raw[..i + 1][..i] == raw[..i];
    var r := VideoResults(raw[..i], known, titles, videos);
    assert r + [] == r;
  }

  /** The inner loop: one result per video of the item's skill, in order. */
  method AppendVideos(results: seq<VideoResult>, item: RawItem, title: Option<string>, paths: seq<Option<string>>)
    returns (out: seq<VideoResult>)
    ensures out == results + ExpandVideos(item, title, paths)
  {
    out := results;
    var k := 0;
    while k < |paths|
      invariant 0 <= k <= |paths|
      invariant out == results + ExpandVideos(item, title, paths[..k])
    {
      out := out + [VideoResult(item.evaluationId, item.skillId, title, paths[k], item.rating, item.createdAt)];
      k := k + 1;
    }
    assert paths[..k] == paths;
  }

  /** Each result pairs a rated, known, titled skill with one of that skill's videos. */
  lemma {:induction false} VideoResultsSound(raw: seq<RawItem>, known: set<string>, titles: map<string, Option<string>>,
                                             videos: map<string, seq<Option<string>>>)
    ensures forall x :: x in VideoResults(raw, known, titles, videos) ==>
      && x.skillId in known && x.skillId in titles && x.title == titles[x.skillId]
      && x.skillId in videos && x.objectPath in videos[x.skillId]
      && RawItem(x.evaluationId, x.skillId, x.rating, x.createdAt) in raw
    decreases |raw|
  {
    if |raw| > 0 {
      var p := raw[..|raw| - 1];
      VideoResultsSound(p, known, titles, videos);
      assert forall y :: y in p ==> y in raw;
      var item := raw[|raw| - 1];
      if item.skillId in known && item.skillId in titles && item.skillId in videos {
        var e := ExpandVideos(item, titles[item.skillId], videos[item.skillId]);
        forall x | x in e
          ensures x.objectPath in videos[x.skillId] && RawItem(x.evaluationId, x.skillId, x.rating, x.createdAt) in raw
        {
          var j :| 0 <= j < |e| && e[j] == x;
        }
      }
    }
  }

  // ---------------------------------------------------------------------------
  // Subskill ratings

  /** A `scorecard_subskills` row: the skill and its category. */
  datatype SubskillRow = SubskillRow(skillId: Option<string>, categoryId: Option<string>)

  datatype RatingResult = RatingResult(evaluationId: string, skillId: string, skillDescrip: Option<string>,
                                       categoryId: string, categoryDescrip: Option<string>, rating: Json, createdAt: Option<string>)

  /** skill id -> its categories, each once, in first-seen order (a `Set` per skill). */
  function CategoriesBySkill(rows: seq<SubskillRow>): map<string, seq<string>>
    decreases |rows|
  {
    if |rows| == 0 then map[]
    else
      var m := CategoriesBySkill(rows[..|rows| - 1]);
      var row := rows[|rows| - 1];
      if !Filled(row.skillId) || !Filled(row.categoryId) then m
      else
        var id := row.skillId.value;
        var cats := if id in m then m[id] else [];
        m[id := if row.categoryId.value in cats then cats else cats + [row.categoryId.value]]
  }

  /** The categories recorded for a skill are distinct. */
  lemma {:induction false} CategoriesDistinct(rows: seq<SubskillRow>)
    ensures forall id :: id in CategoriesBySkill(rows) ==>
      forall i, j :: 0 <= i < j < |CategoriesBySkill(rows)[id]| ==> CategoriesBySkill(rows)[id][i] != CategoriesBySkill(rows)[id][j]
    decreases |rows|
  {
    if |rows| > 0 {
      CategoriesDistinct(rows[..|rows| - 1]);
    }
  }

  /** A category is listed for a skill iff some row pairs them. */
  lemma {:induction false} CategoriesMembers(rows: seq<SubskillRow>, id: string, cat: string)
    requires id != "" && cat != ""
    ensures (id in CategoriesBySkill(rows) && cat in CategoriesBySkill(rows)[id]) <==>
      exists i :: 0 <= i < |rows| && rows[i].skillId == Some(id) && rows[i].categoryId == Some(cat)
    decreases |rows|
  {
    if |rows| > 0 {
      var p := rows[..|rows| - 1];
      CategoriesMembers(p, id, cat);
      assert forall j :: 0 <= j < |p| ==> rows[j] == p[j];
    }
  }

  /** One result per category of the skill that has a name. */
  function CategoryResults(item: RawItem, title: Option<string>, cats: seq<string>, categoryNames: map<string, Option<string>>): (r: seq<RatingResult>)
    ensures forall x :: x in r ==> x.categoryId in cats && x.categoryId in categoryNames && x.categoryDescrip == categoryNames[x.categoryId]
    ensures forall x :: x in r ==> x.skillId == item.skillId && x.skillDescrip == title && x.rating == item.rating
    decreases |cats|
  {
    if |cats| == 0 then []
    else
      var r := CategoryResults(item, title, cats[..|cats| - 1], categoryNames);
      var c := cats[|cats| - 1];
      if c in categoryNames then
        r + [RatingResult(item.evaluationId, item.skillId, title, c, categoryNames[c], item.rating, item.createdAt)]
      else r
  }

  /** The results of every item whose skill has categories and a title. */
  function RatingResults(raw: seq<RawItem>, cats: map<string, seq<string>>, skillTitles: map<string, Option<string>>,
                         categoryNames: map<string, Option<string>>): seq<RatingResult>
    decreases |raw|
  {
    if |raw| == 0 then []
    else
      var r := RatingResults(raw[..|raw| - 1], cats, skillTitles, categoryNames);
      var item := raw[|raw| - 1];
      if item.skillId in cats && item.skillId in skillTitles then
        r + CategoryResults(item, skillTitles[item.skillId], cats[item.skillId], categoryNames)
      else r
  }

  method CollectCategories(rows: seq<SubskillRow>) returns (cats: map<string, seq<string>>)
    ensures cats == CategoriesBySkill(rows)
  {
    cats := map[];
    var i := 0;
    while i < |rows|
      invariant 0 <= i <= |rows|
      invariant cats == CategoriesBySkill(rows[..i])
    {
      assert rows[..i + 1][..i] == rows[..i];
      var row := rows[i];
      if Filled(row.skillId) && Filled(row.categoryId) {
        var id := row.skillId.value;
        if id !in cats {
          cats := cats[id := []];
        }
        if row.categoryId.value !in cats[id] {
          cats := cats[id := cats[id] + [row.categoryId.value]];
        }
      }
      i := i + 1;
    }
    assert rows[..i] == rows;
  }

  function RatingTime(dateParse: string -> int): RatingResult -> int {
    (r: RatingResult) => TimeOf(r.createdAt, dateParse)
  }

  /** A rating result as it is replied: the sort key `created_at` is taken out. */
  datatype SubskillRating = SubskillRating(evaluationId: string, skillId: string, skillDescrip: Option<string>,
                                           categoryId: string, categoryDescrip: Option<string>, rating: Json)

  /** `results.map(({ created_at, ...rest }) => rest)`. */
  function RatingReply(rows: seq<RatingResult>): (r: seq<SubskillRating>)
    ensures |r| == |rows|
    ensures forall i :: 0 <= i < |rows| ==>
      r[i] == SubskillRating(rows[i].evaluationId, rows[i].skillId, rows[i].skillDescrip, rows[i].categoryId,
                             rows[i].categoryDescrip, rows[i].rating)
  {
    seq(|rows|, i requires 0 <= i < |rows| =>
      SubskillRating(rows[i].evaluationId, rows[i].skillId, rows[i].skillDescrip, rows[i].categoryId, rows[i].categoryDescrip, rows[i].rating))
  }

  /**
   * The ratings of an athlete's subskills with their skill title and each
   * category of the subskill, newest first; all of them, with their number.
   */
  method ListSubskillRatings(rows: seq<EvalRow>, evaluationId: string, subskills: seq<SubskillRow>,
                             skills: seq<NamedRow>, categories: seq<NamedRow>, dateParse: string -> int)
    returns (data: seq<SubskillRating>, count: nat)
    ensures RawItems(rows, evaluationId) == [] || CategoriesBySkill(subskills) == map[] ==> data == [] && count == 0
    ensures RawItems(rows, evaluationId) != [] && CategoriesBySkill(subskills) != map[] ==>
      var results := RatingResults(RawItems(rows, evaluationId), CategoriesBySkill(subskills), NamesById(skills), NamesById(categories));
      && count == |results|
      && data == RatingReply(SortBy(results, Descending(RatingTime(dateParse))))
  {
    var raw := CollectRawItems(rows, evaluationId);
    if raw == [] {
      return [], 0;
    }
    var cats := CollectCategories(subskills);
    if cats == map[] {
      return [], 0;
    }
    var skillTitles := CollectNames(skills);
    var categoryNames := CollectNames(categories);
    var results: seq<RatingResult> := [];
    var i := 0;
    while i < |raw|
      invariant 0 <= i <= |raw|
      invariant results == RatingResults(raw[..i], cats, skillTitles, categoryNames)
    {
      RatingResultsStep(raw, i, cats, skillTitles, categoryNames);
      var item := raw[i];
      if item.skillId in cats && item.skillId in skillTitles {
        results := AppendCategoryResults(results, item, skillTitles[item.skillId], cats[item.skillId], categoryNames);
      } else {
        assert results + [] == results;
      }
      i := i + 1;
    }
    assert raw[..i] == raw;
    data := RatingReply(SortBy(results, Descending(RatingTime(dateParse))));
    count := |results|;
  }

  /** One more item adds its results, when its skill has categories and a title. */
  lemma RatingResultsStep(raw: seq<RawItem>, i: nat, cats: map<string, seq<string>>, skillTitles: map<string, Option<string>>,
                          categoryNames: map<string, Option<string>>)
    requires i < |raw|
    ensures RatingResults(raw[..i + 1], cats, skillTitles, categoryNames)
      == RatingResults(raw[..i], cats, skillTitles, categoryNames)
         + if raw[i].skillId in cats && raw[i].skillId in skillTitles
           then CategoryResults(raw[i], skillTitles[raw[i].skillId], cats[raw[i].skillId], categoryNames)
           else []
  {
    assert raw[..i + 1][..i] == raw[..i];
    var r := RatingResults(raw[..i], cats, skillTitles, categoryNames);
    assert r + [] == r;
  }

  /** The inner loop: one result per category of the item's skill that has a name, in order. */
  method AppendCategoryResults(results: seq<RatingResult>, item: RawItem, title: Option<string>, forSkill: seq<string>,
                               categoryNames: map<string, Option<string>>)
    returns (out: seq<RatingResult>)
    ensures out == results + CategoryResults(item, title, forSkill, categoryNames)
  {
    out := results;
    var k := 0;
    while k < |forSkill|
      invariant 0 <= k <= |forSkill|
      invariant out == results + CategoryResults(item, title, forSkill[..k], categoryNames)
    {
      assert forSkill[..k + 1][..k] == forSkill[..k];
      var c := forSkill[k];
      if c in categoryNames {
        out := out + [RatingResult(item.evaluationId, item.skillId, title, c, categoryNames[c], item.rating, item.createdAt)];
      }
      k := k + 1;
    }
    assert forSkill[..k] == forSkill;
  }

  /** Each rating result pairs an item of the athlete with a named category of that item's skill. */
  lemma {:induction false} RatingResultsSound(raw: seq<RawItem>, cats: map<string, seq<string>>, skillTitles: map<string, Option<string>>,
                                              categoryNames: map<string, Option<string>>)
    ensures forall x :: x in RatingResults(raw, cats, skillTitles, categoryNames) ==>
      && x.skillId in cats && x.categoryId in cats[x.skillId]
      && x.skillId in skillTitles && x.skillDescrip == skillTitles[x.skillId]
      && x.categoryId in categoryNames && x.categoryDescrip == categoryNames[x.categoryId]
    decreases |raw|
  {
    if |raw| > 0 {
      RatingResultsSound(raw[..|raw| - 1], cats, skillTitles, categoryNames);
    }
  }

  /** The ratings are ordered newest first and none is lost by the sort. */
  lemma RatingsNewestFirst(results: seq<RatingResult>, dateParse: string -> int)
    ensures var sorted := SortBy(results, Descending(RatingTime(dateParse)));
      && multiset(sorted) == multiset(results)
      && forall i, j :: 0 <= i < j < |sorted| ==> TimeOf(sorted[i].createdAt, dateParse) >= TimeOf(sorted[j].createdAt, dateParse)
  {
    SortDescending(results, RatingTime(dateParse));
  }
}

=== FILE: evaluation_lists.dfy ===
/**
 * The two evaluation lists that group `evaluation_items` rows: the latest
 * evaluations of an athlete, and the athletes of one evaluation.
 */
module EvaluationLists {
  import opened Wrappers
  import opened Dedup
  import opened Sorting

  /** The embedded `evaluation` of an item row, its coach's and template's names flattened in. */
  datatype EvaluationEmbed = EvaluationEmbed(
    id: Option<string>, orgId: Option<string>, createdAt: Option<string>,
    coachName: Option<string>, scorecardName: Option<string>)

  /** The embedded `athlete` of an item row. */
  datatype AthleteEmbed = AthleteEmbed(id: Option<string>, fullName: Option<string>)

  /** An `evaluation_items` row as returned with its embeds. */
  datatype ItemRow = ItemRow(evaluationId: Option<string>, evaluation: Option<EvaluationEmbed>, athlete: Option<AthleteEmbed>)

  datatype LatestRow = LatestRow(
    evaluationId: string, createdAt: Option<string>, scorecardName: Option<string>,
    coachName: Option<string>, athleteId: string, athleteFullName: Option<string>)

  /** A string that is present and not empty (truthy). */
  predicate Filled(s: Option<string>) {
    s.Some? && s.value != ""
  }

  /**
   * What one row contributes to the latest list: nothing without an
   * evaluation, for an evaluation of another organization, or without an
   * evaluation id or athlete id; the athlete defaults to the requested one.
   */
  function Candidate(row: ItemRow, orgId: string, athleteId: string): (c: Option<LatestRow>)
    ensures c.Some? ==> row.evaluation.Some?
    ensures c.Some? ==> !Filled(row.evaluation.value.orgId) || row.evaluation.value.orgId.value == orgId
    ensures c.Some? ==> c.value.evaluationId != "" && c.value.athleteId != ""
    ensures c.Some? && row.evaluationId.Some? ==> c.value.evaluationId == row.evaluationId.value
    ensures c.Some? && (row.athlete.None? || row.athlete.value.id.None?) ==> c.value.athleteId == athleteId
  {
    if row.evaluation.None? then None
    else
      var ev := row.evaluation.value;
      if Filled(ev.orgId) && ev.orgId.value != orgId then None
      else
        var aid := if row.athlete.Some? && row.athlete.value.id.Some? then row.athlete.value.id.value else athleteId;
        var eid := Coalesce(row.evaluationId, ev.id);
        if !Filled(eid) || aid == "" then None
        else Some(LatestRow(eid.value, ev.createdAt, ev.scorecardName, ev.coachName, aid,
                            if row.athlete.Some? then row.athlete.value.fullName else None))
  }

  /** The candidates of the rows, in row order. */
  function Candidates(rows: seq<ItemRow>, orgId: string, athleteId: string): (cs: seq<LatestRow>)
    ensures |cs| <= |rows|
    decreases |rows|
  {
    if |rows| == 0 then []
    else
      var cs := Candidates(rows[..|rows| - 1], orgId, athleteId);
      var c := Candidate(rows[|rows| - 1], orgId, athleteId);
      if c.Some? then cs + [c.value] else cs
  }

  /** The grouping key `${evaluationId}:${athleteId}`. */
  function GroupKey(r: LatestRow): string {
    r.evaluationId + ":" + r.athleteId
  }

  /** The grouped rows: the first candidate per key, in first-seen order. */
  function Grouped(rows: seq<ItemRow>, orgId: string, athleteId: string): seq<LatestRow> {
    FirstByKey(Candidates(rows, orgId, athleteId), GroupKey)
  }

  /** `created_at ? Date.parse(created_at) : 0`. */
  function TimeOf(createdAt: Option<string>, dateParse: string -> int): int {
    if Filled(createdAt) then dateParse(createdAt.value) else 0
  }

  function LatestTime(dateParse: string -> int): LatestRow -> int {
    (r: LatestRow) => TimeOf(r.createdAt, dateParse)
  }

  /** The state of the grouping loop after the first `n` rows. */
  ghost predicate GroupedSoFar(rows: seq<ItemRow>, orgId: string, athleteId: string, n: nat,
                               grouped: seq<LatestRow>, seen: set<string>) {
    n <= |rows| && grouped == Grouped(rows[..n], orgId, athleteId) && seen == KeysOf(grouped, GroupKey)
  }

  /** One more row adds its candidate when that has a new key, and nothing otherwise. */
  lemma GroupedStep(rows: seq<ItemRow>, orgId: string, athleteId: string, n: nat,
                    grouped: seq<LatestRow>, seen: set<string>)
    requires GroupedSoFar(rows, orgId, athleteId, n, grouped, seen) && n < |rows|
    ensures var c := Candidate(rows[n], orgId, athleteId);
      if c.Some? && GroupKey(c.value) !in seen
      then GroupedSoFar(rows, orgId, athleteId, n + 1, grouped + [c.value], seen + {GroupKey(c.value)})
      else GroupedSoFar(rows, orgId, athleteId, n + 1, grouped, seen)
  {
    assert rows[..n + 1][..n] == rows[..n];
    var c := Candidate(rows[n], orgId, athleteId);
    if c.Some? {
      FirstByKeySnoc(Candidates(rows[..n], orgId, athleteId), c.value, GroupKey);
      KeysOfSnoc(grouped, c.value, GroupKey);
    }
  }

  /**
   * Groups the rows by (evaluation, athlete), keeping the first, sorts them
   * newest first and answers one page with the number of groups.
   */
  method ListLatestByAthlete(rows: seq<ItemRow>, orgId: string, athleteId: string, limit: nat, offset: nat,
                             dateParse: string -> int)
    returns (data: seq<LatestRow>, count: nat)
    ensures count == |Grouped(rows, orgId, athleteId)|
    ensures data == Page(SortBy(Grouped(rows, orgId, athleteId), Descending(LatestTime(dateParse))), offset, limit)
  {
    var grouped: seq<LatestRow> := [];
    var seen: set<string> := {};
    var i := 0;
    while i < |rows|
      invariant GroupedSoFar(rows, orgId, athleteId, i, grouped, seen)
    {
      GroupedStep(rows, orgId, athleteId, i, grouped, seen);
      var c := Candidate(rows[i], orgId, athleteId);
      if c.Some? {
        var key := GroupKey(c.value);
        if key !in seen {
          grouped := grouped + [c.value];
          seen := seen + {key};
        }
      }
      i := i + 1;
    }
    assert rows[..i] == rows;
    var all := SortBy(grouped, Descending(LatestTime(dateParse)));
    data := Page(all, offset, limit);
    count := |grouped|;
  }

  /** Each candidate row comes from a row of the organization (or of no stated organization) that has both ids. */
  lemma {:induction false} CandidatesFromRows(rows: seq<ItemRow>, orgId: string, athleteId: string, x: LatestRow)
    ensures x in Candidates(rows, orgId, athleteId) <==> exists i :: 0 <= i < |rows| && Candidate(rows[i], orgId, athleteId) == Some(x)
    decreases |rows|
  {
    if |rows| > 0 {
      var p := rows[..|rows| - 1];
      CandidatesFromRows(p, orgId, athleteId, x);
      assert forall i :: 0 <= i < |p| ==> rows[i] == p[i];
    }
  }

  /**
   * The groups: one per (evaluation, athlete) key among the usable rows,
   * each key once, and each group is the first usable row with its key.
   */
  lemma GroupedIsFirstPerKey(rows: seq<ItemRow>, orgId: string, athleteId: string)
    ensures var g := Grouped(rows, orgId, athleteId);
      var cs := Candidates(rows, orgId, athleteId);
      && KeysOf(g, GroupKey) == KeysOf(cs, GroupKey)
      && (forall i, j :: 0 <= i < j < |g| ==> GroupKey(g[i]) != GroupKey(g[j]))
      && (forall i :: 0 <= i < |g| ==> GroupKey(g[i]) in KeysOf(cs, GroupKey) && g[i] == cs[FirstIndex(cs, GroupKey, GroupKey(g[i]))])
  {
    var cs := Candidates(rows, orgId, athleteId);
    FirstByKeyKeys(cs, GroupKey);
    FirstByKeyFirst(cs, GroupKey);
  }

  /** For ids without ':' the key determines the pair, so distinct pairs are never merged. */
  lemma GroupKeyInjective(a: LatestRow, b: LatestRow)
    requires ':' !in a.evaluationId && ':' !in b.evaluationId
    requires GroupKey(a) == GroupKey(b)
    ensures a.evaluationId == b.evaluationId && a.athleteId == b.athleteId
  {
    var ka := GroupKey(a);
    var kb := GroupKey(b);
    var n := |a.evaluationId|;
    var m := |b.evaluationId|;
    assert ka[n] == ':' && kb[m] == ':';
    assert forall k :: 0 <= k < n ==> ka[k] == a.evaluationId[k];
    assert forall k :: 0 <= k < m ==> kb[k] == b.evaluationId[k];
    assert n == m;
    assert a.evaluationId == ka[..n] && b.evaluationId == kb[..m];
    assert a.athleteId == ka[n + 1..] && b.athleteId == kb[m + 1..];
  }

  /** The page is ordered newest first, holds at most `limit` groups and only groups. */
  lemma LatestPageOrdered(rows: seq<ItemRow>, orgId: string, athleteId: string, limit: nat, offset: nat, dateParse: string -> int)
    ensures var data := Page(SortBy(Grouped(rows, orgId, athleteId), Descending(LatestTime(dateParse))), offset, limit);
      && |data| <= limit
      && (forall i, j :: 0 <= i < j < |data| ==> TimeOf(data[i].createdAt, dateParse) >= TimeOf(data[j].createdAt, dateParse))
      && (forall x :: x in data ==> x in Grouped(rows, orgId, athleteId))
  {
    var g := Grouped(rows, orgId, athleteId);
    var key := LatestTime(dateParse);
    var sorted := SortBy(g, Descending(key));
    SortDescending(g, key);
    var data := Page(sorted, offset, limit);
    forall x | x in data
      ensures x in g
    {
      assert x in multiset(sorted);
    }
  }

  // ---------------------------------------------------------------------------
  // The athletes of one evaluation

  datatype AthleteRow = AthleteRow(
    evaluationId: string, createdAt: Option<string>, scorecardName: Option<string>, coachName: Option<string>,
    athleteId: string, athleteFullName: Option<string>, athletesName: Option<string>)

  /** A row of the evaluation's organization (strict equality: a missing organization never matches). */
  predicate InOrg(row: ItemRow, orgId: string) {
    row.evaluation.Some? && row.evaluation.value.orgId == Some(orgId)
  }

  /** The athletes of the scoped rows that have a (non-empty) id. */
  function AthletesOf(rows: seq<ItemRow>, orgId: string): (r: seq<AthleteEmbed>)
    ensures forall a :: a in r ==> Filled(a.id)
    decreases |rows|
  {
    if |rows| == 0 then []
    else
      var r := AthletesOf(rows[..|rows| - 1], orgId);
      var row := rows[|rows| - 1];
      if InOrg(row, orgId) && row.athlete.Some? && Filled(row.athlete.value.id) then r + [row.athlete.value] else r
  }

  function AthleteKey(a: AthleteEmbed): string {
    if a.id.Some? then a.id.value else ""
  }

  /** The evaluation header of the first scoped row. */
  function FirstScoped(rows: seq<ItemRow>, orgId: string): (r: Option<EvaluationEmbed>)
    ensures r.Some? <==> exists i :: 0 <= i < |rows| && InOrg(rows[i], orgId)
    ensures r.Some? ==> r.value.orgId == Some(orgId)
  {
    if |rows| == 0 then None
    else if InOrg(rows[0], orgId) then rows[0].evaluation
    else
      assert forall i :: 1 <= i < |rows| ==> rows[i] == rows[1..][i - 1];
      FirstScoped(rows[1..], orgId)
  }

  /** One output row per athlete, with the shared evaluation header. */
  function AthleteRowOf(ev: EvaluationEmbed, evaluationId: string, a: AthleteEmbed): AthleteRow {
    AthleteRow(ev.id.GetOr(evaluationId), ev.createdAt, ev.scorecardName, ev.coachName,
               AthleteKey(a), a.fullName, a.fullName)
  }

  /** The state of the athlete loop after the first `n` rows. */
  ghost predicate AthletesSoFar(rows: seq<ItemRow>, orgId: string, n: nat, athletes: seq<AthleteEmbed>, seen: set<string>) {
    n <= |rows| && athletes == FirstByKey(AthletesOf(rows[..n], orgId), AthleteKey) && seen == KeysOf(athletes, AthleteKey)
  }

  /** One more row adds its athlete when the row is in scope and the athlete's id is new. */
  lemma AthletesStep(rows: seq<ItemRow>, orgId: string, n: nat, athletes: seq<AthleteEmbed>, seen: set<string>)
    requires AthletesSoFar(rows, orgId, n, athletes, seen) && n < |rows|
    ensures var row := rows[n];
      if InOrg(row, orgId) && row.athlete.Some? && Filled(row.athlete.value.id) && row.athlete.value.id.value !in seen
      then AthletesSoFar(rows, orgId, n + 1, athletes + [row.athlete.value], seen + {row.athlete.value.id.value})
      else AthletesSoFar(rows, orgId, n + 1, athletes, seen)
  {
    assert rows[..n + 1][..n] == rows[..n];
    var row := rows[n];
    if InOrg(row, orgId) && row.athlete.Some? && Filled(row.athlete.value.id) {
      FirstByKeySnoc(AthletesOf(rows[..n], orgId), row.athlete.value, AthleteKey);
      KeysOfSnoc(athletes, row.athlete.value, AthleteKey);
    }
  }

  /**
   * The athletes of one evaluation within the organization, each once (first
   * row wins), with the header of the first row of that organization, paged.
   */
  method ListAthletesById(rows: seq<ItemRow>, orgId: string, evaluationId: string, limit: nat, offset: nat)
    returns (data: seq<AthleteRow>, count: nat)
    ensures FirstScoped(rows, orgId).None? ==> data == [] && count == 0
    ensures FirstScoped(rows, orgId).Some? ==>
      var athletes := FirstByKey(AthletesOf(rows, orgId), AthleteKey);
      && count == |athletes|
      && |data| == |Page(athletes, offset, limit)|
      && forall j :: 0 <= j < |data| ==> data[j] == AthleteRowOf(FirstScoped(rows, orgId).value, evaluationId, Page(athletes, offset, limit)[j])
  {
    var header := FirstScoped(rows, orgId);
    if header.None? {
      return [], 0;
    }
    var athletes: seq<AthleteEmbed> := [];
    var seen: set<string> := {};
    var i := 0;
    while i < |rows|
      invariant AthletesSoFar(rows, orgId, i, athletes, seen)
    {
      AthletesStep(rows, orgId, i, athletes, seen);
      var row := rows[i];
      if InOrg(row, orgId) && row.athlete.Some? && Filled(row.athlete.value.id) {
        var a := row.athlete.value;
        if a.id.value !in seen {
          athletes := athletes + [a];
          seen := seen + {a.id.value};
        }
      }
      i := i + 1;
    }
    assert rows[..i] == rows;
    var page := Page(athletes, offset, limit);
    data := seq(|page|, j requires 0 <= j < |page| => AthleteRowOf(header.value, evaluationId, page[j]));
    count := |athletes|;
  }

  /** The athletes listed are distinct, and exactly the athletes of the organization's rows. */
  lemma AthletesDistinct(rows: seq<ItemRow>, orgId: string)
    ensures var athletes := FirstByKey(AthletesOf(rows, orgId), AthleteKey);
      && (forall i, j :: 0 <= i < j < |athletes| ==> athletes[i].id != athletes[j].id)
      && KeysOf(athletes, AthleteKey) == KeysOf(AthletesOf(rows, orgId), AthleteKey)
  {
    var xs := AthletesOf(rows, orgId);
    var athletes := FirstByKey(xs, AthleteKey);
    FirstByKeyKeys(xs, AthleteKey);
    FirstByKeyFirst(xs, AthleteKey);
    forall i, j | 0 <= i < j < |athletes|
      ensures athletes[i].id != athletes[j].id
    {
      assert athletes[i] in xs && athletes[j] in xs;
    }
  }
}

=== FILE: evaluation_matrix.dfy ===
/**
 * The evaluation "matrix" editor: the `evaluations` header rows and the
 * `evaluation_items` table, one rating per (evaluation, athlete, subskill),
 * changed operation by operation, and the submit transition.
 */
module EvaluationMatrix {
  import opened Wrappers
  import opened Json

  /** The columns that identify an evaluation item. */
  datatype ItemKey = ItemKey(evaluationId: string, athleteId: string, subskillId: string)

  /** An item row: its rating, its comment (`null` or a value) and the recommended skill. */
  datatype Item = Item(rating: Num, comment: Json, recommendedSkillId: Option<string>)

  /** The `evaluation_items` table. */
  type Items = map<ItemKey, Item>

  datatype Status = NotStarted | InProgress | Completed | OtherStatus(name: string)

  /** An `evaluations` row: its organization, its status and its other columns. */
  datatype Evaluation = Evaluation(orgId: string, status: Status, header: map<string, Json>)

  /** One entry of `operations`; `OtherOp` is any other `type`. */
  datatype Op =
    | RemoveAthlete(athleteId: string)
    | UpsertRating(athleteId: string, subskillId: string, rating: Option<Json>, comments: Option<Json>)
    | OtherOp

  /** The update request; `None` stands for an absent (`undefined`) field. */
  datatype MatrixUpdate = MatrixUpdate(
    evaluationId: string,
    orgId: Option<string>,
    templateId: Option<Json>,
    teamId: Option<Json>,
    coachId: Option<Json>,
    notes: Option<Json>,
    operations: seq<Op>)

  /** A rating that is `null`, `undefined` or NaN deletes the item. */
  predicate ClearsRating(rating: Option<Json>, parse: string -> Num) {
    rating.None? || rating == Some(JNull) || ToNumber(rating, parse).NaN?
  }

  /** `op.comments ?? null`. */
  function CommentOf(comments: Option<Json>): (c: Json)
    ensures comments.Some? && comments.value != JNull ==> c == comments.value
    ensures comments.None? ==> c == JNull
  {
    if comments.Some? then comments.value else JNull
  }

  /** The items of `evaluationId` that belong to `athleteId`. */
  predicate OfAthlete(k: ItemKey, evaluationId: string, athleteId: string) {
    k.evaluationId == evaluationId && k.athleteId == athleteId
  }

  /** The table after one operation on evaluation `e`. */
  function ApplyOp(items: Items, e: string, op: Op, parse: string -> Num): Items {
    match op
    case RemoveAthlete(a) =>
      map k | k in items && !OfAthlete(k, e, a) :: items[k]
    case UpsertRating(a, s, rating, comments) =>
      var key := ItemKey(e, a, s);
      if ClearsRating(rating, parse) then items - {key}
      else if key in items then
        items[key := items[key].(rating := ToNumber(rating, parse), comment := CommentOf(comments))]
      else items[key := Item(ToNumber(rating, parse), CommentOf(comments), None)]
    case OtherOp => items
  }

  /** The table after the operations, applied in array order. */
  function ApplyOps(items: Items, e: string, ops: seq<Op>, parse: string -> Num): Items
    decreases |ops|
  {
    if |ops| == 0 then items
    else ApplyOp(ApplyOps(items, e, ops[..|ops| - 1], parse), e, ops[|ops| - 1], parse)
  }

  /** The header patch: only the defined fields, `team_id` stored as `teams_id`. */
  function HeaderPatch(dto: MatrixUpdate): (patch: map<string, Json>)
    ensures "org_id" in patch <==> dto.orgId.Some?
    ensures "template_id" in patch <==> dto.templateId.Some?
    ensures "teams_id" in patch <==> dto.teamId.Some?
    ensures "coach_id" in patch <==> dto.coachId.Some?
    ensures "notes" in patch <==> dto.notes.Some?
    ensures forall key :: key in patch ==> key in {"org_id", "template_id", "teams_id", "coach_id", "notes"}
    ensures dto.teamId.Some? ==> patch["teams_id"] == dto.teamId.value
    ensures dto.orgId.Some? ==> patch["org_id"] == JStr(dto.orgId.value)
  {
    var p0: map<string, Json> := map[];
    var p1 := if dto.orgId.Some? then p0["org_id" := JStr(dto.orgId.value)] else p0;
    var p2 := if dto.templateId.Some? then p1["template_id" := dto.templateId.value] else p1;
    var p3 := if dto.teamId.Some? then p2["teams_id" := dto.teamId.value] else p2;
    var p4 := if dto.coachId.Some? then p3["coach_id" := dto.coachId.value] else p3;
    if dto.notes.Some? then p4["notes" := dto.notes.value] else p4
  }

  /** `!org_id`. */
  predicate MissingOrg(orgId: Option<string>) {
    orgId.None? || orgId == Some("")
  }

  /** The evaluation exists within the organization. */
  predicate Owned(evaluations: map<string, Evaluation>, id: string, orgId: string) {
    id in evaluations && evaluations[id].orgId == orgId
  }

  /** The rejection of a matrix update, if any, before anything is written. */
  function MatrixRejection(evaluations: map<string, Evaluation>, dto: MatrixUpdate): (r: Option<string>)
    ensures r.None? <==> !MissingOrg(dto.orgId) && Owned(evaluations, dto.evaluationId, dto.orgId.value)
    ensures MissingOrg(dto.orgId) ==> r == Some("org_id (UUID) is required")
  {
    if MissingOrg(dto.orgId) then Some("org_id (UUID) is required")
    else if !Owned(evaluations, dto.evaluationId, dto.orgId.value) then Some("Evaluation not found")
    else None
  }

  /** `status` in (`not_started`, `in_progress`). */
  predicate Open(status: Status) {
    status == NotStarted || status == InProgress
  }

  /** The `evaluations` table after submitting `id` within `orgId`. */
  function Submitted(evaluations: map<string, Evaluation>, id: string, orgId: string): map<string, Evaluation> {
    if Owned(evaluations, id, orgId) && Open(evaluations[id].status) then
      evaluations[id := evaluations[id].(status := Completed)]
    else evaluations
  }

  /**
   * The number of operations that run before one fails: `failure` names the
   * operation whose query fails and its error; an operation of another
   * type runs no query, so it cannot fail.
   */
  function OpsRun(ops: seq<Op>, failure: Option<(nat, string)>): (n: nat)
    ensures n <= |ops|
    ensures n < |ops| <==> failure.Some? && failure.value.0 < |ops| && !ops[failure.value.0].OtherOp?
  {
    if failure.Some? && failure.value.0 < |ops| && !ops[failure.value.0].OtherOp? then failure.value.0 else |ops|
  }

  class EvaluationStore {
    var evaluations: map<string, Evaluation>
    var items: Items

    constructor(evaluations: map<string, Evaluation>, items: Items)
      ensures this.evaluations == evaluations && this.items == items
    {
      this.evaluations := evaluations;
      this.items := items;
    }

    /**
     * Checks the organization and the evaluation, patches the header, then
     * applies the operations in order; answers the stored evaluation. A
     * failed header update (`headerError`) writes nothing; a failed query of
     * an operation (`opError`) throws after the header and the operations
     * before it are written.
     */
    method ApplyMatrixUpdate(dto: MatrixUpdate, parse: string -> Num, headerError: Option<string>,
                             opError: Option<(nat, string)>) returns (r: Result<Evaluation>)
      modifies this
      ensures MatrixRejection(old(evaluations), dto).Some? ==>
        r == Err(MatrixRejection(old(evaluations), dto).value) && evaluations == old(evaluations) && items == old(items)
      ensures MatrixRejection(old(evaluations), dto).None? && headerError.Some? ==>
        r == Err(headerError.value) && evaluations == old(evaluations) && items == old(items)
      ensures MatrixRejection(old(evaluations), dto).None? && headerError.None? ==>
        var before := old(evaluations)[dto.evaluationId];
        var n := OpsRun(dto.operations, opError);
        && evaluations == old(evaluations)[dto.evaluationId := before.(header := before.header + HeaderPatch(dto))]
        && items == ApplyOps(old(items), dto.evaluationId, dto.operations[..n], parse)
        && r == (if n < |dto.operations| then Err(opError.value.1) else Ok(evaluations[dto.evaluationId]))
    {
      var rejection := MatrixRejection(evaluations, dto);
      if rejection.Some? {
        return Err(rejection.value);
      }
      var id := dto.evaluationId;
      var patch := HeaderPatch(dto);
      HeaderPatchNeverEmpty(evaluations, dto);
      if headerError.Some? {
        return Err(headerError.value);
      }
      evaluations := evaluations[id := evaluations[id].(header := evaluations[id].header + patch)];
      var n := OpsRun(dto.operations, opError);
      ApplyOperations(id, dto.operations[..n], parse);
      if n < |dto.operations| {
        return Err(opError.value.1);
      }
      r := Ok(evaluations[id]);
    }

    /** Runs the operations of one update against the items table, in array order. */
    method ApplyOperations(id: string, ops: seq<Op>, parse: string -> Num)
      modifies this`items
      ensures items == ApplyOps(old(items), id, ops, parse)
    {
      var i := 0;
      while i < |ops|
        invariant 0 <= i <= |ops|
        invariant items == ApplyOps(old(items), id, ops[..i], parse)
      {
        var next: Items;
        match ops[i] {
          case RemoveAthlete(a) =>
            next := map k | k in items && !OfAthlete(k, id, a) :: items[k];
          case UpsertRating(a, s, rating, comments) =>
            var key := ItemKey(id, a, s);
            if ClearsRating(rating, parse) {
              next := items - {key};
            } else if key in items {
              next := items[key := items[key].(rating := ToNumber(rating, parse), comment := CommentOf(comments))];
            } else {
              next := items[key := Item(ToNumber(rating, parse), CommentOf(comments), None)];
            }
          case OtherOp =>
            next := items;
        }
        assert next == ApplyOp(items, id, ops[i], parse);
        items := next;
        assert ops[..i + 1][..i] == ops[..i];
        i := i + 1;
      }
      assert ops[..i] == ops;
    }

    /**
     * Completes an open evaluation; an evaluation in any other status is
     * answered unchanged, and one outside the organization is not found. The
     * answer is the row's `id` and `status`, the columns the source selects.
     */
    method Submit(id: string, orgId: string) returns (r: Result<(string, Status)>)
      modifies this
      ensures evaluations == Submitted(old(evaluations), id, orgId) && items == old(items)
      ensures !Owned(old(evaluations), id, orgId) ==> r == Err("Evaluation not found")
      ensures Owned(old(evaluations), id, orgId) ==> r == Ok((id, evaluations[id].status))
    {
      if Owned(evaluations, id, orgId) && Open(evaluations[id].status) {
        evaluations := evaluations[id := evaluations[id].(status := Completed)];
        return Ok((id, Completed));
      }
      if id in evaluations && evaluations[id].orgId == orgId {
        return Ok((id, evaluations[id].status));
      }
      return Err("Evaluation not found");
    }
  }

  // ---------------------------------------------------------------------------
  // Properties of the operations

  /** A numeric upsert leaves exactly that item, with the new rating and comment, and keeps its recommended skill. */
  lemma UpsertStores(items: Items, e: string, a: string, s: string, rating: Option<Json>, comments: Option<Json>, parse: string -> Num)
    requires !ClearsRating(rating, parse)
    ensures var r := ApplyOp(items, e, UpsertRating(a, s, rating, comments), parse);
      var key := ItemKey(e, a, s);
      && key in r
      && r[key].rating == ToNumber(rating, parse) && !r[key].rating.NaN?
      && r[key].comment == CommentOf(comments)
      && r[key].recommendedSkillId == (if key in items then items[key].recommendedSkillId else None)
      && (forall k :: k != key ==> (k in r <==> k in items))
      && (forall k :: k != key && k in items ==> r[k] == items[k])
  {
  }

  /** A `null`, missing or NaN rating deletes that one item and nothing else. */
  lemma ClearDeletes(items: Items, e: string, a: string, s: string, rating: Option<Json>, comments: Option<Json>, parse: string -> Num)
    requires ClearsRating(rating, parse)
    ensures var r := ApplyOp(items, e, UpsertRating(a, s, rating, comments), parse);
      && ItemKey(e, a, s) !in r
      && (forall k :: k != ItemKey(e, a, s) ==> (k in r <==> k in items))
      && (forall k :: k in r ==> r[k] == items[k])
  {
  }

  /** `remove_athlete` deletes every item of that athlete in the evaluation and no other item. */
  lemma RemoveAthleteDeletes(items: Items, e: string, a: string, parse: string -> Num)
    ensures var r := ApplyOp(items, e, RemoveAthlete(a), parse);
      && (forall k :: k in r <==> k in items && !OfAthlete(k, e, a))
      && (forall k :: k in r ==> r[k] == items[k])
  {
  }

  /** Applying the same operation twice gives the same table as applying it once. */
  lemma ApplyOpIdempotent(items: Items, e: string, op: Op, parse: string -> Num)
    ensures ApplyOp(ApplyOp(items, e, op, parse), e, op, parse) == ApplyOp(items, e, op, parse)
  {
    var once := ApplyOp(items, e, op, parse);
    var twice := ApplyOp(once, e, op, parse);
    match op
    case RemoveAthlete(a) =>
      assert twice.Keys == once.Keys;
    case UpsertRating(a, s, rating, comments) =>
    case OtherOp =>
  }

  /** Operations never touch the items of another evaluation. */
  lemma {:induction false} OtherEvaluationsUntouched(items: Items, e: string, ops: seq<Op>, parse: string -> Num, k: ItemKey)
    requires k.evaluationId != e
    ensures k in ApplyOps(items, e, ops, parse) <==> k in items
    ensures k in items ==> ApplyOps(items, e, ops, parse)[k] == items[k]
    decreases |ops|
  {
    if |ops| > 0 {
      OtherEvaluationsUntouched(items, e, ops[..|ops| - 1], parse, k);
    }
  }

  /** Applying `a` then `b` is applying `a + b`. */
  lemma {:induction false} ApplyOpsConcat(items: Items, e: string, a: seq<Op>, b: seq<Op>, parse: string -> Num)
    ensures ApplyOps(items, e, a + b, parse) == ApplyOps(ApplyOps(items, e, a, parse), e, b, parse)
    decreases |b|
  {
    if |b| == 0 {
      assert a + b == a;
    } else {
      assert (a + b)[..|a + b| - 1] == a + b[..|b| - 1];
      ApplyOpsConcat(items, e, a, b[..|b| - 1], parse);
    }
  }

  /** Upserts of different (athlete, subskill) cells commute. */
  lemma UpsertsCommute(items: Items, e: string, op1: Op, op2: Op, parse: string -> Num)
    requires op1.UpsertRating? && op2.UpsertRating?
    requires (op1.athleteId, op1.subskillId) != (op2.athleteId, op2.subskillId)
    ensures ApplyOp(ApplyOp(items, e, op1, parse), e, op2, parse) == ApplyOp(ApplyOp(items, e, op2, parse), e, op1, parse)
  {
  }

  /** Because the organization is required, the header patch is never empty, so the header update always runs. */
  lemma HeaderPatchNeverEmpty(evaluations: map<string, Evaluation>, dto: MatrixUpdate)
    requires MatrixRejection(evaluations, dto).None?
    ensures |HeaderPatch(dto)| > 0
  {
    assert "org_id" in HeaderPatch(dto);
  }

  /** Submitting twice is submitting once, and a submitted evaluation of the organization is no longer open. */
  lemma SubmitIdempotent(evaluations: map<string, Evaluation>, id: string, orgId: string)
    ensures Submitted(Submitted(evaluations, id, orgId), id, orgId) == Submitted(evaluations, id, orgId)
    ensures Owned(evaluations, id, orgId) ==>
      && Owned(Submitted(evaluations, id, orgId), id, orgId)
      && !Open(Submitted(evaluations, id, orgId)[id].status)
    ensures forall other :: other != id && other in evaluations ==>
      other in Submitted(evaluations, id, orgId) && Submitted(evaluations, id, orgId)[other] == evaluations[other]
  {
  }

  /** Submit only ever moves an open evaluation to completed. */
  lemma SubmitTransitions(evaluations: map<string, Evaluation>, id: string, orgId: string)
    requires id in evaluations
    ensures var after := Submitted(evaluations, id, orgId)[id].status;
      after == evaluations[id].status || (Open(evaluations[id].status) && after == Completed)
  {
  }
}

=== FILE: evaluation_parsing.dfy ===
/**
 * The evaluation request handlers' own logic: the bulk-create payload
 * validators (the current handler and the older one that names the athlete
 * per evaluation), the mapping of the created rows, the query clamps, the
 * grouping of subskill ratings by category, and the ids taken from the path.
 */
module EvaluationParsing {
  import opened Wrappers
  import opened Text
  import opened Json
  import opened Context
  import opened Uuid
  import opened Dedup
  import opened EvaluationJoins

  /** The current handler (athlete per item, optional team) or the older one (athlete per evaluation). */
  datatype Variant = Current | Legacy

  datatype ParsedItem = ParsedItem(athleteId: Option<string>, skillId: string, rating: real, comments: Option<string>)

  datatype ParsedEvaluation = ParsedEvaluation(
    orgId: string, templateId: string, teamId: Option<string>, athleteId: Option<string>,
    coachId: string, notes: Option<string>, items: seq<ParsedItem>)

  /** `!v || typeof v !== "string"` fails: a non-empty string. */
  predicate NonEmptyString(v: Option<Json>) {
    v.Some? && v.value.JStr? && v.value.s != ""
  }

  /** `undefined` or `null`. */
  predicate Nullish(v: Option<Json>) {
    v.None? || v == Some(JNull)
  }

  /** A finite number from 1 to 5. */
  predicate RatingInRange(v: Option<Json>) {
    v.Some? && v.value.JNum? && 1.0 <= v.value.n <= 5.0
  }

  function EvaluationPath(index: nat): string {
    "evaluations[" + DecimalText(index) + "]"
  }

  function ItemPath(evalIndex: nat, itemIndex: nat): string {
    EvaluationPath(evalIndex) + ".evaluation_items[" + DecimalText(itemIndex) + "]"
  }

  /** `null` for a nullish value, else its string form. */
  function OptionalText(v: Option<Json>, numText: real -> string): (r: Option<string>)
    ensures r.None? <==> Nullish(v)
    ensures v.Some? && v.value.JStr? ==> r == Some(v.value.s)
  {
    if Nullish(v) then None else Some(Stringify(v.value, numText))
  }

  /** One evaluation item, or the first check it fails. */
  function ParseItem(variant: Variant, raw: Json, evalIndex: nat, itemIndex: nat, numText: real -> string): (r: Result<ParsedItem>)
    ensures r.Ok? <==>
      && IsObject(raw)
      && (variant == Current ==> NonEmptyString(Get(raw, "athlete_id")))
      && NonEmptyString(Get(raw, "skill_id"))
      && RatingInRange(Get(raw, "rating"))
    ensures r.Ok? ==>
      && r.value.skillId == Get(raw, "skill_id").value.s
      && r.value.rating == Get(raw, "rating").value.n
      && (r.value.athleteId.Some? <==> variant == Current)
      && (variant == Current ==> r.value.athleteId.value == Get(raw, "athlete_id").value.s)
      && r.value.comments == OptionalText(Get(raw, "comments"), numText)
    ensures !IsObject(raw) ==> r == Err(ItemPath(evalIndex, itemIndex) + " must be an object")
  {
    var path := ItemPath(evalIndex, itemIndex);
    if !IsObject(raw) then Err(path + " must be an object")
    else if variant == Current && !NonEmptyString(Get(raw, "athlete_id")) then Err(path + ".athlete_id is required (string)")
    else if !NonEmptyString(Get(raw, "skill_id")) then Err(path + ".skill_id is required (string)")
    else if !(Get(raw, "rating").Some? && Get(raw, "rating").value.JNum?) then Err(path + ".rating must be a number")
    else if Get(raw, "rating").value.n < 1.0 || Get(raw, "rating").value.n > 5.0 then Err(path + ".rating must be between 1 and 5")
    else
      Ok(ParsedItem(if variant == Current then Some(Get(raw, "athlete_id").value.s) else None,
                    Get(raw, "skill_id").value.s, Get(raw, "rating").value.n,
                    OptionalText(Get(raw, "comments"), numText)))
  }

  /** The items from index `from` on, in order; the first failure is the result. */
  function ParseItems(variant: Variant, items: seq<Json>, evalIndex: nat, from: nat, numText: real -> string): (r: Result<seq<ParsedItem>>)
    requires from <= |items|
    ensures r.Ok? ==> |r.value| == |items| - from
    ensures r.Ok? ==> forall j :: from <= j < |items| ==> ParseItem(variant, items[j], evalIndex, j, numText) == Ok(r.value[j - from])
    ensures r.Err? ==> exists j :: from <= j < |items| && ParseItem(variant, items[j], evalIndex, j, numText) == Err(r.msg)
    decreases |items| - from
  {
    if from == |items| then Ok([])
    else
      match ParseItem(variant, items[from], evalIndex, from, numText)
      case Err(m) => Err(m)
      case Ok(item) =>
        match ParseItems(variant, items, evalIndex, from + 1, numText)
        case Err(m) => Err(m)
        case Ok(rest) => Ok([item] + rest)
  }

  /** The fields an evaluation must carry, in the order they are checked. */
  function RequiredFields(variant: Variant): seq<string> {
    if variant == Current then ["org_id", "scorecard_template_id", "coach_id", "evaluation_items"]
    else ["org_id", "scorecard_template_id", "athlete_id", "coach_id", "evaluation_items"]
  }

  /** The first required field that is `undefined` or `null`. */
  function FirstMissing(obj: Json, fields: seq<string>): (r: Option<string>)
    ensures r.None? <==> forall f :: f in fields ==> !Nullish(Get(obj, f))
    ensures r.Some? ==> r.value in fields && Nullish(Get(obj, r.value))
  {
    if |fields| == 0 then None
    else if Nullish(Get(obj, fields[0])) then Some(fields[0])
    else FirstMissing(obj, fields[1..])
  }

  /** `team_id`: `null` for `undefined`, `null` or "", else its string form. */
  function TeamIdOf(v: Option<Json>, numText: real -> string): (r: Option<string>)
    ensures r.None? <==> Nullish(v) || v == Some(JStr(""))
    ensures v.Some? && v.value.JStr? && v.value.s != "" ==> r == Some(v.value.s)
  {
    if Nullish(v) || v == Some(JStr("")) then None else Some(Stringify(v.value, numText))
  }

  /** `String(v)` of a field, "undefined" when it is absent. */
  function StringOf(v: Option<Json>, numText: real -> string): (r: string)
    ensures v.Some? && v.value.JStr? ==> r == v.value.s
  {
    if v.Some? then Stringify(v.value, numText) else "undefined"
  }

  /** The `evaluation_items` of an evaluation when they form a non-empty array. */
  function ItemsArray(raw: Json): (r: Option<seq<Json>>)
    ensures r.Some? ==> |r.value| > 0 && Get(raw, "evaluation_items") == Some(JArr(r.value))
  {
    var v := Get(raw, "evaluation_items");
    if v.Some? && v.value.JArr? && |v.value.items| > 0 then Some(v.value.items) else None
  }

  /**
   * The checks on an evaluation before its items: an object, every required
   * field present, and a non-empty items array, which is the result.
   */
  function CheckEvaluation(variant: Variant, raw: Json, index: nat): (r: Result<seq<Json>>)
    ensures !IsObject(raw) ==> r == Err(EvaluationPath(index) + " must be an object")
    ensures IsObject(raw) && FirstMissing(raw, RequiredFields(variant)).Some? ==>
      r == Err(EvaluationPath(index) + "." + FirstMissing(raw, RequiredFields(variant)).value + " is required")
    ensures r.Ok? <==> IsObject(raw) && FirstMissing(raw, RequiredFields(variant)).None? && ItemsArray(raw).Some?
    ensures r.Ok? ==> ItemsArray(raw) == Some(r.value)
  {
    var prefix := EvaluationPath(index);
    if !IsObject(raw) then Err(prefix + " must be an object")
    else
      var missing := FirstMissing(raw, RequiredFields(variant));
      if missing.Some? then Err(prefix + "." + missing.value + " is required")
      else if ItemsArray(raw).None? then Err(prefix + ".evaluation_items must be a non-empty array")
      else Ok(ItemsArray(raw).value)
  }

  /** The evaluation built from a checked object and its parsed items. */
  function EvaluationOf(variant: Variant, raw: Json, items: seq<ParsedItem>, numText: real -> string): ParsedEvaluation {
    ParsedEvaluation(
      StringOf(Get(raw, "org_id"), numText),
      StringOf(Get(raw, "scorecard_template_id"), numText),
      if variant == Current then TeamIdOf(Get(raw, "team_id"), numText) else None,
      if variant == Legacy then Some(StringOf(Get(raw, "athlete_id"), numText)) else None,
      StringOf(Get(raw, "coach_id"), numText),
      OptionalText(Get(raw, "notes"), numText),
      items)
  }

  /** One evaluation of the payload, or the first check it fails. */
  function ParseEvaluation(variant: Variant, raw: Json, index: nat, numText: real -> string): (r: Result<ParsedEvaluation>)
    ensures r.Ok? ==> (CheckEvaluation(variant, raw, index).Ok?
      && ParseItems(variant, CheckEvaluation(variant, raw, index).value, index, 0, numText) == Ok(r.value.items))
    ensures CheckEvaluation(variant, raw, index).Err? ==> r == Err(CheckEvaluation(variant, raw, index).msg)
  {
    match CheckEvaluation(variant, raw, index)
    case Err(m) => Err(m)
    case Ok(rawItems) =>
      match ParseItems(variant, rawItems, index, 0, numText)
      case Err(m) => Err(m)
      case Ok(items) => Ok(EvaluationOf(variant, raw, items, numText))
  }

  /**
   * A parsed evaluation carries the string forms of its fields; the current
   * handler takes an optional team and no athlete, the older one the athlete
   * and no team.
   */
  lemma ParsedFields(variant: Variant, raw: Json, index: nat, numText: real -> string)
    requires ParseEvaluation(variant, raw, index, numText).Ok?
    ensures var e := ParseEvaluation(variant, raw, index, numText).value;
      && IsObject(raw)
      && (forall f :: f in RequiredFields(variant) ==> !Nullish(Get(raw, f)))
      && |e.items| == |ItemsArray(raw).value| > 0
      && e.orgId == StringOf(Get(raw, "org_id"), numText)
      && e.templateId == StringOf(Get(raw, "scorecard_template_id"), numText)
      && e.coachId == StringOf(Get(raw, "coach_id"), numText)
      && e.notes == OptionalText(Get(raw, "notes"), numText)
      && (variant == Current ==> e.teamId == TeamIdOf(Get(raw, "team_id"), numText) && e.athleteId.None?)
      && (variant == Legacy ==> e.teamId.None? && e.athleteId == Some(StringOf(Get(raw, "athlete_id"), numText)))
  {
  }

  /** `xs.map((x, i) => f(x, i))` with an `f` that may throw: every result in order, or the first failure. */
  function MapIndexed<T>(f: (Json, nat) -> Result<T>, xs: seq<Json>, from: nat): (r: Result<seq<T>>)
    requires from <= |xs|
    ensures r.Ok? ==> |r.value| == |xs| - from
    decreases |xs| - from
  {
    if from == |xs| then Ok([])
    else
      match f(xs[from], from)
      case Err(m) => Err(m)
      case Ok(e) =>
        match MapIndexed(f, xs, from + 1)
        case Err(m) => Err(m)
        case Ok(rest) => Ok([e] + rest)
  }

  /** A successful map holds, at each position, the result of that element. */
  lemma {:induction false} MapIndexedAt<T>(f: (Json, nat) -> Result<T>, xs: seq<Json>, from: nat, j: nat)
    requires from <= j < |xs| && MapIndexed(f, xs, from).Ok?
    ensures f(xs[j], j) == Ok(MapIndexed(f, xs, from).value[j - from])
    decreases j - from
  {
    if j > from {
      MapIndexedAt(f, xs, from + 1, j);
    }
  }

  /** A failed map reports the failure of one of its elements. */
  lemma {:induction false} MapIndexedFailure<T>(f: (Json, nat) -> Result<T>, xs: seq<Json>, from: nat)
    requires from <= |xs| && MapIndexed(f, xs, from).Err?
    ensures exists j :: from <= j < |xs| && f(xs[j], j) == Err(MapIndexed(f, xs, from).msg)
    decreases |xs| - from
  {
    if f(xs[from], from).Ok? {
      MapIndexedFailure(f, xs, from + 1);
    }
  }

  /** `parseEvaluation` as the callback of `map`. */
  function EvaluationParser(variant: Variant, numText: real -> string): (Json, nat) -> Result<ParsedEvaluation> {
    (raw: Json, i: nat) => ParseEvaluation(variant, raw, i, numText)
  }

  /** Every evaluation of the payload, in order; the first failure is the result. */
  function ParseEvaluations(variant: Variant, evals: seq<Json>, numText: real -> string): (r: Result<seq<ParsedEvaluation>>)
    ensures r.Ok? ==> |r.value| == |evals|
  {
    MapIndexed(EvaluationParser(variant, numText), evals, 0)
  }

  /** A successful payload holds, at each position, that evaluation as it parses on its own. */
  lemma ParseEvaluationsAt(variant: Variant, evals: seq<Json>, numText: real -> string, j: nat)
    requires j < |evals| && ParseEvaluations(variant, evals, numText).Ok?
    ensures ParseEvaluation(variant, evals[j], j, numText) == Ok(ParseEvaluations(variant, evals, numText).value[j])
  {
    MapIndexedAt(EvaluationParser(variant, numText), evals, 0, j);
  }

  /** A failed payload reports the failure of one of its evaluations. */
  lemma ParseEvaluationsFailure(variant: Variant, evals: seq<Json>, numText: real -> string)
    requires ParseEvaluations(variant, evals, numText).Err?
    ensures exists j :: 0 <= j < |evals| && ParseEvaluation(variant, evals[j], j, numText) == Err(ParseEvaluations(variant, evals, numText).msg)
  {
    var f := EvaluationParser(variant, numText);
    MapIndexedFailure(f, evals, 0);
    var j :| 0 <= j < |evals| && f(evals[j], j) == Err(MapIndexed(f, evals, 0).msg);
    assert ParseEvaluation(variant, evals[j], j, numText) == f(evals[j], j);
  }

  /** The answer of the bulk-create handler: status, error message, and the number of created evaluations. */
  datatype Reply = Reply(status: int, error: Option<string>, count: nat)

  /** The 405 answer of a handler that only takes POST. */
  const PostOnly := Reply(405, Some("Method not allowed. Allowed: POST"), 0)

  /** `body && Array.isArray(body.evaluations)`. */
  predicate HasEvaluationsArray(body: Option<Json>) {
    body.Some? && Get(body.value, "evaluations").Some? && Get(body.value, "evaluations").value.JArr?
  }

  /**
   * POST bulk-create: any other method is a 405; a body without an
   * `evaluations` array is a 400; a validation failure thrown while
   * parsing, or a failed call, is a 500 carrying its message; otherwise 201
   * with the created rows counted.
   */
  function BulkCreate(httpMethod: string, variant: Variant, body: Option<Json>, numText: real -> string,
                      create: seq<ParsedEvaluation> -> Result<seq<Json>>): (r: Reply)
    ensures httpMethod != "POST" ==> r == PostOnly
    ensures httpMethod == "POST" && !HasEvaluationsArray(body) ==>
      r == Reply(400, Some("Body must contain an 'evaluations' array."), 0)
    ensures httpMethod == "POST" && HasEvaluationsArray(body) ==>
      var parsed := ParseEvaluations(variant, Get(body.value, "evaluations").value.items, numText);
      && (parsed.Err? ==> r == Reply(500, Some(parsed.msg), 0))
      && (parsed.Ok? && create(parsed.value).Err? ==> r == Reply(500, Some(create(parsed.value).msg), 0))
      && (parsed.Ok? && create(parsed.value).Ok? ==> r == Reply(201, None, |create(parsed.value).value|))
    ensures r.status == 201 <==> (httpMethod == "POST" && HasEvaluationsArray(body)
      && ParseEvaluations(variant, Get(body.value, "evaluations").value.items, numText).Ok?
      && create(ParseEvaluations(variant, Get(body.value, "evaluations").value.items, numText).value).Ok?)
    ensures r.status == 201 ==> r.error.None?
    ensures r.status in {201, 400, 405, 500}
  {
    if httpMethod != "POST" then PostOnly
    else if !HasEvaluationsArray(body) then
      Reply(400, Some("Body must contain an 'evaluations' array."), 0)
    else
      match ParseEvaluations(variant, Get(body.value, "evaluations").value.items, numText)
      case Err(m) => Reply(500, Some(m), 0)
      case Ok(evaluations) =>
        match create(evaluations)
        case Err(m) => Reply(500, Some(m), 0)
        case Ok(rows) => Reply(201, None, |rows|)
  }

  /** The two handlers agree on items except that the current one also demands the athlete. */
  lemma CurrentItemsStricter(raw: Json, evalIndex: nat, itemIndex: nat, numText: real -> string)
    ensures ParseItem(Current, raw, evalIndex, itemIndex, numText).Ok? ==> ParseItem(Legacy, raw, evalIndex, itemIndex, numText).Ok?
    ensures ParseItem(Legacy, raw, evalIndex, itemIndex, numText).Ok? && NonEmptyString(Get(raw, "athlete_id")) ==>
      ParseItem(Current, raw, evalIndex, itemIndex, numText).Ok?
  {
  }

  // ---------------------------------------------------------------------------
  // Mapping of the created rows back to the request's field names

  /** Moves the value under `from` to `to`; an absent value leaves `to` absent. */
  function Rename(obj: map<string, Json>, from: string, to: string): map<string, Json> {
    var rest := obj - {from} - {to};
    if from in obj then rest[to := obj[from]] else rest
  }

  /** A created item: `subskill_id` becomes `skill_id`, `comment` becomes `comments`. */
  function MapCreatedItem(item: map<string, Json>): map<string, Json> {
    Rename(Rename(item, "subskill_id", "skill_id"), "comment", "comments")
  }

  /** An `evaluation_items` value as a list: an array's object entries; anything else is empty. */
  function ObjectsOf(v: Option<Json>): seq<map<string, Json>> {
    if v.Some? && v.value.JArr? then
      seq(|v.value.items|, i requires 0 <= i < |v.value.items| =>
        if v.value.items[i].JObj? then v.value.items[i].fields else map[])
    else []
  }

  /**
   * A created evaluation: `template_id` becomes `scorecard_template_id`,
   * `teams_id` becomes `team_id`, and its items are mapped one by one.
   */
  function MapCreatedRow(row: map<string, Json>): (r: map<string, Json>)
    ensures "evaluation_items" in r
    ensures "template_id" !in r && "teams_id" !in r
    ensures "template_id" in row ==> "scorecard_template_id" in r && r["scorecard_template_id"] == row["template_id"]
    ensures "teams_id" in row ==> "team_id" in r && r["team_id"] == row["teams_id"]
    ensures forall k :: k in row && k !in {"template_id", "teams_id", "evaluation_items", "scorecard_template_id", "team_id"} ==>
      k in r && r[k] == row[k]
  {
    var items := ObjectsOf(if "evaluation_items" in row then Some(row["evaluation_items"]) else None);
    var mapped := seq(|items|, i requires 0 <= i < |items| => JObj(MapCreatedItem(items[i])));
    Rename(Rename(row - {"evaluation_items"}, "template_id", "scorecard_template_id"), "teams_id", "team_id")["evaluation_items" := JArr(mapped)]
  }

  /** Mapping keeps every other column and loses nothing: renaming back restores a row that had no target columns. */
  lemma RenameRoundTrip(obj: map<string, Json>, from: string, to: string)
    requires from != to && to !in obj
    ensures Rename(Rename(obj, from, to), to, from) == obj
  {
    var once := Rename(obj, from, to);
    var twice := Rename(once, to, from);
    assert forall k :: k in twice <==> k in obj;
  }

  /** Created items keep their number and order. */
  lemma CreatedItemsOneToOne(row: map<string, Json>)
    requires "evaluation_items" in row && row["evaluation_items"].JArr?
    ensures var out := MapCreatedRow(row)["evaluation_items"];
      out.JArr? && |out.items| == |row["evaluation_items"].items|
      && forall i :: 0 <= i < |out.items| && row["evaluation_items"].items[i].JObj? ==>
           out.items[i] == JObj(MapCreatedItem(row["evaluation_items"].items[i].fields))
  {
  }

  // ---------------------------------------------------------------------------
  // Query parameters

  /** `qp`: the trimmed value, absent when missing or blank. */
  function Qp(value: Option<string>): (r: Option<string>)
    ensures r.Some? ==> value.Some? && r.value == Trim(value.value) && r.value != ""
    ensures r.None? <==> value.None? || IsBlank(value.value)
  {
    if value.Some? && Trim(value.value) != [] then Some(Trim(value.value)) else None
  }

  /** `limit`: the parsed integer clamped to [1, 200], or the endpoint's default when not a number. */
  function ClampLimit(parsed: Option<int>, default: int): (r: int)
    ensures parsed.Some? ==> 1 <= r <= 200
    ensures parsed.Some? && 1 <= parsed.value <= 200 ==> r == parsed.value
    ensures parsed.None? ==> r == default
  {
    if parsed.Some? then (if parsed.value < 1 then 1 else if parsed.value > 200 then 200 else parsed.value) else default
  }

  /** `offset`: the parsed integer, at least 0, or 0 when not a number. */
  function ClampOffset(parsed: Option<int>): (r: nat)
    ensures parsed.Some? && parsed.value >= 0 ==> r == parsed.value
    ensures parsed.None? || parsed.value < 0 ==> r == 0
  {
    if parsed.Some? && parsed.value >= 0 then parsed.value else 0
  }

  /** The defaults of the three paged endpoints. */
  const LatestDefaultLimit := 20
  const AthletesDefaultLimit := 200
  const ImprovementDefaultLimit := 3

  /** Every limit the endpoints use, defaulted or clamped, lies in [1, 200]. */
  lemma LimitsInRange(parsed: Option<int>)
    ensures 1 <= ClampLimit(parsed, LatestDefaultLimit) <= 200
    ensures 1 <= ClampLimit(parsed, AthletesDefaultLimit) <= 200
    ensures 1 <= ClampLimit(parsed, ImprovementDefaultLimit) <= 200
  {
  }

  /** `(ctx.org_id ?? searchParams.get("org_id") ?? "").trim()`. */
  function OrgParam(ctxOrg: Option<string>, queryOrg: Option<string>): (r: string)
    ensures ctxOrg.Some? ==> r == Trim(ctxOrg.value)
    ensures ctxOrg.None? && queryOrg.None? ==> r == ""
  {
    Trim(if ctxOrg.Some? then ctxOrg.value else queryOrg.GetOr(""))
  }

  // ---------------------------------------------------------------------------
  // Subskill ratings grouped by category

  datatype Subskill = Subskill(id: string, name: string, score: real)

  datatype Category = Category(id: string, name: string, subskills: seq<Subskill>)

  /** The rows that name a category. */
  function CategoryRows(rows: seq<RatingResult>): (r: seq<RatingResult>)
    ensures forall x :: x in r ==> x.categoryId != ""
    decreases |rows|
  {
    if |rows| == 0 then []
    else
      var r := CategoryRows(rows[..|rows| - 1]);
      if rows[|rows| - 1].categoryId != "" then r + [rows[|rows| - 1]] else r
  }

  function CategoryKey(r: RatingResult): string {
    r.categoryId
  }

  /** The first row of each category, in first-seen order. */
  function Heads(rows: seq<RatingResult>): seq<RatingResult> {
    FirstByKey(CategoryRows(rows), CategoryKey)
  }

  /** What a row adds to its category: nothing unless its rating is a number and it names a skill. */
  function SubskillOf(r: RatingResult): Option<Subskill> {
    if r.rating.JNum? && r.skillId != "" then Some(Subskill(r.skillId, r.skillDescrip.GetOr(""), r.rating.n)) else None
  }

  function OptionSeq(o: Option<Subskill>): seq<Subskill> {
    if o.Some? then [o.value] else []
  }

  /** The subskills of category `c`, in row order. */
  function SubskillsOf(rows: seq<RatingResult>, c: string): seq<Subskill>
    decreases |rows|
  {
    if |rows| == 0 then []
    else
      var last := rows[|rows| - 1];
      SubskillsOf(rows[..|rows| - 1], c) + (if last.categoryId == c then OptionSeq(SubskillOf(last)) else [])
  }

  /** One category per category id, in first-seen order, named by its first row. */
  function GroupRatings(rows: seq<RatingResult>): (g: seq<Category>)
    ensures |g| == |Heads(rows)|
  {
    var heads := Heads(rows);
    seq(|heads|, j requires 0 <= j < |heads| =>
      Category(heads[j].categoryId, heads[j].categoryDescrip.GetOr(""), SubskillsOf(rows, heads[j].categoryId)))
  }

  lemma {:induction false} NoSubskillsWithoutRows(rows: seq<RatingResult>, c: string)
    requires c != "" && c !in KeysOf(CategoryRows(rows), CategoryKey)
    ensures SubskillsOf(rows, c) == []
    decreases |rows|
  {
    if |rows| > 0 {
      var p := rows[..|rows| - 1];
      var last := rows[|rows| - 1];
      if CategoryRows(rows) != CategoryRows(p) {
        KeysOfSnoc(CategoryRows(p), last, CategoryKey);
      }
      NoSubskillsWithoutRows(p, c);
    }
  }

  lemma PrefixSnoc(rows: seq<RatingResult>, i: nat)
    requires i < |rows|
    ensures var q := rows[..i + 1]; q[..|q| - 1] == rows[..i] && q[|q| - 1] == rows[i]
  {
  }

  /** One more row adds its category, if it names one, to the known categories. */
  lemma KeysStep(rows: seq<RatingResult>, i: nat)
    requires i < |rows|
    ensures KeysOf(CategoryRows(rows[..i + 1]), CategoryKey)
      == KeysOf(CategoryRows(rows[..i]), CategoryKey) + (if rows[i].categoryId != "" then {rows[i].categoryId} else {})
  {
    PrefixSnoc(rows, i);
    if rows[i].categoryId != "" {
      KeysOfSnoc(CategoryRows(rows[..i]), rows[i], CategoryKey);
    }
  }

  /** One more row adds at most one subskill, to its own category. */
  lemma SubskillsStep(rows: seq<RatingResult>, i: nat)
    requires i < |rows|
    ensures forall x :: (SubskillsOf(rows[..i + 1], x)
      == SubskillsOf(rows[..i], x) + (if rows[i].categoryId == x then OptionSeq(SubskillOf(rows[i])) else []))
  {
    PrefixSnoc(rows, i);
  }

  /** The heads carry the known category ids, none of them empty. */
  lemma HeadIds(rows: seq<RatingResult>)
    ensures forall j :: 0 <= j < |Heads(rows)| ==>
      Heads(rows)[j].categoryId in KeysOf(CategoryRows(rows), CategoryKey) && Heads(rows)[j].categoryId != ""
  {
    FirstByKeyKeys(CategoryRows(rows), CategoryKey);
    forall j | 0 <= j < |Heads(rows)|
      ensures Heads(rows)[j].categoryId in KeysOf(CategoryRows(rows), CategoryKey) && Heads(rows)[j].categoryId != ""
    {
      assert Heads(rows)[j] in Heads(rows);
      assert CategoryKey(Heads(rows)[j]) in KeysOf(Heads(rows), CategoryKey);
    }
  }

  /** A row without a category changes nothing. */
  lemma GroupStepSkip(rows: seq<RatingResult>, i: nat)
    requires i < |rows| && rows[i].categoryId == ""
    ensures GroupRatings(rows[..i + 1]) == GroupRatings(rows[..i])
  {
    PrefixSnoc(rows, i);
    SubskillsStep(rows, i);
    assert CategoryRows(rows[..i + 1]) == CategoryRows(rows[..i]);
    HeadIds(rows[..i]);
    var p := GroupRatings(rows[..i]);
    var q := GroupRatings(rows[..i + 1]);
    forall j | 0 <= j < |p| ensures q[j] == p[j] {
    }
  }

  /** A row of a known category, the `j`-th, adds its subskill to that category only. */
  lemma GroupStepExisting(rows: seq<RatingResult>, i: nat, j: nat)
    requires i < |rows| && rows[i].categoryId != ""
    requires j < |GroupRatings(rows[..i])| && GroupRatings(rows[..i])[j].id == rows[i].categoryId
    ensures var p := GroupRatings(rows[..i]);
      GroupRatings(rows[..i + 1]) == p[j := p[j].(subskills := p[j].subskills + OptionSeq(SubskillOf(rows[i])))]
  {
    PrefixSnoc(rows, i);
    SubskillsStep(rows, i);
    var pr := rows[..i];
    var row := rows[i];
    assert CategoryRows(rows[..i + 1]) == CategoryRows(pr) + [row];
    FirstByKeyKeys(CategoryRows(pr), CategoryKey);
    HeadIds(pr);
    assert Heads(rows[..i + 1]) == Heads(pr);
    var p := GroupRatings(pr);
    var q := GroupRatings(rows[..i + 1]);
    var expected := p[j := p[j].(subskills := p[j].subskills + OptionSeq(SubskillOf(row)))];
    forall k | 0 <= k < |p| ensures q[k] == expected[k] {
      if k < j {
        assert Heads(pr)[k].categoryId != Heads(pr)[j].categoryId;
      } else if k > j {
        assert Heads(pr)[j].categoryId != Heads(pr)[k].categoryId;
      }
    }
  }

  /** A row of a new category appends that category. */
  lemma GroupStepNew(rows: seq<RatingResult>, i: nat)
    requires i < |rows| && rows[i].categoryId != ""
    requires rows[i].categoryId !in KeysOf(CategoryRows(rows[..i]), CategoryKey)
    ensures GroupRatings(rows[..i + 1])
      == GroupRatings(rows[..i]) + [Category(rows[i].categoryId, rows[i].categoryDescrip.GetOr(""), OptionSeq(SubskillOf(rows[i])))]
  {
    PrefixSnoc(rows, i);
    SubskillsStep(rows, i);
    var pr := rows[..i];
    var row := rows[i];
    assert CategoryRows(rows[..i + 1]) == CategoryRows(pr) + [row];
    FirstByKeyKeys(CategoryRows(pr), CategoryKey);
    NoSubskillsWithoutRows(pr, row.categoryId);
    assert Heads(rows[..i + 1]) == Heads(pr) + [row];
    var p := GroupRatings(pr);
    var q := GroupRatings(rows[..i + 1]);
    HeadIds(pr);
    forall j | 0 <= j < |p| ensures q[j] == p[j] {
    }
    assert q[|p|] == Category(row.categoryId, row.categoryDescrip.GetOr(""), OptionSeq(SubskillOf(row)));
  }

  /** The loop state after `i` rows: the categories so far, and where each one sits. */
  ghost predicate Grouped(rows: seq<RatingResult>, i: nat, categories: seq<Category>, index: map<string, nat>) {
    && i <= |rows|
    && categories == GroupRatings(rows[..i])
    && (forall id :: id in index <==> id in KeysOf(CategoryRows(rows[..i]), CategoryKey))
    && (forall id :: id in index ==> index[id] < |categories| && categories[index[id]].id == id)
    && (forall k :: 0 <= k < |categories| ==> categories[k].id in index && index[categories[k].id] == k)
  }

  /** One row: a new category is appended, a known one gets the row's rating, a row without a category is skipped. */
  method GroupRow(rows: seq<RatingResult>, i: nat, categories: seq<Category>, index: map<string, nat>)
    returns (next: seq<Category>, nextIndex: map<string, nat>)
    requires i < |rows| && Grouped(rows, i, categories, index)
    ensures Grouped(rows, i + 1, next, nextIndex)
  {
    var row := rows[i];
    // A new category is created before its row's rating is looked at.
    var added := OptionSeq(SubskillOf(row));
    if row.categoryId == "" {
      GroupedSkip(rows, i, categories, index);
      next, nextIndex := categories, index;
    } else if row.categoryId !in index {
      GroupedNew(rows, i, categories, index);
      next := categories + [Category(row.categoryId, row.categoryDescrip.GetOr(""), added)];
      nextIndex := index[row.categoryId := |categories|];
    } else {
      var j := index[row.categoryId];
      GroupedExisting(rows, i, categories, index);
      next := categories[j := categories[j].(subskills := categories[j].subskills + added)];
      nextIndex := index;
    }
  }

  lemma GroupedSkip(rows: seq<RatingResult>, i: nat, categories: seq<Category>, index: map<string, nat>)
    requires i < |rows| && Grouped(rows, i, categories, index) && rows[i].categoryId == ""
    ensures Grouped(rows, i + 1, categories, index)
  {
    KeysStep(rows, i);
    GroupStepSkip(rows, i);
  }

  lemma GroupedNew(rows: seq<RatingResult>, i: nat, categories: seq<Category>, index: map<string, nat>)
    requires i < |rows| && Grouped(rows, i, categories, index)
    requires rows[i].categoryId != "" && rows[i].categoryId !in index
    ensures var row := rows[i];
      Grouped(rows, i + 1, categories + [Category(row.categoryId, row.categoryDescrip.GetOr(""), OptionSeq(SubskillOf(row)))],
        index[row.categoryId := |categories|])
  {
    KeysStep(rows, i);
    GroupStepNew(rows, i);
    var row := rows[i];
    var next := categories + [Category(row.categoryId, row.categoryDescrip.GetOr(""), OptionSeq(SubskillOf(row)))];
    var nextIndex := index[row.categoryId := |categories|];
    forall id | id in nextIndex
      ensures nextIndex[id] < |next| && next[nextIndex[id]].id == id
    {
      if id != row.categoryId {
        assert next[index[id]] == categories[index[id]];
      }
    }
    forall k | 0 <= k < |next|
      ensures next[k].id in nextIndex && nextIndex[next[k].id] == k
    {
      if k < |categories| {
        assert next[k] == categories[k];
        assert categories[k].id in index;
      }
    }
  }

  lemma GroupedExisting(rows: seq<RatingResult>, i: nat, categories: seq<Category>, index: map<string, nat>)
    requires i < |rows| && Grouped(rows, i, categories, index)
    requires rows[i].categoryId != "" && rows[i].categoryId in index
    ensures var j := index[rows[i].categoryId];
      Grouped(rows, i + 1, categories[j := categories[j].(subskills := categories[j].subskills + OptionSeq(SubskillOf(rows[i])))], index)
  {
    KeysStep(rows, i);
    GroupStepExisting(rows, i, index[rows[i].categoryId]);
  }

  /**
   * Groups the rating rows by category: each category appears once, in
   * first-seen order; its subskills are the numeric ratings of its rows.
   */
  method GroupSubskillRatings(rows: seq<RatingResult>) returns (data: seq<Category>, count: nat)
    ensures data == GroupRatings(rows)
    ensures count == |data|
  {
    var categories: seq<Category> := [];
    var index: map<string, nat> := map[];
    var i := 0;
    while i < |rows|
      invariant 0 <= i <= |rows|
      invariant Grouped(rows, i, categories, index)
    {
      categories, index := GroupRow(rows, i, categories, index);
      i := i + 1;
    }
    assert rows[..i] == rows;
    data := categories;
    count := |categories|;
  }

  /**
   * The categories are exactly the named category ids, each once; a row
   * whose rating is not a number still brings its category, without a subskill.
   */
  lemma GroupRatingsCategories(rows: seq<RatingResult>)
    ensures forall j, k :: 0 <= j < k < |GroupRatings(rows)| ==> GroupRatings(rows)[j].id != GroupRatings(rows)[k].id
    ensures forall i :: 0 <= i < |rows| && rows[i].categoryId != "" ==>
      exists j :: 0 <= j < |GroupRatings(rows)| && GroupRatings(rows)[j].id == rows[i].categoryId
  {
    var cr := CategoryRows(rows);
    FirstByKeyKeys(cr, CategoryKey);
    forall i | 0 <= i < |rows| && rows[i].categoryId != ""
      ensures exists j :: 0 <= j < |GroupRatings(rows)| && GroupRatings(rows)[j].id == rows[i].categoryId
    {
      CategoryRowsHas(rows, i);
      var h :| h in Heads(rows) && CategoryKey(h) == rows[i].categoryId;
      var j :| 0 <= j < |Heads(rows)| && Heads(rows)[j] == h;
      assert GroupRatings(rows)[j].id == rows[i].categoryId;
    }
  }

  lemma {:induction false} CategoryRowsHas(rows: seq<RatingResult>, i: nat)
    requires i < |rows| && rows[i].categoryId != ""
    ensures rows[i].categoryId in KeysOf(CategoryRows(rows), CategoryKey)
    decreases |rows|
  {
    var p := rows[..|rows| - 1];
    if i < |rows| - 1 {
      assert rows[i] == p[i];
      CategoryRowsHas(p, i);
      KeysOfSnoc(CategoryRows(p), rows[|rows| - 1], CategoryKey);
    } else {
      KeysOfSnoc(CategoryRows(p), rows[i], CategoryKey);
    }
  }

  // ---------------------------------------------------------------------------
  // Ids taken from the path

  /** `pathname.split("/").filter(Boolean)`. */
  function PathSegments(pathname: string): seq<string> {
    NonEmpty(Split(pathname, '/'))
  }

  /** The matrix update request, checked in order before the update runs. */
  datatype MatrixRequest = MatrixRejected(response: Response) | MatrixAccepted(evaluationId: string, orgId: string)

  /** `Array.isArray(body?.operations)`. */
  predicate HasOperationsArray(body: Option<Json>) {
    body.Some? && Get(body.value, "operations").Some? && Get(body.value, "operations").value.JArr?
  }

  /** `typeof body.org_id === "string" && isUuid(body.org_id)`. */
  predicate HasUuidOrgId(body: Json) {
    AsString(Get(body, "org_id")).Some? && MatchesUuid(AsString(Get(body, "org_id")).value)
  }

  /**
   * The evaluation id is the segment before the last one ("matrix"),
   * overriding any id in the body; then the body needs an `operations`
   * array, a UUID `org_id` and at least one operation, checked in that order.
   */
  function MatrixRequestOf(pathname: string, body: Option<Json>): (r: MatrixRequest)
    ensures |PathSegments(pathname)| < 2 ==> r == MatrixRejected(Response(400, "Missing evaluation id in path"))
    ensures |PathSegments(pathname)| >= 2 && !HasOperationsArray(body) ==>
      r == MatrixRejected(Response(400, "Body must include an 'operations' array"))
    ensures |PathSegments(pathname)| >= 2 && HasOperationsArray(body) && !HasUuidOrgId(body.value) ==>
      r == MatrixRejected(Response(400, "org_id (UUID) is required"))
    ensures (|PathSegments(pathname)| >= 2 && HasOperationsArray(body) && HasUuidOrgId(body.value)
      && |Get(body.value, "operations").value.items| == 0) ==>
      r == MatrixRejected(Response(400, "'operations' array must not be empty"))
    ensures r.MatrixAccepted? ==>
      && |PathSegments(pathname)| >= 2 && r.evaluationId == PathSegments(pathname)[|PathSegments(pathname)| - 2]
      && HasOperationsArray(body) && |Get(body.value, "operations").value.items| > 0
      && AsString(Get(body.value, "org_id")) == Some(r.orgId) && MatchesUuid(r.orgId)
  {
    var segs := PathSegments(pathname);
    if |segs| < 2 then MatrixRejected(Response(400, "Missing evaluation id in path"))
    else if !HasOperationsArray(body) then
      MatrixRejected(Response(400, "Body must include an 'operations' array"))
    else if !HasUuidOrgId(body.value) then
      MatrixRejected(Response(400, "org_id (UUID) is required"))
    else if |Get(body.value, "operations").value.items| == 0 then
      MatrixRejected(Response(400, "'operations' array must not be empty"))
    else MatrixAccepted(segs[|segs| - 2], AsString(Get(body.value, "org_id")).value)
  }

  /**
   * The org id is checked before emptiness: whatever the org id is (missing,
   * a number, a non-UUID text), an empty operations list with an org id that
   * is not a UUID string is reported as the org id.
   */
  lemma MatrixChecksInOrder(pathname: string, body: Json)
    ensures |PathSegments(pathname)| >= 2 && Get(body, "operations") == Some(JArr([])) && !HasUuidOrgId(body) ==>
      MatrixRequestOf(pathname, Some(body)) == MatrixRejected(Response(400, "org_id (UUID) is required"))
  {
  }

  /**
   * The id to submit: the route parameter when present, otherwise the last
   * path segment, or the one before it when the last is "submit".
   */
  function SubmitId(param: Option<string>, pathname: string): (r: Option<string>)
    ensures param.Some? && param.value != "" ==> r == param
    ensures r.Some? ==> r.value != ""
  {
    if param.Some? && param.value != "" then param
    else
      var segs := PathSegments(pathname);
      if |segs| == 0 then None
      else
        var last := segs[|segs| - 1];
        if last != "submit" then Some(last)
        else if |segs| >= 2 then Some(segs[|segs| - 2])
        else None
  }

  /** Without a parameter, a path ending in ID/submit and a path ending in ID both name ID. */
  lemma SubmitIdFromPath(pathname: string, before: seq<string>, id: string)
    requires id != "submit"
    requires PathSegments(pathname) == before + [id] || PathSegments(pathname) == before + [id, "submit"]
    ensures SubmitId(None, pathname) == Some(id)
  {
    var segs := PathSegments(pathname);
    if segs == before + [id, "submit"] {
      assert segs[|segs| - 2] == id;
    }
  }
}

=== FILE: evaluation_workout.dfy ===
/**
 * Workout progress of an athlete within an evaluation: the repetition
 * counter that rolls over into the next level, and the drill list of the
 * current level.
 */
module EvaluationWorkout {
  import opened Wrappers
  import opened Json

  /** An `evaluation_workout_progress` row joined with its organization (an object or a one-element array). */
  datatype ProgressRow = ProgressRow(id: string, progress: Option<Json>, level: Option<Json>, organizations: Option<Json>)

  /** The counter after one repetition. */
  datatype Advanced = Advanced(progress: real, level: real, maxWorkoutReps: real)

  /** `organization?.maxWorkoutReps`, the organization being the first element when the join is an array. */
  function MaxRepsField(organizations: Option<Json>): (r: Option<Json>)
    ensures organizations.Some? && organizations.value.JObj? ==> r == Get(organizations.value, "maxWorkoutReps")
    ensures organizations.None? ==> r.None?
  {
    match organizations
    case None => None
    case Some(JArr(orgs)) => if |orgs| == 0 then None else Get(orgs[0], "maxWorkoutReps")
    case Some(org) => Get(org, "maxWorkoutReps")
  }

  /** `Number.isFinite(Number(v)) ? Number(v) : 0`. */
  function CountOf(v: Option<Json>, parse: string -> Num): (r: real)
    ensures ToNumber(v, parse).Finite? ==> r == ToNumber(v, parse).r
    ensures !ToNumber(v, parse).Finite? ==> r == 0.0
  {
    var n := ToNumber(v, parse);
    if n.Finite? then n.r else 0.0
  }

  /** The counter after one repetition: progress + 1, rolling over to 0 and the next level on reaching `max`. */
  function Advance(progress: real, level: real, max: real): Advanced {
    if progress + 1.0 >= max then Advanced(0.0, level + 1.0, max)
    else Advanced(progress + 1.0, level, max)
  }

  /** A usable repetition limit: finite and positive. */
  predicate PositiveLimit(max: Num) {
    max.Finite? && max.r > 0.0
  }

  /**
   * Reads the progress row and computes the next counter; the update of the
   * row itself is the database's.
   */
  method IncrementWorkoutProgress(row: Option<ProgressRow>, parse: string -> Num) returns (r: Result<Advanced>)
    ensures row.None? || row.value.id == "" ==> r == Err("Workout progress not found")
    ensures row.Some? && row.value.id != "" && !PositiveLimit(ToNumber(MaxRepsField(row.value.organizations), parse)) ==>
      r == Err("maxWorkoutReps must be a positive number")
    ensures row.Some? && row.value.id != "" && PositiveLimit(ToNumber(MaxRepsField(row.value.organizations), parse)) ==>
      r == Ok(Advance(CountOf(row.value.progress, parse), CountOf(row.value.level, parse), ToNumber(MaxRepsField(row.value.organizations), parse).r))
  {
    if row.None? || row.value.id == "" {
      return Err("Workout progress not found");
    }
    var maxWorkoutReps := ToNumber(MaxRepsField(row.value.organizations), parse);
    if !maxWorkoutReps.Finite? || maxWorkoutReps.r <= 0.0 {
      return Err("maxWorkoutReps must be a positive number");
    }
    var progressValue := CountOf(row.value.progress, parse);
    var levelValue := CountOf(row.value.level, parse);
    var nextProgress := progressValue + 1.0;
    var nextLevel := levelValue;
    if nextProgress >= maxWorkoutReps.r {
      nextProgress := 0.0;
      nextLevel := levelValue + 1.0;
    }
    r := Ok(Advanced(nextProgress, nextLevel, maxWorkoutReps.r));
  }

  /** The new progress is below the limit, the level never decreases and rises by at most one. */
  lemma AdvanceBounds(progress: real, level: real, max: real)
    requires max > 0.0
    ensures Advance(progress, level, max).progress < max
    ensures level <= Advance(progress, level, max).level <= level + 1.0
    ensures Advance(progress, level, max).level == level + 1.0 <==> progress + 1.0 >= max
  {
  }

  /** `level * max + progress` as a whole number of repetitions. */
  function Total(a: Advanced): real {
    a.level * a.maxWorkoutReps + a.progress
  }

  /**
   * With a whole-number limit and a progress in range, each repetition adds
   * exactly one to `level * max + progress`: the counter is a mixed-radix count.
   */
  lemma AdvanceCountsOne(progress: int, level: int, max: int)
    requires max > 0 && 0 <= progress < max
    ensures var a := Advance(progress as real, level as real, max as real);
      Total(a) == (level * max + progress + 1) as real
      && 0.0 <= a.progress
  {
    var a := Advance(progress as real, level as real, max as real);
    if progress + 1 >= max {
      assert progress + 1 == max;
      assert Total(a) == (level as real + 1.0) * (max as real);
    }
  }

  /** Starting in range, the counter stays in range. */
  lemma AdvanceStaysInRange(progress: real, level: real, max: real)
    requires max > 0.0 && 0.0 <= progress < max
    ensures 0.0 <= Advance(progress, level, max).progress < max
  {
  }

  // ---------------------------------------------------------------------------
  // The drill list of the current level

  /** An `evaluation_workout_drills` row of the current level. */
  datatype DrillRow = DrillRow(drillId: Option<Json>)

  /** A `drill_media` row, in `sort_order` ascending. */
  datatype MediaRow = MediaRow(drillId: string, title: Option<Json>, thumbnailUrl: Option<Json>)

  datatype Media = Media(title: string, thumbnailUrl: Json)

  datatype DrillVideo = DrillVideo(id: string, title: string, duration: string, thumbnailUrl: Json)

  datatype DrillLevel = DrillLevel(level: real, title: string, targetReps: Option<real>, drills: seq<DrillVideo>)

  /** The media summary of one row: a non-string title becomes "", a missing thumbnail `null`. */
  function MediaOf(m: MediaRow): Media {
    Media(if m.title.Some? && m.title.value.JStr? then m.title.value.s else "",
          if m.thumbnailUrl.Some? then m.thumbnailUrl.value else JNull)
  }

  /** The first media row of each drill. */
  function FirstMedia(media: seq<MediaRow>): map<string, Media>
    decreases |media|
  {
    if |media| == 0 then map[]
    else
      var m := FirstMedia(media[..|media| - 1]);
      var last := media[|media| - 1];
      if last.drillId == "" || last.drillId in m then m
      else m[last.drillId := MediaOf(last)]
  }

  /** A drill has media iff some row names it, and its media comes from the first such row. */
  lemma {:induction false} FirstMediaIsFirst(media: seq<MediaRow>, id: string)
    requires id != ""
    ensures id in FirstMedia(media) <==> exists i :: 0 <= i < |media| && media[i].drillId == id
    ensures id in FirstMedia(media) ==> exists i ::
      && 0 <= i < |media| && media[i].drillId == id
      && FirstMedia(media)[id] == MediaOf(media[i])
      && forall j :: 0 <= j < i ==> media[j].drillId != id
    decreases |media|
  {
    if |media| > 0 {
      var n := |media| - 1;
      var prefix := media[..n];
      FirstMediaIsFirst(prefix, id);
      assert forall j :: 0 <= j < n ==> media[j] == prefix[j];
      if id in FirstMedia(prefix) {
        var i :| 0 <= i < |prefix| && prefix[i].drillId == id && FirstMedia(prefix)[id] == MediaOf(prefix[i])
          && forall j :: 0 <= j < i ==> prefix[j].drillId != id;
        assert FirstMedia(media)[id] == MediaOf(media[i]);
      } else if media[n].drillId == id {
        assert FirstMedia(media)[id] == MediaOf(media[n]);
      } else {
        assert forall j :: 0 <= j < |media| ==> media[j].drillId != id;
      }
    }
  }

  /** The drill ids of the rows, in row order, keeping only non-empty strings. */
  function DrillIds(rows: seq<DrillRow>): (ids: seq<string>)
    ensures |ids| <= |rows|
    ensures forall j :: 0 <= j < |ids| ==> ids[j] != ""
    decreases |rows|
  {
    if |rows| == 0 then []
    else
      var ids := DrillIds(rows[..|rows| - 1]);
      var id := rows[|rows| - 1].drillId;
      if id.Some? && id.value.JStr? && id.value.s != "" then ids + [id.value.s] else ids
  }

  /** The video entry of a drill: its first media's title and thumbnail, a fixed duration of "30". */
  function VideoOf(id: string, byDrill: map<string, Media>): DrillVideo {
    if id in byDrill then DrillVideo(id, byDrill[id].title, "30", byDrill[id].thumbnailUrl)
    else DrillVideo(id, "", "30", JNull)
  }

  /**
   * The drills of the current level: nothing without a numeric level or
   * without drill rows; otherwise one level, titled by `levelText`, whose
   * drills follow the rows.
   */
  method WorkoutDrills(level: Option<Json>, progress: Option<Json>, rows: seq<DrillRow>, media: seq<MediaRow>,
                       levelText: real -> string)
    returns (data: seq<DrillLevel>, count: nat)
    ensures (level.None? || !level.value.JNum? || rows == []) ==> data == [] && count == 0
    ensures level.Some? && level.value.JNum? && rows != [] ==>
      && count == 1 && |data| == 1
      && data[0].level == level.value.n
      && data[0].title == "Level " + levelText(level.value.n)
      && data[0].targetReps == (if progress.Some? && progress.value.JNum? then Some(progress.value.n) else None)
      && |data[0].drills| == |DrillIds(rows)|
      && forall j :: 0 <= j < |data[0].drills| ==> data[0].drills[j] == VideoOf(DrillIds(rows)[j], FirstMedia(media))
  {
    if level.None? || !level.value.JNum? || rows == [] {
      return [], 0;
    }
    var byDrill: map<string, Media> := map[];
    var i := 0;
    while i < |media|
      invariant 0 <= i <= |media|
      invariant byDrill == FirstMedia(media[..i])
    {
      assert media[..i + 1][..i] == media[..i];
      var id := media[i].drillId;
      if id != "" && id !in byDrill {
        byDrill := byDrill[id := MediaOf(media[i])];
      }
      i := i + 1;
    }
    assert media[..i] == media;
    var drills: seq<DrillVideo> := [];
    var k := 0;
    while k < |rows|
      invariant 0 <= k <= |rows|
      invariant |drills| == |DrillIds(rows[..k])|
      invariant forall j :: 0 <= j < |drills| ==> drills[j] == VideoOf(DrillIds(rows[..k])[j], byDrill)
    {
      assert rows[..k + 1][..k] == rows[..k];
      var id := rows[k].drillId;
      if id.Some? && id.value.JStr? && id.value.s != "" {
        drills := drills + [VideoOf(id.value.s, byDrill)];
      }
      k := k + 1;
    }
    assert rows[..k] == rows;
    var targetReps := if progress.Some? && progress.value.JNum? then Some(progress.value.n) else None;
    data := [DrillLevel(level.value.n, "Level " + levelText(level.value.n), targetReps, drills)];
    count := 1;
  }

  /** The listed drill entries name exactly the rows' non-empty string drill ids. */
  lemma {:induction false} DrillIdsMembers(rows: seq<DrillRow>, id: string)
    ensures id in DrillIds(rows) <==> id != "" && exists i :: 0 <= i < |rows| && rows[i].drillId == Some(JStr(id))
    decreases |rows|
  {
    if |rows| > 0 {
      var prefix := rows[..|rows| - 1];
      DrillIdsMembers(prefix, id);
      assert forall j :: 0 <= j < |rows| - 1 ==> rows[j] == prefix[j];
      if id in DrillIds(rows) && id !in DrillIds(prefix) {
        assert rows[|rows| - 1].drillId == Some(JStr(id));
      }
    }
  }
}

=== FILE: guards.dfy ===
/**
 * The route guards of `utils/guards.ts`. Each guard is a middleware: it
 * answers with an error response, or passes (null); on the success paths that
 * check an org role it first records the org and the role in the context.
 *
 * Every guard is modelled twice: as a decision function over its inputs,
 * whose outcome says whether it rejects, passes, or grants an org role, and as
 * a method that takes the same branches over the mutable `RequestContext`
 * and is proved to answer and to update the context exactly as the decision
 * says. The request's query parameter and parsed JSON body are inputs (a body
 * that is not JSON is `null`), and so are the plan and membership lookups.
 */
module Guards {
  import opened Wrappers
  import opened Text
  import opened Json
  import opened Uuid
  import opened Context
  import opened Auth
  import Paths

  /** What a guard decides: answer with a response, pass untouched, or pass after granting an org role. */
  datatype Outcome = Reject(response: Response) | Pass | Grant(orgId: string, role: OrgRole)

  /** The middleware's return value. */
  function ResponseOf(o: Outcome): (r: Option<Response>)
    ensures r.Some? <==> o.Reject?
  {
    if o.Reject? then Some(o.response) else None
  }

  /** The context after the guard: only a grant writes, and only `org_id` and `org_role`. */
  function AfterGuard(c: Ctx, o: Outcome): (r: Ctx)
    ensures r.user == c.user
    ensures o.Grant? ==> r.orgId == Some(o.orgId) && r.orgRole == Some(o.role)
    ensures !o.Grant? ==> r == c
  {
    if o.Grant? then c.(orgId := Some(o.orgId), orgRole := Some(o.role)) else c
  }

  const Unauthorized := Response(401, "Unauthorized")
  const Forbidden := Response(403, "Forbidden")

  /** The org role check common to the guards: grant the role, or answer with the 403. */
  function Check(memberships: Memberships, userId: string, orgId: string, allowed: seq<OrgRole>): (o: Outcome)
    ensures o.Grant? <==> RequireOrgRole(memberships, userId, orgId, allowed).Granted?
    ensures o.Grant? ==> o == Grant(orgId, RequireOrgRole(memberships, userId, orgId, allowed).role)
    ensures o.Reject? ==> o.response.status == 403
  {
    var access := RequireOrgRole(memberships, userId, orgId, allowed);
    if access.Denied? then Reject(access.response) else Grant(orgId, access.role)
  }

  // ---------------------------------------------------------------- org role from the query

  /** `orgRoleGuardFromQuery`: the trimmed parameter must be a UUID (400), then a user is needed (401), then the role. */
  function FromQuery(paramName: string, allowed: seq<OrgRole>, param: Option<string>, user: Option<User>, memberships: Memberships): (o: Outcome)
    ensures !MatchesUuid(Trim(param.GetOr(""))) ==> o == Reject(Response(400, paramName + " (UUID) is required"))
    ensures MatchesUuid(Trim(param.GetOr(""))) && user.None? ==> o == Reject(Unauthorized)
    ensures o.Grant? <==> MatchesUuid(Trim(param.GetOr(""))) && user.Some?
                          && RequireOrgRole(memberships, user.value.id, Trim(param.GetOr("")), allowed).Granted?
    ensures o.Grant? ==> o.orgId == Trim(param.GetOr(""))
    ensures !o.Pass?
  {
    var orgId := Trim(param.GetOr(""));
    if !MatchesUuid(orgId) then Reject(Response(400, paramName + " (UUID) is required"))
    else if user.None? then Reject(Unauthorized)
    else Check(memberships, user.value.id, orgId, allowed)
  }

  method OrgRoleGuardFromQuery(ctx: RequestContext, paramName: string, allowed: seq<OrgRole>, param: Option<string>, memberships: Memberships)
    returns (response: Option<Response>)
    modifies ctx
    ensures response == ResponseOf(FromQuery(paramName, allowed, param, old(ctx.user), memberships))
    ensures ctx.State() == AfterGuard(old(ctx.State()), FromQuery(paramName, allowed, param, old(ctx.user), memberships))
  {
    var orgId := Trim(param.GetOr(""));
    if !MatchesUuid(orgId) {
      return Some(Response(400, paramName + " (UUID) is required"));
    }
    if ctx.user.None? {
      return Some(Unauthorized);
    }
    var access := RequireOrgRole(memberships, ctx.user.value.id, orgId, allowed);
    if access.Denied? {
      return Some(access.response);
    }
    ctx.orgId := Some(orgId);
    ctx.orgRole := Some(access.role);
    response := None;
  }

  // ---------------------------------------------------------------- org role from the body

  /** A key that is absent or `null`. */
  predicate Nullish(v: Option<Json>) {
    v.None? || v == Some(JNull)
  }

  /** `typeof value === "string" && RE_UUID.test(value)`. */
  predicate UuidString(v: Option<Json>) {
    v.Some? && v.value.JStr? && MatchesUuid(v.value.s)
  }

  /**
   * `orgRoleGuardFromBody`: a body that is not an object is 400; an absent or
   * null key passes with `allowNull` or `optional` and is 400 otherwise; a
   * value that is not a UUID string is 400; then the user and the role.
   */
  function FromBody(key: string, allowed: seq<OrgRole>, allowNull: bool, optional: bool, raw: Json, user: Option<User>, memberships: Memberships): (o: Outcome)
    ensures !IsObject(raw) ==> o == Reject(Response(400, "Invalid JSON payload"))
    ensures o.Pass? <==> IsObject(raw) && Nullish(Get(raw, key)) && (allowNull || optional)
    ensures o.Grant? ==> Get(raw, key) == Some(JStr(o.orgId)) && MatchesUuid(o.orgId) && user.Some?
                         && RequireOrgRole(memberships, user.value.id, o.orgId, allowed) == Granted(o.role)
    ensures IsObject(raw) && !Nullish(Get(raw, key)) && !UuidString(Get(raw, key)) ==> o == Reject(Response(400, key + " (UUID) is required"))
    ensures IsObject(raw) && UuidString(Get(raw, key)) && user.None? ==> o == Reject(Unauthorized)
    ensures o.Grant? <==> IsObject(raw) && UuidString(Get(raw, key)) && user.Some?
                          && RequireOrgRole(memberships, user.value.id, Get(raw, key).value.s, allowed).Granted?
  {
    if !IsObject(raw) then Reject(Response(400, "Invalid JSON payload"))
    else
      var value := Get(raw, key);
      if Nullish(value) then
        if allowNull || optional then Pass else Reject(Response(400, key + " (UUID) is required"))
      else if !value.value.JStr? || !MatchesUuid(value.value.s) then Reject(Response(400, key + " (UUID) is required"))
      else if user.None? then Reject(Unauthorized)
      else Check(memberships, user.value.id, value.value.s, allowed)
  }

  method OrgRoleGuardFromBody(ctx: RequestContext, key: string, allowed: seq<OrgRole>, allowNull: bool, optional: bool, raw: Json, memberships: Memberships)
    returns (response: Option<Response>)
    modifies ctx
    ensures response == ResponseOf(FromBody(key, allowed, allowNull, optional, raw, old(ctx.user), memberships))
    ensures ctx.State() == AfterGuard(old(ctx.State()), FromBody(key, allowed, allowNull, optional, raw, old(ctx.user), memberships))
  {
    if !IsObject(raw) {
      return Some(Response(400, "Invalid JSON payload"));
    }
    var value := Get(raw, key);
    if value.None? || value == Some(JNull) {
      if allowNull || optional {
        return None;
      }
      return Some(Response(400, key + " (UUID) is required"));
    }
    if !value.value.JStr? || !MatchesUuid(value.value.s) {
      return Some(Response(400, key + " (UUID) is required"));
    }
    if ctx.user.None? {
      return Some(Unauthorized);
    }
    var access := RequireOrgRole(memberships, ctx.user.value.id, value.value.s, allowed);
    if access.Denied? {
      return Some(access.response);
    }
    ctx.orgId := Some(value.value.s);
    ctx.orgRole := Some(access.role);
    response := None;
  }

  // ---------------------------------------------------------------- one org for a bulk of evaluations

  /** `item?.org_id`, kept when it is a string that is not blank, and trimmed. */
  function OrgIdOf(item: Json): (r: Option<string>)
    ensures r.Some? ==> r.value != [] && AsString(Get(item, "org_id")).Some?
  {
    var v := AsString(Get(item, "org_id"));
    if v.Some? && Trim(v.value) != [] then Some(Trim(v.value)) else None
  }

  /** The trimmed, non-blank string org ids of the evaluations, in order (with repeats). */
  function OrgIds(items: seq<Json>): (ids: seq<string>)
    ensures forall x :: x in ids ==> x != []
    ensures |ids| <= |items|
  {
    if |items| == 0 then []
    else
      var first := OrgIdOf(items[0]);
      (if first.Some? then [first.value] else []) + OrgIds(items[1..])
  }

  /** Exactly one distinct value: the list is non-empty and repeats its first element. */
  predicate OneDistinct(ids: seq<string>) {
    |ids| > 0 && forall i :: 0 <= i < |ids| ==> ids[i] == ids[0]
  }

  /** `new Set(ids).size === 1` is exactly one distinct value. */
  lemma {:induction false} OneDistinctIffSingletonSet(ids: seq<string>)
    ensures OneDistinct(ids) <==> |set x | x in ids| == 1
  {
    var s := set x | x in ids;
    if OneDistinct(ids) {
      assert s == {ids[0]};
    } else if |ids| > 0 {
      var j :| 0 <= j < |ids| && ids[j] != ids[0];
      assert {ids[0], ids[j]} <= s;
      assert |{ids[0], ids[j]}| == 2;
      SubsetCard({ids[0], ids[j]}, s);
    } else {
      assert s == {};
    }
  }

  lemma SubsetCard<T>(a: set<T>, b: set<T>)
    requires a <= b
    ensures |a| <= |b|
  {
    assert b == a + (b - a);
  }

  /** The body is an object holding a non-empty `evaluations` array. */
  predicate HasEvaluations(raw: Json) {
    IsObject(raw) && var evs := Get(raw, "evaluations"); evs.Some? && evs.value.JArr? && |evs.value.items| > 0
  }

  /** The trimmed, non-blank string org ids of the body's evaluations. */
  function BodyOrgIds(raw: Json): seq<string>
    requires HasEvaluations(raw)
  {
    OrgIds(Get(raw, "evaluations").value.items)
  }

  /**
   * `evaluationBulkOrgGuard`: the body must hold a non-empty `evaluations`
   * array whose string org ids, trimmed and non-blank, are all the same one
   * UUID; then the user and the role.
   */
  function BulkOrg(allowed: seq<OrgRole>, raw: Json, user: Option<User>, memberships: Memberships): (o: Outcome)
    ensures !HasEvaluations(raw) ==> o == Reject(Response(400, "Body must contain an 'evaluations' array."))
    ensures HasEvaluations(raw) && !OneDistinct(BodyOrgIds(raw)) ==> o == Reject(Response(400, "All evaluations must share the same org_id."))
    ensures HasEvaluations(raw) && OneDistinct(BodyOrgIds(raw)) && !MatchesUuid(BodyOrgIds(raw)[0])
      ==> o == Reject(Response(400, "org_id (UUID) is required"))
    ensures HasEvaluations(raw) && OneDistinct(BodyOrgIds(raw)) && MatchesUuid(BodyOrgIds(raw)[0]) && user.None?
      ==> o == Reject(Unauthorized)
    ensures o.Grant? <==> HasEvaluations(raw) && OneDistinct(BodyOrgIds(raw)) && MatchesUuid(BodyOrgIds(raw)[0]) && user.Some?
                          && RequireOrgRole(memberships, user.value.id, BodyOrgIds(raw)[0], allowed).Granted?
    ensures o.Grant? ==> (var evs := Get(raw, "evaluations");
                          evs.Some? && evs.value.JArr? && |evs.value.items| > 0
                          && (set x | x in OrgIds(evs.value.items)) == {o.orgId} && MatchesUuid(o.orgId))
    ensures o.Grant? ==> user.Some? && RequireOrgRole(memberships, user.value.id, o.orgId, allowed) == Granted(o.role)
    ensures !o.Pass?
  {
    if !IsObject(raw) then Reject(Response(400, "Body must contain an 'evaluations' array."))
    else
      var evs := Get(raw, "evaluations");
      if evs.None? || !evs.value.JArr? || |evs.value.items| == 0 then
        Reject(Response(400, "Body must contain an 'evaluations' array."))
      else
        var ids := OrgIds(evs.value.items);
        if !OneDistinct(ids) then Reject(Response(400, "All evaluations must share the same org_id."))
        else if !MatchesUuid(ids[0]) then Reject(Response(400, "org_id (UUID) is required"))
        else if user.None? then Reject(Unauthorized)
        else
          assert (set x | x in ids) == {ids[0]};
          Check(memberships, user.value.id, ids[0], allowed)
  }

  method EvaluationBulkOrgGuard(ctx: RequestContext, allowed: seq<OrgRole>, raw: Json, memberships: Memberships)
    returns (response: Option<Response>)
    modifies ctx
    ensures response == ResponseOf(BulkOrg(allowed, raw, old(ctx.user), memberships))
    ensures ctx.State() == AfterGuard(old(ctx.State()), BulkOrg(allowed, raw, old(ctx.user), memberships))
  {
    if !IsObject(raw) {
      return Some(Response(400, "Body must contain an 'evaluations' array."));
    }
    var evaluations := Get(raw, "evaluations");
    if evaluations.None? || !evaluations.value.JArr? || |evaluations.value.items| == 0 {
      return Some(Response(400, "Body must contain an 'evaluations' array."));
    }
    var orgIds := OrgIds(evaluations.value.items);
    OneDistinctIffSingletonSet(orgIds);
    if |set x | x in orgIds| != 1 {
      return Some(Response(400, "All evaluations must share the same org_id."));
    }
    var orgId := orgIds[0];
    if !MatchesUuid(orgId) {
      return Some(Response(400, "org_id (UUID) is required"));
    }
    if ctx.user.None? {
      return Some(Unauthorized);
    }
    var access := RequireOrgRole(memberships, ctx.user.value.id, orgId, allowed);
    if access.Denied? {
      return Some(access.response);
    }
    ctx.orgId := Some(orgId);
    ctx.orgRole := Some(access.role);
    response := None;
  }

  // ---------------------------------------------------------------- the user named in the query

  /**
   * `userQueryGuard`: a blank parameter passes only with `allowMissing`; a
   * present one must be a UUID (400), a user is needed (401), and the two ids
   * must be equal (403). It never writes the context.
   */
  function UserQuery(paramName: string, allowMissing: bool, param: Option<string>, user: Option<User>): (o: Outcome)
    ensures o.Pass? <==> var p := Trim(param.GetOr(""));
                         (p == [] && allowMissing) || (p != [] && MatchesUuid(p) && user.Some? && user.value.id == p)
    ensures !o.Grant?
  {
    var p := Trim(param.GetOr(""));
    if p == [] then
      if allowMissing then Pass else Reject(Response(400, paramName + " (UUID) is required"))
    else if !MatchesUuid(p) then Reject(Response(400, paramName + " (UUID) is required"))
    else if user.None? then Reject(Unauthorized)
    else if p != user.value.id then Reject(Forbidden)
    else Pass
  }

  method UserQueryGuard(ctx: RequestContext, paramName: string, allowMissing: bool, param: Option<string>)
    returns (response: Option<Response>)
    ensures response == ResponseOf(UserQuery(paramName, allowMissing, param, ctx.user))
  {
    var user := ctx.user;
    var userIdParam := Trim(param.GetOr(""));
    if userIdParam == [] {
      return if allowMissing then None else Some(Response(400, paramName + " (UUID) is required"));
    }
    var isUuid := MatchesUuid(userIdParam);
    if !isUuid {
      return Some(Response(400, paramName + " (UUID) is required"));
    }
    if user.None? {
      return Some(Unauthorized);
    }
    if userIdParam != user.value.id {
      return Some(Forbidden);
    }
    response := None;
  }

  // ---------------------------------------------------------------- plans

  /** A lookup that can fail, find nothing, or find a value. */
  datatype Fetch<T> = Failed(error: string) | Missing | Found(value: T)

  /** The `org_id` and `owner_user_id` of a plan, as `getPlanAccess` returns them. */
  datatype PlanAccess = PlanAccess(orgId: Option<string>, ownerUserId: Option<string>)

  /** The lookups the plan guards make. */
  type PlanLookup = string -> Fetch<PlanAccess>
  type MemberLookup = (string, string) -> Result<bool>

  /** A truthy string: present and not "". */
  predicate Filled(s: Option<string>) {
    s.Some? && s.value != []
  }

  function PlanIdOf(params: Paths.Params): string {
    if "id" in params then params["id"] else ""
  }

  /** The checks both plan guards make before looking at access. */
  function PlanPreamble(params: Paths.Params, ctxOrg: Option<string>, user: Option<User>, plans: PlanLookup): (r: Option<Response>)
    ensures r.None? ==> MatchesUuid(PlanIdOf(params)) && user.Some? && plans(PlanIdOf(params)).Found?
  {
    var planId := PlanIdOf(params);
    if !MatchesUuid(planId) then Some(Response(400, "id (UUID) is required"))
    else if user.None? then Some(Unauthorized)
    else
      var plan := plans(planId);
      if plan.Failed? then Some(Response(500, plan.error))
      else if plan.Missing? then Some(Response(404, "Plan not found"))
      else if Filled(ctxOrg) && Filled(plan.value.orgId) && ctxOrg != plan.value.orgId then Some(Forbidden)
      else None
  }

  /**
   * `planReadGuard`: after the preamble (400, 401, 500, 404, then 403 for a
   * context org that is not the plan's), the owner passes, then a plan
   * member, then a coach (or owner/admin) of the plan's org, who is granted
   * that role; anyone else is 403.
   */
  function PlanRead(params: Paths.Params, ctxOrg: Option<string>, user: Option<User>, plans: PlanLookup, members: MemberLookup, memberships: Memberships): (o: Outcome)
    ensures PlanPreamble(params, ctxOrg, user, plans).Some? ==> o == Reject(PlanPreamble(params, ctxOrg, user, plans).value)
    ensures o.Pass? ==> PlanPreamble(params, ctxOrg, user, plans).None?
                        && var plan := plans(PlanIdOf(params)).value;
                        (plan.ownerUserId == Some(user.value.id) || members(PlanIdOf(params), user.value.id) == Ok(true))
    ensures o.Grant? ==> PlanPreamble(params, ctxOrg, user, plans).None?
                         && var plan := plans(PlanIdOf(params)).value;
                         Filled(plan.orgId) && o.orgId == plan.orgId.value
                         && RequireOrgRole(memberships, user.value.id, o.orgId, [Coach]) == Granted(o.role)
    ensures PlanPreamble(params, ctxOrg, user, plans).None? ==>
      var plan, uid := plans(PlanIdOf(params)).value, user.value.id;
      var member := members(PlanIdOf(params), uid);
      && (plan.ownerUserId == Some(uid) ==> o == Pass)
      && (plan.ownerUserId != Some(uid) && member == Ok(true) ==> o == Pass)
      && (plan.ownerUserId != Some(uid) && member.Err? ==> o == Reject(Response(500, member.msg)))
      && (plan.ownerUserId != Some(uid) && member == Ok(false) && Filled(plan.orgId)
          ==> o == Check(memberships, uid, plan.orgId.value, [Coach]))
      && (plan.ownerUserId != Some(uid) && member == Ok(false) && !Filled(plan.orgId) ==> o == Reject(Forbidden))
  {
    var pre := PlanPreamble(params, ctxOrg, user, plans);
    if pre.Some? then Reject(pre.value)
    else
      var planId, userId := PlanIdOf(params), user.value.id;
      var plan := plans(planId).value;
      if plan.ownerUserId == Some(userId) then Pass
      else
        var member := members(planId, userId);
        if member.Err? then Reject(Response(500, member.msg))
        else if member.value then Pass
        else if Filled(plan.orgId) then Check(memberships, userId, plan.orgId.value, [Coach])
        else Reject(Forbidden)
  }

  /** `planWriteGuard`: the read guard without the plan-member branch. */
  function PlanWrite(params: Paths.Params, ctxOrg: Option<string>, user: Option<User>, plans: PlanLookup, memberships: Memberships): (o: Outcome)
    ensures PlanPreamble(params, ctxOrg, user, plans).Some? ==> o == Reject(PlanPreamble(params, ctxOrg, user, plans).value)
    ensures o.Pass? ==> PlanPreamble(params, ctxOrg, user, plans).None?
                        && plans(PlanIdOf(params)).value.ownerUserId == Some(user.value.id)
    ensures o.Grant? ==> PlanPreamble(params, ctxOrg, user, plans).None?
                         && var plan := plans(PlanIdOf(params)).value;
                         Filled(plan.orgId) && o.orgId == plan.orgId.value
                         && RequireOrgRole(memberships, user.value.id, o.orgId, [Coach]) == Granted(o.role)
    ensures PlanPreamble(params, ctxOrg, user, plans).None? ==>
      var plan, uid := plans(PlanIdOf(params)).value, user.value.id;
      && (plan.ownerUserId == Some(uid) ==> o == Pass)
      && (plan.ownerUserId != Some(uid) && Filled(plan.orgId) ==> o == Check(memberships, uid, plan.orgId.value, [Coach]))
      && (plan.ownerUserId != Some(uid) && !Filled(plan.orgId) ==> o == Reject(Forbidden))
  {
    var pre := PlanPreamble(params, ctxOrg, user, plans);
    if pre.Some? then Reject(pre.value)
    else
      var userId := user.value.id;
      var plan := plans(PlanIdOf(params)).value;
      if plan.ownerUserId == Some(userId) then Pass
      else if Filled(plan.orgId) then Check(memberships, userId, plan.orgId.value, [Coach])
      else Reject(Forbidden)
  }

  /**
   * A plan member who is neither the owner nor a coach, owner or admin of the
   * plan's org may read the plan but not write it.
   */
  lemma MembersReadButDoNotWrite(params: Paths.Params, ctxOrg: Option<string>, user: Option<User>, plans: PlanLookup, members: MemberLookup, memberships: Memberships)
    requires PlanPreamble(params, ctxOrg, user, plans).None?
    requires plans(PlanIdOf(params)).value.ownerUserId != Some(user.value.id)
    requires members(PlanIdOf(params), user.value.id) == Ok(true)
    requires var org := plans(PlanIdOf(params)).value.orgId;
             Filled(org) ==> RequireOrgRole(memberships, user.value.id, org.value, [Coach]).Denied?
    ensures PlanRead(params, ctxOrg, user, plans, members, memberships) == Pass
    ensures PlanWrite(params, ctxOrg, user, plans, memberships).Reject?
  {
  }

  /** Whoever may write a plan may read it, with the same outcome. */
  lemma WriteImpliesRead(params: Paths.Params, ctxOrg: Option<string>, user: Option<User>, plans: PlanLookup, members: MemberLookup, memberships: Memberships)
    requires !PlanWrite(params, ctxOrg, user, plans, memberships).Reject?
    requires members(PlanIdOf(params), user.value.id) == Ok(false)
    ensures PlanRead(params, ctxOrg, user, plans, members, memberships) == PlanWrite(params, ctxOrg, user, plans, memberships)
  {
  }

  method PlanReadGuard(ctx: RequestContext, params: Paths.Params, plans: PlanLookup, members: MemberLookup, memberships: Memberships)
    returns (response: Option<Response>)
    modifies ctx
    ensures response == ResponseOf(PlanRead(params, old(ctx.orgId), old(ctx.user), plans, members, memberships))
    ensures ctx.State() == AfterGuard(old(ctx.State()), PlanRead(params, old(ctx.orgId), old(ctx.user), plans, members, memberships))
  {
    var planId := if "id" in params then params["id"] else "";
    if !MatchesUuid(planId) {
      return Some(Response(400, "id (UUID) is required"));
    }
    if ctx.user.None? {
      return Some(Unauthorized);
    }
    var userId := ctx.user.value.id;
    var data := plans(planId);
    if data.Failed? {
      return Some(Response(500, data.error));
    }
    if data.Missing? {
      return Some(Response(404, "Plan not found"));
    }
    var requestedOrgId := ctx.orgId;
    if Filled(requestedOrgId) && Filled(data.value.orgId) && requestedOrgId != data.value.orgId {
      return Some(Forbidden);
    }
    if data.value.ownerUserId == Some(userId) {
      return None;
    }
    var member := members(planId, userId);
    if member.Err? {
      return Some(Response(500, member.msg));
    }
    if member.value {
      return None;
    }
    if Filled(data.value.orgId) {
      var access := RequireOrgRole(memberships, userId, data.value.orgId.value, [Coach]);
      if access.Denied? {
        return Some(access.response);
      }
      ctx.orgId := data.value.orgId;
      ctx.orgRole := Some(access.role);
      return None;
    }
    response := Some(Forbidden);
  }

  method PlanWriteGuard(ctx: RequestContext, params: Paths.Params, plans: PlanLookup, memberships: Memberships)
    returns (response: Option<Response>)
    modifies ctx
    ensures response == ResponseOf(PlanWrite(params, old(ctx.orgId), old(ctx.user), plans, memberships))
    ensures ctx.State() == AfterGuard(old(ctx.State()), PlanWrite(params, old(ctx.orgId), old(ctx.user), plans, memberships))
  {
    var planId := if "id" in params then params["id"] else "";
    if !MatchesUuid(planId) {
      return Some(Response(400, "id (UUID) is required"));
    }
    if ctx.user.None? {
      return Some(Unauthorized);
    }
    var userId := ctx.user.value.id;
    var data := plans(planId);
    if data.Failed? {
      return Some(Response(500, data.error));
    }
    if data.Missing? {
      return Some(Response(404, "Plan not found"));
    }
    var requestedOrgId := ctx.orgId;
    if Filled(requestedOrgId) && Filled(data.value.orgId) && requestedOrgId != data.value.orgId {
      return Some(Forbidden);
    }
    if data.value.ownerUserId == Some(userId) {
      return None;
    }
    if Filled(data.value.orgId) {
      var access := RequireOrgRole(memberships, userId, data.value.orgId.value, [Coach]);
      if access.Denied? {
        return Some(access.response);
      }
      ctx.orgId := data.value.orgId;
      ctx.orgRole := Some(access.role);
      return None;
    }
    response := Some(Forbidden);
  }

  /**
   * `planCreateGuard`: a personal plan (org_id absent, null or "") passes with
   * no role check; an org plan needs a UUID org_id and a coach (or
   * owner/admin) role there.
   */
  function PlanCreate(raw: Json, user: Option<User>, memberships: Memberships): (o: Outcome)
    ensures !IsObject(raw) ==> o == Reject(Response(400, "Invalid JSON payload"))
    ensures o.Pass? <==> IsObject(raw) && (Nullish(Get(raw, "org_id")) || Get(raw, "org_id") == Some(JStr("")))
    ensures o.Grant? ==> Get(raw, "org_id") == Some(JStr(o.orgId)) && MatchesUuid(o.orgId) && user.Some?
                         && RequireOrgRole(memberships, user.value.id, o.orgId, [Coach]) == Granted(o.role)
    ensures IsObject(raw) && !Nullish(Get(raw, "org_id")) && Get(raw, "org_id") != Some(JStr("")) && !UuidString(Get(raw, "org_id"))
            ==> o == Reject(Response(400, "org_id (UUID) is required"))
    ensures IsObject(raw) && UuidString(Get(raw, "org_id")) && user.None? ==> o == Reject(Unauthorized)
    ensures IsObject(raw) && UuidString(Get(raw, "org_id")) && user.Some?
            ==> o == Check(memberships, user.value.id, Get(raw, "org_id").value.s, [Coach])
    ensures o.Grant? <==> IsObject(raw) && UuidString(Get(raw, "org_id")) && user.Some?
                          && RequireOrgRole(memberships, user.value.id, Get(raw, "org_id").value.s, [Coach]).Granted?
  {
    if !IsObject(raw) then Reject(Response(400, "Invalid JSON payload"))
    else
      var value := Get(raw, "org_id");
      if Nullish(value) || value == Some(JStr("")) then Pass
      else if !value.value.JStr? || !MatchesUuid(value.value.s) then Reject(Response(400, "org_id (UUID) is required"))
      else if user.None? then Reject(Unauthorized)
      else Check(memberships, user.value.id, value.value.s, [Coach])
  }

  method PlanCreateGuard(ctx: RequestContext, raw: Json, memberships: Memberships)
    returns (response: Option<Response>)
    modifies ctx
    ensures response == ResponseOf(PlanCreate(raw, old(ctx.user), memberships))
    ensures ctx.State() == AfterGuard(old(ctx.State()), PlanCreate(raw, old(ctx.user), memberships))
  {
    if !IsObject(raw) {
      return Some(Response(400, "Invalid JSON payload"));
    }
    var value := Get(raw, "org_id");
    if value.None? || value == Some(JNull) || value == Some(JStr("")) {
      return None;
    }
    if !value.value.JStr? || !MatchesUuid(value.value.s) {
      return Some(Response(400, "org_id (UUID) is required"));
    }
    if ctx.user.None? {
      return Some(Unauthorized);
    }
    var access := RequireOrgRole(memberships, ctx.user.value.id, value.value.s, [Coach]);
    if access.Denied? {
      return Some(access.response);
    }
    ctx.orgId := Some(value.value.s);
    ctx.orgRole := Some(access.role);
    response := None;
  }
}

=== FILE: json.dfy ===
/**
 * Parsed JSON request bodies and row values as the handlers see them, with the
 * JavaScript notions they test: `undefined` (a missing key), truthiness,
 * `typeof … === "object"` and `Number(…)`.
 */
module Json {
  import opened Wrappers
  import opened Text

  /** A JSON value; numbers are kept exactly, as rationals. */
  datatype Json =
    | JNull
    | JBool(b: bool)
    | JNum(n: real)
    | JStr(s: string)
    | JArr(items: seq<Json>)
    | JObj(fields: map<string, Json>)

  /** `raw[key]`: `None` is `undefined`. Keys of arrays are not looked up. */
  function Get(v: Json, key: string): (r: Option<Json>)
    ensures r.Some? ==> v.JObj? && key in v.fields && r.value == v.fields[key]
    ensures v.JObj? && key in v.fields ==> r.Some?
  {
    if v.JObj? && key in v.fields then Some(v.fields[key]) else None
  }

  /** `a ?? b`: the first value unless it is `undefined` or `null`. */
  function OrElse(a: Option<Json>, b: Option<Json>): (r: Option<Json>)
    ensures a.Some? && a.value != JNull ==> r == a
    ensures a.None? || a == Some(JNull) ==> r == b
  {
    if a.Some? && a.value != JNull then a else b
  }

  /** `v ?? d`. */
  function OrDefault(v: Option<Json>, d: Json): (r: Json)
    ensures v.Some? && v.value != JNull ==> r == v.value
    ensures v.None? || v == Some(JNull) ==> r == d
  {
    OrElse(v, Some(d)).GetOr(d)
  }

  /** `v ?? null`. */
  function OrNull(v: Option<Json>): (r: Json)
    ensures v.Some? ==> r == v.value
    ensures v.None? ==> r == JNull
  {
    if v.Some? then v.value else JNull
  }

  /** `v?.[key]` for a value that may be missing. */
  function GetIn(v: Option<Json>, key: string): (r: Option<Json>)
    ensures v.None? ==> r.None?
    ensures v.Some? ==> r == Get(v.value, key)
  {
    if v.Some? then Get(v.value, key) else None
  }

  /** `(v ?? [])` used as a list: the elements of an array, none otherwise. */
  function ElementsOf(v: Option<Json>): (r: seq<Json>)
    ensures v.Some? && v.value.JArr? ==> r == v.value.items
  {
    if v.Some? && v.value.JArr? then v.value.items else []
  }

  /** `Boolean(v)` for a defined value. */
  predicate Truthy(v: Json) {
    match v
    case JNull => false
    case JBool(b) => b
    case JNum(n) => n != 0.0
    case JStr(s) => s != ""
    case _ => true
  }

  /** `typeof v === "object" && v !== null`: objects and arrays. */
  predicate IsObject(v: Json) {
    v.JObj? || v.JArr?
  }

  /** The string held by a defined value, if it is a string. */
  function AsString(v: Option<Json>): (r: Option<string>)
    ensures r.Some? <==> v.Some? && v.value.JStr?
  {
    if v.Some? && v.value.JStr? then Some(v.value.s) else None
  }

  /** The outcome of `Number(x)`: a finite value, ±Infinity, or NaN. */
  datatype Num = Finite(r: real) | Infinite(positive: bool) | NaN

  /** `Number.isFinite(n)`. */
  predicate IsFinite(n: Num) {
    n.Finite?
  }

  /**
   * `Number(x)`: `undefined` is NaN, `null` and `false` are 0, `true` is 1;
   * the text of a string is read by `parse`, which stands for JavaScript's
   * string-to-number grammar; a plain object is NaN. An array is read
   * through its text (`ArrayToNumber`).
   */
  function ToNumber(v: Option<Json>, parse: string -> Num): (r: Num)
    ensures v.Some? && v.value.JNum? ==> r == Finite(v.value.n)
    ensures v.None? ==> r == NaN
    ensures v == Some(JNull) ==> r == Finite(0.0)
    ensures v.Some? && v.value.JStr? ==> r == parse(v.value.s)
    ensures v.Some? && v.value.JObj? ==> r == NaN
  {
    match v
    case None => NaN
    case Some(JNull) => Finite(0.0)
    case Some(JBool(b)) => Finite(if b then 1.0 else 0.0)
    case Some(JNum(n)) => Finite(n)
    case Some(JStr(s)) => parse(s)
    case Some(JArr(items)) => ArrayToNumber(items, parse)
    case Some(JObj(_)) => NaN
  }

  /**
   * `Number(array)`: the array becomes its `String` (its elements joined by
   * ','), which is then read as a number. So `[]` and `[null]` read "", a
   * single element reads its own text (a number its own value, a nested
   * array recursively), and two or more elements give a text with a comma,
   * which is never a number.
   */
  function ArrayToNumber(items: seq<Json>, parse: string -> Num): (r: Num)
    ensures |items| == 0 ==> r == parse("")
    ensures |items| >= 2 ==> r == NaN
    ensures |items| == 1 && items[0].JNum? ==> r == Finite(items[0].n)
    ensures |items| == 1 && items[0].JStr? ==> r == parse(items[0].s)
    decreases JArr(items)
  {
    if |items| == 0 then parse("")
    else if |items| >= 2 then NaN
    else
      match items[0]
      case JNull => parse("")
      case JBool(b) => parse(if b then "true" else "false")
      case JNum(n) => Finite(n)
      case JStr(s) => parse(s)
      case JArr(inner) => ArrayToNumber(inner, parse)
      case JObj(_) => parse("[object Object]")
  }

  /**
   * `ArrayToNumber` is `Number(String(array))`, for any `parse` that reads
   * back the text `numText` gives every number and finds no number in a
   * text with a comma, as JavaScript's grammar does.
   */
  lemma {:induction false} ArrayNumberIsTextNumber(items: seq<Json>, parse: string -> Num, numText: real -> string)
    requires forall n :: parse(numText(n)) == Finite(n)
    requires forall t :: ',' in t ==> parse(t) == NaN
    ensures ArrayToNumber(items, parse) == parse(Stringify(JArr(items), numText))
    decreases JArr(items)
  {
    var parts := seq(|items|, i requires 0 <= i < |items| => if items[i] == JNull then "" else Stringify(items[i], numText));
    if |items| == 0 {
      assert Join(parts, ',') == "";
    } else if |items| == 1 {
      assert Join(parts, ',') == parts[0];
      if items[0].JArr? {
        ArrayNumberIsTextNumber(items[0].items, parse, numText);
      }
    } else {
      var t := Join(parts, ',');
      assert t == parts[0] + [','] + Join(parts[1..], ',');
      assert t[|parts[0]|] == ',';
    }
  }

  /**
   * `String(v)`: strings unchanged, `null`, booleans by name, numbers by
   * `numText`, arrays as their elements joined by ',' (`null` elements
   * empty), objects as "[object Object]".
   */
  function Stringify(v: Json, numText: real -> string): (r: string)
    ensures v.JStr? ==> r == v.s
    decreases v
  {
    match v
    case JNull => "null"
    case JBool(b) => if b then "true" else "false"
    case JNum(n) => numText(n)
    case JStr(s) => s
    case JArr(items) =>
      Join(seq(|items|, i requires 0 <= i < |items| => if items[i] == JNull then "" else Stringify(items[i], numText)), ',')
    case JObj(_) => "[object Object]"
  }
}

=== FILE: key_router.dfy ===
/**
 * The oldest router, `functions/api/router.ts`: handlers are stored in a map
 * under the exact key "METHOD path" (method upper-cased, the whole key
 * trimmed). There are no parameters and no slash normalisation.
 */
module KeyRouter {
  import opened Wrappers
  import opened Text
  import opened Context

  type HandlerId = nat

  /** `key(method, path)`: `` `${method.toUpperCase()} ${path || ""}`.trim() ``. */
  function Key(verb: string, path: string): string {
    Trim(Upper(verb) + " " + path)
  }

  /** The method is case-insensitive: methods with the same upper-case form give the same key. */
  lemma KeyIgnoresMethodCase(v1: string, v2: string, path: string)
    requires Upper(v1) == Upper(v2)
    ensures Key(v1, path) == Key(v2, path)
  {
  }

  /** The key is the upper-cased method, one space and the path, when neither carries white space at its outer end. */
  lemma KeyLayout(verb: string, path: string)
    requires Upper(verb) != [] && !IsSpace(Upper(verb)[0])
    requires path != [] && !IsSpace(path[|path| - 1])
    ensures Key(verb, path) == Upper(verb) + " " + path
  {
    var s := Upper(verb) + " " + path;
    TrimStartIdle(s);
    TrimEndIdle(s);
  }

  /** Matching is exact: two such paths share a key only when they are the same string, so "/drills" and "drills" differ. */
  lemma KeyExact(verb: string, p1: string, p2: string)
    requires Upper(verb) != [] && !IsSpace(Upper(verb)[0])
    requires p1 != [] && !IsSpace(p1[|p1| - 1])
    requires p2 != [] && !IsSpace(p2[|p2| - 1])
    requires Key(verb, p1) == Key(verb, p2)
    ensures p1 == p2
  {
    KeyLayout(verb, p1);
    KeyLayout(verb, p2);
    var n := |Upper(verb) + " "|;
    assert p1 == (Upper(verb) + " " + p1)[n..];
    assert p2 == (Upper(verb) + " " + p2)[n..];
  }

  /** What the handler behind an identity answers. */
  type KeyHandlerFn = HandlerId -> Response

  class Router {
    var table: map<string, HandlerId>

    constructor ()
      ensures table == map[]
    {
      table := map[];
    }

    /** `add`: `Map.set` under the key; an existing key gets the new handler, other keys are untouched. */
    method Add(verb: string, path: string, handler: HandlerId)
      modifies this
      ensures table == old(table)[Key(verb, path) := handler]
      ensures Key(verb, path) in table && table[Key(verb, path)] == handler
      ensures forall k :: k != Key(verb, path) ==> (k in table <==> k in old(table))
      ensures forall k :: k != Key(verb, path) && k in table ==> table[k] == old(table)[k]
    {
      var key := Key(verb, path);
      table := table[key := handler];
    }

    /** `handle`: the handler stored under the exact key answers; undefined when there is none. */
    method Handle(verb: string, path: string, h: KeyHandlerFn) returns (res: Option<Response>)
      ensures Key(verb, path) in table ==> res == Some(h(table[Key(verb, path)]))
      ensures Key(verb, path) !in table ==> res.None?
    {
      var key := Key(verb, path);
      if key !in table {
        return None;
      }
      res := Some(h(table[key]));
    }
  }
}

=== FILE: legacy_router.dfy ===
/**
 * The older segment router of `supabase/functions/api/routes/router.ts`. It
 * normalises and matches paths exactly as the newer router does (the same
 * `normalizePath` and `matchPath`, modelled once in `Paths`), but it has no
 * middlewares: a matched handler is called straight away with the bound
 * params. The CORS headers it merges into the handler's response leave the
 * status and body unchanged and are not modelled.
 */
module LegacyRouter {
  import opened Wrappers
  import opened Text
  import opened Paths
  import opened Context
  import PathRouter

  type HandlerId = nat

  /** A registered route; `path` is normalised and `verb` upper-cased. */
  datatype LegacyRoute = LegacyRoute(verb: string, path: string, handler: HandlerId)

  /** What the handler behind an identity answers for given params. */
  type LegacyHandlerFn = (HandlerId, Params) -> Response

  /** What trying one route does: a route of another method is skipped before `matchPath` runs. */
  function Outcome(r: LegacyRoute, verb: string, path: string, decode: Decoder): MatchResult {
    if r.verb != verb then Mismatch else MatchOf(Segments(r.path), Segments(path), decode)
  }

  /**
   * The first route that does not mismatch decides: a match answers with its
   * handler, a URIError from `decodeURIComponent` is thrown; null when every
   * route mismatches.
   */
  function Dispatch(routes: seq<LegacyRoute>, verb: string, path: string, decode: Decoder, h: LegacyHandlerFn): Result<Option<Response>>
    decreases |routes|
  {
    if |routes| == 0 then Ok(None)
    else
      match Outcome(routes[0], verb, path, decode)
      case Mismatch => Dispatch(routes[1..], verb, path, decode, h)
      case Malformed => Err(UriMalformed)
      case Match => Ok(Some(h(routes[0].handler, PathRouter.Bind(Segments(routes[0].path), Segments(path), decode))))
  }

  /** The route `use` registers for one child route. */
  function MountRoute(base: string, r: LegacyRoute): LegacyRoute {
    LegacyRoute(r.verb, MountPath(base, r.path), r.handler)
  }

  /** The routes `use` appends, one per child route in the child's order. */
  function Mounted(base: string, child: seq<LegacyRoute>): seq<LegacyRoute>
    decreases |child|
  {
    if |child| == 0 then [] else Mounted(base, child[..|child| - 1]) + [MountRoute(base, child[|child| - 1])]
  }

  lemma MountedStep(base: string, child: seq<LegacyRoute>, k: nat)
    requires k < |child|
    ensures Mounted(base, child[..k + 1]) == Mounted(base, child[..k]) + [MountRoute(base, child[k])]
  {
    assert child[..k + 1][..k] == child[..k];
  }

  /** The same route as a route of the newer router with no middlewares. */
  function AsPathRoute(r: LegacyRoute): PathRouter.RouteDef {
    PathRouter.RouteDef(r.verb, r.path, r.handler, [])
  }

  function AsPathRoutes(rs: seq<LegacyRoute>): (out: seq<PathRouter.RouteDef>)
    ensures |out| == |rs|
    ensures forall i :: 0 <= i < |rs| ==> out[i] == AsPathRoute(rs[i])
  {
    if |rs| == 0 then [] else [AsPathRoute(rs[0])] + AsPathRoutes(rs[1..])
  }

  /**
   * Dispatching here is dispatching in the newer router with empty middleware
   * lists, whatever its middlewares would do: the two routers agree on which
   * route answers and with which params.
   */
  lemma {:induction false} DispatchAsPathRouter(routes: seq<LegacyRoute>, verb: string, path: string, decode: Decoder, h: LegacyHandlerFn, mw: PathRouter.MiddlewareFn)
    ensures Dispatch(routes, verb, path, decode, h)
         == PathRouter.Dispatch(AsPathRoutes(routes), verb, path, decode, mw, (id: nat, p: Params, c: Ctx) => h(id, p))
    decreases |routes|
  {
    if |routes| > 0 {
      DispatchAsPathRouter(routes[1..], verb, path, decode, h, mw);
      assert AsPathRoutes(routes)[1..] == AsPathRoutes(routes[1..]);
    }
  }

  /** The first matching route answers, whatever the routes after it. */
  lemma {:induction false} DispatchFirstMatch(routes: seq<LegacyRoute>, verb: string, path: string, decode: Decoder, h: LegacyHandlerFn, k: nat)
    requires k < |routes| && Outcome(routes[k], verb, path, decode) == Match
    requires forall j :: 0 <= j < k ==> Outcome(routes[j], verb, path, decode) == Mismatch
    ensures Dispatch(routes, verb, path, decode, h)
         == Ok(Some(h(routes[k].handler, PathRouter.Bind(Segments(routes[k].path), Segments(path), decode))))
    decreases k
  {
    if k > 0 {
      DispatchFirstMatch(routes[1..], verb, path, decode, h, k - 1);
    }
  }

  /** Dispatch answers null exactly when every route mismatches. */
  lemma {:induction false} DispatchNone(routes: seq<LegacyRoute>, verb: string, path: string, decode: Decoder, h: LegacyHandlerFn)
    ensures Dispatch(routes, verb, path, decode, h) == Ok(None) <==> forall j :: 0 <= j < |routes| ==> Outcome(routes[j], verb, path, decode) == Mismatch
    decreases |routes|
  {
    if |routes| > 0 {
      DispatchNone(routes[1..], verb, path, decode, h);
      assert forall j :: 1 <= j < |routes| ==> routes[j] == routes[1..][j - 1];
    }
  }

  class Router {
    var routes: seq<LegacyRoute>

    constructor ()
      ensures routes == []
    {
      routes := [];
    }

    /** `add`: one route appended, method upper-cased and path normalised; earlier routes untouched. */
    method Add(verb: string, path: string, handler: HandlerId)
      modifies this
      ensures routes == old(routes) + [LegacyRoute(Upper(verb), NormalizePath(path), handler)]
    {
      var normalized := NormalizePath(path);
      routes := routes + [LegacyRoute(Upper(verb), normalized, handler)];
    }

    /** `use`: each child route, in order, under the normalised prefix; an empty child path becomes the prefix. */
    method Use(prefix: string, child: Router)
      modifies this
      ensures routes == old(routes) + Mounted(NormalizePath(prefix), old(child.routes))
    {
      var base := NormalizePath(prefix);
      var childRoutes := child.GetRoutes();
      var k := 0;
      while k < |childRoutes|
        invariant 0 <= k <= |childRoutes|
        invariant routes == old(routes) + Mounted(base, childRoutes[..k])
      {
        MountedStep(base, childRoutes, k);
        AppendAssoc(old(routes), Mounted(base, childRoutes[..k]), [MountRoute(base, childRoutes[k])]);
        routes := routes + [MountRoute(base, childRoutes[k])];
        k := k + 1;
      }
      assert childRoutes[..k] == childRoutes;
    }

    /** `getRoutes`: a copy of the route list. */
    method GetRoutes() returns (rs: seq<LegacyRoute>)
      ensures rs == routes
    {
      rs := routes;
    }

    /**
     * `handle`: OPTIONS answers 200 for any path; otherwise the first route
     * matching method and path answers through its handler, with fresh params
     * for each attempt, and null means nothing matched. A parameter segment
     * that does not decode throws out of `handle`.
     */
    method Handle(verb: string, path: string, decode: Decoder, h: LegacyHandlerFn)
      returns (res: Result<Option<Response>>)
      ensures Upper(verb) == "OPTIONS" ==> res == Ok(Some(PathRouter.Preflight))
      ensures Upper(verb) != "OPTIONS" ==> res == Dispatch(routes, Upper(verb), NormalizePath(path), decode, h)
    {
      var normalizedPath := NormalizePath(path);
      var upperMethod := Upper(verb);
      if upperMethod == "OPTIONS" {
        return Ok(Some(PathRouter.Preflight));
      }
      var i := 0;
      while i < |routes|
        invariant 0 <= i <= |routes|
        invariant Dispatch(routes, upperMethod, normalizedPath, decode, h)
          == Dispatch(routes[i..], upperMethod, normalizedPath, decode, h)
      {
        var route := routes[i];
        assert routes[i..][0] == route && routes[i..][1..] == routes[i + 1..];
        if route.verb != upperMethod {
          i := i + 1;
          continue;
        }
        var m, params, _ := MatchPath(route.path, normalizedPath, decode, map[]);
        if m == Malformed {
          return Err(UriMalformed);
        }
        if m == Mismatch {
          i := i + 1;
          continue;
        }
        return Ok(Some(h(route.handler, params)));
      }
      return Ok(None);
    }
  }
}

=== FILE: media_controllers.dfy ===
/**
 * The request-level rules of the drill and skill controllers: comma lists in
 * query strings, the upload checks, the paging and expiry clamps, the
 * media-type precedence and the unwrapping of a created drill.
 * `Number.parseInt(text, 10)` is the parameter `parseInt` (`None`: NaN).
 */
module MediaControllers {
  import opened Wrappers
  import opened Text
  import opened Json
  import Uuid

  // ---------------------------------------------------------------------------
  // parseCommaList

  /** `.map((s) => s.trim()).filter((s) => s && validator(s))`. */
  function Kept(pieces: seq<string>, valid: string -> bool): (r: seq<string>)
    ensures |r| <= |pieces|
  {
    if |pieces| == 0 then []
    else
      var t := Trim(pieces[0]);
      (if t != "" && valid(t) then [t] else []) + Kept(pieces[1..], valid)
  }

  /** `parseCommaList`: `[]` for a missing or empty value, else the kept pieces of the split. */
  function ParseCommaList(value: Option<string>, valid: string -> bool): seq<string> {
    if value.None? || value.value == "" then [] else Kept(Split(value.value, ','), valid)
  }

  /** A kept element is the non-empty, valid trim of some piece, and every such trim is kept. */
  lemma {:induction false} KeptMembers(pieces: seq<string>, valid: string -> bool, x: string)
    ensures x in Kept(pieces, valid) <==> x != "" && valid(x) && exists i :: 0 <= i < |pieces| && Trim(pieces[i]) == x
    decreases |pieces|
  {
    if |pieces| > 0 {
      KeptMembers(pieces[1..], valid, x);
      if exists i :: 0 <= i < |pieces| && Trim(pieces[i]) == x {
        var i :| 0 <= i < |pieces| && Trim(pieces[i]) == x;
        if i > 0 {
          assert pieces[1..][i - 1] == pieces[i];
        }
      }
      if exists i :: 0 <= i < |pieces| - 1 && Trim(pieces[1..][i]) == x {
        var i :| 0 <= i < |pieces| - 1 && Trim(pieces[1..][i]) == x;
        assert pieces[i + 1] == pieces[1..][i];
      }
    }
  }

  lemma {:induction false} KeptConcat(a: seq<string>, b: seq<string>, valid: string -> bool)
    ensures Kept(a + b, valid) == Kept(a, valid) + Kept(b, valid)
    decreases |a|
  {
    if |a| == 0 {
      assert a + b == b;
    } else {
      var t := Trim(a[0]);
      var head := if t != "" && valid(t) then [t] else [];
      assert (a + b)[0] == a[0];
      assert (a + b)[1..] == a[1..] + b;
      assert Kept(a + b, valid) == head + Kept(a[1..] + b, valid);
      KeptConcat(a[1..], b, valid);
      AppendAssoc(head, Kept(a[1..], valid), Kept(b, valid));
    }
  }

  /** Every element of a comma list is trimmed, non-empty and valid. */
  lemma CommaListElements(value: Option<string>, valid: string -> bool, x: string)
    ensures x in ParseCommaList(value, valid) ==> x != "" && valid(x) && Trim(x) == x
  {
    if value.Some? && value.value != "" {
      KeptMembers(Split(value.value, ','), valid, x);
      if x in ParseCommaList(value, valid) {
        var i :| 0 <= i < |Split(value.value, ',')| && Trim(Split(value.value, ',')[i]) == x;
        TrimIdempotent(Split(value.value, ',')[i]);
      }
    }
  }

  /**
   * The order of the pieces is kept: the list of `a + "," + b` is the list
   * of `a` followed by the list of `b`.
   */
  lemma CommaListConcat(a: string, b: string, valid: string -> bool)
    ensures ParseCommaList(Some(a + "," + b), valid) == ParseCommaList(Some(a), valid) + ParseCommaList(Some(b), valid)
  {
    assert a + "," + b == a + [','] + b;
    SplitConcat(a, b, ',');
    KeptConcat(Split(a, ','), Split(b, ','), valid);
    assert Split("", ',') == [""];
    assert Kept([""], valid) == [] by {
      assert Trim("") == "";
    }
    assert |a + "," + b| > 0;
  }

  // ---------------------------------------------------------------------------
  // Uploads

  /** `isUploadContentTypeValid`: the content type, lower-cased, must start with the media type's prefix. */
  function UploadContentTypeValid(mediaType: string, contentType: string): (ok: bool)
    ensures mediaType != "video" && mediaType != "image" && mediaType != "document" ==> ok
    ensures mediaType == "video" ==> (ok <==> StartsWith(Lower(contentType), "video/"))
    ensures mediaType == "image" ==> (ok <==> StartsWith(Lower(contentType), "image/"))
    ensures mediaType == "document" ==> (ok <==> StartsWith(Lower(contentType), "application/"))
  {
    var normalized := Lower(contentType);
    if mediaType == "video" then StartsWith(normalized, "video/")
    else if mediaType == "image" then StartsWith(normalized, "image/")
    else if mediaType == "document" then StartsWith(normalized, "application/")
    else true
  }

  /** The check ignores the case of the content type. */
  lemma UploadContentTypeCaseInsensitive(mediaType: string, contentType: string)
    ensures UploadContentTypeValid(mediaType, contentType) == UploadContentTypeValid(mediaType, Lower(contentType))
  {
    LowerIdempotent(contentType);
  }

  /**
   * The upload-URL checks after parsing: type "link" is refused before the
   * content type is looked at, then the content type must fit the type.
   */
  function UploadCheck(mediaType: string, contentType: string): (r: Result<()>)
    ensures mediaType == "link" ==> r == Err("type=link does not support uploads")
    ensures mediaType != "link" ==> (r.Ok? <==> UploadContentTypeValid(mediaType, contentType))
    ensures r.Err? && mediaType != "link" ==> r.msg == "content_type does not match media type '" + mediaType + "'"
  {
    if mediaType == "link" then Err("type=link does not support uploads")
    else if !UploadContentTypeValid(mediaType, contentType) then Err("content_type does not match media type '" + mediaType + "'")
    else Ok(())
  }

  /** `type ?? media_type ?? "video"` of the skill media handlers. */
  function MediaTypeOf(typeField: Option<string>, mediaTypeField: Option<string>): (t: string)
    ensures typeField.Some? ==> t == typeField.value
    ensures typeField.None? && mediaTypeField.Some? ==> t == mediaTypeField.value
    ensures typeField.None? && mediaTypeField.None? ==> t == "video"
  {
    if typeField.Some? then typeField.value else if mediaTypeField.Some? then mediaTypeField.value else "video"
  }

  /** A skill upload is refused as a link exactly when the chosen type is "link". */
  lemma SkillUploadLink(typeField: Option<string>, mediaTypeField: Option<string>, contentType: string)
    ensures UploadCheck(MediaTypeOf(typeField, mediaTypeField), contentType).Err? <==>
      (MediaTypeOf(typeField, mediaTypeField) == "link" || !UploadContentTypeValid(MediaTypeOf(typeField, mediaTypeField), contentType))
    ensures typeField == Some("link") ==> UploadCheck(MediaTypeOf(typeField, mediaTypeField), contentType) == Err("type=link does not support uploads")
    ensures typeField.None? && mediaTypeField.None? ==> UploadCheck(MediaTypeOf(typeField, mediaTypeField), contentType).Ok? == StartsWith(Lower(contentType), "video/")
  {
  }

  // ---------------------------------------------------------------------------
  // Query parameters

  /** `Math.min(Math.max(x, lo), hi)`. */
  function Clamp(x: int, lo: int, hi: int): (r: int)
    requires lo <= hi
    ensures lo <= r <= hi
    ensures lo <= x <= hi ==> r == x
    ensures x < lo ==> r == lo
    ensures x > hi ==> r == hi
  {
    if x < lo then lo else if x > hi then hi else x
  }

  /** The tag-list query of the drill controller. */
  datatype TagQuery = TagQuery(orgId: string, sportId: Option<string>, q: Option<string>, limit: Option<int>, offset: Option<int>)

  /**
   * `listDrillTagsController` before the service call: the organization must
   * be a UUID, a given sport must be one, `limit` is clamped to [1, 200] and
   * `offset` to at least 0, each left out when not a number.
   */
  function DrillTagQuery(orgParam: Option<string>, sportParam: Option<string>, qParam: Option<string>,
                         limitParam: Option<string>, offsetParam: Option<string>,
                         parseInt: string -> Option<int>): (r: Result<TagQuery>)
    ensures !Uuid.MatchesUuid(Trim(orgParam.GetOr(""))) ==> r == Err("org_id (UUID) is required")
    ensures Uuid.MatchesUuid(Trim(orgParam.GetOr(""))) && Trim(sportParam.GetOr("")) != "" && !Uuid.MatchesUuid(Trim(sportParam.GetOr("")))
      ==> r == Err("sport_id must be a UUID if provided")
    ensures r.Ok? ==> (r.value.limit.None? <==> parseInt(limitParam.GetOr("")).None?)
    ensures r.Ok? && r.value.limit.Some? ==> 1 <= r.value.limit.value <= 200
    ensures r.Ok? && r.value.offset.Some? ==> r.value.offset.value >= 0
    ensures r.Ok? ==> (r.value.sportId.Some? <==> Trim(sportParam.GetOr("")) != "")
    ensures r.Ok? ==> r.value.orgId == Trim(orgParam.GetOr("")) && Uuid.MatchesUuid(r.value.orgId)
    ensures r.Ok? ==> (r.value.offset.None? <==> parseInt(offsetParam.GetOr("")).None?)
  {
    var orgId := Trim(orgParam.GetOr(""));
    var sport := Trim(sportParam.GetOr(""));
    var q := Trim(qParam.GetOr(""));
    var rawLimit := parseInt(limitParam.GetOr(""));
    var rawOffset := parseInt(offsetParam.GetOr(""));
    if !Uuid.MatchesUuid(orgId) then Err("org_id (UUID) is required")
    else if sport != "" && !Uuid.MatchesUuid(sport) then Err("sport_id must be a UUID if provided")
    else Ok(TagQuery(orgId,
      if sport != "" then Some(sport) else None,
      if q != "" then Some(q) else None,
      if rawLimit.Some? then Some(Clamp(rawLimit.value, 1, 200)) else None,
      if rawOffset.Some? then Some(if rawOffset.value < 0 then 0 else rawOffset.value) else None))
  }

  /**
   * `expires_in` of the skill playback handler: a missing or empty value, or
   * one that is not a number, gives 3600; a number is clamped to [60, 86400].
   */
  function ExpiresIn(raw: Option<string>, parseInt: string -> Option<int>): (seconds: int)
    ensures 60 <= seconds <= 86400
    ensures raw.None? || raw == Some("") ==> seconds == 3600
    ensures raw.Some? && raw.value != "" && parseInt(raw.value).None? ==> seconds == 3600
    ensures raw.Some? && raw.value != "" && parseInt(raw.value).Some? ==> seconds == Clamp(parseInt(raw.value).value, 60, 86400)
  {
    var parsed := if raw.Some? && raw.value != "" then parseInt(raw.value) else None;
    if parsed.Some? then Clamp(parsed.value, 60, 60 * 60 * 24) else 60 * 60
  }

  /** A requested expiry inside the window is used as is. */
  lemma ExpiresInWindow(raw: string, parseInt: string -> Option<int>)
    requires raw != "" && parseInt(raw).Some? && 60 <= parseInt(raw).value <= 86400
    ensures ExpiresIn(Some(raw), parseInt) == parseInt(raw).value
  {
  }

  // ---------------------------------------------------------------------------
  // Responses

  /** `Array.isArray(data) && data.length === 1 ? data[0] : data ?? null`. */
  function CreatedDrill(data: Option<Json>): (drill: Json)
    ensures data.Some? && data.value.JArr? && |data.value.items| == 1 ==> drill == data.value.items[0]
    ensures data.None? ==> drill == JNull
    ensures data.Some? && !(data.value.JArr? && |data.value.items| == 1) ==> drill == data.value
  {
    if data.Some? && data.value.JArr? && |data.value.items| == 1 then data.value.items[0] else OrNull(data)
  }

  /** `Object.values(parsed.data).some((v) => v !== undefined)`: parsed objects hold only defined values. */
  function HasUpdates(parsed: map<string, Json>): (b: bool)
    ensures b <==> exists k :: k in parsed
  {
    parsed != map[]
  }

  /** A skill update with no defined field is refused before anything else is checked. */
  function SkillUpdateCheck(parsed: map<string, Json>, orgId: string): (r: Result<string>)
    ensures !HasUpdates(parsed) ==> r == Err("No updates provided")
    ensures HasUpdates(parsed) ==> (r.Ok? <==> Uuid.MatchesUuid(Trim(orgId)))
    ensures r.Ok? ==> r.value == Trim(orgId)
  {
    if !HasUpdates(parsed) then Err("No updates provided")
    else if !Uuid.MatchesUuid(Trim(orgId)) then Err("org_id (UUID) is required")
    else Ok(Trim(orgId))
  }

  /** A service error whose message mentions "not found", in any case, answers 404. */
  function NotFoundStatus(message: string): (status: int)
    ensures status == 404 <==> Contains(Lower(message), "not found")
    ensures status == 404 || status == 500
  {
    if Contains(Lower(message), "not found") then 404 else 500
  }
}

=== FILE: media_paths.dfy ===
/**
 * Storage paths for uploaded drill and skill media: the file-name
 * sanitiser, the extension guess, the object path built for an upload, the
 * parser for Supabase storage-object URLs, the resolution of a stored media
 * reference to a (bucket, path) pair, and the sort order given to new media.
 *
 * `new URL(value)` is the parameter `urlPath`: the URL's pathname, or `None`
 * when the constructor throws. `crypto.randomUUID()` is the parameter `fileId`.
 */
module MediaPaths {
  import opened Wrappers
  import opened Text
  import opened Json

  // ---------------------------------------------------------------------
  // File names
  // ---------------------------------------------------------------------

  /** The separators of `/[\\/]/`. */
  predicate IsSlash(c: char) {
    c == '/' || c == '\\'
  }

  predicate IsAlnum(c: char) {
    'a' <= c <= 'z' || 'A' <= c <= 'Z' || '0' <= c <= '9'
  }

  /** The characters `[a-zA-Z0-9._-]` that survive sanitising. */
  predicate IsSafe(c: char) {
    IsAlnum(c) || c == '.' || c == '_' || c == '-'
  }

  predicate NoSlash(s: string) {
    forall i :: 0 <= i < |s| ==> !IsSlash(s[i])
  }

  /** `s.split(/[\\/]/).pop()`: the text after the last '/' or '\'. */
  function LastSegment(s: string): (r: string)
    ensures |r| <= |s| && r == s[|s| - |r|..]
    ensures forall i :: 0 <= i < |r| ==> !IsSlash(r[i])
    ensures |r| < |s| ==> IsSlash(s[|s| - |r| - 1])
    decreases |s|
  {
    if |s| == 0 || IsSlash(s[|s| - 1]) then "" else LastSegment(s[..|s| - 1]) + [s[|s| - 1]]
  }

  /**
   * What one character becomes under `replace(/[^a-zA-Z0-9._-]/g, "_")`:
   * itself when safe, else one '_' per UTF-16 code unit, since the pattern
   * has no `u` flag and so matches each half of a surrogate pair.
   */
  function Replacement(c: char): (r: string)
    ensures |r| == CodeUnits(c)
    ensures forall i :: 0 <= i < |r| ==> IsSafe(r[i])
    ensures IsSafe(c) ==> r == [c]
    ensures !IsSafe(c) ==> forall i :: 0 <= i < |r| ==> r[i] == '_'
  {
    if IsSafe(c) then [c] else seq(CodeUnits(c), _ => '_')
  }

  /** `s.replace(/[^a-zA-Z0-9._-]/g, "_")`: one code unit out for every code unit in, and a safe text is left alone. */
  function ReplaceUnsafe(s: string): (r: string)
    ensures |r| == Utf16Length(s)
    ensures forall i :: 0 <= i < |r| ==> IsSafe(r[i])
  {
    if s == [] then [] else ReplaceUnsafe(s[..|s| - 1]) + Replacement(s[|s| - 1])
  }

  /** A text made of safe characters is left alone. */
  lemma {:induction false} ReplaceUnsafeSafe(s: string)
    requires forall i :: 0 <= i < |s| ==> IsSafe(s[i])
    ensures ReplaceUnsafe(s) == s
    decreases |s|
  {
    if s != [] {
      var n := |s| - 1;
      assert s[..n] + [s[n]] == s;
      ReplaceUnsafeSafe(s[..n]);
    }
  }

  /** On text inside the Basic Multilingual Plane the replacement is character for character. */
  lemma {:induction false} ReplaceUnsafeBmp(s: string)
    requires forall i :: 0 <= i < |s| ==> s[i] as int < 0x1_0000
    ensures |ReplaceUnsafe(s)| == |s|
    ensures forall i :: 0 <= i < |s| ==> ReplaceUnsafe(s)[i] == if IsSafe(s[i]) then s[i] else '_'
    decreases |s|
  {
    if s != [] {
      var front, last := s[..|s| - 1], s[|s| - 1];
      assert forall i :: 0 <= i < |front| ==> front[i] == s[i];
      ReplaceUnsafeBmp(front);
      var r := Replacement(last);
      assert |r| == 1 && r[0] == if IsSafe(last) then last else '_';
      assert ReplaceUnsafe(s) == ReplaceUnsafe(front) + r;
    }
  }

  /**
   * `sanitizeFileName`: the trimmed name's last path segment with every
   * unsafe code unit replaced by '_', or "upload" when that is empty.
   */
  function SanitizeFileName(name: string): (r: string)
    ensures r != ""
    ensures forall i :: 0 <= i < |r| ==> IsSafe(r[i])
  {
    var safe := ReplaceUnsafe(LastSegment(Trim(name)));
    if |safe| > 0 then safe else "upload"
  }

  /**
   * The sanitised name has the last segment's UTF-16 length, and keeps its
   * safe characters in place when the segment lies in the Basic Multilingual
   * Plane; only an empty segment gives "upload".
   */
  lemma SanitizeKeepsSegment(name: string)
    ensures var base := LastSegment(Trim(name));
      base == [] ==> SanitizeFileName(name) == "upload"
    ensures var base := LastSegment(Trim(name));
      base != [] ==> |SanitizeFileName(name)| == Utf16Length(base)
    ensures var base := LastSegment(Trim(name));
      base != [] && (forall i :: 0 <= i < |base| ==> base[i] as int < 0x1_0000) ==>
        forall i :: 0 <= i < |base| ==> (IsSafe(base[i]) ==> SanitizeFileName(name)[i] == base[i]) && (!IsSafe(base[i]) ==> SanitizeFileName(name)[i] == '_')
  {
    var base := LastSegment(Trim(name));
    if base != [] && forall i :: 0 <= i < |base| ==> base[i] as int < 0x1_0000 {
      ReplaceUnsafeBmp(base);
    }
  }

  /** The replacement works piecewise: replacing a concatenation replaces each part. */
  lemma {:induction false} ReplaceUnsafeConcat(a: string, b: string)
    ensures ReplaceUnsafe(a + b) == ReplaceUnsafe(a) + ReplaceUnsafe(b)
    decreases |b|
  {
    if b == [] {
      assert a + b == a;
    } else {
      var front, last := b[..|b| - 1], b[|b| - 1];
      var ab := a + b;
      assert ab[..|ab| - 1] == a + front && ab[|ab| - 1] == last;
      assert ReplaceUnsafe(ab) == ReplaceUnsafe(a + front) + Replacement(last);
      assert ReplaceUnsafe(b) == ReplaceUnsafe(front) + Replacement(last);
      ReplaceUnsafeConcat(a, front);
      AppendAssoc(ReplaceUnsafe(a), ReplaceUnsafe(front), Replacement(last));
    }
  }

  /** A name with no white space at its ends and no separator is its own last segment, and is sanitised as a whole. */
  lemma PlainNameSanitized(s: string)
    requires s != [] && !IsSpace(s[0]) && !IsSpace(s[|s| - 1])
    requires NoSlash(s)
    ensures SanitizeFileName(s) == ReplaceUnsafe(s)
  {
    TrimIdle(s);
    var r := LastSegment(s);
    assert |r| == |s|;
    assert r == s[0..];
  }

  lemma ReplaceAstralChar(c: char)
    requires c as int >= 0x1_0000
    ensures ReplaceUnsafe([c]) == "__"
  {
    var r := Replacement(c);
    assert |r| == 2 && r[0] == '_' && r[1] == '_';
    assert [c][..0] == [];
  }

  /**
   * A character outside the Basic Multilingual Plane (an emoji) is two UTF-16
   * code units, so in front of a safe suffix it becomes two underscores:
   * "\U{1F600}.png" is stored as "__.png".
   */
  lemma SanitizeAstralName(c: char, rest: string)
    requires c as int >= 0x1_0000
    requires forall i :: 0 <= i < |rest| ==> IsSafe(rest[i])
    ensures SanitizeFileName([c] + rest) == "__" + rest
  {
    ReplaceAstralChar(c);
    ReplaceUnsafeSafe(rest);
    ReplaceUnsafeConcat([c], rest);
    var s := [c] + rest;
    assert NoSlash(s) by {
      assert forall i :: 1 <= i < |s| ==> s[i] == rest[i - 1];
    }
    PlainNameSanitized(s);
  }

  /** The names the sanitiser leaves alone are exactly the non-empty names made of safe characters. */
  lemma SanitizeFixpoints(s: string)
    ensures SanitizeFileName(s) == s <==> (s != [] && forall i :: 0 <= i < |s| ==> IsSafe(s[i]))
  {
    if s != [] && forall i :: 0 <= i < |s| ==> IsSafe(s[i]) {
      TrimStartIdle(s);
      TrimEndIdle(s);
      assert Trim(s) == s;
      var base := LastSegment(s);
      assert forall i :: 0 <= i < |s| ==> !IsSlash(s[i]);
      assert base == s;
      ReplaceUnsafeSafe(s);
    }
  }

  /** Sanitising twice is sanitising once. */
  lemma SanitizeIdempotent(name: string)
    ensures SanitizeFileName(SanitizeFileName(name)) == SanitizeFileName(name)
  {
    SanitizeFixpoints(SanitizeFileName(name));
  }

  // ---------------------------------------------------------------------
  // Extensions
  // ---------------------------------------------------------------------

  /** The longest suffix made of letters and digits. */
  function AlnumSuffix(s: string): (r: string)
    ensures |r| <= |s| && r == s[|s| - |r|..]
    ensures forall i :: 0 <= i < |r| ==> IsAlnum(r[i])
    ensures |r| < |s| ==> !IsAlnum(s[|s| - |r| - 1])
    decreases |s|
  {
    if |s| == 0 || !IsAlnum(s[|s| - 1]) then "" else AlnumSuffix(s[..|s| - 1]) + [s[|s| - 1]]
  }

  /**
   * The group captured by `/\.([a-z0-9]{1,10})$/i`: a match ends at the end
   * of the name, so its group is the whole alphanumeric suffix, which must
   * have 1 to 10 characters and follow a '.'.
   */
  function OwnExtension(name: string): (r: Option<string>)
    ensures r.Some? ==> 1 <= |r.value| <= 10 && EndsWith(name, "." + r.value)
    ensures r.Some? ==> forall i :: 0 <= i < |r.value| ==> IsAlnum(r.value[i])
  {
    var e := AlnumSuffix(name);
    if 1 <= |e| <= 10 && |e| < |name| && name[|name| - |e| - 1] == '.' then
      assert name[|name| - |e| - 1..] == "." + e;
      Some(e)
    else None
  }

  /** A name ending in '.' and 1 to 10 letters or digits has exactly those as its extension. */
  lemma OwnExtensionOf(base: string, e: string)
    requires 1 <= |e| <= 10 && forall i :: 0 <= i < |e| ==> IsAlnum(e[i])
    ensures OwnExtension(base + "." + e) == Some(e)
  {
    var name := base + "." + e;
    assert name[|name| - |e|..] == e;
    AlnumSuffixLength(name, |e|);
  }

  /** The alphanumeric suffix is the run of letters and digits that a non-alphanumeric character (or the start) bounds. */
  lemma {:induction false} AlnumSuffixLength(s: string, k: nat)
    requires k <= |s| && forall i :: |s| - k <= i < |s| ==> IsAlnum(s[i])
    requires k < |s| ==> !IsAlnum(s[|s| - k - 1])
    ensures AlnumSuffix(s) == s[|s| - k..]
    decreases k
  {
    if k > 0 {
      var p := s[..|s| - 1];
      assert forall i :: |p| - (k - 1) <= i < |p| ==> p[i] == s[i];
      assert k - 1 < |p| ==> p[|p| - (k - 1) - 1] == s[|s| - k - 1];
      AlnumSuffixLength(p, k - 1);
      assert IsAlnum(s[|s| - 1]);
      assert AlnumSuffix(s) == AlnumSuffix(p) + [s[|s| - 1]];
      assert p[|p| - (k - 1)..] + [s[|s| - 1]] == s[|s| - k..];
    }
  }

  /** `EXTENSION_BY_CONTENT_TYPE`. */
  const ExtensionByContentType: map<string, string> := map[
    "video/mp4" := ".mp4",
    "video/quicktime" := ".mov",
    "video/webm" := ".webm",
    "video/ogg" := ".ogv",
    "image/jpeg" := ".jpg",
    "image/png" := ".png",
    "image/webp" := ".webp",
    "application/pdf" := ".pdf"
  ]

  predicate IsLowerAlnum(c: char) {
    'a' <= c <= 'z' || '0' <= c <= '9'
  }

  /** A '.' followed by 1 to 10 lower-case letters or digits. */
  predicate IsExtension(x: string) {
    2 <= |x| <= 11 && x[0] == '.' && forall i :: 1 <= i < |x| ==> IsLowerAlnum(x[i])
  }

  lemma TableExtensions()
    ensures forall t :: t in ExtensionByContentType ==> IsExtension(ExtensionByContentType[t])
  {
    assert IsExtension(".mp4") && IsExtension(".mov") && IsExtension(".webm") && IsExtension(".ogv");
    assert IsExtension(".jpg") && IsExtension(".png") && IsExtension(".webp") && IsExtension(".pdf");
  }

  /** The extension registered for the lower-cased content type, else ".bin". */
  function ContentTypeExtension(contentType: string): (r: string)
    ensures IsExtension(r)
    ensures Lower(contentType) in ExtensionByContentType ==> r == ExtensionByContentType[Lower(contentType)]
    ensures Lower(contentType) !in ExtensionByContentType ==> r == ".bin"
  {
    TableExtensions();
    assert IsExtension(".bin");
    var key := Lower(contentType);
    if key in ExtensionByContentType then ExtensionByContentType[key] else ".bin"
  }

  /** An own extension lower-cased, behind its '.', is an extension. */
  lemma DotLowerExtension(e: string)
    requires 1 <= |e| <= 10 && forall i :: 0 <= i < |e| ==> IsAlnum(e[i])
    ensures IsExtension("." + Lower(e))
  {
    var x := "." + Lower(e);
    forall i | 1 <= i < |x|
      ensures IsLowerAlnum(x[i])
    {
      assert x[i] == LowerChar(e[i - 1]);
    }
  }

  /** An extension holds no '/'. */
  lemma ExtensionSlashFree(x: string)
    requires IsExtension(x)
    ensures '/' !in x
  {
    forall i | 0 <= i < |x|
      ensures x[i] != '/'
    {
      if i > 0 {
        assert IsLowerAlnum(x[i]);
      }
    }
  }

  /**
   * `inferExtension`: the name's own extension lower-cased, else the
   * extension registered for the lower-cased content type, else ".bin".
   */
  function InferExtension(fileName: string, contentType: string): (r: string)
    ensures IsExtension(r)
    ensures OwnExtension(fileName).Some? ==> r == "." + Lower(OwnExtension(fileName).value)
    ensures OwnExtension(fileName).None? && Lower(contentType) in ExtensionByContentType ==>
      r == ExtensionByContentType[Lower(contentType)]
    ensures OwnExtension(fileName).None? && Lower(contentType) !in ExtensionByContentType ==> r == ".bin"
  {
    match OwnExtension(fileName)
    case Some(e) => DotLowerExtension(e); "." + Lower(e)
    case None => ContentTypeExtension(contentType)
  }

  /** A name that ends in an extension has that extension's letters and digits as its own. */
  lemma OwnExtensionOfExtension(base: string, x: string)
    requires IsExtension(x)
    ensures OwnExtension(base + x) == Some(x[1..])
  {
    var e := x[1..];
    forall i | 0 <= i < |e|
      ensures IsAlnum(e[i])
    {
      assert e[i] == x[i + 1] && IsLowerAlnum(x[i + 1]);
    }
    var name := base + x;
    assert name[|name| - |e|..] == e;
    assert name[|name| - |e| - 1] == x[0];
    AlnumSuffixLength(name, |e|);
  }

  /** An extension is already lower case. */
  lemma ExtensionLower(x: string)
    requires IsExtension(x)
    ensures "." + Lower(x[1..]) == x
  {
    var y := "." + Lower(x[1..]);
    forall i | 1 <= i < |x|
      ensures y[i] == x[i]
    {
      assert IsLowerAlnum(x[i]);
    }
  }

  /** A name that already ends in an inferred extension keeps it, whatever the content type. */
  lemma InferExtensionStable(base: string, fileName: string, contentType: string, otherType: string)
    ensures InferExtension(base + InferExtension(fileName, contentType), otherType) == InferExtension(fileName, contentType)
  {
    var x := InferExtension(fileName, contentType);
    OwnExtensionOfExtension(base, x);
    ExtensionLower(x);
  }

  // ---------------------------------------------------------------------
  // Upload paths
  // ---------------------------------------------------------------------

  /** What a media file belongs to, and its folder in the object path. */
  datatype MediaOwner = DrillMedia | SkillMedia {
    function Folder(): string {
      if DrillMedia? then "drills" else "skills"
    }
  }

  /**
   * `buildDrillMediaPath` / `buildSkillMediaPath`:
   * "orgs/{org}/{drills|skills}/{owner}/{fileId}{extension}", the extension
   * inferred from the sanitised file name.
   */
  function BuildMediaPath(owner: MediaOwner, orgId: string, ownerId: string, fileId: string, fileName: string, contentType: string): string {
    ObjectPath(owner, orgId, ownerId, MediaFileName(fileId, fileName, contentType))
  }

  /** "{fileId}{extension}": the last segment of an upload path. */
  function MediaFileName(fileId: string, fileName: string, contentType: string): (r: string)
    ensures r != []
    ensures '/' !in fileId ==> '/' !in r
  {
    var ext := InferExtension(SanitizeFileName(fileName), contentType);
    ExtensionSlashFree(ext);
    assert forall c :: c in fileId + ext ==> c in fileId || c in ext;
    fileId + ext
  }

  /** "orgs/{org}/{drills|skills}/{owner}/{file}". */
  function ObjectPath(owner: MediaOwner, orgId: string, ownerId: string, file: string): string {
    "orgs" + "/" + orgId + "/" + owner.Folder() + "/" + ownerId + "/" + file
  }

  /** A string without '/'. */
  predicate Segment(s: string) {
    s != [] && '/' !in s
  }

  /** The path's segments are "orgs", the org, the folder, the owner and the file, and re-inferring its extension gives the same one. */
  lemma MediaPathSegments(owner: MediaOwner, orgId: string, ownerId: string, fileId: string, fileName: string, contentType: string)
    requires '/' !in orgId && '/' !in ownerId && '/' !in fileId
    ensures Split(BuildMediaPath(owner, orgId, ownerId, fileId, fileName, contentType), '/')
      == ["orgs", orgId, owner.Folder(), ownerId, fileId + InferExtension(SanitizeFileName(fileName), contentType)]
  {
    ObjectPathSegments(owner, orgId, ownerId, MediaFileName(fileId, fileName, contentType));
  }

  /** An object path built from slash-free pieces splits back into them. */
  lemma ObjectPathSegments(owner: MediaOwner, orgId: string, ownerId: string, file: string)
    requires '/' !in orgId && '/' !in ownerId && '/' !in file
    ensures Split(ObjectPath(owner, orgId, ownerId, file), '/') == ["orgs", orgId, owner.Folder(), ownerId, file]
  {
    SplitFive("orgs", orgId, owner.Folder(), ownerId, file);
  }

  lemma SplitFive(a: string, b: string, c: string, d: string, e: string)
    requires '/' !in a && '/' !in b && '/' !in c && '/' !in d && '/' !in e
    ensures Split(a + "/" + b + "/" + c + "/" + d + "/" + e, '/') == [a, b, c, d, e]
  {
    SplitFree(a, '/');
    SplitFree(b, '/');
    SplitFree(c, '/');
    SplitFree(d, '/');
    SplitFree(e, '/');
    SplitConcat(a, b, '/');
    SplitConcat(a + "/" + b, c, '/');
    SplitConcat(a + "/" + b + "/" + c, d, '/');
    SplitConcat(a + "/" + b + "/" + c + "/" + d, e, '/');
  }

  /** Inferring the extension of a built path gives back the extension it was built with. */
  lemma MediaPathExtension(owner: MediaOwner, orgId: string, ownerId: string, fileId: string, fileName: string, contentType: string, otherType: string)
    ensures InferExtension(BuildMediaPath(owner, orgId, ownerId, fileId, fileName, contentType), otherType)
      == InferExtension(SanitizeFileName(fileName), contentType)
  {
    var ext := InferExtension(SanitizeFileName(fileName), contentType);
    var front := "orgs" + "/" + orgId + "/" + owner.Folder() + "/" + ownerId + "/";
    AppendAssoc(front, fileId, ext);
    InferExtensionStable(front + fileId, SanitizeFileName(fileName), contentType, otherType);
  }

  /** A string without the separator splits into itself. */
  lemma {:induction false} SplitFree(s: string, sep: char)
    requires sep !in s
    ensures Split(s, sep) == [s]
    decreases |s|
  {
    if |s| > 0 {
      assert s[0] != sep;
      assert sep !in s[1..] by {
        assert forall c :: c in s[1..] ==> c in s;
      }
      SplitFree(s[1..], sep);
      assert [s[0]] + s[1..] == s;
    }
  }

  // ---------------------------------------------------------------------
  // Storage-object URLs
  // ---------------------------------------------------------------------

  /** An object in a storage bucket. */
  datatype StorageRef = StorageRef(bucket: string, path: string)

  const ObjectPrefix: string := "/storage/v1/object/"

  /** A path whose '/'-separated pieces are all non-empty: no leading, trailing or doubled '/'. */
  predicate CleanPath(p: string) {
    forall k :: 0 <= k < |Split(p, '/')| ==> Split(p, '/')[k] != ""
  }

  /**
   * `parseStorageObjectUrl` after `new URL`: the pathname must start with
   * "/storage/v1/object/"; its remaining non-empty segments, after an
   * optional leading "public" or "sign", must hold a bucket and at least
   * one more segment, which are joined back with '/' into the path.
   */
  function ParseStoragePath(pathname: Option<string>): (r: Option<StorageRef>)
    ensures r.Some? ==> pathname.Some? && StartsWith(pathname.value, ObjectPrefix)
    ensures r.Some? ==> Segment(r.value.bucket) && r.value.path != [] && CleanPath(r.value.path)
  {
    if pathname.None? || !StartsWith(pathname.value, ObjectPrefix) then None
    else
      var parts := NonEmpty(Split(pathname.value[|ObjectPrefix|..], '/'));
      if |parts| < 2 then None
      else
        var offset := if parts[0] == "public" || parts[0] == "sign" then 1 else 0;
        if |parts| - offset < 2 then None
        else
          SplitPiecesFree(pathname.value[|ObjectPrefix|..], '/');
          NonEmptyFree(Split(pathname.value[|ObjectPrefix|..], '/'));
          JoinClean(parts[offset + 1..]);
          Some(StorageRef(parts[offset], Join(parts[offset + 1..], '/')))
  }

  /** `parseStorageObjectUrl(value)`. */
  function ParseStorageObjectUrl(value: string, urlPath: string -> Option<string>): (r: Option<StorageRef>)
    ensures r == ParseStoragePath(urlPath(value))
  {
    ParseStoragePath(urlPath(value))
  }

  /** The pieces kept by `filter(Boolean)` on a split contain no separator. */
  lemma {:induction false} NonEmptyFree(parts: seq<string>)
    requires forall k :: 0 <= k < |parts| ==> '/' !in parts[k]
    ensures forall k :: 0 <= k < |NonEmpty(parts)| ==> '/' !in NonEmpty(parts)[k]
    decreases |parts|
  {
    if |parts| > 0 {
      NonEmptyFree(parts[1..]);
      forall k | 0 <= k < |NonEmpty(parts)|
        ensures '/' !in NonEmpty(parts)[k]
      {
        NonEmptyMembers(parts, NonEmpty(parts)[k]);
      }
    }
  }

  /** Non-empty, slash-free pieces joined with '/' split back into themselves. */
  lemma {:induction false} SplitJoin(parts: seq<string>)
    requires |parts| >= 1
    requires forall k :: 0 <= k < |parts| ==> '/' !in parts[k]
    ensures Split(Join(parts, '/'), '/') == parts
    decreases |parts|
  {
    if |parts| == 1 {
      SplitFree(parts[0], '/');
    } else {
      SplitJoin(parts[1..]);
      SplitConcat(parts[0], Join(parts[1..], '/'), '/');
      SplitFree(parts[0], '/');
      assert parts == [parts[0]] + parts[1..];
    }
  }

  /** Joining non-empty slash-free pieces gives a clean, non-empty path. */
  lemma JoinClean(parts: seq<string>)
    requires |parts| >= 1
    requires forall k :: 0 <= k < |parts| ==> parts[k] != "" && '/' !in parts[k]
    ensures Join(parts, '/') != [] && CleanPath(Join(parts, '/'))
  {
    SplitJoin(parts);
  }

  /** The segments of "{bucket}/{path}" for a clean path. */
  lemma BucketPathParts(bucket: string, path: string)
    requires Segment(bucket) && path != [] && CleanPath(path)
    ensures NonEmpty(Split(bucket + "/" + path, '/')) == [bucket] + Split(path, '/')
    ensures Join(Split(path, '/'), '/') == path
  {
    SplitConcat(bucket, path, '/');
    SplitFree(bucket, '/');
    NonEmptyIdle(Split(path, '/'));
    NonEmptyConcat([bucket], Split(path, '/'));
    assert NonEmpty([bucket]) == [bucket];
    JoinSplit(path, '/');
  }

  lemma {:induction false} NonEmptyIdle(parts: seq<string>)
    requires forall k :: 0 <= k < |parts| ==> parts[k] != ""
    ensures NonEmpty(parts) == parts
    decreases |parts|
  {
    if |parts| > 0 {
      NonEmptyIdle(parts[1..]);
    }
  }

  /** A public object URL parses back into its bucket and path. */
  lemma PublicUrlRoundTrip(bucket: string, path: string)
    requires Segment(bucket) && path != [] && CleanPath(path)
    ensures ParseStoragePath(Some(ObjectPrefix + "public/" + bucket + "/" + path)) == Some(StorageRef(bucket, path))
  {
    var tail := "public/" + bucket + "/" + path;
    AppendAssoc(ObjectPrefix + "public/" + bucket, "/", path);
    AppendAssoc(ObjectPrefix + "public/", bucket, "/" + path);
    AppendAssoc(ObjectPrefix, "public/", bucket + "/" + path);
    AppendAssoc("public/" + bucket, "/", path);
    AppendAssoc("public/", bucket, "/" + path);
    assert ObjectPrefix + "public/" + bucket + "/" + path == ObjectPrefix + tail;
    assert (ObjectPrefix + tail)[|ObjectPrefix|..] == tail;
    PublicParts(bucket, path);
    BucketPathParts(bucket, path);
    var parts := ["public", bucket] + Split(path, '/');
    assert parts[2..] == Split(path, '/');
  }

  /** The segments of a public object path: the marker, the bucket, then the path's own. */
  lemma PublicParts(bucket: string, path: string)
    requires Segment(bucket) && path != [] && CleanPath(path)
    ensures NonEmpty(Split("public/" + bucket + "/" + path, '/')) == ["public", bucket] + Split(path, '/')
  {
    var rest := bucket + "/" + path;
    AppendAssoc("public/" + bucket, "/", path);
    AppendAssoc("public/", bucket, "/" + path);
    assert "public/" + bucket + "/" + path == "public" + ['/'] + rest;
    SplitConcat("public", rest, '/');
    SplitFree("public", '/');
    BucketPathParts(bucket, path);
    NonEmptyConcat(["public"], Split(rest, '/'));
    assert NonEmpty(["public"]) == ["public"];
  }

  /** Without a "public" or "sign" marker the first segment is the bucket. */
  lemma PlainUrlRoundTrip(bucket: string, path: string)
    requires Segment(bucket) && path != [] && CleanPath(path)
    requires bucket != "public" && bucket != "sign"
    ensures ParseStoragePath(Some(ObjectPrefix + bucket + "/" + path)) == Some(StorageRef(bucket, path))
  {
    var p := ObjectPrefix + bucket + "/" + path;
    assert p[|ObjectPrefix|..] == bucket + "/" + path;
    BucketPathParts(bucket, path);
    var parts := NonEmpty(Split(bucket + "/" + path, '/'));
    assert parts[1..] == Split(path, '/');
  }

  /** Whatever parses, parses again from its canonical public URL to the same reference. */
  lemma ParseCanonical(pathname: Option<string>)
    requires ParseStoragePath(pathname).Some?
    ensures var r := ParseStoragePath(pathname).value;
      ParseStoragePath(Some(ObjectPrefix + "public/" + r.bucket + "/" + r.path)) == Some(r)
  {
    var r := ParseStoragePath(pathname).value;
    PublicUrlRoundTrip(r.bucket, r.path);
  }

  /** An object path built from non-empty slash-free pieces is a clean, non-empty path. */
  lemma ObjectPathClean(owner: MediaOwner, orgId: string, ownerId: string, file: string)
    requires Segment(orgId) && Segment(ownerId) && Segment(file)
    ensures ObjectPath(owner, orgId, ownerId, file) != [] && CleanPath(ObjectPath(owner, orgId, ownerId, file))
  {
    ObjectPathSegments(owner, orgId, ownerId, file);
    assert Split([], '/') == [""];
  }

  /** The public URL of a freshly built upload path parses back into the bucket and that path. */
  lemma UploadUrlRoundTrip(owner: MediaOwner, orgId: string, ownerId: string, fileId: string, fileName: string, contentType: string, bucket: string)
    requires Segment(orgId) && Segment(ownerId) && '/' !in fileId && Segment(bucket)
    ensures var path := BuildMediaPath(owner, orgId, ownerId, fileId, fileName, contentType);
      ParseStoragePath(Some(ObjectPrefix + "public/" + bucket + "/" + path)) == Some(StorageRef(bucket, path))
  {
    var file := MediaFileName(fileId, fileName, contentType);
    ObjectPathClean(owner, orgId, ownerId, file);
    PublicUrlRoundTrip(bucket, ObjectPath(owner, orgId, ownerId, file));
  }

  // ---------------------------------------------------------------------
  // Stored media references
  // ---------------------------------------------------------------------

  /** `s.replace(/^\/+/, "")`. */
  function StripLeadingSlashes(s: string): (r: string)
    ensures |r| <= |s| && r == s[|s| - |r|..]
    ensures r == [] || r[0] != '/'
    ensures forall i :: 0 <= i < |s| - |r| ==> s[i] == '/'
    decreases |s|
  {
    if |s| > 0 && s[0] == '/' then StripLeadingSlashes(s[1..]) else s
  }

  /** `v?.trim()` read as a condition: the trimmed text, "" when missing. */
  function Trimmed(v: Option<string>): (r: string)
    ensures v.None? ==> r == ""
    ensures v.Some? ==> r == Trim(v.value)
  {
    if v.Some? then Trim(v.value) else ""
  }

  /**
   * `resolveStorageRef`: a non-blank storage path is a storage URL, or an
   * object path in `bucket` (leading '/' and a "{bucket}/" prefix dropped);
   * otherwise a non-blank url counts only when it is a storage URL.
   */
  function ResolveStorageRef(storagePath: Option<string>, url: Option<string>, bucket: string, urlPath: string -> Option<string>): (r: Option<StorageRef>)
    ensures Trimmed(storagePath) != "" ==> r.Some?
    ensures Trimmed(storagePath) == "" && Trimmed(url) == "" ==> r.None?
    ensures Trimmed(storagePath) == "" && Trimmed(url) != "" ==> r == ParseStorageObjectUrl(Trimmed(url), urlPath)
    ensures r.Some? && r.value.bucket != bucket ==>
      r == ParseStorageObjectUrl(Trimmed(storagePath), urlPath) || r == ParseStorageObjectUrl(Trimmed(url), urlPath)
  {
    var storageValue := Trimmed(storagePath);
    if storageValue != "" then
      var parsed := ParseStorageObjectUrl(storageValue, urlPath);
      if parsed.Some? then parsed
      else
        var normalized := StripLeadingSlashes(storageValue);
        if StartsWith(normalized, bucket + "/") then Some(StorageRef(bucket, normalized[|bucket| + 1..]))
        else Some(StorageRef(bucket, normalized))
    else
      var urlValue := Trimmed(url);
      if urlValue != "" then ParseStorageObjectUrl(urlValue, urlPath) else None
  }

  /** A plain object path, not a URL, resolves into `bucket` unchanged, and the url is then ignored. */
  lemma ResolveObjectPath(bucket: string, path: string, url: Option<string>, urlPath: string -> Option<string>)
    requires path != [] && path[0] != '/' && Trim(path) == path && !StartsWith(path, bucket + "/")
    requires urlPath(path).None?
    ensures ResolveStorageRef(Some(path), url, bucket, urlPath) == Some(StorageRef(bucket, path))
  {
  }

  /** Writing the object path with the "{bucket}/" prefix resolves to the same object. */
  lemma ResolveBucketPrefixed(bucket: string, path: string, url: Option<string>, urlPath: string -> Option<string>)
    requires Segment(bucket) && !IsSpace(bucket[0])
    requires path != [] && Trim(path) == path
    requires urlPath(bucket + "/" + path).None?
    ensures ResolveStorageRef(Some(bucket + "/" + path), url, bucket, urlPath) == Some(StorageRef(bucket, path))
  {
    var prefixed := bucket + "/" + path;
    assert !IsSpace(path[|path| - 1]);
    assert prefixed[0] == bucket[0] && prefixed[|prefixed| - 1] == path[|path| - 1];
    TrimIdle(prefixed);
    assert bucket[0] in bucket;
    assert StripLeadingSlashes(prefixed) == prefixed;
    assert prefixed[..|bucket + "/"|] == bucket + "/";
    assert prefixed[|bucket| + 1..] == path;
  }

  /** Leading '/' characters do not change what a plain object path resolves to. */
  lemma ResolveLeadingSlash(bucket: string, path: string, url: Option<string>, urlPath: string -> Option<string>)
    requires path != [] && Trim(path) == path
    requires urlPath("/" + path).None? && urlPath(path).None?
    ensures ResolveStorageRef(Some("/" + path), url, bucket, urlPath) == ResolveStorageRef(Some(path), url, bucket, urlPath)
  {
    var slashed := "/" + path;
    SlashTrimmed(path);
    assert slashed[0] == '/' && slashed[1..] == path;
    assert StripLeadingSlashes(slashed) == StripLeadingSlashes(path);
    ResolvePlain(slashed, url, bucket, urlPath);
    ResolvePlain(path, url, bucket, urlPath);
  }

  /** A '/' in front of trimmed text keeps it trimmed. */
  lemma SlashTrimmed(path: string)
    requires path != [] && Trim(path) == path
    ensures Trim("/" + path) == "/" + path
  {
    var slashed := "/" + path;
    assert !IsSpace(path[0]) && !IsSpace(path[|path| - 1]);
    assert slashed[|slashed| - 1] == path[|path| - 1];
    TrimIdle(slashed);
  }

  /** A trimmed, non-blank path that is not a storage URL resolves by its slash-stripped form alone. */
  lemma ResolvePlain(value: string, url: Option<string>, bucket: string, urlPath: string -> Option<string>)
    requires value != [] && Trim(value) == value && urlPath(value).None?
    ensures var n := StripLeadingSlashes(value);
      ResolveStorageRef(Some(value), url, bucket, urlPath)
      == Some(if StartsWith(n, bucket + "/") then StorageRef(bucket, n[|bucket| + 1..]) else StorageRef(bucket, n))
  {
    assert Trimmed(Some(value)) == value;
  }

  // ---------------------------------------------------------------------
  // Sort order of new media
  // ---------------------------------------------------------------------

  /**
   * The position given to new media when none is supplied: one past the
   * `sort_order` of the drill's or skill's last media row when that is a
   * number, else 1. `lastSortOrder` is that row's value (`None`: no row).
   */
  function NextPosition(lastSortOrder: Option<Json>): (r: real)
    ensures lastSortOrder.Some? && lastSortOrder.value.JNum? ==> r == lastSortOrder.value.n + 1.0
    ensures !(lastSortOrder.Some? && lastSortOrder.value.JNum?) ==> r == 1.0
  {
    if lastSortOrder.Some? && lastSortOrder.value.JNum? then lastSortOrder.value.n + 1.0 else 1.0
  }

  /**
   * `let position = input.position ?? null; if (position == null) position = …`
   * in `createDrillMedia` and `createSkillMedia`.
   */
  method AllocatePosition(given: Option<Json>, lastSortOrder: Option<Json>) returns (position: Json)
    ensures given.Some? && given.value != JNull ==> position == given.value
    ensures (given.None? || given.value == JNull) ==> position == JNum(NextPosition(lastSortOrder))
  {
    position := OrNull(given);
    if position == JNull {
      position := JNum(NextPosition(lastSortOrder));
    }
  }

  /**
   * When the row read back is the one with the largest sort order, the new
   * position comes after every existing one, and it is at least 1 when the
   * existing ones are not negative.
   */
  lemma NextPositionAfterAll(orders: seq<real>, lastSortOrder: Option<Json>)
    requires |orders| == 0 ==> lastSortOrder.None?
    requires |orders| > 0 ==> (lastSortOrder.Some? && lastSortOrder.value.JNum?
      && lastSortOrder.value.n in orders && forall o :: o in orders ==> o <= lastSortOrder.value.n)
    ensures forall o :: o in orders ==> o < NextPosition(lastSortOrder)
    ensures (forall o :: o in orders ==> o >= 0.0) ==> NextPosition(lastSortOrder) >= 1.0
  {
  }
}

=== FILE: org_users.dfy ===
/**
 * `listOrgUsers`: the athletes and coaches of an organization, read from two
 * queries, merged into one list of users sorted by full name and then by
 * user id. `localeCompare` is an abstract total preorder `le` on strings:
 * it answers 0 exactly when `le` holds both ways.
 */
module OrgUsers {
  import opened Wrappers
  import opened Json
  import opened Sorting

  datatype Role = Athlete | Coach

  datatype OrgUserDto = OrgUserDto(userId: Json, role: Role, fullName: Json, phone: Json, graduationYear: Json)

  /** What a query returned: an error, or its `data` (which may be `null`). */
  datatype Query = QueryError(error: string) | QueryRows(data: Option<Json>)

  /** `{ data, count, error }`. */
  datatype Listing = Listing(data: seq<OrgUserDto>, count: nat, error: Option<string>)

  /** `mapPhone`: `row?.cell_number ?? row?.phone ?? null`. */
  function PhoneOf(row: Json): (phone: Json)
    ensures Get(row, "cell_number").Some? && Get(row, "cell_number").value != JNull ==> phone == row.fields["cell_number"]
  {
    OrNull(OrElse(Get(row, "cell_number"), Get(row, "phone")))
  }

  /** A given, non-null value of `key`. */
  predicate Given(row: Json, key: string) {
    Get(row, key).Some? && Get(row, key).value != JNull
  }

  /**
   * The phone is `null` exactly when neither number is given; otherwise it is
   * one of the two, the phone only when no cell number is given.
   */
  lemma PhonePrecedence(row: Json)
    ensures PhoneOf(row) == JNull <==> !Given(row, "cell_number") && !Given(row, "phone")
    ensures PhoneOf(row) != JNull ==> Some(PhoneOf(row)) == Get(row, "cell_number") || Some(PhoneOf(row)) == Get(row, "phone")
    ensures !Given(row, "cell_number") && Given(row, "phone") ==> Some(PhoneOf(row)) == Get(row, "phone")
  {
  }

  /** `row?.user_id` is truthy. */
  predicate HasUser(row: Json) {
    Get(row, "user_id").Some? && Truthy(Get(row, "user_id").value)
  }

  /** `.filter((row) => row?.user_id)`. */
  function WithUser(rows: seq<Json>): (kept: seq<Json>)
    ensures |kept| <= |rows|
    ensures forall row :: row in kept ==> row in rows && HasUser(row)
  {
    if |rows| == 0 then []
    else if HasUser(rows[|rows| - 1]) then WithUser(rows[..|rows| - 1]) + [rows[|rows| - 1]]
    else WithUser(rows[..|rows| - 1])
  }

  /** No row that has a user is dropped. */
  lemma {:induction false} WithUserKeeps(rows: seq<Json>, row: Json)
    requires row in rows && HasUser(row)
    ensures row in WithUser(rows)
  {
    var last := rows[|rows| - 1];
    if row != last {
      var init := rows[..|rows| - 1];
      assert rows == init + [last];
      WithUserKeeps(init, row);
    }
  }

  function AthleteOf(row: Json): OrgUserDto {
    OrgUserDto(Get(row, "user_id").GetOr(JNull), Athlete, OrDefault(Get(row, "full_name"), JNull),
      PhoneOf(row), OrDefault(Get(row, "graduation_year"), JNull))
  }

  function CoachOf(row: Json): OrgUserDto {
    OrgUserDto(Get(row, "user_id").GetOr(JNull), Coach, OrDefault(Get(row, "full_name"), JNull), PhoneOf(row), JNull)
  }

  /** The athletes with a user id, in row order. */
  function AthleteUsers(rows: seq<Json>): (users: seq<OrgUserDto>)
    ensures |users| == |WithUser(rows)|
  {
    var kept := WithUser(rows);
    seq(|kept|, i requires 0 <= i < |kept| => AthleteOf(kept[i]))
  }

  /** The coaches with a user id, in row order. */
  function CoachUsers(rows: seq<Json>): (users: seq<OrgUserDto>)
    ensures |users| == |WithUser(rows)|
  {
    var kept := WithUser(rows);
    seq(|kept|, i requires 0 <= i < |kept| => CoachOf(kept[i]))
  }

  /** The text a user is compared by: `x ?? ""`, a string. */
  function Key(v: Json): string {
    if v.JStr? then v.s else ""
  }

  /** The comparator as "comes no later than": by full name, and by user id between equal names. */
  function ByNameThenId(le: (string, string) -> bool): (OrgUserDto, OrgUserDto) -> bool {
    (a: OrgUserDto, b: OrgUserDto) =>
      var na := Key(a.fullName);
      var nb := Key(b.fullName);
      if le(na, nb) && le(nb, na) then le(Key(a.userId), Key(b.userId)) else le(na, nb)
  }

  lemma ByNameThenIdPreorder(le: (string, string) -> bool)
    requires TotalPreorder(le)
    ensures TotalPreorder(ByNameThenId(le))
  {
    var cmp := ByNameThenId(le);
    forall a, b
      ensures cmp(a, b) || cmp(b, a)
    {
      assert le(Key(a.fullName), Key(b.fullName)) || le(Key(b.fullName), Key(a.fullName));
      assert le(Key(a.userId), Key(b.userId)) || le(Key(b.userId), Key(a.userId));
    }
    forall a, b, c | cmp(a, b) && cmp(b, c)
      ensures cmp(a, c)
    {
      var na, nb, nc := Key(a.fullName), Key(b.fullName), Key(c.fullName);
      assert le(na, nb) && le(nb, nc);
      assert le(na, nc);
      if le(nc, na) {
        assert le(nb, na) && le(nc, nb);
        assert le(Key(a.userId), Key(b.userId)) && le(Key(b.userId), Key(c.userId));
      }
    }
  }

  /** `listOrgUsers` after the two queries; `clientReady` is whether the admin client exists. */
  function ListOrgUsers(clientReady: bool, athletes: Query, coaches: Query, le: (string, string) -> bool): (r: Listing)
    ensures r.count == |r.data|
    ensures r.error.Some? ==> r.data == []
  {
    if !clientReady then Listing([], 0, Some("Supabase client not initialized"))
    else if athletes.QueryError? then Listing([], 0, Some(athletes.error))
    else if coaches.QueryError? then Listing([], 0, Some(coaches.error))
    else
      var items := SortBy(AthleteUsers(ElementsOf(athletes.data)) + CoachUsers(ElementsOf(coaches.data)), ByNameThenId(le));
      Listing(items, |items|, None)
  }

  /** Without the client, or when a query fails, the listing is empty and carries the first error, athletes before coaches. */
  lemma ListOrgUsersErrors(clientReady: bool, athletes: Query, coaches: Query, le: (string, string) -> bool)
    ensures var r := ListOrgUsers(clientReady, athletes, coaches, le);
      r.error.None? <==> clientReady && athletes.QueryRows? && coaches.QueryRows?
    ensures clientReady && athletes.QueryError? ==> ListOrgUsers(clientReady, athletes, coaches, le).error == Some(athletes.error)
    ensures clientReady && athletes.QueryRows? && coaches.QueryError? ==>
      ListOrgUsers(clientReady, athletes, coaches, le).error == Some(coaches.error)
  {
  }

  /**
   * A successful listing is the athletes and coaches that have a user id,
   * each once, sorted by full name and then by user id.
   */
  lemma ListOrgUsersSorted(athletes: seq<Json>, coaches: seq<Json>, le: (string, string) -> bool)
    requires TotalPreorder(le)
    ensures var r := ListOrgUsers(true, QueryRows(Some(JArr(athletes))), QueryRows(Some(JArr(coaches))), le);
      Sorted(r.data, ByNameThenId(le))
      && multiset(r.data) == multiset(AthleteUsers(athletes) + CoachUsers(coaches))
      && r.count == |WithUser(athletes)| + |WithUser(coaches)|
  {
    ByNameThenIdPreorder(le);
    SortBySorted(AthleteUsers(athletes) + CoachUsers(coaches), ByNameThenId(le));
  }

  /** An athlete is listed exactly for each athlete row with a user id. */
  lemma AthleteUsersFromRows(rows: seq<Json>, u: OrgUserDto)
    ensures u in AthleteUsers(rows) <==> exists row :: row in rows && HasUser(row) && u == AthleteOf(row)
  {
    if u in AthleteUsers(rows) {
      var i :| 0 <= i < |AthleteUsers(rows)| && AthleteUsers(rows)[i] == u;
      assert WithUser(rows)[i] in WithUser(rows);
    }
    if exists row :: row in rows && HasUser(row) && u == AthleteOf(row) {
      var row :| row in rows && HasUser(row) && u == AthleteOf(row);
      WithUserKeeps(rows, row);
      var i :| 0 <= i < |WithUser(rows)| && WithUser(rows)[i] == row;
      assert AthleteUsers(rows)[i] == u;
    }
  }

  /** A coach is listed exactly for each coach row with a user id. */
  lemma CoachUsersFromRows(rows: seq<Json>, u: OrgUserDto)
    ensures u in CoachUsers(rows) <==> exists row :: row in rows && HasUser(row) && u == CoachOf(row)
  {
    if u in CoachUsers(rows) {
      var i :| 0 <= i < |CoachUsers(rows)| && CoachUsers(rows)[i] == u;
      assert WithUser(rows)[i] in WithUser(rows);
    }
    if exists row :: row in rows && HasUser(row) && u == CoachOf(row) {
      var row :| row in rows && HasUser(row) && u == CoachOf(row);
      WithUserKeeps(rows, row);
      var i :| 0 <= i < |WithUser(rows)| && WithUser(rows)[i] == row;
      assert CoachUsers(rows)[i] == u;
    }
  }

  /**
   * Every listed user comes from a row with a user id: athletes with their
   * graduation year, coaches with none; and every such row is listed.
   */
  lemma ListOrgUsersMembers(athletes: seq<Json>, coaches: seq<Json>, le: (string, string) -> bool, u: OrgUserDto)
    ensures var r := ListOrgUsers(true, QueryRows(Some(JArr(athletes))), QueryRows(Some(JArr(coaches))), le);
      u in r.data <==> ((exists row :: row in athletes && HasUser(row) && u == AthleteOf(row))
        || (exists row :: row in coaches && HasUser(row) && u == CoachOf(row)))
    ensures var r := ListOrgUsers(true, QueryRows(Some(JArr(athletes))), QueryRows(Some(JArr(coaches))), le);
      u in r.data ==> Truthy(u.userId) && (u.role == Coach ==> u.graduationYear == JNull)
  {
    var r := ListOrgUsers(true, QueryRows(Some(JArr(athletes))), QueryRows(Some(JArr(coaches))), le);
    assert u in r.data <==> u in AthleteUsers(athletes) + CoachUsers(coaches) by {
      assert u in r.data <==> u in multiset(r.data);
    }
    AthleteUsersFromRows(athletes, u);
    CoachUsersFromRows(coaches, u);
  }
}

=== FILE: patches.dfy ===
/**
 * Partial-update patches. The update services copy each supplied input field
 * into a patch object, one `if (input.f !== undefined) patch.c = input.f`
 * per column; a field that is `undefined` is absent from the input map here.
 */
module Patches {
  import opened Json

  /** An input field and the column it is written to. */
  datatype Column = Column(field: string, column: string)

  /** No column is written by two entries. */
  predicate DistinctColumns(columns: seq<Column>) {
    forall i, j :: 0 <= i < j < |columns| ==> columns[i].column != columns[j].column
  }

  /** The columns of the supplied fields. */
  predicate Supplied(input: map<string, Json>, columns: seq<Column>, c: string) {
    exists i :: 0 <= i < |columns| && columns[i].column == c && columns[i].field in input
  }

  /** The patch after the assignments for `columns`, in order. */
  function PatchOf(input: map<string, Json>, columns: seq<Column>): map<string, Json>
    decreases |columns|
  {
    if |columns| == 0 then map[]
    else
      var n := |columns| - 1;
      var patch := PatchOf(input, columns[..n]);
      if columns[n].field in input then patch[columns[n].column := input[columns[n].field]] else patch
  }

  /**
   * The patch holds exactly the columns whose field is supplied, each with
   * that field's value.
   */
  lemma {:induction false} PatchOfSpec(input: map<string, Json>, columns: seq<Column>)
    requires DistinctColumns(columns)
    ensures forall c :: c in PatchOf(input, columns) <==> Supplied(input, columns, c)
    ensures forall i :: 0 <= i < |columns| && columns[i].field in input ==>
      columns[i].column in PatchOf(input, columns) && PatchOf(input, columns)[columns[i].column] == input[columns[i].field]
    decreases |columns|
  {
    if |columns| > 0 {
      var n := |columns| - 1;
      var p := columns[..n];
      var col := columns[n];
      assert DistinctColumns(p) by {
        assert forall i :: 0 <= i < n ==> p[i] == columns[i];
      }
      PatchOfSpec(input, p);
      forall c
        ensures Supplied(input, columns, c) <==> Supplied(input, p, c) || (c == col.column && col.field in input)
      {
        if Supplied(input, columns, c) {
          var i :| 0 <= i < n + 1 && columns[i].column == c && columns[i].field in input;
          if i < n {
            assert p[i] == columns[i];
          }
        }
        if Supplied(input, p, c) {
          var i :| 0 <= i < n && p[i].column == c && p[i].field in input;
          assert columns[i] == p[i];
        }
      }
      forall i | 0 <= i < n && columns[i].field in input
        ensures columns[i].column in PatchOf(input, columns) && PatchOf(input, columns)[columns[i].column] == input[columns[i].field]
      {
        assert p[i] == columns[i];
      }
    }
  }

  /** Copies the supplied fields into a fresh patch, column by column. */
  method BuildPatch(input: map<string, Json>, columns: seq<Column>) returns (patch: map<string, Json>)
    ensures patch == PatchOf(input, columns)
  {
    patch := map[];
    var n := 0;
    while n < |columns|
      invariant n <= |columns|
      invariant patch == PatchOf(input, columns[..n])
    {
      var col := columns[n];
      assert columns[..n + 1][..n] == columns[..n];
      if col.field in input {
        patch := patch[col.column := input[col.field]];
      }
      n := n + 1;
    }
    assert columns[..n] == columns;
  }
}

=== FILE: path_router.dfy ===
/**
 * The segment router of `functions/api/routes/router.ts`: routes are kept in
 * registration order, child routers are mounted under a prefix, and a request
 * is dispatched to the first route whose method and path match, after that
 * route's middleware chain has had the chance to answer first.
 *
 * Handlers and middlewares are opaque: a route stores their identities, and
 * what they return for given params and context is supplied by the functions
 * `mw` and `h`, which stand for the code behind those identities.
 */
module PathRouter {
  import opened Wrappers
  import opened Text
  import opened Paths
  import opened Context

  type HandlerId = nat
  type MiddlewareId = nat

  /** A registered route; `path` is normalised and `verb` upper-cased. */
  datatype RouteDef = RouteDef(verb: string, path: string, handler: HandlerId, middlewares: seq<MiddlewareId>)

  /** A middleware's outcome: a response that stops the chain (or null), and the context it leaves behind. */
  datatype Step = Step(response: Option<Response>, ctx: Ctx)

  type MiddlewareFn = (MiddlewareId, Params, Ctx) -> Step
  type HandlerFn = (HandlerId, Params, Ctx) -> Response

  /** The answer to every OPTIONS request. */
  const Preflight := Response(200, "ok")

  /** The params a successful match binds, starting from `{}`. */
  function Bind(rs: seq<string>, us: seq<string>, decode: Decoder): Params
    requires |rs| == |us| && Decodes(rs, us, decode, |rs|)
  {
    BindPrefix(map[], rs, us, decode, |rs|)
  }

  /** Middlewares in order, the first non-null response wins; otherwise the handler answers. */
  function RunChain(mws: seq<MiddlewareId>, handler: HandlerId, params: Params, ctx: Ctx, mw: MiddlewareFn, h: HandlerFn): Response
    decreases |mws|
  {
    if |mws| == 0 then h(handler, params, ctx)
    else
      var st := mw(mws[0], params, ctx);
      if st.response.Some? then st.response.value else RunChain(mws[1..], handler, params, st.ctx, mw, h)
  }

  /** The context after the first n middlewares, assuming none of them answered. */
  function CtxAfter(mws: seq<MiddlewareId>, params: Params, ctx: Ctx, mw: MiddlewareFn, n: nat): Ctx
    requires n <= |mws|
  {
    if n == 0 then ctx else mw(mws[n - 1], params, CtxAfter(mws, params, ctx, mw, n - 1)).ctx
  }

  /** What trying one route does: a route of another method is skipped before `matchPath` runs. */
  function RouteOutcome(r: RouteDef, verb: string, path: string, decode: Decoder): MatchResult {
    if r.verb != verb then Mismatch else MatchOf(Segments(r.path), Segments(path), decode)
  }

  /**
   * The route list scanned in order: the first route that does not mismatch
   * decides. A match answers, with fresh params and `{}` as context; a URIError
   * from `decodeURIComponent` leaves `handle` as a thrown error; null when no
   * route matches.
   */
  function Dispatch(routes: seq<RouteDef>, verb: string, path: string, decode: Decoder, mw: MiddlewareFn, h: HandlerFn): Result<Option<Response>>
    decreases |routes|
  {
    if |routes| == 0 then Ok(None)
    else
      var r := routes[0];
      match RouteOutcome(r, verb, path, decode)
      case Mismatch => Dispatch(routes[1..], verb, path, decode, mw, h)
      case Malformed => Err(UriMalformed)
      case Match => Ok(Some(RunChain(r.middlewares, r.handler, Bind(Segments(r.path), Segments(path), decode), EmptyCtx, mw, h)))
  }

  /** The route `use` registers for one child route. */
  function MountRoute(base: string, r: RouteDef, mws: seq<MiddlewareId>): RouteDef {
    RouteDef(r.verb, MountPath(base, r.path), r.handler, mws + r.middlewares)
  }

  /** The routes `use` appends, one per child route in the child's order. */
  function Mounted(base: string, child: seq<RouteDef>, mws: seq<MiddlewareId>): seq<RouteDef>
    decreases |child|
  {
    if |child| == 0 then [] else Mounted(base, child[..|child| - 1], mws) + [MountRoute(base, child[|child| - 1], mws)]
  }

  /** One more child route mounts one more route at the end. */
  lemma MountedStep(base: string, child: seq<RouteDef>, mws: seq<MiddlewareId>, k: nat)
    requires k < |child|
    ensures Mounted(base, child[..k + 1], mws) == Mounted(base, child[..k], mws) + [MountRoute(base, child[k], mws)]
  {
    assert child[..k + 1][..k] == child[..k];
  }

  lemma {:induction false} MountedAt(base: string, child: seq<RouteDef>, mws: seq<MiddlewareId>, k: nat)
    requires k < |child|
    ensures |Mounted(base, child, mws)| == |child|
    ensures Mounted(base, child, mws)[k] == MountRoute(base, child[k], mws)
    decreases |child|
  {
    if k < |child| - 1 {
      MountedAt(base, child[..|child| - 1], mws, k);
    } else {
      MountedLength(base, child[..|child| - 1], mws);
    }
  }

  lemma {:induction false} MountedLength(base: string, child: seq<RouteDef>, mws: seq<MiddlewareId>)
    ensures |Mounted(base, child, mws)| == |child|
    decreases |child|
  {
    if |child| > 0 {
      MountedLength(base, child[..|child| - 1], mws);
    }
  }

  class Router {
    var routes: seq<RouteDef>

    constructor ()
      ensures routes == []
    {
      routes := [];
    }

    /** `add`: one route appended, method upper-cased and path normalised; earlier routes untouched. */
    method Add(verb: string, path: string, handler: HandlerId, middlewares: seq<MiddlewareId>)
      modifies this
      ensures routes == old(routes) + [RouteDef(Upper(verb), NormalizePath(path), handler, middlewares)]
    {
      var normalized := NormalizePath(path);
      routes := routes + [RouteDef(Upper(verb), normalized, handler, middlewares)];
    }

    /**
     * `use`: one route per child route, in the child's order, mounted under the
     * normalised prefix with the parent middlewares ahead of the child's. The
     * child's list is read before anything is appended, so mounting a router
     * into itself copies its old routes once.
     */
    method Use(prefix: string, child: Router, middlewares: seq<MiddlewareId>)
      modifies this
      ensures routes == old(routes) + Mounted(NormalizePath(prefix), old(child.routes), middlewares)
    {
      var base := NormalizePath(prefix);
      var childRoutes := child.GetRoutes();
      var k := 0;
      while k < |childRoutes|
        invariant 0 <= k <= |childRoutes|
        invariant routes == old(routes) + Mounted(base, childRoutes[..k], middlewares)
      {
        MountedStep(base, childRoutes, middlewares, k);
        AppendAssoc(old(routes), Mounted(base, childRoutes[..k], middlewares), [MountRoute(base, childRoutes[k], middlewares)]);
        routes := routes + [MountRoute(base, childRoutes[k], middlewares)];
        k := k + 1;
      }
      assert childRoutes[..k] == childRoutes;
    }

    /** `getRoutes`: a copy of the route list. */
    method GetRoutes() returns (rs: seq<RouteDef>)
      ensures rs == routes
    {
      rs := routes;
    }

    /**
     * `handle`: OPTIONS is answered before any route is looked at; otherwise
     * the first route, in registration order, whose method and path match
     * answers through its middleware chain, and null means nothing matched.
     * A parameter segment that does not decode throws out of `handle`.
     */
    method Handle(verb: string, path: string, decode: Decoder, mw: MiddlewareFn, h: HandlerFn)
      returns (res: Result<Option<Response>>)
      ensures Upper(verb) == "OPTIONS" ==> res == Ok(Some(Preflight))
      ensures Upper(verb) != "OPTIONS" ==> res == Dispatch(routes, Upper(verb), NormalizePath(path), decode, mw, h)
    {
      var normalizedPath := NormalizePath(path);
      var upperMethod := Upper(verb);
      if upperMethod == "OPTIONS" {
        return Ok(Some(Preflight));
      }
      var i := 0;
      while i < |routes|
        invariant 0 <= i <= |routes|
        invariant Dispatch(routes, upperMethod, normalizedPath, decode, mw, h)
          == Dispatch(routes[i..], upperMethod, normalizedPath, decode, mw, h)
      {
        var route := routes[i];
        assert routes[i..][0] == route && routes[i..][1..] == routes[i + 1..];
        if route.verb != upperMethod {
          i := i + 1;
          continue;
        }
        var m, params, _ := MatchPath(route.path, normalizedPath, decode, map[]);
        assert m == RouteOutcome(route, upperMethod, normalizedPath, decode);
        if m == Malformed {
          return Err(UriMalformed);
        }
        if m == Mismatch {
          i := i + 1;
          continue;
        }
        assert params == Bind(Segments(route.path), Segments(normalizedPath), decode);
        var answer := RunRoute(route.middlewares, route.handler, params, mw, h);
        return Ok(Some(answer));
      }
      return Ok(None);
    }
  }

  /** The middlewares of a matched route in order, then its handler: the loop inside `handle`. */
  method RunRoute(mws: seq<MiddlewareId>, handler: HandlerId, params: Params, mw: MiddlewareFn, h: HandlerFn)
    returns (res: Response)
    ensures res == RunChain(mws, handler, params, EmptyCtx, mw, h)
  {
    var ctx := EmptyCtx;
    var j := 0;
    while j < |mws|
      invariant 0 <= j <= |mws|
      invariant RunChain(mws, handler, params, EmptyCtx, mw, h) == RunChain(mws[j..], handler, params, ctx, mw, h)
    {
      assert mws[j..][1..] == mws[j + 1..];
      var step := mw(mws[j], params, ctx);
      if step.response.Some? {
        return step.response.value;
      }
      ctx := step.ctx;
      j := j + 1;
    }
    res := h(handler, params, ctx);
  }

  /** Every mounted route's segments are the prefix's segments followed by the child route's. */
  lemma MountedSegments(prefix: string, child: seq<RouteDef>, mws: seq<MiddlewareId>, k: nat)
    requires k < |child|
    ensures |Mounted(NormalizePath(prefix), child, mws)| == |child|
    ensures Segments(Mounted(NormalizePath(prefix), child, mws)[k].path) == Segments(prefix) + Segments(child[k].path)
  {
    var base := NormalizePath(prefix);
    MountedAt(base, child, mws, k);
    assert Mounted(base, child, mws)[k].path == MountPath(base, child[k].path);
    MountPathSegments(base, child[k].path);
    SegmentsIgnoreNormalize(prefix);
    SegmentsIgnoreNormalize(base);
    NormalizePathIdempotent(prefix);
  }

  /** The first matching route answers, whatever the routes after it. */
  lemma {:induction false} DispatchFirstMatch(routes: seq<RouteDef>, verb: string, path: string, decode: Decoder, mw: MiddlewareFn, h: HandlerFn, k: nat)
    requires k < |routes| && RouteOutcome(routes[k], verb, path, decode) == Match
    requires forall j :: 0 <= j < k ==> RouteOutcome(routes[j], verb, path, decode) == Mismatch
    ensures Dispatch(routes, verb, path, decode, mw, h)
      == Ok(Some(RunChain(routes[k].middlewares, routes[k].handler, Bind(Segments(routes[k].path), Segments(path), decode), EmptyCtx, mw, h)))
    decreases k
  {
    if k > 0 {
      DispatchFirstMatch(routes[1..], verb, path, decode, mw, h, k - 1);
    }
  }

  /** A malformed escape in the first route that does not mismatch throws, whatever the routes after it. */
  lemma {:induction false} DispatchFirstMalformed(routes: seq<RouteDef>, verb: string, path: string, decode: Decoder, mw: MiddlewareFn, h: HandlerFn, k: nat)
    requires k < |routes| && RouteOutcome(routes[k], verb, path, decode) == Malformed
    requires forall j :: 0 <= j < k ==> RouteOutcome(routes[j], verb, path, decode) == Mismatch
    ensures Dispatch(routes, verb, path, decode, mw, h) == Err(UriMalformed)
    decreases k
  {
    if k > 0 {
      DispatchFirstMalformed(routes[1..], verb, path, decode, mw, h, k - 1);
    }
  }

  /** Dispatch answers null exactly when every route mismatches method or path. */
  lemma {:induction false} DispatchNone(routes: seq<RouteDef>, verb: string, path: string, decode: Decoder, mw: MiddlewareFn, h: HandlerFn)
    ensures Dispatch(routes, verb, path, decode, mw, h) == Ok(None) <==> forall j :: 0 <= j < |routes| ==> RouteOutcome(routes[j], verb, path, decode) == Mismatch
    decreases |routes|
  {
    if |routes| > 0 {
      if RouteOutcome(routes[0], verb, path, decode) == Mismatch {
        DispatchNone(routes[1..], verb, path, decode, mw, h);
        assert Dispatch(routes, verb, path, decode, mw, h) == Dispatch(routes[1..], verb, path, decode, mw, h);
        assert forall j :: 1 <= j < |routes| ==> routes[j] == routes[1..][j - 1];
      } else {
        assert Dispatch(routes, verb, path, decode, mw, h) != Ok(None);
      }
    }
  }

  /** The chain stops at the first middleware that answers, and the handler is not called. */
  lemma {:induction false} ChainStopsAtFirstResponse(mws: seq<MiddlewareId>, handler: HandlerId, params: Params, ctx: Ctx, mw: MiddlewareFn, h: HandlerFn, k: nat)
    requires k < |mws|
    requires forall j :: 0 <= j < k ==> mw(mws[j], params, CtxAfter(mws, params, ctx, mw, j)).response.None?
    requires mw(mws[k], params, CtxAfter(mws, params, ctx, mw, k)).response.Some?
    ensures RunChain(mws, handler, params, ctx, mw, h) == mw(mws[k], params, CtxAfter(mws, params, ctx, mw, k)).response.value
  {
    var j := 0;
    while j < k
      invariant 0 <= j <= k
      invariant RunChain(mws, handler, params, ctx, mw, h) == RunChain(mws[j..], handler, params, CtxAfter(mws, params, ctx, mw, j), mw, h)
    {
      assert mws[j..][1..] == mws[j + 1..];
      j := j + 1;
    }
  }

  /** When no middleware answers, the handler gets the same params and the context they left. */
  lemma {:induction false} ChainReachesHandler(mws: seq<MiddlewareId>, handler: HandlerId, params: Params, ctx: Ctx, mw: MiddlewareFn, h: HandlerFn)
    requires forall j :: 0 <= j < |mws| ==> mw(mws[j], params, CtxAfter(mws, params, ctx, mw, j)).response.None?
    ensures RunChain(mws, handler, params, ctx, mw, h) == h(handler, params, CtxAfter(mws, params, ctx, mw, |mws|))
  {
    var j := 0;
    while j < |mws|
      invariant 0 <= j <= |mws|
      invariant RunChain(mws, handler, params, ctx, mw, h) == RunChain(mws[j..], handler, params, CtxAfter(mws, params, ctx, mw, j), mw, h)
    {
      assert mws[j..][1..] == mws[j + 1..];
      j := j + 1;
    }
  }
}

=== FILE: paths.dfy ===
/**
 * Path handling shared by the segment routers (`routes/router.ts`):
 * `normalizePath`, segment splitting and `matchPath` with `:name` parameters.
 */
module Paths {
  import opened Wrappers
  import opened Text

  /** Route parameters bound by `:name` segments. */
  type Params = map<string, string>

  function StripLeadingSlashes(s: string): (r: string)
    ensures |r| <= |s|
    ensures r == s[|s| - |r|..]
    ensures r == [] || r[0] != '/'
    ensures forall i :: 0 <= i < |s| - |r| ==> s[i] == '/'
  {
    if |s| > 0 && s[0] == '/' then StripLeadingSlashes(s[1..]) else s
  }

  function StripTrailingSlashes(s: string): (r: string)
    ensures |r| <= |s|
    ensures r == s[..|r|]
    ensures r == [] || r[|r| - 1] != '/'
    ensures forall i :: |r| <= i < |s| ==> s[i] == '/'
  {
    if |s| > 0 && s[|s| - 1] == '/' then StripTrailingSlashes(s[..|s| - 1]) else s
  }

  /** `path.replace(/^\/+|\/+$/g, "")`: the result neither starts nor ends with '/'. */
  function NormalizePath(p: string): (r: string)
    ensures |r| <= |p|
    ensures r == [] || (r[0] != '/' && r[|r| - 1] != '/')
  {
    StripTrailingSlashes(StripLeadingSlashes(p))
  }

  /** Only slashes are removed, from the two ends: the result is `p[lo..lo + |r|]`. */
  lemma NormalizePathSlice(p: string) returns (lo: nat)
    ensures lo + |NormalizePath(p)| <= |p|
    ensures NormalizePath(p) == p[lo..lo + |NormalizePath(p)|]
    ensures forall i :: 0 <= i < lo ==> p[i] == '/'
    ensures forall i :: lo + |NormalizePath(p)| <= i < |p| ==> p[i] == '/'
  {
    var a := StripLeadingSlashes(p);
    var r := StripTrailingSlashes(a);
    lo := |p| - |a|;
    assert a == p[lo..];
    assert r == a[..|r|];
    forall i | lo + |r| <= i < |p| ensures p[i] == '/' {
      assert p[i] == a[i - lo];
    }
  }

  lemma {:induction false} StripLeadingIdle(s: string)
    requires s == [] || s[0] != '/'
    ensures StripLeadingSlashes(s) == s
  {
  }

  /** Normalising twice is normalising once. */
  lemma NormalizePathIdempotent(p: string)
    ensures NormalizePath(NormalizePath(p)) == NormalizePath(p)
  {
    var r := NormalizePath(p);
    StripLeadingIdle(r);
    assert StripTrailingSlashes(r) == r;
  }

  /** Inner text is kept: a path without slashes at its ends is already normal. */
  lemma NormalizePathKeepsInner(p: string)
    requires p == [] || (p[0] != '/' && p[|p| - 1] != '/')
    ensures NormalizePath(p) == p
  {
    StripLeadingIdle(p);
  }

  /** `normalizePath(p).split("/").filter(Boolean)` */
  function Segments(p: string): seq<string> {
    NonEmpty(Split(NormalizePath(p), '/'))
  }

  lemma {:induction false} StripLeadingSegments(s: string)
    ensures NonEmpty(Split(StripLeadingSlashes(s), '/')) == NonEmpty(Split(s, '/'))
    decreases |s|
  {
    if |s| > 0 && s[0] == '/' {
      StripLeadingSegments(s[1..]);
      assert Split(s, '/') == [""] + Split(s[1..], '/');
    }
  }

  lemma {:induction false} StripTrailingSegments(s: string)
    ensures NonEmpty(Split(StripTrailingSlashes(s), '/')) == NonEmpty(Split(s, '/'))
    decreases |s|
  {
    if |s| > 0 && s[|s| - 1] == '/' {
      var t := s[..|s| - 1];
      StripTrailingSegments(t);
      assert s == t + ['/'] + "";
      SplitConcat(t, "", '/');
      NonEmptyConcat(Split(t, '/'), Split("", '/'));
    }
  }

  /** Normalisation never changes the segments: only empty pieces are dropped. */
  lemma SegmentsIgnoreNormalize(p: string)
    ensures Segments(p) == NonEmpty(Split(p, '/'))
  {
    StripTrailingSegments(StripLeadingSlashes(p));
    StripLeadingSegments(p);
  }

  /** `s.replace(/\/+/g, "/")`: every run of slashes becomes one. */
  function CollapseSlashes(s: string): (r: string)
    ensures |r| <= |s|
    decreases |s|
  {
    if |s| <= 1 then s
    else if s[0] == '/' && s[1] == '/' then CollapseSlashes(s[1..])
    else [s[0]] + CollapseSlashes(s[1..])
  }

  lemma {:induction false} CollapseSplit(s: string)
    ensures Split(CollapseSlashes(s), '/')[0] == Split(s, '/')[0]
    ensures NonEmpty(Split(CollapseSlashes(s), '/')[1..]) == NonEmpty(Split(s, '/')[1..])
    decreases |s|
  {
    if |s| <= 1 {
    } else if s[0] == '/' && s[1] == '/' {
      CollapseSplit(s[1..]);
      assert Split(s, '/') == [""] + Split(s[1..], '/');
      assert Split(s[1..], '/') == [""] + Split(s[2..], '/');
      assert s[1..][1..] == s[2..];
    } else {
      var t := s[1..];
      var c := CollapseSlashes(t);
      CollapseSplit(t);
      assert CollapseSlashes(s) == [s[0]] + c;
      assert ([s[0]] + c)[1..] == c;
      var st, sc := Split(t, '/'), Split(c, '/');
      if s[0] == '/' {
        assert Split(s, '/') == [""] + st;
        assert Split(CollapseSlashes(s), '/') == [""] + sc;
        assert st == [st[0]] + st[1..];
        assert sc == [sc[0]] + sc[1..];
      } else {
        assert Split(s, '/') == [[s[0]] + st[0]] + st[1..];
        assert Split(CollapseSlashes(s), '/') == [[s[0]] + sc[0]] + sc[1..];
      }
    }
  }

  /** Collapsing runs of slashes never changes the non-empty segments. */
  lemma CollapseSegments(s: string)
    ensures NonEmpty(Split(CollapseSlashes(s), '/')) == NonEmpty(Split(s, '/'))
  {
    CollapseSplit(s);
    var a, b := Split(CollapseSlashes(s), '/'), Split(s, '/');
    assert a == [a[0]] + a[1..];
    assert b == [b[0]] + b[1..];
  }

  /**
   * The path `use` gives a child route mounted under `base`: the two are
   * joined with one slash, runs of slashes collapse, and the result is
   * normalised; a child with an empty path takes the base path itself.
   */
  function MountPath(base: string, child: string): string {
    NormalizePath(if child != "" then CollapseSlashes(base + "/" + child) else base)
  }

  /** Joining two paths with one slash and collapsing runs keeps both segment lists. */
  lemma JoinedSegments(base: string, child: string)
    ensures NonEmpty(Split(CollapseSlashes(base + "/" + child), '/'))
         == NonEmpty(Split(base, '/')) + NonEmpty(Split(child, '/'))
  {
    var s := base + "/" + child;
    CollapseSegments(s);
    assert s == base + ['/'] + child;
    SplitConcat(base, child, '/');
    NonEmptyConcat(Split(base, '/'), Split(child, '/'));
  }

  /** Mounting concatenates segment lists: "scorecard" + "list" is "scorecard/list". */
  lemma MountPathSegments(base: string, child: string)
    ensures Segments(MountPath(base, child)) == Segments(base) + Segments(child)
  {
    var joined := if child != "" then CollapseSlashes(base + "/" + child) else base;
    SegmentsIgnoreNormalize(joined);
    NormalizePathIdempotent(joined);
    SegmentsIgnoreNormalize(base);
    SegmentsIgnoreNormalize(child);
    if child != "" {
      JoinedSegments(base, child);
    } else {
      assert Segments(child) == [];
    }
  }

  /** A route segment `:name` binds a parameter. */
  predicate IsParam(seg: string) {
    StartsWith(seg, ":")
  }

  /** Literal segments must be equal; parameter segments match anything. */
  predicate SegmentsMatch(rs: seq<string>, us: seq<string>) {
    |rs| == |us| && forall i :: 0 <= i < |rs| ==> IsParam(rs[i]) || rs[i] == us[i]
  }

  /**
   * `decodeURIComponent`: the decoded text, or None when it throws a URIError
   * (a malformed percent escape such as "%E0%A4%A").
   */
  type Decoder = string -> Option<string>

  /** The message of the URIError `decodeURIComponent` throws. */
  const UriMalformed := "URI malformed"

  /** What one run of `matchPath` does: returns true, returns false, or throws from `decodeURIComponent`. */
  datatype MatchResult = Match | Mismatch | Malformed

  /** Segment i lets the loop go on: a parameter whose request segment decodes, or an equal literal. */
  predicate Passes(rs: seq<string>, us: seq<string>, decode: Decoder, i: nat)
    requires i < |rs| && i < |us|
  {
    if IsParam(rs[i]) then decode(us[i]).Some? else rs[i] == us[i]
  }

  /** Every segment before n lets the loop go on. */
  predicate PassAll(rs: seq<string>, us: seq<string>, decode: Decoder, n: nat)
    requires n <= |rs| && n <= |us|
  {
    forall j :: 0 <= j < n ==> Passes(rs, us, decode, j)
  }

  /** Every parameter segment before n decodes. */
  predicate Decodes(rs: seq<string>, us: seq<string>, decode: Decoder, n: nat)
    requires n <= |rs| && n <= |us|
  {
    forall j :: 0 <= j < n && IsParam(rs[j]) ==> decode(us[j]).Some?
  }

  /** Segments that all pass have all their parameters decoded. */
  lemma PassAllDecodes(rs: seq<string>, us: seq<string>, decode: Decoder, n: nat)
    requires n <= |rs| && n <= |us| && PassAll(rs, us, decode, n)
    ensures Decodes(rs, us, decode, n)
  {
    forall j | 0 <= j < n && IsParam(rs[j])
      ensures decode(us[j]).Some?
    {
      assert Passes(rs, us, decode, j);
    }
  }

  /** Where the loop of `matchPath` stops, looking from segment i on: the first segment that does not pass, or the end. */
  function StopAt(rs: seq<string>, us: seq<string>, decode: Decoder, i: nat): (s: nat)
    requires |rs| == |us| && i <= |rs|
    ensures i <= s <= |rs|
    ensures forall j :: i <= j < s ==> Passes(rs, us, decode, j)
    ensures s < |rs| ==> !Passes(rs, us, decode, s)
    decreases |rs| - i
  {
    if i == |rs| || !Passes(rs, us, decode, i) then i else StopAt(rs, us, decode, i + 1)
  }

  /**
   * `matchPath` as a value: a different segment count is a mismatch; otherwise
   * the segments are walked in order, and the first one that does not pass
   * decides: a literal that differs gives false, a parameter that does not
   * decode throws. A throw can come before a literal mismatch further on.
   */
  function MatchOf(rs: seq<string>, us: seq<string>, decode: Decoder): (r: MatchResult)
    ensures r == Match <==> SegmentsMatch(rs, us) && Decodes(rs, us, decode, |rs|)
    ensures r == Malformed <==> |rs| == |us| && exists k :: 0 <= k < |rs| && IsParam(rs[k]) && decode(us[k]).None? && PassAll(rs, us, decode, k)
    ensures r == Mismatch <==> |rs| != |us| || exists k :: 0 <= k < |rs| && !IsParam(rs[k]) && rs[k] != us[k] && PassAll(rs, us, decode, k)
  {
    if |rs| != |us| then Mismatch
    else
      var s := StopAt(rs, us, decode, 0);
      StopAtUnique(rs, us, decode);
      if s == |rs| then Match
      else if IsParam(rs[s]) then Malformed
      else Mismatch
  }

  /** The loop stops at the first failing segment, so any k that fails with all before it passing is that segment. */
  lemma StopAtUnique(rs: seq<string>, us: seq<string>, decode: Decoder)
    requires |rs| == |us|
    ensures forall k :: 0 <= k < |rs| && !Passes(rs, us, decode, k) && PassAll(rs, us, decode, k) ==> k == StopAt(rs, us, decode, 0)
    ensures StopAt(rs, us, decode, 0) == |rs| <==> SegmentsMatch(rs, us) && Decodes(rs, us, decode, |rs|)
  {
    var s := StopAt(rs, us, decode, 0);
    forall k | 0 <= k < |rs| && !Passes(rs, us, decode, k) && PassAll(rs, us, decode, k)
      ensures k == s
    {
    }
    if s == |rs| {
      PassAllDecodes(rs, us, decode, |rs|);
      forall i | 0 <= i < |rs|
        ensures IsParam(rs[i]) || rs[i] == us[i]
      {
        assert Passes(rs, us, decode, i);
      }
    }
  }

  /** The params after the first n segment pairs are processed, in order; every parameter before n decodes. */
  function BindPrefix(params: Params, rs: seq<string>, us: seq<string>, decode: Decoder, n: nat): Params
    requires n <= |rs| && n <= |us| && Decodes(rs, us, decode, n)
  {
    if n == 0 then params
    else
      var p := BindPrefix(params, rs, us, decode, n - 1);
      if IsParam(rs[n - 1]) then p[rs[n - 1][1..] := decode(us[n - 1]).value] else p
  }

  /** A parameter segment that no later segment rebinds ends up holding its decoded request segment. */
  lemma {:induction false} BindPrefixParam(params: Params, rs: seq<string>, us: seq<string>, decode: Decoder, n: nat, i: nat)
    requires i < n <= |rs| && n <= |us| && Decodes(rs, us, decode, n) && IsParam(rs[i])
    requires forall j :: i < j < n && IsParam(rs[j]) ==> rs[j][1..] != rs[i][1..]
    ensures rs[i][1..] in BindPrefix(params, rs, us, decode, n)
    ensures Some(BindPrefix(params, rs, us, decode, n)[rs[i][1..]]) == decode(us[i])
    decreases n
  {
    if n - 1 > i {
      BindPrefixParam(params, rs, us, decode, n - 1, i);
    }
  }

  /** Only `:name` segments add keys, and keys the route does not name are untouched. */
  lemma {:induction false} BindPrefixOther(params: Params, rs: seq<string>, us: seq<string>, decode: Decoder, n: nat, key: string)
    requires n <= |rs| && n <= |us| && Decodes(rs, us, decode, n)
    requires forall j :: 0 <= j < n && IsParam(rs[j]) ==> rs[j][1..] != key
    ensures (key in BindPrefix(params, rs, us, decode, n)) == (key in params)
    ensures key in params ==> BindPrefix(params, rs, us, decode, n)[key] == params[key]
    decreases n
  {
    if n > 0 {
      BindPrefixOther(params, rs, us, decode, n - 1, key);
    }
  }

  /**
   * `matchPath(routePath, requestPath, params)`: the outcome is `MatchOf` of
   * the two segment lists (true, false, or a URIError thrown by
   * `decodeURIComponent`); the loop writes each `:name` binding into `params`
   * as it goes, so `stop` records how far it got before returning or throwing.
   */
  method MatchPath(routePath: string, requestPath: string, decode: Decoder, params0: Params)
    returns (m: MatchResult, params: Params, ghost stop: nat)
    ensures m == MatchOf(Segments(routePath), Segments(requestPath), decode)
    ensures stop <= |Segments(routePath)| && stop <= |Segments(requestPath)|
    ensures Decodes(Segments(routePath), Segments(requestPath), decode, stop)
    ensures params == BindPrefix(params0, Segments(routePath), Segments(requestPath), decode, stop)
    ensures m == Match ==> stop == |Segments(routePath)|
  {
    m, params, stop := MatchSegments(Segments(routePath), Segments(requestPath), decode, params0);
  }

  /** The loop of `matchPath`, over the two segment lists. */
  method MatchSegments(rs: seq<string>, us: seq<string>, decode: Decoder, params0: Params)
    returns (m: MatchResult, params: Params, ghost stop: nat)
    ensures m == MatchOf(rs, us, decode)
    ensures stop <= |rs| && stop <= |us|
    ensures Decodes(rs, us, decode, stop)
    ensures params == BindPrefix(params0, rs, us, decode, stop)
    ensures m == Match ==> stop == |rs|
  {
    params := params0;
    stop := 0;
    if |rs| != |us| {
      return Mismatch, params, stop;
    }
    var i := 0;
    while i < |rs|
      invariant 0 <= i <= |rs|
      invariant PassAll(rs, us, decode, i)
      invariant StopAt(rs, us, decode, 0) == StopAt(rs, us, decode, i)
      invariant Decodes(rs, us, decode, i)
      invariant params == BindPrefix(params0, rs, us, decode, i)
    {
      var r, u := rs[i], us[i];
      if StartsWith(r, ":") {
        var d := decode(u);
        if d.None? {
          return Malformed, params, i;
        }
        params := params[r[1..] := d.value];
      } else if r != u {
        return Mismatch, params, i;
      }
      assert Passes(rs, us, decode, i);
      PassAllDecodes(rs, us, decode, i + 1);
      i := i + 1;
    }
    return Match, params, i;
  }

  /** Different numbers of non-empty segments never match. */
  lemma SegmentCountMismatch(routePath: string, requestPath: string)
    requires |Segments(routePath)| != |Segments(requestPath)|
    ensures !SegmentsMatch(Segments(routePath), Segments(requestPath))
  {
  }

  /** A request whose segments all decode never throws: the route matches or not as the segments say. */
  lemma DecodableNeverThrows(rs: seq<string>, us: seq<string>, decode: Decoder)
    requires forall u :: u in us ==> decode(u).Some?
    ensures MatchOf(rs, us, decode) != Malformed
    ensures MatchOf(rs, us, decode) == Match <==> SegmentsMatch(rs, us)
  {
  }

  /** A literal mismatch before an undecodable parameter gives false, not a throw. */
  lemma MismatchBeforeMalformed(rs: seq<string>, us: seq<string>, decode: Decoder, k: nat)
    requires |rs| == |us| && k < |rs| && !IsParam(rs[k]) && rs[k] != us[k] && PassAll(rs, us, decode, k)
    ensures MatchOf(rs, us, decode) == Mismatch
  {
  }
}

=== FILE: people.dfy ===
/**
 * The athlete and coach services: `buildFullName`, the row-to-DTO mappers
 * (the athlete's teams are collected in a loop, first id wins), the
 * guardian decisions of `createAthlete`, the extraction of the new id from
 * the create RPC's result, and `updateAthlete`/`updateCoach` over a table
 * of rows keyed by id.
 */
module People {
  import opened Wrappers
  import opened Text
  import opened Json
  import opened Dedup
  import opened Patches

  // ---------------------------------------------------------------------------
  // buildFullName

  /** A name part after `trim()`, kept only when something remains. */
  function NamePart(part: Option<string>): (r: seq<string>)
    ensures |r| <= 1
  {
    if part.Some? && Trim(part.value) != "" then [Trim(part.value)] else []
  }

  /** A name part that contributes nothing: missing, or blank once trimmed. */
  predicate BlankPart(part: Option<string>) {
    part.None? || IsBlank(part.value)
  }

  /** `buildFullName(first, last)`: the trimmed, non-empty parts joined by one space, or `null`. */
  function BuildFullName(first: Option<string>, last: Option<string>): (r: Option<string>)
    ensures r.None? <==> BlankPart(first) && BlankPart(last)
  {
    var parts := NamePart(first) + NamePart(last);
    if |parts| == 0 then None else Some(JoinWith(parts, " "))
  }

  /** The full name in each case: both parts with one space between them, or the one non-blank part. */
  lemma FullNameCases(first: Option<string>, last: Option<string>)
    ensures !BlankPart(first) && !BlankPart(last) ==>
      BuildFullName(first, last) == Some(Trim(first.value) + " " + Trim(last.value))
    ensures !BlankPart(first) && BlankPart(last) ==> BuildFullName(first, last) == Some(Trim(first.value))
    ensures BlankPart(first) && !BlankPart(last) ==> BuildFullName(first, last) == Some(Trim(last.value))
  {
    var parts := NamePart(first) + NamePart(last);
    if !BlankPart(first) && !BlankPart(last) {
      assert parts == [Trim(first.value), Trim(last.value)];
      JoinWithTwo(Trim(first.value), Trim(last.value), " ");
    } else if !BlankPart(first) {
      assert parts == [Trim(first.value)];
    } else if !BlankPart(last) {
      assert parts == [Trim(last.value)];
    }
  }

  /** A full name is never empty and has no white space at either end. */
  lemma FullNameTrimmed(first: Option<string>, last: Option<string>)
    ensures var r := BuildFullName(first, last);
      r.Some? ==> r.value != "" && Trim(r.value) == r.value
  {
    FullNameCases(first, last);
    if !BlankPart(first) && !BlankPart(last) {
      var a, b := Trim(first.value), Trim(last.value);
      var s := a + " " + b;
      assert s[0] == a[0] && s[|s| - 1] == b[|b| - 1];
      TrimIdle(s);
    } else if !BlankPart(first) {
      TrimIdempotent(first.value);
    } else if !BlankPart(last) {
      TrimIdempotent(last.value);
    }
  }

  /** `full_name ?? buildFullName(first_name, last_name)` in `createAthlete` and `createCoach`. */
  function CreateFullName(fullName: Option<Json>, first: Option<string>, last: Option<string>): (r: Json)
    ensures fullName.Some? && fullName.value != JNull ==> r == fullName.value
  {
    var built := BuildFullName(first, last);
    OrDefault(fullName, if built.Some? then JStr(built.value) else JNull)
  }

  /** A missing or null full name is built from the parts, `null` when both are blank. */
  lemma CreateFullNameBuilt(fullName: Option<Json>, first: Option<string>, last: Option<string>)
    requires fullName.None? || fullName == Some(JNull)
    ensures BlankPart(first) && BlankPart(last) ==> CreateFullName(fullName, first, last) == JNull
    ensures !(BlankPart(first) && BlankPart(last)) ==>
      CreateFullName(fullName, first, last) == JStr(BuildFullName(first, last).value)
  {
  }

  // ---------------------------------------------------------------------------
  // mapAthleteRow and mapCoachRow

  /** `Array.isArray(v) ? v : v ? [v] : []`: an embedded relation as a list of rows. */
  function EmbeddedRows(v: Option<Json>): (r: seq<Json>)
    ensures v.Some? && v.value.JArr? ==> r == v.value.items
    ensures v.Some? && !v.value.JArr? && Truthy(v.value) ==> r == [v.value]
    ensures v.None? || !Truthy(v.value) ==> r == []
  {
    if v.Some? && v.value.JArr? then v.value.items
    else if v.Some? && Truthy(v.value) then [v.value]
    else []
  }

  datatype TeamDto = TeamDto(id: string, name: Json)

  function TeamId(t: TeamDto): string {
    t.id
  }

  /** A membership whose status is set (truthy) and is not "active" is skipped. */
  predicate InactiveMembership(item: Json) {
    var status := OrNull(Get(item, "status"));
    Truthy(status) && status != JStr("active")
  }

  /** `item?.team_id ?? team?.id ?? null`. */
  function TeamIdOf(item: Json): Json {
    OrNull(OrElse(Get(item, "team_id"), GetIn(Get(item, "team"), "id")))
  }

  /**
   * The team a membership row contributes, before de-duplication: none when
   * it is inactive or names no team (team ids are UUID strings).
   */
  function TeamOf(item: Json): (r: Option<TeamDto>)
    ensures r.Some? ==> !InactiveMembership(item) && TeamIdOf(item) == JStr(r.value.id) && r.value.id != ""
    ensures r.None? ==> InactiveMembership(item) || !(TeamIdOf(item).JStr? && Truthy(TeamIdOf(item)))
  {
    if InactiveMembership(item) then None
    else
      var teamId := TeamIdOf(item);
      if teamId.JStr? && Truthy(teamId) then Some(TeamDto(teamId.s, OrNull(GetIn(Get(item, "team"), "name"))))
      else None
  }

  /** The teams of the memberships, in order, duplicates included. */
  function TeamEntries(items: seq<Json>): (r: seq<TeamDto>)
    ensures |r| <= |items|
    decreases |items|
  {
    if |items| == 0 then []
    else
      var n := |items| - 1;
      var entry := TeamOf(items[n]);
      TeamEntries(items[..n]) + (if entry.Some? then [entry.value] else [])
  }

  /** One more membership adds its team, if it has one. */
  lemma TeamEntriesSnoc(items: seq<Json>, n: nat)
    requires n < |items|
    ensures TeamEntries(items[..n + 1])
      == TeamEntries(items[..n]) + (if TeamOf(items[n]).Some? then [TeamOf(items[n]).value] else [])
  {
    assert items[..n + 1][..n] == items[..n];
  }

  /** `Array.from(teamsById.values())`: each team id once, first membership wins, in first-seen order. */
  function Teams(items: seq<Json>): seq<TeamDto> {
    FirstByKey(TeamEntries(items), TeamId)
  }

  /** A team is an entry exactly when some membership contributes it. */
  lemma {:induction false} TeamEntriesMembers(items: seq<Json>, t: TeamDto)
    ensures t in TeamEntries(items) <==> exists i :: 0 <= i < |items| && TeamOf(items[i]) == Some(t)
    decreases |items|
  {
    if |items| > 0 {
      var n := |items| - 1;
      var p := items[..n];
      TeamEntriesMembers(p, t);
      assert forall i :: 0 <= i < n ==> p[i] == items[i];
      assert t in TeamEntries(items) <==> t in TeamEntries(p) || TeamOf(items[n]) == Some(t);
    }
  }

  /**
   * The teams of an athlete: no id twice; every team comes from an active
   * (or status-less) membership; and every such membership's team id is listed.
   */
  lemma TeamsSpec(items: seq<Json>)
    ensures forall i, j :: 0 <= i < j < |Teams(items)| ==> Teams(items)[i].id != Teams(items)[j].id
    ensures forall t :: t in Teams(items) ==> exists i :: 0 <= i < |items| && TeamOf(items[i]) == Some(t)
    ensures forall i :: 0 <= i < |items| && TeamOf(items[i]).Some? ==> TeamOf(items[i]).value.id in KeysOf(Teams(items), TeamId)
  {
    var entries := TeamEntries(items);
    FirstByKeyKeys(entries, TeamId);
    forall t | t in Teams(items)
      ensures exists i :: 0 <= i < |items| && TeamOf(items[i]) == Some(t)
    {
      FirstByKeySubset(entries, TeamId, t);
      TeamEntriesMembers(items, t);
    }
    forall i | 0 <= i < |items| && TeamOf(items[i]).Some?
      ensures TeamOf(items[i]).value.id in KeysOf(Teams(items), TeamId)
    {
      TeamEntriesMembers(items, TeamOf(items[i]).value);
    }
  }

  /** Kept elements are elements. */
  lemma {:induction false} FirstByKeySubset<T>(xs: seq<T>, key: T -> string, x: T)
    requires x in FirstByKey(xs, key)
    ensures x in xs
    decreases |xs|
  {
    var n := |xs| - 1;
    if x != xs[n] {
      FirstByKeySubset(xs[..n], key, x);
    }
  }

  /** The state of the `teamsById` loop after the first `n` memberships. */
  ghost predicate TeamsSoFar(items: seq<Json>, n: nat, teams: seq<TeamDto>, seen: set<string>) {
    n <= |items| && teams == FirstByKey(TeamEntries(items[..n]), TeamId) && seen == KeysOf(teams, TeamId)
  }

  /** A membership without a team leaves the teams as they are. */
  lemma TeamsSkip(items: seq<Json>, n: nat, teams: seq<TeamDto>, seen: set<string>)
    requires TeamsSoFar(items, n, teams, seen) && n < |items| && TeamOf(items[n]).None?
    ensures TeamsSoFar(items, n + 1, teams, seen)
  {
    TeamEntriesSnoc(items, n);
    assert TeamEntries(items[..n]) + [] == TeamEntries(items[..n]);
  }

  /** A membership's team is kept when its id is new. */
  lemma TeamsAdd(items: seq<Json>, n: nat, teams: seq<TeamDto>, seen: set<string>, team: TeamDto)
    requires TeamsSoFar(items, n, teams, seen) && n < |items| && TeamOf(items[n]) == Some(team)
    ensures team.id in seen ==> TeamsSoFar(items, n + 1, teams, seen)
    ensures team.id !in seen ==> TeamsSoFar(items, n + 1, teams + [team], seen + {team.id})
  {
    TeamEntriesSnoc(items, n);
    FirstByKeySnoc(TeamEntries(items[..n]), team, TeamId);
    KeysOfSnoc(teams, team, TeamId);
  }

  /** The `teamsById` loop of `mapAthleteRow`. */
  method CollectTeams(items: seq<Json>) returns (teams: seq<TeamDto>)
    ensures teams == Teams(items)
  {
    teams := [];
    var seen: set<string> := {};
    var n := 0;
    while n < |items|
      invariant TeamsSoFar(items, n, teams, seen)
    {
      var item := items[n];
      if !InactiveMembership(item) {
        var teamId := TeamIdOf(item);
        if teamId.JStr? && Truthy(teamId) {
          var team := TeamDto(teamId.s, OrNull(GetIn(Get(item, "team"), "name")));
          TeamsAdd(items, n, teams, seen, team);
          if teamId.s !in seen {
            teams := teams + [team];
            seen := seen + {team.id};
          }
        } else {
          TeamsSkip(items, n, teams, seen);
        }
      } else {
        TeamsSkip(items, n, teams, seen);
      }
      n := n + 1;
    }
    assert items[..n] == items;
  }

  /** The columns both mappers share; a missing value is `null`. */
  datatype PersonDto = PersonDto(
    id: Option<Json>,
    orgId: Json,
    userId: Json,
    firstName: Json,
    lastName: Json,
    fullName: Json,
    email: Json,
    phone: Json,
    cellNumber: Json)

  /** `profile?.email ?? row.email ?? null`. */
  function EmailOf(row: Json): (r: Json)
    ensures var p := GetIn(Get(row, "profile"), "email"); p.Some? && p.value != JNull ==> r == p.value
  {
    OrNull(OrElse(GetIn(Get(row, "profile"), "email"), Get(row, "email")))
  }

  /** `mapCoachRow`, and the shared part of `mapAthleteRow`. */
  function PersonOfRow(row: Json): (r: PersonDto)
    ensures r.id == Get(row, "id")
  {
    PersonDto(
      Get(row, "id"),
      OrNull(Get(row, "org_id")),
      OrNull(Get(row, "user_id")),
      OrNull(Get(row, "first_name")),
      OrNull(Get(row, "last_name")),
      OrNull(Get(row, "full_name")),
      EmailOf(row),
      OrNull(Get(row, "phone")),
      OrNull(Get(row, "cell_number")))
  }

  /** The profile's email wins; without one the row's own email is used, else `null`. */
  lemma EmailPrecedence(row: Json)
    ensures var p := GetIn(Get(row, "profile"), "email");
      (p.Some? && p.value != JNull ==> PersonOfRow(row).email == p.value)
      && (p.None? || p == Some(JNull) ==> PersonOfRow(row).email == OrNull(Get(row, "email")))
  {
  }

  /** A column missing from the row, or null, is `null` in the DTO. */
  lemma PersonFieldsDefaultNull(row: Json)
    requires row.JObj?
    requires forall k :: k in row.fields ==> k == "id"
    ensures var r := PersonOfRow(row);
      r.orgId == JNull && r.userId == JNull && r.firstName == JNull && r.lastName == JNull
      && r.fullName == JNull && r.email == JNull && r.phone == JNull && r.cellNumber == JNull
  {
    assert "org_id" !in row.fields && "user_id" !in row.fields && "first_name" !in row.fields;
    assert "last_name" !in row.fields && "full_name" !in row.fields && "email" !in row.fields;
    assert "profile" !in row.fields && "phone" !in row.fields && "cell_number" !in row.fields;
  }

  /** The athlete DTO of the Supabase version. */
  datatype AthleteDto = AthleteDto(person: PersonDto, graduationYear: Json, teams: seq<TeamDto>)

  /** `mapAthleteRow` (Supabase version). */
  function AthleteOfRow(row: Json): (r: AthleteDto)
    ensures r.person == PersonOfRow(row)
    ensures r.teams == Teams(EmbeddedRows(Get(row, "team_athletes")))
  {
    AthleteDto(PersonOfRow(row), OrNull(Get(row, "graduation_year")), Teams(EmbeddedRows(Get(row, "team_athletes"))))
  }

  /** The parent of the older athlete DTO. */
  datatype ParentDto = ParentDto(fullName: Json, email: Json, phoneNumber: Json, relationship: Json)

  /** The older athlete DTO: the same, with the gender and the parent. */
  datatype AthleteDetailDto = AthleteDetailDto(athlete: AthleteDto, gender: Json, parent: Option<ParentDto>)

  /** The parent: from the first guardian row's guardian, when there is one. */
  function ParentOf(guardianRows: seq<Json>): (r: Option<ParentDto>)
    ensures r.Some? <==> |guardianRows| > 0 && Truthy(OrNull(Get(guardianRows[0], "guardian")))
  {
    var guardianRow := if |guardianRows| > 0 then guardianRows[0] else JNull;
    var guardian := OrNull(Get(guardianRow, "guardian"));
    if Truthy(guardian) then
      Some(ParentDto(OrNull(Get(guardian, "full_name")), OrNull(Get(guardian, "email")),
        OrNull(Get(guardian, "phone")), OrNull(Get(guardianRow, "relationship"))))
    else None
  }

  /** `mapAthleteRow` (functions version). */
  function AthleteDetailOfRow(row: Json): (r: AthleteDetailDto)
    ensures r.athlete == AthleteOfRow(row)
  {
    AthleteDetailDto(AthleteOfRow(row), OrNull(Get(row, "gender")), ParentOf(EmbeddedRows(Get(row, "athlete_guardians"))))
  }

  /** Only the first guardian row counts, and its guardian's phone is the parent's phone number. */
  lemma ParentFromFirstGuardian(row: Json, rest: seq<Json>, guardian: Json, relationship: Json)
    requires Truthy(guardian) && guardian.JObj?
    ensures var first := JObj(map["guardian" := guardian, "relationship" := relationship]);
      ParentOf([first] + rest) == Some(ParentDto(OrNull(Get(guardian, "full_name")), OrNull(Get(guardian, "email")),
        OrNull(Get(guardian, "phone")), relationship))
  {
    var first := JObj(map["guardian" := guardian, "relationship" := relationship]);
    assert "guardian" != "relationship";
    assert Get(first, "relationship") == Some(relationship);
  }

  // ---------------------------------------------------------------------------
  // createAthlete (functions version): the guardian

  /** `athleteEmail.toLowerCase() === guardianEmail.toLowerCase()`, both trimmed first. */
  predicate GuardianMatchesAthlete(email: string, parentEmail: string) {
    Lower(Trim(email)) == Lower(Trim(parentEmail))
  }

  /** How the parent is linked: an existing guardian contact, the athlete's own account, or a new account. */
  datatype GuardianLink = ExistingGuardian(guardianId: Json) | SameAsAthlete | NewGuardian

  /** `found` is `guardianRow?.id` from the guardian lookup by email in the org. */
  function GuardianLinkOf(found: Option<Json>, email: string, parentEmail: string): (r: GuardianLink)
    ensures r.ExistingGuardian? <==> Truthy(OrNull(found))
    ensures r.SameAsAthlete? <==> !Truthy(OrNull(found)) && GuardianMatchesAthlete(email, parentEmail)
  {
    if Truthy(OrNull(found)) then ExistingGuardian(found.value)
    else if GuardianMatchesAthlete(email, parentEmail) then SameAsAthlete
    else NewGuardian
  }

  /**
   * `p_guardian_user_id`: none for an existing guardian, the athlete's user
   * for a matching email, else the account just created (`created`), whose
   * absence is an error.
   */
  function GuardianUserId(link: GuardianLink, athleteUserId: string, created: Option<string>): (r: Result<Option<string>>)
    ensures r.Err? <==> link.NewGuardian? && (created.None? || created.value == "")
    ensures r.Err? ==> r.msg == "Guardian user was not returned by Supabase"
    ensures r.Ok? && link.ExistingGuardian? ==> r.value.None?
    ensures r.Ok? && link.SameAsAthlete? ==> r.value == Some(athleteUserId)
    ensures r.Ok? && link.NewGuardian? ==> r.value == created
  {
    match link
    case ExistingGuardian(_) => Ok(None)
    case SameAsAthlete => Ok(Some(athleteUserId))
    case NewGuardian =>
      if created.None? || created.value == "" then Err("Guardian user was not returned by Supabase")
      else Ok(created)
  }

  /** The auth users a failed transaction deletes: the athlete's, then the guardian user, if any. */
  function RollbackUsers(athleteUserId: string, guardianUserId: Option<string>): seq<string> {
    [athleteUserId] + (if guardianUserId.Some? then [guardianUserId.value] else [])
  }

  /**
   * A rollback deletes only accounts this request created or reused: never
   * the account behind an existing guardian contact.
   */
  lemma RollbackSparesExistingGuardian(found: Option<Json>, email: string, parentEmail: string,
                                       athleteUserId: string, created: Option<string>)
    requires GuardianUserId(GuardianLinkOf(found, email, parentEmail), athleteUserId, created).Ok?
    ensures var link := GuardianLinkOf(found, email, parentEmail);
      var users := RollbackUsers(athleteUserId, GuardianUserId(link, athleteUserId, created).value);
      (link.ExistingGuardian? ==> users == [athleteUserId])
      && (forall u :: u in users ==> u == athleteUserId || (link.NewGuardian? && Some(u) == created))
  {
  }

  // ---------------------------------------------------------------------------
  // The id returned by the create RPC

  /** `typeof tx === "string" ? tx : Array.isArray(tx) ? tx[0]?.[key] ?? null : tx?.[key] ?? null`. */
  function ReturnedId(tx: Option<Json>, key: string): Json {
    if tx.Some? && tx.value.JStr? then tx.value
    else if tx.Some? && tx.value.JArr? then
      OrNull(OrElse(if |tx.value.items| > 0 then Get(tx.value.items[0], key) else None, None))
    else OrNull(OrElse(GetIn(tx, key), None))
  }

  /** The new row's id, or `Failed to create <what>` when it is falsy. */
  function CreatedId(tx: Option<Json>, key: string, what: string): (r: Result<Json>)
    ensures r.Ok? <==> Truthy(ReturnedId(tx, key))
    ensures r.Ok? ==> r.value == ReturnedId(tx, key)
    ensures r.Err? ==> r.msg == "Failed to create " + what
  {
    var id := ReturnedId(tx, key);
    if Truthy(id) then Ok(id) else Err("Failed to create " + what)
  }

  /** The three shapes the RPC may return all yield the same id. */
  lemma CreatedIdShapes(id: string, key: string, what: string, rest: seq<Json>)
    requires id != ""
    ensures CreatedId(Some(JStr(id)), key, what) == Ok(JStr(id))
    ensures CreatedId(Some(JObj(map[key := JStr(id)])), key, what) == Ok(JStr(id))
    ensures CreatedId(Some(JArr([JObj(map[key := JStr(id)])] + rest)), key, what) == Ok(JStr(id))
  {
    assert Get(JObj(map[key := JStr(id)]), key) == Some(JStr(id));
  }

  /** No result, an empty array, an empty string or a row without the id are all errors. */
  lemma CreatedIdMissing(key: string, what: string)
    ensures CreatedId(None, key, what).Err?
    ensures CreatedId(Some(JNull), key, what).Err?
    ensures CreatedId(Some(JStr("")), key, what).Err?
    ensures CreatedId(Some(JArr([])), key, what).Err?
    ensures CreatedId(Some(JObj(map[])), key, what).Err?
  {
  }

  // ---------------------------------------------------------------------------
  // updateAthlete and updateCoach

  /** The fields `updateCoach` copies into its patch. */
  const CoachColumns: seq<Column> := [
    Column("user_id", "user_id"),
    Column("first_name", "first_name"),
    Column("last_name", "last_name"),
    Column("full_name", "full_name"),
    Column("phone", "phone"),
    Column("cell_number", "cell_number")
  ]

  /** `updateAthlete` also copies `graduation_year`. */
  const AthleteColumns: seq<Column> := CoachColumns + [Column("graduation_year", "graduation_year")]

  /** The full name is recomputed only when it is not supplied and a name part is. */
  predicate NeedsFullName(input: map<string, Json>) {
    "full_name" !in input && ("first_name" in input || "last_name" in input)
  }

  /** `input.f ?? current.f ?? null`, as a string part. */
  function MergedPart(input: map<string, Json>, current: map<string, Json>, f: string): Option<string> {
    AsString(OrElse(Get(JObj(input), f), Get(JObj(current), f)))
  }

  /** `buildFullName(mergedFirst, mergedLast)` as a column value. */
  function MergedFullName(input: map<string, Json>, current: map<string, Json>): Json {
    var n := BuildFullName(MergedPart(input, current, "first_name"), MergedPart(input, current, "last_name"));
    if n.Some? then JStr(n.value) else JNull
  }

  /** The patch of an update, given the stored row. */
  function UpdatePatch(input: map<string, Json>, columns: seq<Column>, current: map<string, Json>): map<string, Json> {
    var patch := PatchOf(input, columns);
    if NeedsFullName(input) then patch["full_name" := MergedFullName(input, current)] else patch
  }

  lemma ColumnsDistinct()
    ensures DistinctColumns(CoachColumns) && DistinctColumns(AthleteColumns)
    ensures forall i :: 0 <= i < |AthleteColumns| ==> AthleteColumns[i].field == AthleteColumns[i].column
    ensures forall i :: 0 <= i < |CoachColumns| ==> CoachColumns[i].field == CoachColumns[i].column
  {
  }

  /**
   * The patch holds exactly the supplied fields, each with its value, plus a
   * recomputed `full_name` when a name part but no full name is supplied; a
   * supplied full name is never replaced.
   */
  lemma UpdatePatchSpec(input: map<string, Json>, columns: seq<Column>, current: map<string, Json>)
    requires columns == CoachColumns || columns == AthleteColumns
    ensures forall c :: c in UpdatePatch(input, columns, current) <==>
      Supplied(input, columns, c) || (c == "full_name" && NeedsFullName(input))
    ensures forall i :: 0 <= i < |columns| && columns[i].field in input ==>
      columns[i].column in UpdatePatch(input, columns, current)
      && UpdatePatch(input, columns, current)[columns[i].column] == input[columns[i].field]
    ensures NeedsFullName(input) ==> UpdatePatch(input, columns, current)["full_name"] == MergedFullName(input, current)
  {
    ColumnsDistinct();
    PatchOfSpec(input, columns);
    assert columns[3] == Column("full_name", "full_name");
  }

  /** The recomputed full name uses the given part and falls back on the stored one. */
  lemma MergedFullNameParts(input: map<string, Json>, current: map<string, Json>)
    requires "first_name" in input && input["first_name"].JStr? && "last_name" !in input
    ensures MergedFullName(input, current) ==
      var n := BuildFullName(Some(input["first_name"].s), AsString(Get(JObj(current), "last_name")));
      if n.Some? then JStr(n.value) else JNull
  {
    assert MergedPart(input, current, "first_name") == Some(input["first_name"].s);
    assert OrElse(Get(JObj(input), "last_name"), Get(JObj(current), "last_name")) == Get(JObj(current), "last_name");
  }

  /** Builds the patch step by step, as the update services do. */
  method BuildUpdatePatch(input: map<string, Json>, columns: seq<Column>, current: map<string, Json>)
    returns (patch: map<string, Json>)
    ensures patch == UpdatePatch(input, columns, current)
  {
    patch := BuildPatch(input, columns);
    if NeedsFullName(input) {
      patch := patch["full_name" := MergedFullName(input, current)];
    }
  }

  /** What the update schemas guarantee of the name parts: a supplied part is a string, never null. */
  predicate NamesTyped(input: map<string, Json>) {
    ("first_name" in input ==> input["first_name"].JStr?) && ("last_name" in input ==> input["last_name"].JStr?)
  }

  /** A name part reads the same before and after the update. */
  lemma MergedPartKept(input: map<string, Json>, columns: seq<Column>, row: map<string, Json>, f: string)
    requires columns == CoachColumns || columns == AthleteColumns
    requires f == "first_name" || f == "last_name"
    requires NamesTyped(input)
    ensures MergedPart(input, row + UpdatePatch(input, columns, row), f) == MergedPart(input, row, f)
  {
    if f !in input {
      var patch := UpdatePatch(input, columns, row);
      UpdatePatchSpec(input, columns, row);
      ColumnsDistinct();
      assert !Supplied(input, columns, f);
      assert f !in patch;
      assert Get(JObj(row + patch), f) == Get(JObj(row), f);
    }
  }

  /** Applying the same update to its own result changes nothing. */
  lemma UpdateIdempotent(input: map<string, Json>, columns: seq<Column>, row: map<string, Json>)
    requires columns == CoachColumns || columns == AthleteColumns
    requires NamesTyped(input)
    ensures var once := row + UpdatePatch(input, columns, row);
      once + UpdatePatch(input, columns, once) == once
  {
    var patch := UpdatePatch(input, columns, row);
    var once := row + patch;
    if NeedsFullName(input) {
      MergedPartKept(input, columns, row, "first_name");
      MergedPartKept(input, columns, row, "last_name");
      assert MergedFullName(input, once) == MergedFullName(input, row);
    }
    assert UpdatePatch(input, columns, once) == patch;
    assert once + patch == once;
  }

  /** The `athletes` or `coaches` table, rows keyed by id. */
  class PersonTable {
    var rows: map<string, map<string, Json>>
    const columns: seq<Column>
    const notFound: string

    constructor (columns: seq<Column>, notFound: string, rows: map<string, map<string, Json>>)
      ensures this.columns == columns && this.notFound == notFound && this.rows == rows
    {
      this.columns := columns;
      this.notFound := notFound;
      this.rows := rows;
    }

    /** `.eq("id", id).eq("org_id", orgId)` matches a row. */
    predicate InOrg(id: string, orgId: string)
      reads this
    {
      id in rows && Get(JObj(rows[id]), "org_id") == Some(JStr(orgId))
    }

    /**
     * `updateAthlete` / `updateCoach`: the row of another org or a missing row
     * gives the not-found error and changes nothing; otherwise the patch is
     * merged into that row alone, and the row read back is the result.
     */
    method Update(id: string, orgId: string, input: map<string, Json>) returns (r: Result<map<string, Json>>)
      modifies this
      ensures r.Err? <==> !old(InOrg(id, orgId))
      ensures r.Err? ==> r.msg == notFound && rows == old(rows)
      ensures r.Ok? ==> rows == old(rows)[id := old(rows)[id] + UpdatePatch(input, columns, old(rows)[id])]
      ensures r.Ok? ==> r.value == rows[id]
    {
      var patch := BuildPatch(input, columns);
      if NeedsFullName(input) {
        if !InOrg(id, orgId) {
          return Err(notFound);
        }
        patch := patch["full_name" := MergedFullName(input, rows[id])];
      }
      if |patch| > 0 {
        if !InOrg(id, orgId) {
          return Err(notFound);
        }
        rows := rows[id := rows[id] + patch];
      } else {
        if !InOrg(id, orgId) {
          return Err(notFound);
        }
        assert patch == map[];
        assert rows[id] + patch == rows[id];
      }
      return Ok(rows[id]);
    }
  }
}

=== FILE: people_dtos.dfy ===
/**
 * The athlete and coach request schemas: list filters, lookups by id,
 * creation and partial update. An update must define at least one field.
 */
module PeopleDtos {
  import opened Wrappers
  import opened Text
  import Patches
  import opened Json
  import opened Zod
  import opened DrillDtos
  import Uuid
  import People

  // ---------------------------------------------------------------------------
  // Building blocks

  /** `z.string().trim().min(1)`. */
  function NonBlank(): Schema {
    TrimmedText(1, None)
  }

  /** `z.string().trim().email(..)`. */
  function EmailSchema(): Schema {
    Str(true, 0, None, EmailText)
  }

  /** `z.string().min(8, ..)`: not trimmed. */
  function PasswordSchema(): Schema {
    Str(false, 8, None, AnyText)
  }

  /** `z.string().trim().optional().nullable()`. */
  function OptionalText(): Schema {
    OptionalNullable(TrimmedText(0, None))
  }

  /** `z.number({ coerce: true }).int().min(1900).max(2100)`. */
  function GraduationYear(): Schema {
    CoercedInt(1900, Some(2100))
  }

  const Relationships: seq<string> := ["mother", "father", "guardian", "step-parent", "grandparent", "sibling", "other"]

  // ---------------------------------------------------------------------------
  // Athlete schemas

  /** `AthleteListFilterSchema`. */
  function AthleteListFilterSchema(): Schema {
    Obj([
      ("org_id", UuidSchema()),
      ("name", Optional(NonBlank())),
      ("email", Optional(NonBlank())),
      ("team_id", Optional(UuidSchema())),
      ("limit", PagingField(1, Some(200), 50)),
      ("offset", PagingField(0, None, 0))])
  }

  /** `GetAthleteByIdSchema`. */
  function GetAthleteByIdSchema(): Schema {
    Obj([("athlete_id", UuidSchema())])
  }

  /** `CreateAthleteSchema`. */
  function CreateAthleteSchema(): Schema {
    Obj([
      ("org_id", UuidSchema()),
      ("team_id", UuidSchema()),
      ("first_name", NonBlank()),
      ("last_name", NonBlank()),
      ("full_name", OptionalNullable(NonBlank())),
      ("email", EmailSchema()),
      ("password", PasswordSchema()),
      ("phone", OptionalText()),
      ("cell_number", OptionalText()),
      ("gender", NonBlank()),
      ("parent_email", EmailSchema()),
      ("parent_full_name", NonBlank()),
      ("parent_mobile_phone", NonBlank()),
      ("relationship", Enum(Relationships)),
      ("graduation_year", OptionalNullable(GraduationYear()))])
  }

  /** The fields of `UpdateAthleteSchema` before its refinement. */
  function UpdateAthleteFields(): Schema {
    Obj([
      ("user_id", OptionalNullable(UuidSchema())),
      ("first_name", Optional(NonBlank())),
      ("last_name", Optional(NonBlank())),
      ("full_name", OptionalNullable(NonBlank())),
      ("phone", OptionalText()),
      ("cell_number", OptionalText()),
      ("graduation_year", OptionalNullable(GraduationYear()))])
  }

  /** `Object.values(value).some((val) => val !== undefined)` on a parsed object. */
  predicate HasUpdates(v: Json) {
    v.JObj? && exists k :: k in v.fields
  }

  /** `UpdateAthleteSchema`: "No updates provided" unless some field is defined. */
  function UpdateAthleteSchema(): Schema {
    Refine(UpdateAthleteFields(), HasUpdates)
  }

  // ---------------------------------------------------------------------------
  // Coach schemas

  /** `CoachListFilterSchema`. */
  function CoachListFilterSchema(): Schema {
    Obj([
      ("org_id", UuidSchema()),
      ("name", Optional(NonBlank())),
      ("email", Optional(NonBlank())),
      ("limit", PagingField(1, Some(200), 50)),
      ("offset", PagingField(0, None, 0))])
  }

  /** `GetCoachByIdSchema`. */
  function GetCoachByIdSchema(): Schema {
    Obj([("coach_id", UuidSchema())])
  }

  /** `CreateCoachSchema`. */
  function CreateCoachSchema(): Schema {
    Obj([
      ("org_id", UuidSchema()),
      ("first_name", NonBlank()),
      ("last_name", NonBlank()),
      ("full_name", OptionalNullable(NonBlank())),
      ("email", EmailSchema()),
      ("password", PasswordSchema()),
      ("phone", OptionalText()),
      ("cell_number", OptionalText())])
  }

  /** The fields of `UpdateCoachSchema` before its refinement. */
  function UpdateCoachFields(): Schema {
    Obj([
      ("user_id", OptionalNullable(UuidSchema())),
      ("first_name", Optional(NonBlank())),
      ("last_name", Optional(NonBlank())),
      ("full_name", OptionalNullable(NonBlank())),
      ("phone", OptionalText()),
      ("cell_number", OptionalText())])
  }

  /** `UpdateCoachSchema`: "No updates provided" unless some field is defined. */
  function UpdateCoachSchema(): Schema {
    Refine(UpdateCoachFields(), HasUpdates)
  }

  // ---------------------------------------------------------------------------
  // Field rules shared by the schemas

  /** A required UUID field holds a UUID string, kept as given. */
  lemma UuidFieldParsed(fields: seq<(string, Schema)>, v: Option<Json>, o: Oracles, i: nat)
    requires KeyOnce(fields, i) && fields[i].1 == UuidSchema()
    ensures var r := Parse(Obj(fields), v, o);
      r.Valid? ==> (AsString(Get(v.value, fields[i].0)).Some? && Uuid.MatchesUuid(AsString(Get(v.value, fields[i].0)).value)
        && FieldOf(r, fields[i].0) == Get(v.value, fields[i].0))
  {
    FieldParsed(fields, v, o, i);
    if Parse(Obj(fields), v, o).Valid? {
      StrParse(false, 0, None, UuidText, Get(v.value, fields[i].0), o);
    }
  }

  /** An optional UUID field, when given and not null, holds a UUID string, kept as given. */
  lemma OptionalUuidParsed(fields: seq<(string, Schema)>, v: Option<Json>, o: Oracles, i: nat)
    requires KeyOnce(fields, i)
    requires fields[i].1 == Optional(UuidSchema()) || fields[i].1 == OptionalNullable(UuidSchema())
    ensures var r := Parse(Obj(fields), v, o);
      r.Valid? ==> var x := Get(v.value, fields[i].0);
        x.Some? && x.value != JNull ==> (x.value.JStr? && Uuid.MatchesUuid(x.value.s) && FieldOf(r, fields[i].0) == x)
  {
    GivenField(fields, v, o, i);
    var r := Parse(Obj(fields), v, o);
    if r.Valid? {
      StrParse(false, 0, None, UuidText, Get(v.value, fields[i].0), o);
    }
  }

  /** A password is a string of at least 8 characters, kept untrimmed. */
  lemma PasswordParsed(fields: seq<(string, Schema)>, v: Option<Json>, o: Oracles, i: nat)
    requires KeyOnce(fields, i) && fields[i].1 == PasswordSchema()
    ensures var r := Parse(Obj(fields), v, o);
      r.Valid? ==> (AsString(Get(v.value, fields[i].0)).Some? && Utf16Length(AsString(Get(v.value, fields[i].0)).value) >= 8
        && FieldOf(r, fields[i].0) == Get(v.value, fields[i].0))
  {
    FieldParsed(fields, v, o, i);
    if Parse(Obj(fields), v, o).Valid? {
      StrParse(false, 8, None, AnyText, Get(v.value, fields[i].0), o);
    }
  }

  /** An email is a string whose trimmed text passes `.email()`, and the output is that text. */
  lemma EmailParsed(fields: seq<(string, Schema)>, v: Option<Json>, o: Oracles, i: nat)
    requires KeyOnce(fields, i) && fields[i].1 == EmailSchema()
    ensures var r := Parse(Obj(fields), v, o);
      r.Valid? ==> (AsString(Get(v.value, fields[i].0)).Some?
        && var t := Trim(AsString(Get(v.value, fields[i].0)).value);
          o.isEmail(t) && FieldOf(r, fields[i].0) == Some(JStr(t)))
  {
    FieldParsed(fields, v, o, i);
    if v.Some? {
      EmailValue(Get(v.value, fields[i].0), o);
    }
  }

  /** `z.string().trim().email()` on one value. */
  lemma EmailValue(x: Option<Json>, o: Oracles)
    ensures var e := Parse(EmailSchema(), x, o);
      e.Valid? ==> (AsString(x).Some? && o.isEmail(Trim(AsString(x).value)) && e.value == Some(JStr(Trim(AsString(x).value))))
  {
    StrParse(true, 0, None, EmailText, x, o);
  }

  /** A graduation year, when given and not null, is an integer in [1900, 2100]; missing stays missing. */
  lemma GraduationYearParsed(fields: seq<(string, Schema)>, v: Option<Json>, o: Oracles, i: nat)
    requires KeyOnce(fields, i) && fields[i].1 == OptionalNullable(GraduationYear())
    ensures var r := Parse(Obj(fields), v, o);
      r.Valid? ==> var x := Get(v.value, fields[i].0);
        x.Some? && x.value != JNull ==> (FieldOf(r, fields[i].0).Some?
          && var y := FieldOf(r, fields[i].0).value;
            y.JNum? && IsInteger(y.n) && 1900.0 <= y.n <= 2100.0 && Finite(y.n) == ToNumber(x, o.parse))
    ensures var r := Parse(Obj(fields), v, o);
      r.Valid? && Get(v.value, fields[i].0) == Some(JNull) ==> FieldOf(r, fields[i].0) == Some(JNull)
    ensures var r := Parse(Obj(fields), v, o);
      r.Valid? && Get(v.value, fields[i].0).None? ==> FieldOf(r, fields[i].0).None?
  {
    FieldParsed(fields, v, o, i);
    if v.Some? {
      GraduationYearValue(Get(v.value, fields[i].0), o);
    }
  }

  /** An optional, nullable graduation year on one value. */
  lemma GraduationYearValue(x: Option<Json>, o: Oracles)
    ensures var e := Parse(OptionalNullable(GraduationYear()), x, o);
      e.Valid? ==> (x.Some? && x.value != JNull ==> (e.value.Some?
        && var y := e.value.value;
          y.JNum? && IsInteger(y.n) && 1900.0 <= y.n <= 2100.0 && Finite(y.n) == ToNumber(x, o.parse)))
    ensures x == Some(JNull) ==> Parse(OptionalNullable(GraduationYear()), x, o) == Valid(Some(JNull))
    ensures x.None? ==> Parse(OptionalNullable(GraduationYear()), x, o) == Valid(None)
  {
    OptionalNullableParse(GraduationYear(), x, o);
    IntParse(true, Some(1900), Some(2100), x, o);
  }

  /** An `.optional()` name: when given it is non-blank and trimmed; a parsed name is always a string. */
  lemma OptionalNameParsed(fields: seq<(string, Schema)>, v: Option<Json>, o: Oracles, i: nat)
    requires KeyOnce(fields, i) && fields[i].1 == Optional(NonBlank())
    ensures var r := Parse(Obj(fields), v, o);
      r.Valid? && Get(v.value, fields[i].0).Some? ==> (AsString(Get(v.value, fields[i].0)).Some?
        && var t := Trim(AsString(Get(v.value, fields[i].0)).value);
          |t| >= 1 && FieldOf(r, fields[i].0) == Some(JStr(t)))
    ensures var r := Parse(Obj(fields), v, o);
      r.Valid? && Get(v.value, fields[i].0).None? ==> FieldOf(r, fields[i].0).None?
  {
    TrimmedField(fields, v, o, i, NonBlank());
    FieldParsed(fields, v, o, i);
  }

  /** The field `k` of the input is a string whose trimmed text is non-blank, and the output holds that text. */
  predicate NonBlankKept(r: Field, v: Json, k: string) {
    AsString(Get(v, k)).Some? && |Trim(AsString(Get(v, k)).value)| >= 1
      && FieldOf(r, k) == Some(JStr(Trim(AsString(Get(v, k)).value)))
  }

  /** A nullable optional non-blank text parses to nothing, `null`, or a non-blank trimmed string. */
  lemma OptionalNonBlankParsed(fields: seq<(string, Schema)>, v: Option<Json>, o: Oracles, i: nat)
    requires KeyOnce(fields, i) && fields[i].1 == OptionalNullable(NonBlank())
    ensures var r := Parse(Obj(fields), v, o);
      var f := FieldOf(r, fields[i].0);
      r.Valid? ==> (f.None? || f == Some(JNull) || (f.value.JStr? && |f.value.s| >= 1 && Trim(f.value.s) == f.value.s))
  {
    FieldParsed(fields, v, o, i);
    GivenField(fields, v, o, i);
    var r := Parse(Obj(fields), v, o);
    if r.Valid? {
      var x := Get(v.value, fields[i].0);
      if x.Some? && x.value != JNull {
        var e := Parse(Core(fields[i].1), x, o);
        assert Core(fields[i].1) == NonBlank();
        assert FieldOf(r, fields[i].0) == e.value;
        assert e.value == Some(JStr(Trim(x.value.s))) && |Trim(x.value.s)| >= 1 by {
          StrParse(true, 1, None, AnyText, x, o);
        }
        TrimIdempotent(x.value.s);
      }
    }
  }

  /** In an object whose second and third fields are the optional names, a parsed name part is a string. */
  lemma NamesTypedParsed(fields: seq<(string, Schema)>, v: Option<Json>, o: Oracles)
    requires KeyOnce(fields, 1) && KeyOnce(fields, 2)
    requires fields[1] == ("first_name", Optional(NonBlank())) && fields[2] == ("last_name", Optional(NonBlank()))
    ensures var r := Parse(Obj(fields), v, o);
      r.Valid? ==> (r.value.Some? && r.value.value.JObj? && People.NamesTyped(r.value.value.fields))
  {
    OptionalNameParsed(fields, v, o, 1);
    OptionalNameParsed(fields, v, o, 2);
  }

  // ---------------------------------------------------------------------------
  // Athletes

  /** An accepted athlete list filter has a limit in [1, 200], 50 when absent, and an offset of at least 0, 0 when absent. */
  lemma AthleteListPaging(v: Option<Json>, o: Oracles)
    ensures var r := Parse(AthleteListFilterSchema(), v, o);
      r.Valid? ==> (PageValue(FieldOf(r, "limit"), 1, Some(200)) && PageValue(FieldOf(r, "offset"), 0, None)
        && (Get(v.value, "limit").None? ==> FieldOf(r, "limit") == Some(JNum(50.0)))
        && (Get(v.value, "offset").None? ==> FieldOf(r, "offset") == Some(JNum(0.0))))
  {
    var fields := AthleteListFilterSchema().fields;
    ObjParse(fields, v, o, 4);
    ObjParse(fields, v, o, 5);
    if Parse(AthleteListFilterSchema(), v, o).Valid? {
      PagingFieldParse(1, Some(200), 50, Get(v.value, "limit"), o);
      PagingFieldParse(0, None, 0, Get(v.value, "offset"), o);
    }
  }

  /** The athlete list needs a UUID org id; a team id, when given, is a UUID too. */
  lemma AthleteListIds(v: Option<Json>, o: Oracles)
    ensures var r := Parse(AthleteListFilterSchema(), v, o);
      r.Valid? ==> (AsString(Get(v.value, "org_id")).Some? && Uuid.MatchesUuid(AsString(Get(v.value, "org_id")).value))
    ensures var r := Parse(AthleteListFilterSchema(), v, o);
      r.Valid? && Get(v.value, "team_id").Some? ==> (AsString(Get(v.value, "team_id")).Some?
        && Uuid.MatchesUuid(AsString(Get(v.value, "team_id")).value))
  {
    var fields := AthleteListFilterSchema().fields;
    UuidFieldParsed(fields, v, o, 0);
    FieldParsed(fields, v, o, 3);
    if Parse(AthleteListFilterSchema(), v, o).Valid? && Get(v.value, "team_id").Some? {
      StrParse(false, 0, None, UuidText, Get(v.value, "team_id"), o);
    }
  }

  /** A lookup by id needs a UUID athlete id. */
  lemma GetAthleteById(v: Option<Json>, o: Oracles)
    ensures var r := Parse(GetAthleteByIdSchema(), v, o);
      r.Valid? ==> (AsString(Get(v.value, "athlete_id")).Some? && Uuid.MatchesUuid(AsString(Get(v.value, "athlete_id")).value))
  {
    UuidFieldParsed(GetAthleteByIdSchema().fields, v, o, 0);
  }

  /** The names, gender and guardian details of a created athlete are non-blank once trimmed, and are kept trimmed. */
  lemma CreateAthleteNonBlank(v: Option<Json>, o: Oracles, k: string)
    requires k in {"first_name", "last_name", "gender", "parent_full_name", "parent_mobile_phone"}
    ensures var r := Parse(CreateAthleteSchema(), v, o);
      r.Valid? ==> NonBlankKept(r, v.value, k)
  {
    var fields := CreateAthleteSchema().fields;
    var i := if k == "first_name" then 2 else if k == "last_name" then 3 else if k == "gender" then 9
      else if k == "parent_full_name" then 11 else 12;
    assert fields[i].0 == k;
    TrimmedField(fields, v, o, i, NonBlank());
  }

  /** The athlete's and the guardian's emails pass `.email()` once trimmed, and are kept trimmed. */
  lemma CreateAthleteEmails(v: Option<Json>, o: Oracles, k: string)
    requires k in {"email", "parent_email"}
    ensures var r := Parse(CreateAthleteSchema(), v, o);
      r.Valid? ==> (AsString(Get(v.value, k)).Some? && o.isEmail(Trim(AsString(Get(v.value, k)).value))
        && FieldOf(r, k) == Some(JStr(Trim(AsString(Get(v.value, k)).value))))
  {
    var fields := CreateAthleteSchema().fields;
    var i := if k == "email" then 5 else 10;
    assert fields[i].0 == k;
    EmailParsed(fields, v, o, i);
  }

  /** The password of a created athlete has at least 8 characters and is not trimmed. */
  lemma CreateAthletePassword(v: Option<Json>, o: Oracles)
    ensures var r := Parse(CreateAthleteSchema(), v, o);
      r.Valid? ==> (AsString(Get(v.value, "password")).Some? && Utf16Length(AsString(Get(v.value, "password")).value) >= 8
        && FieldOf(r, "password") == Get(v.value, "password"))
  {
    PasswordParsed(CreateAthleteSchema().fields, v, o, 6);
  }

  /** The relationship is one of the seven listed values. */
  lemma CreateAthleteRelationship(v: Option<Json>, o: Oracles)
    ensures var r := Parse(CreateAthleteSchema(), v, o);
      r.Valid? ==> (AsString(Get(v.value, "relationship")).Some? && AsString(Get(v.value, "relationship")).value in Relationships
        && FieldOf(r, "relationship") == Get(v.value, "relationship"))
  {
    FieldParsed(CreateAthleteSchema().fields, v, o, 13);
  }

  /** A given, non-null graduation year is an integer in [1900, 2100]. */
  lemma CreateAthleteGraduationYear(v: Option<Json>, o: Oracles)
    ensures var r := Parse(CreateAthleteSchema(), v, o);
      r.Valid? ==> var x := Get(v.value, "graduation_year");
        x.Some? && x.value != JNull ==> (FieldOf(r, "graduation_year").Some?
          && var y := FieldOf(r, "graduation_year").value;
            y.JNum? && IsInteger(y.n) && 1900.0 <= y.n <= 2100.0)
  {
    GraduationYearParsed(CreateAthleteSchema().fields, v, o, 14);
  }

  /** A parsed full name is missing, null or a non-blank trimmed string, so the created name follows `People.CreateFullName`. */
  lemma CreateAthleteFullName(v: Option<Json>, o: Oracles)
    ensures var r := Parse(CreateAthleteSchema(), v, o);
      var f := FieldOf(r, "full_name");
      r.Valid? ==> (f.None? || f == Some(JNull) || (f.value.JStr? && |f.value.s| >= 1 && Trim(f.value.s) == f.value.s))
  {
    OptionalNonBlankParsed(CreateAthleteSchema().fields, v, o, 4);
  }

  /** An athlete update is accepted iff its fields are and some column of the update is defined (null counts). */
  lemma UpdateAthleteNeedsChange(v: Option<Json>, o: Oracles)
    ensures Parse(UpdateAthleteSchema(), v, o).Valid? <==>
      (Parse(UpdateAthleteFields(), v, o).Valid?
        && exists i :: 0 <= i < |People.AthleteColumns| && Get(v.value, People.AthleteColumns[i].field).Some?)
  {
    AthleteUpdateFields();
    NeedsChange(UpdateAthleteFields().fields, People.AthleteColumns, v, o);
  }

  /** Each update field is named once, after its column, and yields a value exactly when one is given. */
  ghost predicate UpdateFieldsFor(fields: seq<(string, Schema)>, columns: seq<Patches.Column>) {
    |fields| == |columns| > 0
    && forall i :: 0 <= i < |fields| ==> KeyOnce(fields, i) && KeepsPresence(fields[i].1) && fields[i].0 == columns[i].field
  }

  /** The athlete update schema lists, in order, the columns `updateAthlete` copies. */
  lemma AthleteUpdateFields()
    ensures UpdateFieldsFor(UpdateAthleteFields().fields, People.AthleteColumns)
  {
    var fields := UpdateAthleteFields().fields;
    assert forall i :: 0 <= i < |fields| ==> fields[i].0 == People.AthleteColumns[i].field;
    ColumnFieldsDistinct();
    DistinctKeysOnce(fields);
    assert forall i :: 0 <= i < |fields| ==> KeepsPresence(fields[i].1);
  }

  /** The coach update schema lists, in order, the columns `updateCoach` copies. */
  lemma CoachUpdateFields()
    ensures UpdateFieldsFor(UpdateCoachFields().fields, People.CoachColumns)
  {
    var fields := UpdateCoachFields().fields;
    assert forall i :: 0 <= i < |fields| ==> fields[i].0 == People.CoachColumns[i].field;
    ColumnFieldsDistinct();
    DistinctKeysOnce(fields);
    assert forall i :: 0 <= i < |fields| ==> KeepsPresence(fields[i].1);
  }

  /** The fields the updates copy have distinct names. */
  lemma ColumnFieldsDistinct()
    ensures var cols := People.AthleteColumns;
      forall i, j :: 0 <= i < j < |cols| ==> cols[i].field != cols[j].field
  {
    var cols := People.AthleteColumns;
    assert cols[0].field == "user_id" && cols[1].field == "first_name" && cols[2].field == "last_name";
    assert cols[3].field == "full_name" && cols[4].field == "phone" && cols[5].field == "cell_number";
    assert cols[6].field == "graduation_year";
  }

  /** An update over such fields is accepted iff its fields are and some column is given. */
  lemma NeedsChange(fields: seq<(string, Schema)>, columns: seq<Patches.Column>, v: Option<Json>, o: Oracles)
    requires UpdateFieldsFor(fields, columns)
    ensures Parse(Refine(Obj(fields), HasUpdates), v, o).Valid? <==>
      (Parse(Obj(fields), v, o).Valid? && exists i :: 0 <= i < |columns| && Get(v.value, columns[i].field).Some?)
  {
    RefineParse(Obj(fields), HasUpdates, v, o);
    SomeFieldDefined(fields, v, o);
  }

  /** The parsed name parts of an athlete update are strings, as `People.UpdatePatch` expects. */
  lemma UpdateAthleteNamesTyped(v: Option<Json>, o: Oracles)
    ensures var r := Parse(UpdateAthleteFields(), v, o);
      r.Valid? ==> (r.value.Some? && r.value.value.JObj? && People.NamesTyped(r.value.value.fields))
  {
    NamesTypedParsed(UpdateAthleteFields().fields, v, o);
  }

  /** A given, non-null graduation year in an update is an integer in [1900, 2100]. */
  lemma UpdateAthleteGraduationYear(v: Option<Json>, o: Oracles)
    ensures var r := Parse(UpdateAthleteFields(), v, o);
      r.Valid? ==> var x := Get(v.value, "graduation_year");
        x.Some? && x.value != JNull ==> (FieldOf(r, "graduation_year").Some?
          && var y := FieldOf(r, "graduation_year").value;
            y.JNum? && IsInteger(y.n) && 1900.0 <= y.n <= 2100.0)
  {
    GraduationYearParsed(UpdateAthleteFields().fields, v, o, 6);
  }

  /** The update `{}` is refused. */
  lemma EmptyAthleteUpdateRefused(o: Oracles)
    ensures Parse(UpdateAthleteSchema(), Some(JObj(map[])), o) == Invalid
  {
    UpdateAthleteNeedsChange(Some(JObj(map[])), o);
  }

  // ---------------------------------------------------------------------------
  // Coaches

  /** An accepted coach list filter has a limit in [1, 200], 50 when absent, and an offset of at least 0, 0 when absent. */
  lemma CoachListPaging(v: Option<Json>, o: Oracles)
    ensures var r := Parse(CoachListFilterSchema(), v, o);
      r.Valid? ==> (PageValue(FieldOf(r, "limit"), 1, Some(200)) && PageValue(FieldOf(r, "offset"), 0, None)
        && (Get(v.value, "limit").None? ==> FieldOf(r, "limit") == Some(JNum(50.0)))
        && (Get(v.value, "offset").None? ==> FieldOf(r, "offset") == Some(JNum(0.0))))
  {
    var fields := CoachListFilterSchema().fields;
    ObjParse(fields, v, o, 3);
    ObjParse(fields, v, o, 4);
    if Parse(CoachListFilterSchema(), v, o).Valid? {
      PagingFieldParse(1, Some(200), 50, Get(v.value, "limit"), o);
      PagingFieldParse(0, None, 0, Get(v.value, "offset"), o);
    }
  }

  /** The org id of a coach listing, the id of a coach lookup and a given user id of an update are UUIDs. */
  lemma CoachIds(v: Option<Json>, o: Oracles)
    ensures var r := Parse(CoachListFilterSchema(), v, o);
      r.Valid? ==> (AsString(Get(v.value, "org_id")).Some? && Uuid.MatchesUuid(AsString(Get(v.value, "org_id")).value))
    ensures var r := Parse(GetCoachByIdSchema(), v, o);
      r.Valid? ==> (AsString(Get(v.value, "coach_id")).Some? && Uuid.MatchesUuid(AsString(Get(v.value, "coach_id")).value))
    ensures var r := Parse(UpdateCoachFields(), v, o);
      r.Valid? ==> var x := Get(v.value, "user_id");
        x.Some? && x.value != JNull ==> (x.value.JStr? && Uuid.MatchesUuid(x.value.s))
  {
    UuidFieldParsed(CoachListFilterSchema().fields, v, o, 0);
    UuidFieldParsed(GetCoachByIdSchema().fields, v, o, 0);
    OptionalUuidParsed(UpdateCoachFields().fields, v, o, 0);
  }

  /** The names of a created coach are non-blank once trimmed, and are kept trimmed. */
  lemma CreateCoachNames(v: Option<Json>, o: Oracles, k: string)
    requires k in {"first_name", "last_name"}
    ensures var r := Parse(CreateCoachSchema(), v, o);
      r.Valid? ==> NonBlankKept(r, v.value, k)
  {
    var fields := CreateCoachSchema().fields;
    var i := if k == "first_name" then 1 else 2;
    assert fields[i].0 == k;
    TrimmedField(fields, v, o, i, NonBlank());
  }

  /** A created coach has an email passing `.email()` once trimmed and a password of at least 8 characters. */
  lemma CreateCoachCredentials(v: Option<Json>, o: Oracles)
    ensures var r := Parse(CreateCoachSchema(), v, o);
      r.Valid? ==> (AsString(Get(v.value, "email")).Some? && o.isEmail(Trim(AsString(Get(v.value, "email")).value))
        && AsString(Get(v.value, "password")).Some? && Utf16Length(AsString(Get(v.value, "password")).value) >= 8)
  {
    var fields := CreateCoachSchema().fields;
    EmailParsed(fields, v, o, 4);
    PasswordParsed(fields, v, o, 5);
  }

  /** A coach update is accepted iff its fields are and some column of the update is defined (null counts). */
  lemma UpdateCoachNeedsChange(v: Option<Json>, o: Oracles)
    ensures Parse(UpdateCoachSchema(), v, o).Valid? <==>
      (Parse(UpdateCoachFields(), v, o).Valid?
        && exists i :: 0 <= i < |People.CoachColumns| && Get(v.value, People.CoachColumns[i].field).Some?)
  {
    CoachUpdateFields();
    NeedsChange(UpdateCoachFields().fields, People.CoachColumns, v, o);
  }

  /** The parsed name parts of a coach update are strings, as `People.UpdatePatch` expects. */
  lemma UpdateCoachNamesTyped(v: Option<Json>, o: Oracles)
    ensures var r := Parse(UpdateCoachFields(), v, o);
      r.Valid? ==> (r.value.Some? && r.value.value.JObj? && People.NamesTyped(r.value.value.fields))
  {
    NamesTypedParsed(UpdateCoachFields().fields, v, o);
  }
}

=== FILE: plan_dtos.dfy ===
/**
 * The practice-plan request schemas of the functions API: the list filters,
 * member invitations, plan items, and plan creation and update.
 */
module PlanDtos {
  import opened Wrappers
  import opened Text
  import opened Json
  import opened Zod
  import opened DrillDtos
  import Uuid
  import Plans

  // ---------------------------------------------------------------------------
  // Schemas

  function PlanVisibilitySchema(): Schema {
    Enum(["private", "org", "shared", "prebuilt"])
  }

  function PlanStatusSchema(): Schema {
    Enum(["draft", "published", "archived"])
  }

  function PlanItemTypeSchema(): Schema {
    Enum(["drill", "note", "rest", "custom"])
  }

  function PlanListTypeSchema(): Schema {
    Enum(["prebuild", "custom"])
  }

  /** The fields of `PlanListFilterSchema` before its refinement. */
  function PlanListFilterFields(): Schema {
    Obj([
      ("type", PlanListTypeSchema()),
      ("user_id", Optional(UuidSchema())),
      ("limit", PagingField(1, Some(200), 50)),
      ("offset", PagingField(0, None, 0))])
  }

  /** The refinement as written: a "custom-plans" listing needs a user id. */
  predicate CustomPlansHaveUser(v: Json) {
    !(Get(v, "type") == Some(JStr("custom-plans")) && !Truthy(OrNull(Get(v, "user_id"))))
  }

  /** `PlanListFilterSchema`, as written. */
  function PlanListFilterSchema(): Schema {
    Refine(PlanListFilterFields(), CustomPlansHaveUser)
  }

  /** The refinement the message describes: a listing of the "custom" type needs a user id. */
  predicate CustomListingHasUser(v: Json) {
    !(Get(v, "type") == Some(JStr("custom")) && !Truthy(OrNull(Get(v, "user_id"))))
  }

  /** `PlanListFilterSchema` with its refinement on the type the enum actually has. */
  function IntendedPlanListFilterSchema(): Schema {
    Refine(PlanListFilterFields(), CustomListingHasUser)
  }

  /** `InvitedPlanListSchema`. */
  function InvitedPlanListSchema(): Schema {
    Obj([
      ("user_id", UuidSchema()),
      ("limit", PagingField(1, Some(200), 50)),
      ("offset", PagingField(0, None, 0))])
  }

  /** `InvitePlanMembersSchema`. */
  function InvitePlanMembersSchema(): Schema {
    Obj([
      ("user_ids", Arr(UuidSchema(), 1)),
      ("role", Default(Optional(TrimmedText(1, None)), JStr("viewer"))),
      ("added_by", OptionalNullable(UuidSchema()))])
  }

  /** The fields of `PlanItemSchema` before its refinement. */
  function PlanItemFields(): Schema {
    Obj([
      ("section_title", OptionalNullable(TrimmedText(0, Some(200)))),
      ("section_order", OptionalCount()),
      ("position", OptionalCount()),
      ("item_type", Default(PlanItemTypeSchema(), JStr("drill"))),
      ("drill_id", OptionalNullable(UuidSchema())),
      ("title", OptionalNullable(TrimmedText(0, Some(200)))),
      ("instructions", MediaDescription()),
      ("sets", OptionalCount()),
      ("reps", OptionalCount()),
      ("duration_seconds", OptionalCount()),
      ("rest_seconds", OptionalCount()),
      ("config", OptionalNullable(Record))])
  }

  /** A drill item names its drill. */
  predicate DrillItemHasDrill(v: Json) {
    !(Get(v, "item_type") == Some(JStr("drill")) && !Truthy(OrNull(Get(v, "drill_id"))))
  }

  /** `PlanItemSchema`. */
  function PlanItemSchema(): Schema {
    Refine(PlanItemFields(), DrillItemHasDrill)
  }

  /** `z.array(z.string().trim().min(1))`. */
  function TagList(): Schema {
    Arr(TrimmedText(1, None), 0)
  }

  /** `CreatePlanSchema`. */
  function CreatePlanSchema(): Schema {
    Obj([
      ("owner_user_id", UuidSchema()),
      ("org_id", OptionalNullable(UuidSchema())),
      ("name", TrimmedText(1, Some(200))),
      ("description", MediaDescription()),
      ("visibility", Optional(PlanVisibilitySchema())),
      ("status", Optional(PlanStatusSchema())),
      ("tags", Default(Optional(TagList()), JArr([]))),
      ("estimated_minutes", OptionalCount()),
      ("items", Arr(PlanItemSchema(), 1))])
  }

  /** The fields of `UpdatePlanSchema` before its refinement. */
  function UpdatePlanFields(): Schema {
    Obj([
      ("name", Optional(TrimmedText(1, Some(200)))),
      ("description", MediaDescription()),
      ("visibility", Optional(PlanVisibilitySchema())),
      ("status", Optional(PlanStatusSchema())),
      ("tags", Optional(TagList())),
      ("estimated_minutes", OptionalCount()),
      ("org_id", OptionalNullable(UuidSchema())),
      ("add_items", Default(Optional(Arr(PlanItemSchema(), 0)), JArr([]))),
      ("remove_item_ids", Default(Optional(Arr(UuidSchema(), 0)), JArr([])))])
  }

  /** Some plan field is defined (null counts as defined). */
  predicate HasPlanPatch(v: Json) {
    exists k :: k in Plans.PlanFields && Get(v, k).Some?
  }

  /** `(value.add_items?.length ?? 0) > 0 || (value.remove_item_ids?.length ?? 0) > 0`. */
  predicate HasItemOps(v: Json) {
    |ElementsOf(Get(v, "add_items"))| > 0 || |ElementsOf(Get(v, "remove_item_ids"))| > 0
  }

  /** The refinement: something to update. */
  predicate HasUpdates(v: Json) {
    HasPlanPatch(v) || HasItemOps(v)
  }

  /** `UpdatePlanSchema`. */
  function UpdatePlanSchema(): Schema {
    Refine(UpdatePlanFields(), HasUpdates)
  }

  // ---------------------------------------------------------------------------
  // The list filters

  /** An accepted type is one of the two the enum lists. */
  lemma ListTypeParsed(v: Option<Json>, o: Oracles)
    ensures var r := Parse(PlanListFilterFields(), v, o);
      r.Valid? ==> (FieldOf(r, "type") == Some(JStr("prebuild")) || FieldOf(r, "type") == Some(JStr("custom")))
  {
    FieldParsed(PlanListFilterFields().fields, v, o, 0);
  }

  /**
   * The "custom-plans" refinement never fires: the enum admits only
   * "prebuild" and "custom", so the schema accepts exactly what its fields
   * accept, a "custom" listing without a user id included.
   */
  lemma PlanListRefinementIdle(v: Option<Json>, o: Oracles)
    ensures Parse(PlanListFilterSchema(), v, o) == Parse(PlanListFilterFields(), v, o)
  {
    ListTypeParsed(v, o);
    ObjParse(PlanListFilterFields().fields, v, o, 0);
  }

  /** The filter `{ type: "custom" }`, with no user id. */
  function CustomWithoutUser(): Json {
    JObj(map["type" := JStr("custom")])
  }

  /** The schema as written accepts a custom listing that names no user. */
  lemma CustomListingWithoutUserAccepted(o: Oracles)
    ensures Parse(PlanListFilterSchema(), Some(CustomWithoutUser()), o).Valid?
  {
    var v := Some(CustomWithoutUser());
    var fields := PlanListFilterFields().fields;
    assert Get(CustomWithoutUser(), "user_id").None?;
    assert Get(CustomWithoutUser(), "limit").None?;
    assert Get(CustomWithoutUser(), "offset").None?;
    PagingFieldParse(1, Some(200), 50, None, o);
    PagingFieldParse(0, None, 0, None, o);
    forall j | 0 <= j < |fields|
      ensures Parse(fields[j].1, Get(CustomWithoutUser(), fields[j].0), o).Valid?
    {
    }
    ObjParse(fields, v, o, 0);
    PlanListRefinementIdle(v, o);
  }

  /** With the intended refinement, a filter is accepted iff its fields are and it is not a custom listing without a user. */
  lemma IntendedListingRule(v: Option<Json>, o: Oracles)
    ensures var a := Parse(PlanListFilterFields(), v, o);
      Parse(IntendedPlanListFilterSchema(), v, o).Valid? <==>
        (a.Valid? && !(FieldOf(a, "type") == Some(JStr("custom")) && !Truthy(OrNull(FieldOf(a, "user_id")))))
  {
    RefineParse(PlanListFilterFields(), CustomListingHasUser, v, o);
    FieldParsed(PlanListFilterFields().fields, v, o, 0);
  }

  /** With the intended refinement, a custom listing without a user id is refused. */
  lemma IntendedListingNeedsUser(v: Option<Json>, o: Oracles)
    requires v.Some? && Get(v.value, "type") == Some(JStr("custom"))
    requires var u := Get(v.value, "user_id"); u.None? || !Truthy(u.value)
    ensures !Parse(IntendedPlanListFilterSchema(), v, o).Valid?
  {
    IntendedListingRule(v, o);
    var fields := PlanListFilterFields().fields;
    FieldParsed(fields, v, o, 0);
    FieldParsed(fields, v, o, 1);
  }

  /** The plan list filter has a limit in [1, 200], 50 when absent, and an offset of at least 0, 0 when absent. */
  lemma PlanListPaging(v: Option<Json>, o: Oracles)
    ensures var r := Parse(PlanListFilterFields(), v, o);
      r.Valid? ==> (PageValue(FieldOf(r, "limit"), 1, Some(200)) && PageValue(FieldOf(r, "offset"), 0, None)
        && (Get(v.value, "limit").None? ==> FieldOf(r, "limit") == Some(JNum(50.0)))
        && (Get(v.value, "offset").None? ==> FieldOf(r, "offset") == Some(JNum(0.0))))
  {
    var fields := PlanListFilterFields().fields;
    FieldParsed(fields, v, o, 2);
    FieldParsed(fields, v, o, 3);
    if Parse(PlanListFilterFields(), v, o).Valid? {
      PagingFieldParse(1, Some(200), 50, Get(v.value, "limit"), o);
      PagingFieldParse(0, None, 0, Get(v.value, "offset"), o);
    }
  }

  /** The invited-plan list filter needs a user id that is a UUID, with the same paging rules. */
  lemma InvitedPlanListRules(v: Option<Json>, o: Oracles)
    ensures var r := Parse(InvitedPlanListSchema(), v, o);
      r.Valid? ==> (AsString(Get(v.value, "user_id")).Some? && Uuid.MatchesUuid(AsString(Get(v.value, "user_id")).value)
        && PageValue(FieldOf(r, "limit"), 1, Some(200)) && PageValue(FieldOf(r, "offset"), 0, None))
  {
    var fields := InvitedPlanListSchema().fields;
    FieldParsed(fields, v, o, 0);
    FieldParsed(fields, v, o, 1);
    FieldParsed(fields, v, o, 2);
    if Parse(InvitedPlanListSchema(), v, o).Valid? {
      StrParse(false, 0, None, UuidText, Get(v.value, "user_id"), o);
      PagingFieldParse(1, Some(200), 50, Get(v.value, "limit"), o);
      PagingFieldParse(0, None, 0, Get(v.value, "offset"), o);
    }
  }

  // ---------------------------------------------------------------------------
  // Invitations

  /** An invitation lists at least one user, each a UUID. */
  lemma InviteUserIds(v: Option<Json>, o: Oracles)
    ensures Parse(InvitePlanMembersSchema(), v, o).Valid? ==>
      (Get(v.value, "user_ids").Some? && Get(v.value, "user_ids").value.JArr?
        && |Get(v.value, "user_ids").value.items| >= 1
        && forall i :: 0 <= i < |Get(v.value, "user_ids").value.items| ==>
          Get(v.value, "user_ids").value.items[i].JStr? && Uuid.MatchesUuid(Get(v.value, "user_ids").value.items[i].s))
  {
    FieldParsed(InvitePlanMembersSchema().fields, v, o, 0);
    if Parse(InvitePlanMembersSchema(), v, o).Valid? {
      var ids := Get(v.value, "user_ids");
      ArrParse(UuidSchema(), 1, ids, o);
      forall i | 0 <= i < |ids.value.items|
        ensures ids.value.items[i].JStr? && Uuid.MatchesUuid(ids.value.items[i].s)
      {
        StrParse(false, 0, None, UuidText, Some(ids.value.items[i]), o);
      }
    }
  }

  /** A missing role is read as "viewer". */
  lemma InviteRoleDefault(v: Option<Json>, o: Oracles)
    ensures var r := Parse(InvitePlanMembersSchema(), v, o);
      r.Valid? && Get(v.value, "role").None? ==> FieldOf(r, "role") == Some(JStr("viewer"))
  {
    ViewerTrimmed();
    TrimmedDefault(InvitePlanMembersSchema().fields, v, o, 1, TrimmedText(1, None), "viewer");
  }

  lemma ViewerTrimmed()
    ensures Trim("viewer") == "viewer"
  {
    TrimStartIdle("viewer");
    TrimEndIdle("viewer");
  }

  /** A given role is non-blank, and kept trimmed. */
  lemma InviteRoleGiven(v: Option<Json>, o: Oracles)
    ensures var r := Parse(InvitePlanMembersSchema(), v, o);
      r.Valid? && Get(v.value, "role").Some? ==> (AsString(Get(v.value, "role")).Some?
        && var t := Trim(AsString(Get(v.value, "role")).value);
          |t| >= 1 && FieldOf(r, "role") == Some(JStr(t)))
  {
    TrimmedField(InvitePlanMembersSchema().fields, v, o, 1, TrimmedText(1, None));
  }

  // ---------------------------------------------------------------------------
  // Plan items

  /** A missing item type is read as "drill". */
  lemma ItemTypeDefault(v: Option<Json>, o: Oracles)
    ensures var r := Parse(PlanItemFields(), v, o);
      r.Valid? && Get(v.value, "item_type").None? ==> FieldOf(r, "item_type") == Some(JStr("drill"))
  {
    EnumFieldDefault(PlanItemFields().fields, v, o, 3);
  }

  /** A given item type is kept. */
  lemma ItemTypeGiven(v: Option<Json>, o: Oracles)
    ensures var r := Parse(PlanItemFields(), v, o);
      r.Valid? && Get(v.value, "item_type").Some? ==> FieldOf(r, "item_type") == Get(v.value, "item_type")
  {
    EnumFieldDefault(PlanItemFields().fields, v, o, 3);
  }

  /** The item fields keep the drill id as given: missing, null or a UUID. */
  lemma ItemDrillId(v: Option<Json>, o: Oracles)
    ensures var r := Parse(PlanItemFields(), v, o);
      r.Valid? ==> FieldOf(r, "drill_id") == Get(v.value, "drill_id")
    ensures var r := Parse(PlanItemFields(), v, o);
      r.Valid? && Get(v.value, "drill_id").Some? && Get(v.value, "drill_id") != Some(JNull) ==>
        AsString(Get(v.value, "drill_id")).Some? && Uuid.MatchesUuid(AsString(Get(v.value, "drill_id")).value)
  {
    FieldParsed(PlanItemFields().fields, v, o, 4);
    if Parse(PlanItemFields(), v, o).Valid? {
      OptionalNullableParse(UuidSchema(), Get(v.value, "drill_id"), o);
      StrParse(false, 0, None, UuidText, Get(v.value, "drill_id"), o);
    }
  }

  /** An item whose type is "drill", given or by default, is refused unless it names a drill. */
  lemma DrillItemNeedsDrill(v: Option<Json>, o: Oracles)
    requires v.Some?
    requires Get(v.value, "item_type").None? || Get(v.value, "item_type") == Some(JStr("drill"))
    requires Get(v.value, "drill_id").None? || Get(v.value, "drill_id") == Some(JNull)
    ensures !Parse(PlanItemSchema(), v, o).Valid?
  {
    RefineParse(PlanItemFields(), DrillItemHasDrill, v, o);
    ItemTypeDefault(v, o);
    ItemTypeGiven(v, o);
    ItemDrillId(v, o);
  }

  /** An accepted drill item names its drill by a UUID. */
  lemma DrillItemHasUuid(v: Option<Json>, o: Oracles)
    ensures var r := Parse(PlanItemSchema(), v, o);
      r.Valid? && FieldOf(r, "item_type") == Some(JStr("drill")) ==>
        (AsString(Get(v.value, "drill_id")).Some? && Uuid.MatchesUuid(AsString(Get(v.value, "drill_id")).value))
  {
    RefineParse(PlanItemFields(), DrillItemHasDrill, v, o);
    ItemDrillId(v, o);
  }

  // ---------------------------------------------------------------------------
  // Plan creation

  /** A plan's name is 1 to 200 characters once trimmed, and the trimmed text is kept. */
  lemma CreatePlanName(v: Option<Json>, o: Oracles)
    ensures var r := Parse(CreatePlanSchema(), v, o);
      r.Valid? ==> (AsString(Get(v.value, "name")).Some?
        && var t := Trim(AsString(Get(v.value, "name")).value);
          1 <= Utf16Length(t) <= 200 && FieldOf(r, "name") == Some(JStr(t)))
  {
    TrimmedField(CreatePlanSchema().fields, v, o, 2, TrimmedText(1, Some(200)));
  }

  /** A new plan has at least one item, each accepted by the item schema. */
  lemma CreatePlanItems(v: Option<Json>, o: Oracles)
    ensures Parse(CreatePlanSchema(), v, o).Valid? ==>
      (Get(v.value, "items").Some? && Get(v.value, "items").value.JArr? && |Get(v.value, "items").value.items| >= 1
        && forall i :: 0 <= i < |Get(v.value, "items").value.items| ==>
          Parse(PlanItemSchema(), Some(Get(v.value, "items").value.items[i]), o).Valid?)
  {
    FieldParsed(CreatePlanSchema().fields, v, o, 8);
    if v.Some? {
      ArrParse(PlanItemSchema(), 1, Get(v.value, "items"), o);
    }
  }

  /** An accepted creation request has what `createPlan` reads: an owner and a name that is a string. */
  lemma CreatePlanTyped(v: Option<Json>, o: Oracles)
    ensures var r := Parse(CreatePlanSchema(), v, o);
      r.Valid? ==> (r.value.Some? && r.value.value.JObj? && Plans.CreateInputTyped(r.value.value.fields))
  {
    var fields := CreatePlanSchema().fields;
    ObjParse(fields, v, o, 0);
    CreatePlanName(v, o);
    if Parse(CreatePlanSchema(), v, o).Valid? {
      StrParse(false, 0, None, UuidText, Get(v.value, "owner_user_id"), o);
    }
  }

  // ---------------------------------------------------------------------------
  // Plan update

  /** A plan field that is missing from an accepted update stays missing. */
  lemma UpdateFieldMissing(v: Option<Json>, o: Oracles, k: string)
    requires k in Plans.PlanFields && v.Some? && Get(v.value, k).None?
    ensures var r := Parse(UpdatePlanFields(), v, o);
      r.Valid? ==> FieldOf(r, k).None?
  {
    if k == "name" || k == "description" || k == "visibility" {
      UpdateFieldMissingFirst(v, o, k);
    } else {
      UpdateFieldMissingLast(v, o, k);
    }
  }

  lemma UpdateFieldMissingFirst(v: Option<Json>, o: Oracles, k: string)
    requires k == "name" || k == "description" || k == "visibility"
    requires v.Some? && Get(v.value, k).None?
    ensures var r := Parse(UpdatePlanFields(), v, o);
      r.Valid? ==> FieldOf(r, k).None?
  {
    var fields := UpdatePlanFields().fields;
    if k == "name" { MissingFieldStaysMissing(fields, v, o, 0); }
    else if k == "description" { MissingFieldStaysMissing(fields, v, o, 1); }
    else { MissingFieldStaysMissing(fields, v, o, 2); }
  }

  lemma UpdateFieldMissingLast(v: Option<Json>, o: Oracles, k: string)
    requires k == "status" || k == "tags" || k == "estimated_minutes" || k == "org_id"
    requires v.Some? && Get(v.value, k).None?
    ensures var r := Parse(UpdatePlanFields(), v, o);
      r.Valid? ==> FieldOf(r, k).None?
  {
    var fields := UpdatePlanFields().fields;
    if k == "status" { MissingFieldStaysMissing(fields, v, o, 3); }
    else if k == "tags" { MissingFieldStaysMissing(fields, v, o, 4); }
    else if k == "estimated_minutes" { MissingFieldStaysMissing(fields, v, o, 5); }
    else { MissingFieldStaysMissing(fields, v, o, 6); }
  }

  /** A missing or empty item list is read as an empty list. */
  lemma UpdateListEmpty(v: Option<Json>, o: Oracles, k: string)
    requires k == "add_items" || k == "remove_item_ids"
    requires v.Some?
    requires Get(v.value, k).None? || Get(v.value, k) == Some(JArr([]))
    ensures var r := Parse(UpdatePlanFields(), v, o);
      r.Valid? ==> ElementsOf(FieldOf(r, k)) == []
  {
    if k == "add_items" {
      EmptyListDefault(UpdatePlanFields().fields, v, o, 7);
    } else {
      EmptyListDefault(UpdatePlanFields().fields, v, o, 8);
    }
  }

  /**
   * An update with no plan field and no item to add or remove is refused
   * ("No updates provided").
   */
  lemma UpdatePlanNeedsChange(v: Option<Json>, o: Oracles)
    requires v.Some?
    requires forall k :: k in Plans.PlanFields ==> Get(v.value, k).None?
    requires Get(v.value, "add_items").None? || Get(v.value, "add_items") == Some(JArr([]))
    requires Get(v.value, "remove_item_ids").None? || Get(v.value, "remove_item_ids") == Some(JArr([]))
    ensures !Parse(UpdatePlanSchema(), v, o).Valid?
  {
    RefineParse(UpdatePlanFields(), HasUpdates, v, o);
    var a := Parse(UpdatePlanFields(), v, o);
    if a.Valid? {
      forall k | k in Plans.PlanFields
        ensures Get(a.value.value, k).None?
      {
        UpdateFieldMissing(v, o, k);
      }
      UpdateListEmpty(v, o, "add_items");
      UpdateListEmpty(v, o, "remove_item_ids");
    }
  }

  /** An update that sets a plan field, or adds or removes an item, passes the refinement. */
  lemma UpdatePlanWithChange(v: Option<Json>, o: Oracles)
    ensures var a := Parse(UpdatePlanFields(), v, o);
      a.Valid? && a.value.Some? && HasUpdates(a.value.value) ==> Parse(UpdatePlanSchema(), v, o) == a
  {
    RefineParse(UpdatePlanFields(), HasUpdates, v, o);
  }

  /** The update fields yield a name only as a string: trimmed from a given one. */
  lemma UpdateFieldsTyped(v: Option<Json>, o: Oracles)
    ensures var r := Parse(UpdatePlanFields(), v, o);
      r.Valid? ==> (r.value.Some? && r.value.value.JObj? && Plans.NameTyped(r.value.value.fields))
  {
    var fields := UpdatePlanFields().fields;
    TrimmedField(fields, v, o, 0, TrimmedText(1, Some(200)));
    FieldParsed(fields, v, o, 0);
    if Parse(UpdatePlanFields(), v, o).Valid? && Get(v.value, "name").None? {
      UpdateFieldMissingFirst(v, o, "name");
    }
  }

  /** An accepted update has what `updatePlan` reads: a name, when given, is a string. */
  lemma UpdatePlanTyped(v: Option<Json>, o: Oracles)
    ensures var r := Parse(UpdatePlanSchema(), v, o);
      r.Valid? ==> (r.value.Some? && r.value.value.JObj? && Plans.NameTyped(r.value.value.fields))
  {
    RefineParse(UpdatePlanFields(), HasUpdates, v, o);
    UpdateFieldsTyped(v, o);
  }
}

=== FILE: plans.dfy ===
/**
 * Practice plans: the row mappers, the item rows `buildPlanItemRows` writes,
 * the listings, `invitePlanMembers`, `updatePlan` and `createPlan`. The
 * plan, item, member and invitation tables are held by `PlanTables`; what
 * the services read from other tables or from the auth service is passed in.
 */
module Plans {
  import opened Wrappers
  import opened Text
  import opened Json
  import opened Dedup
  import Sorting

  // ---------------------------------------------------------------------------
  // mapPlanRow, mapPlanItemRow

  /** A plan as the API returns it. */
  datatype PlanDto = PlanDto(
    id: Option<Json>, orgId: Json, ownerUserId: Option<Json>, name: Option<Json>, description: Json,
    visibility: Json, status: Json, tags: seq<Json>, estimatedMinutes: Json,
    createdAt: Option<Json>, updatedAt: Option<Json>)

  /**
   * `mapPlanRow`: visibility defaults to "private", status to "draft", tags
   * to [] unless the column holds an array, and the organization,
   * description and estimate to null.
   */
  function PlanOfRow(row: Json): (r: PlanDto)
    ensures Get(row, "visibility").None? || Get(row, "visibility") == Some(JNull) ==> r.visibility == JStr("private")
    ensures Get(row, "status").None? || Get(row, "status") == Some(JNull) ==> r.status == JStr("draft")
    ensures (Get(row, "visibility").Some? && Get(row, "visibility").value != JNull) ==> r.visibility == Get(row, "visibility").value
    ensures (Get(row, "status").Some? && Get(row, "status").value != JNull) ==> r.status == Get(row, "status").value
    ensures Get(row, "tags").Some? && Get(row, "tags").value.JArr? ==> r.tags == Get(row, "tags").value.items
    ensures !(Get(row, "tags").Some? && Get(row, "tags").value.JArr?) ==> r.tags == []
    ensures Get(row, "org_id").None? ==> r.orgId == JNull
    ensures Get(row, "description").None? ==> r.description == JNull
    ensures Get(row, "estimated_minutes").None? ==> r.estimatedMinutes == JNull
  {
    PlanDto(
      Get(row, "id"),
      OrDefault(Get(row, "org_id"), JNull),
      Get(row, "owner_user_id"),
      Get(row, "name"),
      OrDefault(Get(row, "description"), JNull),
      OrDefault(Get(row, "visibility"), JStr("private")),
      OrDefault(Get(row, "status"), JStr("draft")),
      ElementsOf(Get(row, "tags")),
      OrDefault(Get(row, "estimated_minutes"), JNull),
      Get(row, "created_at"),
      Get(row, "updated_at"))
  }

  /** A plan item as the API returns it. */
  datatype PlanItemDto = PlanItemDto(
    id: Option<Json>, planId: Option<Json>, sectionTitle: Json, sectionOrder: Json, position: Json,
    itemType: Json, drillId: Json, drillName: Json, title: Json, instructions: Json,
    sets: Json, reps: Json, durationSeconds: Json, restSeconds: Json, config: Json)

  /**
   * `mapPlanItemRow`: the item type defaults to "drill", the configuration to
   * {}, the drill name comes from the joined drill, and every other missing
   * column is null.
   */
  function PlanItemOfRow(row: Json): (r: PlanItemDto)
    ensures Get(row, "item_type").None? || Get(row, "item_type") == Some(JNull) ==> r.itemType == JStr("drill")
    ensures Get(row, "config").None? || Get(row, "config") == Some(JNull) ==> r.config == JObj(map[])
    ensures r.drillName == OrDefault(GetIn(Get(row, "drill"), "name"), JNull)
    ensures Get(row, "position").None? ==> r.position == JNull
    ensures Get(row, "drill_id").None? ==> r.drillId == JNull
  {
    var drill := OrElse(Get(row, "drill"), Some(JNull));
    PlanItemDto(
      Get(row, "id"),
      Get(row, "plan_id"),
      OrDefault(Get(row, "section_title"), JNull),
      OrDefault(Get(row, "section_order"), JNull),
      OrDefault(Get(row, "position"), JNull),
      OrDefault(Get(row, "item_type"), JStr("drill")),
      OrDefault(Get(row, "drill_id"), JNull),
      OrDefault(GetIn(drill, "name"), JNull),
      OrDefault(Get(row, "title"), JNull),
      OrDefault(Get(row, "instructions"), JNull),
      OrDefault(Get(row, "sets"), JNull),
      OrDefault(Get(row, "reps"), JNull),
      OrDefault(Get(row, "duration_seconds"), JNull),
      OrDefault(Get(row, "rest_seconds"), JNull),
      OrDefault(Get(row, "config"), JObj(map[])))
  }

  /** A plan with its items, as `getPlanById` returns it. */
  datatype PlanDetail = PlanDetail(plan: PlanDto, items: seq<PlanItemDto>)

  /**
   * `getPlanById`: no row is no plan (and no error); the items are the
   * joined item rows, each mapped, or none when the join is not an array.
   */
  function PlanDetailOf(row: Option<Json>): (r: Option<PlanDetail>)
    ensures r.None? <==> row.None?
    ensures r.Some? ==> r.value.plan == PlanOfRow(row.value)
    ensures r.Some? ==> |r.value.items| == |ElementsOf(Get(row.value, "practice_plan_items"))|
    ensures r.Some? ==> forall i :: 0 <= i < |r.value.items| ==>
      r.value.items[i] == PlanItemOfRow(ElementsOf(Get(row.value, "practice_plan_items"))[i])
  {
    if row.None? then None
    else
      var joined := ElementsOf(Get(row.value, "practice_plan_items"));
      Some(PlanDetail(PlanOfRow(row.value), seq(|joined|, i requires 0 <= i < |joined| => PlanItemOfRow(joined[i]))))
  }

  // ---------------------------------------------------------------------------
  // listPlansByType, listInvitedPlans

  /** `offset + (limit - 1)`: the last index of the inclusive range asked for. */
  function RangeEnd(offset: nat, limit: nat): int {
    offset + (limit - 1)
  }

  /** `.range(from, to)`: the rows at indices `from` to `to`, both included. */
  function Range<T>(xs: seq<T>, from: nat, to: int): (r: seq<T>)
    ensures |r| <= |xs|
  {
    if to < from || from >= |xs| then []
    else if to + 1 <= |xs| then xs[from..to + 1]
    else xs[from..]
  }

  /** For a positive limit the inclusive range ending at `RangeEnd` is exactly one page. */
  lemma RangeIsPage<T>(xs: seq<T>, offset: nat, limit: nat)
    requires limit >= 1
    ensures Range(xs, offset, RangeEnd(offset, limit)) == Sorting.Page(xs, offset, limit)
  {
  }

  /**
   * The filters of `listPlansByType`: the plan's type, and its owner unless
   * the type is "prebuild". A missing user id matches no owner.
   */
  predicate Listed(row: Json, planType: string, userId: Option<string>) {
    Get(row, "type") == Some(JStr(planType))
    && (planType != "prebuild" ==> userId.Some? && Get(row, "owner_user_id") == Some(JStr(userId.value)))
  }

  /** The rows that pass the filters, in the order given. */
  function ListedRows(rows: seq<Json>, planType: string, userId: Option<string>): (r: seq<Json>)
    ensures forall row :: row in r <==> row in rows && Listed(row, planType, userId)
    ensures |r| <= |rows|
    decreases |rows|
  {
    if |rows| == 0 then []
    else
      var n := |rows| - 1;
      var r := ListedRows(rows[..n], planType, userId);
      assert rows == rows[..n] + [rows[n]];
      if Listed(rows[n], planType, userId) then r + [rows[n]] else r
  }

  /**
   * `listPlansByType` over the plans table in `updated_at`-descending order:
   * the page of matching plans, and the number of all matching plans.
   */
  function ListPlansByType(rows: seq<Json>, planType: string, userId: Option<string>, limit: nat, offset: nat): (r: (seq<PlanDto>, nat))
    ensures r.1 == |ListedRows(rows, planType, userId)|
    ensures |r.0| <= limit
  {
    var matching := ListedRows(rows, planType, userId);
    var page := Range(matching, offset, RangeEnd(offset, limit));
    RangeIsPage(matching, offset, if limit == 0 then 1 else limit);
    (seq(|page|, i requires 0 <= i < |page| => PlanOfRow(page[i])), |matching|)
  }

  /**
   * Every listed plan has the requested type and, unless the type is
   * "prebuild", is owned by the requesting user; prebuilt plans are listed
   * whoever asks.
   */
  lemma ListedPlansOwned(rows: seq<Json>, planType: string, userId: Option<string>, limit: nat, offset: nat)
    requires limit >= 1
    ensures var page := Sorting.Page(ListedRows(rows, planType, userId), offset, limit);
      |ListPlansByType(rows, planType, userId, limit, offset).0| == |page|
      && forall i :: 0 <= i < |page| ==>
        ListPlansByType(rows, planType, userId, limit, offset).0[i] == PlanOfRow(page[i])
        && page[i] in rows && Get(page[i], "type") == Some(JStr(planType))
        && (planType != "prebuild" ==> userId.Some? && Get(page[i], "owner_user_id") == Some(JStr(userId.value)))
  {
    var matching := ListedRows(rows, planType, userId);
    RangeIsPage(matching, offset, limit);
    var page := Sorting.Page(matching, offset, limit);
    forall i | 0 <= i < |page|
      ensures page[i] in matching
    {
      assert page[i] == matching[offset + i];
    }
  }

  /** The "prebuild" listing does not depend on who asks. */
  lemma {:induction false} PrebuildIgnoresUser(rows: seq<Json>, a: Option<string>, b: Option<string>)
    ensures ListedRows(rows, "prebuild", a) == ListedRows(rows, "prebuild", b)
    decreases |rows|
  {
    if |rows| > 0 {
      PrebuildIgnoresUser(rows[..|rows| - 1], a, b);
    }
  }

  /** A plan shared with the user, with the membership it was shared through. */
  datatype InvitedPlanDto = InvitedPlanDto(plan: PlanDto, memberRole: Json, invitedAt: Option<Json>, invitedBy: Json)

  /**
   * The mapping in `listInvitedPlans`: the membership is the first joined
   * member row (or the joined object); its role defaults to "viewer", its
   * date to the plan's creation date, and the inviter to null.
   */
  function InvitedPlanOf(row: Json): (r: InvitedPlanDto)
    ensures r.plan == PlanOfRow(row)
    ensures var joined := Get(row, "practice_plan_members");
      joined.Some? && joined.value.JArr? && |joined.value.items| == 0 ==>
        r.memberRole == JStr("viewer") && r.invitedAt == Get(row, "created_at") && r.invitedBy == JNull
    ensures var joined := Get(row, "practice_plan_members");
      joined.Some? && joined.value.JArr? && |joined.value.items| > 0 ==>
        r.memberRole == OrDefault(Get(joined.value.items[0], "role"), JStr("viewer"))
  {
    var base := PlanOfRow(row);
    var joined := Get(row, "practice_plan_members");
    var member :=
      if joined.Some? && joined.value.JArr?
      then (if |joined.value.items| > 0 then Some(joined.value.items[0]) else None)
      else joined;
    InvitedPlanDto(
      base,
      OrDefault(GetIn(member, "role"), JStr("viewer")),
      OrElse(GetIn(member, "created_at"), base.createdAt),
      OrDefault(GetIn(member, "added_by"), JNull))
  }

  // ---------------------------------------------------------------------------
  // buildPlanItemRows

  /** A row written to `practice_plan_items`. */
  datatype ItemRow = ItemRow(
    planId: string, sectionTitle: Json, sectionOrder: Json, position: Json, itemType: Json,
    drillId: Json, title: Json, instructions: Json, sets: Json, reps: Json,
    durationSeconds: Json, restSeconds: Json, config: Json)

  /** `item[key]`, `None` when the parsed item does not define it. */
  function Field(item: map<string, Json>, key: string): Option<Json> {
    Get(JObj(item), key)
  }

  /** `item.position === null || item.position === undefined`. */
  predicate PositionMissing(item: map<string, Json>) {
    Field(item, "position").None? || Field(item, "position") == Some(JNull)
  }

  /** The row for one item, given the position it gets when it has none. */
  function ItemRowOf(planId: string, item: map<string, Json>, fallback: real): ItemRow {
    ItemRow(
      planId,
      OrDefault(Field(item, "section_title"), JNull),
      OrDefault(Field(item, "section_order"), JNull),
      OrDefault(Field(item, "position"), JNum(fallback)),
      OrDefault(Field(item, "item_type"), JStr("drill")),
      OrDefault(Field(item, "drill_id"), JNull),
      OrDefault(Field(item, "title"), JNull),
      OrDefault(Field(item, "instructions"), JNull),
      OrDefault(Field(item, "sets"), JNull),
      OrDefault(Field(item, "reps"), JNull),
      OrDefault(Field(item, "duration_seconds"), JNull),
      OrDefault(Field(item, "rest_seconds"), JNull),
      OrDefault(Field(item, "config"), JObj(map[])))
  }

  /** `buildPlanItemRows(planId, items, startIndex)`: one row per item, in order. */
  function BuildPlanItemRows(planId: string, items: seq<map<string, Json>>, startIndex: real): (r: seq<ItemRow>)
    ensures |r| == |items|
  {
    seq(|items|, i requires 0 <= i < |items| => ItemRowOf(planId, items[i], startIndex + i as real))
  }

  /**
   * Each row belongs to the plan and keeps its item's fields; an item
   * without a position gets `startIndex` plus its index, the type defaults
   * to "drill" and the configuration to {}.
   */
  lemma BuildPlanItemRowsSpec(planId: string, items: seq<map<string, Json>>, startIndex: real, i: nat)
    requires i < |items|
    ensures var row := BuildPlanItemRows(planId, items, startIndex)[i];
      && row.planId == planId
      && (PositionMissing(items[i]) ==> row.position == JNum(startIndex + i as real))
      && (!PositionMissing(items[i]) ==> row.position == items[i]["position"])
      && (Field(items[i], "item_type").Some? && items[i]["item_type"] != JNull ==> row.itemType == items[i]["item_type"])
      && (Field(items[i], "item_type").None? || items[i]["item_type"] == JNull ==> row.itemType == JStr("drill"))
      && (Field(items[i], "config").None? || items[i]["config"] == JNull ==> row.config == JObj(map[]))
      && (Field(items[i], "drill_id").Some? ==> row.drillId == items[i]["drill_id"])
      && (Field(items[i], "drill_id").None? ==> row.drillId == JNull)
  {
  }

  /**
   * Items without a position are numbered from `startIndex` upwards in list
   * order: their positions are at least `startIndex` and strictly increase.
   */
  lemma AutoPositionsIncrease(planId: string, items: seq<map<string, Json>>, startIndex: real, i: nat, j: nat)
    requires i < j < |items| && PositionMissing(items[i]) && PositionMissing(items[j])
    ensures var rows := BuildPlanItemRows(planId, items, startIndex);
      rows[i].position.JNum? && rows[j].position.JNum?
      && startIndex <= rows[i].position.n < rows[j].position.n
  {
    BuildPlanItemRowsSpec(planId, items, startIndex, i);
    BuildPlanItemRowsSpec(planId, items, startIndex, j);
  }

  /** Building rows for two lists of items is building them for the joined list. */
  lemma BuildPlanItemRowsConcat(planId: string, a: seq<map<string, Json>>, b: seq<map<string, Json>>, startIndex: real)
    ensures BuildPlanItemRows(planId, a + b, startIndex)
      == BuildPlanItemRows(planId, a, startIndex) + BuildPlanItemRows(planId, b, startIndex + |a| as real)
  {
    var l := BuildPlanItemRows(planId, a + b, startIndex);
    var r := BuildPlanItemRows(planId, a, startIndex) + BuildPlanItemRows(planId, b, startIndex + |a| as real);
    forall k | 0 <= k < |l|
      ensures l[k] == r[k]
    {
      if k >= |a| {
        assert (a + b)[k] == b[k - |a|];
        assert startIndex + k as real == (startIndex + |a| as real) + (k - |a|) as real;
      }
    }
  }

  // ---------------------------------------------------------------------------
  // invitePlanMembers

  /** `ids.filter((id) => !s.has(id))`. */
  function Outside(ids: seq<string>, s: set<string>): (r: seq<string>)
    ensures forall x :: x in r <==> x in ids && x !in s
    ensures |r| <= |ids|
    decreases |ids|
  {
    if |ids| == 0 then []
    else
      var n := |ids| - 1;
      assert ids == ids[..n] + [ids[n]];
      var r := Outside(ids[..n], s);
      if ids[n] in s then r else r + [ids[n]]
  }

  /** `ids.filter((id) => s.has(id))`. */
  function Inside(ids: seq<string>, s: set<string>): (r: seq<string>)
    ensures forall x :: x in r <==> x in ids && x in s
    ensures |r| <= |ids|
    decreases |ids|
  {
    if |ids| == 0 then []
    else
      var n := |ids| - 1;
      assert ids == ids[..n] + [ids[n]];
      var r := Inside(ids[..n], s);
      if ids[n] in s then r + [ids[n]] else r
  }

  /** No string occurs twice. */
  predicate Distinct(ids: seq<string>) {
    forall i, j :: 0 <= i < j < |ids| ==> ids[i] != ids[j]
  }

  /** Filtering a list without repeats leaves a list without repeats. */
  lemma {:induction false} OutsideDistinct(ids: seq<string>, s: set<string>)
    requires Distinct(ids)
    ensures Distinct(Outside(ids, s))
    decreases |ids|
  {
    if |ids| > 0 {
      var n := |ids| - 1;
      assert Distinct(ids[..n]);
      OutsideDistinct(ids[..n], s);
      var r := Outside(ids[..n], s);
      if ids[n] !in s {
        assert ids[n] !in ids[..n];
        assert ids[n] !in r;
        assert Outside(ids, s) == r + [ids[n]];
      }
    }
  }

  /** Filtering a list without repeats leaves a list without repeats. */
  lemma {:induction false} InsideDistinct(ids: seq<string>, s: set<string>)
    requires Distinct(ids)
    ensures Distinct(Inside(ids, s))
    decreases |ids|
  {
    if |ids| > 0 {
      var n := |ids| - 1;
      assert Distinct(ids[..n]);
      InsideDistinct(ids[..n], s);
      var r := Inside(ids[..n], s);
      if ids[n] in s {
        assert ids[n] !in ids[..n];
        assert ids[n] !in r;
        assert Inside(ids, s) == r + [ids[n]];
      }
    }
  }

  /** Filtering out a set that holds every id leaves nothing; keeping it keeps all. */
  lemma {:induction false} FilterCovered(ids: seq<string>, s: set<string>)
    requires forall x :: x in ids ==> x in s
    ensures Outside(ids, s) == [] && Inside(ids, s) == ids
    decreases |ids|
  {
    if |ids| > 0 {
      var n := |ids| - 1;
      FilterCovered(ids[..n], s);
      assert ids == ids[..n] + [ids[n]];
    }
  }

  /** One `getUserById` answer: the user's e-mail address, if the user has one. */
  datatype AuthResult = AuthResult(userId: string, email: Option<string>)

  /** The answers for each user to invite, in order. */
  function AuthResults(ids: seq<string>, emailOf: string -> Option<string>): (r: seq<AuthResult>)
    ensures |r| == |ids|
  {
    seq(|ids|, i requires 0 <= i < |ids| => AuthResult(ids[i], emailOf(ids[i])))
  }

  /** `emailByUserId` after the loop over the answers: non-empty addresses, the later answer winning. */
  function EmailMap(results: seq<AuthResult>): map<string, string>
    decreases |results|
  {
    if |results| == 0 then map[]
    else
      var n := |results| - 1;
      var m := EmailMap(results[..n]);
      if results[n].email.Some? && results[n].email.value != "" then m[results[n].userId := results[n].email.value] else m
  }

  /** Fills `emailByUserId` one answer at a time. */
  method BuildEmailMap(results: seq<AuthResult>) returns (emailByUserId: map<string, string>)
    ensures emailByUserId == EmailMap(results)
  {
    emailByUserId := map[];
    var n := 0;
    while n < |results|
      invariant n <= |results|
      invariant emailByUserId == EmailMap(results[..n])
    {
      var result := results[n];
      assert results[..n + 1][..n] == results[..n];
      if result.email.Some? && result.email.value != "" {
        emailByUserId := emailByUserId[result.userId := result.email.value];
      }
      n := n + 1;
    }
    assert results[..n] == results;
  }

  /** The map holds exactly the users that have a non-empty address, each with that address. */
  lemma {:induction false} EmailMapSpec(ids: seq<string>, emailOf: string -> Option<string>)
    ensures var m := EmailMap(AuthResults(ids, emailOf));
      forall id :: id in m <==> id in ids && emailOf(id).Some? && emailOf(id).value != ""
    ensures var m := EmailMap(AuthResults(ids, emailOf));
      forall id :: id in m ==> emailOf(id) == Some(m[id])
    decreases |ids|
  {
    if |ids| > 0 {
      var n := |ids| - 1;
      assert AuthResults(ids, emailOf)[..n] == AuthResults(ids[..n], emailOf);
      EmailMapSpec(ids[..n], emailOf);
      assert ids == ids[..n] + [ids[n]];
    }
  }

  /** A row written to `practice_plan_invitations`. */
  datatype InviteRow = InviteRow(planId: string, invitedBy: Json, email: string, userId: string, role: string)

  /** The invitation rows: one per user whose address is known and not already pending. */
  function InviteRows(planId: string, ids: seq<string>, emails: map<string, string>, pending: set<string>,
                      invitedBy: Json, role: string): (r: seq<InviteRow>)
    ensures |r| <= |ids|
    decreases |ids|
  {
    if |ids| == 0 then []
    else
      var n := |ids| - 1;
      var r := InviteRows(planId, ids[..n], emails, pending, invitedBy, role);
      var id := ids[n];
      if id in emails && emails[id] != "" && emails[id] !in pending
      then r + [InviteRow(planId, invitedBy, emails[id], id, role)]
      else r
  }

  /** The users the rows invite. */
  function InvitedUsers(rows: seq<InviteRow>): set<string> {
    set row | row in rows :: row.userId
  }

  /**
   * Every invitation row is for a listed user, at that user's known address,
   * which has no pending invitation; every listed user with such an address
   * gets one.
   */
  lemma {:induction false} InviteRowsSpec(planId: string, ids: seq<string>, emails: map<string, string>, pending: set<string>,
                                          invitedBy: Json, role: string)
    ensures forall row :: row in InviteRows(planId, ids, emails, pending, invitedBy, role) ==>
      row.planId == planId && row.invitedBy == invitedBy && row.role == role
      && row.userId in ids && row.userId in emails && row.email == emails[row.userId]
      && row.email != "" && row.email !in pending
    ensures forall id :: id in ids && id in emails && emails[id] != "" && emails[id] !in pending ==>
      id in InvitedUsers(InviteRows(planId, ids, emails, pending, invitedBy, role))
    decreases |ids|
  {
    if |ids| > 0 {
      var n := |ids| - 1;
      InviteRowsSpec(planId, ids[..n], emails, pending, invitedBy, role);
      assert ids == ids[..n] + [ids[n]];
      var r := InviteRows(planId, ids[..n], emails, pending, invitedBy, role);
      var all := InviteRows(planId, ids, emails, pending, invitedBy, role);
      assert forall row :: row in r ==> row in all;
    }
  }

  /** A row written to `practice_plan_members`. */
  datatype MemberRow = MemberRow(planId: string, userId: string, role: string, addedBy: Json)

  /** One member row per invited user, with the same role and inviter. */
  function MemberRows(planId: string, ids: seq<string>, role: string, addedBy: Json): (r: seq<MemberRow>)
    ensures |r| == |ids|
  {
    seq(|ids|, i requires 0 <= i < |ids| => MemberRow(planId, ids[i], role, addedBy))
  }

  /** What a successful invitation reports and writes. */
  datatype Invitation = Invitation(invited: seq<string>, skipped: seq<string>, inviteRows: seq<InviteRow>, memberRows: seq<MemberRow>)

  /**
   * `invitePlanMembers` for the plan row `plan` (if any), given the user ids
   * found among the organization's athletes and coaches (`allowed`), those
   * already members of the plan (`existing`), the auth service's addresses
   * (`emailOf`) and the addresses with a pending invitation (`pending`).
   */
  function Invite(planId: string, orgId: string, plan: Option<map<string, Json>>, userIds: seq<string>,
                  role: Option<string>, addedBy: Option<Json>, allowed: set<string>, existing: set<string>,
                  emailOf: string -> Option<string>, pending: set<string>): (r: Result<Invitation>)
    ensures plan.None? ==> r == Err("Plan not found")
    ensures plan.Some? && !(Field(plan.value, "org_id").Some? && Truthy(plan.value["org_id"])) ==>
      r == Err("Plan is not associated with an organization")
    ensures plan.Some? && Field(plan.value, "org_id").Some? && Truthy(plan.value["org_id"]) && plan.value["org_id"] != JStr(orgId) ==>
      r == Err("org_id does not match plan")
  {
    var ids := Unique(userIds);
    var theRole := role.GetOr("viewer");
    if plan.None? then Err("Plan not found")
    else
      var planOrg := Field(plan.value, "org_id");
      if !(planOrg.Some? && Truthy(planOrg.value)) then Err("Plan is not associated with an organization")
      else if planOrg.value != JStr(orgId) then Err("org_id does not match plan")
      else
        var invalid := Outside(ids, allowed);
        if |invalid| > 0 then Err("Users not in organization: " + JoinWith(invalid, ", "))
        else
          var toInvite := Outside(ids, existing);
          var skipped := Inside(ids, existing);
          if |toInvite| == 0 then Ok(Invitation([], skipped, [], []))
          else InviteNew(planId, toInvite, skipped, theRole, Inviter(plan.value, addedBy), emailOf, pending)
  }

  /** The rest of `invitePlanMembers` once someone is left to invite: the inviter, the addresses, the rows. */
  function InviteNew(planId: string, toInvite: seq<string>, skipped: seq<string>, theRole: string, invitedBy: Json,
                     emailOf: string -> Option<string>, pending: set<string>): (r: Result<Invitation>)
    ensures !Truthy(invitedBy) <==> r == Err("invited_by is required")
    ensures r.Ok? ==> r.value.invited == toInvite && r.value.skipped == skipped
  {
    if !Truthy(invitedBy) then Err("invited_by is required")
    else
      var emails := EmailMap(AuthResults(toInvite, emailOf));
      var missing := Outside(toInvite, emails.Keys);
      if |missing| > 0 then Err("Missing emails for users: " + JoinWith(missing, ", "))
      else Ok(Invitation(toInvite, skipped,
                         InviteRows(planId, toInvite, emails, pending, invitedBy, theRole),
                         MemberRows(planId, toInvite, theRole, invitedBy)))
  }

  /** The plan is in the organization the request names. */
  predicate PlanInOrg(plan: Option<map<string, Json>>, orgId: string) {
    plan.Some? && Field(plan.value, "org_id") == Some(JStr(orgId)) && orgId != ""
  }

  /**
   * For a plan of the organization, the request is refused exactly when some
   * requested user is neither an athlete nor a coach there, and the message
   * names every such user.
   */
  lemma InviteOutsiders(planId: string, orgId: string, plan: Option<map<string, Json>>, userIds: seq<string>,
                        role: Option<string>, addedBy: Option<Json>, allowed: set<string>, existing: set<string>,
                        emailOf: string -> Option<string>, pending: set<string>, x: string)
    requires PlanInOrg(plan, orgId)
    requires x in userIds && x !in allowed
    ensures var r := Invite(planId, orgId, plan, userIds, role, addedBy, allowed, existing, emailOf, pending);
      r.Err? && StartsWith(r.msg, "Users not in organization: ") && Contains(r.msg, x)
  {
    var ids := Unique(userIds);
    UniqueSpec(userIds);
    var invalid := Outside(ids, allowed);
    assert x in invalid;
    var k :| 0 <= k < |invalid| && invalid[k] == x;
    JoinWithNames(invalid, ", ", k);
    ContainsBehind("Users not in organization: ", JoinWith(invalid, ", "), x);
  }

  /** The inviter an invitation records: the given `added_by`, else the plan's owner. */
  function Inviter(plan: map<string, Json>, addedBy: Option<Json>): Json {
    OrDefault(OrElse(addedBy, Field(plan, "owner_user_id")), JNull)
  }

  /**
   * For a plan of the organization whose requested users all belong to it,
   * with someone not yet a member, the request goes on to the inviter and
   * the addresses.
   */
  lemma InviteReachesNew(planId: string, orgId: string, plan: Option<map<string, Json>>, userIds: seq<string>,
                         role: Option<string>, addedBy: Option<Json>, allowed: set<string>, existing: set<string>,
                         emailOf: string -> Option<string>, pending: set<string>, x: string)
    requires PlanInOrg(plan, orgId)
    requires forall u :: u in userIds ==> u in allowed
    requires x in userIds && x !in existing
    ensures x in Outside(Unique(userIds), existing)
    ensures Invite(planId, orgId, plan, userIds, role, addedBy, allowed, existing, emailOf, pending)
      == InviteNew(planId, Outside(Unique(userIds), existing), Inside(Unique(userIds), existing),
                   role.GetOr("viewer"), Inviter(plan.value, addedBy), emailOf, pending)
  {
    var ids := Unique(userIds);
    UniqueSpec(userIds);
    assert forall u :: u in ids ==> u in allowed;
    FilterCovered(ids, allowed);
    assert x in ids;
    var toInvite := Outside(ids, existing);
    assert x in toInvite;
    assert |toInvite| != 0;
    var planOrg := Field(plan.value, "org_id");
    assert planOrg.Some? && Truthy(planOrg.value) && planOrg.value == JStr(orgId);
  }

  /** A successful invitation passed the organization checks and, when someone is new, the later ones. */
  lemma InviteOkShape(planId: string, orgId: string, plan: Option<map<string, Json>>, userIds: seq<string>,
                      role: Option<string>, addedBy: Option<Json>, allowed: set<string>, existing: set<string>,
                      emailOf: string -> Option<string>, pending: set<string>)
    requires Invite(planId, orgId, plan, userIds, role, addedBy, allowed, existing, emailOf, pending).Ok?
    ensures PlanInOrg(plan, orgId) && |Outside(Unique(userIds), allowed)| == 0
    ensures var toInvite := Outside(Unique(userIds), existing);
      Invite(planId, orgId, plan, userIds, role, addedBy, allowed, existing, emailOf, pending)
        == if |toInvite| == 0 then Ok(Invitation([], Inside(Unique(userIds), existing), [], []))
           else InviteNew(planId, toInvite, Inside(Unique(userIds), existing),
                          role.GetOr("viewer"), Inviter(plan.value, addedBy), emailOf, pending)
  {
  }

  /** Without an inviter (neither `added_by` nor an owner) the request is refused with "invited_by is required". */
  lemma InviteNeedsInviter(planId: string, orgId: string, plan: Option<map<string, Json>>, userIds: seq<string>,
                           role: Option<string>, addedBy: Option<Json>, allowed: set<string>, existing: set<string>,
                           emailOf: string -> Option<string>, pending: set<string>, x: string)
    requires PlanInOrg(plan, orgId)
    requires forall u :: u in userIds ==> u in allowed
    requires x in userIds && x !in existing
    requires !Truthy(Inviter(plan.value, addedBy))
    ensures Invite(planId, orgId, plan, userIds, role, addedBy, allowed, existing, emailOf, pending)
      == Err("invited_by is required")
  {
    InviteReachesNew(planId, orgId, plan, userIds, role, addedBy, allowed, existing, emailOf, pending, x);
  }

  /**
   * With an inviter, a user to invite for whom the auth service has no
   * non-empty address makes the request fail with a "Missing emails for
   * users: " message naming that user.
   */
  lemma InviteMissingEmails(planId: string, orgId: string, plan: Option<map<string, Json>>, userIds: seq<string>,
                            role: Option<string>, addedBy: Option<Json>, allowed: set<string>, existing: set<string>,
                            emailOf: string -> Option<string>, pending: set<string>, x: string)
    requires PlanInOrg(plan, orgId)
    requires forall u :: u in userIds ==> u in allowed
    requires x in userIds && x !in existing
    requires Truthy(Inviter(plan.value, addedBy))
    requires emailOf(x).None? || emailOf(x) == Some("")
    ensures var r := Invite(planId, orgId, plan, userIds, role, addedBy, allowed, existing, emailOf, pending);
      r.Err? && StartsWith(r.msg, "Missing emails for users: ") && Contains(r.msg, x)
  {
    InviteReachesNew(planId, orgId, plan, userIds, role, addedBy, allowed, existing, emailOf, pending, x);
    var toInvite := Outside(Unique(userIds), existing);
    var emails := EmailMap(AuthResults(toInvite, emailOf));
    EmailMapSpec(toInvite, emailOf);
    var missing := Outside(toInvite, emails.Keys);
    assert x in missing;
    var k :| 0 <= k < |missing| && missing[k] == x;
    JoinWithNames(missing, ", ", k);
    ContainsBehind("Missing emails for users: ", JoinWith(missing, ", "), x);
  }

  /**
   * A successful invitation splits the de-duplicated ids, all of them users
   * of the organization, into those invited (not yet members) and those
   * skipped (already members), each listed once.
   */
  lemma InvitePartition(planId: string, orgId: string, plan: Option<map<string, Json>>, userIds: seq<string>,
                        role: Option<string>, addedBy: Option<Json>, allowed: set<string>, existing: set<string>,
                        emailOf: string -> Option<string>, pending: set<string>)
    requires Invite(planId, orgId, plan, userIds, role, addedBy, allowed, existing, emailOf, pending).Ok?
    ensures var v := Invite(planId, orgId, plan, userIds, role, addedBy, allowed, existing, emailOf, pending).value;
      && PlanInOrg(plan, orgId)
      && (forall x :: x in userIds ==> x in allowed)
      && (forall x :: x in v.invited <==> x in userIds && x !in existing)
      && (forall x :: x in v.skipped <==> x in userIds && x in existing)
      && Distinct(v.invited) && Distinct(v.skipped)
  {
    var ids := Unique(userIds);
    var v := Invite(planId, orgId, plan, userIds, role, addedBy, allowed, existing, emailOf, pending).value;
    InviteOkShape(planId, orgId, plan, userIds, role, addedBy, allowed, existing, emailOf, pending);
    assert v.invited == Outside(ids, existing) && v.skipped == Inside(ids, existing);
    UniqueSpec(userIds);
    assert Distinct(ids);
    OutsideDistinct(ids, existing);
    InsideDistinct(ids, existing);
    forall x | x in userIds
      ensures x in allowed
    {
      assert x in ids && x !in Outside(ids, allowed);
    }
  }

  /**
   * What a successful invitation writes: one member row per invited user,
   * all with the role and a non-empty inviter, and one invitation row per
   * invited user whose known address has no pending invitation.
   */
  ghost predicate WritesFor(v: Invitation, planId: string, theRole: string, emailOf: string -> Option<string>, pending: set<string>) {
    && |v.memberRows| == |v.invited|
    && (forall i :: 0 <= i < |v.memberRows| ==>
          v.memberRows[i].planId == planId && v.memberRows[i].userId == v.invited[i]
          && v.memberRows[i].role == theRole && Truthy(v.memberRows[i].addedBy))
    && (forall row :: row in v.inviteRows ==>
          row.userId in v.invited && emailOf(row.userId) == Some(row.email) && row.email !in pending
          && row.role == theRole)
    && (forall x :: x in v.invited && emailOf(x).Some? && emailOf(x).value !in pending ==> x in InvitedUsers(v.inviteRows))
  }

  /** Once someone is left to invite, a success writes the rows `WritesFor` describes. */
  lemma InviteNewWrites(planId: string, toInvite: seq<string>, skipped: seq<string>, theRole: string, invitedBy: Json,
                        emailOf: string -> Option<string>, pending: set<string>)
    requires InviteNew(planId, toInvite, skipped, theRole, invitedBy, emailOf, pending).Ok?
    ensures WritesFor(InviteNew(planId, toInvite, skipped, theRole, invitedBy, emailOf, pending).value, planId, theRole, emailOf, pending)
  {
    var v := InviteNew(planId, toInvite, skipped, theRole, invitedBy, emailOf, pending).value;
    var emails := EmailMap(AuthResults(toInvite, emailOf));
    assert Truthy(invitedBy) && |Outside(toInvite, emails.Keys)| == 0;
    assert v == Invitation(toInvite, skipped,
                           InviteRows(planId, toInvite, emails, pending, invitedBy, theRole),
                           MemberRows(planId, toInvite, theRole, invitedBy));
    EmailMapSpec(toInvite, emailOf);
    InviteRowsSpec(planId, toInvite, emails, pending, invitedBy, theRole);
    forall x | x in v.invited && emailOf(x).Some? && emailOf(x).value !in pending
      ensures x in InvitedUsers(v.inviteRows)
    {
      assert x !in Outside(toInvite, emails.Keys);
    }
  }

  /** A successful invitation writes the rows `WritesFor` describes, with the role defaulting to "viewer". */
  lemma InviteWrites(planId: string, orgId: string, plan: Option<map<string, Json>>, userIds: seq<string>,
                     role: Option<string>, addedBy: Option<Json>, allowed: set<string>, existing: set<string>,
                     emailOf: string -> Option<string>, pending: set<string>)
    requires Invite(planId, orgId, plan, userIds, role, addedBy, allowed, existing, emailOf, pending).Ok?
    ensures WritesFor(Invite(planId, orgId, plan, userIds, role, addedBy, allowed, existing, emailOf, pending).value,
                      planId, role.GetOr("viewer"), emailOf, pending)
  {
    InviteOkShape(planId, orgId, plan, userIds, role, addedBy, allowed, existing, emailOf, pending);
    var ids := Unique(userIds);
    var toInvite := Outside(ids, existing);
    if |toInvite| > 0 {
      InviteNewWrites(planId, toInvite, Inside(ids, existing), role.GetOr("viewer"), Inviter(plan.value, addedBy), emailOf, pending);
    }
  }

  /**
   * Inviting the same users again once the first invitation has succeeded
   * invites nobody: every requested user is reported as skipped and nothing
   * is written.
   */
  lemma InviteAgain(planId: string, orgId: string, plan: Option<map<string, Json>>, userIds: seq<string>,
                    role: Option<string>, addedBy: Option<Json>, allowed: set<string>, existing: set<string>,
                    emailOf: string -> Option<string>, pending: set<string>)
    requires Invite(planId, orgId, plan, userIds, role, addedBy, allowed, existing, emailOf, pending).Ok?
    ensures var v := Invite(planId, orgId, plan, userIds, role, addedBy, allowed, existing, emailOf, pending).value;
      var after := existing + set x | x in v.invited;
      Invite(planId, orgId, plan, userIds, role, addedBy, allowed, after, emailOf, pending)
        == Ok(Invitation([], Unique(userIds), [], []))
  {
    var v := Invite(planId, orgId, plan, userIds, role, addedBy, allowed, existing, emailOf, pending).value;
    var after := existing + set x | x in v.invited;
    var ids := Unique(userIds);
    UniqueSpec(userIds);
    InvitePartition(planId, orgId, plan, userIds, role, addedBy, allowed, existing, emailOf, pending);
    FilterCovered(ids, after);
  }

  // ---------------------------------------------------------------------------
  // updatePlan: the patch

  /** The plan columns `updatePlan` may set. */
  const PlanFields: set<string> := {"name", "description", "visibility", "status", "tags", "estimated_minutes", "org_id"}

  /** The validated input holds the name as a string, as `name.trim()` needs. */
  predicate NameTyped(input: map<string, Json>) {
    "name" in input ==> input["name"].JStr?
  }

  /** `if (rest.f !== undefined) patch.f = rest.f`; `rest.f ?? null` keeps a defined value as it is. */
  function CopyField(patch: map<string, Json>, input: map<string, Json>, f: string): (r: map<string, Json>)
    ensures f in input ==> r == patch[f := input[f]]
    ensures f !in input ==> r == patch
  {
    if f in input then patch[f := input[f]] else patch
  }

  /** The patch `updatePlan` writes: the supplied fields, the name trimmed, null tags as []. */
  function PlanPatch(input: map<string, Json>): map<string, Json>
    requires NameTyped(input)
  {
    var named := if "name" in input then map["name" := JStr(Trim(input["name"].s))] else map[];
    var described := CopyField(named, input, "description");
    var visible := CopyField(described, input, "visibility");
    var stated := CopyField(visible, input, "status");
    var tagged := if "tags" in input then stated["tags" := OrDefault(Some(input["tags"]), JArr([]))] else stated;
    var estimated := CopyField(tagged, input, "estimated_minutes");
    CopyField(estimated, input, "org_id")
  }

  /** The patch holds exactly the supplied plan fields. */
  lemma PlanPatchKeys(input: map<string, Json>)
    requires NameTyped(input)
    ensures forall c :: c in PlanPatch(input) <==> c in input && c in PlanFields
  {
    var named: map<string, Json> := if "name" in input then map["name" := JStr(Trim(input["name"].s))] else map[];
    var described := CopyField(named, input, "description");
    var visible := CopyField(described, input, "visibility");
    var stated := CopyField(visible, input, "status");
    var tagged := if "tags" in input then stated["tags" := OrDefault(Some(input["tags"]), JArr([]))] else stated;
    var estimated := CopyField(tagged, input, "estimated_minutes");
    var patch := CopyField(estimated, input, "org_id");
    assert patch == PlanPatch(input);
    assert named.Keys == input.Keys * {"name"};
    assert described.Keys == input.Keys * {"name", "description"};
    assert visible.Keys == input.Keys * {"name", "description", "visibility"};
    assert stated.Keys == input.Keys * {"name", "description", "visibility", "status"};
    assert tagged.Keys == input.Keys * {"name", "description", "visibility", "status", "tags"};
    assert estimated.Keys == input.Keys * {"name", "description", "visibility", "status", "tags", "estimated_minutes"};
    assert patch.Keys == input.Keys * PlanFields;
  }

  /**
   * In the patch the name is trimmed, tags that are null become [], and
   * every other field is as given (null included).
   */
  lemma PlanPatchValues(input: map<string, Json>)
    requires NameTyped(input)
    ensures "name" in input ==> PlanPatch(input)["name"] == JStr(Trim(input["name"].s))
    ensures "tags" in input ==> PlanPatch(input)["tags"] == OrDefault(Some(input["tags"]), JArr([]))
    ensures forall c :: c in input && c in PlanFields && c != "name" && c != "tags" ==> PlanPatch(input)[c] == input[c]
  {
    if "name" in input {
      PlanPatchAt(input, "name");
    }
    if "tags" in input {
      PlanPatchAt(input, "tags");
    }
    forall c | c in input && c in PlanFields && c != "name" && c != "tags"
      ensures PlanPatch(input)[c] == input[c]
    {
      PlanPatchAt(input, c);
    }
  }

  /** The value the patch holds for one supplied plan field. */
  lemma PlanPatchAt(input: map<string, Json>, c: string)
    requires NameTyped(input) && c in input && c in PlanFields
    ensures c in PlanPatch(input)
    ensures PlanPatch(input)[c] == (if c == "name" then JStr(Trim(input["name"].s))
      else if c == "tags" then OrDefault(Some(input["tags"]), JArr([])) else input[c])
  {
    var named := if "name" in input then map["name" := JStr(Trim(input["name"].s))] else map[];
    var described := CopyField(named, input, "description");
    var visible := CopyField(described, input, "visibility");
    var stated := CopyField(visible, input, "status");
    var tagged := if "tags" in input then stated["tags" := OrDefault(Some(input["tags"]), JArr([]))] else stated;
    var estimated := CopyField(tagged, input, "estimated_minutes");
    if c == "name" {
      assert named[c] == JStr(Trim(input["name"].s));
      assert described[c] == JStr(Trim(input["name"].s));
      assert visible[c] == JStr(Trim(input["name"].s));
      assert stated[c] == JStr(Trim(input["name"].s));
      assert tagged[c] == JStr(Trim(input["name"].s));
      assert estimated[c] == JStr(Trim(input["name"].s));
    } else if c == "description" {
      assert described[c] == input[c];
      assert visible[c] == input[c];
      assert stated[c] == input[c];
      assert tagged[c] == input[c];
      assert estimated[c] == input[c];
    } else if c == "visibility" {
      assert visible[c] == input[c];
      assert stated[c] == input[c];
      assert tagged[c] == input[c];
      assert estimated[c] == input[c];
    } else if c == "status" {
      assert stated[c] == input[c];
      assert tagged[c] == input[c];
      assert estimated[c] == input[c];
    } else if c == "tags" {
      assert tagged[c] == OrDefault(Some(input["tags"]), JArr([]));
      assert estimated[c] == OrDefault(Some(input["tags"]), JArr([]));
    } else if c == "estimated_minutes" {
      assert estimated[c] == input[c];
    }
  }

  /** Builds the patch field by field, as `updatePlan` does. */
  method BuildPlanPatch(input: map<string, Json>) returns (patch: map<string, Json>)
    requires NameTyped(input)
    ensures patch == PlanPatch(input)
  {
    patch := map[];
    if "name" in input {
      patch := patch["name" := JStr(Trim(input["name"].s))];
    }
    if "description" in input {
      patch := patch["description" := input["description"]];
    }
    if "visibility" in input {
      patch := patch["visibility" := input["visibility"]];
    }
    if "status" in input {
      patch := patch["status" := input["status"]];
    }
    if "tags" in input {
      patch := patch["tags" := OrDefault(Some(input["tags"]), JArr([]))];
    }
    if "estimated_minutes" in input {
      patch := patch["estimated_minutes" := input["estimated_minutes"]];
    }
    if "org_id" in input {
      patch := patch["org_id" := input["org_id"]];
    }
  }

  // ---------------------------------------------------------------------------
  // updatePlan: the items

  /** A stored plan item: its id and its columns. */
  datatype ItemRecord = ItemRecord(id: string, row: ItemRow)

  /** The inserted rows, the k-th given the id `newIds(k)` by the database. */
  function Records(rows: seq<ItemRow>, newIds: nat -> string): (r: seq<ItemRecord>)
    ensures |r| == |rows|
    ensures forall k :: 0 <= k < |r| ==> r[k].row == rows[k]
  {
    seq(|rows|, k requires 0 <= k < |rows| => ItemRecord(newIds(k), rows[k]))
  }

  /** The items left after deleting the plan's items whose ids are listed. */
  function Remaining(items: seq<ItemRecord>, planId: string, removeIds: seq<string>): (r: seq<ItemRecord>)
    ensures forall x :: x in r <==> x in items && !(x.row.planId == planId && x.id in removeIds)
    decreases |items|
  {
    if |items| == 0 then []
    else
      var n := |items| - 1;
      assert items == items[..n] + [items[n]];
      var r := Remaining(items[..n], planId, removeIds);
      if items[n].row.planId == planId && items[n].id in removeIds then r else r + [items[n]]
  }

  /** Deleting no ids leaves the table as it is. */
  lemma {:induction false} RemainingNone(items: seq<ItemRecord>, planId: string)
    ensures Remaining(items, planId, []) == items
    decreases |items|
  {
    if |items| > 0 {
      var n := |items| - 1;
      RemainingNone(items[..n], planId);
      assert items == items[..n] + [items[n]];
    }
  }

  /** `add_items.some((item) => item.position === null || item.position === undefined)`. */
  predicate NeedsPosition(items: seq<map<string, Json>>) {
    exists i :: 0 <= i < |items| && PositionMissing(items[i])
  }

  /**
   * The first position for new items: one past the highest stored position
   * (or 0 when the plan has none) when some item lacks a position, 0 otherwise.
   */
  function StartIndex(items: seq<map<string, Json>>, lastPosition: Option<Json>): real {
    if NeedsPosition(items)
    then (if lastPosition.Some? && lastPosition.value.JNum? then lastPosition.value.n else -1.0) + 1.0
    else 0.0
  }

  /**
   * When the position read back bounds the positions of the plan's items
   * that remain, every new item numbered automatically comes after all of
   * them; in a plan without items the numbering starts at 0.
   */
  lemma NewPositionsAfterExisting(existing: seq<ItemRecord>, planId: string, addItems: seq<map<string, Json>>,
                                  lastPosition: Option<Json>, i: nat)
    requires i < |addItems| && PositionMissing(addItems[i])
    requires forall x :: x in existing && x.row.planId == planId ==>
      lastPosition.Some? && lastPosition.value.JNum? && x.row.position.JNum? && x.row.position.n <= lastPosition.value.n
    ensures var row := BuildPlanItemRows(planId, addItems, StartIndex(addItems, lastPosition))[i];
      row.position.JNum?
      && (forall x :: x in existing && x.row.planId == planId ==> x.row.position.n < row.position.n)
      && (lastPosition.None? ==> row.position == JNum(i as real))
  {
    assert NeedsPosition(addItems);
    BuildPlanItemRowsSpec(planId, addItems, StartIndex(addItems, lastPosition), i);
  }

  /** When every new item has a position, none is renumbered. */
  lemma GivenPositionsKept(planId: string, addItems: seq<map<string, Json>>, lastPosition: Option<Json>, i: nat)
    requires i < |addItems| && !NeedsPosition(addItems)
    ensures StartIndex(addItems, lastPosition) == 0.0
    ensures BuildPlanItemRows(planId, addItems, StartIndex(addItems, lastPosition))[i].position == addItems[i]["position"]
  {
    assert !PositionMissing(addItems[i]);
    BuildPlanItemRowsSpec(planId, addItems, 0.0, i);
  }

  // ---------------------------------------------------------------------------
  // createPlan

  /** The validated input holds the owner and the name, as the payload needs. */
  predicate CreateInputTyped(input: map<string, Json>) {
    "owner_user_id" in input && "name" in input && input["name"].JStr?
  }

  /** The plan row `createPlan` inserts. */
  function PlanPayload(input: map<string, Json>): map<string, Json>
    requires CreateInputTyped(input)
  {
    var payload := map[
      "owner_user_id" := input["owner_user_id"],
      "org_id" := OrDefault(Field(input, "org_id"), JNull),
      "name" := JStr(Trim(input["name"].s)),
      "description" := OrDefault(Field(input, "description"), JNull),
      "tags" := OrDefault(Field(input, "tags"), JArr([])),
      "estimated_minutes" := OrDefault(Field(input, "estimated_minutes"), JNull)];
    var withVisibility := if "visibility" in input then payload["visibility" := input["visibility"]] else payload;
    if "status" in input then withVisibility["status" := input["status"]] else withVisibility
  }

  /** Builds the payload: the fixed columns, then visibility and status when given. */
  method BuildPayload(input: map<string, Json>) returns (payload: map<string, Json>)
    requires CreateInputTyped(input)
    ensures payload == PlanPayload(input)
  {
    payload := map[
      "owner_user_id" := input["owner_user_id"],
      "org_id" := OrDefault(Field(input, "org_id"), JNull),
      "name" := JStr(Trim(input["name"].s)),
      "description" := OrDefault(Field(input, "description"), JNull),
      "tags" := OrDefault(Field(input, "tags"), JArr([])),
      "estimated_minutes" := OrDefault(Field(input, "estimated_minutes"), JNull)];
    if "visibility" in input {
      payload := payload["visibility" := input["visibility"]];
    }
    if "status" in input {
      payload := payload["status" := input["status"]];
    }
  }

  /** The row that the database stores for the payload under a new id. */
  function CreatedRow(input: map<string, Json>, planId: string): map<string, Json>
    requires CreateInputTyped(input)
  {
    PlanPayload(input)["id" := JStr(planId)]
  }

  // ---------------------------------------------------------------------------
  // The tables

  /**
   * The database errors `updatePlan` can meet, each `None` when that query
   * succeeds: the patch (or the read of the plan when there is no patch),
   * the delete of the removed items, the read of the last position and the
   * insert of the new items.
   */
  datatype UpdateErrors = UpdateErrors(patchError: Option<string>, removeError: Option<string>,
                                       lastError: Option<string>, addError: Option<string>)

  /** The delete of the removed items runs, and fails. */
  predicate RemoveFails(removeIds: seq<string>, errs: UpdateErrors) {
    |removeIds| > 0 && errs.removeError.Some?
  }

  /**
   * The error of the item insert phase, if any: the read of the last
   * position runs only when some new item lacks a position, and its error
   * comes before that of the insert.
   */
  function AddFailure(addItems: seq<map<string, Json>>, errs: UpdateErrors): Option<string> {
    if |addItems| == 0 then None
    else if NeedsPosition(addItems) && errs.lastError.Some? then errs.lastError
    else errs.addError
  }

  /** The plan row with that id, if any. */
  function PlanRowOf(plans: map<string, map<string, Json>>, planId: string): Option<map<string, Json>> {
    if planId in plans then Some(plans[planId]) else None
  }

  /** What the inserts of an invitation answer: the first insert error, or the invitation. */
  function WriteOutcome(v: Invitation, inviteError: Option<string>, insertError: Option<string>): Result<Invitation> {
    if |v.inviteRows| > 0 && inviteError.Some? then Err(inviteError.value)
    else if insertError.Some? then Err(insertError.value)
    else Ok(v)
  }

  class PlanTables {
    var plans: map<string, map<string, Json>>
    var planItems: seq<ItemRecord>
    var members: seq<MemberRow>
    var invitations: seq<InviteRow>

    constructor (plans: map<string, map<string, Json>>, planItems: seq<ItemRecord>, members: seq<MemberRow>, invitations: seq<InviteRow>)
      ensures this.plans == plans && this.planItems == planItems && this.members == members && this.invitations == invitations
    {
      this.plans := plans;
      this.planItems := planItems;
      this.members := members;
      this.invitations := invitations;
    }

    /** The users who are already members of the plan. */
    function MemberIds(planId: string): set<string>
      reads this
    {
      set m | m in members && m.planId == planId :: m.userId
    }

    /**
     * `invitePlanMembers`: computes `Invite` against the stored plan and
     * memberships, then inserts the invitation rows (when there are any) and
     * then the member rows. A refusal writes nothing; a failed invitation
     * insert (`inviteError`) writes nothing either, but a failed member
     * insert (`insertError`) leaves the invitation rows already written.
     */
    method InvitePlanMembers(planId: string, orgId: string, userIds: seq<string>, role: Option<string>, addedBy: Option<Json>,
                             allowed: set<string>, emailOf: string -> Option<string>, pending: set<string>,
                             inviteError: Option<string>, insertError: Option<string>)
      returns (r: Result<Invitation>)
      modifies this
      ensures var v := Invite(planId, orgId, PlanRowOf(old(plans), planId), userIds, role, addedBy, allowed,
                              old(MemberIds(planId)), emailOf, pending);
        && (v.Err? || v.value.invited == [] ==> r == v && members == old(members) && invitations == old(invitations))
        && (v.Ok? && v.value.invited != [] ==> r == WriteOutcome(v.value, inviteError, insertError))
        && (v.Ok? && v.value.invited != [] && |v.value.inviteRows| > 0 && inviteError.Some? ==>
              members == old(members) && invitations == old(invitations))
        && (v.Ok? && v.value.invited != [] && !(|v.value.inviteRows| > 0 && inviteError.Some?) ==>
              invitations == old(invitations) + v.value.inviteRows
              && members == old(members) + (if insertError.Some? then [] else v.value.memberRows))
      ensures plans == old(plans) && planItems == old(planItems)
    {
      r := PrepareInvitation(planId, orgId, userIds, role, addedBy, allowed, emailOf, pending);
      if r.Ok? && |r.value.invited| > 0 {
        r := WriteInvitation(r.value, inviteError, insertError);
      }
    }

    /** The checks of `invitePlanMembers`, in order, up to the rows it would write. */
    method PrepareInvitation(planId: string, orgId: string, userIds: seq<string>, role: Option<string>, addedBy: Option<Json>,
                             allowed: set<string>, emailOf: string -> Option<string>, pending: set<string>)
      returns (r: Result<Invitation>)
      ensures r == Invite(planId, orgId, PlanRowOf(plans, planId), userIds, role, addedBy, allowed,
                          MemberIds(planId), emailOf, pending)
      ensures r.Ok? && r.value.invited == [] ==> r.value.memberRows == [] && r.value.inviteRows == []
    {
      var ids := Unique(userIds);
      var theRole := role.GetOr("viewer");
      if planId !in plans {
        return Err("Plan not found");
      }
      var plan := plans[planId];
      var planOrg := Field(plan, "org_id");
      if !(planOrg.Some? && Truthy(planOrg.value)) {
        return Err("Plan is not associated with an organization");
      }
      if planOrg.value != JStr(orgId) {
        return Err("org_id does not match plan");
      }
      var invalid := Outside(ids, allowed);
      if |invalid| > 0 {
        return Err("Users not in organization: " + JoinWith(invalid, ", "));
      }
      var existing := MemberIds(planId);
      var toInvite := Outside(ids, existing);
      var skipped := Inside(ids, existing);
      if |toInvite| == 0 {
        return Ok(Invitation([], skipped, [], []));
      }
      var invitedBy := Inviter(plan, addedBy);
      if !Truthy(invitedBy) {
        return Err("invited_by is required");
      }
      var emailByUserId := BuildEmailMap(AuthResults(toInvite, emailOf));
      var missing := Outside(toInvite, emailByUserId.Keys);
      if |missing| > 0 {
        return Err("Missing emails for users: " + JoinWith(missing, ", "));
      }
      var inviteRows := InviteRows(planId, toInvite, emailByUserId, pending, invitedBy, theRole);
      var rows := MemberRows(planId, toInvite, theRole, invitedBy);
      r := Ok(Invitation(toInvite, skipped, inviteRows, rows));
    }

    /**
     * Inserts the invitation rows, when there are any, and then the member
     * rows; each insert that fails ends the call with its error, keeping
     * what was written before it.
     */
    method WriteInvitation(v: Invitation, inviteError: Option<string>, insertError: Option<string>)
      returns (r: Result<Invitation>)
      modifies this
      ensures r == WriteOutcome(v, inviteError, insertError)
      ensures |v.inviteRows| > 0 && inviteError.Some? ==> members == old(members) && invitations == old(invitations)
      ensures !(|v.inviteRows| > 0 && inviteError.Some?) ==>
        invitations == old(invitations) + v.inviteRows
        && members == old(members) + (if insertError.Some? then [] else v.memberRows)
      ensures plans == old(plans) && planItems == old(planItems)
    {
      if |v.inviteRows| > 0 {
        if inviteError.Some? {
          return Err(inviteError.value);
        }
        invitations := invitations + v.inviteRows;
      } else {
        assert invitations + v.inviteRows == invitations;
      }
      if insertError.Some? {
        assert members + [] == members;
        return Err(insertError.value);
      }
      members := members + v.memberRows;
      r := Ok(v);
    }

    /**
     * The item writes of `updatePlan`: the listed items of the plan are
     * deleted first, and then the new items are appended, numbered from
     * `StartIndex`. A failed delete writes nothing; a failed read of the
     * last position or a failed insert keeps the deletion.
     */
    method ReplaceItems(planId: string, addItems: seq<map<string, Json>>, removeIds: seq<string>,
                        lastPosition: Option<Json>, newIds: nat -> string, errs: UpdateErrors)
      returns (err: Option<string>)
      modifies this
      ensures RemoveFails(removeIds, errs) ==> err == errs.removeError && planItems == old(planItems)
      ensures !RemoveFails(removeIds, errs) ==> err == AddFailure(addItems, errs)
      ensures !RemoveFails(removeIds, errs) ==>
        planItems == Remaining(old(planItems), planId, removeIds)
          + (if err.Some? then [] else Records(BuildPlanItemRows(planId, addItems, StartIndex(addItems, lastPosition)), newIds))
      ensures plans == old(plans) && members == old(members) && invitations == old(invitations)
    {
      if |removeIds| > 0 {
        if errs.removeError.Some? {
          return errs.removeError;
        }
        planItems := Remaining(planItems, planId, removeIds);
      } else {
        RemainingNone(planItems, planId);
      }
      var startIndex := 0.0;
      if |addItems| > 0 {
        if NeedsPosition(addItems) {
          if errs.lastError.Some? {
            assert planItems + [] == planItems;
            return errs.lastError;
          }
          var lastNumber := if lastPosition.Some? && lastPosition.value.JNum? then lastPosition.value.n else -1.0;
          startIndex := lastNumber + 1.0;
        }
        if errs.addError.Some? {
          assert planItems + [] == planItems;
          return errs.addError;
        }
        var rows := BuildPlanItemRows(planId, addItems, startIndex);
        planItems := planItems + Records(rows, newIds);
        err := None;
      } else {
        assert Records(BuildPlanItemRows(planId, addItems, StartIndex(addItems, lastPosition)), newIds) == [];
        assert planItems == planItems + [];
        err := None;
      }
    }

    /**
     * `updatePlan`: a failed patch (or read) is its error and an unknown
     * plan is "Plan not found", and then nothing changes; otherwise the
     * patch is merged into the plan row, the listed items of the plan are
     * deleted, and then the new items are appended, numbered from
     * `StartIndex`. An error after the patch ends the call with that error
     * and keeps the writes made before it.
     */
    method UpdatePlan(planId: string, input: map<string, Json>, addItems: seq<map<string, Json>>, removeIds: seq<string>,
                      lastPosition: Option<Json>, newIds: nat -> string, errs: UpdateErrors) returns (r: Result<PlanDto>)
      requires NameTyped(input)
      modifies this
      ensures r.Ok? <==> errs.patchError.None? && planId in old(plans)
                         && !RemoveFails(removeIds, errs) && AddFailure(addItems, errs).None?
      ensures errs.patchError.Some? ==> r == Err(errs.patchError.value)
      ensures errs.patchError.None? && planId !in old(plans) ==> r == Err("Plan not found")
      ensures errs.patchError.Some? || planId !in old(plans) ==> plans == old(plans) && planItems == old(planItems)
      ensures errs.patchError.None? && planId in old(plans) ==>
        plans == old(plans)[planId := old(plans)[planId] + PlanPatch(input)]
      ensures errs.patchError.None? && planId in old(plans) && RemoveFails(removeIds, errs) ==>
        r == Err(errs.removeError.value) && planItems == old(planItems)
      ensures errs.patchError.None? && planId in old(plans) && !RemoveFails(removeIds, errs) ==>
        && planItems == Remaining(old(planItems), planId, removeIds)
          + (if r.Err? then [] else Records(BuildPlanItemRows(planId, addItems, StartIndex(addItems, lastPosition)), newIds))
        && (AddFailure(addItems, errs).Some? ==> r == Err(AddFailure(addItems, errs).value))
      ensures r.Ok? ==> r.value == PlanOfRow(JObj(plans[planId]))
      ensures members == old(members) && invitations == old(invitations)
    {
      var patch := BuildPlanPatch(input);
      if errs.patchError.Some? {
        return Err(errs.patchError.value);
      }
      if planId !in plans {
        return Err("Plan not found");
      }
      if |patch| > 0 {
        plans := plans[planId := plans[planId] + patch];
      } else {
        assert plans[planId] + patch == plans[planId];
        assert plans == plans[planId := plans[planId] + patch];
      }
      var planRow := plans[planId];
      var err := ReplaceItems(planId, addItems, removeIds, lastPosition, newIds, errs);
      if err.Some? {
        return Err(err.value);
      }
      r := Ok(PlanOfRow(JObj(planRow)));
    }

    /** Deletes the plan row inserted under `planId`, leaving the table as it was before. */
    method Rollback(planId: string, ghost before: map<string, map<string, Json>>)
      requires planId in plans && plans == before[planId := plans[planId]]
      modifies this
      ensures plans == before - {planId}
      ensures planItems == old(planItems) && members == old(members) && invitations == old(invitations)
    {
      plans := plans - {planId};
      assert plans == before - {planId};
    }

    /**
     * `createPlan`: inserts the plan under the fresh id `planId` the database
     * hands out, then its items numbered from 0; with no items, or when the
     * item insert fails (`itemsError`), the new plan is deleted again, which
     * leaves the plans as they were, and the call fails.
     */
    method CreatePlan(input: map<string, Json>, items: Option<seq<map<string, Json>>>, planId: string,
                      itemsError: Option<string>, newIds: nat -> string) returns (r: Result<PlanDto>)
      requires CreateInputTyped(input)
      requires planId !in plans
      modifies this
      ensures r.Err? <==> |items.GetOr([])| == 0 || itemsError.Some?
      ensures |items.GetOr([])| == 0 ==> r == Err("items is required")
      ensures |items.GetOr([])| > 0 && itemsError.Some? ==> r == Err(itemsError.value)
      ensures r.Err? ==> plans == old(plans) && planItems == old(planItems)
      ensures r.Ok? ==> (plans == old(plans)[planId := CreatedRow(input, planId)]
        && planItems == old(planItems) + Records(BuildPlanItemRows(planId, items.GetOr([]), 0.0), newIds)
        && r.value == PlanOfRow(JObj(CreatedRow(input, planId))))
      ensures members == old(members) && invitations == old(invitations)
    {
      var payload := BuildPayload(input);
      var stored := payload["id" := JStr(planId)];
      ghost var before := plans;
      plans := plans[planId := stored];
      var plan := PlanOfRow(JObj(stored));
      var rows := BuildPlanItemRows(planId, items.GetOr([]), 0.0);
      assert before - {planId} == before;
      if |rows| == 0 {
        Rollback(planId, before);
        return Err("items is required");
      }
      if itemsError.Some? {
        Rollback(planId, before);
        return Err(itemsError.value);
      }
      planItems := planItems + Records(rows, newIds);
      r := Ok(plan);
    }
  }

  /** After an invitation, the plan's members are the earlier ones plus the invited users. */
  lemma MembersAfterInvite(members: seq<MemberRow>, planId: string, invited: seq<string>, role: string, addedBy: Json)
    ensures var after := members + MemberRows(planId, invited, role, addedBy);
      forall u :: u in (set m | m in after && m.planId == planId :: m.userId) <==>
        u in (set m | m in members && m.planId == planId :: m.userId) || u in invited
  {
    var rows := MemberRows(planId, invited, role, addedBy);
    var after := members + rows;
    forall k | 0 <= k < |invited|
      ensures invited[k] in (set m | m in after && m.planId == planId :: m.userId)
    {
      assert rows[k] in after;
    }
  }

  /** The base payload holds the owner and the name given. */
  lemma BasePayloadValues(owner: Json, org: Json, name: Json, description: Json, tags: Json, minutes: Json)
    ensures var base := map["owner_user_id" := owner, "org_id" := org, "name" := name,
                             "description" := description, "tags" := tags, "estimated_minutes" := minutes];
      "owner_user_id" in base && base["owner_user_id"] == owner && "name" in base && base["name"] == name
  {
    assert "name" != "estimated_minutes" && "name" != "tags" && "name" != "description";
    assert "owner_user_id" != "estimated_minutes" && "owner_user_id" != "tags" && "owner_user_id" != "description";
    assert "owner_user_id" != "name" && "owner_user_id" != "org_id";
  }

  /** The created row holds the new id, the trimmed name and the owner given. */
  lemma CreatedRowNamed(input: map<string, Json>, planId: string)
    requires CreateInputTyped(input)
    ensures Get(JObj(CreatedRow(input, planId)), "id") == Some(JStr(planId))
    ensures Get(JObj(CreatedRow(input, planId)), "name") == Some(JStr(Trim(input["name"].s)))
    ensures Get(JObj(CreatedRow(input, planId)), "owner_user_id") == Some(input["owner_user_id"])
  {
    assert "name" != "id" && "name" != "status" && "name" != "visibility";
    assert "owner_user_id" != "id" && "owner_user_id" != "status" && "owner_user_id" != "visibility";
    BasePayloadValues(input["owner_user_id"], OrDefault(Field(input, "org_id"), JNull), JStr(Trim(input["name"].s)),
                      OrDefault(Field(input, "description"), JNull), OrDefault(Field(input, "tags"), JArr([])),
                      OrDefault(Field(input, "estimated_minutes"), JNull));
  }

  /** The base payload has neither a visibility nor a status. */
  lemma BasePayloadKeys(owner: Json, org: Json, name: Json, description: Json, tags: Json, minutes: Json)
    ensures var base := map["owner_user_id" := owner, "org_id" := org, "name" := name,
                             "description" := description, "tags" := tags, "estimated_minutes" := minutes];
      "visibility" !in base && "status" !in base
  {
    assert "visibility" != "owner_user_id" && "visibility" != "org_id" && "visibility" != "name";
    assert "visibility" != "description" && "visibility" != "tags" && "visibility" != "estimated_minutes";
    assert "status" != "owner_user_id" && "status" != "org_id" && "status" != "name";
    assert "status" != "description" && "status" != "tags" && "status" != "estimated_minutes";
  }

  /** The created row holds a visibility exactly when one was given. */
  lemma CreatedRowVisibility(input: map<string, Json>, planId: string)
    requires CreateInputTyped(input)
    ensures Get(JObj(CreatedRow(input, planId)), "visibility") == Field(input, "visibility")
  {
    assert "visibility" != "id" && "visibility" != "status";
    BasePayloadKeys(input["owner_user_id"], OrDefault(Field(input, "org_id"), JNull), JStr(Trim(input["name"].s)),
                    OrDefault(Field(input, "description"), JNull), OrDefault(Field(input, "tags"), JArr([])),
                    OrDefault(Field(input, "estimated_minutes"), JNull));
  }

  /** The created row holds a status exactly when one was given. */
  lemma CreatedRowStatus(input: map<string, Json>, planId: string)
    requires CreateInputTyped(input)
    ensures Get(JObj(CreatedRow(input, planId)), "status") == Field(input, "status")
  {
    assert "status" != "id" && "status" != "visibility";
    BasePayloadKeys(input["owner_user_id"], OrDefault(Field(input, "org_id"), JNull), JStr(Trim(input["name"].s)),
                    OrDefault(Field(input, "description"), JNull), OrDefault(Field(input, "tags"), JArr([])),
                    OrDefault(Field(input, "estimated_minutes"), JNull));
  }

  /** The created row holds the given tags, or [] when none are given. */
  lemma CreatedRowTags(input: map<string, Json>, planId: string)
    requires CreateInputTyped(input)
    ensures Get(JObj(CreatedRow(input, planId)), "tags") == Some(OrDefault(Field(input, "tags"), JArr([])))
  {
    assert "tags" != "id" && "tags" != "status" && "tags" != "visibility" && "tags" != "estimated_minutes";
    var row := CreatedRow(input, planId);
    assert "tags" in row && row["tags"] == OrDefault(Field(input, "tags"), JArr([]));
  }

  /**
   * Reading back a created plan: the name is the trimmed input name, the
   * visibility and status are the given ones or "private" and "draft", and
   * the tags are the given list or [].
   */
  lemma CreatedPlanRead(input: map<string, Json>, planId: string)
    requires CreateInputTyped(input)
    ensures var dto := PlanOfRow(JObj(CreatedRow(input, planId)));
      && dto.id == Some(JStr(planId))
      && dto.name == Some(JStr(Trim(input["name"].s)))
      && dto.ownerUserId == Some(input["owner_user_id"])
      && (Field(input, "visibility").None? || input["visibility"] == JNull ==> dto.visibility == JStr("private"))
      && (Field(input, "visibility").Some? && input["visibility"] != JNull ==> dto.visibility == input["visibility"])
      && (Field(input, "status").None? || input["status"] == JNull ==> dto.status == JStr("draft"))
      && (Field(input, "tags").Some? && input["tags"].JArr? ==> dto.tags == input["tags"].items)
      && (Field(input, "tags").None? ==> dto.tags == [])
  {
    CreatedRowNamed(input, planId);
    CreatedRowVisibility(input, planId);
    CreatedRowStatus(input, planId);
    CreatedRowTags(input, planId);
  }
}

=== FILE: schemas.dfy ===
/**
 * The request schemas of the Supabase API's shared `schemas.ts`: the three
 * signup shapes with their discriminated union on `role`, and the scorecard
 * template accepted by `createScorecardTemplate`, with its categories and
 * subskills.
 */
module Schemas {
  import opened Wrappers
  import opened Text
  import opened Json
  import opened Zod
  import Uuid
  import PeopleDtos
  import ScorecardTemplates

  // ---------------------------------------------------------------------------
  // Signup

  /** `z.literal(role)` on a string. */
  function RoleLiteral(role: string): Schema {
    Literal(JStr(role))
  }

  /** `z.string().trim().min(3).max(50).optional()`. */
  function Username(): Schema {
    Optional(TrimmedText(3, Some(50)))
  }

  /** `AthleteSchema`. */
  function AthleteSchema(): Schema {
    Obj([
      ("role", RoleLiteral("athlete")),
      ("joinCode", TrimmedText(1, None)),
      ("email", Str(false, 0, None, EmailText)),
      ("password", PeopleDtos.PasswordSchema()),
      ("firstName", TrimmedText(1, None)),
      ("lastName", TrimmedText(1, None)),
      ("cellNumber", Optional(Str(false, 0, None, AnyText))),
      ("graduationYear", CoercedInt(1900, Some(2100))),
      ("positions", Arr(Str(false, 0, None, AnyText), 1)),
      ("termsAccepted", Literal(JBool(true))),
      ("username", Username())])
  }

  /** `CoachSchema` and `ParentSchema`: the athlete's shape without graduation year and positions. */
  function MemberSchema(role: string): Schema {
    Obj([
      ("role", RoleLiteral(role)),
      ("joinCode", TrimmedText(1, None)),
      ("email", Str(false, 0, None, EmailText)),
      ("password", PeopleDtos.PasswordSchema()),
      ("firstName", TrimmedText(1, None)),
      ("lastName", TrimmedText(1, None)),
      ("cellNumber", Optional(Str(false, 0, None, AnyText))),
      ("termsAccepted", Literal(JBool(true))),
      ("username", Username())])
  }

  function CoachSchema(): Schema {
    MemberSchema("coach")
  }

  function ParentSchema(): Schema {
    MemberSchema("parent")
  }

  /**
   * `z.discriminatedUnion("role", [AthleteSchema, CoachSchema, ParentSchema])`,
   * written as a union tried in order; `SignUpDispatch` shows that the role
   * alone decides which shape applies.
   */
  function SignUpSchema(): Schema {
    Union(AthleteSchema(), Union(CoachSchema(), ParentSchema()))
  }

  /** The role the body declares, when it is a string. */
  function DeclaredRole(v: Option<Json>): (role: Option<string>)
    ensures role.Some? <==> v.Some? && Get(v.value, "role").Some? && Get(v.value, "role").value.JStr?
  {
    if v.Some? then AsString(Get(v.value, "role")) else None
  }

  /** An object schema accepts only values whose literal field holds exactly that literal. */
  lemma LiteralGate(fields: seq<(string, Schema)>, i: nat, v: Option<Json>, o: Oracles)
    requires KeyOnce(fields, i) && fields[i].1.Literal?
    ensures Parse(Obj(fields), v, o).Valid? ==>
      v.Some? && Get(v.value, fields[i].0) == Some(fields[i].1.value) && FieldOf(Parse(Obj(fields), v, o), fields[i].0) == Some(fields[i].1.value)
  {
    FieldParsed(fields, v, o, i);
  }

  /** What the three signup shapes share: the role literal first, the password fourth, and `termsAccepted: true`. */
  ghost predicate SignUpShape(s: Schema, role: string, terms: nat) {
    s.Obj? && KeyOnce(s.fields, 0) && s.fields[0] == ("role", RoleLiteral(role))
    && KeyOnce(s.fields, 3) && s.fields[3] == ("password", PeopleDtos.PasswordSchema())
    && KeyOnce(s.fields, terms) && s.fields[terms] == ("termsAccepted", Literal(JBool(true)))
  }

  /** The three signup shapes: `role` first, `password` fourth, and `termsAccepted` where each declares it. */
  lemma SignUpShapes()
    ensures SignUpShape(AthleteSchema(), "athlete", 9)
    ensures SignUpShape(CoachSchema(), "coach", 7)
    ensures SignUpShape(ParentSchema(), "parent", 7)
  {
    AthleteShape();
    CoachShape();
    ParentShape();
  }

  lemma AthleteShape()
    ensures SignUpShape(AthleteSchema(), "athlete", 9)
  {
    var f := AthleteSchema().fields;
    assert KeyOnce(f, 0) && KeyOnce(f, 3) && KeyOnce(f, 9);
  }

  lemma CoachShape()
    ensures SignUpShape(CoachSchema(), "coach", 7)
  {
    var f := CoachSchema().fields;
    assert KeyOnce(f, 0) && KeyOnce(f, 3) && KeyOnce(f, 7);
  }

  lemma ParentShape()
    ensures SignUpShape(ParentSchema(), "parent", 7)
  {
    var f := ParentSchema().fields;
    assert KeyOnce(f, 0) && KeyOnce(f, 3) && KeyOnce(f, 7);
  }

  /** A union of three object shapes told apart by their `role` literal is decided by `role` alone. */
  lemma RoleDispatch(a: Schema, b: Schema, c: Schema, v: Option<Json>, o: Oracles)
    requires a.Obj? && KeyOnce(a.fields, 0) && a.fields[0] == ("role", RoleLiteral("athlete"))
    requires b.Obj? && KeyOnce(b.fields, 0) && b.fields[0] == ("role", RoleLiteral("coach"))
    requires c.Obj? && KeyOnce(c.fields, 0) && c.fields[0] == ("role", RoleLiteral("parent"))
    ensures Parse(Union(a, Union(b, c)), v, o) ==
      (if DeclaredRole(v) == Some("athlete") then Parse(a, v, o)
       else if DeclaredRole(v) == Some("coach") then Parse(b, v, o)
       else if DeclaredRole(v) == Some("parent") then Parse(c, v, o)
       else Invalid)
  {
    LiteralGate(a.fields, 0, v, o);
    LiteralGate(b.fields, 0, v, o);
    LiteralGate(c.fields, 0, v, o);
  }

  /** The shape is chosen by `role` alone: any other role, or none, is refused. */
  lemma SignUpDispatch(v: Option<Json>, o: Oracles)
    ensures Parse(SignUpSchema(), v, o) ==
      (if DeclaredRole(v) == Some("athlete") then Parse(AthleteSchema(), v, o)
       else if DeclaredRole(v) == Some("coach") then Parse(CoachSchema(), v, o)
       else if DeclaredRole(v) == Some("parent") then Parse(ParentSchema(), v, o)
       else Invalid)
  {
    RoleDispatch(AthleteSchema(), CoachSchema(), ParentSchema(), v, o);
  }

  /** Any of the three shapes accepts only a body with `termsAccepted: true`. */
  lemma UnionTerms(a: Schema, b: Schema, c: Schema, ta: nat, tb: nat, tc: nat, v: Option<Json>, o: Oracles)
    requires SignUpShape(a, "athlete", ta) && SignUpShape(b, "coach", tb) && SignUpShape(c, "parent", tc)
    ensures Parse(Union(a, Union(b, c)), v, o).Valid? ==>
      DeclaredRole(v).Some? && DeclaredRole(v).value in {"athlete", "coach", "parent"}
      && Get(v.value, "termsAccepted") == Some(JBool(true))
  {
    RoleDispatch(a, b, c, v, o);
    if DeclaredRole(v) == Some("athlete") {
      LiteralGate(a.fields, ta, v, o);
    } else if DeclaredRole(v) == Some("coach") {
      LiteralGate(b.fields, tb, v, o);
    } else if DeclaredRole(v) == Some("parent") {
      LiteralGate(c.fields, tc, v, o);
    }
  }

  /** In an accepted signup, the role is one of the three and `termsAccepted` is exactly `true`. */
  lemma SignUpTerms(v: Option<Json>, o: Oracles)
    ensures Parse(SignUpSchema(), v, o).Valid? ==>
      DeclaredRole(v).Some? && DeclaredRole(v).value in {"athlete", "coach", "parent"}
      && Get(v.value, "termsAccepted") == Some(JBool(true))
  {
    SignUpShapes();
    UnionTerms(AthleteSchema(), CoachSchema(), ParentSchema(), 9, 7, 7, v, o);
  }

  /** Any of the three shapes passes the password on untrimmed, and only with at least 8 characters. */
  lemma UnionPassword(a: Schema, b: Schema, c: Schema, ta: nat, tb: nat, tc: nat, v: Option<Json>, o: Oracles)
    requires SignUpShape(a, "athlete", ta) && SignUpShape(b, "coach", tb) && SignUpShape(c, "parent", tc)
    ensures var r := Parse(Union(a, Union(b, c)), v, o);
      r.Valid? ==> (v.Some? && AsString(Get(v.value, "password")).Some? && Utf16Length(AsString(Get(v.value, "password")).value) >= 8
        && FieldOf(r, "password") == Get(v.value, "password"))
  {
    RoleDispatch(a, b, c, v, o);
    if DeclaredRole(v) == Some("athlete") {
      PeopleDtos.PasswordParsed(a.fields, v, o, 3);
    } else if DeclaredRole(v) == Some("coach") {
      PeopleDtos.PasswordParsed(b.fields, v, o, 3);
    } else if DeclaredRole(v) == Some("parent") {
      PeopleDtos.PasswordParsed(c.fields, v, o, 3);
    }
  }

  /** The password of every accepted signup has at least 8 characters and is passed on untrimmed. */
  lemma SignUpPassword(v: Option<Json>, o: Oracles)
    ensures var r := Parse(SignUpSchema(), v, o);
      r.Valid? ==> (v.Some? && AsString(Get(v.value, "password")).Some? && Utf16Length(AsString(Get(v.value, "password")).value) >= 8
        && FieldOf(r, "password") == Get(v.value, "password"))
  {
    SignUpShapes();
    UnionPassword(AthleteSchema(), CoachSchema(), ParentSchema(), 9, 7, 7, v, o);
  }

  /** `z.number({ coerce: true }).int().min(1900).max(2100)` as a field: `Number(x)`, an integer in range. */
  lemma GraduationYearField(fields: seq<(string, Schema)>, i: nat, v: Option<Json>, o: Oracles)
    requires KeyOnce(fields, i) && fields[i].1 == CoercedInt(1900, Some(2100))
    ensures var r := Parse(Obj(fields), v, o);
      r.Valid? ==>
        var n := ToNumber(Get(v.value, fields[i].0), o.parse);
        n.Finite? && IsInteger(n.r) && 1900.0 <= n.r <= 2100.0
        && FieldOf(r, fields[i].0) == Some(JNum(n.r))
  {
    FieldParsed(fields, v, o, i);
    if Parse(Obj(fields), v, o).Valid? {
      IntParse(true, Some(1900), Some(2100), Get(v.value, fields[i].0), o);
    }
  }

  /** An athlete's graduation year is `Number(graduationYear)`, an integer in [1900, 2100]. */
  lemma AthleteGraduationYear(v: Option<Json>, o: Oracles)
    ensures var r := Parse(SignUpSchema(), v, o);
      r.Valid? && DeclaredRole(v) == Some("athlete") ==>
        var n := ToNumber(Get(v.value, "graduationYear"), o.parse);
        n.Finite? && IsInteger(n.r) && 1900.0 <= n.r <= 2100.0
        && FieldOf(r, "graduationYear") == Some(JNum(n.r))
  {
    SignUpDispatch(v, o);
    GraduationYearField(AthleteSchema().fields, 7, v, o);
  }

  /** `z.array(z.string()).nonempty()` as a field: a non-empty list of strings, kept as given. */
  lemma StringListField(fields: seq<(string, Schema)>, i: nat, v: Option<Json>, o: Oracles)
    requires KeyOnce(fields, i) && fields[i].1 == Arr(Str(false, 0, None, AnyText), 1)
    ensures var r := Parse(Obj(fields), v, o);
      r.Valid? ==>
        var p := Get(v.value, fields[i].0);
        p.Some? && p.value.JArr? && |p.value.items| >= 1
        && (forall j :: 0 <= j < |p.value.items| ==> p.value.items[j].JStr?)
        && FieldOf(r, fields[i].0) == p
  {
    FieldParsed(fields, v, o, i);
    var r := Parse(Obj(fields), v, o);
    if r.Valid? {
      var p := Get(v.value, fields[i].0);
      ArrParse(Str(false, 0, None, AnyText), 1, p, o);
      var items := p.value.items;
      forall j | 0 <= j < |items|
        ensures items[j].JStr? && OrNull(Parse(Str(false, 0, None, AnyText), Some(items[j]), o).value) == items[j]
      {
        StrParse(false, 0, None, AnyText, Some(items[j]), o);
      }
      assert FieldOf(r, fields[i].0).value.items == items;
    }
  }

  /** An athlete lists at least one position, each a string, kept as given. */
  lemma AthletePositions(v: Option<Json>, o: Oracles)
    ensures var r := Parse(SignUpSchema(), v, o);
      r.Valid? && DeclaredRole(v) == Some("athlete") ==>
        var p := Get(v.value, "positions");
        p.Some? && p.value.JArr? && |p.value.items| >= 1
        && (forall i :: 0 <= i < |p.value.items| ==> p.value.items[i].JStr?)
        && FieldOf(r, "positions") == p
  {
    SignUpDispatch(v, o);
    StringListField(AthleteSchema().fields, 8, v, o);
  }

  /** Coaches and parents carry neither a graduation year nor positions into the output. */
  lemma MemberHasNoAthleteFields(role: string, v: Option<Json>, o: Oracles, k: string)
    requires k in {"graduationYear", "positions"}
    ensures FieldOf(Parse(MemberSchema(role), v, o), k).None?
  {
    var fields := MemberSchema(role).fields;
    assert forall i :: 0 <= i < |fields| ==> fields[i].0 != k;
    ObjAbsentKey(fields, v, o, k);
  }

  // ---------------------------------------------------------------------------
  // Scorecard template

  /** `z.string().nullable().optional()`. */
  function Description(): Schema {
    Optional(Nullable(Str(false, 0, None, AnyText)))
  }

  /** `z.number().int().positive().optional()`: for an integer, positive is at least 1. */
  function Position(): Schema {
    Optional(Int(false, Some(1), None))
  }

  /** `SubskillInputSchema`. */
  function SubskillInputSchema(): Schema {
    Obj([
      ("name", TrimmedText(1, None)),
      ("description", Description()),
      ("position", Position()),
      ("skill_id", UuidSchema())])
  }

  /** `CategoryInputSchema`. */
  function CategoryInputSchema(): Schema {
    Obj([
      ("name", TrimmedText(1, None)),
      ("description", Description()),
      ("position", Position()),
      ("subskills", Arr(SubskillInputSchema(), 1))])
  }

  /** `ScorecardTemplateCreateSchema`. */
  function TemplateCreateSchema(): Schema {
    Obj([
      ("createdBy", Optional(UuidSchema())),
      ("org_id", UuidSchema()),
      ("sport_id", OptionalNullable(UuidSchema())),
      ("name", TrimmedText(1, None)),
      ("description", Description()),
      ("isActive", Optional(Bool)),
      ("categories", Arr(CategoryInputSchema(), 1))])
  }

  /** A non-blank trimmed name is what the edge function calls a name. */
  lemma TrimmedNameIsNamed(s: string)
    requires |Trim(s)| >= 1
    ensures ScorecardTemplates.NameOf(Some(JStr(Trim(s)))) == ScorecardTemplates.Named(Trim(s))
  {
    TrimIdempotent(s);
  }

  /** A UUID string is a truthy UUID-like value. */
  lemma UuidStringGiven(s: string)
    requires Uuid.MatchesUuid(s)
    ensures ScorecardTemplates.UuidGiven(Some(JStr(s)))
  {
  }

  /** A `z.string().trim().min(1)` field: the given text and its trimmed output are both names. */
  lemma NamedField(fields: seq<(string, Schema)>, i: nat, v: Option<Json>, o: Oracles)
    requires KeyOnce(fields, i) && fields[i].1 == TrimmedText(1, None)
    ensures var r := Parse(Obj(fields), v, o);
      r.Valid? ==> (v.Some? && r.value.Some? && ScorecardTemplates.NameOf(Get(v.value, fields[i].0)).Named?
        && ScorecardTemplates.NameOf(FieldOf(r, fields[i].0)) == ScorecardTemplates.NameOf(Get(v.value, fields[i].0))
        && FieldOf(r, fields[i].0) == Get(r.value.value, fields[i].0))
  {
    TrimmedField(fields, v, o, i, TrimmedText(1, None));
    FieldParsed(fields, v, o, i);
    if Parse(Obj(fields), v, o).Valid? {
      TrimmedNameIsNamed(AsString(Get(v.value, fields[i].0)).value);
    }
  }

  /** A `uuid()` field: the given value is a UUID string, and is kept. */
  lemma UuidGivenField(fields: seq<(string, Schema)>, i: nat, v: Option<Json>, o: Oracles)
    requires KeyOnce(fields, i) && fields[i].1 == UuidSchema()
    ensures var r := Parse(Obj(fields), v, o);
      r.Valid? ==> (ScorecardTemplates.UuidGiven(Get(v.value, fields[i].0)) && FieldOf(r, fields[i].0) == Get(v.value, fields[i].0))
  {
    PeopleDtos.UuidFieldParsed(fields, v, o, i);
    if Parse(Obj(fields), v, o).Valid? {
      UuidStringGiven(AsString(Get(v.value, fields[i].0)).value);
    }
  }

  /** A `uuid()` field that may be missing (and perhaps null): kept as given, and a UUID string when given (and, if nullable, not null). */
  lemma OptionalUuidField(fields: seq<(string, Schema)>, i: nat, v: Option<Json>, o: Oracles)
    requires KeyOnce(fields, i) && (fields[i].1 == Optional(UuidSchema()) || fields[i].1 == OptionalNullable(UuidSchema()))
    ensures var r := Parse(Obj(fields), v, o);
      r.Valid? ==> (v.Some? && r.value.Some? && FieldOf(r, fields[i].0) == Get(v.value, fields[i].0)
        && var x := Get(v.value, fields[i].0);
        (x.Some? && (x.value != JNull || fields[i].1 == Optional(UuidSchema())) ==>
          x.value.JStr? && Uuid.MatchesUuid(x.value.s) && ScorecardTemplates.UuidGiven(x)))
  {
    FieldParsed(fields, v, o, i);
    if Parse(Obj(fields), v, o).Valid? {
      var x := Get(v.value, fields[i].0);
      if x.Some? && (x.value != JNull || fields[i].1 == Optional(UuidSchema())) {
        StrParse(false, 0, None, UuidText, x, o);
        UuidStringGiven(x.value.s);
      }
    }
  }

  /** A `.nonempty()` array field: at least one element, each accepted, parsed element by element in order. */
  lemma ListField(fields: seq<(string, Schema)>, i: nat, element: Schema, v: Option<Json>, o: Oracles)
    requires KeyOnce(fields, i) && fields[i].1 == Arr(element, 1)
    ensures var r := Parse(Obj(fields), v, o);
      r.Valid? ==> (
        var xs := Get(v.value, fields[i].0);
        xs.Some? && xs.value.JArr? && |xs.value.items| >= 1
        && (forall j :: 0 <= j < |xs.value.items| ==> Parse(element, Some(xs.value.items[j]), o).Valid?)
        && var out := FieldOf(r, fields[i].0);
        out.Some? && out.value.JArr? && |out.value.items| == |xs.value.items|
        && (forall j :: 0 <= j < |out.value.items| ==> out.value.items[j] == OrNull(Parse(element, Some(xs.value.items[j]), o).value)))
  {
    FieldParsed(fields, v, o, i);
    if Parse(Obj(fields), v, o).Valid? {
      ArrParse(element, 1, Get(v.value, fields[i].0), o);
    }
  }

  /** A position, when given, is an integer of at least 1, kept as given; otherwise it stays missing. */
  lemma PositionField(fields: seq<(string, Schema)>, i: nat, v: Option<Json>, o: Oracles)
    requires KeyOnce(fields, i) && fields[i].1 == Position()
    ensures var r := Parse(Obj(fields), v, o);
      r.Valid? ==> (v.Some? && r.value.Some? && var x := Get(v.value, fields[i].0);
        FieldOf(r, fields[i].0) == x
        && (x.Some? ==> x.value.JNum? && IsInteger(x.value.n) && x.value.n >= 1.0))
  {
    FieldParsed(fields, v, o, i);
    if Parse(Obj(fields), v, o).Valid? {
      IntParse(false, Some(1), None, Get(v.value, fields[i].0), o);
    }
  }

  /** Both an accepted subskill and what it parses to pass the edge function's subskill checks. */
  lemma SubskillAccepted(x: Json, o: Oracles)
    ensures var r := Parse(SubskillInputSchema(), Some(x), o);
      r.Valid? ==> (r.value.Some? && ScorecardTemplates.SubskillOk(r.value.value) && ScorecardTemplates.SubskillOk(x))
  {
    var fields := SubskillInputSchema().fields;
    var r := Parse(SubskillInputSchema(), Some(x), o);
    NamedField(fields, 0, Some(x), o);
    UuidGivenField(fields, 3, Some(x), o);
    if r.Valid? {
      assert FieldOf(r, "name") == Get(r.value.value, "name");
      assert FieldOf(r, "skill_id") == Get(r.value.value, "skill_id");
    }
  }

  /** A subskill's position is kept as given, and when given is a positive integer. */
  lemma SubskillPosition(x: Json, o: Oracles)
    ensures var r := Parse(SubskillInputSchema(), Some(x), o);
      r.Valid? ==> (r.value.Some? && Get(r.value.value, "position") == Get(x, "position")
        && var p := Get(x, "position");
        (p.Some? ==> p.value.JNum? && IsInteger(p.value.n) && p.value.n >= 1.0))
  {
    var r := Parse(SubskillInputSchema(), Some(x), o);
    PositionField(SubskillInputSchema().fields, 2, Some(x), o);
    if r.Valid? {
      assert FieldOf(r, "position") == Get(r.value.value, "position");
    }
  }

  /** An accepted category has a name and at least one subskill, each accepted; the output lists their parses in order. */
  lemma CategoryParsed(x: Json, o: Oracles)
    ensures var r := Parse(CategoryInputSchema(), Some(x), o);
      r.Valid? ==> (r.value.Some?
        && ScorecardTemplates.NameOf(Get(x, "name")).Named?
        && ScorecardTemplates.NameOf(Get(r.value.value, "name")).Named?
        && var subs := Get(x, "subskills");
        subs.Some? && subs.value.JArr? && |subs.value.items| >= 1
        && (forall j :: 0 <= j < |subs.value.items| ==> Parse(SubskillInputSchema(), Some(subs.value.items[j]), o).Valid?)
        && var out := Get(r.value.value, "subskills");
        out.Some? && out.value.JArr? && |out.value.items| == |subs.value.items|
        && (forall j :: 0 <= j < |out.value.items| ==>
              out.value.items[j] == OrNull(Parse(SubskillInputSchema(), Some(subs.value.items[j]), o).value)))
  {
    var fields := CategoryInputSchema().fields;
    var r := Parse(CategoryInputSchema(), Some(x), o);
    NamedField(fields, 0, Some(x), o);
    ListField(fields, 3, SubskillInputSchema(), Some(x), o);
    if r.Valid? {
      assert FieldOf(r, "name") == Get(r.value.value, "name");
      assert FieldOf(r, "subskills") == Get(r.value.value, "subskills");
    }
  }

  /** A category's position is kept as given, and when given is a positive integer. */
  lemma CategoryPosition(x: Json, o: Oracles)
    ensures var r := Parse(CategoryInputSchema(), Some(x), o);
      r.Valid? ==> (r.value.Some? && Get(r.value.value, "position") == Get(x, "position")
        && var p := Get(x, "position");
        (p.Some? ==> p.value.JNum? && IsInteger(p.value.n) && p.value.n >= 1.0))
  {
    var r := Parse(CategoryInputSchema(), Some(x), o);
    PositionField(CategoryInputSchema().fields, 2, Some(x), o);
    if r.Valid? {
      assert FieldOf(r, "position") == Get(r.value.value, "position");
    }
  }

  /** Both an accepted category and what it parses to pass the edge function's category checks. */
  lemma CategoryAccepted(x: Json, o: Oracles)
    ensures var r := Parse(CategoryInputSchema(), Some(x), o);
      r.Valid? ==> (r.value.Some? && ScorecardTemplates.CategoryOk(r.value.value) && ScorecardTemplates.CategoryOk(x))
  {
    var r := Parse(CategoryInputSchema(), Some(x), o);
    CategoryParsed(x, o);
    if r.Valid? {
      var subs := Get(x, "subskills").value.items;
      var outs := Get(r.value.value, "subskills").value.items;
      forall j | 0 <= j < |subs|
        ensures ScorecardTemplates.SubskillOk(subs[j]) && ScorecardTemplates.SubskillOk(outs[j])
      {
        SubskillAccepted(subs[j], o);
      }
    }
  }

  /** The template's organisation is a UUID, and is kept. */
  lemma TemplateOrg(v: Option<Json>, o: Oracles)
    ensures var r := Parse(TemplateCreateSchema(), v, o);
      r.Valid? ==> (v.Some? && r.value.Some?
        && ScorecardTemplates.UuidGiven(Get(v.value, "org_id"))
        && Get(r.value.value, "org_id") == Get(v.value, "org_id"))
  {
    var r := Parse(TemplateCreateSchema(), v, o);
    UuidGivenField(TemplateCreateSchema().fields, 1, v, o);
    if r.Valid? {
      assert FieldOf(r, "org_id") == Get(r.value.value, "org_id");
    }
  }

  /** The template's creator is kept, and is a UUID string when given. */
  lemma TemplateCreator(v: Option<Json>, o: Oracles)
    ensures var r := Parse(TemplateCreateSchema(), v, o);
      r.Valid? ==> (v.Some? && r.value.Some?
        && Get(r.value.value, "createdBy") == Get(v.value, "createdBy")
        && var c := Get(v.value, "createdBy");
        (c.Some? ==> c.value.JStr? && Uuid.MatchesUuid(c.value.s) && ScorecardTemplates.UuidGiven(c)))
  {
    var r := Parse(TemplateCreateSchema(), v, o);
    OptionalUuidField(TemplateCreateSchema().fields, 0, v, o);
    if r.Valid? {
      assert FieldOf(r, "createdBy") == Get(r.value.value, "createdBy");
    }
  }

  /** The template's sport is kept, and is a UUID when given and not null. */
  lemma TemplateSport(v: Option<Json>, o: Oracles)
    ensures var r := Parse(TemplateCreateSchema(), v, o);
      r.Valid? ==> (v.Some? && r.value.Some?
        && Get(r.value.value, "sport_id") == Get(v.value, "sport_id")
        && var s := Get(v.value, "sport_id");
        (s.Some? && s.value != JNull ==> ScorecardTemplates.UuidGiven(s)))
  {
    var r := Parse(TemplateCreateSchema(), v, o);
    OptionalUuidField(TemplateCreateSchema().fields, 2, v, o);
    if r.Valid? {
      assert FieldOf(r, "sport_id") == Get(r.value.value, "sport_id");
    }
  }

  /** An accepted template has a name and at least one category, each accepted; the output lists their parses in order. */
  lemma TemplateCategories(v: Option<Json>, o: Oracles)
    ensures var r := Parse(TemplateCreateSchema(), v, o);
      r.Valid? ==> (v.Some? && r.value.Some?
        && ScorecardTemplates.NameOf(Get(v.value, "name")).Named?
        && ScorecardTemplates.NameOf(Get(r.value.value, "name")).Named?
        && var cats := Get(v.value, "categories");
        cats.Some? && cats.value.JArr? && |cats.value.items| >= 1
        && (forall i :: 0 <= i < |cats.value.items| ==> Parse(CategoryInputSchema(), Some(cats.value.items[i]), o).Valid?)
        && var out := Get(r.value.value, "categories");
        out.Some? && out.value.JArr? && |out.value.items| == |cats.value.items|
        && (forall i :: 0 <= i < |out.value.items| ==>
              out.value.items[i] == OrNull(Parse(CategoryInputSchema(), Some(cats.value.items[i]), o).value)))
  {
    TemplateName(v, o);
    TemplateCategoryList(v, o);
  }

  lemma TemplateName(v: Option<Json>, o: Oracles)
    ensures var r := Parse(TemplateCreateSchema(), v, o);
      r.Valid? ==> (v.Some? && r.value.Some?
        && ScorecardTemplates.NameOf(Get(v.value, "name")).Named?
        && ScorecardTemplates.NameOf(Get(r.value.value, "name")).Named?)
  {
    var fields := TemplateCreateSchema().fields;
    var r := Parse(TemplateCreateSchema(), v, o);
    assert KeyOnce(fields, 3);
    NamedField(fields, 3, v, o);
  }

  lemma TemplateCategoryList(v: Option<Json>, o: Oracles)
    ensures var r := Parse(TemplateCreateSchema(), v, o);
      r.Valid? ==> (v.Some? && r.value.Some?
        && var cats := Get(v.value, "categories");
        cats.Some? && cats.value.JArr? && |cats.value.items| >= 1
        && (forall i :: 0 <= i < |cats.value.items| ==> Parse(CategoryInputSchema(), Some(cats.value.items[i]), o).Valid?)
        && var out := Get(r.value.value, "categories");
        out.Some? && out.value.JArr? && |out.value.items| == |cats.value.items|
        && (forall i :: 0 <= i < |out.value.items| ==>
              out.value.items[i] == OrNull(Parse(CategoryInputSchema(), Some(cats.value.items[i]), o).value)))
  {
    var fields := TemplateCreateSchema().fields;
    var r := Parse(TemplateCreateSchema(), v, o);
    assert KeyOnce(fields, 6);
    ListField(fields, 6, CategoryInputSchema(), v, o);
    if r.Valid? {
      assert FieldOf(r, "categories") == Get(r.value.value, "categories");
    }
  }

  /**
   * The Zod schema is at least as strict as the edge function's own checks:
   * an accepted body, and what it parses to, both pass them when a Bearer
   * token stands in for `createdBy`, and also without one when `createdBy`
   * is given.
   */
  lemma TemplateSchemaStricterThanEdge(v: Option<Json>, o: Oracles)
    ensures var r := Parse(TemplateCreateSchema(), v, o);
      r.Valid? ==> (v.Some? && r.value.Some?
        && ScorecardTemplates.BodyOk(r.value.value, true) && ScorecardTemplates.BodyOk(v.value, true)
        && (Get(v.value, "createdBy").Some? ==> ScorecardTemplates.BodyOk(v.value, false)))
  {
    var r := Parse(TemplateCreateSchema(), v, o);
    TemplateOrg(v, o);
    TemplateCreator(v, o);
    TemplateSport(v, o);
    TemplateCategories(v, o);
    if r.Valid? {
      var body := v.value;
      var out := r.value.value;
      var cats := Get(body, "categories").value.items;
      var outs := Get(out, "categories").value.items;
      forall i | 0 <= i < |cats|
        ensures ScorecardTemplates.CategoryOk(cats[i]) && ScorecardTemplates.CategoryOk(outs[i])
      {
        CategoryAccepted(cats[i], o);
      }
      assert Get(out, "org_id") == Get(body, "org_id");
      assert Get(out, "sport_id") == Get(body, "sport_id");
      assert Get(out, "createdBy") == Get(body, "createdBy");
    }
  }
}

=== FILE: scorecard_controllers.dfy ===
/**
 * The scorecard controllers of the API: three versions of "create a
 * template" (the Supabase API's, which runs as the authenticated user, and
 * two older ones that take `createdBy` from the body when there is no
 * Bearer token), and the paged listings of templates, categories and
 * subskills.
 *
 * Each create handler validates the body with `ScorecardTemplateCreateSchema`,
 * builds the same payload as the edge function and reports an RPC failure
 * the same way. `Number.parseInt(text, 10)` is the parameter `parseInt`
 * (`None`: NaN); the RPC and the list queries are inputs.
 */
module ScorecardControllers {
  import opened Wrappers
  import opened Text
  import opened Json
  import opened Zod
  import opened ScorecardTemplates
  import Uuid
  import Schemas
  import MediaControllers
  import EvaluationParsing

  // ---------------------------------------------------------------------------
  // Create a template

  /** A create request: its method, its body (`null` when it is not JSON) and its `Authorization` header. */
  datatype CreateRequest = CreateRequest(httpMethod: string, raw: Json, authHeader: string)

  /** `ScorecardTemplateCreateSchema.safeParse(raw)`. */
  function ParsedBody(req: CreateRequest, o: Oracles): Field {
    Parse(Schemas.TemplateCreateSchema(), Some(req.raw), o)
  }

  /** The parsed body; `null` stands for a parse that yielded nothing, which an object schema never does. */
  function BodyOf(parsed: Field): Json {
    if parsed.Valid? && parsed.value.Some? then parsed.value.value else JNull
  }

  /**
   * The Supabase API's handler: the caller must be authenticated, and the
   * template is created in the caller's name. `issues` is the text of
   * Zod's issues; the reply comes with the RPC call when one is made.
   */
  function SupabaseCreate(req: CreateRequest, userId: Option<string>, o: Oracles, issues: string, rpc: RpcOutcome)
    : (r: (Reply, Option<RpcCall>))
    ensures req.httpMethod != "POST" ==> r == (Failure(400, "Method not allowed"), None)
    ensures req.httpMethod == "POST" && !ParsedBody(req, o).Valid? ==> r == (Failure(400, issues), None)
    ensures r.1.Some? <==> req.httpMethod == "POST" && ParsedBody(req, o).Valid? && userId.Some? && userId.value != ""
    ensures req.httpMethod == "POST" && ParsedBody(req, o).Valid? && !(userId.Some? && userId.value != "") ==>
      r.0 == Failure(401, "Unauthorized")
    ensures r.1.Some? ==> (r.1.value.createdBy == Some(JStr(userId.value))
      && r.1.value.template == TemplateOf(BodyOf(ParsedBody(req, o))) && r.0 == RpcReply(rpc))
  {
    if req.httpMethod != "POST" then (Failure(400, "Method not allowed"), None)
    else
      var parsed := ParsedBody(req, o);
      if !parsed.Valid? then (Failure(400, issues), None)
      else if userId.None? || userId.value == "" then (Failure(401, "Unauthorized"), None)
      else (RpcReply(rpc), Some(RpcCall(TemplateOf(BodyOf(parsed)), Some(JStr(userId.value)))))
  }

  /** The message of the older handlers when neither a Bearer token nor `createdBy` is given. */
  const CreatedByRequiredText := "createdBy (UUID) is required without Authorization: Bearer"

  /**
   * The handler of `functions/api`: without a Bearer token `createdBy` is
   * required and is sent as `p_created_by`; with one it is not sent, and the
   * database takes the creator from the token.
   */
  function FunctionsCreate(req: CreateRequest, o: Oracles, issues: string, rpc: RpcOutcome): (r: (Reply, Option<RpcCall>))
    ensures req.httpMethod != "POST" ==> r == (Failure(400, "Method not allowed"), None)
    ensures req.httpMethod == "POST" && !ParsedBody(req, o).Valid? ==> r == (Failure(400, issues), None)
    ensures r.1.Some? <==> (req.httpMethod == "POST" && ParsedBody(req, o).Valid?
      && (HasBearer(req.authHeader) || Truthy(OrNull(Get(BodyOf(ParsedBody(req, o)), "createdBy")))))
    ensures r.1.Some? ==> (r.1.value.template == TemplateOf(BodyOf(ParsedBody(req, o))) && r.0 == RpcReply(rpc)
      && (r.1.value.createdBy.Some? <==> !HasBearer(req.authHeader)))
  {
    if req.httpMethod != "POST" then (Failure(400, "Method not allowed"), None)
    else
      var parsed := ParsedBody(req, o);
      if !parsed.Valid? then (Failure(400, issues), None)
      else
        var body := BodyOf(parsed);
        var hasBearer := HasBearer(req.authHeader);
        var createdBy := OrNull(Get(body, "createdBy"));
        if !hasBearer && !Truthy(createdBy) then (Failure(400, CreatedByRequiredText), None)
        else (RpcReply(rpc), Some(RpcCall(TemplateOf(body), if hasBearer then None else Some(createdBy))))
  }

  /**
   * The handler of `scorecardsController.ts`: as `FunctionsCreate`, except
   * that `p_created_by` is left out only when there is a Bearer token and
   * an anon key.
   */
  function ControllerCreate(req: CreateRequest, anonKey: string, o: Oracles, issues: string, rpc: RpcOutcome)
    : (r: (Reply, Option<RpcCall>))
    ensures req.httpMethod != "POST" ==> r == (Failure(400, "Method not allowed"), None)
    ensures req.httpMethod == "POST" && !ParsedBody(req, o).Valid? ==> r == (Failure(400, issues), None)
    ensures r.1.Some? <==> (req.httpMethod == "POST" && ParsedBody(req, o).Valid?
      && (HasBearer(req.authHeader) || Truthy(OrNull(Get(BodyOf(ParsedBody(req, o)), "createdBy")))))
    ensures r.1.Some? ==> (r.1.value.template == TemplateOf(BodyOf(ParsedBody(req, o))) && r.0 == RpcReply(rpc)
      && (r.1.value.createdBy.Some? <==> !(HasBearer(req.authHeader) && anonKey != "")))
  {
    if req.httpMethod != "POST" then (Failure(400, "Method not allowed"), None)
    else
      var parsed := ParsedBody(req, o);
      if !parsed.Valid? then (Failure(400, issues), None)
      else
        var body := BodyOf(parsed);
        var hasBearer := HasBearer(req.authHeader);
        if !hasBearer && !Truthy(OrNull(Get(body, "createdBy"))) then (Failure(400, CreatedByRequiredText), None)
        else (RpcReply(rpc), Some(EdgeCall(TemplateOf(body), body, hasBearer, anonKey)))
  }

  /** Without a Bearer token, the `functions/api` handler needs `createdBy`, and sends it: a UUID string. */
  lemma FunctionsCreatedBy(req: CreateRequest, o: Oracles, issues: string, rpc: RpcOutcome)
    ensures var r := FunctionsCreate(req, o, issues, rpc);
      (req.httpMethod == "POST" && ParsedBody(req, o).Valid? && !HasBearer(req.authHeader)
        && Get(req.raw, "createdBy").None?) ==> r == (Failure(400, CreatedByRequiredText), None)
    ensures var r := FunctionsCreate(req, o, issues, rpc);
      r.1.Some? && r.1.value.createdBy.Some? ==>
        r.1.value.createdBy.value.JStr? && Uuid.MatchesUuid(r.1.value.createdBy.value.s)
        && Get(req.raw, "createdBy") == r.1.value.createdBy
  {
    var parsed := ParsedBody(req, o);
    Schemas.TemplateCreator(Some(req.raw), o);
    if parsed.Valid? {
      assert BodyOf(parsed) == parsed.value.value;
    }
  }

  /**
   * With a Bearer token but no anon key, `scorecardsController.ts` still
   * passes `p_created_by`, and without `createdBy` in the body that
   * argument has no value (`undefined`, written `Some(JNull)` here), so the
   * call carries no creator.
   */
  lemma ControllerCreatedByMayBeMissing(req: CreateRequest, o: Oracles, issues: string, rpc: RpcOutcome)
    requires req.httpMethod == "POST" && ParsedBody(req, o).Valid? && HasBearer(req.authHeader)
    requires Get(req.raw, "createdBy").None?
    ensures ControllerCreate(req, "", o, issues, rpc).1 == Some(RpcCall(TemplateOf(BodyOf(ParsedBody(req, o))), Some(JNull)))
  {
    Schemas.TemplateCreator(Some(req.raw), o);
  }

  /**
   * Each handler sends the payload the edge function would build from the
   * parsed body, and the edge function would accept that body: the
   * template stands on its own, whichever handler sent it.
   */
  lemma CreatePayloadAsEdge(req: CreateRequest, o: Oracles)
    requires ParsedBody(req, o).Valid?
    ensures TemplateVerdict(BodyOf(ParsedBody(req, o)), true) == Accepted(TemplateOf(BodyOf(ParsedBody(req, o))))
  {
    var body := BodyOf(ParsedBody(req, o));
    assert ScorecardTemplates.BodyOk(body, true) by {
      Schemas.TemplateSchemaStricterThanEdge(Some(req.raw), o);
    }
    AcceptedIffBodyOk(body, true);
  }

  /** A subskill parsed by `SubskillInputSchema` is sent with a positive integral position. */
  lemma SubskillPositionPositive(x: Json, o: Oracles, j: nat)
    requires Parse(Schemas.SubskillInputSchema(), Some(x), o).Valid?
    ensures var s := NormalizeSubskill(OrNull(Parse(Schemas.SubskillInputSchema(), Some(x), o).value), j);
      IsInteger(s.position) && s.position >= 1.0
  {
    var r := Parse(Schemas.SubskillInputSchema(), Some(x), o);
    Schemas.SubskillPosition(x, o);
    assert IsInteger(j as real + 1.0) by { assert (j as real + 1.0).Floor == j + 1; }
  }

  /** A category parsed by `CategoryInputSchema` is sent with a positive integral position. */
  lemma CategoryPositionPositive(x: Json, o: Oracles, i: nat)
    requires Parse(Schemas.CategoryInputSchema(), Some(x), o).Valid?
    ensures var c := NormalizeCategory(OrNull(Parse(Schemas.CategoryInputSchema(), Some(x), o).value), i);
      IsInteger(c.position) && c.position >= 1.0
  {
    var r := Parse(Schemas.CategoryInputSchema(), Some(x), o);
    Schemas.CategoryPosition(x, o);
    assert IsInteger(i as real + 1.0) by { assert (i as real + 1.0).Floor == i + 1; }
  }

  /** The subskills of a category parsed by `CategoryInputSchema` are all sent with positive integral positions. */
  lemma CategorySubskillPositions(x: Json, o: Oracles, i: nat)
    requires Parse(Schemas.CategoryInputSchema(), Some(x), o).Valid?
    ensures var c := NormalizeCategory(OrNull(Parse(Schemas.CategoryInputSchema(), Some(x), o).value), i);
      forall j :: 0 <= j < |c.subskills| ==> IsInteger(c.subskills[j].position) && c.subskills[j].position >= 1.0
  {
    var r := Parse(Schemas.CategoryInputSchema(), Some(x), o);
    Schemas.CategoryParsed(x, o);
    var subs := Get(x, "subskills").value.items;
    var outs := ElementsOf(Get(r.value.value, "subskills"));
    forall j | 0 <= j < |outs|
      ensures IsInteger(NormalizeSubskill(outs[j], j).position) && NormalizeSubskill(outs[j], j).position >= 1.0
    {
      SubskillPositionPositive(subs[j], o, j);
    }
  }

  /**
   * Every position a create handler sends, for a category or a subskill, is
   * a positive integer: the given one, or the 1-based index.
   */
  lemma CreatePositionsPositive(req: CreateRequest, o: Oracles, i: nat)
    requires ParsedBody(req, o).Valid?
    requires i < |TemplateOf(BodyOf(ParsedBody(req, o))).categories|
    ensures var c := TemplateOf(BodyOf(ParsedBody(req, o))).categories[i];
      IsInteger(c.position) && c.position >= 1.0
      && forall j :: 0 <= j < |c.subskills| ==> IsInteger(c.subskills[j].position) && c.subskills[j].position >= 1.0
  {
    var r := ParsedBody(req, o);
    Schemas.TemplateCategories(Some(req.raw), o);
    var cats := Get(req.raw, "categories").value.items;
    CategoryPositionPositive(cats[i], o, i);
    CategorySubskillPositions(cats[i], o, i);
  }

  // ---------------------------------------------------------------------------
  // Listings

  /** A query parameter: `searchParams.get(key)`. */
  function Param(params: map<string, string>, key: string): (r: Option<string>)
    ensures r.Some? <==> key in params
  {
    if key in params then Some(params[key]) else None
  }

  /**
   * `parseInt(raw ?? fallback, 10) || d`: a number that is NaN or 0 gives
   * `d`, and so does a missing parameter when `fallback` reads as `d`.
   */
  function IntParam(raw: Option<string>, fallback: string, d: int, parseInt: string -> Option<int>): (n: int)
    ensures raw.Some? && parseInt(raw.value).Some? && parseInt(raw.value).value != 0 ==> n == parseInt(raw.value).value
    ensures raw.Some? && (parseInt(raw.value).None? || parseInt(raw.value) == Some(0)) ==> n == d
    ensures raw.None? && parseInt(fallback) == Some(d) ==> n == d
  {
    var p := parseInt(raw.GetOr(fallback));
    if p.Some? && p.value != 0 then p.value else d
  }

  /** `Math.min(Math.max(parseInt(raw ?? fallback, 10) || d, 1), hi)`. */
  function LimitOf(raw: Option<string>, fallback: string, d: int, hi: int, parseInt: string -> Option<int>): (limit: int)
    requires 1 <= hi
    ensures 1 <= limit <= hi
    ensures raw.Some? && parseInt(raw.value).Some? && 1 <= parseInt(raw.value).value <= hi ==> limit == parseInt(raw.value).value
  {
    MediaControllers.Clamp(IntParam(raw, fallback, d, parseInt), 1, hi)
  }

  /** `Math.max(parseInt(raw ?? "0", 10) || 0, 0)`. */
  function OffsetOf(raw: Option<string>, parseInt: string -> Option<int>): (offset: nat)
    ensures raw.Some? && parseInt(raw.value).Some? && parseInt(raw.value).value >= 0 ==> offset == parseInt(raw.value).value
  {
    var n := IntParam(raw, "0", 0, parseInt);
    if n < 0 then 0 else n
  }

  /**
   * The template listing's paging: the limit lies in [1, 200] and is 10 when
   * the parameter is missing, not a number or 0; the offset is never negative
   * and is 0 when the parameter is not a number.
   */
  lemma TemplatePaging(limitRaw: Option<string>, offsetRaw: Option<string>, parseInt: string -> Option<int>)
    ensures 1 <= LimitOf(limitRaw, "10", 10, 200, parseInt) <= 200
    ensures limitRaw.Some? && (parseInt(limitRaw.value).None? || parseInt(limitRaw.value) == Some(0)) ==>
      LimitOf(limitRaw, "10", 10, 200, parseInt) == 10
    ensures limitRaw.None? && parseInt("10") == Some(10) ==> LimitOf(limitRaw, "10", 10, 200, parseInt) == 10
    ensures offsetRaw.Some? && parseInt(offsetRaw.value).None? ==> OffsetOf(offsetRaw, parseInt) == 0
    ensures limitRaw.Some? && parseInt(limitRaw.value).Some? && parseInt(limitRaw.value).value > 200 ==>
      LimitOf(limitRaw, "10", 10, 200, parseInt) == 200
    ensures limitRaw.Some? && parseInt(limitRaw.value).Some? && parseInt(limitRaw.value).value < 0 ==>
      LimitOf(limitRaw, "10", 10, 200, parseInt) == 1
  {
  }

  /**
   * The category and subskill listings' paging: the limit lies in [1, 500]
   * and is 100 when the parameter is missing, not a number or 0.
   */
  lemma ChildPaging(limitRaw: Option<string>, parseInt: string -> Option<int>)
    ensures 1 <= LimitOf(limitRaw, "100", 100, 500, parseInt) <= 500
    ensures limitRaw.Some? && (parseInt(limitRaw.value).None? || parseInt(limitRaw.value) == Some(0)) ==>
      LimitOf(limitRaw, "100", 100, 500, parseInt) == 100
    ensures limitRaw.None? && parseInt("100") == Some(100) ==> LimitOf(limitRaw, "100", 100, 500, parseInt) == 100
    ensures limitRaw.Some? && parseInt(limitRaw.value).Some? && parseInt(limitRaw.value).value > 500 ==>
      LimitOf(limitRaw, "100", 100, 500, parseInt) == 500
  {
  }

  /** What a list query returned: `{ data, count, error }`. */
  datatype ListOutcome = ListOutcome(error: Option<string>, data: Option<Json>, count: Json)

  /** How a listing ends. */
  datatype ListReply = ListFailure(status: int, error: string) | Listed(count: Json, items: Json)

  /** 500 with the query's error, else 200 with `count` and `data ?? []`. */
  function ListReplyOf(outcome: ListOutcome): (r: ListReply)
    ensures r.ListFailure? <==> outcome.error.Some?
    ensures r.ListFailure? ==> r == ListFailure(500, outcome.error.value)
    ensures r.Listed? ==> r.count == outcome.count && (outcome.data.None? || outcome.data.value == JNull ==> r.items == JArr([]))
  {
    if outcome.error.Some? then ListFailure(500, outcome.error.value)
    else Listed(outcome.count, OrDefault(outcome.data, JArr([])))
  }

  /** The template query: organisation, optional sport and search text, and paging. */
  datatype TemplateQuery = TemplateQuery(orgId: string, sportId: Option<string>, q: Option<string>, limit: int, offset: int)

  /**
   * `handleScorecardsList`. The Supabase API takes the organisation from the
   * request context first (`ctxOrg`); `functions/api` reads only the query
   * (`ctxOrg` is `None`). Any organisation text that is not blank is accepted.
   */
  function ListTemplates(httpMethod: string, ctxOrg: Option<string>, params: map<string, string>,
                         parseInt: string -> Option<int>, outcome: ListOutcome): (r: (ListReply, Option<TemplateQuery>))
    ensures httpMethod != "GET" ==> r == (ListFailure(400, "Method not allowed"), None)
    ensures r.1.Some? <==> httpMethod == "GET" && EvaluationParsing.OrgParam(ctxOrg, Param(params, "org_id")) != ""
    ensures httpMethod == "GET" && r.1.None? ==> r.0 == ListFailure(400, "org_id (UUID) is required")
    ensures r.1.Some? ==> (r.0 == ListReplyOf(outcome)
      && r.1.value.orgId == EvaluationParsing.OrgParam(ctxOrg, Param(params, "org_id"))
      && r.1.value.sportId == EvaluationParsing.Qp(Param(params, "sport_id"))
      && r.1.value.q == EvaluationParsing.Qp(Param(params, "q"))
      && r.1.value.limit == LimitOf(Param(params, "limit"), "10", 10, 200, parseInt)
      && r.1.value.offset == OffsetOf(Param(params, "offset"), parseInt))
  {
    if httpMethod != "GET" then (ListFailure(400, "Method not allowed"), None)
    else
      var orgId := EvaluationParsing.OrgParam(ctxOrg, Param(params, "org_id"));
      var limit := LimitOf(Param(params, "limit"), "10", 10, 200, parseInt);
      var offset := OffsetOf(Param(params, "offset"), parseInt);
      if orgId == "" then (ListFailure(400, "org_id (UUID) is required"), None)
      else
        var query := TemplateQuery(orgId, EvaluationParsing.Qp(Param(params, "sport_id")), EvaluationParsing.Qp(Param(params, "q")), limit, offset);
        (ListReplyOf(outcome), Some(query))
  }

  /** In the Supabase API the context's organisation wins over the query's, which is then ignored. */
  lemma ListTemplatesContextFirst(ctxOrg: string, params: map<string, string>, parseInt: string -> Option<int>, outcome: ListOutcome)
    requires Trim(ctxOrg) != ""
    ensures var r := ListTemplates("GET", Some(ctxOrg), params, parseInt, outcome);
      r.1.Some? && r.1.value.orgId == Trim(ctxOrg)
  {
  }

  /** A query for the categories of a template or the subskills of a category. */
  datatype ChildQuery = ChildQuery(orgId: Option<string>, parentId: string, limit: int, offset: int)

  /**
   * The category and subskill listings: `parentKey` is `scorecard_template_id`
   * or `category_id`. The Supabase API first requires `org_id` to match
   * `RE_UUID` (`checkOrg`); `functions/api`'s category listing does not.
   */
  function ListChildren(httpMethod: string, params: map<string, string>, parentKey: string, checkOrg: bool,
                        parseInt: string -> Option<int>, outcome: ListOutcome): (r: (ListReply, Option<ChildQuery>))
    ensures httpMethod != "GET" ==> r == (ListFailure(400, "Method not allowed"), None)
    ensures r.1.Some? <==> (httpMethod == "GET"
      && (checkOrg ==> Uuid.MatchesUuid(Trim(Param(params, "org_id").GetOr(""))))
      && Trim(Param(params, parentKey).GetOr("")) != "")
    ensures httpMethod == "GET" && checkOrg && !Uuid.MatchesUuid(Trim(Param(params, "org_id").GetOr(""))) ==>
      r == (ListFailure(400, "org_id (UUID) is required"), None)
    ensures r.1.Some? ==> (r.0 == ListReplyOf(outcome)
      && r.1.value.parentId == Trim(Param(params, parentKey).GetOr(""))
      && (r.1.value.orgId.Some? <==> checkOrg)
      && (checkOrg ==> Uuid.MatchesUuid(r.1.value.orgId.value))
      && 1 <= r.1.value.limit <= 500
      && r.1.value.limit == LimitOf(Param(params, "limit"), "100", 100, 500, parseInt)
      && r.1.value.offset == OffsetOf(Param(params, "offset"), parseInt))
  {
    if httpMethod != "GET" then (ListFailure(400, "Method not allowed"), None)
    else
      var orgId := Trim(Param(params, "org_id").GetOr(""));
      var parentId := Trim(Param(params, parentKey).GetOr(""));
      var limit := LimitOf(Param(params, "limit"), "100", 100, 500, parseInt);
      var offset := OffsetOf(Param(params, "offset"), parseInt);
      if checkOrg && !Uuid.MatchesUuid(orgId) then (ListFailure(400, "org_id (UUID) is required"), None)
      else if parentId == "" then (ListFailure(400, parentKey + " (UUID) is required"), None)
      else (ListReplyOf(outcome), Some(ChildQuery(if checkOrg then Some(orgId) else None, parentId, limit, offset)))
  }

  /** A valid organisation but a missing or blank parent id is refused with a message naming the parent parameter. */
  lemma ListChildrenNeedsParent(params: map<string, string>, parentKey: string, checkOrg: bool,
                                parseInt: string -> Option<int>, outcome: ListOutcome)
    requires checkOrg ==> Uuid.MatchesUuid(Trim(Param(params, "org_id").GetOr("")))
    requires Trim(Param(params, parentKey).GetOr("")) == ""
    ensures ListChildren("GET", params, parentKey, checkOrg, parseInt, outcome)
      == (ListFailure(400, parentKey + " (UUID) is required"), None)
  {
  }
}

=== FILE: scorecard_templates.dfy ===
/**
 * Creating a scorecard template: the checks the `scorecards-create-template`
 * edge function runs over a request body, the payload it normalises the
 * body into, and the message a failed `create_scorecard_template_tx` call
 * is reported with. The normalisation and the message are shared with the
 * API controllers (module `ScorecardControllers`).
 */
module ScorecardTemplates {
  import opened Wrappers
  import opened Text
  import opened Json
  import Uuid

  // ---------------------------------------------------------------------
  // Values as the edge function tests them
  // ---------------------------------------------------------------------

  /**
   * `RE_UUID.test(v)` for a defined value: the regular expression sees
   * `String(v)`. Only a string, or a one-element array whose element
   * converts to such a string, can match; the text of a number, a boolean,
   * `null` or an object never has the shape of a UUID.
   */
  predicate UuidLike(v: Json)
    decreases v
  {
    match v
    case JStr(s) => Uuid.MatchesUuid(s)
    case JArr(items) => |items| == 1 && UuidLike(items[0])
    case _ => false
  }

  /** `!!v && RE_UUID.test(v)`. */
  predicate UuidGiven(v: Option<Json>) {
    v.Some? && Truthy(v.value) && UuidLike(v.value)
  }

  /** `Array.isArray(v) && v.length >= 1`. */
  predicate NonEmptyArray(v: Option<Json>) {
    v.Some? && v.value.JArr? && |v.value.items| >= 1
  }

  /** What `!x?.name || !x.name.trim()` finds. */
  datatype NameState =
    | NoName
      /** A truthy value that is not a string: `.trim` is not a function and the call throws. */
    | NotText
    | Named(text: string)

  function NameOf(v: Option<Json>): (r: NameState)
    ensures r.Named? <==> v.Some? && v.value.JStr? && !IsBlank(v.value.s)
    ensures r.Named? ==> r.text == Trim(v.value.s)
    ensures r.NotText? <==> v.Some? && Truthy(v.value) && !v.value.JStr?
  {
    if v.None? || !Truthy(v.value) then NoName
    else if !v.value.JStr? then NotText
    else if IsBlank(v.value.s) then NoName
    else Named(Trim(v.value.s))
  }

  /** The trimmed text of a string, the empty string otherwise. */
  function TextOf(v: Option<Json>): string {
    if v.Some? && v.value.JStr? then Trim(v.value.s) else ""
  }

  /** `Number.isFinite(p) ? Number(p) : index + 1`. */
  function PositionOf(p: Option<Json>, index: nat): (r: real)
    ensures p.Some? && p.value.JNum? ==> r == p.value.n
    ensures !(p.Some? && p.value.JNum?) ==> r == index as real + 1.0
  {
    if p.Some? && p.value.JNum? then p.value.n else index as real + 1.0
  }

  // ---------------------------------------------------------------------
  // The normalised payload
  // ---------------------------------------------------------------------

  datatype SubskillOut = SubskillOut(name: string, description: Json, position: real, skillId: Json)

  datatype CategoryOut = CategoryOut(name: string, description: Json, position: real, subskills: seq<SubskillOut>)

  /** `p_template`. */
  datatype Template = Template(orgId: Json, sportId: Json, name: string, description: Json, isActive: Json,
                               categories: seq<CategoryOut>)

  /** The `j`-th subskill as it is sent. */
  function NormalizeSubskill(s: Json, j: nat): SubskillOut {
    SubskillOut(TextOf(Get(s, "name")), OrDefault(Get(s, "description"), JNull),
      PositionOf(Get(s, "position"), j), OrNull(Get(s, "skill_id")))
  }

  /** `xs.map((x, i) => f(x, i))`. */
  function Indexed<A, B>(xs: seq<A>, f: (A, nat) -> B): (r: seq<B>)
    ensures |r| == |xs|
    ensures forall k :: 0 <= k < |xs| ==> r[k] == f(xs[k], k)
  {
    seq(|xs|, k requires 0 <= k < |xs| => f(xs[k], k))
  }

  /** Mapping one more element appends its image. */
  lemma IndexedSnoc<A, B>(xs: seq<A>, n: nat, f: (A, nat) -> B)
    requires n < |xs|
    ensures Indexed(xs[..n + 1], f) == Indexed(xs[..n], f) + [f(xs[n], n)]
  {
    var a, b := Indexed(xs[..n + 1], f), Indexed(xs[..n], f) + [f(xs[n], n)];
    forall k | 0 <= k < |a|
      ensures a[k] == b[k]
    {
      assert xs[..n + 1][k] == xs[k];
    }
  }

  function NormalizeSubskills(subs: seq<Json>): (r: seq<SubskillOut>)
    ensures |r| == |subs|
  {
    Indexed(subs, NormalizeSubskill)
  }

  /** The `i`-th category as it is sent. */
  function NormalizeCategory(c: Json, i: nat): CategoryOut {
    CategoryOut(TextOf(Get(c, "name")), OrDefault(Get(c, "description"), JNull),
      PositionOf(Get(c, "position"), i), NormalizeSubskills(ElementsOf(Get(c, "subskills"))))
  }

  function NormalizeCategories(cats: seq<Json>): (r: seq<CategoryOut>)
    ensures |r| == |cats|
  {
    Indexed(cats, NormalizeCategory)
  }

  /** The payload: `sport_id ?? null`, `description ?? null`, `isActive ?? true`. */
  function TemplateOf(body: Json): Template {
    Template(OrNull(Get(body, "org_id")), OrDefault(Get(body, "sport_id"), JNull), TextOf(Get(body, "name")),
      OrDefault(Get(body, "description"), JNull), OrDefault(Get(body, "isActive"), JBool(true)),
      NormalizeCategories(ElementsOf(Get(body, "categories"))))
  }

  // ---------------------------------------------------------------------
  // The checks, in the order the edge function runs them
  // ---------------------------------------------------------------------

  /** The outcome of one check: passed, refused with a message (400), or thrown. */
  datatype Check = Pass | Refuse(message: string) | Crash

  /** The first check that does not pass. */
  function FirstFault(checks: seq<Check>): (r: Check)
    decreases |checks|
  {
    if |checks| == 0 then Pass
    else if checks[0] != Pass then checks[0]
    else FirstFault(checks[1..])
  }

  /** The first fault is the fault at the first index that does not pass. */
  lemma {:induction false} FirstFaultAt(checks: seq<Check>, k: nat)
    requires k < |checks| && checks[k] != Pass
    requires forall m :: 0 <= m < k ==> checks[m] == Pass
    ensures FirstFault(checks) == checks[k]
    decreases k
  {
    if k > 0 {
      FirstFaultAt(checks[1..], k - 1);
    }
  }

  /** One more check: it passes too, or it is the first fault. */
  lemma FirstFaultStep(checks: seq<Check>, i: nat)
    requires i < |checks| && FirstFault(checks[..i]) == Pass
    ensures checks[i] == Pass ==> FirstFault(checks[..i + 1]) == Pass
    ensures checks[i] != Pass ==> FirstFault(checks) == checks[i]
  {
    FirstFaultPass(checks[..i]);
    if checks[i] == Pass {
      FirstFaultPass(checks[..i + 1]);
    } else {
      FirstFaultAt(checks, i);
    }
  }

  /** There is no fault exactly when every check passes. */
  lemma {:induction false} FirstFaultPass(checks: seq<Check>)
    ensures FirstFault(checks) == Pass <==> forall m :: 0 <= m < |checks| ==> checks[m] == Pass
    decreases |checks|
  {
    if |checks| > 0 {
      FirstFaultPass(checks[1..]);
      assert forall m :: 1 <= m < |checks| ==> checks[m] == checks[1..][m - 1];
    }
  }

  function CategoryLabel(i: nat): string {
    "Category[" + DecimalText(i) + "]"
  }

  function SubskillLabel(i: nat, j: nat): string {
    CategoryLabel(i) + " Subskill[" + DecimalText(j) + "]"
  }

  /** The checks of the `j`-th subskill of the `i`-th category. */
  function SubskillCheck(s: Json, i: nat, j: nat): (r: Check)
    ensures r == Pass <==> NameOf(Get(s, "name")).Named? && UuidGiven(Get(s, "skill_id"))
  {
    match NameOf(Get(s, "name"))
    case NoName => Refuse(SubskillLabel(i, j) + ": name is required")
    case NotText => Crash
    case Named(_) =>
      if !UuidGiven(Get(s, "skill_id")) then Refuse(SubskillLabel(i, j) + ": skill_id must be a UUID") else Pass
  }

  function SubskillChecks(subs: seq<Json>, i: nat): (r: seq<Check>)
    ensures |r| == |subs|
  {
    seq(|subs|, j requires 0 <= j < |subs| => SubskillCheck(subs[j], i, j))
  }

  /** The checks of the `i`-th category, then of its subskills in order. */
  function CategoryCheck(c: Json, i: nat): Check {
    match NameOf(Get(c, "name"))
    case NoName => Refuse(CategoryLabel(i) + ": name is required")
    case NotText => Crash
    case Named(_) =>
      var subs := Get(c, "subskills");
      if !NonEmptyArray(subs) then Refuse(CategoryLabel(i) + ": at least one subskill is required")
      else FirstFault(SubskillChecks(subs.value.items, i))
  }

  function CategoryChecks(cats: seq<Json>): (r: seq<Check>)
    ensures |r| == |cats|
  {
    seq(|cats|, i requires 0 <= i < |cats| => CategoryCheck(cats[i], i))
  }

  const CreatedByRequired := "createdBy (UUID) is required without Authorization: Bearer"

  /** The checks on the body's own fields, before the categories. */
  function HeaderCheck(body: Json, hasBearer: bool): Check {
    if !hasBearer && !UuidGiven(Get(body, "createdBy")) then Refuse(CreatedByRequired)
    else if !UuidGiven(Get(body, "org_id")) then Refuse("org_id (UUID) is required")
    else if Get(body, "sport_id").Some? && Truthy(Get(body, "sport_id").value) && !UuidLike(Get(body, "sport_id").value)
    then Refuse("sport_id must be a UUID if provided")
    else match NameOf(Get(body, "name"))
      case NoName => Refuse("Template name is required")
      case NotText => Crash
      case Named(_) =>
        if !NonEmptyArray(Get(body, "categories")) then Refuse("At least one category is required") else Pass
  }

  /** What the validation of a body comes to. */
  datatype Verdict = Accepted(template: Template) | Refused(message: string) | Threw

  function VerdictOf(c: Check, body: Json): Verdict {
    match c
    case Pass => Accepted(TemplateOf(body))
    case Refuse(m) => Refused(m)
    case Crash => Threw
  }

  /** The validation of a body: its own fields, then each category in order. */
  function TemplateVerdict(body: Json, hasBearer: bool): Verdict {
    var h := HeaderCheck(body, hasBearer);
    if h != Pass then VerdictOf(h, body)
    else VerdictOf(FirstFault(CategoryChecks(ElementsOf(Get(body, "categories")))), body)
  }

  lemma NormalizeSubskillsSnoc(subs: seq<Json>, j: nat, subskill: SubskillOut)
    requires j < |subs| && subskill == NormalizeSubskill(subs[j], j)
    ensures NormalizeSubskills(subs[..j + 1]) == NormalizeSubskills(subs[..j]) + [subskill]
  {
    IndexedSnoc(subs, j, NormalizeSubskill);
  }

  /** The inner loop of the edge function: each subskill of the `i`-th category in order. */
  method CheckSubskills(subs: seq<Json>, i: nat) returns (fault: Check, out: seq<SubskillOut>)
    ensures fault == FirstFault(SubskillChecks(subs, i))
    ensures fault == Pass ==> out == NormalizeSubskills(subs)
  {
    out := [];
    var j := 0;
    while j < |subs|
      invariant 0 <= j <= |subs|
      invariant FirstFault(SubskillChecks(subs, i)[..j]) == Pass
      invariant out == NormalizeSubskills(subs[..j])
    {
      FirstFaultStep(SubskillChecks(subs, i), j);
      var subskill;
      fault, subskill := CheckSubskill(subs[j], i, j);
      if fault != Pass {
        return;
      }
      NormalizeSubskillsSnoc(subs, j, subskill);
      out := out + [subskill];
      j := j + 1;
    }
    assert subs[..j] == subs && SubskillChecks(subs, i)[..j] == SubskillChecks(subs, i);
    fault := Pass;
  }

  /** One pass of the inner loop: the `j`-th subskill's name, then its `skill_id`. */
  method CheckSubskill(s: Json, i: nat, j: nat) returns (fault: Check, out: SubskillOut)
    ensures fault == SubskillCheck(s, i, j)
    ensures fault == Pass ==> out == NormalizeSubskill(s, j)
  {
    out := SubskillOut("", JNull, 0.0, JNull);
    var name := NameOf(Get(s, "name"));
    if name.NoName? {
      return Refuse(SubskillLabel(i, j) + ": name is required"), out;
    }
    if name.NotText? {
      return Crash, out;
    }
    var skillId := Get(s, "skill_id");
    if !UuidGiven(skillId) {
      return Refuse(SubskillLabel(i, j) + ": skill_id must be a UUID"), out;
    }
    var position := PositionOf(Get(s, "position"), j);
    fault := Pass;
    out := SubskillOut(name.text, OrDefault(Get(s, "description"), JNull), position, skillId.value);
  }

  /** One pass of the outer loop: the `i`-th category's own checks, then its subskills. */
  method CheckCategory(c: Json, i: nat) returns (fault: Check, out: CategoryOut)
    ensures fault == CategoryCheck(c, i)
    ensures fault == Pass ==> out == NormalizeCategory(c, i)
  {
    out := CategoryOut("", JNull, 0.0, []);
    var name := NameOf(Get(c, "name"));
    if name.NoName? {
      return Refuse(CategoryLabel(i) + ": name is required"), out;
    }
    if name.NotText? {
      return Crash, out;
    }
    var subs := Get(c, "subskills");
    if !NonEmptyArray(subs) {
      return Refuse(CategoryLabel(i) + ": at least one subskill is required"), out;
    }
    var position := PositionOf(Get(c, "position"), i);
    var subskills;
    fault, subskills := CheckSubskills(subs.value.items, i);
    out := CategoryOut(name.text, OrDefault(Get(c, "description"), JNull), position, subskills);
  }

  /**
   * The validation of the edge function: the body's own fields, then each
   * category in order, normalising as it goes; the first check that fails
   * ends the request.
   */
  method ValidateTemplate(body: Json, hasBearer: bool) returns (v: Verdict)
    ensures v == TemplateVerdict(body, hasBearer)
  {
    var header := CheckHeader(body, hasBearer);
    if header != Pass {
      return if header.Crash? then Threw else Refused(header.message);
    }
    var catsV := Get(body, "categories");
    var fault, categories := CheckCategories(catsV.value.items);
    assert ElementsOf(catsV) == catsV.value.items;
    if fault != Pass {
      return if fault.Crash? then Threw else Refused(fault.message);
    }
    v := Accepted(Template(Get(body, "org_id").value, OrDefault(Get(body, "sport_id"), JNull),
      NameOf(Get(body, "name")).text, OrDefault(Get(body, "description"), JNull),
      OrDefault(Get(body, "isActive"), JBool(true)), categories));
  }

  /** The checks on the body's own fields, in the order the edge function runs them. */
  method CheckHeader(body: Json, hasBearer: bool) returns (fault: Check)
    ensures fault == HeaderCheck(body, hasBearer)
    ensures fault == Pass ==> HeaderOk(body, hasBearer)
  {
    HeaderCheckPass(body, hasBearer);
    if !hasBearer && !UuidGiven(Get(body, "createdBy")) {
      return Refuse(CreatedByRequired);
    }
    if !UuidGiven(Get(body, "org_id")) {
      return Refuse("org_id (UUID) is required");
    }
    var sport := Get(body, "sport_id");
    if sport.Some? && Truthy(sport.value) && !UuidLike(sport.value) {
      return Refuse("sport_id must be a UUID if provided");
    }
    var name := NameOf(Get(body, "name"));
    if name.NoName? {
      return Refuse("Template name is required");
    }
    if name.NotText? {
      return Crash;
    }
    if !NonEmptyArray(Get(body, "categories")) {
      return Refuse("At least one category is required");
    }
    fault := Pass;
  }

  lemma NormalizeCategoriesSnoc(cats: seq<Json>, i: nat, category: CategoryOut)
    requires i < |cats| && category == NormalizeCategory(cats[i], i)
    ensures NormalizeCategories(cats[..i + 1]) == NormalizeCategories(cats[..i]) + [category]
  {
    IndexedSnoc(cats, i, NormalizeCategory);
  }

  /** The outer loop of the edge function: each category in order. */
  method CheckCategories(cats: seq<Json>) returns (fault: Check, out: seq<CategoryOut>)
    ensures fault == FirstFault(CategoryChecks(cats))
    ensures fault == Pass ==> out == NormalizeCategories(cats)
  {
    out := [];
    var i := 0;
    while i < |cats|
      invariant 0 <= i <= |cats|
      invariant FirstFault(CategoryChecks(cats)[..i]) == Pass
      invariant out == NormalizeCategories(cats[..i])
    {
      var category;
      fault, category := CheckCategory(cats[i], i);
      FirstFaultStep(CategoryChecks(cats), i);
      if fault != Pass {
        return;
      }
      NormalizeCategoriesSnoc(cats, i, category);
      out := out + [category];
      i := i + 1;
    }
    assert cats[..i] == cats && CategoryChecks(cats)[..i] == CategoryChecks(cats);
    fault := Pass;
  }

  // ---------------------------------------------------------------------
  // What an accepted body is
  // ---------------------------------------------------------------------

  predicate SubskillOk(s: Json) {
    NameOf(Get(s, "name")).Named? && UuidGiven(Get(s, "skill_id"))
  }

  predicate CategoryOk(c: Json) {
    NameOf(Get(c, "name")).Named? && NonEmptyArray(Get(c, "subskills"))
    && forall j :: 0 <= j < |ElementsOf(Get(c, "subskills"))| ==> SubskillOk(ElementsOf(Get(c, "subskills"))[j])
  }

  /** The conditions on the body's own fields. */
  predicate HeaderOk(body: Json, hasBearer: bool) {
    (hasBearer || UuidGiven(Get(body, "createdBy")))
    && UuidGiven(Get(body, "org_id"))
    && (Get(body, "sport_id").None? || !Truthy(Get(body, "sport_id").value) || UuidLike(Get(body, "sport_id").value))
    && NameOf(Get(body, "name")).Named?
    && NonEmptyArray(Get(body, "categories"))
  }

  /** The conditions of an acceptable body, all at once. */
  predicate BodyOk(body: Json, hasBearer: bool) {
    var cats := ElementsOf(Get(body, "categories"));
    HeaderOk(body, hasBearer) && forall i :: 0 <= i < |cats| ==> CategoryOk(cats[i])
  }

  lemma HeaderCheckPass(body: Json, hasBearer: bool)
    ensures HeaderCheck(body, hasBearer) == Pass <==> HeaderOk(body, hasBearer)
  {
  }

  lemma SubskillsPass(subs: seq<Json>, i: nat)
    ensures FirstFault(SubskillChecks(subs, i)) == Pass <==> forall j :: 0 <= j < |subs| ==> SubskillOk(subs[j])
  {
    var checks := SubskillChecks(subs, i);
    FirstFaultPass(checks);
    forall j | 0 <= j < |subs|
      ensures checks[j] == Pass <==> SubskillOk(subs[j])
    {
      assert checks[j] == SubskillCheck(subs[j], i, j);
    }
  }

  lemma CategoryCheckPass(c: Json, i: nat)
    ensures CategoryCheck(c, i) == Pass <==> CategoryOk(c)
  {
    if NameOf(Get(c, "name")).Named? && NonEmptyArray(Get(c, "subskills")) {
      var subs := Get(c, "subskills").value.items;
      assert ElementsOf(Get(c, "subskills")) == subs;
      SubskillsPass(subs, i);
    }
  }

  lemma CategoriesPass(cats: seq<Json>)
    ensures FirstFault(CategoryChecks(cats)) == Pass <==> forall i :: 0 <= i < |cats| ==> CategoryOk(cats[i])
  {
    var checks := CategoryChecks(cats);
    FirstFaultPass(checks);
    forall i | 0 <= i < |cats|
      ensures checks[i] == Pass <==> CategoryOk(cats[i])
    {
      CategoryCheckPass(cats[i], i);
    }
  }

  /** A body is accepted exactly when it meets every condition. */
  lemma AcceptedIffBodyOk(body: Json, hasBearer: bool)
    ensures TemplateVerdict(body, hasBearer).Accepted? <==> BodyOk(body, hasBearer)
  {
    HeaderCheckPass(body, hasBearer);
    CategoriesPass(ElementsOf(Get(body, "categories")));
  }

  /**
   * When the body's own fields pass, the request is refused for the first
   * category that fails, with that category's index (and the subskill's).
   */
  lemma FirstFailingCategoryReported(body: Json, hasBearer: bool, i: nat)
    requires HeaderOk(body, hasBearer)
    requires var cats := ElementsOf(Get(body, "categories"));
      i < |cats| && !CategoryOk(cats[i]) && forall k :: 0 <= k < i ==> CategoryOk(cats[k])
    ensures var cats := ElementsOf(Get(body, "categories"));
      TemplateVerdict(body, hasBearer) == VerdictOf(CategoryCheck(cats[i], i), body)
    ensures !TemplateVerdict(body, hasBearer).Accepted?
  {
    HeaderCheckPass(body, hasBearer);
    var cats := ElementsOf(Get(body, "categories"));
    forall k | 0 <= k <= i
      ensures CategoryCheck(cats[k], k) == Pass <==> CategoryOk(cats[k])
    {
      CategoryCheckPass(cats[k], k);
    }
    FirstFaultAt(CategoryChecks(cats), i);
  }

  /** A fault is one of the checks. */
  lemma {:induction false} FirstFaultIsOne(checks: seq<Check>)
    ensures FirstFault(checks) != Pass ==> exists j :: 0 <= j < |checks| && checks[j] == FirstFault(checks)
    decreases |checks|
  {
    if |checks| > 0 && checks[0] == Pass {
      FirstFaultIsOne(checks[1..]);
      if FirstFault(checks) != Pass {
        var j :| 0 <= j < |checks[1..]| && checks[1..][j] == FirstFault(checks[1..]);
        assert checks[j + 1] == FirstFault(checks);
      }
    }
  }

  /** A refused category names its own index; a refused subskill names both indexes. */
  lemma CategoryRefusalLabelled(c: Json, i: nat)
    ensures CategoryCheck(c, i).Refuse? ==>
      StartsWith(CategoryCheck(c, i).message, CategoryLabel(i))
  {
    if CategoryCheck(c, i).Refuse? {
      var subsV := Get(c, "subskills");
      if NameOf(Get(c, "name")).NoName? {
        PrefixStartsWith(CategoryLabel(i), ": name is required");
      } else if !NonEmptyArray(subsV) {
        PrefixStartsWith(CategoryLabel(i), ": at least one subskill is required");
      } else {
        var checks := SubskillChecks(subsV.value.items, i);
        FirstFaultIsOne(checks);
        var j :| 0 <= j < |checks| && checks[j] == FirstFault(checks);
        SubskillRefusalLabelled(subsV.value.items[j], i, j);
      }
    }
  }

  /** A refused subskill's message starts with its category's label. */
  lemma SubskillRefusalLabelled(s: Json, i: nat, j: nat)
    ensures SubskillCheck(s, i, j).Refuse? ==> StartsWith(SubskillCheck(s, i, j).message, CategoryLabel(i))
  {
    var r := SubskillCheck(s, i, j);
    if r.Refuse? {
      var reason := if NameOf(Get(s, "name")).NoName? then ": name is required" else ": skill_id must be a UUID";
      var index := " Subskill[" + DecimalText(j) + "]";
      AppendAssoc(CategoryLabel(i), index, reason);
      PrefixStartsWith(CategoryLabel(i), index + reason);
    }
  }

  /**
   * In an accepted template, the `i`-th category is sent with its name
   * trimmed (and not blank), its position (the given number, else `i + 1`)
   * and one entry per subskill; `isActive` defaults to `true`.
   */
  lemma AcceptedCategoryShape(body: Json, hasBearer: bool, i: nat)
    requires TemplateVerdict(body, hasBearer).Accepted?
    requires i < |ElementsOf(Get(body, "categories"))|
    ensures var c := ElementsOf(Get(body, "categories"))[i];
      var t := TemplateVerdict(body, hasBearer).template;
      NameOf(Get(c, "name")) == Named(t.categories[i].name)
      && t.categories[i].position == PositionOf(Get(c, "position"), i)
      && |t.categories[i].subskills| == |ElementsOf(Get(c, "subskills"))| >= 1
      && (Get(body, "isActive").None? ==> t.isActive == JBool(true))
  {
    AcceptedTemplate(body, hasBearer);
    var cats := ElementsOf(Get(body, "categories"));
    assert CategoryOk(cats[i]);
    assert TemplateOf(body).categories[i] == NormalizeCategory(cats[i], i);
  }

  /**
   * In an accepted template, the `j`-th subskill of the `i`-th category is
   * sent with its name trimmed (and not blank), its `skill_id` as given and
   * shaped like a UUID, and its position (the given number, else `j + 1`).
   */
  lemma AcceptedSubskillShape(body: Json, hasBearer: bool, i: nat, j: nat)
    requires TemplateVerdict(body, hasBearer).Accepted?
    requires i < |ElementsOf(Get(body, "categories"))|
    requires j < |ElementsOf(Get(ElementsOf(Get(body, "categories"))[i], "subskills"))|
    ensures var s := ElementsOf(Get(ElementsOf(Get(body, "categories"))[i], "subskills"))[j];
      var out := TemplateVerdict(body, hasBearer).template.categories[i].subskills[j];
      NameOf(Get(s, "name")) == Named(out.name)
      && Get(s, "skill_id") == Some(out.skillId) && UuidLike(out.skillId)
      && out.position == PositionOf(Get(s, "position"), j)
  {
    AcceptedTemplate(body, hasBearer);
    var cats := ElementsOf(Get(body, "categories"));
    var subs := ElementsOf(Get(cats[i], "subskills"));
    assert CategoryOk(cats[i]);
    SubskillShape(subs[j], j);
    TemplateSubskill(body, i, j);
  }

  /** An accepted body meets every condition and is sent as its payload. */
  lemma AcceptedTemplate(body: Json, hasBearer: bool)
    requires TemplateVerdict(body, hasBearer).Accepted?
    ensures BodyOk(body, hasBearer) && TemplateVerdict(body, hasBearer).template == TemplateOf(body)
  {
    AcceptedIffBodyOk(body, hasBearer);
    var h := HeaderCheck(body, hasBearer);
    assert h == Pass;
    var f := FirstFault(CategoryChecks(ElementsOf(Get(body, "categories"))));
    assert TemplateVerdict(body, hasBearer) == VerdictOf(f, body);
    assert f == Pass;
  }

  lemma TemplateSubskill(body: Json, i: nat, j: nat)
    requires i < |ElementsOf(Get(body, "categories"))|
    requires j < |ElementsOf(Get(ElementsOf(Get(body, "categories"))[i], "subskills"))|
    ensures var c := ElementsOf(Get(body, "categories"))[i];
      TemplateOf(body).categories[i].subskills[j] == NormalizeSubskill(ElementsOf(Get(c, "subskills"))[j], j)
  {
    var c := ElementsOf(Get(body, "categories"))[i];
    assert TemplateOf(body).categories[i] == NormalizeCategory(c, i);
  }

  /** A subskill that passes its checks is sent with its trimmed name, its UUID and its position. */
  lemma SubskillShape(s: Json, j: nat)
    requires SubskillOk(s)
    ensures var out := NormalizeSubskill(s, j);
      NameOf(Get(s, "name")) == Named(out.name)
      && Get(s, "skill_id") == Some(out.skillId) && UuidLike(out.skillId)
      && out.position == PositionOf(Get(s, "position"), j)
  {
  }

  // ---------------------------------------------------------------------
  // A failed `create_scorecard_template_tx` call
  // ---------------------------------------------------------------------

  /** The error codes the transaction raises, in the order they are looked for, with their messages. */
  const ErrorCodes: seq<(string, string)> := [
    ("FORBIDDEN", "You do not have permission for this organization."),
    ("CATEGORY_NEEDS_ONE_SUBSKILL", "Each category must have at least one subskill."),
    ("SUBSKILL_SKILL_REQUIRED", "Each subskill must include a valid skill_id."),
    ("SUBSKILL_SKILL_NOT_IN_ORG_OR_SPORT", "One or more skills do not belong to this org/sport."),
    ("AT_LEAST_ONE_CATEGORY_REQUIRED", "At least one category is required."),
    ("NAME_REQUIRED", "Template name is required."),
    ("ORG_REQUIRED", "org_id is required.")
  ]

  /** The message of the first code the text contains. */
  function FirstMatch(m: string, codes: seq<(string, string)>): (r: Option<string>)
    decreases |codes|
  {
    if |codes| == 0 then None
    else if Contains(m, codes[0].0) then Some(codes[0].1)
    else FirstMatch(m, codes[1..])
  }

  lemma {:induction false} FirstMatchAt(m: string, codes: seq<(string, string)>, k: nat)
    requires k < |codes| && Contains(m, codes[k].0)
    requires forall n :: 0 <= n < k ==> !Contains(m, codes[n].0)
    ensures FirstMatch(m, codes) == Some(codes[k].1)
    decreases k
  {
    if k > 0 {
      FirstMatchAt(m, codes[1..], k - 1);
    }
  }

  lemma {:induction false} FirstMatchNone(m: string, codes: seq<(string, string)>)
    ensures FirstMatch(m, codes).None? <==> forall n :: 0 <= n < |codes| ==> !Contains(m, codes[n].0)
    decreases |codes|
  {
    if |codes| > 0 {
      FirstMatchNone(m, codes[1..]);
      assert forall n :: 1 <= n < |codes| ==> codes[n] == codes[1..][n - 1];
    }
  }

  /** The error text of a failed call: the error's message, or "RPC returned no data". */
  function FailureText(rpcError: Option<string>): (r: string) {
    var m := rpcError.GetOr("RPC returned no data");
    match FirstMatch(m, ErrorCodes)
    case Some(friendly) => friendly
    case None => "Failed to create template: " + m
  }

  /** A failure whose text contains a known code is reported with the message of the first code it contains. */
  lemma FailureTextKnown(rpcError: Option<string>, k: nat)
    requires var m := rpcError.GetOr("RPC returned no data");
      k < |ErrorCodes| && Contains(m, ErrorCodes[k].0) && forall n :: 0 <= n < k ==> !Contains(m, ErrorCodes[n].0)
    ensures FailureText(rpcError) == ErrorCodes[k].1
  {
    FirstMatchAt(rpcError.GetOr("RPC returned no data"), ErrorCodes, k);
  }

  /** A failure that contains none of the codes is reported with its own text. */
  lemma FailureTextFallback(rpcError: Option<string>)
    requires var m := rpcError.GetOr("RPC returned no data");
      forall n :: 0 <= n < |ErrorCodes| ==> !Contains(m, ErrorCodes[n].0)
    ensures FailureText(rpcError) == "Failed to create template: " + rpcError.GetOr("RPC returned no data")
  {
    FirstMatchNone(rpcError.GetOr("RPC returned no data"), ErrorCodes);
  }

  /** What the RPC call returned: its error message, if any, and its data. */
  datatype RpcOutcome = RpcOutcome(error: Option<string>, data: Option<Json>)

  /**
   * `rpcData?.length` is truthy: a non-empty array or string, or an object
   * whose own `length` is truthy.
   */
  predicate HasRows(data: Option<Json>) {
    data.Some? && ((data.value.JArr? && |data.value.items| > 0) || (data.value.JStr? && |data.value.s| > 0)
      || (data.value.JObj? && "length" in data.value.fields && Truthy(data.value.fields["length"])))
  }

  /** `rpcData[0]` of data that has rows; `None` is `undefined`. */
  function FirstRow(data: Option<Json>): (row: Option<Json>)
    ensures data.Some? && data.value.JArr? && |data.value.items| > 0 ==> row == Some(data.value.items[0])
    ensures data.Some? && data.value.JStr? && |data.value.s| > 0 ==> row == Some(JStr(data.value.s[..1]))
    ensures data.Some? && data.value.JObj? ==> row == (if "0" in data.value.fields then Some(data.value.fields["0"]) else None)
  {
    if data.Some? && data.value.JArr? && |data.value.items| > 0 then Some(data.value.items[0])
    else if data.Some? && data.value.JStr? && |data.value.s| > 0 then Some(JStr(data.value.s[..1]))
    else if data.Some? && data.value.JObj? && "0" in data.value.fields then Some(data.value.fields["0"])
    else None
  }

  /** `result.template_id` throws a TypeError: the first row is null or undefined. */
  predicate FirstRowMissing(data: Option<Json>) {
    FirstRow(data).None? || FirstRow(data) == Some(JNull)
  }

  /** How a create request ends. */
  datatype Reply =
    | Preflight
    | Failure(status: int, error: string)
    | Created(templateId: Option<Json>)
      /** The handler threw before answering. */
    | Crashed

  /**
   * The answer to the outcome of the RPC call: 500 with the failure text, or
   * 201 with `rpcData[0].template_id`; reading it off a null or undefined
   * first row throws, and no handler catches that.
   */
  function RpcReply(rpc: RpcOutcome): (r: Reply)
    ensures r.Failure? <==> rpc.error.Some? || !HasRows(rpc.data)
    ensures r.Failure? ==> r.status == 500 && r.error == FailureText(rpc.error)
    ensures r.Crashed? <==> rpc.error.None? && HasRows(rpc.data) && FirstRowMissing(rpc.data)
    ensures r.Created? <==> rpc.error.None? && HasRows(rpc.data) && !FirstRowMissing(rpc.data)
    ensures r.Created? ==> r.templateId == Get(FirstRow(rpc.data).value, "template_id")
  {
    if rpc.error.Some? || !HasRows(rpc.data) then Failure(500, FailureText(rpc.error))
    else if FirstRowMissing(rpc.data) then Crashed
    else Created(Get(FirstRow(rpc.data).value, "template_id"))
  }

  // ---------------------------------------------------------------------
  // The edge function
  // ---------------------------------------------------------------------

  /**
   * A request to the edge function: its method, whether the URL and the
   * service-role key are configured, the body (`None` when it is not JSON)
   * and the `authorization` header (`""` when absent).
   */
  datatype EdgeRequest = EdgeRequest(httpMethod: string, configured: bool, body: Option<Json>, authHeader: string)

  /** The arguments of the RPC call: the template and `p_created_by` when it is sent. */
  datatype RpcCall = RpcCall(template: Template, createdBy: Option<Json>)

  /** `authHeader.toLowerCase().startsWith("bearer ")`. */
  predicate HasBearer(authHeader: string) {
    StartsWith(Lower(authHeader), "bearer ")
  }

  /**
   * `p_created_by` is sent unless the call runs as the caller, which needs a
   * Bearer header and an anon key.
   */
  function EdgeCall(t: Template, body: Json, hasBearer: bool, anonKey: string): (call: RpcCall)
    ensures call.template == t
    ensures call.createdBy.Some? <==> !(hasBearer && anonKey != "")
  {
    RpcCall(t, if hasBearer && anonKey != "" then None else Some(OrNull(Get(body, "createdBy"))))
  }

  /**
   * The edge function on one request, given the anon key and what the RPC
   * call returns; the call, when it is made, comes with the reply.
   */
  function EdgeCreate(req: EdgeRequest, anonKey: string, rpc: RpcOutcome): (r: (Reply, Option<RpcCall>))
    ensures r.1.Some? <==> (req.httpMethod == "POST" && req.configured && req.body.Some?
      && TemplateVerdict(req.body.value, HasBearer(req.authHeader)).Accepted?)
    ensures r.0 == Preflight <==> req.httpMethod == "OPTIONS"
    ensures req.httpMethod != "OPTIONS" && req.httpMethod != "POST" ==> r.0 == Failure(405, "Method not allowed")
    ensures req.httpMethod == "POST" && !req.configured ==>
      r.0 == Failure(500, "Missing SUPABASE_URL or SUPABASE_SERVICE_ROLE_KEY")
    ensures req.httpMethod == "POST" && req.configured && req.body.None? ==> r.0 == Failure(400, "Invalid JSON body")
    ensures req.httpMethod == "POST" && req.configured && req.body.Some? ==>
      var verdict := TemplateVerdict(req.body.value, HasBearer(req.authHeader));
      && (verdict.Refused? ==> r.0 == Failure(400, verdict.message))
      && (verdict.Threw? ==> r.0 == Crashed)
    ensures r.1.Some? ==> (r.0 == RpcReply(rpc)
      && r.1.value.template == TemplateVerdict(req.body.value, HasBearer(req.authHeader)).template
      && (r.1.value.createdBy.Some? <==> !(HasBearer(req.authHeader) && anonKey != "")))
  {
    if req.httpMethod == "OPTIONS" then (Preflight, None)
    else if req.httpMethod != "POST" then (Failure(405, "Method not allowed"), None)
    else if !req.configured then (Failure(500, "Missing SUPABASE_URL or SUPABASE_SERVICE_ROLE_KEY"), None)
    else if req.body.None? then (Failure(400, "Invalid JSON body"), None)
    else
      var hasBearer := HasBearer(req.authHeader);
      match TemplateVerdict(req.body.value, hasBearer)
      case Refused(m) => (Failure(400, m), None)
      case Threw => (Crashed, None)
      case Accepted(t) => (RpcReply(rpc), Some(EdgeCall(t, req.body.value, hasBearer, anonKey)))
  }

  /**
   * Whenever `p_created_by` is sent, it is the body's `createdBy`, and that
   * is a UUID: without a Bearer header the body was refused otherwise.
   */
  lemma EdgeCreatedByIsUuid(req: EdgeRequest, anonKey: string, rpc: RpcOutcome)
    requires EdgeCreate(req, anonKey, rpc).1.Some? && EdgeCreate(req, anonKey, rpc).1.value.createdBy.Some?
    requires !HasBearer(req.authHeader)
    ensures var creator := EdgeCreate(req, anonKey, rpc).1.value.createdBy.value;
      Truthy(creator) && UuidLike(creator) && Get(req.body.value, "createdBy") == Some(creator)
  {
    AcceptedIffBodyOk(req.body.value, false);
  }
}

=== FILE: skill_dtos.dfy ===
/**
 * The skill request schemas of the functions API: media upload and creation,
 * skill creation and update, drill links and the list filters.
 */
module SkillDtos {
  import opened Wrappers
  import opened Text
  import opened Json
  import opened Zod
  import opened DrillDtos

  // ---------------------------------------------------------------------------
  // Schemas

  /** `SkillMediaUploadSchema`. */
  function SkillMediaUploadSchema(): Schema {
    Obj([
      ("org_id", UuidSchema()),
      ("skill_id", UuidSchema()),
      ("file_name", TrimmedText(1, Some(255))),
      ("content_type", TrimmedText(1, Some(120))),
      ("type", Optional(DrillMediaTypeSchema())),
      ("media_type", Optional(DrillMediaTypeSchema())),
      ("title", MediaTitle()),
      ("description", MediaDescription()),
      ("thumbnail_url", OptionalNullable(UrlSchema())),
      ("position", OptionalCount())])
  }

  /** The fields of `CreateSkillMediaSchema` before its refinement. */
  function SkillMediaFields(): Schema {
    Obj([
      ("org_id", UuidSchema()),
      ("skill_id", UuidSchema()),
      ("type", Optional(DrillMediaTypeSchema())),
      ("media_type", Optional(DrillMediaTypeSchema())),
      ("url", OptionalNullable(UrlSchema())),
      ("storage_path", OptionalNullable(TrimmedText(1, Some(1024)))),
      ("title", MediaTitle()),
      ("description", MediaDescription()),
      ("thumbnail_url", OptionalNullable(UrlSchema())),
      ("position", OptionalCount())])
  }

  /** `(data) => data.storage_path || data.url`. */
  predicate HasReference(data: Json) {
    Truthy(OrNull(Get(data, "storage_path"))) || Truthy(OrNull(Get(data, "url")))
  }

  /** `CreateSkillMediaSchema`. */
  function CreateSkillMediaSchema(): Schema {
    Refine(SkillMediaFields(), HasReference)
  }

  /** `CreateSkillSchema`. */
  function CreateSkillSchema(): Schema {
    Obj([
      ("org_id", UuidSchema()),
      ("sport_id", OptionalNullable(UuidSchema())),
      ("category", TrimmedText(1, Some(120))),
      ("title", TrimmedText(1, Some(200))),
      ("description", MediaDescription()),
      ("level", OptionalNullable(TrimmedText(0, Some(50)))),
      ("visibility", OptionalNullable(TrimmedText(0, Some(50)))),
      ("status", OptionalNullable(TrimmedText(0, Some(50))))])
  }

  /** `UpdateSkillSchema`: every field optional, category and title still non-blank. */
  function UpdateSkillSchema(): Schema {
    Obj([
      ("sport_id", OptionalNullable(UuidSchema())),
      ("category", Optional(TrimmedText(1, Some(120)))),
      ("title", Optional(TrimmedText(1, Some(200)))),
      ("description", MediaDescription()),
      ("level", OptionalNullable(TrimmedText(0, Some(50)))),
      ("visibility", OptionalNullable(TrimmedText(0, Some(50)))),
      ("status", OptionalNullable(TrimmedText(0, Some(50))))])
  }

  /** `typeof value === "string" ? { drill_id: value } : value`. */
  function DrillRefOf(v: Json): Json {
    if v.JStr? then JObj(map["drill_id" := v]) else v
  }

  /** The object form of a drill link. */
  function DrillLinkObject(): Schema {
    Obj([("drill_id", UuidSchema()), ("level", OptionalCount())])
  }

  /** `SkillDrillInputSchema`: a drill UUID, or `{ drill_id, level? }`, read as the object. */
  function SkillDrillInputSchema(): Schema {
    Transform(Union(UuidSchema(), DrillLinkObject()), DrillRefOf)
  }

  /** `AddSkillDrillsSchema`. */
  function AddSkillDrillsSchema(): Schema {
    Obj([("org_id", UuidSchema()), ("drills", Arr(SkillDrillInputSchema(), 1))])
  }

  /** `SkillDrillListFilterSchema`. */
  function SkillDrillListFilterSchema(): Schema {
    Obj([
      ("org_id", UuidSchema()),
      ("limit", PagingField(1, Some(200), 50)),
      ("offset", PagingField(0, None, 0))])
  }

  /** `SkillListFilterSchema`, which is also `SkillTagListFilterSchema`. */
  function SkillListFilterSchema(): Schema {
    Obj([
      ("org_id", UuidSchema()),
      ("sport_id", OptionalNullable(UuidSchema())),
      ("q", Optional(TrimmedText(1, None))),
      ("limit", PagingField(1, Some(200), 50)),
      ("offset", PagingField(0, None, 0))])
  }

  // ---------------------------------------------------------------------------
  // What the schemas guarantee

  /** A missing or null value. */
  predicate Absent(f: Option<Json>) {
    f.None? || f == Some(JNull)
  }

  /** New skill media without a storage path and without a url is refused. */
  lemma CreateSkillMediaNeedsReference(v: Option<Json>, o: Oracles)
    requires v.Some? && Absent(Get(v.value, "storage_path")) && Absent(Get(v.value, "url"))
    ensures !Parse(CreateSkillMediaSchema(), v, o).Valid?
  {
    RefineParse(SkillMediaFields(), HasReference, v, o);
    MediaReferenceFields(v, o);
    OptionalNullableParse(UrlSchema(), Get(v.value, "url"), o);
    OptionalNullableParse(TrimmedText(1, Some(1024)), Get(v.value, "storage_path"), o);
  }

  /**
   * Accepted skill media carry a storage path that is non-blank once
   * trimmed, or a url the URL check accepts.
   */
  lemma CreateSkillMediaReference(v: Option<Json>, o: Oracles)
    ensures Parse(CreateSkillMediaSchema(), v, o).Valid? ==>
      (AsString(Get(v.value, "storage_path")).Some? && Trim(AsString(Get(v.value, "storage_path")).value) != "")
      || (AsString(Get(v.value, "url")).Some? && o.isUrl(AsString(Get(v.value, "url")).value))
  {
    RefineParse(SkillMediaFields(), HasReference, v, o);
    MediaReferenceFields(v, o);
    if Parse(CreateSkillMediaSchema(), v, o).Valid? {
      OptionalNullableParse(UrlSchema(), Get(v.value, "url"), o);
      OptionalNullableParse(TrimmedText(1, Some(1024)), Get(v.value, "storage_path"), o);
      StrParse(false, 0, None, UrlText, Get(v.value, "url"), o);
      StrParse(true, 1, Some(1024), AnyText, Get(v.value, "storage_path"), o);
    }
  }

  /** The url and the storage path of accepted media fields are what their own schemas yield. */
  lemma MediaReferenceFields(v: Option<Json>, o: Oracles)
    ensures var a := Parse(SkillMediaFields(), v, o);
      a.Valid? ==> (v.Some? && a.value.Some?
        && Parse(OptionalNullable(UrlSchema()), Get(v.value, "url"), o).Valid?
        && Get(a.value.value, "url") == Parse(OptionalNullable(UrlSchema()), Get(v.value, "url"), o).value
        && Parse(OptionalNullable(TrimmedText(1, Some(1024))), Get(v.value, "storage_path"), o).Valid?
        && Get(a.value.value, "storage_path")
          == Parse(OptionalNullable(TrimmedText(1, Some(1024))), Get(v.value, "storage_path"), o).value)
  {
    var fields := SkillMediaFields().fields;
    assert KeyOnce(fields, 4) && KeyOnce(fields, 5);
    FieldParsed(fields, v, o, 4);
    FieldParsed(fields, v, o, 5);
  }

  /** A skill's category is 1 to 120 characters once trimmed, and the trimmed text is kept. */
  lemma CreateSkillCategory(v: Option<Json>, o: Oracles)
    ensures var r := Parse(CreateSkillSchema(), v, o);
      r.Valid? ==> (AsString(Get(v.value, "category")).Some?
        && var t := Trim(AsString(Get(v.value, "category")).value);
          1 <= Utf16Length(t) <= 120 && FieldOf(r, "category") == Some(JStr(t)))
  {
    ObjParse(CreateSkillSchema().fields, v, o, 2);
    if Parse(CreateSkillSchema(), v, o).Valid? {
      StrParse(true, 1, Some(120), AnyText, Get(v.value, "category"), o);
    }
  }

  /** A skill's title is 1 to 200 characters once trimmed, and the trimmed text is kept. */
  lemma CreateSkillTitle(v: Option<Json>, o: Oracles)
    ensures var r := Parse(CreateSkillSchema(), v, o);
      r.Valid? ==> (AsString(Get(v.value, "title")).Some?
        && var t := Trim(AsString(Get(v.value, "title")).value);
          1 <= Utf16Length(t) <= 200 && FieldOf(r, "title") == Some(JStr(t)))
  {
    ObjParse(CreateSkillSchema().fields, v, o, 3);
    if Parse(CreateSkillSchema(), v, o).Valid? {
      StrParse(true, 1, Some(200), AnyText, Get(v.value, "title"), o);
    }
  }

  /** An update may leave the title out, but a given title is still 1 to 200 characters once trimmed. */
  lemma UpdateSkillTitle(v: Option<Json>, o: Oracles)
    ensures var r := Parse(UpdateSkillSchema(), v, o);
      r.Valid? ==> (Get(v.value, "title").None? <==> FieldOf(r, "title").None?)
    ensures var r := Parse(UpdateSkillSchema(), v, o);
      r.Valid? && Get(v.value, "title").Some? ==> (AsString(Get(v.value, "title")).Some?
        && 1 <= Utf16Length(Trim(AsString(Get(v.value, "title")).value)) <= 200)
  {
    var fields := UpdateSkillSchema().fields;
    assert KeyOnce(fields, 2);
    FieldParsed(fields, v, o, 2);
    if v.Some? {
      OptionalTextValue(1, Some(200), Get(v.value, "title"), o);
    }
  }

  /** A drill link that is not an object is accepted exactly when it is a UUID string. */
  lemma SkillDrillInputText(v: Option<Json>, o: Oracles)
    requires !(v.Some? && v.value.JObj?)
    ensures Parse(SkillDrillInputSchema(), v, o).Valid? <==> v.Some? && v.value.JStr? && Uuid.MatchesUuid(v.value.s)
  {
    assert !Parse(DrillLinkObject(), v, o).Valid?;
    StrParse(false, 0, None, UuidText, v, o);
  }

  /** An object drill link is accepted exactly when its `drill_id` is a UUID and its level is acceptable. */
  lemma SkillDrillInputObject(v: Option<Json>, o: Oracles)
    requires v.Some? && v.value.JObj?
    ensures Parse(SkillDrillInputSchema(), v, o).Valid? <==>
      AsString(Get(v.value, "drill_id")).Some? && Uuid.MatchesUuid(AsString(Get(v.value, "drill_id")).value)
      && Parse(OptionalCount(), Get(v.value, "level"), o).Valid?
  {
    DrillLinkUnion(v, o);
    DrillLinkFields(v, o);
  }

  lemma DrillLinkUnion(v: Option<Json>, o: Oracles)
    requires v.Some? && v.value.JObj?
    ensures Parse(SkillDrillInputSchema(), v, o).Valid? == Parse(DrillLinkObject(), v, o).Valid?
  {
    TransformUnionValid(UuidSchema(), DrillLinkObject(), DrillRefOf, v, o);
    StrRefusesNonString(UuidSchema(), v, o);
  }

  lemma DrillLinkFields(v: Option<Json>, o: Oracles)
    requires v.Some? && v.value.JObj?
    ensures Parse(DrillLinkObject(), v, o).Valid? <==>
      AsString(Get(v.value, "drill_id")).Some? && Uuid.MatchesUuid(AsString(Get(v.value, "drill_id")).value)
      && Parse(OptionalCount(), Get(v.value, "level"), o).Valid?
  {
    ObjParse(DrillLinkObject().fields, v, o, 0);
    StrParse(false, 0, None, UuidText, Get(v.value, "drill_id"), o);
  }

  /** An accepted drill link always yields an object whose `drill_id` is the given UUID. */
  lemma SkillDrillInputYieldsObject(v: Option<Json>, o: Oracles)
    ensures var r := Parse(SkillDrillInputSchema(), v, o);
      r.Valid? ==> (r.value.Some? && r.value.value.JObj?
        && AsString(Get(r.value.value, "drill_id")).Some? && Uuid.MatchesUuid(AsString(Get(r.value.value, "drill_id")).value)
        && (v.value.JStr? ==> Get(r.value.value, "drill_id") == v)
        && (v.value.JObj? ==> Get(r.value.value, "drill_id") == Get(v.value, "drill_id")))
  {
    StrParse(false, 0, None, UuidText, v, o);
    TransformUnionValid(UuidSchema(), DrillLinkObject(), DrillRefOf, v, o);
    DrillLinkObjectParse(v, o);
  }

  /** The object form of a drill link keeps its `drill_id`, a UUID string. */
  lemma DrillLinkObjectParse(v: Option<Json>, o: Oracles)
    ensures var b := Parse(DrillLinkObject(), v, o);
      b.Valid? ==> (v.Some? && v.value.JObj? && b.value.Some? && b.value.value.JObj?
        && AsString(Get(b.value.value, "drill_id")).Some? && Uuid.MatchesUuid(AsString(Get(b.value.value, "drill_id")).value)
        && Get(b.value.value, "drill_id") == Get(v.value, "drill_id"))
  {
    var fields := DrillLinkObject().fields;
    assert KeyOnce(fields, 0);
    ObjParse(fields, v, o, 0);
    if Parse(DrillLinkObject(), v, o).Valid? {
      StrParse(false, 0, None, UuidText, Get(v.value, "drill_id"), o);
    }
  }

  /** Adding drills to a skill needs at least one drill. */
  lemma AddSkillDrillsNonEmpty(v: Option<Json>, o: Oracles)
    ensures Parse(AddSkillDrillsSchema(), v, o).Valid? ==>
      Get(v.value, "drills").Some? && Get(v.value, "drills").value.JArr? && |Get(v.value, "drills").value.items| >= 1
  {
    ObjParse(AddSkillDrillsSchema().fields, v, o, 1);
    if v.Some? {
      ArrParse(SkillDrillInputSchema(), 1, Get(v.value, "drills"), o);
    }
  }

  /** An empty drill list is refused. */
  lemma AddSkillDrillsEmptyRefused(v: Option<Json>, o: Oracles)
    requires v.Some? && Get(v.value, "drills") == Some(JArr([]))
    ensures !Parse(AddSkillDrillsSchema(), v, o).Valid?
  {
    ObjParse(AddSkillDrillsSchema().fields, v, o, 1);
    ArrParse(SkillDrillInputSchema(), 1, Get(v.value, "drills"), o);
  }

  /** The skill-drill list filter has a limit in [1, 200], 50 when absent, and an offset of at least 0, 0 when absent. */
  lemma SkillDrillListPaging(v: Option<Json>, o: Oracles)
    ensures var r := Parse(SkillDrillListFilterSchema(), v, o);
      r.Valid? ==> (PageValue(FieldOf(r, "limit"), 1, Some(200)) && PageValue(FieldOf(r, "offset"), 0, None)
        && (Get(v.value, "limit").None? ==> FieldOf(r, "limit") == Some(JNum(50.0)))
        && (Get(v.value, "offset").None? ==> FieldOf(r, "offset") == Some(JNum(0.0))))
  {
    var fields := SkillDrillListFilterSchema().fields;
    ObjParse(fields, v, o, 1);
    ObjParse(fields, v, o, 2);
    if Parse(SkillDrillListFilterSchema(), v, o).Valid? {
      PagingFieldParse(1, Some(200), 50, Get(v.value, "limit"), o);
      PagingFieldParse(0, None, 0, Get(v.value, "offset"), o);
    }
  }

  /** The same paging rules in the skill and skill-tag list filters. */
  lemma SkillListPaging(v: Option<Json>, o: Oracles)
    ensures var r := Parse(SkillListFilterSchema(), v, o);
      r.Valid? ==> (PageValue(FieldOf(r, "limit"), 1, Some(200)) && PageValue(FieldOf(r, "offset"), 0, None)
        && (Get(v.value, "limit").None? ==> FieldOf(r, "limit") == Some(JNum(50.0)))
        && (Get(v.value, "offset").None? ==> FieldOf(r, "offset") == Some(JNum(0.0))))
  {
    var fields := SkillListFilterSchema().fields;
    ObjParse(fields, v, o, 3);
    ObjParse(fields, v, o, 4);
    if Parse(SkillListFilterSchema(), v, o).Valid? {
      PagingFieldParse(1, Some(200), 50, Get(v.value, "limit"), o);
      PagingFieldParse(0, None, 0, Get(v.value, "offset"), o);
    }
  }

  /** An upload names a file of 1 to 255 and a content type of 1 to 120 characters once trimmed. */
  lemma SkillMediaUploadNames(v: Option<Json>, o: Oracles)
    ensures var r := Parse(SkillMediaUploadSchema(), v, o);
      r.Valid? ==> (AsString(Get(v.value, "file_name")).Some? && 1 <= Utf16Length(Trim(AsString(Get(v.value, "file_name")).value)) <= 255
        && AsString(Get(v.value, "content_type")).Some? && 1 <= Utf16Length(Trim(AsString(Get(v.value, "content_type")).value)) <= 120)
  {
    var fields := SkillMediaUploadSchema().fields;
    ObjParse(fields, v, o, 2);
    ObjParse(fields, v, o, 3);
    if Parse(SkillMediaUploadSchema(), v, o).Valid? {
      StrParse(true, 1, Some(255), AnyText, Get(v.value, "file_name"), o);
      StrParse(true, 1, Some(120), AnyText, Get(v.value, "content_type"), o);
    }
  }
}

=== FILE: skills.dfy ===
/**
 * The skill service: the media row and skill row mappers (media ordered by
 * position), the creation of skill media (storage reference normalisation,
 * organization check, default position) and the de-duplicated tag list.
 * The storage client is the `Storage` parameter; the `skills` and
 * `skill_media` tables are fields of `SkillTables`.
 */
module Skills {
  import opened Wrappers
  import opened Text
  import opened Json
  import opened Dedup
  import opened Sorting
  import opened MediaPaths
  import MediaControllers

  /**
   * The storage bucket of skill media, `new URL(..).pathname` (`None`: not
   * a URL) and `getPublicUrl(bucket, path).data?.publicUrl`.
   */
  datatype Storage = Storage(bucket: string, urlPath: string -> Option<string>, publicUrl: (string, string) -> Option<string>)

  /** `getPublicUrl`: no URL for an empty bucket or path. */
  function PublicUrl(st: Storage, ref: StorageRef): (r: Option<string>)
    ensures ref.bucket == "" || ref.path == "" ==> r.None?
    ensures ref.bucket != "" && ref.path != "" ==> r == st.publicUrl(ref.bucket, ref.path)
  {
    if ref.bucket == "" || ref.path == "" then None else st.publicUrl(ref.bucket, ref.path)
  }

  // ---------------------------------------------------------------------------
  // Mappers

  datatype SkillMediaDto = SkillMediaDto(
    id: string, skillId: string, mediaType: string, url: Option<string>, storagePath: Option<string>,
    title: Option<string>, description: Option<string>, thumbnailUrl: Option<string>, position: Option<real>)

  /** `Number.isFinite(v) ? Number(v) : null`: only numbers count. */
  function FiniteNumber(v: Option<Json>): (r: Option<real>)
    ensures r.Some? <==> v.Some? && v.value.JNum?
    ensures r.Some? ==> r.value == v.value.n
  {
    if v.Some? && v.value.JNum? then Some(v.value.n) else None
  }

  /**
   * `mapSkillMediaRow`: a stored url wins over the public URL of the row's
   * storage reference, the type defaults to "video", the skill id to the
   * owning skill's, and the position is the sort order when it is a number.
   */
  function MediaOfRow(row: Json, st: Storage, skillId: Option<string>): (m: SkillMediaDto)
    ensures AsString(Get(row, "url")).Some? ==> m.url == AsString(Get(row, "url"))
    ensures AsString(Get(row, "url")).None? ==>
      m.url == (var ref := ResolveStorageRef(AsString(Get(row, "storage_path")), None, st.bucket, st.urlPath);
                if ref.Some? then PublicUrl(st, ref.value) else None)
    ensures m.mediaType == AsString(Get(row, "media_type")).GetOr("video")
    ensures m.skillId == (if AsString(Get(row, "skill_id")).Some? then AsString(Get(row, "skill_id")).value else skillId.GetOr(""))
    ensures m.position.Some? <==> Get(row, "sort_order").Some? && Get(row, "sort_order").value.JNum?
  {
    var storagePath := AsString(Get(row, "storage_path"));
    var rawUrl := AsString(Get(row, "url"));
    var ref := ResolveStorageRef(storagePath, rawUrl, st.bucket, st.urlPath);
    var resolvedUrl := if rawUrl.Some? then rawUrl else if ref.Some? then PublicUrl(st, ref.value) else None;
    SkillMediaDto(
      AsString(Get(row, "id")).GetOr(""),
      if AsString(Get(row, "skill_id")).Some? then AsString(Get(row, "skill_id")).value else skillId.GetOr(""),
      AsString(Get(row, "media_type")).GetOr("video"),
      resolvedUrl,
      storagePath,
      AsString(Get(row, "title")),
      AsString(Get(row, "description")),
      AsString(Get(row, "thumbnail_url")),
      FiniteNumber(Get(row, "sort_order")))
  }

  /** `Number.MAX_SAFE_INTEGER`, the sort key of media without a position. */
  const MaxSafeInteger: int := 9007199254740991

  function PositionKey(m: SkillMediaDto): real {
    if m.position.Some? then m.position.value else MaxSafeInteger as real
  }

  /** `(a, b) => (a.position ?? MAX) - (b.position ?? MAX)` read as "comes no later than". */
  function ByPosition(): (SkillMediaDto, SkillMediaDto) -> bool {
    (a: SkillMediaDto, b: SkillMediaDto) => PositionKey(a) <= PositionKey(b)
  }

  datatype SkillDto = SkillDto(
    id: Option<Json>, orgId: Json, sportId: Json, category: string, title: string,
    description: Option<string>, level: Option<string>, visibility: Option<string>, status: Option<string>,
    createdAt: Option<Json>, updatedAt: Option<Json>, media: seq<SkillMediaDto>)

  /** The embedded media rows, mapped in row order. */
  function MappedMedia(row: Json, st: Storage): (r: seq<SkillMediaDto>)
    ensures |r| == |ElementsOf(Get(row, "skill_media"))|
  {
    var items := ElementsOf(Get(row, "skill_media"));
    seq(|items|, i requires 0 <= i < |items| => MediaOfRow(items[i], st, AsString(Get(row, "id"))))
  }

  /** `mapSkillRowToDto`. */
  function SkillOfRow(row: Json, st: Storage): (s: SkillDto)
    ensures s.updatedAt == OrElse(Get(row, "updated_at"), Get(row, "created_at"))
    ensures |s.media| == |ElementsOf(Get(row, "skill_media"))|
  {
    SkillDto(
      Get(row, "id"),
      OrNull(Get(row, "org_id")),
      OrNull(Get(row, "sport_id")),
      AsString(Get(row, "category")).GetOr(""),
      AsString(Get(row, "title")).GetOr(""),
      AsString(Get(row, "description")),
      AsString(Get(row, "level")),
      AsString(Get(row, "visibility")),
      AsString(Get(row, "status")),
      Get(row, "created_at"),
      OrElse(Get(row, "updated_at"), Get(row, "created_at")),
      SortBy(MappedMedia(row, st), ByPosition()))
  }

  /** Sorting by position keeps every medium and orders the positions, missing ones counted as `MAX_SAFE_INTEGER`. */
  lemma PositionSorted(ms: seq<SkillMediaDto>)
    ensures multiset(SortBy(ms, ByPosition())) == multiset(ms)
    ensures forall i, j :: 0 <= i < j < |SortBy(ms, ByPosition())| ==>
      PositionKey(SortBy(ms, ByPosition())[i]) <= PositionKey(SortBy(ms, ByPosition())[j])
  {
    assert TotalPreorder(ByPosition());
    SortBySorted(ms, ByPosition());
  }

  /** The media of a skill are its media rows, reordered by ascending position. */
  lemma SkillMediaOrdered(row: Json, st: Storage)
    ensures multiset(SkillOfRow(row, st).media) == multiset(MappedMedia(row, st))
    ensures forall i, j :: 0 <= i < j < |SkillOfRow(row, st).media| ==>
      PositionKey(SkillOfRow(row, st).media[i]) <= PositionKey(SkillOfRow(row, st).media[j])
  {
    assert SkillOfRow(row, st).media == SortBy(MappedMedia(row, st), ByPosition());
    PositionSorted(MappedMedia(row, st));
  }

  /**
   * Media without a position come after every medium whose position is
   * below `Number.MAX_SAFE_INTEGER`.
   */
  lemma MissingPositionLast(ms: seq<SkillMediaDto>, i: nat, j: nat)
    requires i < |SortBy(ms, ByPosition())| && j < |SortBy(ms, ByPosition())|
    requires SortBy(ms, ByPosition())[i].position.None?
    requires SortBy(ms, ByPosition())[j].position.Some? && SortBy(ms, ByPosition())[j].position.value < MaxSafeInteger as real
    ensures j < i
  {
    PositionSorted(ms);
    assert PositionKey(SortBy(ms, ByPosition())[i]) == MaxSafeInteger as real;
  }

  /** The same for the media of a skill row. */
  lemma SkillMediaMissingLast(row: Json, st: Storage, i: nat, j: nat)
    requires i < |SkillOfRow(row, st).media| && j < |SkillOfRow(row, st).media|
    requires SkillOfRow(row, st).media[i].position.None?
    requires SkillOfRow(row, st).media[j].position.Some? && SkillOfRow(row, st).media[j].position.value < MaxSafeInteger as real
    ensures j < i
  {
    assert SkillOfRow(row, st).media == SortBy(MappedMedia(row, st), ByPosition());
    MissingPositionLast(MappedMedia(row, st), i, j);
  }

  /** A skill row with no `updated_at` (or a null one) reports its creation time as its update time. */
  lemma SkillUpdatedDefault(row: Json, st: Storage)
    requires Get(row, "updated_at").None? || Get(row, "updated_at") == Some(JNull)
    ensures SkillOfRow(row, st).updatedAt == Get(row, "created_at")
  {
  }

  // ---------------------------------------------------------------------------
  // createSkillMedia

  /** The validated input of `createSkillMedia`; `typeField` and `mediaTypeField` are its `type` and `media_type`. */
  datatype SkillMediaInput = SkillMediaInput(
    skillId: string, orgId: string, typeField: Option<string>, mediaTypeField: Option<string>,
    title: Option<string>, url: Option<string>, storagePath: Option<string>,
    thumbnailUrl: Option<string>, position: Option<Json>)

  /**
   * The storage path kept for new skill media: a storage URL gives its
   * object path, a "{bucket}/" prefix is dropped, and with no storage path
   * left a storage url gives its object path.
   */
  function StoredPath(input: SkillMediaInput, st: Storage): string {
    var given := Trimmed(input.storagePath);
    var fromPath := ParseStorageObjectUrl(given, st.urlPath);
    var normalized :=
      if given == "" then ""
      else if fromPath.Some? then fromPath.value.path
      else if StartsWith(given, st.bucket + "/") then given[|st.bucket| + 1..]
      else given;
    var fromUrl := ParseStorageObjectUrl(Trimmed(input.url), st.urlPath);
    if normalized == "" && Trimmed(input.url) != "" && fromUrl.Some? then fromUrl.value.path else normalized
  }

  /** Neither a storage path nor a url is left after normalisation. */
  predicate MissingReference(input: SkillMediaInput, st: Storage) {
    StoredPath(input, st) == "" && Trimmed(input.url) == ""
  }

  /**
   * The reference is missing exactly when the url is blank and the storage
   * path is blank or only the prefix "{bucket}/", unless that is itself a
   * storage URL.
   */
  lemma MissingReferenceIff(input: SkillMediaInput, st: Storage)
    ensures MissingReference(input, st) <==>
      Trimmed(input.url) == "" &&
      (Trimmed(input.storagePath) == "" ||
       (Trimmed(input.storagePath) == st.bucket + "/" && ParseStorageObjectUrl(Trimmed(input.storagePath), st.urlPath).None?))
  {
    var given := Trimmed(input.storagePath);
    var prefix := st.bucket + "/";
    if given != "" && ParseStorageObjectUrl(given, st.urlPath).None? {
      if StartsWith(given, prefix) && given[|prefix|..] == "" {
        assert given == given[..|prefix|];
      }
      if given == prefix {
        assert StartsWith(given, prefix);
      }
    }
  }

  /** The url stored with new media: the given url, else the public URL of the storage reference. */
  function StoredUrl(input: SkillMediaInput, st: Storage, path: string): (u: Option<string>)
    ensures Trimmed(input.url) != "" ==> u == Some(Trimmed(input.url))
  {
    var url := Trimmed(input.url);
    var ref := ResolveStorageRef(Some(path), Some(url), st.bucket, st.urlPath);
    if url != "" then Some(url) else if ref.Some? then PublicUrl(st, ref.value) else None
  }

  /** The given position, else one past the last sort order (see `AllocatePosition`). */
  function PositionFor(given: Option<Json>, lastSortOrder: Option<Json>): Json {
    if given.Some? && given.value != JNull then given.value else JNum(NextPosition(lastSortOrder))
  }

  /** `v ?? null` for an optional text. */
  function OptText(v: Option<string>): (j: Json)
    ensures v.Some? <==> j.JStr?
    ensures v.Some? ==> j.s == v.value
  {
    if v.Some? then JStr(v.value) else JNull
  }

  /** A `skill_media` row as it is read back after the insert. */
  function MediaRow(mediaId: string, skillId: string, mediaType: string, title: Option<string>,
                    url: Option<string>, path: string, thumbnailUrl: Option<string>, position: Json): map<string, Json> {
    map[
      "id" := JStr(mediaId),
      "skill_id" := JStr(skillId),
      "media_type" := JStr(mediaType),
      "title" := OptText(title),
      "url" := OptText(url),
      "storage_path" := if path != "" then JStr(path) else JNull,
      "thumbnail_url" := OptText(thumbnailUrl),
      "sort_order" := position]
  }

  /** The `skill_media` row inserted for `input`. */
  function NewMediaRow(input: SkillMediaInput, st: Storage, mediaId: string, position: Json): map<string, Json> {
    MediaRow(mediaId, input.skillId, MediaControllers.MediaTypeOf(input.typeField, input.mediaTypeField), input.title,
      StoredUrl(input, st, StoredPath(input, st)), StoredPath(input, st), input.thumbnailUrl, position)
  }

  /** A row read back reports its id, skill, type and storage path. */
  lemma MediaRowReported(mediaId: string, skillId: string, mediaType: string, title: Option<string>,
                         url: Option<string>, path: string, thumbnailUrl: Option<string>, position: Json, st: Storage)
    ensures var m := MediaOfRow(JObj(MediaRow(mediaId, skillId, mediaType, title, url, path, thumbnailUrl, position)), st, None);
      && m.id == mediaId && m.skillId == skillId && m.mediaType == mediaType
      && m.storagePath == (if path != "" then Some(path) else None)
  {
  }

  /**
   * A row read back with no url reports the public URL of its storage
   * path; with one, that url.
   */
  lemma MediaRowUrl(mediaId: string, skillId: string, mediaType: string, title: Option<string>,
                    url: Option<string>, path: string, thumbnailUrl: Option<string>, position: Json, st: Storage)
    ensures var m := MediaOfRow(JObj(MediaRow(mediaId, skillId, mediaType, title, url, path, thumbnailUrl, position)), st, None);
      m.url == (if url.Some? then url
                else var ref := ResolveStorageRef(if path != "" then Some(path) else None, None, st.bucket, st.urlPath);
                  if ref.Some? then PublicUrl(st, ref.value) else None)
  {
    var row := JObj(MediaRow(mediaId, skillId, mediaType, title, url, path, thumbnailUrl, position));
    assert AsString(Get(row, "url")) == url;
    assert AsString(Get(row, "storage_path")) == if path != "" then Some(path) else None;
  }

  /** The media returned for a new row reports the chosen type, the kept storage path and the stored url. */
  lemma NewMediaReported(input: SkillMediaInput, st: Storage, mediaId: string, position: Json)
    ensures var m := MediaOfRow(JObj(NewMediaRow(input, st, mediaId, position)), st, None);
      && m.id == mediaId && m.skillId == input.skillId
      && m.mediaType == MediaControllers.MediaTypeOf(input.typeField, input.mediaTypeField)
      && m.storagePath == (if StoredPath(input, st) != "" then Some(StoredPath(input, st)) else None)
      && m.url == StoredUrl(input, st, StoredPath(input, st))
  {
    var path := StoredPath(input, st);
    var url := StoredUrl(input, st, path);
    var mediaType := MediaControllers.MediaTypeOf(input.typeField, input.mediaTypeField);
    MediaRowReported(mediaId, input.skillId, mediaType, input.title, url, path, input.thumbnailUrl, position, st);
    MediaRowUrl(mediaId, input.skillId, mediaType, input.title, url, path, input.thumbnailUrl, position, st);
    if url.None? {
      assert Trimmed(input.url) == "";
      assert ResolveStorageRef(if path != "" then Some(path) else None, None, st.bucket, st.urlPath)
        == ResolveStorageRef(Some(path), Some(""), st.bucket, st.urlPath);
    }
  }

  /** Without a given position the new media is placed one past the last sort order, or at 1. */
  lemma NewMediaPosition(input: SkillMediaInput, st: Storage, mediaId: string, lastSortOrder: Option<Json>)
    requires input.position.None? || input.position == Some(JNull)
    ensures MediaOfRow(JObj(NewMediaRow(input, st, mediaId, PositionFor(input.position, lastSortOrder))), st, None).position
      == Some(NextPosition(lastSortOrder))
  {
    var row := NewMediaRow(input, st, mediaId, PositionFor(input.position, lastSortOrder));
    assert Get(JObj(row), "sort_order") == Some(JNum(NextPosition(lastSortOrder)));
  }

  class SkillTables {
    /** The organization of each skill. */
    var skillOrgs: map<string, string>
    /** The `skill_media` rows. */
    var media: seq<map<string, Json>>

    constructor (skillOrgs: map<string, string>, media: seq<map<string, Json>>)
      ensures this.skillOrgs == skillOrgs && this.media == media
    {
      this.skillOrgs := skillOrgs;
      this.media := media;
    }

    /** `ensureSkillOrg`: the skill exists in that organization. */
    predicate InOrg(skillId: string, orgId: string)
      reads this
    {
      skillId in skillOrgs && skillOrgs[skillId] == orgId
    }

    /** The storage-path rewriting at the start of `createSkillMedia`. */
    static method NormalizeStoragePath(input: SkillMediaInput, st: Storage) returns (storagePath: string)
      ensures storagePath == StoredPath(input, st)
    {
      storagePath := Trimmed(input.storagePath);
      var url := Trimmed(input.url);
      if storagePath != "" {
        var parsedFromPath := ParseStorageObjectUrl(storagePath, st.urlPath);
        if parsedFromPath.Some? {
          storagePath := parsedFromPath.value.path;
        } else if StartsWith(storagePath, st.bucket + "/") {
          storagePath := storagePath[|st.bucket| + 1..];
        }
      }
      if storagePath == "" && url != "" {
        var parsed := ParseStorageObjectUrl(url, st.urlPath);
        if parsed.Some? {
          storagePath := parsed.value.path;
        }
      }
    }

    /**
     * `createSkillMedia`. The storage reference is checked before the
     * database is read: with no storage path and no url left the call fails
     * and nothing changes; so it does for a skill outside the organization.
     * Otherwise one row is appended, and the result is that row mapped back.
     * `lastSortOrder` is the sort order of the skill's last media row and
     * `mediaId` the id the database assigns.
     */
    method CreateSkillMedia(input: SkillMediaInput, st: Storage, lastSortOrder: Option<Json>, mediaId: string)
      returns (r: Result<SkillMediaDto>)
      modifies this
      ensures skillOrgs == old(skillOrgs)
      ensures MissingReference(input, st) ==> r == Err("storage_path or url is required") && media == old(media)
      ensures !MissingReference(input, st) && !old(InOrg(input.skillId, input.orgId)) ==>
        r == Err("Skill not found") && media == old(media)
      ensures r.Ok? <==> !MissingReference(input, st) && old(InOrg(input.skillId, input.orgId))
      ensures r.Ok? ==>
        media == old(media) + [NewMediaRow(input, st, mediaId, PositionFor(input.position, lastSortOrder))]
      ensures r.Ok? ==> r.value == MediaOfRow(JObj(media[|old(media)|]), st, None)
    {
      var storagePath := NormalizeStoragePath(input, st);
      var url := Trimmed(input.url);
      if storagePath == "" && url == "" {
        return Err("storage_path or url is required");
      }
      if !InOrg(input.skillId, input.orgId) {
        return Err("Skill not found");
      }
      var position := AllocatePosition(input.position, lastSortOrder);
      var row := NewMediaRow(input, st, mediaId, position);
      media := media + [row];
      r := Ok(MediaOfRow(JObj(row), st, None));
    }
  }

  // ---------------------------------------------------------------------------
  // listSkillTags

  datatype SkillTagDto = SkillTagDto(id: string, name: string)

  /** The tag of a `skill_tags` row: its id and name when they are strings, "" otherwise. */
  function TagOfRow(row: Json): SkillTagDto {
    var tag := Get(row, "tags");
    SkillTagDto(AsString(GetIn(tag, "id")).GetOr(""), AsString(GetIn(tag, "name")).GetOr(""))
  }

  function TagId(t: SkillTagDto): string {
    t.id
  }

  /** The tags of the rows with a non-empty id and name, in row order. */
  function NamedTags(rows: seq<Json>): (r: seq<SkillTagDto>)
    ensures forall t :: t in r ==> t.id != "" && t.name != ""
    decreases |rows|
  {
    if |rows| == 0 then []
    else
      var t := TagOfRow(rows[|rows| - 1]);
      NamedTags(rows[..|rows| - 1]) + if t.id != "" && t.name != "" then [t] else []
  }

  /** The state of the `listSkillTags` loop after the first `n` rows. */
  ghost predicate TagsSoFar(rows: seq<Json>, n: nat, tags: seq<SkillTagDto>, seen: set<string>) {
    n <= |rows| && tags == FirstByKey(NamedTags(rows[..n]), TagId) && seen == KeysOf(tags, TagId)
  }

  /** A row without an id or a name adds nothing. */
  lemma TagsSkip(rows: seq<Json>, n: nat, tags: seq<SkillTagDto>, seen: set<string>)
    requires TagsSoFar(rows, n, tags, seen) && n < |rows|
    requires var t := TagOfRow(rows[n]); t.id == "" || t.name == ""
    ensures TagsSoFar(rows, n + 1, tags, seen)
  {
    assert rows[..n + 1][..n] == rows[..n];
    assert NamedTags(rows[..n + 1]) == NamedTags(rows[..n]) + [];
    assert NamedTags(rows[..n]) + [] == NamedTags(rows[..n]);
  }

  /** A named tag is kept when its id is new. */
  lemma TagsAdd(rows: seq<Json>, n: nat, tags: seq<SkillTagDto>, seen: set<string>)
    requires TagsSoFar(rows, n, tags, seen) && n < |rows|
    requires var t := TagOfRow(rows[n]); t.id != "" && t.name != ""
    ensures var t := TagOfRow(rows[n]);
      t.id in seen ==> TagsSoFar(rows, n + 1, tags, seen)
    ensures var t := TagOfRow(rows[n]);
      t.id !in seen ==> TagsSoFar(rows, n + 1, tags + [t], seen + {t.id})
  {
    var t := TagOfRow(rows[n]);
    assert rows[..n + 1][..n] == rows[..n];
    assert NamedTags(rows[..n + 1]) == NamedTags(rows[..n]) + [t];
    FirstByKeySnoc(NamedTags(rows[..n]), t, TagId);
    KeysOfSnoc(tags, t, TagId);
  }

  /** The loop of `listSkillTags`: the first named tag of each id, in row order. */
  method CollectTags(rows: seq<Json>) returns (tags: seq<SkillTagDto>)
    ensures tags == FirstByKey(NamedTags(rows), TagId)
  {
    tags := [];
    var seen: set<string> := {};
    var n := 0;
    while n < |rows|
      invariant TagsSoFar(rows, n, tags, seen)
    {
      var t := TagOfRow(rows[n]);
      if t.id != "" && t.name != "" {
        TagsAdd(rows, n, tags, seen);
        if t.id !in seen {
          seen := seen + {t.id};
          tags := tags + [t];
        }
      } else {
        TagsSkip(rows, n, tags, seen);
      }
      n := n + 1;
    }
    assert rows[..n] == rows;
  }

  /** `(a, b) => a.name.localeCompare(b.name)` read as "comes no later than". */
  function ByName(nameLe: (string, string) -> bool): (SkillTagDto, SkillTagDto) -> bool {
    (a: SkillTagDto, b: SkillTagDto) => nameLe(a.name, b.name)
  }

  lemma ByNamePreorder(nameLe: (string, string) -> bool)
    requires TotalPreorder(nameLe)
    ensures TotalPreorder(ByName(nameLe))
  {
    var le := ByName(nameLe);
    forall a, b
      ensures le(a, b) || le(b, a)
    {
      assert nameLe(a.name, b.name) || nameLe(b.name, a.name);
    }
    forall a, b, c | le(a, b) && le(b, c)
      ensures le(a, c)
    {
      assert nameLe(a.name, b.name) && nameLe(b.name, c.name);
    }
  }

  /** The reported tags: the first named tag of each id, sorted by name. */
  function ReportedTags(rows: seq<Json>, nameLe: (string, string) -> bool): seq<SkillTagDto> {
    SortBy(FirstByKey(NamedTags(rows), TagId), ByName(nameLe))
  }

  /** `listSkillTags` after the query: the collected tags sorted by name; the count is their number. */
  method ListSkillTags(rows: seq<Json>, nameLe: (string, string) -> bool) returns (tags: seq<SkillTagDto>, count: int)
    ensures tags == ReportedTags(rows, nameLe)
    ensures count == |tags|
  {
    var collected := CollectTags(rows);
    tags := SortBy(collected, ByName(nameLe));
    count := |tags|;
  }

  /** The reported tags are ordered by name and carry each id once. */
  lemma ReportedTagsOrdered(rows: seq<Json>, nameLe: (string, string) -> bool)
    requires TotalPreorder(nameLe)
    ensures forall i, j :: 0 <= i < j < |ReportedTags(rows, nameLe)| ==>
      ReportedTags(rows, nameLe)[i].id != ReportedTags(rows, nameLe)[j].id
      && nameLe(ReportedTags(rows, nameLe)[i].name, ReportedTags(rows, nameLe)[j].name)
  {
    var firsts := FirstByKey(NamedTags(rows), TagId);
    var tags := SortBy(firsts, ByName(nameLe));
    ByNamePreorder(nameLe);
    SortBySorted(firsts, ByName(nameLe));
    FirstByKeyKeys(NamedTags(rows), TagId);
    DistinctKeysPermuted(firsts, tags, TagId);
  }

  /**
   * Each reported tag is the first named tag of the rows with its id, and
   * every named tag's id is reported.
   */
  lemma ReportedTagsFirstWins(rows: seq<Json>, nameLe: (string, string) -> bool, t: SkillTagDto)
    requires t in ReportedTags(rows, nameLe)
    ensures t.id in KeysOf(NamedTags(rows), TagId)
    ensures t == NamedTags(rows)[FirstIndex(NamedTags(rows), TagId, t.id)]
  {
    var firsts := FirstByKey(NamedTags(rows), TagId);
    assert t in multiset(firsts);
    FirstByKeyFirst(NamedTags(rows), TagId);
  }

  lemma ReportedTagsComplete(rows: seq<Json>, nameLe: (string, string) -> bool, t: SkillTagDto)
    requires t in NamedTags(rows)
    ensures exists u :: u in ReportedTags(rows, nameLe) && u.id == t.id
  {
    var firsts := FirstByKey(NamedTags(rows), TagId);
    FirstByKeyKeys(NamedTags(rows), TagId);
    assert TagId(t) in KeysOf(NamedTags(rows), TagId);
    var u :| u in firsts && TagId(u) == TagId(t);
    assert u in multiset(ReportedTags(rows, nameLe));
  }
}

=== FILE: sorting.dfy ===
/**
 * `Array.prototype.sort` with a comparator, and `slice` used for paging.
 *
 * A comparator is modelled by the "comes no later than" relation `le` it
 * induces; the lists sort by a timestamp (newest first) or by
 * `localeCompare`, both total preorders. The sort here is an insertion sort,
 * stable like JavaScript's (`SortByStable`).
 */
module Sorting {

  /** `le` is total and transitive. */
  ghost predicate TotalPreorder<T(!new)>(le: (T, T) -> bool) {
    (forall a, b :: le(a, b) || le(b, a))
    && (forall a, b, c :: le(a, b) && le(b, c) ==> le(a, c))
  }

  /** Every element comes no later than every element after it. */
  ghost predicate Sorted<T>(s: seq<T>, le: (T, T) -> bool) {
    forall i, j :: 0 <= i < j < |s| ==> le(s[i], s[j])
  }

  /** `x` placed before the first element it may precede. */
  function Insert<T>(x: T, s: seq<T>, le: (T, T) -> bool): (r: seq<T>)
    ensures multiset(r) == multiset(s) + multiset{x}
    ensures |r| == |s| + 1
  {
    if |s| == 0 then [x]
    else if le(x, s[0]) then [x] + s
    else
      assert s == [s[0]] + s[1..];
      [s[0]] + Insert(x, s[1..], le)
  }

  /** The list sorted by `le`. */
  function SortBy<T>(xs: seq<T>, le: (T, T) -> bool): (r: seq<T>)
    ensures multiset(r) == multiset(xs)
    ensures |r| == |xs|
  {
    if |xs| == 0 then []
    else
      assert xs == [xs[0]] + xs[1..];
      Insert(xs[0], SortBy(xs[1..], le), le)
  }

  lemma {:induction false} InsertSorted<T(!new)>(x: T, s: seq<T>, le: (T, T) -> bool)
    requires TotalPreorder(le) && Sorted(s, le)
    ensures Sorted(Insert(x, s, le), le)
    decreases |s|
  {
    if |s| > 0 && !le(x, s[0]) {
      var rest := Insert(x, s[1..], le);
      InsertSorted(x, s[1..], le);
      assert le(s[0], x);
      forall k | 0 <= k < |rest|
        ensures le(s[0], rest[k])
      {
        assert rest[k] in multiset(rest);
        assert rest[k] == x || rest[k] in multiset(s[1..]);
        if rest[k] != x {
          var m :| 0 <= m < |s[1..]| && s[1..][m] == rest[k];
          assert s[m + 1] == rest[k];
        }
      }
    }
  }

  /** The sort yields a sorted permutation of its input. */
  lemma {:induction false} SortBySorted<T(!new)>(xs: seq<T>, le: (T, T) -> bool)
    requires TotalPreorder(le)
    ensures Sorted(SortBy(xs, le), le)
    ensures multiset(SortBy(xs, le)) == multiset(xs)
    decreases |xs|
  {
    if |xs| > 0 {
      SortBySorted(xs[1..], le);
      InsertSorted(xs[0], SortBy(xs[1..], le), le);
    }
  }

  /** The elements of s that `le` ties with y (each comes no later than the other), in their order in s. */
  function Ties<T>(s: seq<T>, y: T, le: (T, T) -> bool): (r: seq<T>)
    ensures |r| <= |s|
  {
    if |s| == 0 then []
    else (if le(s[0], y) && le(y, s[0]) then [s[0]] else []) + Ties(s[1..], y, le)
  }

  /** Inserting x adds x to the ties of y at their front when x ties with y, and leaves them alone otherwise. */
  lemma {:induction false} InsertTies<T(!new)>(x: T, s: seq<T>, y: T, le: (T, T) -> bool)
    requires TotalPreorder(le)
    ensures Ties(Insert(x, s, le), y, le) == (if le(x, y) && le(y, x) then [x] else []) + Ties(s, y, le)
    decreases |s|
  {
    if |s| == 0 {
      assert [x][1..] == [];
    } else if le(x, s[0]) {
      assert ([x] + s)[1..] == s;
    } else {
      var rest := Insert(x, s[1..], le);
      InsertTies(x, s[1..], y, le);
      TiesCons(s[0], rest, y, le);
      assert s == [s[0]] + s[1..];
      TiesCons(s[0], s[1..], y, le);
      if le(x, y) && le(y, x) {
        // s[0] comes strictly before x, so it cannot tie with y
        BeforeNoTie(x, s[0], y, le);
        assert Ties([s[0]] + rest, y, le) == Ties(rest, y, le);
        assert Ties(s, y, le) == Ties(s[1..], y, le);
      } else {
        assert Ties(rest, y, le) == Ties(s[1..], y, le);
      }
    }
  }

  lemma TiesCons<T>(a: T, s: seq<T>, y: T, le: (T, T) -> bool)
    ensures Ties([a] + s, y, le) == (if le(a, y) && le(y, a) then [a] else []) + Ties(s, y, le)
  {
    assert ([a] + s)[1..] == s;
  }

  lemma BeforeNoTie<T(!new)>(x: T, a: T, y: T, le: (T, T) -> bool)
    requires TotalPreorder(le) && le(x, y) && !le(x, a)
    ensures !le(y, a)
  {
  }

  /**
   * The sort is stable: the elements that tie with any y come out in the
   * order they went in.
   */
  lemma {:induction false} SortByStable<T(!new)>(xs: seq<T>, y: T, le: (T, T) -> bool)
    requires TotalPreorder(le)
    ensures Ties(SortBy(xs, le), y, le) == Ties(xs, y, le)
    decreases |xs|
  {
    if |xs| > 0 {
      SortByStable(xs[1..], y, le);
      InsertTies(xs[0], SortBy(xs[1..], le), y, le);
    }
  }

  /** Newest first: `(a, b) => key(b) - key(a)`. */
  function Descending<T>(key: T -> int): (T, T) -> bool {
    (a: T, b: T) => key(a) >= key(b)
  }

  lemma DescendingPreorder<T(!new)>(key: T -> int)
    ensures TotalPreorder(Descending(key))
  {
  }

  /** Sorting newest first puts larger keys first and keeps every element. */
  lemma SortDescending<T(!new)>(xs: seq<T>, key: T -> int)
    ensures forall i, j :: 0 <= i < j < |xs| ==> key(SortBy(xs, Descending(key))[i]) >= key(SortBy(xs, Descending(key))[j])
    ensures multiset(SortBy(xs, Descending(key))) == multiset(xs)
  {
    DescendingPreorder(key);
    SortBySorted(xs, Descending(key));
  }

  /** `xs.slice(offset, offset + limit)` for a non-negative offset and limit. */
  function Page<T>(xs: seq<T>, offset: nat, limit: nat): (r: seq<T>)
    ensures |r| <= limit
    ensures offset >= |xs| ==> r == []
    ensures offset < |xs| ==> |r| == if offset + limit <= |xs| then limit else |xs| - offset
    ensures forall i :: 0 <= i < |r| ==> offset + i < |xs| && r[i] == xs[offset + i]
  {
    if offset >= |xs| then []
    else if offset + limit <= |xs| then xs[offset..offset + limit]
    else xs[offset..]
  }

  /** Consecutive pages tile the list: the page of `a + b` items is the page of `a` followed by the next one of `b`. */
  lemma PagesTile<T>(xs: seq<T>, offset: nat, a: nat, b: nat)
    ensures Page(xs, offset, a + b) == Page(xs, offset, a) + Page(xs, offset + a, b)
  {
  }
}

=== FILE: text.dfy ===
/**
 * The JavaScript string operations the API relies on, over `seq<char>`:
 * `trim`, `toLowerCase`/`toUpperCase` (ASCII letters), `split` on one
 * character, `filter(Boolean)`, `join`, `startsWith` and `includes`.
 */
module Text {

  /** The white-space characters `String.prototype.trim` and `\s` remove (the ASCII ones). */
  predicate IsSpace(c: char) {
    c == ' ' || c == '\t' || c == '\n' || c == '\r' || c == '\U{000B}' || c == '\U{000C}'
  }

  function TrimStart(s: string): (r: string)
    ensures |r| <= |s|
    ensures r == s[|s| - |r|..]
    ensures r == [] || !IsSpace(r[0])
    ensures forall i :: 0 <= i < |s| - |r| ==> IsSpace(s[i])
  {
    if |s| > 0 && IsSpace(s[0]) then TrimStart(s[1..]) else s
  }

  function TrimEnd(s: string): (r: string)
    ensures |r| <= |s|
    ensures r == s[..|r|]
    ensures r == [] || !IsSpace(r[|r| - 1])
    ensures forall i :: |r| <= i < |s| ==> IsSpace(s[i])
  {
    if |s| > 0 && IsSpace(s[|s| - 1]) then TrimEnd(s[..|s| - 1]) else s
  }

  /** `s.trim()`: no white space at either end, and nothing but white space removed. */
  function Trim(s: string): (r: string)
    ensures |r| <= |s|
    ensures r == [] || (!IsSpace(r[0]) && !IsSpace(r[|r| - 1]))
  {
    TrimEnd(TrimStart(s))
  }

  /** A string that `trim()` turns into "" (falsy after trimming). */
  predicate IsBlank(s: string) {
    Trim(s) == []
  }

  lemma {:induction false} TrimStartIdle(s: string)
    requires s == [] || !IsSpace(s[0])
    ensures TrimStart(s) == s
  {
  }

  lemma {:induction false} TrimEndIdle(s: string)
    requires s == [] || !IsSpace(s[|s| - 1])
    ensures TrimEnd(s) == s
  {
  }

  /** A string with no white space at either end is its own trim. */
  lemma TrimIdle(s: string)
    requires s == [] || (!IsSpace(s[0]) && !IsSpace(s[|s| - 1]))
    ensures Trim(s) == s
  {
    TrimStartIdle(s);
    TrimEndIdle(s);
  }

  /** Leading white space can be skipped before trimming the start. */
  lemma {:induction false} TrimStartSkip(s: string, n: nat)
    requires n <= |s|
    requires forall i :: 0 <= i < n ==> IsSpace(s[i])
    ensures TrimStart(s) == TrimStart(s[n..])
    decreases n
  {
    if n > 0 {
      TrimStartSkip(s[1..], n - 1);
      assert s[1..][n - 1..] == s[n..];
    }
  }

  /** A string is blank exactly when trimming its start leaves nothing. */
  lemma BlankIffTrimStartEmpty(s: string)
    ensures IsBlank(s) <==> TrimStart(s) == []
  {
  }

  /** Trimming twice is trimming once. */
  lemma TrimIdempotent(s: string)
    ensures Trim(Trim(s)) == Trim(s)
  {
    var t := Trim(s);
    TrimStartIdle(t);
    TrimEndIdle(t);
  }

  /** A string is blank exactly when every character is white space. */
  lemma {:induction false} BlankIffAllSpace(s: string)
    ensures IsBlank(s) <==> forall i :: 0 <= i < |s| ==> IsSpace(s[i])
  {
    if forall i :: 0 <= i < |s| ==> IsSpace(s[i]) {
      AllSpaceTrimStart(s);
    }
  }

  lemma {:induction false} AllSpaceTrimStart(s: string)
    requires forall i :: 0 <= i < |s| ==> IsSpace(s[i])
    ensures TrimStart(s) == []
    decreases |s|
  {
    if |s| > 0 {
      AllSpaceTrimStart(s[1..]);
    }
  }

  function LowerChar(c: char): (r: char)
    ensures 'A' <= c <= 'Z' ==> r as int == c as int + 32
    ensures !('A' <= c <= 'Z') ==> r == c
  {
    if 'A' <= c <= 'Z' then (c as int + 32) as char else c
  }

  function UpperChar(c: char): (r: char)
    ensures 'a' <= c <= 'z' ==> r as int == c as int - 32
    ensures !('a' <= c <= 'z') ==> r == c
  {
    if 'a' <= c <= 'z' then (c as int - 32) as char else c
  }

  /** `s.toLowerCase()` on ASCII letters. */
  function Lower(s: string): (r: string)
    ensures |r| == |s|
    ensures forall i :: 0 <= i < |s| ==> r[i] == LowerChar(s[i])
  {
    seq(|s|, i requires 0 <= i < |s| => LowerChar(s[i]))
  }

  /** `s.toUpperCase()` on ASCII letters. */
  function Upper(s: string): (r: string)
    ensures |r| == |s|
    ensures forall i :: 0 <= i < |s| ==> r[i] == UpperChar(s[i])
  {
    seq(|s|, i requires 0 <= i < |s| => UpperChar(s[i]))
  }

  lemma LowerIdempotent(s: string)
    ensures Lower(Lower(s)) == Lower(s)
  {
  }

  lemma UpperIdempotent(s: string)
    ensures Upper(Upper(s)) == Upper(s)
  {
  }

  /** The UTF-16 code units of one character: two for a character outside the Basic Multilingual Plane. */
  function CodeUnits(c: char): (n: nat)
    ensures 1 <= n <= 2
    ensures n == 2 <==> c as int >= 0x1_0000
  {
    if c as int >= 0x1_0000 then 2 else 1
  }

  /**
   * `s.length`: JavaScript counts UTF-16 code units, so a character outside
   * the Basic Multilingual Plane (an emoji, say) counts twice.
   */
  function Utf16Length(s: string): (n: nat)
    ensures |s| <= n <= 2 * |s|
  {
    if s == [] then 0 else Utf16Length(s[..|s| - 1]) + CodeUnits(s[|s| - 1])
  }

  /** The UTF-16 length is the character count exactly when no character lies outside the Basic Multilingual Plane. */
  lemma {:induction false} Utf16LengthBmp(s: string)
    ensures Utf16Length(s) == |s| <==> forall i :: 0 <= i < |s| ==> s[i] as int < 0x1_0000
    decreases |s|
  {
    if s != [] {
      var n := |s| - 1;
      assert forall i :: 0 <= i < n ==> s[..n][i] == s[i];
      Utf16LengthBmp(s[..n]);
    }
  }

  /** The UTF-16 length of a concatenation is the sum of the lengths. */
  lemma {:induction false} Utf16LengthConcat(a: string, b: string)
    ensures Utf16Length(a + b) == Utf16Length(a) + Utf16Length(b)
    decreases |b|
  {
    if b == [] {
      assert a + b == a;
    } else {
      var n := |b| - 1;
      var ab := a + b;
      assert ab[..|ab| - 1] == a + b[..n];
      assert ab[|ab| - 1] == b[n];
      Utf16LengthConcat(a, b[..n]);
    }
  }

  /** `s.split(sep)`: never empty; "" splits into [""]. */
  function Split(s: string, sep: char): (r: seq<string>)
    ensures |r| >= 1
    decreases |s|
  {
    if |s| == 0 then [""]
    else
      var rest := Split(s[1..], sep);
      if s[0] == sep then [""] + rest else [[s[0]] + rest[0]] + rest[1..]
  }

  /** `parts.join(sep)`. */
  function Join(parts: seq<string>, sep: char): string
    decreases |parts|
  {
    if |parts| == 0 then ""
    else if |parts| == 1 then parts[0]
    else parts[0] + [sep] + Join(parts[1..], sep)
  }

  /** `parts.join(sep)` for a separator of any length. */
  function JoinWith(parts: seq<string>, sep: string): string
    decreases |parts|
  {
    if |parts| == 0 then ""
    else if |parts| == 1 then parts[0]
    else parts[0] + sep + JoinWith(parts[1..], sep)
  }

  /** Two parts joined: the separator between them. */
  lemma JoinWithTwo(a: string, b: string, sep: string)
    ensures JoinWith([a, b], sep) == a + sep + b
  {
    assert [a, b][1..] == [b];
  }

  /** Text that contains `sub` still contains it behind any prefix. */
  lemma {:induction false} ContainsBehind(a: string, b: string, sub: string)
    requires Contains(b, sub)
    ensures Contains(a + b, sub)
    decreases |a|
  {
    if |a| > 0 {
      assert (a + b)[1..] == a[1..] + b;
      ContainsBehind(a[1..], b, sub);
    } else {
      assert a + b == b;
    }
  }

  /** Every part is named in the joined text. */
  lemma {:induction false} JoinWithNames(parts: seq<string>, sep: string, k: nat)
    requires k < |parts|
    ensures Contains(JoinWith(parts, sep), parts[k])
    decreases k
  {
    var s := JoinWith(parts, sep);
    if k == 0 {
      assert s[..|parts[0]|] == parts[0];
      ContainsAt(s, parts[0], 0);
    } else {
      assert parts[1..][k - 1] == parts[k];
      JoinWithNames(parts[1..], sep, k - 1);
      assert s == (parts[0] + sep) + JoinWith(parts[1..], sep);
      ContainsBehind(parts[0] + sep, JoinWith(parts[1..], sep), parts[k]);
    }
  }

  /** No piece of a split contains the separator. */
  lemma {:induction false} SplitPiecesFree(s: string, sep: char)
    ensures forall k :: 0 <= k < |Split(s, sep)| ==> sep !in Split(s, sep)[k]
    decreases |s|
  {
    if |s| > 0 {
      SplitPiecesFree(s[1..], sep);
    }
  }

  /** Joining the pieces of a split with the same separator gives the string back. */
  lemma {:induction false} JoinSplit(s: string, sep: char)
    ensures Join(Split(s, sep), sep) == s
    decreases |s|
  {
    if |s| > 0 {
      var rest := Split(s[1..], sep);
      JoinSplit(s[1..], sep);
      if s[0] == sep {
        assert Split(s, sep) == [""] + rest;
      } else {
        var r := Split(s, sep);
        assert r == [[s[0]] + rest[0]] + rest[1..];
        if |rest| == 1 {
        } else {
          assert rest == [rest[0]] + rest[1..];
          assert Join(rest, sep) == rest[0] + [sep] + Join(rest[1..], sep);
          assert r[1..] == rest[1..];
        }
      }
    }
  }

  /** `parts.filter(Boolean)` on strings: drops the empty ones, keeps order. */
  function NonEmpty(parts: seq<string>): (r: seq<string>)
    ensures |r| <= |parts|
    ensures forall k :: 0 <= k < |r| ==> r[k] != ""
  {
    if |parts| == 0 then []
    else if parts[0] == "" then NonEmpty(parts[1..])
    else [parts[0]] + NonEmpty(parts[1..])
  }

  /** The filter keeps exactly the non-empty members. */
  lemma {:induction false} NonEmptyMembers(parts: seq<string>, x: string)
    ensures x in NonEmpty(parts) <==> x in parts && x != ""
    decreases |parts|
  {
    if |parts| > 0 {
      NonEmptyMembers(parts[1..], x);
      assert parts == [parts[0]] + parts[1..];
    }
  }

  /** `s.startsWith(p)`. */
  predicate StartsWith(s: string, p: string) {
    |p| <= |s| && s[..|p|] == p
  }

  /** A string starts with each of its prefixes. */
  lemma PrefixStartsWith(p: string, t: string)
    ensures StartsWith(p + t, p)
  {
    assert (p + t)[..|p|] == p;
  }

  /** `s.endsWith(p)`. */
  predicate EndsWith(s: string, p: string) {
    |p| <= |s| && s[|s| - |p|..] == p
  }

  /** `s.includes(sub)`. */
  predicate Contains(s: string, sub: string)
    decreases |s|
  {
    StartsWith(s, sub) || (|s| > 0 && Contains(s[1..], sub))
  }

  /** `includes` finds exactly the substrings that occur at some index. */
  lemma {:induction false} ContainsAt(s: string, sub: string, i: nat)
    requires i + |sub| <= |s| && s[i..i + |sub|] == sub
    ensures Contains(s, sub)
    decreases i
  {
    if i > 0 {
      assert s[1..][i - 1..i - 1 + |sub|] == sub;
      ContainsAt(s[1..], sub, i - 1);
    }
  }

  /** Concatenation regroups freely. */
  lemma AppendAssoc<T>(a: seq<T>, b: seq<T>, c: seq<T>)
    ensures (a + b) + c == a + (b + c)
  {
  }

  /** Splitting at a separator splits the two sides independently. */
  lemma {:induction false} SplitConcat(a: string, b: string, sep: char)
    ensures Split(a + [sep] + b, sep) == Split(a, sep) + Split(b, sep)
    decreases |a|
  {
    if |a| == 0 {
      assert a + [sep] + b == [sep] + b;
      assert ([sep] + b)[1..] == b;
    } else {
      var s := a + [sep] + b;
      assert s[0] == a[0];
      assert s[1..] == a[1..] + [sep] + b;
      SplitConcat(a[1..], b, sep);
    }
  }

  /** `filter(Boolean)` distributes over concatenation. */
  lemma {:induction false} NonEmptyConcat(x: seq<string>, y: seq<string>)
    ensures NonEmpty(x + y) == NonEmpty(x) + NonEmpty(y)
    decreases |x|
  {
    if |x| == 0 {
      assert x + y == y;
    } else {
      assert (x + y)[0] == x[0];
      assert (x + y)[1..] == x[1..] + y;
      NonEmptyConcat(x[1..], y);
    }
  }

  /** The decimal digits of a natural number, as in a template literal `${n}`. */
  function DecimalText(n: nat): (r: string)
    ensures |r| >= 1
    ensures forall k :: 0 <= k < |r| ==> '0' <= r[k] <= '9'
  {
    var digit := ['0' + (n % 10) as char];
    if n < 10 then digit else DecimalText(n / 10) + digit
  }
}

=== FILE: uuid.dfy ===
/**
 * The UUID validator of `utils/uuid.ts`: the RFC 4122 text layout
 * 8-4-4-4-12 hex digits, with the version nibble (section 4.1.3 of RFC 4122)
 * restricted to 1-5 and the variant nibble (section 4.1.1) to 8, 9, a or b,
 * matched case-insensitively.
 */
module Uuid {
  import opened Wrappers
  import Text

  predicate IsHexDigit(c: char) {
    '0' <= c <= '9' || 'a' <= c <= 'f' || 'A' <= c <= 'F'
  }

  /** `[1-5]` */
  predicate IsVersionDigit(c: char) {
    '1' <= c <= '5'
  }

  /** `[89ab]` under the `i` flag. */
  predicate IsVariantDigit(c: char) {
    c == '8' || c == '9' || c == 'a' || c == 'b' || c == 'A' || c == 'B'
  }

  /** `[0-9a-f]{n}` under the `i` flag, for the block `s[lo..hi]`. */
  predicate HexBlock(s: string, lo: nat, hi: nat)
    requires lo <= hi <= |s|
  {
    forall i :: lo <= i < hi ==> IsHexDigit(s[i])
  }

  /**
   * `RE_UUID.test(s)`: the regular expression read group by group,
   * `^[0-9a-f]{8}-[0-9a-f]{4}-[1-5][0-9a-f]{3}-[89ab][0-9a-f]{3}-[0-9a-f]{12}$`.
   */
  predicate MatchesUuid(s: string) {
    |s| == 36
    && HexBlock(s, 0, 8) && s[8] == '-'
    && HexBlock(s, 9, 13) && s[13] == '-'
    && IsVersionDigit(s[14]) && HexBlock(s, 15, 18) && s[18] == '-'
    && IsVariantDigit(s[19]) && HexBlock(s, 20, 23) && s[23] == '-'
    && HexBlock(s, 24, 36)
  }

  /** `isUuid(s)`: `!!s && RE_UUID.test(s)`; null, undefined and "" are rejected. */
  function IsUuid(s: Option<string>): (b: bool)
    ensures b ==> s.Some? && |s.value| == 36
    ensures s.None? || s == Some("") ==> !b
  {
    s.Some? && s.value != "" && MatchesUuid(s.value)
  }

  /** What the character at index i of an accepted string must be. */
  predicate SlotOk(i: nat, c: char) {
    if i == 8 || i == 13 || i == 18 || i == 23 then c == '-'
    else if i == 14 then IsVersionDigit(c)
    else if i == 19 then IsVariantDigit(c)
    else IsHexDigit(c)
  }

  /**
   * The positional reading of the pattern: 36 characters, dashes at 8, 13, 18
   * and 23, the version digit at 14, the variant digit at 19 and hex digits
   * everywhere else.
   */
  lemma MatchesUuidIffSlots(s: string)
    ensures MatchesUuid(s) <==> |s| == 36 && forall i :: 0 <= i < 36 ==> SlotOk(i, s[i])
  {
    if |s| == 36 && forall i :: 0 <= i < 36 ==> SlotOk(i, s[i]) {
      assert forall i :: 0 <= i < 8 ==> SlotOk(i, s[i]);
      assert forall i :: 24 <= i < 36 ==> SlotOk(i, s[i]);
    }
  }

  /** Lower-casing never changes whether a character may stand in a slot. */
  lemma SlotOkLower(i: nat, c: char)
    ensures SlotOk(i, Text.LowerChar(c)) <==> SlotOk(i, c)
  {
  }

  /** The `i` flag: a string is accepted exactly when its lower-cased form is. */
  lemma MatchesUuidCaseInsensitive(s: string)
    ensures MatchesUuid(Text.Lower(s)) <==> MatchesUuid(s)
  {
    var l := Text.Lower(s);
    MatchesUuidIffSlots(s);
    MatchesUuidIffSlots(l);
    forall i | 0 <= i < |s| ensures SlotOk(i, l[i]) <==> SlotOk(i, s[i]) {
      SlotOkLower(i, s[i]);
    }
  }

  /** The all-zero ("nil") UUID has version digit 0 and is rejected. */
  lemma NilUuidRejected()
    ensures !MatchesUuid("00000000-0000-0000-0000-000000000000")
  {
    var nil := "00000000-0000-0000-0000-000000000000";
    assert nil[14] == '0';
  }

  /** A version-4 UUID in upper case is accepted. */
  lemma SampleAccepted()
    ensures IsUuid(Some("123E4567-E89B-42D3-A456-426614174000"))
  {
    var s := "123E4567-E89B-42D3-A456-426614174000";
    MatchesUuidIffSlots(s);
    assert forall i :: 0 <= i < 36 ==> SlotOk(i, s[i]);
  }
}

=== FILE: wrappers.dfy ===
/** Option and Result values used for the API's nullable fields and error returns. */
module Wrappers {

  /** A JavaScript value that may be null or undefined. */
  datatype Option<+T> = None | Some(value: T) {
    function GetOr(default: T): T {
      match this
      case Some(v) => v
      case None => default
    }
  }

  /** The `{ data, error }` pairs the services return: a value or an error message. */
  datatype Result<+T> = Ok(value: T) | Err(msg: string)

  /** `a ?? b` on two optional values. */
  function Coalesce<T>(a: Option<T>, b: Option<T>): Option<T> {
    if a.Some? then a else b
  }
}

=== FILE: zod.dfy ===
/**
 * The part of Zod 3 that the request schemas use, as a small interpreter:
 * a schema is a value of `Schema`, and `Parse` says whether a JSON value
 * (`None` for `undefined`) passes it and what it parses to. Object schemas
 * keep only their own keys; `.trim()` runs before the length checks that
 * follow it, and those checks count UTF-16 code units, as `.length`
 * does; `{ coerce: true }` numbers go through `Number(…)`.
 *
 * Zod's issue messages are not modelled: a failed parse is `Invalid`.
 * `.email()` and `.url()` are the abstract predicates of `Oracles`.
 */
module Zod {
  import opened Wrappers
  import opened Text
  import opened Json
  import Uuid

  /** What the schemas cannot decide themselves: `Number(string)`, `.email()` and `.url()`. */
  datatype Oracles = Oracles(parse: string -> Num, isEmail: string -> bool, isUrl: string -> bool)

  /** The `.regex`, `.email()` and `.url()` refinements of a string schema. */
  datatype StrFormat = AnyText | UuidText | EmailText | UrlText

  datatype Schema =
      /** `z.string()`, optionally `.trim()`, with `.min`, `.max` and a format. */
    | Str(trim: bool, minLength: nat, maxLength: Option<nat>, format: StrFormat)
      /** `z.number({ coerce })` with `.int()` and optional `.min`/`.max`. */
    | Int(coerce: bool, min: Option<int>, max: Option<int>)
    | Bool
    | Enum(values: seq<string>)
    | Literal(value: Json)
      /** `z.array(element)` with `.min(minItems)` (`.nonempty()` is 1). */
    | Arr(element: Schema, minItems: nat)
      /** `z.record(z.unknown())`. */
    | Record
    | Obj(fields: seq<(string, Schema)>)
    | Optional(inner: Schema)
    | Nullable(inner: Schema)
    | Default(inner: Schema, default: Json)
    | Union(first: Schema, second: Schema)
    | Transform(inner: Schema, f: Json -> Json)
    | Refine(inner: Schema, holds: Json -> bool)

  /** The outcome of `safeParse`: rejected, or the parsed value (`None`: `undefined`). */
  datatype Field = Invalid | Valid(value: Option<Json>)

  predicate IsInteger(r: real) {
    r == r.Floor as real
  }

  predicate FormatOk(f: StrFormat, s: string, o: Oracles) {
    match f
    case AnyText => true
    case UuidText => Uuid.MatchesUuid(s)
    case EmailText => o.isEmail(s)
    case UrlText => o.isUrl(s)
  }

  /** The number a number schema sees: `Number(v)` when coercing, else `v` itself if it is a number. */
  function NumberOf(coerce: bool, v: Option<Json>, o: Oracles): (r: Num)
    ensures !coerce && v.Some? && v.value.JNum? ==> r == Finite(v.value.n)
    ensures !coerce && !(v.Some? && v.value.JNum?) ==> r == NaN
  {
    if coerce then ToNumber(v, o.parse)
    else if v.Some? && v.value.JNum? then Finite(v.value.n)
    else NaN
  }

  /** The object built from parsed fields: a key is kept when its parsed value is defined; a later key wins. */
  function Assemble(keys: seq<string>, outs: seq<Option<Json>>): (m: map<string, Json>)
    requires |keys| == |outs|
    ensures forall k :: k in m ==> k in keys
    decreases |keys|
  {
    if |keys| == 0 then map[]
    else
      var n := |keys| - 1;
      var m := Assemble(keys[..n], outs[..n]);
      if outs[n].Some? then m[keys[n] := outs[n].value] else m
  }

  function Parse(s: Schema, v: Option<Json>, o: Oracles): (r: Field)
    decreases s
  {
    match s
    case Str(trim, min, max, format) =>
      if v.Some? && v.value.JStr? then
        var t := if trim then Trim(v.value.s) else v.value.s;
        if min <= Utf16Length(t) && (max.None? || Utf16Length(t) <= max.value) && FormatOk(format, t, o) then Valid(Some(JStr(t))) else Invalid
      else Invalid
    case Int(coerce, min, max) =>
      var n := NumberOf(coerce, v, o);
      if n.Finite? && IsInteger(n.r) && (min.None? || min.value as real <= n.r) && (max.None? || n.r <= max.value as real)
      then Valid(Some(JNum(n.r))) else Invalid
    case Bool =>
      if v.Some? && v.value.JBool? then Valid(v) else Invalid
    case Enum(values) =>
      if v.Some? && v.value.JStr? && v.value.s in values then Valid(v) else Invalid
    case Literal(value) =>
      if v == Some(value) then Valid(v) else Invalid
    case Arr(element, minLength) =>
      if v.Some? && v.value.JArr? && |v.value.items| >= minLength then
        var items := v.value.items;
        var outs := seq(|items|, i requires 0 <= i < |items| => Parse(element, Some(items[i]), o));
        if forall i :: 0 <= i < |outs| ==> outs[i].Valid? then
          Valid(Some(JArr(seq(|outs|, i requires 0 <= i < |outs| => OrNull(outs[i].value)))))
        else Invalid
      else Invalid
    case Record =>
      if v.Some? && v.value.JObj? then Valid(v) else Invalid
    case Obj(fields) =>
      if v.Some? && v.value.JObj? then
        var outs := seq(|fields|, i requires 0 <= i < |fields| => Parse(fields[i].1, Get(v.value, fields[i].0), o));
        if forall i :: 0 <= i < |outs| ==> outs[i].Valid? then
          var keys := seq(|fields|, i requires 0 <= i < |fields| => fields[i].0);
          Valid(Some(JObj(Assemble(keys, seq(|outs|, i requires 0 <= i < |outs| => outs[i].value)))))
        else Invalid
      else Invalid
    case Optional(inner) =>
      if v.None? then Valid(None) else Parse(inner, v, o)
    case Nullable(inner) =>
      if v == Some(JNull) then Valid(v) else Parse(inner, v, o)
    case Default(inner, default) =>
      if v.None? then Parse(inner, Some(default), o) else Parse(inner, v, o)
    case Union(first, second) =>
      var a := Parse(first, v, o);
      if a.Valid? then a else Parse(second, v, o)
    case Transform(inner, f) =>
      var a := Parse(inner, v, o);
      if a.Valid? && a.value.Some? then Valid(Some(f(a.value.value))) else a
    case Refine(inner, holds) =>
      var a := Parse(inner, v, o);
      if a.Valid? && a.value.Some? && holds(a.value.value) then a else Invalid
  }

  // ---------------------------------------------------------------------
  // Building blocks of the request schemas
  // ---------------------------------------------------------------------

  /** `z.string().regex(RE_UUID, "Invalid UUID")`. */
  function UuidSchema(): Schema {
    Str(false, 0, None, UuidText)
  }

  /** `z.string().trim().min(min)` with an optional `.max(max)`. */
  function TrimmedText(min: nat, max: Option<nat>): Schema {
    Str(true, min, max, AnyText)
  }

  /** `z.number({ coerce: true }).int().min(lo)` with an optional `.max(hi)`. */
  function CoercedInt(lo: int, hi: Option<int>): Schema {
    Int(true, Some(lo), hi)
  }

  /** `.optional().nullable()`. */
  function OptionalNullable(s: Schema): Schema {
    Nullable(Optional(s))
  }

  /** `z.number({ coerce: true }).int().min(lo).max(hi).optional().default(d)`: a paging field. */
  function PagingField(lo: int, hi: Option<int>, d: int): Schema {
    Default(Optional(CoercedInt(lo, hi)), JNum(d as real))
  }

  /** The value parsed for `key` when an object schema accepts `v`. */
  function FieldOf(r: Field, key: string): (f: Option<Json>)
    ensures r.Valid? && r.value.Some? && r.value.value.JObj? && key in r.value.value.fields ==> f == Some(r.value.value.fields[key])
  {
    if r.Valid? && r.value.Some? then Get(r.value.value, key) else None
  }

  // ---------------------------------------------------------------------
  // What each kind of schema guarantees
  // ---------------------------------------------------------------------

  /** A string schema accepts exactly the strings whose (trimmed) text meets its bounds and format, and yields that text. */
  lemma StrParse(trim: bool, min: nat, max: Option<nat>, format: StrFormat, v: Option<Json>, o: Oracles)
    ensures var r := Parse(Str(trim, min, max, format), v, o);
      r.Valid? <==> (v.Some? && v.value.JStr?
        && var t := if trim then Trim(v.value.s) else v.value.s;
          min <= Utf16Length(t) && (max.None? || Utf16Length(t) <= max.value) && FormatOk(format, t, o))
    ensures var r := Parse(Str(trim, min, max, format), v, o);
      r.Valid? ==> r.value == Some(JStr(if trim then Trim(v.value.s) else v.value.s))
  {
  }

  /** An integer schema accepts exactly the integral numbers within its bounds, and yields that number. */
  lemma IntParse(coerce: bool, min: Option<int>, max: Option<int>, v: Option<Json>, o: Oracles)
    ensures var r := Parse(Int(coerce, min, max), v, o);
      var n := NumberOf(coerce, v, o);
      r.Valid? <==> (n.Finite? && IsInteger(n.r) && (min.None? || min.value as real <= n.r) && (max.None? || n.r <= max.value as real))
    ensures var r := Parse(Int(coerce, min, max), v, o);
      r.Valid? ==> r.value == Some(JNum(NumberOf(coerce, v, o).r))
  {
  }

  /**
   * A paging field: missing gives the default; otherwise `Number(v)` must be
   * an integer within the bounds, and is the value.
   */
  lemma PagingFieldParse(lo: int, hi: Option<int>, d: int, v: Option<Json>, o: Oracles)
    requires lo <= d && (hi.None? || d <= hi.value)
    ensures v.None? ==> Parse(PagingField(lo, hi, d), v, o) == Valid(Some(JNum(d as real)))
    ensures var r := Parse(PagingField(lo, hi, d), v, o);
      r.Valid? ==> (r.value.Some? && r.value.value.JNum? && IsInteger(r.value.value.n)
        && lo as real <= r.value.value.n && (hi.None? || r.value.value.n <= hi.value as real))
    ensures v.Some? ==> (Parse(PagingField(lo, hi, d), v, o).Valid? <==>
      (ToNumber(v, o.parse).Finite? && IsInteger(ToNumber(v, o.parse).r)
        && lo as real <= ToNumber(v, o.parse).r && (hi.None? || ToNumber(v, o.parse).r <= hi.value as real)))
  {
    var inner := CoercedInt(lo, hi);
    assert IsInteger(d as real) by { assert (d as real).Floor == d; }
    if v.None? {
      assert ToNumber(Some(JNum(d as real)), o.parse) == Finite(d as real);
      assert Parse(PagingField(lo, hi, d), v, o) == Parse(inner, Some(JNum(d as real)), o);
    } else {
      assert Parse(PagingField(lo, hi, d), v, o) == Parse(inner, v, o);
      IntParse(true, Some(lo), hi, v, o);
    }
  }

  /** A missing field always passes `.optional()`, and `null` always passes `.nullable()`. */
  lemma OptionalNullableParse(s: Schema, v: Option<Json>, o: Oracles)
    ensures v.None? ==> Parse(OptionalNullable(s), v, o) == Valid(None)
    ensures v == Some(JNull) ==> Parse(OptionalNullable(s), v, o) == Valid(Some(JNull))
    ensures v.Some? && v.value != JNull ==> Parse(OptionalNullable(s), v, o) == Parse(s, v, o)
  {
  }

  /** Every element of an accepted array passes the element schema, and the output keeps length and order. */
  lemma ArrParse(element: Schema, minLength: nat, v: Option<Json>, o: Oracles)
    ensures var r := Parse(Arr(element, minLength), v, o);
      r.Valid? <==> (v.Some? && v.value.JArr? && |v.value.items| >= minLength
        && forall i :: 0 <= i < |v.value.items| ==> Parse(element, Some(v.value.items[i]), o).Valid?)
    ensures var r := Parse(Arr(element, minLength), v, o);
      r.Valid? ==> (r.value.Some? && r.value.value.JArr? && |r.value.value.items| == |v.value.items|
        && forall i :: 0 <= i < |v.value.items| ==> r.value.value.items[i] == OrNull(Parse(element, Some(v.value.items[i]), o).value))
  {
    var r := Parse(Arr(element, minLength), v, o);
    if v.Some? && v.value.JArr? && |v.value.items| >= minLength {
      var items := v.value.items;
      var outs := seq(|items|, i requires 0 <= i < |items| => Parse(element, Some(items[i]), o));
      assert forall i :: 0 <= i < |items| ==> outs[i] == Parse(element, Some(items[i]), o);
    }
  }

  /** The value assembled for a key that occurs once is that field's parsed value. */
  lemma {:induction false} AssembleAt(keys: seq<string>, outs: seq<Option<Json>>, i: nat)
    requires |keys| == |outs| && i < |keys|
    requires forall j :: 0 <= j < |keys| && j != i ==> keys[j] != keys[i]
    ensures keys[i] in Assemble(keys, outs) <==> outs[i].Some?
    ensures outs[i].Some? ==> Assemble(keys, outs)[keys[i]] == outs[i].value
    decreases |keys|
  {
    var n := |keys| - 1;
    if i < n {
      AssembleAt(keys[..n], outs[..n], i);
    } else {
      assert keys[i] !in Assemble(keys[..n], outs[..n]) by {
        assert forall k :: k in Assemble(keys[..n], outs[..n]) ==> k in keys[..n];
        assert forall j :: 0 <= j < n ==> keys[..n][j] != keys[i];
      }
    }
  }

  /** The key of field `i` occurs nowhere else in the object schema. */
  predicate KeyOnce(fields: seq<(string, Schema)>, i: nat) {
    i < |fields| && forall j :: 0 <= j < |fields| && j != i ==> fields[j].0 != fields[i].0
  }

  /** Fields with distinct names each name their key once. */
  lemma DistinctKeysOnce(fields: seq<(string, Schema)>)
    requires forall i, j :: 0 <= i < j < |fields| ==> fields[i].0 != fields[j].0
    ensures forall i :: 0 <= i < |fields| ==> KeyOnce(fields, i)
  {
    forall i, j | 0 <= i < |fields| && 0 <= j < |fields| && j != i
      ensures fields[j].0 != fields[i].0
    {
      if j < i {
        assert fields[j].0 != fields[i].0;
      }
    }
  }

  /**
   * An object schema accepts an object exactly when every field passes; the
   * output holds a field's key iff its parsed value is defined, with that value,
   * and no key outside the schema.
   */
  lemma ObjParse(fields: seq<(string, Schema)>, v: Option<Json>, o: Oracles, i: nat)
    requires KeyOnce(fields, i)
    ensures var r := Parse(Obj(fields), v, o);
      r.Valid? <==> (v.Some? && v.value.JObj? && forall j :: 0 <= j < |fields| ==> Parse(fields[j].1, Get(v.value, fields[j].0), o).Valid?)
    ensures var r := Parse(Obj(fields), v, o);
      r.Valid? ==> (r.value.Some? && r.value.value.JObj?
        && FieldOf(r, fields[i].0) == Parse(fields[i].1, Get(v.value, fields[i].0), o).value)
  {
    var r := Parse(Obj(fields), v, o);
    if v.Some? && v.value.JObj? {
      var outs := seq(|fields|, j requires 0 <= j < |fields| => Parse(fields[j].1, Get(v.value, fields[j].0), o));
      assert forall j :: 0 <= j < |fields| ==> outs[j] == Parse(fields[j].1, Get(v.value, fields[j].0), o);
      if r.Valid? {
        var keys := seq(|fields|, j requires 0 <= j < |fields| => fields[j].0);
        var vals := seq(|outs|, j requires 0 <= j < |outs| => outs[j].value);
        AssembleAt(keys, vals, i);
      }
    }
  }

  /** One field of an accepted object: it passed its schema, and the output holds what that schema yielded. */
  lemma FieldParsed(fields: seq<(string, Schema)>, v: Option<Json>, o: Oracles, i: nat)
    requires KeyOnce(fields, i)
    ensures var r := Parse(Obj(fields), v, o);
      r.Valid? ==> (v.Some? && r.value.Some? && r.value.value.JObj? && Parse(fields[i].1, Get(v.value, fields[i].0), o).Valid?
        && FieldOf(r, fields[i].0) == Parse(fields[i].1, Get(v.value, fields[i].0), o).value)
  {
    ObjParse(fields, v, o, i);
  }

  /** A field declared `.optional()` (possibly then `.nullable()`) that is missing stays missing. */
  predicate KeepsMissing(s: Schema) {
    s.Optional? || (s.Nullable? && s.inner.Optional?)
  }

  lemma MissingFieldStaysMissing(fields: seq<(string, Schema)>, v: Option<Json>, o: Oracles, i: nat)
    requires KeyOnce(fields, i) && KeepsMissing(fields[i].1)
    requires v.Some? && Get(v.value, fields[i].0).None?
    ensures var r := Parse(Obj(fields), v, o);
      r.Valid? ==> FieldOf(r, fields[i].0).None?
  {
    FieldParsed(fields, v, o, i);
  }

  /** A trimmed-string field, bare, `.optional()` or `.optional().default(..)`: a given value is trimmed, checked and kept. */
  lemma TrimmedField(fields: seq<(string, Schema)>, v: Option<Json>, o: Oracles, i: nat, s: Schema)
    requires KeyOnce(fields, i) && s.Str? && s.trim && s.format == AnyText
    requires fields[i].1 == s || fields[i].1 == Optional(s) || (fields[i].1.Default? && fields[i].1.inner == Optional(s))
    ensures var r := Parse(Obj(fields), v, o);
      r.Valid? && fields[i].1 == s ==> Get(v.value, fields[i].0).Some?
    ensures var r := Parse(Obj(fields), v, o);
      r.Valid? && Get(v.value, fields[i].0).Some? ==> (AsString(Get(v.value, fields[i].0)).Some?
        && var t := Trim(AsString(Get(v.value, fields[i].0)).value);
          s.minLength <= Utf16Length(t) && (s.maxLength.None? || Utf16Length(t) <= s.maxLength.value) && FieldOf(r, fields[i].0) == Some(JStr(t)))
  {
    FieldParsed(fields, v, o, i);
    if Parse(Obj(fields), v, o).Valid? {
      var x := Get(v.value, fields[i].0);
      if x.Some? {
        assert Parse(fields[i].1, x, o) == Parse(s, x, o);
        StrParse(true, s.minLength, s.maxLength, AnyText, x, o);
      }
    }
  }

  /** A trimmed-string field with `.optional().default(d)`, `d` already trimmed and within bounds: a missing value is `d`. */
  lemma TrimmedDefault(fields: seq<(string, Schema)>, v: Option<Json>, o: Oracles, i: nat, s: Schema, d: string)
    requires KeyOnce(fields, i) && s.Str? && s.trim && s.format == AnyText
    requires fields[i].1 == Default(Optional(s), JStr(d))
    requires d == [] || (!IsSpace(d[0]) && !IsSpace(d[|d| - 1]))
    requires s.minLength <= Utf16Length(d) && (s.maxLength.None? || Utf16Length(d) <= s.maxLength.value)
    ensures var r := Parse(Obj(fields), v, o);
      r.Valid? && Get(v.value, fields[i].0).None? ==> FieldOf(r, fields[i].0) == Some(JStr(d))
  {
    FieldParsed(fields, v, o, i);
    if Parse(Obj(fields), v, o).Valid? && Get(v.value, fields[i].0).None? {
      TrimmedDefaultValue(s, d, o);
      assert Parse(fields[i].1, Get(v.value, fields[i].0), o) == Valid(Some(JStr(d)));
    }
  }

  /** The default of a trimmed-string field parses to itself. */
  lemma TrimmedDefaultValue(s: Schema, d: string, o: Oracles)
    requires s.Str? && s.trim && s.format == AnyText
    requires d == [] || (!IsSpace(d[0]) && !IsSpace(d[|d| - 1]))
    requires s.minLength <= Utf16Length(d) && (s.maxLength.None? || Utf16Length(d) <= s.maxLength.value)
    ensures Parse(Default(Optional(s), JStr(d)), None, o) == Valid(Some(JStr(d)))
  {
    var x := Some(JStr(d));
    assert Parse(Default(Optional(s), JStr(d)), None, o) == Parse(s, x, o);
    assert Parse(s, x, o) == Valid(x) by {
      TrimIdle(d);
      StrParse(true, s.minLength, s.maxLength, AnyText, x, o);
    }
  }

  /** An enum field with `.default(d)`: a missing value is `d`, a given one is kept. */
  lemma EnumFieldDefault(fields: seq<(string, Schema)>, v: Option<Json>, o: Oracles, i: nat)
    requires KeyOnce(fields, i) && fields[i].1.Default? && fields[i].1.inner.Enum?
    requires fields[i].1.default.JStr? && fields[i].1.default.s in fields[i].1.inner.values
    ensures var r := Parse(Obj(fields), v, o);
      r.Valid? && Get(v.value, fields[i].0).None? ==> FieldOf(r, fields[i].0) == Some(fields[i].1.default)
    ensures var r := Parse(Obj(fields), v, o);
      r.Valid? && Get(v.value, fields[i].0).Some? ==> FieldOf(r, fields[i].0) == Get(v.value, fields[i].0)
  {
    FieldParsed(fields, v, o, i);
  }

  /** An array field with `.optional().default([])`: a missing or empty list is read as `[]`. */
  lemma EmptyListDefault(fields: seq<(string, Schema)>, v: Option<Json>, o: Oracles, i: nat)
    requires KeyOnce(fields, i)
    requires var s := fields[i].1;
      s.Default? && s.inner.Optional? && s.inner.inner.Arr? && s.inner.inner.minItems == 0 && s.default == JArr([])
    requires v.Some? && (Get(v.value, fields[i].0).None? || Get(v.value, fields[i].0) == Some(JArr([])))
    ensures var r := Parse(Obj(fields), v, o);
      r.Valid? ==> ElementsOf(FieldOf(r, fields[i].0)) == []
  {
    FieldParsed(fields, v, o, i);
    var list := fields[i].1.inner.inner;
    assert Parse(fields[i].1, Get(v.value, fields[i].0), o) == Parse(list, Some(JArr([])), o);
    ArrParse(list.element, 0, Some(JArr([])), o);
  }

  /** What an `.optional()` or `.optional().nullable()` field wraps. */
  function Core(s: Schema): (c: Schema)
    ensures s.Optional? ==> c == s.inner
    ensures s.Nullable? && s.inner.Optional? ==> c == s.inner.inner
  {
    if s.Optional? then s.inner else if s.Nullable? && s.inner.Optional? then s.inner.inner else s
  }

  /** A given, non-null value of such a field passed the wrapped schema, which yielded the output. */
  lemma GivenField(fields: seq<(string, Schema)>, v: Option<Json>, o: Oracles, i: nat)
    requires KeyOnce(fields, i) && KeepsMissing(fields[i].1)
    ensures var r := Parse(Obj(fields), v, o);
      r.Valid? ==> v.Some? && (var x := Get(v.value, fields[i].0);
        x.Some? && x.value != JNull ==> (Parse(Core(fields[i].1), x, o).Valid?
          && FieldOf(r, fields[i].0) == Parse(Core(fields[i].1), x, o).value))
  {
    FieldParsed(fields, v, o, i);
    if v.Some? {
      CoreParse(fields[i].1, Get(v.value, fields[i].0), o);
    }
  }

  /** A given, non-null value is parsed by the wrapped schema alone. */
  lemma CoreParse(s: Schema, x: Option<Json>, o: Oracles)
    requires KeepsMissing(s)
    ensures x.Some? && x.value != JNull ==> Parse(s, x, o) == Parse(Core(s), x, o)
  {
  }

  /** `trimmedText.optional()`: a missing value stays missing, a given one is text of the allowed trimmed length. */
  lemma OptionalTextValue(min: nat, max: Option<nat>, x: Option<Json>, o: Oracles)
    ensures var r := Parse(Optional(TrimmedText(min, max)), x, o);
      r.Valid? ==> ((x.None? <==> r.value.None?)
        && (x.Some? ==> (AsString(x).Some? && min <= Utf16Length(Trim(AsString(x).value))
          && (max.None? || Utf16Length(Trim(AsString(x).value)) <= max.value))))
  {
  }

  /** A string or number field that may be missing (and perhaps null): it yields a value exactly when one is given. */
  predicate KeepsPresence(s: Schema) {
    (s.Optional? && (s.inner.Str? || s.inner.Int?))
    || (s.Nullable? && s.inner.Optional? && (s.inner.inner.Str? || s.inner.inner.Int?))
  }

  lemma FieldPresence(fields: seq<(string, Schema)>, v: Option<Json>, o: Oracles, i: nat)
    requires KeyOnce(fields, i) && KeepsPresence(fields[i].1)
    ensures var r := Parse(Obj(fields), v, o);
      r.Valid? ==> (FieldOf(r, fields[i].0).Some? <==> Get(v.value, fields[i].0).Some?)
  {
    FieldParsed(fields, v, o, i);
    if v.Some? {
      PresenceKept(fields[i].1, Get(v.value, fields[i].0), o);
    }
  }

  /** Such a schema, when it accepts, yields a value exactly when one is given. */
  lemma PresenceKept(s: Schema, x: Option<Json>, o: Oracles)
    requires KeepsPresence(s)
    ensures Parse(s, x, o).Valid? ==> (Parse(s, x, o).value.Some? <==> x.Some?)
  {
    if x.Some? && x.value != JNull {
      var core := if s.Optional? then s.inner else s.inner.inner;
      assert Parse(s, x, o) == Parse(core, x, o);
    }
  }

  /** An accepted object holds no key outside its schema. */
  lemma ObjOutputKeys(fields: seq<(string, Schema)>, v: Option<Json>, o: Oracles, k: string)
    ensures var r := Parse(Obj(fields), v, o);
      r.Valid? && k in r.value.value.fields ==> exists i :: 0 <= i < |fields| && fields[i].0 == k
  {
    var r := Parse(Obj(fields), v, o);
    if r.Valid? {
      var keys := seq(|fields|, j requires 0 <= j < |fields| => fields[j].0);
      if k in r.value.value.fields {
        assert k in keys;
        var i :| 0 <= i < |keys| && keys[i] == k;
        assert fields[i].0 == k;
      }
    }
  }

  /** A transformed union accepts what either side accepts. */
  lemma TransformUnionValid(first: Schema, second: Schema, f: Json -> Json, v: Option<Json>, o: Oracles)
    ensures Parse(Transform(Union(first, second), f), v, o).Valid?
      <==> Parse(first, v, o).Valid? || Parse(second, v, o).Valid?
    ensures var r := Parse(Transform(Union(first, second), f), v, o);
      var u := if Parse(first, v, o).Valid? then Parse(first, v, o) else Parse(second, v, o);
      r.Valid? && u.value.Some? ==> r.value == Some(f(u.value.value))
  {
  }

  /** A string schema refuses anything but a string. */
  lemma StrRefusesNonString(s: Schema, v: Option<Json>, o: Oracles)
    requires s.Str? && !(v.Some? && v.value.JStr?)
    ensures !Parse(s, v, o).Valid?
  {
  }

  /** A key no field of the schema names is never in the output. */
  lemma ObjAbsentKey(fields: seq<(string, Schema)>, v: Option<Json>, o: Oracles, k: string)
    requires forall i :: 0 <= i < |fields| ==> fields[i].0 != k
    ensures FieldOf(Parse(Obj(fields), v, o), k).None?
  {
    ObjOutputKeys(fields, v, o, k);
  }

  /**
   * `Object.values(value).some((val) => val !== undefined)` for an object
   * of optional fields: some field is given.
   */
  lemma SomeFieldDefined(fields: seq<(string, Schema)>, v: Option<Json>, o: Oracles)
    requires |fields| > 0
    requires forall i :: 0 <= i < |fields| ==> KeyOnce(fields, i) && KeepsPresence(fields[i].1)
    ensures var r := Parse(Obj(fields), v, o);
      r.Valid? ==> (r.value.Some? && r.value.value.JObj?
        && ((exists k :: k in r.value.value.fields) <==> exists i :: 0 <= i < |fields| && Get(v.value, fields[i].0).Some?))
  {
    var r := Parse(Obj(fields), v, o);
    if r.Valid? {
      forall i | 0 <= i < |fields|
        ensures FieldOf(r, fields[i].0).Some? <==> Get(v.value, fields[i].0).Some?
      {
        FieldPresence(fields, v, o, i);
      }
      FieldParsed(fields, v, o, 0);
      var m := r.value.value.fields;
      if exists k :: k in m {
        var k :| k in m;
        ObjOutputKeys(fields, v, o, k);
        var i :| 0 <= i < |fields| && fields[i].0 == k;
        assert FieldOf(r, fields[i].0).Some?;
      }
      if exists i :: 0 <= i < |fields| && Get(v.value, fields[i].0).Some? {
        var i :| 0 <= i < |fields| && Get(v.value, fields[i].0).Some?;
        assert fields[i].0 in m;
      }
    }
  }

  /** An enum default that is one of the values is accepted for a missing field. */
  lemma EnumDefault(values: seq<string>, d: string, o: Oracles)
    requires d in values
    ensures Parse(Default(Enum(values), JStr(d)), None, o) == Valid(Some(JStr(d)))
  {
  }

  /** A refinement accepts what its inner schema accepts and the predicate holds of. */
  lemma RefineParse(inner: Schema, holds: Json -> bool, v: Option<Json>, o: Oracles)
    ensures var a := Parse(inner, v, o);
      Parse(Refine(inner, holds), v, o).Valid? <==> (a.Valid? && a.value.Some? && holds(a.value.value))
    ensures Parse(Refine(inner, holds), v, o).Valid? ==> Parse(Refine(inner, holds), v, o) == Parse(inner, v, o)
  {
  }
}
